=== FILE: README.md ===
# tubs-face in Dafny

tubs-face is a talking head: a browser face that listens, recognises who is in
front of the camera, and answers through a local speech and chat gateway. This
project models the parts of it that are plain logic and proves what they
promise. It covers:

- **The realtime processing gateway** (`src/realtime-processing-service.py`):
  - the mono 16-bit PCM RIFF/WAVE encoder (module `Wav`);
  - MIME normalisation, chat message building and the rewrite of vendor schema
    `type` tags to the JSON Schema type names of section 6.1.1 of JSON Schema
    Validation 2020-12 (`GatewayChat`);
  - provider selection and request shaping (`GatewayLlm`);
  - the early exits and temporary-file clean-up of `/transcribe` and `/tts`
    (`GatewayAudio`);
  - the NDJSON pseudo-streaming writer and the client's line re-assembler
    (`LlmStream`, `LineReader`, `RealtimeClient`).
- **The Node side of the gateway** (`src/realtime-service.js`): the child
  environment, the multipart body of section 4.1 of RFC 7578 and the bounded
  retry (`RealtimeService`), plus dotenv loading (`ProcessEnv`) and the
  speech-to-text model names (`Config`).
- **The assistant text pipeline** (`src/assistant/*`):
  - output clamping and token estimates (`AssistantText`);
  - donation markers and nudges (`Donation`);
  - dual-head scripts (`DualHead`);
  - emoji emotions (`Emoji`, `Emotion`);
  - history and memory (`Context`);
  - the streaming sentence splitter (`SentenceSplitter`).
- **The wake-word matcher** (`WakeWord`): normalisation, the Levenshtein
  programme, the alias tests and the address decision table.
- **Validators and small parsers**:
  - the donation routes, including Bearer tokens as in section 2.1 of RFC 6750
    (`Routes`);
  - the PayPal order helpers (`PayPalClient`);
  - persona greetings (`Persona`);
  - Langfuse settings (`Langfuse`);
  - the server turn timer (`TurnTimer`);
  - the benchmark's arguments and statistics (`Benchmark`).
- **Front-end logic**:
  - the browser WAV encoder (`Wav`);
  - turn scripts (`TurnScript`), the small head's queue (`MiniHead`) and manual
    beats (`ManualBeats`);
  - subtitles (`Subtitles`) and speech text (`SpeechText`);
  - greetings (`Greetings`);
  - face capture pacing (`FaceDetection`), face results (`FaceResults`) and
    SCRFD anchors and NMS (`FaceWorker`);
  - the browser turn trace (`FrontTurnTiming`);
  - the chat log (`ChatLog`);
  - the glitch configuration helpers (`GlitchUtils`);
  - the SVG shape normaliser (`SvgShapes`).

`Strs`, `Json`, `JsonText`, `JsConv`, `PyConv`, `Sorting` and `Wrappers` model
the pieces of JavaScript and Python these files lean on. They include:

- `trim`, `split` and `indexOf`;
- `parseInt` and `toFixed`;
- Python's `int`, `float` and `str.strip`;
- `json.dumps` string literals;
- a stable sort.

A few conventions hold throughout:

- **Clocks, randomness and foreign calls are parameters.** The clock is a
  `now` argument. A random pick is an index the caller chooses, or a
  `draw` function. `JSON.parse`, `parseFloat`, `String(number)`, subprocess
  outcomes and HTTP replies are values or functions handed in.
- **Numbers.** JavaScript and Python floating-point numbers are `real`s.
  Integers are unbounded, and the fixed-width fields (`struct.pack`,
  `DataView.setUint32`) are written out with their range checks or their
  wrap-around.
- **Error paths.** Each operation keeps the source's error paths: a missing
  or malformed input gives the same `None`, empty value or error outcome the
  code produces.
- **Code as written.** Where the code does something its authors evidently
  did not intend, the operations follow the code as written. The corrected
  definition is proved alongside (see "## Findings").

Each module follows one source file. The table below names, for every member
whose contract states something about the source, the lines it models.

## Model

| member | source | states |
|---|---|---|
| Wav.U16 | src/realtime-processing-service.py:46-47 | a 16-bit field is two bytes that read back as the value packed |
| Wav.U32 | src/realtime-processing-service.py:42 | a 32-bit field is four bytes that read back as the value packed |
| Wav.I16 | public/js/audio-input.js:212 | a signed sample is two bytes of two's complement that read back as the sample |
| Wav.Header | src/realtime-processing-service.py:40-53 | the header for a rate and a data size is always 44 bytes long |
| Wav.ParseHeaderPrefix | src/realtime-processing-service.py:40-53 | only the first 44 bytes decide what the header reader returns |
| Wav.RawHeaderRoundTrip | src/realtime-processing-service.py:40-53 | every header field written is read back as the same value, with the fixed PCM tags |
| Wav.SamplesRoundTrip | src/realtime-processing-service.py:54 | the little-endian sample bytes decode back to the samples |
| Wav.ServerSample | src/realtime-processing-service.py:36 | the sample is in the int16 range; input in [-1, 1] gives the truncation of 32767 times it, and input past either end is clipped to that end |
| Wav.ServerSamples | src/realtime-processing-service.py:36 | there is one sample per input value, each converted the same way |
| Wav.PcmToWavBytes | src/realtime-processing-service.py:35-55 | encoding fails exactly when a size or rate field would not fit in 32 bits; otherwise the file is 44 bytes plus two per sample and its header reads back as mono 16-bit PCM at the given rate and data size |
| Wav.ServerWavFacts | src/realtime-processing-service.py:35-55 | an encoded file splits into the header for its rate and size and sample bytes that decode to the converted samples |
| Wav.HeaderRoundTrip | src/realtime-processing-service.py:40-53 | the header for a rate and a data size reads back with RIFF size 36 plus the data size and byte rate twice the sample rate |
| Wav.WavLayout | src/realtime-processing-service.py:54-55 | a header followed by sample bytes splits back into that header and those samples |
| Wav.ClientSample | public/js/audio-input.js:211-212 | the sample is in the int16 range and input at or beyond either end of [-1, 1] gives the extreme value |
| Wav.ClientSamples | public/js/audio-input.js:210-213 | there is one sample per input value, each converted the same way |
| Wav.AudioBufferToWav | public/js/audio-input.js:191-222 | the file is 44 bytes plus two per sample; its header reads back as 16 kHz mono 16-bit PCM with size fields taken modulo 2^32, and its samples decode to the converted input |
| Wav.ClientHeaderRoundTrip | public/js/audio-input.js:194-207 | the browser's header for `n` samples reads back with the sizes modulo 2^32 and the fixed 16 kHz rates |
| Wav.ClientHeaderMatchesServer | public/js/audio-input.js:191-207 | whenever the size fits, the browser writes exactly the header the gateway writes at 16 kHz |
| Wav.SampleConversionsCompared | public/js/audio-input.js:211-212 | the two conversions agree on non-negative input in [-1, 1]; on negative input the browser's value is at most one step below the gateway's |
| GatewayChat.NormalizeMime | src/realtime-processing-service.py:91-95 | `audio/wav` exactly when the lower-cased type names a WAV type, `audio/webm` for everything else |
| GatewayChat.WaveNamesWav | src/realtime-processing-service.py:93 | the `audio/wave` test never decides anything, because such a type already names `audio/wav` |
| GatewayChat.NormalizeMimeIdempotent | src/realtime-service.js:149-155 | the bridge's `normalizeAudioMimeType`, the same function as the gateway's, gives a type that normalises to itself |
| GatewayChat.TempSuffix | src/realtime-processing-service.py:331 | `.wav` exactly for WAV input, `.webm` otherwise |
| GatewayChat.PyIterOrEmpty | src/realtime-processing-service.py:100 | a falsy value visits nothing; a list visits its items; dict keys and string characters visit as strings; a truthy number or `True` raises |
| GatewayChat.PartChunk | src/realtime-processing-service.py:101-108 | only dict parts contribute: their stripped non-blank text, else the image placeholder |
| GatewayChat.PartsToText | src/realtime-processing-service.py:98-109 | raises exactly when the parts cannot be iterated; otherwise the contributing chunks joined by newlines, empty exactly when none contributes |
| GatewayChat.JoinOfChunks | src/realtime-processing-service.py:109 | chunks that are already stripped join into stripped text, so the final strip changes nothing |
| GatewayChat.MapRole | src/realtime-processing-service.py:120-121 | always a provider role: `model` becomes `assistant`, the three provider roles pass through, anything else (missing or non-string included) is `user` |
| GatewayChat.MapRoleFixesProviderRoles | src/realtime-processing-service.py:120-121 | a provider role maps to itself |
| GatewayChat.TurnOutcome | src/realtime-processing-service.py:117-124 | a non-dict turn or one without text gives nothing; a dict turn whose parts raise raises; otherwise its role-mapped message with its text |
| GatewayChat.TurnMessagesAreSpeakingTurns | src/realtime-processing-service.py:117-124 | the turns raise exactly when some dict turn's parts cannot be iterated; otherwise message k comes from the k-th turn with text |
| GatewayChat.TurnMessagesShape | src/realtime-processing-service.py:117-124 | every turn message has a provider role and non-empty text |
| GatewayChat.BuildMessages | src/realtime-processing-service.py:112-125 | a non-blank string instruction leads as the stripped system message; raising exactly when the contents or some turn's parts cannot be iterated; every message has text |
| GatewayChat.BuildMessagesLayout | src/realtime-processing-service.py:112-125 | after the optional system message, message k is the k-th speaking turn's |
| GatewayChat.TypeTag | src/realtime-processing-service.py:147-148 | with ASCII case mapping, a rewritten tag has the length of the original |
| GatewayChat.TypeTagIsLower | src/realtime-processing-service.py:132-148 | with ASCII case mapping every rewritten tag is the tag lower-cased, mapped or not |
| GatewayChat.Walk | src/realtime-processing-service.py:142-154 | objects stay objects with the same keys in order, each string `type` rewritten and every other value walked; lists are walked element by element; scalars are unchanged |
| GatewayChat.NormalizeSchema | src/realtime-processing-service.py:128-159 | a result exactly for a dict; the same keys in order, each string `type` rewritten and every other value walked |
| GatewayChat.WalkTypesLower | src/realtime-processing-service.py:142-154 | a walked schema carries only lower-case type tags |
| GatewayChat.WalkFixesLower | src/realtime-processing-service.py:142-154 | a schema whose tags are already lower-case is left as it is |
| GatewayChat.NormalizeSchemaIdempotent | src/realtime-processing-service.py:128-159 | normalising a normalised schema changes nothing |
| GatewayChat.VendorTagsMapped | src/realtime-processing-service.py:132-148 | each vendor tag, in any letter case, becomes its JSON Schema type name |
| GatewayLlm.Temperature | src/realtime-processing-service.py:273 | 0.7 when absent or null; otherwise the value read as a float (numbers, booleans and plain decimal text), failing exactly when that reading fails |
| GatewayLlm.OllamaFormat | src/realtime-processing-service.py:213-216 | a non-empty dict schema wins; otherwise `json` exactly for the JSON MIME type; otherwise no format |
| GatewayLlm.PlanGenerate | src/realtime-processing-service.py:269-302 | a bad temperature is reported first, then a missing instruction; a planned call starts with the stripped instruction as system message, has the read temperature and the model or `llama3.1:8b`, goes to OpenAI exactly when that provider resolves, and only with a key |
| GatewayLlm.FallbackUnreachable | src/realtime-processing-service.py:284-286 | the `Say hello` fallback list is never used: built messages always start with the usable instruction |
| GatewayLlm.SchemaFormatIsNormalized | src/realtime-processing-service.py:213-214 | a schema sent to Ollama carries only lower-case JSON Schema type names |
| GatewayLlm.OllamaDetail | src/realtime-processing-service.py:219-227 | the first 400 characters of the body; for a 404 mentioning `not found`, followed by at most eight installed model names or a note that there are none |
| GatewayLlm.ListedModelsBounded | src/realtime-processing-service.py:224 | the names listed are at most eight, the first ones `/api/tags` gave |
| GatewayLlm.ReplyResult | src/realtime-processing-service.py:219-266 | a non-2xx status raises with the provider's name, the status and the detail; an unreadable 2xx reply fails; a result has the stripped content, the reported counts, and the reported model or else the requested one |
| GatewayLlm.LlmGenerate | src/realtime-processing-service.py:269-309 | a planning failure is the result and no provider is contacted; a result names the resolved provider |
| GatewayLlm.StreamRoute | src/realtime-processing-service.py:467-495 | a stream exactly when the generation succeeds, an error answer otherwise |
| GatewayLlm.StreamRouteRoundTrip | src/realtime-processing-service.py:467-495 | however the network splits a successful stream, the Node reader ends with exactly the generated text, delta by delta, and the reply's usage |
| GatewayAudio.DropExtension | src/realtime-processing-service.py:349 | everything before the last dot, a prefix of the path |
| GatewayAudio.DropSuffix | src/realtime-processing-service.py:349 | a temporary path made of any stem and a dot-free suffix loses exactly its suffix, dots in the directory part notwithstanding |
| GatewayAudio.Transcribe | src/realtime-processing-service.py:324-400 | no upload gives 400; an upload below the minimum size gives the empty transcript without the engine; a failed or timed-out ffmpeg conversion gives the empty transcript; an exception while converting gives 500 with its text; the saved upload is always removed and no file is added |
| GatewayAudio.TempNames | src/realtime-processing-service.py:331-349 | for any stem, the saved upload ends in `.wav` exactly for WAV input, and a WebM upload converts to `<stem>.stt.wav` |
| GatewayAudio.TranscribeSaved | src/realtime-processing-service.py:337-397 | a short upload is the empty transcript; at most the converted file is added, and it is removed again on the mlx path; a non-empty transcript means the engine ran |
| GatewayAudio.WhisperLanguage | src/realtime-processing-service.py:393 | the language Whisper reports, when it reports one |
| GatewayAudio.WhisperProbability | src/realtime-processing-service.py:394 | never zero: a missing or zero probability reads as 1.0, any other is kept |
| GatewayAudio.TranscribeCleansUp | src/realtime-processing-service.py:332-400 | with fresh temporary names a transcription leaves the file system as it found it, whichever way it ends |
| GatewayAudio.TtsKokoro | src/realtime-processing-service.py:404-432 | blank text gives 400; no generated audio gives 500; audio is the WAV encoding of all generated samples at 24 kHz |
| GatewayAudio.TtsKokoroAudio | src/realtime-processing-service.py:424-430 | a Kokoro reply is a 24 kHz mono 16-bit WAV whose header describes exactly the generated samples and whose data decodes back to them |
| GatewayAudio.TtsSystem | src/realtime-processing-service.py:434-454 | blank text gives 400; audio exactly when `say` and `afconvert` both succeed and the WAV exists, and then it is that file's bytes; both temporaries are removed on every path |
| GatewayAudio.ProcError | src/realtime-processing-service.py:446-449 | a failed run gives 500; a non-zero exit reads `TTS process failed: …`, any other exception carries its own text |
| LlmStream.EncodeRecord | src/realtime-processing-service.py:486-491 | a record line written by the gateway is a single braced line with no newline inside |
| LlmStream.DecodeEncode | src/llm/providers/realtime.js:163-179 | every delta or done record the gateway writes is read back by the client as that same record |
| LlmStream.StreamChunkSize | src/realtime-processing-service.py:476-480 | the chunk size always lies in [24, 320]; 96 when the request gives nothing usable; a given integer inside the range is used as is (and clamped otherwise) |
| LlmStream.Deltas | src/realtime-processing-service.py:483-486 | the deltas concatenate to the text; each is non-empty and at most the chunk size, and all but the last are exactly the chunk size |
| LlmStream.ReadStreamChunkingInvariant | src/llm/providers/realtime.js:155-200 | the client's result depends only on the body, not on how the network cut it |
| LlmStream.HandleRecord | src/llm/providers/realtime.js:162-179 | a record line, trimmed and parsed, is absorbed as that record |
| LlmStream.FeedDeltaLines | src/llm/providers/realtime.js:171-177 | reading the lines of non-empty deltas appends exactly those deltas to the text and to what `onChunk` received |
| LlmStream.StreamRoundTrip | src/realtime-processing-service.py:482-493 | whatever the chunk size and however the body is split, the client rebuilds the gateway's text, hands `onChunk` exactly the gateway's deltas in order, and ends with the gateway's usage and model |
| LlmStream.FeedBody | src/realtime-processing-service.py:482-491 | the whole body, read character by character, leaves an empty buffer with every delta absorbed and then the done record |
| LlmStream.FeedDone | src/llm/providers/realtime.js:178-179 | the final done line is absorbed and leaves an empty buffer |
| LlmStream.DecodeRecord | src/llm/providers/realtime.js:165-169 | a delta record is read only from a line opening as one, a done record only from a line opening as one, and any other line does not parse |
| RealtimeClient.AuthStateOf | src/llm/providers/realtime.js:9-36 | ready unless the provider is "openai" without a key; a warning exactly when not ready, with the fixed text; the key is handed over exactly when the openai provider is ready |
| RealtimeClient.ChosenModel | src/llm/providers/realtime.js:39-44 | a non-empty requested model that is not a `gemini` name is used (trimmed); otherwise the configured `REALTIME_LLM_MODEL` |
| RealtimeClient.BuildPayload | src/llm/providers/realtime.js:38-69 | fails with the model-not-configured error exactly when no model is chosen, and with the missing-prompt error exactly when a model is chosen but the instruction is blank; a payload has a model and the trimmed, non-empty instruction |
| RealtimeClient.BuildPayloadIdempotent | src/llm/providers/realtime.js:38-69 | rebuilding from a built payload's model and instruction gives the same payload |
| RealtimeClient.ErrorDetail | src/llm/providers/realtime.js:81 | a truthy `error` field wins; a raw-text detail is a non-empty prefix of at most 300 characters; the status text is used exactly when the body is empty and neither field is truthy |
| RealtimeClient.ParseJsonResponse | src/llm/providers/realtime.js:71-94 | a non-2xx reply fails with its status and detail; a 2xx reply succeeds exactly when it parsed to an object or array, with that value, and fails as a bad response otherwise |
| RealtimeClient.StreamContent | src/llm/providers/realtime.js:112-215 | payload errors are reported first; an abort before the response resolves with empty text, aborted; an aborted result comes only from an abort; a complete read gives the text of the whole body |
| RealtimeClient.HandleLineExtends | src/llm/providers/realtime.js:162-180 | handling a line only ever appends to the text and to the deltas handed to `onChunk` |
| RealtimeClient.AbortedReadIsPrefix | src/llm/providers/realtime.js:201-207 | an abort mid-read keeps a prefix of the text and of the deltas the whole read would give |
| RealtimeClient.StreamContentRoundTrip | src/llm/providers/realtime.js:154-200 | a whole `/llm/stream` body made by the gateway from `text` resolves, not aborted, with exactly `text`, one delta per chunk and the gateway's usage |
| LineReader.ConsumeChunk | src/llm/providers/realtime.js:158-160 | after a chunk the kept buffer holds no newline |
| LineReader.ConsumeAllIsFeed | src/llm/providers/realtime.js:155-181 | reading chunk by chunk is reading the concatenated characters one by one |
| LineReader.ChunkingInvariant | src/llm/providers/realtime.js:155-181 | the result depends only on the characters received, not on where the network cut them into chunks |
| LineReader.FeedLine | src/llm/providers/realtime.js:159-162 | a complete line at the front of the stream is handed to the line handler whole |
| LineReader.FeedNoNewline | src/llm/providers/realtime.js:158-160 | text without a newline only grows the buffer |
| RealtimeService.ServicePort | src/realtime-service.js:6 | never zero: the parsed setting when it is a non-zero integer, 3002 otherwise |
| RealtimeService.BuildChildEnv | src/realtime-service.js:11-40 | succeeds exactly when the requested model is a known one; the model, backends and voice are taken from the argument or runtime configuration first, then the variables, then the defaults; the child's environment is the bridge's with the port, model, backends and voice written over it, shared and `REALTIME_` variables alike |
| RealtimeService.Overlay | src/realtime-service.js:28-39 | the bridge's variables are kept except the eight the child needs, which are written, the shared ones with the same values as the `REALTIME_` ones |
| RealtimeService.ReadGatewaySettings | src/realtime-processing-service.py:20-24 | the gateway reads the `REALTIME_` variable when it is set, stripping and lower-casing the backends |
| RealtimeService.ChildReadsResolvedSettings | src/realtime-service.js:11-40 | the child reads the port, model and voice the bridge resolved, and the backends too unless their ends hold a character Python strips but JavaScript's `trim` keeps |
| RealtimeService.RestartKeepsModel | src/realtime-service.js:135-146 | a restart with the model the service already runs resolves the same model |
| RealtimeService.Extension | src/realtime-service.js:161 | the file name's extension is `wav` or `webm` |
| RealtimeService.ReadLine | src/realtime-service.js:197-201 | a line read before its CRLF holds no CR and leaves a shorter rest |
| RealtimeService.ContentType | src/realtime-service.js:199 | a content type read back comes from one of the part's header lines |
| RealtimeService.MultipartRoundTrip | src/realtime-service.js:157-202 | the gateway's multipart reading gets back exactly the audio the bridge sent, with the normalised type and the matching file extension, provided the audio does not contain the closing delimiter |
| RealtimeService.ClosingDelimiterFirst | src/realtime-service.js:200-201 | the closing delimiter is found right after the audio, neither inside it nor straddling its end |
| RealtimeService.ReplyResult | src/realtime-service.js:175-185 | a reply resolves exactly when its status is 200 and its body is JSON |
| RealtimeService.TryRequest | src/realtime-service.js:163-195 | a refused connection is retried while retries remain; every attempt before the last was refused; the last one decides: refused with no retries left, another request error, or the reply |
| RealtimeService.TranscribeAudio | src/realtime-service.js:157-207 | at most eleven attempts, all but the last refused |
| RealtimeService.AlwaysRefusedGivesUp | src/realtime-service.js:188-195 | a service that never comes up is given up on after eleven refused attempts |
| RealtimeService.AnswerAfterRefusals | src/realtime-service.js:188-195 | a service that answers after at most ten refusals is heard, and its reply decides the result |
| ProcessEnv.Or | src/config.js:1 | an undefined or empty variable gives the fallback (as for the default speech model), any other value itself |
| ProcessEnv.FirstSet | src/config.js:1-36 | the first non-empty candidate, else the fallback; empty exactly when every candidate and the fallback are |
| ProcessEnv.KeyLength | src/env.js:8 | the longest prefix made of key characters: everything before it is one, the character after it is not |
| ProcessEnv.Unquote | src/env.js:14-19 | a value wrapped in matching quotes loses them; the result is no longer and stays on one line |
| ProcessEnv.ParseEnvLine | src/env.js:4-22 | blank and comment lines give nothing; an assignment has a key of `[A-Za-z_][A-Za-z0-9_]*` that starts the trimmed line and a value on one line |
| ProcessEnv.ParseLines | src/env.js:30-31 | one parse result per line, in order |
| ProcessEnv.Step | src/env.js:31-35 | an assignment is kept only for a variable not defined yet; defined variables keep their values and nothing else is added |
| ProcessEnv.Apply | src/env.js:30-36 | variables already in the environment keep their values |
| ProcessEnv.LoadEnvFile | src/env.js:24-37 | nothing changes when the file is missing; variables already defined keep their values |
| ProcessEnv.ApplyAddsFirst | src/env.js:30-36 | every variable the file adds comes from the first line that assigns it |
| ProcessEnv.LoadEnvFileFirstWins | src/env.js:24-37 | a variable the file adds has the value of the first line that assigns it; later lines do not override it |
| ProcessEnv.LoadEnvFileIdempotent | src/env.js:24-37 | loading the same file twice changes nothing the first load did not |
| ProcessEnv.QuotedLineRoundTrip | src/env.js:4-22 | a variable written as `KEY="value"` reads back as the value, whatever spaces, quotes, `=` or `#` it holds, as long as it stays on one line |
| ProcessEnv.FileLines | src/env.js:28 | one line per newline-separated piece; a carriage return is dropped only before a newline, so the last line keeps a final one |
| Config.NormalizeSttModel | src/config.js:20-33 | accepted exactly when the trimmed, lower-cased name is non-empty and made of `[a-z0-9._-]`, and then returned in that form; an empty name is the "must be non-empty" error |
| Config.NormalizeSttModelIdempotent | src/config.js:20-33 | an accepted name is accepted unchanged a second time |
| Config.UpperCaseModelAccepted | src/config.js:21 | upper-case letters are folded rather than rejected |
| Config.DefaultSttModel | src/config.js:1 | `WHISPER_MODEL` when set and non-empty, else "small"; never empty |
| Config.InitialRuntimeConfig | src/config.js:13-18 | at start-up only the speech model is set, and it is non-empty |
| AssistantText.EstimateTokens | src/assistant/text.js:9-11 | at least one token; for non-empty text the count n satisfies 4(n-1) < length <= 4n, i.e. the ceiling of length/4 |
| AssistantText.NormalizeInputFacts | src/assistant/text.js:13-15 | the normalised input has single spaces only between words, keeps every non-space character in order, is empty exactly for blank input and is a fixed point |
| AssistantText.ExtractJsonBlock | src/assistant/text.js:32-44 | blank text gives ""; text already braced is returned trimmed; otherwise the trimmed group of the first fence pair when there is one, else the slice from the first `{` to the last `}`; without a fence any non-empty result is a braced block, and text without `{` gives "" |
| AssistantText.ExtractJsonBlockFixed | src/assistant/text.js:32-44 | extracting again from an extracted braced block returns it unchanged |
| AssistantText.FencedObjectRoundTrip | src/assistant/text.js:36-37 | an object written inside a ```json fence (with no fence inside it) is read back exactly |
| AssistantText.NoFenceNoMatch | src/assistant/text.js:36 | the fence regex can match only where a fence occurs |
| AssistantText.SentenceChunks | src/assistant/text.js:85 | each chunk of `/[^.!?]+[.!?]?/g` holds at most one sentence end; there are no chunks exactly when the text is all sentence ends |
| AssistantText.LimitSentenceCount | src/assistant/text.js:83-91 | empty text gives ""; otherwise the first `maxSentences` of the trimmed non-blank chunks, joined by single spaces (the whole text standing for its chunks when it is all sentence ends); a cap of zero gives ""; at most `maxSentences` sentence ends are kept and the result is trimmed |
| AssistantText.LimitSentenceCountNotBlank | src/assistant/text.js:83-91 | text that does not end in whitespace keeps something under any positive cap |
| AssistantText.StopCountTrim | src/assistant/text.js:87 | trimming chunks never removes a sentence end |
| AssistantText.StopCountJoin | src/assistant/text.js:90 | joining n chunks of at most one sentence end each gives at most n sentence ends |
| AssistantText.LastStop | src/assistant/text.js:99 | the index found is a sentence end with no sentence end after it, or -1 |
| AssistantText.CutWithEllipsis | src/assistant/text.js:101 | the cut is a prefix of at most `limit` characters followed by "..." |
| AssistantText.ClampCapped | src/assistant/text.js:96-101 | a capped text within 280 characters is kept; a longer one becomes a prefix ending at a sentence end past index 70, or a prefix of at most 280 characters plus "..." |
| AssistantText.ClampOutput | src/assistant/text.js:93-102 | the reply rescued from JSON and then capped: at most 283 characters, empty exactly for a blank reply, and a reply with no double quote is capped as its trimmed text |
| AssistantText.CappedNotBlank | src/assistant/text.js:95-96 | capping non-blank normalised text at two sentences never empties it |
| AssistantText.ClampOutputSentences | src/assistant/text.js:93-102 | a clamped reply cut from the capped text carries at most two sentence ends |
| AssistantText.CompactForHistory | src/assistant/text.js:104-108 | at most 803 characters; normalised text within 800 is kept; longer text is an 800-character prefix (trimmed) plus "..."; empty exactly for blank input |
| AssistantText.SanitizeTtlMs | src/assistant/text.js:115-119 | a finite integer parse of at least 15000 is taken; anything else gives the fallback |
| AssistantText.SanitizeTtlOfDecimal | src/assistant/text.js:115-119 | a TTL written in decimal is kept when it is at least 15000 ms and replaced by the fallback otherwise |
| AssistantText.BraceSlice | src/assistant/text.js:38-43 | the slice from the first `{` to the last `}` inclusive when the first comes before the last, else ""; text lacking a `{` or a `}` gives ""; text that already is a braced block is returned whole |
| AssistantText.ClampRescued | src/assistant/text.js:94-102 | for the rescued text: at most 283 characters; "" exactly for blank text; short capped text is returned unchanged; otherwise a prefix of the capped text or text ending with "..." |
| AssistantText.TryGroupStarts | src/assistant/text.js:36 | no group exactly when no fence follows any start in range; otherwise the text between the first start followed by a fence and that next fence |
| AssistantText.SentenceChunksSpell | src/assistant/text.js:85 | the chunks put back together spell the text less its stray sentence ends (those right after another one); every chunk but the last ends in a sentence end |
| AssistantText.ChunkThenRest | src/assistant/text.js:85 | a run without sentence ends followed by one end is the first chunk, and the rest of the text is chunked on its own |
| AssistantText.TrimmedChunks | src/assistant/text.js:86-88 | each chunk kept is non-empty and trimmed, and no more chunks are kept than given |
| AssistantText.TrimmedChunksAppend | src/assistant/text.js:86-88 | trimming and dropping blank chunks works piece by piece over concatenation |
| AssistantText.SpokenTexts | src/assistant/text.js:58-62 | at most one text per beat, each non-empty and trimmed |
| AssistantText.SpokenTextsAppend | src/assistant/text.js:58-62 | the texts of two runs of beats are the texts of each run, in order |
| AssistantText.SpokenTextsOne | src/assistant/text.js:59-62 | one beat adds its trimmed text exactly when its `text` is truthy, its `action` is `speak` or missing, and the trimmed text is not blank |
| AssistantText.JsonBlockTexts | src/assistant/text.js:55-63 | no JSON block gives no texts; a block that parses to an object with a `beats` array gives the spoken texts of those beats |
| AssistantText.RescuedCaptures | src/assistant/text.js:71-75 | at most one text per capture, each trimmed and longer than two characters |
| AssistantText.RescuedCapturesAppend | src/assistant/text.js:71-75 | the texts of two runs of captures are the texts of each run, in order |
| AssistantText.RescuedCapturesOne | src/assistant/text.js:72-74 | a capture, with escaped quotes read as quotes and escaped `n` as a space and then trimmed, is kept exactly when it is longer than two characters |
| AssistantText.RescueTextFromJson | src/assistant/text.js:50-81 | the result is trimmed and empty exactly for a blank reply; a reply mentioning neither `"text"` nor `"beats"` comes back trimmed; otherwise the spoken beat texts of its JSON block joined by spaces, else the joined text captures, else the trimmed reply |
| AssistantText.PlainReplyKept | src/assistant/text.js:51-53 | a reply without a double quote comes back trimmed, whatever the parser and the pattern would find |
| Donation.Brackets | src/assistant/constants.js:14 | the `[{1,2}` / `]{1,2}` quantifier takes up to two copies, greedily: it stops only at the end or at a different character |
| Donation.MarkerAt | src/assistant/constants.js:14 | a match at the front is either absent or at least eight characters long, opening with `[` and closing with `]` |
| Donation.StripDonationMarkers | src/assistant/donation.js:20-22 | the text never grows, keeps its length exactly when it holds no marker, and is returned unchanged then |
| Donation.StripLeadingMarker | src/assistant/donation.js:20-22 | a marker at the front becomes a single space and stripping continues after it |
| Donation.StripPlainPrefix | src/assistant/donation.js:20-22 | text in which no marker starts is copied through ahead of the stripped remainder |
| Donation.StripStep | src/assistant/donation.js:20-22 | a character that starts no marker is copied and stripping continues at the next one |
| Donation.CanonicalMarkerMatched | src/assistant/constants.js:13-14 | the pattern matches all of `[[SHOW_QR]]`, whatever follows it |
| Donation.CanonicalMarkerDetected | src/assistant/donation.js:29 | text that contains `[[SHOW_QR]]` anywhere is already caught by the pattern test, so the `includes` test adds no case |
| Donation.Utf8 | src/assistant/donation.js:16 | one to four bytes per character, each below 256, and exactly one byte, the code itself, for ASCII |
| Donation.EncodeUriComponent | src/assistant/donation.js:16 | only characters `encodeURIComponent` can emit, and unreserved text passes unchanged |
| Donation.EncodeUriAsciiRoundTrip | src/assistant/donation.js:16 | percent-decoding the encoding of ASCII text gives the text back |
| Donation.DonationConfigOf | src/assistant/constants.js:17-18 | the handle is never empty; an unset or empty `DONATION_VENMO` gives `TubsBot`, an unset or empty `DONATION_QR_DATA` gives the Venmo link of the handle |
| Donation.BuildDonationPayload | src/assistant/donation.js:10-18 | `show` is the truthiness of its argument, the reason is passed through, handle and QR data come from the configuration, and the image link is the QR service followed only by URI-safe characters |
| Donation.ExtractDonationSignal | src/assistant/donation.js:24-46 | reason `marker` exactly when a marker occurs, `keyword` exactly when none does and the collapsed text has a keyword, `show` exactly when a reason was found; the text is markers stripped (when any) and whitespace collapsed |
| Donation.SignalPayload | src/assistant/donation.js:44 | the payload shows exactly when the signal does, under the signal's reason name |
| Donation.ExtractCleanText | src/assistant/donation.js:24-46 | text already collapsed and without markers comes back unchanged, so extraction is idempotent on its own output |
| Donation.MaybeInjectDonationNudge | src/assistant/donation.js:48-59 | the QR is forced exactly when none is showing and the reply count is a non-zero multiple of six; then the text gains ` Venmo @<handle>.` at the end, otherwise it is unchanged |
| Donation.OneNudgeInSix | src/assistant/donation.js:50 | every six consecutive positive reply counts include one nudge |
| DualHead.ClampDelay | src/assistant/dual-head.js:111 | the delay lies in [120, 2500], is unchanged inside it, and is pinned to the nearer bound outside |
| DualHead.SafeDelay | src/assistant/dual-head.js:110-111 | a delay exists exactly when `parseInt` reads a finite number, and then lies in [120, 2500] |
| DualHead.SafeDelayOfDecimal | src/assistant/dual-head.js:110-111 | a decimal delay comes back clamped, and unchanged when already inside [120, 2500] |
| DualHead.BeatText | src/assistant/dual-head.js:102-106 | the spoken text is at most the output limit plus an ellipsis, empty exactly when nothing but whitespace is left after the markers are stripped, and never starts with whitespace |
| DualHead.BeatEmotion | src/assistant/dual-head.js:107-108 | a supported cue in the `emoji` field wins; otherwise the cue split off the text; any cue is a mapped emoji with its mapped emotion |
| DualHead.NormalizeFields | src/assistant/dual-head.js:95-134 | a beat survives exactly when it has text, or is a reaction with a cue; a surviving beat is well formed, and its actor and action are `small`/`react` exactly when the field says so after trimming and lower-casing |
| DualHead.FallbackMoves | src/assistant/emotion.js:34-44 | a default cue always differs from the head's previous default, so each default pick changes the record |
| DualHead.NormalizeScriptBeat | src/assistant/dual-head.js:92-93 | anything that is not an object gives no beat and leaves the record alone; an object is read field by field |
| DualHead.NormalizeBeats | src/assistant/dual-head.js:165-169 | the loop taken beat by beat: the kept beats are well formed and no more than the raw ones; their actor, action, text, delay and marker are exactly those of the raw beats that survive, in order; some beat is spoken exactly when some raw beat is kept as speech, and none is kept exactly when no raw beat survives |
| DualHead.BeatKept | src/assistant/dual-head.js:113-125 | whether a beat is kept, and kept as speech, does not depend on the random default pick |
| DualHead.CoverageOfWellFormed | src/assistant/dual-head.js:148-151 | over normalised beats the coverage test is exactly "some beat is spoken" |
| DualHead.ReorderKeeps | src/assistant/dual-head.js:136-146 | regrouping keeps the count, well-formedness and the presence of speech |
| DualHead.RawBeats | src/assistant/dual-head.js:164-166 | at most the first seven entries of `beats`, none when it is not an array |
| DualHead.ParseDualHeadScript | src/assistant/dual-head.js:153-174 | no script without a JSON block or when it does not parse; otherwise a script exactly when some kept beat among the first seven is spoken, whose beats are the normalised raw beats regrouped by the head-order policy and whose record is the one normalising left |
| DualHead.OfActor | src/assistant/dual-head.js:140 | one head's beats, in order |
| DualHead.ReorderDualHeadBeats | src/assistant/dual-head.js:136-146 | a permutation that keeps each head's beats in their order; `main_first`/`small_first` put that head's beats first, any other policy keeps the input |
| DualHead.Partition | src/assistant/dual-head.js:139-144 | one head's beats first, then the other's, a permutation keeping each head's order |
| DualHead.PartitionUnique | src/assistant/dual-head.js:139-144 | the stable sort's result is the only arrangement that groups one head first and keeps each head's order |
| DualHead.LastWhere | src/assistant/dual-head.js:264-279 | the last beat satisfying the test, or -1 when none does |
| DualHead.LastAsking | src/assistant/dual-head.js:273-277 | the last spoken beat whose text asks for a donation, or -1 when none does |
| DualHead.MergeDonationSignalFromBeats | src/assistant/dual-head.js:259-285 | beat for beat, spoken beats are cleaned and other beats pass through; the QR shows exactly when some beat had a marker or some spoken beat asks; the reason is that of the last asking beat, else `marker` |
| DualHead.MergedShowIffReason | src/assistant/dual-head.js:259-285 | the QR shows exactly when the reason is not `none`, exactly when some beat had a marker or asks |
| DualHead.MergedPayload | src/assistant/dual-head.js:283 | the payload shows exactly when the merged signal does, under its reason |
| DualHead.DecodeJsonStringChained | src/assistant/dual-head.js:182-188 | the five replaces in a row, then a trim: text without backslashes is only trimmed |
| DualHead.DecodeJsonString | src/assistant/dual-head.js:182-188 | one left-to-right reading of the escapes, then a trim: text without backslashes is only trimmed |
| DualHead.UnescapeRoundTrip | src/assistant/dual-head.js:182-188 | reading escapes undoes writing backslashes and quotes as a JSON string does |
| DualHead.ChainedDecodeReadsTwice | src/assistant/dual-head.js:182-188 | the JSON text of `a\nb` (a backslash, then `n`) decodes as written to `a b`, and to `a\nb` under the one-pass reading |
| DualHead.RescueBeat | src/assistant/dual-head.js:193-221 | a rescued beat has a decoded text of at least two characters, is well formed, and belongs to the small head exactly when the captured actor is `small`; a dropped beat leaves the record alone |
| DualHead.RescueLine | src/assistant/dual-head.js:227-237 | a rescued line is spoken, well formed and has no delay; a dropped line leaves the record alone |
| DualHead.RescueBeatsFromRawText | src/assistant/dual-head.js:180-243 | a rescued script has no raw object and at least one well-formed beat; the actor matches win whenever they give a beat, the lines are used only otherwise |
| DualHead.NormalizeBeatsCons | src/assistant/dual-head.js:165-169 | normalising a list is normalising its first beat, then the rest with the record that beat left and the next random picks |
| Emoji.ClusterAt | src/assistant/emotion.js:27 | a cluster starts exactly at a pictograph, and never runs past the text |
| Emoji.Clusters | src/assistant/emotion.js:27 | every match starts with a pictograph, and there is none exactly when the text has no pictograph |
| Emoji.ReplaceClusters | src/assistant/text.js:129-131 | no pictograph is left, and text without one is unchanged |
| Emoji.RemoveClusters | src/assistant/text.js:129-131 | no pictograph is left, only characters of the input remain, and text without one is unchanged |
| Emoji.StripEmojiClusters | src/assistant/text.js:129-131 | no pictograph is left and whitespace is collapsed; text without pictographs is only collapsed |
| Emoji.NormalizeKeepsChars | src/assistant/text.js:129-131 | collapsing whitespace introduces no pictograph |
| Emoji.IsPictographic | src/assistant/text.js:130 | no ASCII character, variation selector, joiner, regional indicator or skin-tone modifier is a pictograph; the emoticons and the dingbat and miscellaneous symbol blocks are |
| Emotion.CuesAreClusters | src/assistant/constants.js:21-72 | each of the eight cues is one pictographic character |
| Emotion.BuildEmotionFromEmoji | src/assistant/emotion.js:15-24 | nothing exactly for strings that are not cues; for a cue, its mapped label, expression and impulse |
| Emotion.FirstMapped | src/assistant/emotion.js:28-31 | the first cluster that is a cue, and none exactly when no cluster is one |
| Emotion.PickSupportedEmotionEmoji | src/assistant/emotion.js:26-32 | any pick is a cue, and text without pictographs gives none |
| Emotion.Profile | src/assistant/constants.js:76-79 | each head has three distinct cues, all of them mapped |
| Emotion.Pool | src/assistant/emotion.js:39-40 | a sub-list of the profile, the whole profile when the last pick is not in it, and free of the last pick whenever the profile has another cue |
| Emotion.DefaultDualHeadSpeakEmotion | src/assistant/emotion.js:34-44 | the cue is from the head's profile (any actor but `small` is the main head), differs from that head's previous fallback, carries the mapped emotion, and becomes that head's new previous fallback, the other head's untouched |
| Emotion.NoRepeatedFallback | src/assistant/emotion.js:34-44 | two fallback picks in a row for one head never give the same cue |
| Emotion.MakeResult | src/assistant/emotion.js:52-61 | the text is kept; a cue survives exactly when it is one of the eight, with its mapped emotion; otherwise neither cue nor emotion |
| Emotion.TrailingPunctStart | src/assistant/constants.js:102 | a match starts at a sentence end followed only by more of them and whitespace |
| Emotion.FindTrailingCluster | src/assistant/constants.js:103 | the leftmost start of a trailing-cluster match at or after the given position, none exactly when no position matches |
| Emotion.PeelTrailing | src/assistant/emotion.js:76-81 | the loop never grows the core; each peeled piece is a cluster; nothing is peeled exactly when no trailing cluster matches, and then the core is unchanged |
| Emotion.SplitTrailingEmotionEmoji | src/assistant/emotion.js:46-94 | blank text gives nothing; a cue comes with its mapped emotion and only then; the text never has leading or trailing whitespace |
| Emotion.LeadingClusterWins | src/assistant/emotion.js:63-68 | a leading cluster decides: the text is what follows it, and the cue is that cluster exactly when it is one of the eight |
| Emotion.SplitLegacy | src/assistant/emotion.js:70-93 | without a leading cue: a cue comes with its mapped emotion and only then; the text never has leading or trailing whitespace |
| Emotion.LeadingCueRoundTrip | src/assistant/emotion.js:63-68 | a reply written as `<cue> <text>` splits back into that text and that cue |
| Emotion.PeelTrailingRoundTrip | src/assistant/emotion.js:76-81 | peeling loses only whitespace: the core left over is a prefix of the core, and the rest of the core is the peeled clusters in text order with whitespace between them |
| Emotion.SplitLegacyRoundTrip | src/assistant/emotion.js:70-93 | the pieces rebuild the text up to whitespace (text before the cues, the cues in order, the final punctuation); with trailing cues the reply is the first and last pieces and the cue is the last one peeled if it is one of the eight; without them the reply is the text with every emoji stripped |
| Context.TtlFromEnv | src/assistant/constants.js:3-6 | the TTL in use is either the fallback or an integer between the 15000 ms minimum and 10^21 (where JavaScript starts printing exponent form) |
| Context.TtlOfDecimalVar | src/assistant/constants.js:3-6 | a variable holding a decimal TTL of at least 15000 ms is used as it is, a smaller one gives the fallback |
| Context.TtlOfUnsetVar | src/assistant/constants.js:3-6 | an unset or empty variable gives the fallback |
| Context.KeyIndex | src/assistant/context.js:30 | the position holding the key, -1 exactly when no fact has it |
| Context.SetFact | src/assistant/context.js:30 | `Map.set`: an existing key is overwritten in place, a new key is appended last |
| Context.SetFactFacts | src/assistant/context.js:30 | keys stay unique; the new fact is stored under its key; every other fact stays where it was; the size grows only for a new key |
| Context.OldestIndex | src/assistant/context.js:33-40 | the picked fact has the smallest `updatedAt`, and every fact before it is strictly newer (the first minimum in insertion order) |
| Context.Evict | src/assistant/context.js:32-43 | with non-empty keys exactly min(size, 8) facts remain; a map within 8 is untouched; only stored facts remain and keys stay unique |
| Context.RememberFact | src/assistant/context.js:28-44 | an empty key or value leaves the memory alone; otherwise at most 8 facts, unique keys, and every fact is an old one or the new one |
| Context.RememberFactEvictsOldest | src/assistant/context.js:28-44 | with 8 facts and a new key exactly one fact goes: the first with the smallest `updatedAt`, the new one included |
| Context.RememberFactKeepsNew | src/assistant/context.js:28-44 | when the clock has not gone backwards the remembered fact survives its own eviction pass |
| Context.PruneMemoryFacts | src/assistant/context.js:46-53 | exactly the facts not older than the TTL remain, each one stored before, without duplicates added |
| Context.PruneMemoryIdempotent | src/assistant/context.js:46-53 | pruning twice at the same time is pruning once |
| Context.SortNewestFirst | src/assistant/context.js:100 | newest first, and a permutation of the facts |
| Context.ShownFacts | src/assistant/context.js:98-101 | min(4, live facts) facts, newest first, drawn from the live facts, and every live fact left out is no newer than any shown |
| Context.TakeOfSorted | src/assistant/context.js:100-101 | the first n of a newest-first arrangement are at least as new as every fact left behind |
| Context.GetMemoryContextText | src/assistant/context.js:97-106 | the memory is pruned first; the text is one `- label: value` line per shown fact joined by newlines, empty exactly when no live fact remains |
| Context.MemoryTextLines | src/assistant/context.js:104-105 | when no label or value holds a newline, the text splits back into the lines of the shown facts |
| Context.DropOldest | src/assistant/context.js:113-115 | the newest min(length, 24) turns remain, as a suffix |
| Context.PushHistory | src/assistant/context.js:109-116 | blank text is ignored; otherwise the compacted turn is appended last at `now` and the history is the newest min(n+1, 24) turns |
| Context.PruneHistory | src/assistant/context.js:118-128 | expired turns are dropped from the front only; the result is a suffix whose first turn (if any) is live |
| Context.PruneHistoryIdempotent | src/assistant/context.js:118-128 | pruning twice at the same time is pruning once |
| Context.Recent | src/assistant/context.js:148 | the last min(length, 6) turns |
| Context.UserParts | src/assistant/context.js:153-156 | the compacted text first, then the JPEG image exactly when one is given |
| Context.BuildContents | src/assistant/context.js:145-166 | the history is pruned; its last six turns become the leading contents in order; one user turn closes the list; the meta counts those turns and their characters |
| Context.BuildProactiveContents | src/assistant/context.js:168-177 | the same recent turns, closed by a `[silence]` user turn |
| Context.ProactiveMatchesBuild | src/assistant/context.js:145-177 | a proactive list and a user list built at the same moment share the same history; only the closing turn differs |
| Context.ClearAssistantContext | src/assistant/context.js:291-298 | history and memory are emptied and the reply count reset, so the memory text is empty and a proactive list is only `[silence]`; the warning flag is kept |
| Context.OperationsKeepValid | src/assistant/context.js:28-128 | remembering, pruning and pushing keep unique keys, at most 8 facts and at most 24 turns |
| Context.HyphenateRuns | src/assistant/context.js:60 | each run of characters outside `[a-z0-9:]` becomes one hyphen: only key characters and hyphens, no two hyphens touching, key text kept as it is |
| Context.CollapseHyphensNoop | src/assistant/context.js:60 | collapsing hyphen runs changes nothing once no two hyphens touch |
| Context.ToFactKey | src/assistant/context.js:59-62 | the first 80 characters of the slug of `label:value`: made of `[a-z0-9:-]` without doubled hyphens, a prefix of that slug, and exactly as long as the slug or 80 characters, whichever is less |
| Context.FactKeyIsFixed | src/assistant/context.js:59-62 | a fact key normalises to itself, so `toFactKey` is idempotent on its own output |
| Context.FactKeyOfPlainText | src/assistant/context.js:59-62 | text already in key form keeps its characters, lower-cased |
| Context.SlugOfFactKey | src/assistant/context.js:60 | text made only of key characters and single hyphens passes the run replacement unchanged |
| SentenceSplitter.FirstSentenceEnd | src/assistant/generate.js:514-528 | the first `.`, `!` or `?` followed by whitespace or the end, at or after the start, or none |
| SentenceSplitter.LastClauseEnd | src/assistant/generate.js:515-541 | the last `,`, `;` or `:` followed by whitespace below the bound, or none |
| SentenceSplitter.LastSpaceUpTo | src/assistant/generate.js:552 | the last space at or before the index, or none |
| SentenceSplitter.HardCut | src/assistant/generate.js:551-553 | the hard cut is past index 28 and at most 120: at the last space at or before 120 when that is past 28, otherwise at 120 |
| SentenceSplitter.CutPoint | src/assistant/generate.js:525-561 | no cut exactly when no rule applies; right after the first sentence end when there is one; else, from 56 characters, right after the last clause end; else the hard cut from 120 characters |
| SentenceSplitter.CutAt | src/assistant/generate.js:530-535 | the piece is trimmed, the rest is a shorter suffix that starts with no whitespace, and together they keep every visible character in order |
| SentenceSplitter.EmitNextChunk | src/assistant/generate.js:525-561 | nothing exactly when no rule applies; otherwise a trimmed chunk (if not blank) and a shorter suffix, keeping every visible character in order |
| SentenceSplitter.Drain | src/assistant/generate.js:566 | every chunk is trimmed and what is left holds no complete chunk |
| SentenceSplitter.DrainKeepsText | src/assistant/generate.js:566 | the chunks and what is left spell the same visible text as the buffer the loop started with |
| SentenceSplitter.DrainLeavesSuffix | src/assistant/generate.js:566 | what the loop leaves is a suffix of the buffer it started with |
| SentenceSplitter.Push | src/assistant/generate.js:564-567 | the chunks handed on are trimmed; the new buffer holds no complete chunk, so it is under 120 characters; no visible character is lost or reordered |
| SentenceSplitter.Flush | src/assistant/generate.js:568-572 | the buffer empties and its trimmed remainder is handed on exactly when it is not blank |
| SentenceSplitter.RunKeepsText | src/assistant/generate.js:564-567 | over several pushes the chunks so far and the buffer spell the input, whitespace aside |
| SentenceSplitter.StreamKeepsText | src/assistant/generate.js:512-574 | the chunks of a whole reply spell its text, whitespace aside |
| SentenceSplitter.OneSentence | src/assistant/generate.js:528-534 | a single sentence pushed whole comes out whole and leaves the buffer empty |
| SentenceSplitter.OnSentence | src/assistant/generate.js:739-765 | past two spoken sentences nothing changes; otherwise at most one non-empty chunk is added, counted, and the first emotion and marker detection are kept once found |
| SentenceSplitter.ForwardCap | src/assistant/generate.js:739-765 | however many chunks arrive at most two sentences are spoken, each non-empty, and the reply text is their join |
| WakeWord.Scrub | src/wake-word.js:15 | the length is kept; letters `a-z`, digits and whitespace stay where they are and every other character becomes a space |
| WakeWord.NormalizeWakeText | src/wake-word.js:10-18 | the result is words of `[a-z0-9]` separated by single spaces with no space at either end, and its letters and digits are exactly those of the lower-cased, diacritic-stripped text, in order |
| WakeWord.NormalizeWakeTextIdempotent | src/wake-word.js:10-18 | normalising an already normalised transcript returns it unchanged |
| WakeWord.NormalizeWakeTextIgnoresCase | src/wake-word.js:12 | capitalisation makes no difference to the normalised transcript |
| WakeWord.TokensOfNormalized | src/wake-word.js:107 | splitting a non-empty normalised transcript on spaces gives non-empty tokens of `[a-z0-9]` that join back, with single spaces, to the transcript |
| WakeWord.TokenThenRest | src/wake-word.js:107 | the text before the first space of a normalised transcript is a token and the text after it is again a non-empty normalised transcript |
| WakeWord.Min3 | src/wake-word.js:33-37 | the minimum is one of the three values and no larger than any of them |
| WakeWord.LevenshteinDistance | src/wake-word.js:20-43 | the two-row programme, shortcuts included, returns the edit distance defined by the recurrence over insertions, deletions and substitutions |
| WakeWord.NextRow | src/wake-word.js:29-40 | one pass of the outer loop turns row `i - 1` of the distance table into row `i` |
| WakeWord.EditDistanceZero | src/wake-word.js:21 | the distance is zero if and only if the strings are equal |
| WakeWord.DistSymmetric | src/wake-word.js:20-43 | the distance from `a` to `b` equals the distance from `b` to `a` |
| WakeWord.DistLengthBound | src/wake-word.js:20-43 | the distance is at least the difference of the two lengths |
| WakeWord.CollapseRepeats | src/wake-word.js:47 | the result is never longer, is empty only for empty input, keeps the first character, and has no two equal neighbours except after a line terminator |
| WakeWord.CollapseRepeatsFixed | src/wake-word.js:47 | a string with no repeated neighbours is left unchanged |
| WakeWord.CollapseRepeatsIdempotent | src/wake-word.js:47 | collapsing twice gives the same result as collapsing once |
| WakeWord.Candidates | src/wake-word.js:47-55 | the forms tried always start with the token itself and then the token with repeats collapsed |
| WakeWord.GlueCandidateOf | src/wake-word.js:49-55 | a token starting with a glue prefix and followed by more than two characters has the rest of the token among its forms |
| WakeWord.AnyMatchesExists | src/wake-word.js:57-68 | the candidate loop succeeds exactly when some candidate passes the alias tests |
| WakeWord.IsWakeAlias | src/wake-word.js:45-69 | an accepted token is between 3 and 8 characters long |
| WakeWord.AliasesAreWakeWords | src/wake-word.js:4-7 | every listed alias is recognised as a wake word |
| WakeWord.GluedAliasIsWakeWord | src/wake-word.js:49-58 | an alias with a glue prefix in front is recognised when the whole is at most 8 characters |
| WakeWord.LongCandidateRejected | src/wake-word.js:58-59 | a candidate longer than 6 characters is never accepted: no alias is that long and the fuzzy tests stop at 6 |
| WakeWord.FindIndex | src/wake-word.js:72 | the index is -1 exactly when no element qualifies; otherwise it is the first one that does |
| WakeWord.FirstMergedPair | src/wake-word.js:83-88 | the result is -1 when no neighbouring pair joined together is an alias; otherwise it is the first such pair |
| WakeWord.FindWakeToken | src/wake-word.js:71-92 | the index is -1 exactly when there is no token and no source; a found token is always an alias; the match is a direct token exactly when some token is itself an alias, and then it is the first one |
| WakeWord.DetectWakeWord | src/wake-word.js:94-146 | the decision carries the normalised transcript; the reason is `empty` exactly when that transcript is empty; otherwise every token is a non-empty word |
| WakeWord.Decide | src/wake-word.js:96-145 | an empty transcript is never detected and has no tokens or match; otherwise the tokens are the split on spaces; detection holds exactly for the four addressed reasons and always comes with a matched token |
| WakeWord.Verdict | src/wake-word.js:112-136 | the flag is set exactly for the addressed reasons and the reason is `no_wake_token` exactly when no wake index was found |
| WakeWord.SingleTokenAddressed | src/wake-word.js:115-117 | a transcript that normalises to a single alias is detected, whatever its capitalisation or punctuation |
| Routes.NormalizeCurrencyCode | src/routes.js:668-673 | a code exactly when the trimmed upper-cased text is three capital letters, and then that text |
| Routes.CurrencyCodeIdempotent | src/routes.js:668-673 | a normalised code is accepted again unchanged |
| Routes.CurrencyCodeOfLetters | src/routes.js:668-673 | three letters in any case with any whitespace around them name the upper-case code |
| Routes.ToFixed2 | src/routes.js:679 | below 10^21 the result is a whole number of cents within half a cent of the input; it is never negative for a non-negative input |
| Routes.ToSafeAmountAsWritten | src/routes.js:675-680 | no amount for a missing, `null` or empty value or one that does not parse to a positive finite number; otherwise a non-negative amount within half a cent of the parsed number |
| Routes.TinyAmountBecomesZero | src/routes.js:675-680 | `0.004` passes the check and comes back as an amount of 0 |
| Routes.ToSafeAmount | src/routes.js:675-680 | corrected: an amount that is produced is positive and within half a cent of the parsed number |
| Routes.SafeAmountDiffersOnlyAtZero | src/routes.js:675-680 | the corrected amount agrees with the code everywhere except where the code yields 0 |
| Routes.NormalizeCertainty | src/routes.js:682-688 | succeeds exactly for `confident` or `implied` in any case with any surrounding whitespace, naming that certainty; anything else is the configuration error |
| Routes.CertaintyOfName | src/routes.js:682-688 | each certainty is read back from its name written in capitals |
| Routes.ExtractBearerToken | src/routes.js:690-694 | a token exactly when the trimmed header starts with `bearer ` in any case; the token is the trimmed rest |
| Routes.BearerRoundTrip | src/routes.js:690-694 | a token sent as `Bearer <token>`, the scheme in any case, is read back |
| Routes.IsDonationWebhookAuthorized | src/routes.js:696-703 | with no token configured every request passes; otherwise exactly those whose trimmed donation-token header or bearer token equals the trimmed configured token |
| Routes.NoCredentialsRefused | src/routes.js:696-703 | with a token configured a request carrying neither header is refused |
| Routes.BearerAuthorizes | src/routes.js:696-703 | with a token configured `Authorization: Bearer <token>` is accepted |
| Routes.ExtractPaypalDonor | src/routes.js:740-749 | the payer's full name, else the payer's e-mail, non-empty and at most 64 characters; nothing exactly when the payer is not an object or both are blank |
| Routes.FullNameOfBoth | src/routes.js:745 | given and family name, both non-blank, are joined by one space |
| Routes.MoneyOf | src/routes.js:724-727 | the amount is never negative, a positive one is the intended rounding, and the currency is a valid code when present |
| Routes.ExtractPaypalAmount | src/routes.js:719-738 | nothing for a resource that is not an object; otherwise the value and currency of `amount` when truthy, else of `gross_amount` when truthy, else of `seller_receivable_breakdown.gross_amount` when truthy, else nothing; the amount is never negative and the currency a valid code |
| Routes.ToDonationSignalFromPaypalEvent | src/routes.js:774-803 | a signal exactly for a completed capture or an approved order, confident and from the capture source exactly for the capture; its amount and currency are those found in the event's resource, its donor the resource's payer, and its reference the trimmed resource id, else the trimmed event id, else none; every signal is well formed |
| Routes.HandleVoice | src/routes.js:101-148 | a request is ignored exactly when it asks for the wake word, none is heard and the conversation window has run out; an ignored request changes nothing and an accepted one restarts the window |
| Routes.Sleep | src/routes.js:206-212 | after `/sleep` no later moment is inside the conversation window |
| Routes.WindowAcceptsFollowUp | src/routes.js:117-148 | within 45 seconds of an accepted utterance every request is accepted |
| Routes.SleepRequiresWakeWord | src/routes.js:117-212 | after `/sleep` a request that asks for the wake word and has none is ignored |
| Routes.UnflaggedAccepted | src/routes.js:101-148 | a request without the wake-word flag is always accepted |
| Routes.PostConfig | src/routes.js:568-625 | a body that is not a JSON object is a 400; once applied, the service restarts exactly when the model changes, and a changed model is the normalised `sttModel` of the payload |
| Routes.RepostDoesNotRestart | src/routes.js:580-607 | posting the same payload again after it was applied restarts nothing |
| Routes.NoSttModelNoRestart | src/routes.js:580-607 | a payload without `sttModel` never restarts the service |
| Routes.ShapeRequest | src/routes.js:530-544 | a shape is served exactly when its name matches `[a-zA-Z0-9._-]+\.svg`, from the shapes directory; the directory guard never fires |
| Routes.ShapeNameIsSegment | src/routes.js:532-541 | a name the pattern accepts is one path segment that is neither `.` nor `..` |
| Routes.EventResource | src/routes.js:775 | the event's `resource` when truthy, else an empty object |
| PayPalClient.BaseUrl | src/paypal-client.js:1-7 | the live host exactly when the trimmed lower-cased environment says `live`, the sandbox host otherwise |
| PayPalClient.DefaultIsSandbox | src/paypal-client.js:1-7 | without `PAYPAL_ENV` the client talks to the sandbox |
| PayPalClient.GetPayPalCredentials | src/paypal-client.js:9-18 | an error exactly when either trimmed value is blank; otherwise both trimmed values, neither empty |
| PayPalClient.CentsAgreeWithRoundCents | src/paypal-client.js:53 | the cents printed with two decimals are those the donation routes round to |
| PayPalClient.FormatAmountAsWritten | src/paypal-client.js:46-54 | an error exactly when the parsed value is not a finite positive number; any positive amount is accepted |
| PayPalClient.TinyAmountSentAsZero | src/paypal-client.js:46-54 | an amount of 0.004 passes the check and is sent as `0.00` |
| PayPalClient.FormatAmount | src/paypal-client.js:46-54 | corrected: an accepted amount is positive and prints as a positive number of cents |
| PayPalClient.FormatAmountDiffersOnlyAtZero | src/paypal-client.js:46-54 | the corrected check agrees with the code everywhere except that it rejects what would print as `0.00` |
| PayPalClient.NormalizeCurrency | src/paypal-client.js:56-64 | a missing or falsy value means `USD`; an accepted code is three capital letters; anything else is the currency error |
| PayPalClient.CurrencyRulesAgree | src/paypal-client.js:56-64 | for a value that is present, the client and the donation routes accept the same codes and write them the same way |
| PayPalClient.UnitText | src/paypal-client.js:75-76 | an optional unit field is present exactly when truthy, and is a prefix of its text of at most 120 characters |
| PayPalClient.BuildCreateOrderBody | src/paypal-client.js:66-82 | the amount is checked before the currency and a body exists exactly when both pass; it asks for capture of exactly one unit with the printed amount, the normalised currency code and the cut description and reference |
| PayPalClient.CaptureUrl | src/paypal-client.js:120 | the capture URL is the base, the orders path, the encoded id as exactly one path segment, then `/capture` |
| PayPalClient.CaptureOrderRequest | src/paypal-client.js:109-120 | a blank order id is rejected before the credentials are looked at; otherwise missing credentials are the error, else the request carries the credentials and goes to the capture URL under the configured host whose one path segment is the percent-encoded trimmed id (decoding back to the id when it is ASCII) |
| Persona.Scrub | src/persona.js:43 | every character that is neither `[a-z0-9']` nor whitespace becomes a space; the rest stay in place |
| Persona.NormalizeText | src/persona.js:38-46 | a single-spaced trimmed greeting text: exactly the maximal `[a-z0-9']` runs of the lower-cased folded input joined by single spaces |
| Persona.NormalizeTextFixed | src/persona.js:38-46 | a text already in normal form is its own normal form |
| Persona.NormalizeTextIdempotent | src/persona.js:38-46 | normalising twice is normalising once |
| Persona.NormalizeTrigger | src/persona.js:55 | a trigger fails exactly when it is truthy and not a string (which has no `toLowerCase`); a falsy one reads as empty and a string is normalised |
| Persona.NormalizeTriggers | src/persona.js:54-56 | the loading fails exactly when some trigger cannot be normalised; otherwise the triggers are the array's normalised texts with the empty ones dropped and the order kept |
| Persona.ResponseText | src/persona.js:58 | a falsy response reads as empty, a string is trimmed |
| Persona.Responses | src/persona.js:57-59 | the responses are the array's trimmed texts with the empty ones dropped and the order kept |
| Persona.MaxWordsOf | src/persona.js:62 | at least 1, and the floor of the number otherwise |
| Persona.LoadGreetingConfig | src/persona.js:52-66 | loading fails exactly for a file holding `null` or a triggers array with an element that cannot be normalised; otherwise maxWords is the floor of the file's number (at least 1) and triggers and responses are the file's kept entries; each falls back to its default when missing or left empty |
| Persona.DefaultsLoad | src/persona.js:9-13 | with no greetings file the loader yields exactly the built-in defaults |
| Persona.LoadFields | src/persona.js:52-66 | a configuration whose three fields are present and usable loads as those fields, and the default object loads the same as no file |
| Persona.LoadedTriggerFixed | src/persona.js:55 | every trigger the loader keeps is in normal form, so an utterance that is exactly a trigger normalises to it |
| Persona.Words | src/persona.js:73 | the words are non-empty and contain no space; on normalised text they are exactly its whitespace-separated words |
| Persona.AnyTrigger | src/persona.js:76-86 | true exactly when some trigger equals the utterance or starts it followed by a space and one of the assistant's names |
| Persona.Answer | src/persona.js:73-88 | an answer exactly when the utterance has between one word and the limit and some trigger matches; the answer is one of the responses |
| Persona.PickGreetingResponse | src/persona.js:68-89 | no answer for an utterance that normalises to nothing; a failure exactly when the utterance is not empty and the configuration fails to load; an answer is one of the loaded responses |
| Persona.NameSuffixMatches | src/persona.js:80-83 | a greeting followed by one of the assistant's names matches that greeting |
| Persona.PickLoaded | src/persona.js:68-89 | once the utterance is non-empty and the configuration loads, the answer is the configuration's |
| Persona.HeyTubsAnswered | src/persona.js:9-14 | with the defaults, `Hey Tubs` is answered with `Hey. Tubs online.` |
| Langfuse.NormalizeEnvValue | src/langfuse.js:8-12 | the trimmed text (empty for a missing value) less one leading quote and one trailing quote where present; a lone quote gives the empty text |
| Langfuse.QuotedValue | src/langfuse.js:8-12 | a value wrapped in one pair of quotes comes back without exactly those quotes |
| Langfuse.PlainValue | src/langfuse.js:8-12 | a value with no surrounding blanks or quotes comes back unchanged |
| Langfuse.LangfuseSettingsOf | src/langfuse.js:14-28 | tracing is enabled exactly when the public key, secret key and base URL are all non-empty after normalising, and then the settings are those three normalised values |
| Langfuse.KeptRows | src/langfuse.js:56-61 | every kept row comes from a raw row and has a non-empty event and a positive time; every raw row that passes the filter is kept; a single raw row is kept exactly when it passes |
| Langfuse.SortByAt | src/langfuse.js:62 | a permutation of the rows in ascending time order |
| Langfuse.Events | src/langfuse.js:67-78 | one event per row in order, each with the row's event, a non-negative offset from the start and a non-negative gap from the previous row (the first from the start) |
| Langfuse.DeltasTelescope | src/langfuse.js:67-78 | over rows in time order the gaps add up to the time from the start to the last row |
| Langfuse.KeptRowsEmpty | src/langfuse.js:61-64 | the kept list is empty exactly when no raw row passes the filter |
| Langfuse.TimingOf | src/langfuse.js:66-86 | the summary holds the kept rows in time order; it starts at the given start or else the first row, ends at the last row, and its total is the non-negative time between |
| Langfuse.NormalizeTiming | src/langfuse.js:52-87 | no timing exactly when no raw row passes the filter; otherwise the summary of the kept rows in time order, each event's offset from the start and gap from the previous row as `Events` gives them |
| Langfuse.DefaultStartTelescopes | src/langfuse.js:66-86 | when the timer gives no start the per-row gaps add up to the turn's total |
| Langfuse.EarlyStartTelescopes | src/langfuse.js:66-86 | with a given start no later than the first row the per-row gaps add up to the turn's total |
| Langfuse.KeptRowsAppend | src/langfuse.js:56-61 | rows are converted and filtered one by one, so the kept rows are in input order |
| TurnTimer.PadLeft | src/turn-timing.js:1-5 | the text right-aligned: blanks in front up to the width, the text unchanged when it is already that wide |
| TurnTimer.PadRight | src/turn-timing.js:7-11 | the text left-aligned: blanks behind up to the width, the text unchanged when it is already that wide |
| TurnTimer.FormatMs | src/turn-timing.js:13-15 | a span that is not positive shows as `0.00`, as the clamp to zero gives |
| TurnTimer.CreateTurnTimer | src/turn-timing.js:17-19 | a new timer has no marks and starts at the clock reading |
| TurnTimer.Mark | src/turn-timing.js:21-23 | one row is appended and the others are kept; it has the event and the given time, or the clock reading for a missing, NaN or zero time; nothing else changes |
| TurnTimer.MaxWidth | src/turn-timing.js:43-45 | the widest of the header and the cells, and one of them |
| TurnTimer.Table | src/turn-timing.js:28-41 | one table row per mark in time order, with its event, the seconds since the timer's start and the seconds since the previous mark (since the start for the first), each as `formatMs` prints them |
| TurnTimer.Cells | src/turn-timing.js:53 | a row of three padded cells is exactly as wide as the three columns and the separators, and starts with the event |
| TurnTimer.Rule | src/turn-timing.js:51 | the rule under the header is as wide as the rows and is made of `-` and `+` |
| TurnTimer.Widths | src/turn-timing.js:43-45 | each column is at least as wide as its header and every cell of that column fits |
| TurnTimer.TableLines | src/turn-timing.js:50-54 | the header line, the rule, then for each table row exactly its padded cells, all of one width, each row line starting with its event |
| TurnTimer.Head | src/turn-timing.js:48-49 | the title first when there is one, then the caption |
| TurnTimer.ChartLines | src/turn-timing.js:47-54 | an optional title, the caption, then the header and rule at the widest-cell widths, then each table row (time from the start, delta from the previous mark) as its padded cells, all of the same width |
| TurnTimer.Chart | src/turn-timing.js:25-56 | empty exactly when there are no marks |
| TurnTimer.ChartLineCount | src/turn-timing.js:25-56 | when no caption part holds a newline the chart splits back into its lines: marks plus three, one more with a title |
| TurnTimer.CellsLayout | src/turn-timing.js:53 | the row's text is the event padded on the right to the event column, a bar separator, the time padded on the left to the time column, a bar separator, and the delta padded on the left to the delta column, at those fixed offsets |
| TurnTimer.TimerTable | src/turn-timing.js:28-41 | the timer's marks in time order, each timed from the timer's start and from the previous mark |
| TurnTimer.FormatMsReadsBack | src/turn-timing.js:13-15 | the seconds printed with two decimals read back as the rounded cents of the span |
| Benchmark.ParseArgs | scripts/benchmark-llm.js:10-29 | the keys set are exactly the keys of the `--` options in the arguments |
| Benchmark.ParseFrom | scripts/benchmark-llm.js:12-27 | the loop adds exactly the option keys of the remaining arguments to those read so far |
| Benchmark.ParseRendered | scripts/benchmark-llm.js:10-29 | rendering settings as `--key=value` and parsing them back gives the same settings when no key or value contains `=` |
| Benchmark.SpacedOption | scripts/benchmark-llm.js:20-26 | `--key value` takes a non-empty, non-option next argument as the value and consumes it; otherwise `--key` is a flag and the next argument is read as usual |
| Benchmark.Ceil | scripts/benchmark-llm.js:36 | `Math.ceil` is the least integer at or above x |
| Benchmark.Pos | scripts/benchmark-llm.js:34-36 | the interpolation position lies in [0, n-1], with floor and ceiling both valid indices |
| Benchmark.PosMonotone | scripts/benchmark-llm.js:34 | a higher percentile sits no earlier in the list |
| Benchmark.Percentile | scripts/benchmark-llm.js:31-39 | 0 for an empty list, the only entry for one entry; otherwise the value lies between the two entries around position (n-1)p on a sorted list |
| Benchmark.PercentileInStep | scripts/benchmark-llm.js:34-38 | the percentile is the entry itself at a whole position and the linear interpolation `s[l] + (s[l+1]-s[l])*f` between neighbours otherwise |
| Benchmark.PercentileMonotone | scripts/benchmark-llm.js:31-39 | on a sorted list a higher percentile is never smaller |
| Benchmark.QuantilesOrdered | scripts/benchmark-llm.js:50-53 | min <= p50 <= p95 <= max on a sorted list |
| Benchmark.SumBounds | scripts/benchmark-llm.js:46 | a sum of n values within [lo, hi] lies within [n*lo, n*hi] |
| Benchmark.SortedBounds | scripts/benchmark-llm.js:45 | the first and last entries of the sorted copy bound every value |
| Benchmark.MeanBounds | scripts/benchmark-llm.js:49 | the mean lies between any bounds of the values |
| Benchmark.Summarize | scripts/benchmark-llm.js:41-55 | all zeros for no values; otherwise the count, extremes that are members bounding every value, the mean as the sum over the count, and p50 and p95 as the percentiles of the sorted values, all between the extremes |
| Benchmark.RunsOf | scripts/benchmark-llm.js:284-286 | the run count is at least 1 and 3 when not given |
| Benchmark.WarmupOf | scripts/benchmark-llm.js:285-287 | the warm-up count is at least 0 and 1 when not given |
| Benchmark.TimeoutOf | scripts/benchmark-llm.js:288 | the timeout is at least 1000 ms and 45000 when not given |
| Benchmark.MaxTokensOf | scripts/benchmark-llm.js:289 | the token cap is at least 32 and 256 when not given |
| Benchmark.TemperatureOf | scripts/benchmark-llm.js:290 | 0.2 when not given; a bare flag reads as 1 |
| Benchmark.DefaultDigits | scripts/benchmark-llm.js:284-289 | a default written as digits parses back to its value |
| Benchmark.RunsGiven | scripts/benchmark-llm.js:284-286 | a run count given in decimal and at least 1 is used as given |
| TurnScript.EstimateSpeechDurationMs | public/js/turn-script.js:10-14 | 800 ms for text without words; otherwise 440 ms a word but never under 800 ms |
| TurnScript.SpeechOfWords | public/js/turn-script.js:10-14 | a line of `n` words separated by single spaces is estimated at the larger of 800 and 440 times `n` |
| TurnScript.EstimateBeatDurationMs | public/js/turn-script.js:16-27 | 420 ms for something that is not a beat object; an explicit finite delay clamped into 120..8000; else the speech estimate for a `speak` beat and 420 ms for anything else |
| TurnScript.ItemOf | public/js/turn-script.js:35-68 | the item lasts the beat's estimate; the local head speaks or reacts as the beat says, the other head waits for a spoken line of the beat's actor or simply waits through a reaction |
| TurnScript.ObjectBeats | public/js/turn-script.js:34-35 | the beats that are objects: each kept beat is an object beat of the script, every object beat is kept, and a single beat is kept exactly when it is an object |
| TurnScript.Timeline | public/js/turn-script.js:34-69 | one item per object beat, in order |
| TurnScript.BuildLocalTurnTimeline | public/js/turn-script.js:29-72 | one item per object beat, in order, for the local head; anything that is not an array gives no items |
| TurnScript.OtherActorIsMain | public/js/turn-script.js:30 | any local actor other than `small` plays the main head's part |
| TurnScript.TimelinesComplement | public/js/turn-script.js:29-72 | for one script the two heads' timelines match item by item: exactly one of them speaks or reacts while the other waits, both for the same time, and a line one head speaks is waited for by the other as a wait for that head |
| TurnScript.ObjectBeatsAppend | public/js/turn-script.js:34-35 | the filter works piece by piece, so the kept beats are the script's object beats in script order |
| MiniHead.ClampGain | public/js/mini-main.js:177-181 | a gain in 0..1: a finite number inside the range is kept, one outside is clamped to the nearer end, and anything else gives 0.9 |
| MiniHead.MarkMainHeadSpeaking | public/js/mini-main.js:235-238 | the main head is marked speaking exactly for a truthy flag, until 20 seconds after the time stamp; otherwise the deadline is cleared |
| MiniHead.IsMainHeadSpeakingNow | public/js/mini-main.js:240-248 | speaking exactly when marked and not past the deadline; a stale mark is cleared and a live one left alone |
| MiniHead.SpeakingExpires | public/js/mini-main.js:235-248 | a speaking mark holds for 20 seconds after its time stamp and no longer |
| MiniHead.IsRemoteActorSpeaking | public/js/mini-main.js:255-259 | only the main head (any letter case) can be heard; any other actor is silent and changes nothing |
| MiniHead.MarkLocalSpeechStart | public/js/mini-main.js:217-221 | the flag ends up set, and a start notice is sent exactly when it was clear |
| MiniHead.MarkLocalSpeechEnd | public/js/mini-main.js:223-227 | the flag ends up clear, and an end notice is sent exactly when it was set |
| MiniHead.NoticesAlternate | public/js/mini-main.js:217-227 | over any run of starts and ends the notices strictly alternate, the first leaves the initial state, and the final flag is the state the last notice announced |
| MiniHead.RemoteWaitTimeout | public/js/mini-main.js:274 | the timeout is the larger of 1000 ms and the item's delay, plus 1500 ms |
| MiniHead.WaitPoll | public/js/mini-main.js:261-277 | the first poll stamps the start; the other head counts as heard once it speaks; the wait ends when a heard head is quiet, or when an unheard one stays silent past the timeout |
| MiniHead.SpeakingHolds | public/js/mini-main.js:261-287 | while the other head keeps speaking the wait never ends |
| MiniHead.HeardThenQuiet | public/js/mini-main.js:261-287 | once the other head has been heard, a poll at which it is quiet ends the wait |
| MiniHead.NeverHeardTimesOut | public/js/mini-main.js:261-287 | a head that is never heard is given up on by the first poll at least the timeout after the first poll |
| MiniHead.QueuedDelay | public/js/mini-main.js:411-446 | 420 ms when the beat gives no usable delay, otherwise the larger of the given delay and 120 ms |
| MiniHead.HasSpeakBeat | public/js/mini-main.js:393-397 | true exactly when some beat is an object whose action is `speak` and whose normalised text is not empty |
| MiniHead.Enqueue | public/js/mini-main.js:400-459 | the items are well queued; spoken beats with text become lines, reactions stay reactions, except that one reaction with text becomes a line when no beat was a line |
| MiniHead.EnqueueSmallBeats | public/js/mini-main.js:391-462 | the new items follow the queued ones untouched and are the beat-by-beat items of the script; every line has text and every timed item waits at least 120 ms; one line per spoken beat with text, one reaction per reaction, and at most one reaction promoted to a line, only when no beat is a spoken line with text |
| MiniHead.EnqueueAppend | public/js/mini-main.js:400-459 | queueing works beat by beat: a script's items are those of its first part, then those of the rest queued knowing whether the first part promoted a reaction |
| MiniHead.EnqueueOne | public/js/mini-main.js:411-446 | one beat's items: none for a non-object or a line without text; a wait or a wait for the other head with the beat's delay; a line with its text and emotion; a reaction with its emotion, text and delay unless it is the one promoted to a line |
| ManualBeats.CleanText | public/js/manual-beats.js:28-35 | the words of the text with its control characters removed, joined by single spaces: the line breaks only separate words |
| ManualBeats.CleanTextFixed | public/js/manual-beats.js:28-35 | text that is already clean passes unchanged |
| ManualBeats.CleanTextIdempotent | public/js/manual-beats.js:28-35 | cleaning twice is cleaning once |
| ManualBeats.ParseDelayMs | public/js/manual-beats.js:37-44 | no delay for a missing or empty value, the delay error for a value that is not a finite number, otherwise the rounded number clamped to 120..8000 |
| ManualBeats.DelayInRangeKept | public/js/manual-beats.js:37-44 | a whole number of milliseconds inside 120..8000 is kept as it is |
| ManualBeats.FormActionOf | public/js/manual-beats.js:48-54 | the beat reacts or waits exactly when the lower-cased field says so; anything else speaks |
| ManualBeats.ReadBeatForm | public/js/manual-beats.js:46-79 | a beat exactly when speech has text, the delay parses and the emoji cue is empty or supported, with the text error first and the delay error next; the beat carries the chosen actor and action, the cleaned text and delay, and an emotion exactly when an expression or emoji was given |
| ManualBeats.ParseSingleBeatFromDom | public/js/manual-beats.js:46-81 | `{ beats: [beat] }` holding the form's beat, or the form's error |
| ManualBeats.BeatJsonLayout | public/js/manual-beats.js:47-78 | the beat object's keys are `actor`, `action`, then `text`, `delayMs` and `emotion` where present, each once |
| ManualBeats.FormBeatInTimeline | public/js/manual-beats.js:46-81 | the beat the form builds reads back in the turn timeline with the same actor, as a reaction exactly when the form chose one, and with an explicit delay as its duration |
| ManualBeats.ParseScriptPayload | public/js/manual-beats.js:83-104 | empty text and text that is not JSON give their own errors; a bare array is wrapped as `{ beats }`, an object with a beats array is kept, else an object whose truthy `turn_script` has a beats array gives that; the shape error comes exactly when none of these holds |
| ManualBeats.PayloadStable | public/js/manual-beats.js:83-104 | a payload that was accepted is accepted again unchanged when pasted back as its own JSON |
| ManualBeats.ArrayPayloadBeats | public/js/manual-beats.js:94-96 | a bare array gives exactly its items to the turn timeline |
| Subtitles.Words | public/js/subtitles.js:4 | the words are non-empty and hold no whitespace, hold every non-space character of the text in order, and joined by single spaces give the whitespace-normalised text |
| Subtitles.SegmentText | public/js/subtitles.js:3-23 | the segments hold exactly the words in order; each is non-empty and fits the limit (or is a single word); a segment is closed only when the next word would overflow it; no segments exactly when there are no words |
| Subtitles.Weight | public/js/subtitles.js:74 | a word weighs at least 2 and at least its length |
| Subtitles.TotalWeight | public/js/subtitles.js:75 | the words together weigh at least twice their number |
| Subtitles.CumWeights | public/js/subtitles.js:77-78 | entry `i` is the weight of the first `i` words, and the table strictly ascends |
| Subtitles.LastAtMost | public/js/subtitles.js:80-88 | the reference answer is one of the words considered |
| Subtitles.TimeToWordIndex | public/js/subtitles.js:80-88 | the binary search finds the last word that has started by the target, the reference answer |
| Subtitles.WordIndexAt | public/js/subtitles.js:80-88 | the highlighted word is a word of the line: the last one whose preceding words weigh at most the target share of the line |
| Subtitles.LastAtMostMonotone | public/js/subtitles.js:80-88 | a later target never picks an earlier word |
| Subtitles.SubtitleDuration | public/js/subtitles.js:145 | a positive number source is the duration; anything else gives 0.35 s per word; a line with words always has a positive duration |
| Subtitles.HighlightAt | public/js/subtitles.js:152-162 | a tick at or past the span stops the subtitles; before it, the word highlighted is the last one started by that share of the line |
| Subtitles.HighlightMonotone | public/js/subtitles.js:152-162 | while the subtitles run the highlighted word never moves backwards |
| SpeechText.InferDonationFromText | public/js/tts-text.js:4-11 | a donation hint exactly when the text matches the keyword pattern, and then the fixed text-fallback hint |
| SpeechText.ReplaceCrLf | public/js/tts-text.js:15 | text without CR is unchanged; one character is kept; a CR LF pair becomes one line feed |
| SpeechText.ReplaceCr | public/js/tts-text.js:16 | every CR becomes a line feed and nothing else changes |
| SpeechText.RemoveControls | public/js/tts-text.js:18 | no control character is left; a single character is dropped exactly when it is a control; text without controls is unchanged |
| SpeechText.NormalizeSpeechText | public/js/tts-text.js:13-22 | missing text reads as empty and a string is normalised as the string itself; the result has single spaces, no blank ends, no control character and no pictograph |
| SpeechText.CleanTextUnchanged | public/js/tts-text.js:13-22 | text that is already clean is spoken as it is |
| SpeechText.NormalizeStringIdempotent | public/js/tts-text.js:13-22 | normalising twice is normalising once, unless the first pass leaves a marker spelled across a removed one |
| SpeechText.NormalizeString | public/js/mini-main.js:183-192 | the small head's `normalizeText` (the same chain as the speech text) yields the words of the text, once markers are spaces and controls and emoji clusters are gone, joined by single spaces; so no control character and no pictograph remain |
| SpeechText.ReplaceCrLfAppend | public/js/tts-text.js:15 | the replacement works piece by piece wherever the cut does not split a CR LF pair, so with the one-character and pair cases every CR LF pair, and nothing else, becomes a line feed |
| SpeechText.RemoveControlsAppend | public/js/tts-text.js:18 | deletion works piece by piece, so with the one-character case the result is the input with exactly its controls taken out and the rest kept in order |
| SpeechText.WordsIgnoreBreaks | public/js/tts-text.js:15-18 | unifying CR LF and CR into line feeds before deleting controls changes none of the words of the text |
| Greetings.DropOldest | public/js/face/greetings.js:211 | the newest `limit` entries, as a suffix |
| Greetings.PushRecent | public/js/face/greetings.js:209-212 | the value appended and the oldest entries dropped down to `limit`: the value is newest, and a short history just grows by it |
| Greetings.Avoiding | public/js/face/greetings.js:227-229 | every line not in the avoided set is kept and only those; a single line is kept exactly when it is not avoided |
| Greetings.Draw | public/js/face/greetings.js:235 | the random pick is one of the candidates |
| Greetings.PickFresh | public/js/face/greetings.js:241-278 | a line of the list, not said recently whenever some line was not |
| Greetings.FreshExists | public/js/face/greetings.js:241-278 | a history shorter than the number of distinct lines always leaves a line out |
| Greetings.NoImmediateRepeat | public/js/face/greetings.js:263-270 | with more distinct lines than the history keeps, the same list never gives the same line twice in a row |
| Greetings.PickForName | public/js/face/greetings.js:224-235 | a line new both globally and for the person if there is one, else new for the person if there is one, else any line |
| Greetings.RecordJoin | public/js/face/greetings.js:236-237 | the chosen line becomes newest in the global history (at most 20) and the person's (at most 6); nothing else changes |
| Greetings.RecordJoinOthers | public/js/face/greetings.js:218-237 | other people's join histories are untouched |
| Greetings.PickJoinTemplate | public/js/face/greetings.js:214-239 | a blank key gives any line and records nothing; otherwise the line for the person, recorded in both histories |
| Greetings.JoinNoImmediateRepeat | public/js/face/greetings.js:214-239 | with more than six distinct join lines one person never gets the same join line twice in a row |
| Greetings.Substitute | public/js/face/greetings.js:257 | a replacement without `$` is inserted as written |
| Greetings.ReplaceFirst | public/js/face/greetings.js:257 | text without the slot is unchanged; otherwise the first slot is replaced by the substitution for the name (with `$$`, `$&`, `` $` `` and `$'` expanded) and the text around it is kept |
| Greetings.DollarNameReinsertsSlot | public/js/face/greetings.js:257 | filling `hi %name%` with the name `$&` gives back `hi %name%` |
| Greetings.FillNameInserts | public/js/face/greetings.js:257 | a name free of `$` lands verbatim where the first slot was, with the text around it kept |
| Greetings.GetRandomWakeGreeting | public/js/face/greetings.js:250-258 | a falsy name gets an unnamed line, any other name a named line with its slot filled |
| Greetings.GetRandomJoinGreeting | public/js/face/greetings.js:281-287 | a falsy name gets an unknown-person line, fresh against its own history, which records it; a name gets the person's join line filled with the name |
| Greetings.GetRandomDepartureGreeting | public/js/face/greetings.js:289-295 | a falsy name gets an unknown departure line, a name a known departure line filled with the name, each fresh against and recorded in its own history |
| Greetings.AvoidingAppend | public/js/face/greetings.js:227-229 | the filter works piece by piece, so the result is the lines not avoided in their original order |
| Greetings.NameKey | public/js/face/greetings.js:215 | a falsy name gives ""; a string name gives a key as long as its trimmed form, with no whitespace at either end and no capital letters |
| FaceDetection.SetManualInterval | public/js/face/detection.js:49-53 | the slider sets the manual interval and nothing else |
| FaceDetection.ComputeInterval | public/js/face/detection.js:56-67 | a positive manual interval is used as it is; otherwise the interval is the largest of 800 ms, 1.5 times the last inference time and, once no face has been seen for over 10 s, 3000 ms, capped at 5000 ms |
| FaceDetection.IntervalFollowsInference | public/js/face/detection.js:59 | a slower worker never shortens the interval |
| FaceDetection.IdleIsSlower | public/js/face/detection.js:61-64 | an idle camera never gets a shorter interval than an active one |
| FaceDetection.ScheduleNextCapture | public/js/face/detection.js:69-74 | nothing happens unless the camera is on and the worker ready; then a capture is set at the computed interval and nothing else changes |
| FaceDetection.CaptureSize | public/js/face/detection.js:94-96 | frames up to 640 wide keep their size; wider ones become 640 wide with the height scaled by the same factor and rounded to the nearest pixel |
| FaceDetection.CaptureFrame | public/js/face/detection.js:81-118 | a frame is sent exactly when the stream is usable, the worker ready and idle, and the video has a size; sending turns the worker busy, clears the pending capture and sends a frame of the capture size; otherwise the store is exactly what scheduling the next capture makes of it |
| FaceDetection.SeenFaces | public/js/face/results.js:75-319 | the inference time is recorded; a result with faces marks them seen now and clears the no-face time; an empty result keeps the last-seen time and starts the no-face time only if it was not running |
| FaceDetection.OnWorkerMessage | public/js/face/detection.js:124-154 | `ready` marks the worker ready, `faces` and `error` free it, `progress` and anything else change nothing; the first three schedule the next capture |
| FaceDetection.LoopNeverStalls | public/js/face/detection.js:69-154 | with the camera on, every capture, message and schedule step leaves the loop live: a capture is pending or the worker is busy or not yet ready |
| FaceDetection.AnswerFreesWorker | public/js/face/detection.js:111-152 | a frame sent and answered with faces or an error leaves the worker free and the next capture set |
| FaceResults.NameIndex | public/js/face/results.js:98 | the slot of a name in the table, -1 exactly when the name is absent |
| FaceResults.Place | public/js/face/results.js:96-101 | one library entry placed in the table keeps names unique |
| FaceResults.ByNameSpec | public/js/face/results.js:95-101 | the table holds only library entries, one per library name, each with the highest similarity of that name |
| FaceResults.Scan | public/js/face/results.js:104-110 | the running best is above 0.45 and at least every candidate's similarity; none exactly when nothing was found before and no candidate is above 0.45 |
| FaceResults.Candidates | public/js/face/results.js:103 | the table sorted by descending similarity, as a permutation |
| FaceResults.CandidatesFromLib | public/js/face/results.js:103 | every candidate is a library entry |
| FaceResults.CandidatesDominate | public/js/face/results.js:103 | every library entry is matched or beaten by some candidate |
| FaceResults.Match | public/js/face/results.js:94-111 | the best match is a library entry above 0.45 with the highest similarity in the library; none exactly when no entry is above 0.45 |
| FaceResults.Recognize | public/js/face/results.js:94-124 | a face is recognised only with an embedding and an entry of that name above 0.45; not recognised exactly when it has no embedding or no entry is above 0.45 |
| FaceResults.Recognized | public/js/face/results.js:86-124 | one name per matched face, and every matched face's name is in the list; matched plus unmatched is the face count; a single face gives its name or nothing |
| FaceResults.Dedupe | public/js/face/results.js:178 | the same names without repeats, each placed in the order of its first occurrence; a list without repeats is unchanged |
| FaceResults.Without | public/js/face/results.js:180-181 | exactly the names of the list not in the excluded set; a single name is kept exactly when not excluded |
| FaceResults.UnknownCount | public/js/face/results.js:179 | at least the unmatched faces, and exactly them when no name is matched twice |
| FaceResults.SameNameTwiceCountsUnknown | public/js/face/results.js:178-179 | two faces matched to one person show one of them as unknown although both matched |
| FaceResults.Badge | public/js/face/results.js:338-347 | nothing new is shown exactly when there are no names and no unknowns; otherwise the names joined by ", ", the decimal count followed by " unknown", or both joined by " + " |
| FaceResults.Detect | public/js/face/results.js:178-181 | the current names are the distinct matched names; new names are current and not previous; lost names are previous and not current; unknowns plus current names make the face count |
| FaceResults.ChangedIffSetsDiffer | public/js/face/results.js:180-181 | a frame has new or lost names exactly when the set of recognised people changed |
| FaceResults.Track | public/js/face/results.js:184-210 | present people are stamped now and lose any pending departure; a lost person gets a timer unless one runs; first-seen stamps are never overwritten |
| FaceResults.ToGreet | public/js/face/results.js:281 | exactly the new names not greeted on the last wake; a single name is greeted exactly when not greeted on waking |
| FaceResults.Present | public/js/face/results.js:217-314 | a frame with faces marks presence, shows the badge for its names and unknowns, restarts the presence timer and remembers the frame; asleep, it wakes (first), greets the first name or nobody and remembers everyone seen as greeted; its only effects are the wake-up, greetings and a presence broadcast |
| FaceResults.Absent | public/js/face/results.js:316-331 | an empty frame starts the presence timer only if presence is on and none runs, and asks for sleep exactly when awake and no face was seen for longer than a positive sleep timeout |
| FaceResults.Frame | public/js/face/results.js:74-336 | the frame's distinct names and face count are remembered; departures are pending exactly for the previously or already departing people not present now; a frame with faces shows the badge and restarts the timer |
| FaceResults.PresenceOnChange | public/js/face/results.js:308-311 | presence is broadcast exactly when a frame with faces changes the face count or the set of recognised people |
| FaceResults.FrameCoherent | public/js/face/results.js:74-336 | every frame keeps the tracker coherent: a pending departure only for someone not present |
| FaceResults.WakeFrameGreets | public/js/face/results.js:242-278 | a frame with faces while asleep wakes the page, greets nobody by arrival, and records everyone seen as greeted on waking |
| FaceResults.AwakeRespectsWake | public/js/face/results.js:280-298 | an awake frame greets only people who are new and were not greeted on the last wake |
| FaceResults.WakeGreetingNotRepeated | public/js/face/results.js:247-281 | people greeted on waking are not greeted again by the next frame |
| FaceResults.ReturnCancelsDeparture | public/js/face/results.js:185-210 | someone seen again has no pending departure; someone who just vanished has one |
| FaceResults.DepartureFires | public/js/face/results.js:198-208 | a cleared timer does nothing; a person seen in the last frame is kept; otherwise the departure is reported with the first-seen stamp (or now) and the person's stamps are forgotten |
| FaceResults.DepartureAlwaysConfirmed | public/js/face/results.js:198-208 | in a coherent tracker every firing timer confirms a departure, so the re-check in the timer never finds the person present |
| FaceResults.CheckPresenceTimeout | public/js/face/results.js:349-365 | the timer is spent; after more than 5000 ms without a face everything but the wake set is forgotten and absence is broadcast, otherwise nothing else changes |
| FaceResults.AfterTimeoutEveryoneIsNew | public/js/face/results.js:349-365 | after a presence timeout the next awake frame greets every recognised person not greeted on the last wake |
| FaceResults.RecognizedAppend | public/js/face/results.js:86-124 | names are collected face by face, so the list is the matched names in face order and its first entry is the first matched face's |
| FaceResults.WithoutAppend | public/js/face/results.js:180-181 | the filter works piece by piece, so the names kept stay in list order |
| FaceResults.ToGreetAppend | public/js/face/results.js:281 | the filter works piece by piece, so greetings follow the order of the new names |
| FaceResults.PresentEffects | public/js/face/results.js:217-314 | asleep, the wake-up comes first and is the only wake-up; awake, exactly the new names not already greeted on wake-up are greeted, and no one else; a presence broadcast with the current names and count appears exactly when the count changed or a name arrived or left; nothing else is emitted |
| FaceWorker.CeilDiv | public/js/face-worker.js:138-139 | the smallest count of `s`-sized cells covering `n` |
| FaceWorker.RowAnchors | public/js/face-worker.js:141-147 | one row holds two equal anchors per cell, each centred on its cell |
| FaceWorker.RowsLength | public/js/face-worker.js:140-148 | `h` rows of `gw` cells hold exactly two anchors per cell |
| FaceWorker.GridCell | public/js/face-worker.js:140-148 | cell (i, j) holds the two anchors just past the rows above it plus 2j, both centred on that cell |
| FaceWorker.StrideAnchors | public/js/face-worker.js:137-149 | one stride's anchors, as many as its grid has cells times two, all carrying that stride |
| FaceWorker.GridRowsCells | public/js/face-worker.js:140-148 | the nested loops produce, entry for entry, the anchor of the cell the entry falls in |
| FaceWorker.StrideLoops | public/js/face-worker.js:135-151 | the loops of one stride give exactly that stride's anchors |
| FaceWorker.AnchorLayout | public/js/face-worker.js:135-153 | 12800, 3200 and 800 anchors for strides 8, 16 and 32 (16800 in all), and the decode loop's running offset lands on the first anchor of each stride |
| FaceWorker.AnchorAt | public/js/face-worker.js:271 | the anchor the decode loop reads for anchor `a` of a stride is that stride's `a`-th anchor |
| FaceWorker.DecodeBox | public/js/face-worker.js:277-286 | non-negative distances give a well-formed box containing the anchor centre |
| FaceWorker.DecodeFrom | public/js/face-worker.js:254-303 | from a given stride on, the decoded scores and boxes are that stride's part followed by those of the later strides, one score per box |
| FaceWorker.DecodeStride | public/js/face-worker.js:270-300 | every anchor of the stride contributes its score and the box decoded around the anchor the table holds for it |
| FaceWorker.MaxScore | public/js/face-worker.js:306-309 | the largest score or 0, bounding every score |
| FaceWorker.ActivateScores | public/js/face-worker.js:310-315 | when some score exceeds 1 every score goes through the sigmoid; otherwise the scores are kept |
| FaceWorker.Inter | public/js/face-worker.js:179-183 | the overlap area is never negative |
| FaceWorker.Iou | public/js/face-worker.js:178-187 | undefined exactly when the denominator is zero; for well-formed boxes it exists and lies in [0, 1) |
| FaceWorker.InterWithin | public/js/face-worker.js:183-185 | the overlap is no larger than either box |
| FaceWorker.IouSymmetric | public/js/face-worker.js:178-187 | the overlap ratio does not depend on the order of the boxes |
| FaceWorker.Confident | public/js/face-worker.js:156-159 | exactly the indices with a score above 0.5, ascending |
| FaceWorker.Order | public/js/face-worker.js:156-160 | exactly the confident indices, each once, by descending score |
| FaceWorker.OrderTiesByIndex | public/js/face-worker.js:160 | indices with equal scores stay in ascending order, as the stable sort keeps them |
| FaceWorker.Hits | public/js/face-worker.js:168-173 | exactly the other indices whose box overlaps the kept box by more than the threshold |
| FaceWorker.NmsKeep | public/js/face-worker.js:165-174 | visiting an index not yet suppressed keeps it and suppresses its overlaps, keeping the loop invariant |
| FaceWorker.NmsSkip | public/js/face-worker.js:166 | visiting a suppressed index changes nothing, keeping the loop invariant |
| FaceWorker.Nms | public/js/face-worker.js:155-176 | kept indices are confident, distinct and by descending score; no two kept boxes overlap by more than the threshold; every confident index left out overlaps a box kept before it in score order; and the result is exactly greedy selection over the confident indices by descending score |
| FaceWorker.DecodeParts | public/js/face-worker.js:254-303 | the decoded scores and boxes are the parts of strides 8, 16 and 32 in that order, each the stride's decoded anchors or nothing when the model gave no output for it |
| FaceWorker.Part | public/js/face-worker.js:262-268 | a stride without outputs contributes nothing; otherwise one score and one box per anchor of the stride |
| FaceWorker.SuppressedIffCovered | public/js/face-worker.js:165-173 | an index not yet visited is suppressed exactly when some kept box overlaps it by more than the threshold |
| FaceWorker.GreedyStep | public/js/face-worker.js:164-174 | one visit of the loop is one step of greedy selection: keep the index unless a kept box overlaps it |
| FaceWorker.EarlierSkip | public/js/face-worker.js:166 | a skipped index is overlapped by a box kept before it in score order |
| FaceWorker.NmsVisit | public/js/face-worker.js:162-174 | the loop over the whole ranking ends in the loop state of `nms` (kept boxes ranked and pairwise apart, the suppressed set exactly the boxes overlapping a kept one), every skipped index is covered by an earlier kept box, and the kept list is the one the greedy reference definition gives |
| FrontTurnTiming.TraceIdInjective | public/js/turn-timing.js:12 | different counter values give different `trace-<n>` ids |
| FrontTurnTiming.CreateTrace | public/js/turn-timing.js:11-24 | the counter advances, the new trace has no turn and no marks, is filed under its id and appended to the pending list; every other trace is untouched |
| FrontTurnTiming.CreateFresh | public/js/turn-timing.js:11-24 | in a coherent store the new id was never used, and the store stays coherent |
| FrontTurnTiming.GetTraceById | public/js/turn-timing.js:26-29 | a trace exactly for a non-empty known id, and it is the filed one |
| FrontTurnTiming.MarkTrace | public/js/turn-timing.js:66-69 | an empty event changes nothing; otherwise exactly one mark is appended after the kept ones, with the given time, or the clock reading when that is missing, NaN or zero; nothing else changes |
| FrontTurnTiming.FirstFree | public/js/turn-timing.js:47-53 | the first pending trace that is filed and has no turn, and none exactly when no pending trace is free |
| FrontTurnTiming.Claim | public/js/turn-timing.js:46-58 | the pending list is shifted up to and including the first free trace, which is claimed; when none is free the list ends empty and a fresh fallback trace is claimed |
| FrontTurnTiming.EnsureTraceByTurn | public/js/turn-timing.js:40-64 | an empty turn id gives nothing; a known turn gives its trace and changes nothing; a new turn takes the first free pending trace (dropping the pending ids before it), or a fresh fallback trace, which alone changes in the trace map: it gets the turn and keeps its marks plus one `Turn started (WS)` mark at the clock reading |
| FrontTurnTiming.EnsureClaimsOldest | public/js/turn-timing.js:47-53 | in a coherent store a new turn takes the oldest pending trace, first come first served |
| FrontTurnTiming.EnsureIdempotent | public/js/turn-timing.js:42-44 | asking again for the same turn gives the same trace and changes nothing |
| FrontTurnTiming.EnsureCoherent | public/js/turn-timing.js:40-64 | claiming keeps the store coherent: pending traces are filed and turnless, no repeats, each turn's trace carries that turn |
| FrontTurnTiming.ClaimedUnprinted | public/js/turn-timing.js:40-64 | a newly claimed trace has never been printed |
| FrontTurnTiming.RemoveFirst | public/js/turn-timing.js:31-38 | an absent id changes nothing; otherwise exactly the first occurrence is cut out and the rest keeps its order on both sides |
| FrontTurnTiming.RemoveFirstNoDups | public/js/turn-timing.js:31-38 | without repeats, removing an id removes it for good |
| FrontTurnTiming.AttachTurnToPending | public/js/turn-timing.js:82-105 | an empty turn gives nothing; an unknown trace falls back to claiming; a known trace alone changes in the trace map: it takes the turn, keeps its marks and gains one `Turn started (WS)` mark exactly when it had none; the turn maps to it and it leaves the pending list |
| FrontTurnTiming.AttachCoherent | public/js/turn-timing.js:82-105 | attaching keeps the store coherent and takes the trace off the pending list |
| FrontTurnTiming.AbandonPendingTurn | public/js/turn-timing.js:123-128 | an unknown trace changes nothing; a known one alone changes in the trace map, keeping its marks plus the one event mark at the clock reading, and leaves the pending list; the turn map and counter are unchanged |
| FrontTurnTiming.AbandonedNotClaimed | public/js/turn-timing.js:123-128 | an abandoned trace is no longer pending, so it never takes a later turn |
| FrontTurnTiming.MarkPendingTurn | public/js/turn-timing.js:76-80 | an unknown trace changes nothing; a known one alone changes in the trace map, keeping its marks plus the one new mark; lists and counter unchanged |
| FrontTurnTiming.BeginVadTurn | public/js/turn-timing.js:107-111 | a new pending trace from voice detection, without turn, carrying exactly one `VAD started` mark |
| FrontTurnTiming.BeginVadCoherent | public/js/turn-timing.js:107-111 | starting a voice turn keeps the store coherent |
| FrontTurnTiming.MarkTurn | public/js/turn-timing.js:117-121 | an empty turn changes nothing; otherwise the store after claiming is kept except that the turn's trace keeps its marks plus the one new mark; for a known turn that is the only change to the store |
| FrontTurnTiming.MarkTurnCoherent | public/js/turn-timing.js:117-121 | marking a turn keeps the store coherent |
| FrontTurnTiming.AsTimer | public/js/turn-timing.js:147-148 | the chart's clock starts at the earliest mark |
| FrontTurnTiming.ChartText | public/js/turn-timing.js:166-172 | the caption with the turn (or `pending`) and source, then the header and the rule, then each mark in time order as its padded cells with time since the earliest mark and since the previous one, all of one width |
| FrontTurnTiming.BuildChart | public/js/turn-timing.js:144-174 | no chart exactly when there are no marks; otherwise the non-empty chart lines joined by newlines |
| FrontTurnTiming.FirstRowAtZero | public/js/turn-timing.js:151-159 | the first row reads `0.00` both since the start and since the previous mark |
| FrontTurnTiming.LogTurnTiming | public/js/turn-timing.js:176-186 | a chart is printed exactly for a known turn with marks that is unprinted or forced, and then the trace is marked printed; nothing printed means nothing changed |
| FrontTurnTiming.PrintedOnce | public/js/turn-timing.js:180 | a printed chart is not printed again unless forced |
| FrontTurnTiming.LogCoherent | public/js/turn-timing.js:176-186 | logging keeps the store coherent |
| FrontTurnTiming.MarkAndLog | public/js/turn-timing.js:188-191 | the first mark of a new turn always prints its chart; a known turn prints exactly when forced or not yet printed |
| FrontTurnTiming.RemoveFirstCount | public/js/turn-timing.js:31-38 | the id loses one copy and every other id keeps its count |
| ChatLog.VisibilityNested | public/js/chat-log.js:23-27 | "minimal" shows only the user's lines, "chat" hides only system lines, and each setting shows everything the narrower one shows |
| ChatLog.Prefix | public/js/chat-log.js:45 | one marker character: "◂" exactly for the user's lines, "▸" exactly for the assistant's, "◆" for every other type |
| ChatLog.TrimLog | public/js/chat-log.js:50-54 | a log within 300 lines is kept; a longer one keeps exactly its newest 200 lines, as a suffix |
| ChatLog.LogChat | public/js/chat-log.js:29-55 | user and assistant lines set the turn counter to half the message count; the time stamp is recorded; the new line (hidden when the setting does not show it, with its marker) is last, and the log is the old log plus that line, capped |
| ChatLog.LogStaysCapped | public/js/chat-log.js:50-54 | a log that starts within 300 lines stays within 300 lines however many lines are logged |
| ChatLog.CycleIndex | public/js/chat-log.js:75 | the setting's position in the cycle, -1 exactly when it is not in the cycle |
| ChatLog.NextVerbosity | public/js/chat-log.js:75-76 | all -> chat -> minimal -> all; a setting outside the cycle moves to "all" |
| ChatLog.ThreeClicksRestore | public/js/chat-log.js:57-76 | three clicks bring every setting of the cycle back |
| ChatLog.Label | public/js/chat-log.js:58 | a label exists exactly for settings in the cycle: "ALL", "CHAT" and "MIN" |
| ChatLog.ApplyVerbosityFilter | public/js/chat-log.js:60-67 | every line keeps its type, time and text; typed lines are hidden exactly when the setting hides them; untyped lines are left alone |
| ChatLog.FilterFixesConsistent | public/js/chat-log.js:60-67 | filtering a log that already agrees with the setting changes nothing |
| ChatLog.Toggle | public/js/chat-log.js:73-79 | a click moves to the next setting and shows that setting's label; every typed line is re-hidden by the new setting, so the log is consistent with it, with the same number of lines and the counters untouched |
| ChatLog.ToggleThriceRestores | public/js/chat-log.js:73-79 | three clicks from a consistent log give back the same state |
| GlitchUtils.NormalizeRenderer | public/js/glitch-fx/utils.js:1-5 | always one of `webgpu`, `canvas2d`, `auto`; a string names a renderer exactly when its trimmed lower-cased form does; a falsy value is `auto` |
| GlitchUtils.NormalizeRendererFixed | public/js/glitch-fx/utils.js:1-5 | a normalised setting normalises to itself |
| GlitchUtils.Put | public/js/glitch-fx/utils.js:14-16 | an assignment stores the value under the key, adds the key at the end only when new, and leaves every other key's value alone |
| GlitchUtils.FoldPut | public/js/glitch-fx/utils.js:14 | assigning a list of fields one by one: the keys of both, a later field winning |
| GlitchUtils.ObjectOf | public/js/glitch-fx/utils.js:9 | one field per key, holding that key's last value |
| GlitchUtils.Spread | public/js/glitch-fx/utils.js:14 | `{ ...a, ...b }` has the keys of both, the values of `b` winning |
| GlitchUtils.MergeConfig | public/js/glitch-fx/utils.js:7-20 | the keys of base and patch; an unpatched key keeps the base value; a patched key takes the patch value, except two plain objects, which are merged one level deep |
| GlitchUtils.MergeNested | public/js/glitch-fx/utils.js:14 | inside a merged object the patch's fields win and the base's other fields stay |
| GlitchUtils.MergeAgainSame | public/js/glitch-fx/utils.js:7-20 | merging the same patch again changes no value |
| GlitchUtils.SpreadAgain | public/js/glitch-fx/utils.js:14 | spreading the same object twice is spreading it once |
| GlitchUtils.LutKey | public/js/glitch-fx/utils.js:56 | a key congruent to the rounded hue modulo 360, in [0, 360) from -360 up, and negative for a hue rounded below -360 and not a multiple of 360 |
| GlitchUtils.ColorLut | public/js/glitch-fx/utils.js:55-66 | the table is cached under the hue's key; a cached table is returned as it is; a new table has 101 shades, one per lightness 0..100; other cached tables are kept |
| GlitchUtils.ColorLutRepeat | public/js/glitch-fx/utils.js:55-66 | a second request with the same key, whatever the saturation, gets the first table back and leaves the cache alone |
| GlitchUtils.LutKeyPeriodic | public/js/glitch-fx/utils.js:56 | hues a full turn apart share a table once both round to -360 or above |
| GlitchUtils.Clamp01 | public/js/glitch-fx/utils.js:128-132 | the result lies in [0, 1], equals the value inside, and the nearer bound outside |
| GlitchUtils.Clamp01Monotone | public/js/glitch-fx/utils.js:128-132 | the clamp keeps order |
| SvgShapes.SplitRuns | public/js/svg-shape-normalizer.js:35 | the pieces between maximal runs of whitespace and commas hold no separator, and there is at least one |
| SvgShapes.ParseViewBox | public/js/svg-shape-normalizer.js:31-46 | the canonical viewBox for a blank attribute, one without exactly four fields or one with a field that is not a finite number; otherwise the four numbers read from the fields |
| SvgShapes.ViewBoxRoundTrip | public/js/svg-shape-normalizer.js:31-46 | four number texts written with single spaces are read back as the four numbers |
| SvgShapes.EntryOf | public/js/svg-shape-normalizer.js:53-57 | a chunk gives an entry exactly when its first two colon pieces are non-empty: the trimmed lower-cased key and the trimmed value |
| SvgShapes.StyleEntry | public/js/svg-shape-normalizer.js:53-57 | a chunk's entry, when it has one, is a declaration with a trimmed lower-case key |
| SvgShapes.Assign | public/js/svg-shape-normalizer.js:53-57 | a key is stored exactly when some entry names it, and its value comes from an entry |
| SvgShapes.AssignLastWins | public/js/svg-shape-normalizer.js:53-57 | a key holds the value of the last entry that names it |
| SvgShapes.ParseInlineStyle | public/js/svg-shape-normalizer.js:48-59 | blank text declares nothing; the keys stored are exactly those some semicolon-separated chunk declares, each with a semicolon-free value |
| SvgShapes.StyleLastWins | public/js/svg-shape-normalizer.js:48-59 | a key declared twice keeps the value of its last declaration |
| SvgShapes.SecondColonDropped | public/js/svg-shape-normalizer.js:54 | text after a second colon in a chunk is dropped |
| SvgShapes.StyleProperty | public/js/svg-shape-normalizer.js:64-65 | a property of the inline style is read exactly when it is declared with a non-empty value, which comes back trimmed |
| SvgShapes.ReadStyleOrAttr | public/js/svg-shape-normalizer.js:61-67 | the trimmed attribute when it is not blank, else a non-empty value of the inline style's property, else nothing so the caller's fallback applies |
| SvgShapes.NormalizeColor | public/js/svg-shape-normalizer.js:69-74 | blank text gives the fallback; otherwise `none` for `none` and `transparent`, else the trimmed lower-cased text |
| SvgShapes.NormalizeColorIdempotent | public/js/svg-shape-normalizer.js:69-74 | normalising a colour that is not blank a second time changes nothing, whatever the fallback |
| SvgShapes.NormalizeTrimmed | public/js/svg-shape-normalizer.js:69-74 | normalising the trimmed text is normalising the text |
| SvgShapes.Clamp01 | public/js/svg-shape-normalizer.js:79 | the value clamped into 0..1: kept inside, the nearer end outside |
| SvgShapes.NormalizeOpacity | public/js/svg-shape-normalizer.js:76-80 | the fallback for text that is not a finite number; otherwise the number clamped into 0..1 |
| SvgShapes.NormalizeOpacityMonotone | public/js/svg-shape-normalizer.js:76-80 | a larger opacity never normalises to a smaller one |
| SvgShapes.PaintColor | public/js/svg-shape-normalizer.js:83-84 | a colour attribute that is not blank is normalised with the default as fallback |
| SvgShapes.StrokeWidth | public/js/svg-shape-normalizer.js:86-87 | a visible stroke always has a positive width; the width read is kept when it is positive or the stroke is `none` |
| SvgShapes.PaintOpacity | public/js/svg-shape-normalizer.js:95 | with nothing to read the default opacity is clamped into 0..1; a value read is clamped, and an unreadable one falls back to the unclamped default |
| SvgShapes.LineStyle | public/js/svg-shape-normalizer.js:93-94 | a line cap or join is never empty and is the value read when there is one |
| SvgShapes.ParsePaint | public/js/svg-shape-normalizer.js:82-97 | fill and stroke are normalised from the attribute or style, a visible stroke has a positive width, line cap and join are never empty and a read opacity lies in 0..1 |
| SvgShapes.RectCommands | public/js/svg-shape-normalizer.js:121-150 | no outline exactly for a rectangle without area; otherwise a closed outline of four sides, or of four sides and four corner arcs whose radii are the given ones capped at half the side lengths |
| SvgShapes.RectOutline | public/js/svg-shape-normalizer.js:121-150 | the outline stays inside its rectangle and the closing segment runs straight up the left side to the start |
| SvgShapes.Render | public/js/svg-shape-normalizer.js:135-149 | path data is empty exactly when there are no commands |
| SvgShapes.PathFromRect | public/js/svg-shape-normalizer.js:121-150 | the path data is empty exactly when the width or height read is not positive |
| SvgShapes.HexRun | public/js/svg-shape-normalizer.js:261-269 | the leading run of hex digits: all before it are hex digits and the character after it is not |
| SvgShapes.JsParseHexDigits | public/js/svg-shape-normalizer.js:261-269 | hex digits alone are read as their value |
| SvgShapes.JsParseHexTwo | public/js/svg-shape-normalizer.js:261-269 | what `parseInt(text, 16)` reads from two characters lies in -15..255 |
| SvgShapes.HexColorAsWritten | public/js/svg-shape-normalizer.js:258-271 | the code's reading of the digits after `#`: only three or six characters, each component within -15..255 |
| SvgShapes.HexColor | public/js/svg-shape-normalizer.js:258-271 | corrected: a colour exactly for three or six hex digits and nothing else, each component within 0..255 |
| SvgShapes.HexColorAgrees | public/js/svg-shape-normalizer.js:258-271 | on real hex digits the strict reading and the code's agree |
| SvgShapes.DoubledDigit | public/js/svg-shape-normalizer.js:261-263 | a digit written twice reads as 17 times its value |
| SvgShapes.RgbInner | public/js/svg-shape-normalizer.js:274 | the inside of `rgb(...)` or `rgba(...)` is non-empty and free of `)` |
| SvgShapes.RgbFunction | public/js/svg-shape-normalizer.js:274-280 | a colour from `rgb()` or `rgba()` only when the text has that shape |
| SvgShapes.Named | public/js/svg-shape-normalizer.js:282-288 | the three colour names give components within 0..255 |
| SvgShapes.ParseColorWith | public/js/svg-shape-normalizer.js:254-289 | blank, `none` and `transparent` give nothing; a text starting with `#` is read by the hex reading alone |
| SvgShapes.ParseColorToRgbAsWritten | public/js/svg-shape-normalizer.js:254-289 | as the code reads it, a `#` colour has components within -15..255 |
| SvgShapes.SignedHexAccepted | public/js/svg-shape-normalizer.js:258-271 | `#-1-1-1` decodes to the components -1, -1, -1, outside 0..255 |
| SvgShapes.ParseColorToRgb | public/js/svg-shape-normalizer.js:254-289 | corrected: a `#` colour decodes exactly when it is three or six hex digits, and then to components within 0..255 |
| SvgShapes.HexRoundTrip | public/js/svg-shape-normalizer.js:254-289 | a colour written as `#rrggbb` is decoded back to its components |
| SvgShapes.IsBlueTone | public/js/svg-shape-normalizer.js:291-296 | a blue tone has a fill (or, without one, a stroke) that the code's colour reader accepts |
| SvgShapes.BlueHexFill | public/js/svg-shape-normalizer.js:291-296 | a fill written as `#rrggbb` is blue exactly when blue exceeds red by more than 24 and green by more than 8 |
| SvgShapes.HexReadAsWritten | public/js/svg-shape-normalizer.js:254-271 | the code's own reading of a colour written as `#rrggbb` gives its components back |
| SvgShapes.Ring | public/js/svg-shape-normalizer.js:308 | a closed polyline returns to its first point; an open one is the points as given |
| SvgShapes.Cumulative | public/js/svg-shape-normalizer.js:310-315 | running length along the ring: 0 at the first point, then each segment's length added |
| SvgShapes.TargetBounds | public/js/svg-shape-normalizer.js:326 | sample positions never move backwards and stay within the path |
| SvgShapes.OnSegment | public/js/svg-shape-normalizer.js:335-338 | a point a fraction in 0..1 along a segment of the ring lies on the ring |
| SvgShapes.SampleOnPolyline | public/js/svg-shape-normalizer.js:329-338 | a sample taken between the running lengths at a segment's ends lies on that segment |
| SvgShapes.ResamplePolyline | public/js/svg-shape-normalizer.js:304-343 | nothing for no points or no count; otherwise exactly `count` points: copies of the first point for a single point or a path of (almost) no length, and otherwise sample k is the point at running length k/den of the total, with den `count` around a closed path and `count - 1` (at least 1) along an open one |
| SvgShapes.AdvanceSegment | public/js/svg-shape-normalizer.js:327 | the segment moves forward to the first one whose far end reaches the target, and stays when it already does |
| SvgShapes.SampleRing | public/js/svg-shape-normalizer.js:324-340 | `count` samples, each on the ring, the first at its start, and sample k at running length k/den of the total: on a segment whose running lengths enclose it, that fraction of the way along |
| SvgShapes.FillMissing | public/js/svg-shape-normalizer.js:630-636 | loaded profiles are kept; each missing key gets its fallback; nothing else is added |
| SvgShapes.FillMissingPresent | public/js/svg-shape-normalizer.js:630-636 | filling in keys that are all present changes nothing |
| SvgShapes.FillInTwoPasses | public/js/svg-shape-normalizer.js:627-639 | loaded profiles are kept; every key of the second list is present afterwards, with its fallback when it was missing |
| SvgShapes.EnsureRequiredProfiles | public/js/svg-shape-normalizer.js:627-639 | every profile key is present afterwards; loaded profiles are kept and the others come from the fallback profiles; nothing else is added |
| SvgShapes.EnsureRequiredIdempotent | public/js/svg-shape-normalizer.js:627-639 | filling in a second time changes nothing |
| SvgShapes.BuildFallbackFaceShapeLibrary | public/js/svg-shape-normalizer.js:647-653 | the canonical viewBox, no failed keys, and exactly the profile keys, each from the fallback |
| Strs.Trim | src/assistant/text.js:14 | the trimmed text is never longer, starts and ends with a non-space, and is empty exactly when the input is all whitespace |
| Strs.NormalizeWs | src/assistant/text.js:13-15 | the result is exactly the input's whitespace-separated words joined by single spaces, so it is empty exactly when the input is all whitespace and keeps every non-space character in order |
| Strs.NormalizedIffFixed | src/assistant/text.js:13-15 | a text is in normal form exactly when normalising it changes nothing |
| Strs.NormalizeIdempotent | src/assistant/text.js:13-15 | normalising twice gives the same text as normalising once |
| Strs.SplitOn | src/wake-word.js:107 | splitting on a one-character separator always gives at least one piece and no piece contains the separator |
| Strs.JoinSplit | src/wake-word.js:107 | joining the pieces with the separator gives back the text |
| Strs.SplitJoin | src/wake-word.js:107 | splitting a join of separator-free pieces gives back the pieces |
| Strs.IndexOf | src/assistant/text.js:38 | the index is -1 exactly when the text does not contain the pattern; otherwise the pattern occurs there and nowhere earlier |
| JsonText.StringRoundTrip | src/realtime-processing-service.py:486 | a string literal written the way `json.dumps` writes it is read back as the same string, with whatever follows left over |
| JsConv.JsParseIntOfIntToStr | src/realtime-service.js:6 | `parseInt` reads the decimal text of an integer back as that integer, whatever non-digit text follows |
| JsConv.CentsTextRoundTrip | src/paypal-client.js:53 | an amount printed with two decimals reads back as the same number of cents |
| JsConv.Fixed2TextReadsBack | src/paypal-client.js:53 | below 10^21 the printed text reads back as the value rounded to the nearest cent |
| JsConv.JsRound | public/js/face-manager.js:238-239 | the rounded value is within half a unit of the input, ties going up |
| PyConv.PyInt | src/realtime-processing-service.py:20 | a number truncates toward zero, a boolean reads as 0 or 1, null and containers fail, and an accepted string is decimal integer text after stripping |
| PyConv.PyIntOfIntToStr | src/realtime-processing-service.py:20 | `int(str(n))` is `n` |
| PyConv.PyFloat | src/realtime-processing-service.py:273 | a number is kept, a boolean reads as 0 or 1, null and containers fail, and integer text reads as its integer value |
| Sorting.SortBy | src/turn-timing.js:28 | the result is ordered by the key and is a permutation of the input |
| Sorting.SortByStable | src/turn-timing.js:28 | the sort is stable: elements with equal keys keep their input order |

## Left out

Some behaviour is not modelled at all, and some contracts are deliberately
weaker than what the code does. Each line below names the member or the piece
of the source, with the reason.

**I/O, processes and foreign libraries.** None of these has code that can be
modelled. Their outcomes enter the model as inputs.

- Flask and Node HTTP routing; temporary-file creation, reads and writes; `fs` reads; `localStorage`; the Fullscreen API; DOM reads and writes; WebSocket broadcasts; worker messaging. Outside the model; their results enter as inputs (a form's field texts, a reply's status and body, the set of temporary files).
- The process-wide GPU lock, `ensure_stt_model`/`ensure_tts_model` and the model libraries (lightning-whisper-mlx, faster-whisper, Kokoro, ONNX Runtime). Concurrency and foreign constructors; transcription and synthesis results are inputs to `GatewayAudio`.
- ffmpeg, `say` and `afconvert` subprocesses. Only their outcomes are modelled (success, failure, timeout, raised).
- Child-process spawn, stop and restart in `src/realtime-service.js`, and `getRealtimeTtsProxyTarget`. Process management; only the environment and the restart decision are modelled.
- `setTimeout`, `setInterval` and `requestAnimationFrame` scheduling, including the small head's `processQueue` and `playSpeakBeat` timers. Time is a `now` parameter and the waits are counted as poll steps.
- The Langfuse SDK, which covers `captureTurnTrace`, `findEventTime`, `shutdownLangfuse` and the memoisation and warnings of `getLangfuseClient`. Foreign calls.
- `getAccessToken`, `createOrder`, the fetch of `captureOrder` and `safeReadJson` in `src/paypal-client.js`. Network calls; only the local rules in front of them are modelled.
- `loadSystemPrompt` and `readTextFile` in `src/persona.js`. File reads; the greeting configuration enters as a parsed value.
- `setStatus`, the template, submit and init code of `public/js/manual-beats.js`. DOM and fetch; `ManualBeats.ReadBeatForm` takes the form's field texts.
- Fullscreen sync, blinking, audio playback, the WebSocket handler and `summarizeTurnScript` in `public/js/mini-main.js`. DOM and logging.
- Subtitle DOM rendering, `updateHighlightTo` and the ticks of the audio element. Only the word lookup for an elapsed time is modelled.
- `log` in `src/turn-timing.js` and the console output of `public/js/turn-timing.js`. Only the chart text and the trace store are modelled.
- `toDonationSignalFromPayPalCapture` (src/routes.js:751-772) and `emitDonationSignal`. The first reads a capture reply of the PayPal API and the second is a broadcast; only the webhook mapping is modelled.
- `toISOString` and `atIso` timestamps in `src/langfuse.js`. Date formatting is left out; times are numbers of milliseconds.

**Numbers.**

- Floating-point arithmetic is modelled as exact real arithmetic everywhere: WAV samples, benchmark statistics, subtitle weights, turn timings, face geometry and colours. Rounding error, NaN and the infinities are not represented. The exception is the parsers, whose NaN answers are `None` (`JsConv.JsParseInt`, `PyConv.PyFloat` and the `parseFloat` parameters).
- Wav.ServerSample: the float32 rounding of `pcm_float32 * 32767` is not modelled, and NumPy's cast of NaN is left out. The product is exact.
- MiniHead.QueuedDelay: a delay that reads as NaN is taken as 0 through `Json.JsNumberOrZero`, which is what `Number(v) || 0` does. Other arithmetic on NaN is not represented.
- `Number(text)` on a string uses the `StringToNumber` grammar of ECMA-262. It is a parameter `parseNumber` of `Json.JsNumber`, not a concrete parser.
- PyConv.PyInt: a string is read only as plain decimal integer text: an optional sign and digits, after stripping. Python's `int` also accepts underscores between digits (`"1_000"`) and non-ASCII decimal digits; the model rejects both.
- PyConv.PyFloat: a string is read only as an optional sign, digits and an optional fraction. Python's `float` also accepts exponents (`"1e3"`), underscores, `"inf"`, `"infinity"` and `"nan"`. The model rejects all of these; an infinity or NaN would not be a real number in the model anyway.
- GatewayLlm.Temperature: inherits the narrower string grammar of `PyConv.PyFloat`. A temperature sent as `"1e-1"` or `"nan"` is accepted by the gateway but rejected by the model.
- LlmStream.StreamChunkSize: inherits the narrower grammar of `PyConv.PyInt`. A chunk size sent as `"1_00"` is read by the gateway and clamped; the model falls back to 96.

**Strings.**

- Greetings.NameKey: lower-cases ASCII only. JavaScript's `toLowerCase` is full Unicode, so "ÉMILE" and "émile" share a greeting history in the page but not in the model.
- Routes.NormalizeCurrencyCode: `toUpperCase` is ASCII-only. Full Unicode upper-casing maps, for example, `ß` to `SS`, which can turn a non-ASCII input into three capital letters in the code but not in the model.
- PayPalClient.NormalizeCurrency: the same ASCII-only `toUpperCase`.
- GatewayChat.TypeTag: Python's `upper()` and `lower()` are modelled for ASCII only. The proved `|r| == |v|` holds for this ASCII mapping; full Unicode case mapping can change a string's length (`"ß".upper()` is `"SS"`).
- Context.ToFactKey: lower-cases ASCII only, while `toLowerCase` in `src/assistant/context.js` is full Unicode.
- ManualBeats.ReadBeatForm: the expression field is lower-cased for ASCII only.
- Config.NormalizeSttModel: lower-cases ASCII only. Both reject a name with a non-ASCII capital, since its lower case is not in `[a-z0-9._-]` either. They differ only for the few non-ASCII characters whose Unicode lower case is ASCII, such as the Kelvin sign U+212A, which the code reads as `k`.
- Persona.NormalizeText: `toLowerCase` is ASCII-only. NFKD decomposition and diacritic removal are a caller-supplied `fold`.
- WakeWord.NormalizeWakeText: `toLowerCase` is ASCII-only. NFKD decomposition and diacritic removal are a caller-supplied `fold`; the idempotence lemma assumes only that the fold leaves ASCII alone.
- AssistantText.ClampOutput: lengths count code points, while JavaScript's `length` and `slice` count UTF-16 code units. Text outside the Basic Multilingual Plane, such as an emoji, counts 1 in the model and 2 in the code, so the 280 and 70 thresholds fall later for such text. The model's `ClampOutput` runs `AssistantText.RescueTextFromJson` first, as the code does. Inside `DualHead`, the rescue step is the `rescueText` field of the helper record, and nothing ties that parameter to `AssistantText.RescueTextFromJson`. The `DualHead` contracts that go through `ClampRescued` therefore hold for any rescue function, not only for `rescueTextFromJson`.
- AssistantText.RescueTextFromJson: the regular expression `"text"\s*:\s*"((?:[^"\\]|\\.)*)"` is not modelled. Its capture groups are the parameter `textCaptures`, and `JSON.parse` is the parameter `parse`. The `length > 2` filter counts code points, not UTF-16 code units.
- TurnScript.EstimateBeatDurationMs: the `action` field is lower-cased for ASCII only. JavaScript's `toLowerCase` also maps non-ASCII capitals. A few of these lower-case to ASCII: the Kelvin sign U+212A becomes `k`, so an action `SPEA\u212A` counts as `speak` in the code but not in the model.
- MiniHead.HasSpeakBeat: the `action` field is lower-cased for ASCII only. An action spelled with the Kelvin sign U+212A, which `toLowerCase` turns into `k`, is a speak beat in the code but not in the model.
- RealtimeService.BuildChildEnv: the STT and TTS backend names and the voice are lower-cased for ASCII only. Python's `lower()` is full Unicode: it maps the Kelvin sign U+212A to `k` and other non-ASCII capitals to their lower case, which the model leaves unchanged.
- RealtimeService.ReadGatewaySettings: the backend names read from the environment are lower-cased for ASCII only. Python's `lower()` maps non-ASCII capitals too, among them the Kelvin sign U+212A, which becomes `k`.
- SvgShapes.EntryOf: style property names are lower-cased for ASCII only. `toLowerCase` also maps non-ASCII capitals, and the Kelvin sign U+212A becomes `k`; the model keeps such names as written.
- SvgShapes.NormalizeColor: colour values are lower-cased for ASCII only. `toLowerCase` also maps non-ASCII capitals, and the Kelvin sign U+212A becomes `k`. So `BLAC` followed by U+212A reads as `black` in the code, while the model keeps the character.
- GatewayLlm.PlanGenerate: the provider name and the response MIME type are lower-cased for ASCII only. Python's `lower()` also maps non-ASCII capitals, and the Kelvin sign U+212A becomes `k`; the model keeps those characters.
- AssistantText.CompactForHistory: the 800-character cut counts code points, not UTF-16 code units.
- AssistantText.EstimateTokens: `length / 4` counts code points, not UTF-16 code units.
- RealtimeClient.ErrorDetail: the 300-character cut of a raw-text error counts code points, not UTF-16 code units.
- Context.BuildContents: the character count of the recent turns (`historyChars`) counts code points, not UTF-16 code units.
- TurnTimer.PadLeft: widths count code points, not UTF-16 code units, so an event name outside the Basic Multilingual Plane pads differently in the code. The same holds for TurnTimer.PadRight, TurnTimer.MaxWidth and TurnTimer.Widths.
- DualHead.RescueBeat: the `< 2` length test counts code points, not UTF-16 code units.
- DualHead.RescueLine: the same code-point length count.
- SentenceSplitter.CutPoint: the 56 and 120 thresholds and the space search count code points, not UTF-16 code units.
- Routes.ExtractPaypalDonor: `slice(0, 64)` takes 64 code points, not 64 UTF-16 code units. The code can split a surrogate pair; the model cannot.
- PayPalClient.UnitText: the 120-character cut of the description and `reference_id` counts code points, not UTF-16 code units.
- Subtitles.Weight: word lengths count code points, not UTF-16 code units.
- Subtitles.SegmentText: segment lengths count code points, not UTF-16 code units.
- Emoji.IsPictographic: a superset of the Unicode `Extended_Pictographic` property, made of whole blocks. It also accepts symbols such as U+219A, U+25B2 and U+2606, which the code's `\p{Extended_Pictographic}` leaves alone. The cluster and removal contracts hold for this class, not for the exact property.
- LlmStream.DecodeRecord: accepts only the exact line shapes the gateway writes (`json.dumps` with default separators and the gateway's key order). `JSON.parse` in the client also accepts reordered keys, extra fields and extra whitespace. The round trip is proved for the lines the gateway produces, and other lines are read as unparseable.
- `decodeURIComponent` can throw on a malformed escape in `/shapes/` and `/raw-faces/`. The model takes the decoded file name as its input; the error path before the name check is left out.
- The heavy regexes are predicates rather than regular-expression matchers: markdown stripping (`stripFormatting`), the donation keyword lists of `src/assistant/donation.js` and `public/js/tts-text.js`, and the rescue patterns of `src/assistant/dual-head.js`. They enter as parameters (the keyword test, the captured groups).

**Face and graphics.**

- Letterbox scaling, the Umeyama/SVD alignment, the embedding, ONNX inference and landmark decoding in `public/js/face-worker.js`. Floating-point geometry and foreign inference; anchors, box decoding, IoU and NMS are modelled.
- FaceWorker.DecodeFrom: assumes each stride's score and box outputs are at least as long as its anchor grid. The code reads `undefined` past the end of a shorter output; the model does not cover that.
- The crying and random greeting lines, drawing and eye tracking in `public/js/face/results.js`, and cosine similarity. Similarities are given inputs.
- FaceResults.ByNameSpec: `byName` is a plain object in the code, modelled as a map. The model does not cover two JavaScript effects: a library name such as `__proto__` or `constructor` meets an inherited property, and integer-like names are iterated first. The same holds for FaceResults.Match and FaceResults.Recognize, which read that table.
- `hexToHSL`, `hslToRGB` and the shape hit tests of `public/js/glitch-fx/utils.js`. Colour-space arithmetic; the renderer setting, the configuration merge, the colour-table key and `clamp01` are modelled.
- The DOM parsing of `public/js/svg-shape-normalizer.js`, together with `samplePathPoints`, `pathFromLine`, `pathFromCircle`, and the scaling and bounds computations. They depend on `getPointAtLength` and the DOM. The geometry of `createFallbackProfiles` enters as a parameter of `SvgShapes.EnsureRequiredProfiles`.

**Preconditions beyond the source.**

- FrontTurnTiming.MarkTurn: requires the trace store to be `Coherent`. In a coherent store:
  - every trace is filed under its own id;
  - no id lies beyond the sequence counter;
  - pending entries are distinct unattached traces;
  - by-turn entries are attached traces;
  - printed traces are attached.

  The page's store always has this form, because it is changed only through these functions, which preserve it. So it is an invariant rather than a caller obligation.
- FrontTurnTiming.MarkAndLog: requires a `Coherent` store for the same reason.

## Findings

In each row below, the operations of the model follow the code as written: the
as-written member is the one the rest of the model calls. The corrected member
states the behaviour the code evidently intends, and a lemma proves how far the
two agree.

| source | as written | input that shows it | evidently intended | confidence | as-written member | corrected member |
|---|---|---|---|---|---|---|
| src/routes.js:675-680 | `toSafeAmount` tests `parsed <= 0` before rounding, then returns `Number(parsed.toFixed(2))` | `"0.004"` passes the test and comes back as the amount `0`, so a webhook reports a donation of 0 | an amount that survives the check is positive after rounding to cents | high; not executed | Routes.ToSafeAmountAsWritten; Routes.TinyAmountBecomesZero | Routes.ToSafeAmount; Routes.SafeAmountDiffersOnlyAtZero |
| src/paypal-client.js:46-54 | `formatAmount` tests `amount <= 0` before `toFixed(2)` | `0.004` passes the test and the order body carries the value `"0.00"` | an accepted amount prints as a positive number of cents | high; not executed | PayPalClient.FormatAmountAsWritten; PayPalClient.TinyAmountSentAsZero | PayPalClient.FormatAmount; PayPalClient.FormatAmountDiffersOnlyAtZero |
| src/assistant/dual-head.js:182-188 | `decodeJsonString` undoes escapes with five `replace` calls in a row, so the output of the first is read again by the others | the captured JSON text `a\\nb`, the encoding of `a`, a backslash, `n`, `b`, decodes to `a b` instead of the backslash and `n` | one left-to-right reading of the escapes, undoing exactly what JSON string encoding wrote | high; not executed | DualHead.DecodeJsonStringChained; DualHead.ChainedDecodeReadsTwice | DualHead.DecodeJsonString; DualHead.UnescapeRoundTrip |
| public/js/svg-shape-normalizer.js:258-271 | `parseColorToRgb` reads `#` colours with `Number.parseInt(…, 16)` on each pair and keeps any finite result | `#-1-1-1` gives the components -1, -1, -1 | only three or six hexadecimal digits are a colour, and each component is within 0..255 | high; not executed | SvgShapes.ParseColorToRgbAsWritten; SvgShapes.SignedHexAccepted | SvgShapes.ParseColorToRgb; SvgShapes.HexRoundTrip |

=== FILE: assistant_text.dfy ===
/** The assistant's text helpers: token estimates, input normalisation, pulling a
    JSON object out of a model reply, the sentence cap, the output clamp, the
    history compaction and the TTL sanitiser. */
module AssistantText {
  import opened Wrappers
  import opened Strs
  import opened JsConv
  import opened Json
  import opened JsonText

  const INPUT_CHAR_LIMIT: nat := 800
  const OUTPUT_CHAR_LIMIT: nat := 280
  const MAX_OUTPUT_SENTENCES: nat := 2
  const MIN_TTL_MS: int := 15000
  /** A cut at a sentence end is taken only beyond this index. */
  const MIN_CUT_INDEX: int := 70

  // ---------------------------------------------------------- token estimate

  /** `estimateTokens`: one token per started group of four characters, and never
      fewer than one. */
  function EstimateTokens(text: string): (n: nat)
    ensures n >= 1
    ensures |text| > 0 ==> 4 * (n - 1) < |text| <= 4 * n
    ensures |text| == 0 ==> n == 1
  {
    var q := (|text| + 3) / 4;
    if q < 1 then 1 else q
  }

  // ------------------------------------------------------------ normalisation

  /** `normalizeInput`: whitespace runs become one space, and the ends are trimmed. */
  function NormalizeInput(text: string): string {
    NormalizeWs(text)
  }

  /** The normal form has single plain spaces only between words, keeps every other
      character in order, and is a fixed point. */
  lemma NormalizeInputFacts(text: string)
    ensures Normalized(NormalizeInput(text))
    ensures NonSpace(NormalizeInput(text)) == NonSpace(text)
    ensures NormalizeInput(text) == "" <==> AllWith(text, IsSpace)
    ensures NormalizeInput(NormalizeInput(text)) == NormalizeInput(text)
  {
    NormalizeIdempotent(text);
  }

  // ------------------------------------------------------------ JSON blocks

  const FENCE: string := "```"

  /** The lazy group `([\s\S]+?)` followed by a fence, tried from start `hi` down
      to start `lo` (the order in which backtracking gives the greedy `\s*` back):
      the first start with a fence at least one character further on wins, and the
      group ends at the first such fence. */
  function TryGroupStarts(raw: string, hi: nat, lo: nat): (r: Option<string>)
    requires lo <= hi
    ensures r.Some? ==> exists p :: lo <= p <= hi && p < |raw| && StartsWith(raw[p..], r.value)
    ensures r.None? <==> forall q :: lo <= q <= hi ==> !FenceAfter(raw, q)
    ensures r.Some? ==> exists p :: lo <= p <= hi && GroupAt(raw, p, r.value)
                                   && forall q :: p < q <= hi ==> !FenceAfter(raw, q)
    decreases hi - lo
  {
    var j := IndexOfFrom(raw, FENCE, hi + 1);
    if j >= 0 then
      assert raw[hi..][..j - hi] == raw[hi..j];
      assert FenceAfter(raw, hi) && GroupAt(raw, hi, raw[hi..j]);
      Some(raw[hi..j])
    else if hi == lo then None
    else TryGroupStarts(raw, hi - 1, lo)
  }

  /** A fence starts somewhere after index `q`. */
  predicate FenceAfter(raw: string, q: nat) {
    IndexOfFrom(raw, FENCE, q + 1) >= 0
  }

  /** The lazy group that starts at `p` is `g`: it runs up to the first fence
      after `p`. */
  predicate GroupAt(raw: string, p: nat, g: string) {
    var j := IndexOfFrom(raw, FENCE, p + 1);
    p < j <= |raw| && g == raw[p..j]
  }

  /** Whether `s` starts with "json" in any letter case. */
  predicate StartsWithJsonTag(s: string) {
    |s| >= 4 && LowerStr(s[..4]) == "json"
  }

  /** The regex `/```(?:json)?\s*([\s\S]+?)```/i` anchored at a fence at index `i`:
      with the tag taken (when present) and then without it. */
  function FenceAt(raw: string, i: nat): (r: Option<string>)
    requires OccursAt(raw, FENCE, i)
  {
    var a := i + 3;
    if StartsWithJsonTag(raw[a..]) then
      var b := a + 4;
      var w := LeadCount(raw[b..], IsSpace);
      match TryGroupStarts(raw, b + w, b)
      case Some(g) => Some(g)
      case None => TryGroupStarts(raw, a, a)
    else
      var w := LeadCount(raw[a..], IsSpace);
      TryGroupStarts(raw, a + w, a)
  }

  /** The leftmost match of the fenced-block regex at or after index `i`. */
  function FirstFenced(raw: string, i: nat): Option<string>
    decreases |raw| - i
  {
    if i >= |raw| then None
    else if OccursAt(raw, FENCE, i) && FenceAt(raw, i).Some? then FenceAt(raw, i)
    else FirstFenced(raw, i + 1)
  }

  /** A fence match can only start at a fence. */
  lemma {:induction false} NoFenceNoMatch(raw: string, i: nat)
    ensures !Contains(raw, FENCE) ==> FirstFenced(raw, i).None?
    decreases |raw| - i
  {
    if i < |raw| {
      NoFenceNoMatch(raw, i + 1);
    }
  }

  predicate IsBraced(s: string) {
    |s| >= 1 && s[0] == '{' && s[|s| - 1] == '}'
  }

  /** `extractJsonBlock`: the trimmed reply when it already is a braced block;
      otherwise the trimmed body of the first fenced block; otherwise the trimmed
      slice from the first `{` to the last `}`; otherwise "". */
  function ExtractJsonBlock(rawText: string): (r: string)
    ensures Trim(rawText) == "" ==> r == ""
    ensures IsBraced(Trim(rawText)) ==> r == Trim(rawText)
    ensures !Contains(Trim(rawText), FENCE) && r != "" ==> IsBraced(r)
    ensures !Contains(Trim(rawText), FENCE) && '{' !in Trim(rawText) ==> r == ""
    ensures Trim(rawText) != "" && !IsBraced(Trim(rawText)) ==>
              match FirstFenced(Trim(rawText), 0)
              case Some(g) => r == Trim(g)
              case None => r == BraceSlice(Trim(rawText))
  {
    var raw := Trim(rawText);
    if raw == "" then ""
    else if IsBraced(raw) then raw
    else
      NoFenceNoMatch(raw, 0);
      match FirstFenced(raw, 0)
      case Some(g) => Trim(g)
      case None => BraceSlice(raw)
  }

  /** The fallback of `extractJsonBlock`: the trimmed slice from the first `{`
      to the last `}`, or "" when there is no such pair. */
  function BraceSlice(raw: string): (r: string)
    ensures r != "" ==> IsBraced(r)
    ensures '{' !in raw || '}' !in raw ==> r == ""
    ensures IsBraced(raw) ==> r == raw
    ensures forall i, j :: FirstOpenAt(raw, i) && LastCloseAt(raw, j) ==>
              r == (if i < j then raw[i..j + 1] else "")
  {
    var start := IndexOfChar(raw, '{');
    var end := LastIndexOfChar(raw, '}');
    BraceEnds(raw, start, end);
    BracedSpan(raw, start, end);
    if start >= 0 && end > start then
      BraceSpan(raw, start, end);
      BracedTrim(raw[start..end + 1]);
      Trim(raw[start..end + 1])
    else ""
  }

  /** A span from a `{` to a later `}` is a braced block. */
  lemma BraceSpan(raw: string, start: int, end: int)
    requires 0 <= start < end < |raw| && raw[start] == '{' && raw[end] == '}'
    ensures IsBraced(raw[start..end + 1])
  {
    var slice := raw[start..end + 1];
    assert |slice| == end + 1 - start;
    assert slice[end - start] == raw[end];
  }

  /** In a braced block the first `{` opens it and the last `}` closes it. */
  lemma BracedSpan(raw: string, start: int, end: int)
    requires start == IndexOfChar(raw, '{') && end == LastIndexOfChar(raw, '}')
    ensures IsBraced(raw) ==> start == 0 && end == |raw| - 1 && raw[start..end + 1] == raw
  {
    if IsBraced(raw) {
      assert raw[0..|raw|] == raw;
    }
  }

  /** Index `i` holds the first `{` of `raw`. */
  predicate FirstOpenAt(raw: string, i: int) {
    0 <= i < |raw| && raw[i] == '{' && '{' !in raw[..i]
  }

  /** Index `j` holds the last `}` of `raw`. */
  predicate LastCloseAt(raw: string, j: int) {
    0 <= j < |raw| && raw[j] == '}' && '}' !in raw[j + 1..]
  }

  /** The first `{` and the last `}` are the indices `indexOf` and
      `lastIndexOf` report. */
  lemma BraceEnds(raw: string, start: int, end: int)
    requires start == IndexOfChar(raw, '{') && end == LastIndexOfChar(raw, '}')
    ensures forall i :: FirstOpenAt(raw, i) ==> i == start
    ensures forall j :: LastCloseAt(raw, j) ==> j == end
  {
    forall i | FirstOpenAt(raw, i)
      ensures i == start
    {
      assert '{' in raw;
    }
    forall j | LastCloseAt(raw, j)
      ensures j == end
    {
      assert '}' in raw;
    }
  }

  /** Trimming leaves a braced block alone. */
  lemma BracedTrim(s: string)
    requires IsBraced(s)
    ensures Trim(s) == s
  {
    TrimWithStripped(s, IsSpace);
  }

  /** Once a braced block has been extracted, extracting again returns it. */
  lemma ExtractJsonBlockFixed(rawText: string)
    requires IsBraced(ExtractJsonBlock(rawText))
    ensures ExtractJsonBlock(ExtractJsonBlock(rawText)) == ExtractJsonBlock(rawText)
  {
    BracedTrim(ExtractJsonBlock(rawText));
  }

  /** An object written in a ```json fence, with no fence inside it, is read back
      exactly. */
  lemma FencedObjectRoundTrip(o: string)
    requires IsBraced(o) && !Contains(o, FENCE)
    ensures ExtractJsonBlock("```json\n" + o + "\n```") == o
  {
    var raw := "```json\n" + o + "\n```";
    FencedLayout(o, raw);
    FencedMatch(o, raw);
    TrimNewline(o);
  }

  /** The fenced text is already trimmed, is not itself braced, and opens with a
      fence. */
  lemma FencedLayout(o: string, raw: string)
    requires IsBraced(o) && raw == "```json\n" + o + "\n```"
    ensures Trim(raw) == raw && raw != "" && !IsBraced(raw)
    ensures OccursAt(raw, FENCE, 0)
  {
    assert raw[0] == '`' && raw[|raw| - 1] == '`';
    TrimWithStripped(raw, IsSpace);
    assert raw[..3] == FENCE;
  }

  /** The fence regex matches at index 0 with the object and its newline as the
      group. */
  lemma FencedMatch(o: string, raw: string)
    requires IsBraced(o) && !Contains(o, FENCE) && raw == "```json\n" + o + "\n```"
    requires OccursAt(raw, FENCE, 0)
    ensures FirstFenced(raw, 0) == Some(o + "\n")
  {
    assert raw[3..][..4] == "json";
    assert StartsWithJsonTag(raw[3..]);
    NewlineLead(raw[7..]);
    var e := |raw| - 3;
    FenceAfterObject(o, raw, e);
    assert raw[8..e] == o + "\n";
  }

  lemma NewlineLead(s: string)
    requires |s| >= 2 && s[0] == '\n' && s[1] == '{'
    ensures LeadCount(s, IsSpace) == 1
  {
    assert s[1..][0] == '{';
  }

  /** In the fenced layout the first fence after the tag is the closing one. */
  lemma FenceAfterObject(o: string, raw: string, e: int)
    requires IsBraced(o) && !Contains(o, FENCE)
    requires raw == "```json\n" + o + "\n```" && e == |raw| - 3
    ensures IndexOfFrom(raw, FENCE, 9) == e
  {
    assert raw[e..] == FENCE;
    assert OccursAt(raw, FENCE, e);
    forall j | 9 <= j < e
      ensures !OccursAt(raw, FENCE, j)
    {
      NoFenceInside(o, raw, j);
    }
    IndexOfFromFirst(raw, FENCE, 9, e);
  }

  lemma NoFenceInside(o: string, raw: string, j: int)
    requires IsBraced(o) && !Contains(o, FENCE)
    requires raw == "```json\n" + o + "\n```" && 9 <= j < |raw| - 3
    ensures !OccursAt(raw, FENCE, j)
  {
    if j + 3 <= 8 + |o| {
      assert raw[j..j + 3] == o[j - 8..j - 5];
      assert !OccursAt(o, FENCE, j - 8);
    } else {
      assert raw[8 + |o|] == '\n';
      assert raw[j..j + 3][8 + |o| - j] == '\n';
    }
  }

  lemma {:induction false} IndexOfFromFirst(s: string, sub: string, k: nat, i: int)
    requires k <= i && OccursAt(s, sub, i)
    requires forall j :: k <= j < i ==> !OccursAt(s, sub, j)
    ensures IndexOfFrom(s, sub, k) == i
    decreases i - k
  {
    if k < i {
      IndexOfFromFirst(s, sub, k + 1, i);
    }
  }

  /** Trimming the object's trailing newline gives the object back. */
  lemma TrimNewline(o: string)
    requires IsBraced(o)
    ensures Trim(o + "\n") == o
  {
    var s := o + "\n";
    TrimSolidStart(s, IsSpace);
    assert s[..|s| - 1] == o;
    assert TrailCount(s[..|s| - 1], IsSpace) == 0;
    assert TrailCount(s, IsSpace) == 1;
  }

  // ------------------------------------------------------------ sentence cap

  /** A sentence end (`[.!?]`). */
  predicate IsStop(c: char) { c == '.' || c == '!' || c == '?' }

  /** The number of sentence ends in a string. */
  function StopCount(s: string): nat {
    if |s| == 0 then 0 else (if IsStop(s[0]) then 1 else 0) + StopCount(s[1..])
  }

  lemma {:induction false} StopCountAppend(a: string, b: string)
    ensures StopCount(a + b) == StopCount(a) + StopCount(b)
  {
    if |a| > 0 {
      assert (a + b)[1..] == a[1..] + b;
      StopCountAppend(a[1..], b);
    } else {
      assert a + b == b;
    }
  }

  /** Length of the run of non-stop characters at the start of `s`. */
  function RunLength(s: string): (k: nat)
    ensures k <= |s|
    ensures forall i :: 0 <= i < k ==> !IsStop(s[i])
    ensures k < |s| ==> IsStop(s[k])
  {
    if |s| == 0 || IsStop(s[0]) then 0 else 1 + RunLength(s[1..])
  }

  /** The matches of `/[^.!?]+[.!?]?/g`: each run of non-stop characters with the
      one stop that follows it; stops that follow a stop are skipped. */
  function SentenceChunks(s: string): (cs: seq<string>)
    ensures forall k :: 0 <= k < |cs| ==> StopCount(cs[k]) <= 1
    ensures cs == [] <==> forall i :: 0 <= i < |s| ==> IsStop(s[i])
    decreases |s|
  {
    if |s| == 0 then []
    else if IsStop(s[0]) then
      var cs := SentenceChunks(s[1..]);
      assert forall i :: 1 <= i < |s| ==> s[i] == s[1..][i - 1];
      cs
    else
      var k := RunLength(s);
      var e := if k < |s| then k + 1 else k;
      RunStops(s[..e], k);
      [s[..e]] + SentenceChunks(s[e..])
  }

  /** The text the global chunk matches cover: `s` less every sentence end that
      opens it or follows another sentence end (`afterStop` says whether the
      text before `s` is empty or ends in a sentence end). */
  function Unstrayed(s: string, afterStop: bool): string
    decreases |s|
  {
    if |s| == 0 then ""
    else if IsStop(s[0]) && afterStop then Unstrayed(s[1..], true)
    else [s[0]] + Unstrayed(s[1..], IsStop(s[0]))
  }

  /** One match of `/[^.!?]+[.!?]?/`: a non-empty run of other characters with
      at most one sentence end, at its end. */
  predicate IsChunk(c: string) {
    |c| > 0 && !IsStop(c[0]) && forall i :: 0 <= i < |c| - 1 ==> !IsStop(c[i])
  }

  /** A list of chunks as the global match gives them: each one a match, and
      each but the last ending in a sentence end. */
  predicate WellChunked(cs: seq<string>) {
    && (forall k :: 0 <= k < |cs| ==> IsChunk(cs[k]))
    && (forall k :: 0 <= k < |cs| - 1 ==> EndsInStop(cs[k]))
  }

  predicate EndsInStop(c: string) {
    |c| > 0 && IsStop(c[|c| - 1])
  }

  /** The chunk list is determined: every chunk is one match, every chunk but
      the last ends in a sentence end, and together they spell the text less its
      stray sentence ends. */
  lemma {:induction false} SentenceChunksSpell(s: string)
    ensures Concat(SentenceChunks(s)) == Unstrayed(s, true)
    ensures WellChunked(SentenceChunks(s))
    decreases |s|
  {
    if |s| > 0 {
      if IsStop(s[0]) {
        SentenceChunksSpell(s[1..]);
      } else {
        var k := RunLength(s);
        var e := if k < |s| then k + 1 else k;
        var rest := SentenceChunks(s[e..]);
        assert SentenceChunks(s) == [s[..e]] + rest;
        SentenceChunksSpell(s[e..]);
        UnstrayedRun(s, true, k);
        if e == k {
          assert s[e..] == [];
        }
        ChunksCons(s[..e], rest, e == k);
      }
    }
  }

  /** Reading a run of non-stops and its sentence end keeps them all. */
  lemma {:induction false} UnstrayedRun(s: string, b: bool, k: nat)
    requires k <= |s| && (forall i :: 0 <= i < k ==> !IsStop(s[i]))
    requires k < |s| ==> IsStop(s[k])
    requires k == 0 && k < |s| ==> !b
    ensures var e := if k < |s| then k + 1 else k;
            Unstrayed(s, b) == s[..e] + Unstrayed(s[e..], true)
    decreases k
  {
    if k > 0 {
      UnstrayedRun(s[1..], false, k - 1);
      var e := if k < |s| then k + 1 else k;
      assert s[1..][e - 1..] == s[e..];
      assert [s[0]] + s[1..][..e - 1] == s[..e];
    }
  }

  /** The chunk facts survive putting one more chunk in front. */
  lemma ChunksCons(c: string, rest: seq<string>, last: bool)
    requires IsChunk(c) && (last ==> rest == []) && (!last ==> EndsInStop(c))
    requires WellChunked(rest)
    ensures Concat([c] + rest) == c + Concat(rest)
    ensures WellChunked([c] + rest)
  {
    assert ([c] + rest)[1..] == rest;
  }

  /** A run of other characters and one sentence end is the first chunk, and
      matching goes on after it. */
  lemma ChunkThenRest(run: string, stop: char, rest: string)
    requires run != "" && (forall i :: 0 <= i < |run| ==> !IsStop(run[i])) && IsStop(stop)
    ensures SentenceChunks(run + [stop] + rest) == [run + [stop]] + SentenceChunks(rest)
  {
    var s := run + [stop] + rest;
    assert s[|run|] == stop;
    assert forall i :: 0 <= i < |run| ==> s[i] == run[i];
    var k := RunLength(s);
    assert k == |run|;
    assert s[..k + 1] == run + [stop];
    assert s[k + 1..] == rest;
  }

  lemma RunStops(c: string, k: nat)
    requires k <= |c| <= k + 1 && forall i :: 0 <= i < k ==> !IsStop(c[i])
    ensures StopCount(c) <= 1
  {
    assert c == c[..k] + c[k..];
    StopCountAppend(c[..k], c[k..]);
    NoStops(c[..k]);
    if |c| == k + 1 {
      assert c[k..][1..] == [];
    }
  }

  lemma {:induction false} NoStops(s: string)
    requires forall i :: 0 <= i < |s| ==> !IsStop(s[i])
    ensures StopCount(s) == 0
  {
    if |s| > 0 {
      NoStops(s[1..]);
    }
  }

  /** The trimmed chunks that are not empty, in order. */
  function TrimmedChunks(cs: seq<string>): (ts: seq<string>)
    ensures |ts| <= |cs|
    ensures forall k :: 0 <= k < |ts| ==> ts[k] != "" && !IsSpace(ts[k][0]) && !IsSpace(ts[k][|ts[k]| - 1])
    ensures (forall k :: 0 <= k < |cs| ==> StopCount(cs[k]) <= 1) ==>
              forall k :: 0 <= k < |ts| ==> StopCount(ts[k]) <= 1
  {
    if |cs| == 0 then []
    else
      var t := Trim(cs[0]);
      var rest := TrimmedChunks(cs[1..]);
      StopCountTrim(cs[0]);
      if t == "" then rest else [t] + rest
  }

  /** Chunks are trimmed and filtered one by one, so the kept chunks are in
      input order. */
  lemma {:induction false} TrimmedChunksAppend(a: seq<string>, b: seq<string>)
    ensures TrimmedChunks(a + b) == TrimmedChunks(a) + TrimmedChunks(b)
  {
    if |a| == 0 {
      assert a + b == b;
    } else {
      assert (a + b)[1..] == a[1..] + b;
      TrimmedChunksAppend(a[1..], b);
    }
  }

  /** One chunk is kept trimmed, or dropped when it trims to nothing. */
  lemma TrimmedChunk(c: string)
    ensures TrimmedChunks([c]) == if Trim(c) == "" then [] else [Trim(c)]
  {
    assert [c][1..] == [];
  }

  /** Trimming removes whitespace only, never a sentence end. */
  lemma StopCountTrim(s: string)
    ensures StopCount(Trim(s)) == StopCount(s)
  {
    var r := Trim(s);
    var i := TrimWithSplit(s, IsSpace);
    StopCountAppend(s[..i] + r, s[i + |r|..]);
    StopCountAppend(s[..i], r);
    SpacesNoStops(s[..i]);
    SpacesNoStops(s[i + |r|..]);
  }

  lemma SpacesNoStops(s: string)
    requires AllWith(s, IsSpace)
    ensures StopCount(s) == 0
  {
    NoStops(s);
  }

  /** Joining pieces with spaces adds no sentence end. */
  lemma {:induction false} StopCountJoin(ps: seq<string>)
    requires forall k :: 0 <= k < |ps| ==> StopCount(ps[k]) <= 1
    ensures StopCount(Join(ps, " ")) <= |ps|
  {
    if |ps| > 1 {
      StopCountJoin(ps[1..]);
      StopCountAppend(ps[0] + " ", Join(ps[1..], " "));
      StopCountAppend(ps[0], " ");
    }
  }

  /** `limitSentenceCount`: the first `maxSentences` non-empty trimmed chunks,
      joined by spaces.  Text made only of sentence ends matches no chunk and is
      kept whole. */
  function LimitSentenceCount(text: string, maxSentences: nat): (r: string)
    ensures text == "" ==> r == ""
    ensures (exists i :: 0 <= i < |text| && !IsStop(text[i])) ==> StopCount(r) <= maxSentences
    ensures text != "" && maxSentences > 0 && (forall i :: 0 <= i < |text| ==> IsStop(text[i])) ==> r == text
    ensures r == "" || (!IsSpace(r[0]) && !IsSpace(r[|r| - 1]))
    ensures text != "" ==>
              r == Join(FirstN(TrimmedChunks(if SentenceChunks(text) == [] then [text] else SentenceChunks(text)),
                               maxSentences), " ")
    ensures maxSentences == 0 ==> r == ""
  {
    if text == "" then ""
    else
      JoinTrimmed(KeptChunks(text, maxSentences), " ");
      var r := Trim(Join(KeptChunks(text, maxSentences), " "));
      if forall i :: 0 <= i < |text| ==> IsStop(text[i]) then
        if maxSentences > 0 then AllStopsKept(text, maxSentences); r else r
      else
        SomeChunksKept(text, maxSentences);
        r
  }

  /** The chunks `limitSentenceCount` keeps: the first `maxSentences` trimmed,
      non-empty matches, or the whole text when nothing matches. */
  function KeptChunks(text: string, maxSentences: nat): seq<string> {
    var matched := SentenceChunks(text);
    var chunks := if matched == [] then [text] else matched;
    FirstN(TrimmedChunks(chunks), maxSentences)
  }

  lemma AllStopsKept(text: string, maxSentences: nat)
    requires text != "" && maxSentences > 0
    requires forall i :: 0 <= i < |text| ==> IsStop(text[i])
    ensures Trim(Join(KeptChunks(text, maxSentences), " ")) == text
  {
    assert SentenceChunks(text) == [];
    TrimWithStripped(text, IsSpace);
    assert [text][1..] == [];
    assert TrimmedChunks([text]) == [text];
  }

  lemma SomeChunksKept(text: string, maxSentences: nat)
    requires exists i :: 0 <= i < |text| && !IsStop(text[i])
    ensures StopCount(Trim(Join(KeptChunks(text, maxSentences), " "))) <= maxSentences
  {
    var kept := KeptChunks(text, maxSentences);
    assert SentenceChunks(text) != [];
    StopCountJoin(kept);
    StopCountTrim(Join(kept, " "));
  }

  // ------------------------------------------------------------ output clamp

  /** Index of the last sentence end, or -1 (the largest of the three
      `lastIndexOf` calls). */
  function LastStop(s: string): (i: int)
    ensures -1 <= i < |s|
    ensures i >= 0 ==> IsStop(s[i])
    ensures forall k :: i < k < |s| ==> !IsStop(s[k])
  {
    if |s| == 0 then -1
    else if IsStop(s[|s| - 1]) then |s| - 1
    else
      var j := LastStop(s[..|s| - 1]);
      assert forall k :: 0 <= k < |s| - 1 ==> s[k] == s[..|s| - 1][k];
      j
  }

  /** `s.slice(0, limit).trim() + '...'` for a string that does not start with
      whitespace: a prefix of `s` of at most `limit` characters, then "...". */
  function CutWithEllipsis(s: string, limit: nat): (r: string)
    requires |s| > limit && !IsSpace(s[0])
    ensures |r| <= limit + 3 && EndsWith(r, "...")
    ensures StartsWith(s, r[..|r| - 3])
    ensures limit > 0 ==> |r| > 3
  {
    if limit == 0 then "..."
    else
      var head := s[..limit];
      TrimSolidStart(head, IsSpace);
      var t := Trim(head);
      var r := t + "...";
      assert r[..|r| - 3] == t;
      assert r[|r| - 3..] == "...";
      r
  }

  /** The text `clampOutput` caps: the normalised text limited to two
      sentences. */
  function Capped(rescued: string): string {
    LimitSentenceCount(NormalizeInput(rescued), MAX_OUTPUT_SENTENCES)
  }

  /** The length cap of `clampOutput` over an already sentence-capped text:
      text of at most 280 characters is kept; longer text is cut after its last
      sentence end beyond index 70, or else at 280 characters with "...". */
  function ClampCapped(capped: string): (r: string)
    requires capped == "" || !IsSpace(capped[0])
    ensures |r| <= OUTPUT_CHAR_LIMIT + 3
    ensures r != "" ==> !IsSpace(r[0])
    ensures |capped| <= OUTPUT_CHAR_LIMIT ==> r == capped
    ensures |capped| > OUTPUT_CHAR_LIMIT ==>
              (StartsWith(capped, r) && |r| > MIN_CUT_INDEX + 1 && IsStop(r[|r| - 1]))
              || (EndsWith(r, "...") && StartsWith(capped, r[..|r| - 3]))
  {
    if |capped| <= OUTPUT_CHAR_LIMIT then capped
    else
      var shortened := capped[..OUTPUT_CHAR_LIMIT];
      var cutAt := LastStop(shortened);
      if cutAt > MIN_CUT_INDEX then
        var cut := shortened[..cutAt + 1];
        BracedByText(cut);
        assert StartsWith(capped, cut);
        cut
      else CutWithEllipsis(capped, OUTPUT_CHAR_LIMIT)
  }

  /** A cut that starts with text and ends at a sentence end is already trimmed. */
  lemma BracedByText(s: string)
    requires |s| > 0 && !IsSpace(s[0]) && IsStop(s[|s| - 1])
    ensures Trim(s) == s
  {
    TrimWithStripped(s, IsSpace);
  }

  /** Non-empty text that starts and ends with a non-whitespace character. */
  predicate SolidEnds(t: string) {
    t != "" && !IsSpace(t[0]) && !IsSpace(t[|t| - 1])
  }

  /** A beat the rescue reads aloud: truthy `text`, and `action` either
      `"speak"` or missing or falsy. */
  predicate IsSpokenBeat(b: Json) {
    OptJsTruthy(Get(b, "text"))
    && (Get(b, "action") == Some(JStr("speak")) || !OptJsTruthy(Get(b, "action")))
  }

  /** `String(b.text).trim()`. */
  function SpokenText(b: Json, numberText: real -> string): string {
    Trim(OrEmptyText(Get(b, "text"), numberText))
  }

  /** The non-blank texts of the spoken beats, trimmed, in beat order. */
  function SpokenTexts(beats: seq<Json>, numberText: real -> string): (r: seq<string>)
    ensures |r| <= |beats|
    ensures forall k :: 0 <= k < |r| ==> SolidEnds(r[k])
  {
    if |beats| == 0 then [] else SpokenPiece(beats[0], numberText) + SpokenTexts(beats[1..], numberText)
  }

  /** What one beat adds: its trimmed text when it is spoken and not blank. */
  function SpokenPiece(b: Json, numberText: real -> string): (r: seq<string>)
    ensures |r| <= 1
    ensures forall k :: 0 <= k < |r| ==> SolidEnds(r[k])
  {
    var t := SpokenText(b, numberText);
    if IsSpokenBeat(b) && t != "" then [t] else []
  }

  /** The texts of two runs of beats are the texts of each, in order. */
  lemma {:induction false} SpokenTextsAppend(a: seq<Json>, b: seq<Json>, numberText: real -> string)
    ensures SpokenTexts(a + b, numberText) == SpokenTexts(a, numberText) + SpokenTexts(b, numberText)
  {
    if |a| == 0 {
      assert a + b == b;
    } else {
      assert (a + b)[0] == a[0] && (a + b)[1..] == a[1..] + b;
      SpokenTextsAppend(a[1..], b, numberText);
      var p := SpokenPiece(a[0], numberText);
      assert SpokenTexts(a + b, numberText) == p + SpokenTexts(a[1..] + b, numberText);
      assert p + (SpokenTexts(a[1..], numberText) + SpokenTexts(b, numberText))
          == (p + SpokenTexts(a[1..], numberText)) + SpokenTexts(b, numberText);
    }
  }

  /** One beat contributes its trimmed text exactly when it is spoken and the
      text is not blank. */
  lemma SpokenTextsOne(b: Json, numberText: real -> string)
    ensures SpokenTexts([b], numberText)
            == if IsSpokenBeat(b) && SpokenText(b, numberText) != "" then [SpokenText(b, numberText)] else []
  {
    assert [b][1..] == [];
    assert SpokenTexts([b], numberText) == SpokenPiece(b, numberText) + [];
  }

  /** The spoken texts of the beats in the reply's JSON block, or none when
      there is no block, it does not parse, or it has no `beats` array. */
  function JsonBlockTexts(trimmed: string, parse: string -> Option<Json>,
                          numberText: real -> string): (r: seq<string>)
    ensures forall k :: 0 <= k < |r| ==> SolidEnds(r[k])
    ensures ExtractJsonBlock(trimmed) == "" ==> r == []
    ensures forall items ::
              (ExtractJsonBlock(trimmed) != "" && parse(ExtractJsonBlock(trimmed)).Some?
               && Get(parse(ExtractJsonBlock(trimmed)).value, "beats") == Some(JArr(items)))
              ==> r == SpokenTexts(items, numberText)
  {
    var block := ExtractJsonBlock(trimmed);
    if block == "" then []
    else
      match parse(block)
      case None => []
      case Some(parsed) =>
        match Get(parsed, "beats")
        case Some(JArr(items)) => SpokenTexts(items, numberText)
        case _ => []
  }

  /** One `"text": "..."` capture with `\"` read as a quote and `\n` as a
      space, trimmed. */
  function RescuedCapture(g: string): string {
    Trim(ReplaceEscape(ReplaceEscape(g, '"', "\""), 'n', " "))
  }

  /** The rescued captures longer than two characters, in order. */
  function RescuedCaptures(groups: seq<string>): (r: seq<string>)
    ensures |r| <= |groups|
    ensures forall k :: 0 <= k < |r| ==> |r[k]| > 2 && SolidEnds(r[k])
  {
    if |groups| == 0 then [] else CapturePiece(groups[0]) + RescuedCaptures(groups[1..])
  }

  /** What one capture adds: its rescued text when longer than two characters. */
  function CapturePiece(g: string): (r: seq<string>)
    ensures |r| <= 1
    ensures forall k :: 0 <= k < |r| ==> |r[k]| > 2 && SolidEnds(r[k])
  {
    var t := RescuedCapture(g);
    if |t| > 2 then [t] else []
  }

  /** The captures of two runs of matches are those of each, in order. */
  lemma {:induction false} RescuedCapturesAppend(a: seq<string>, b: seq<string>)
    ensures RescuedCaptures(a + b) == RescuedCaptures(a) + RescuedCaptures(b)
  {
    if |a| == 0 {
      assert a + b == b;
    } else {
      assert (a + b)[0] == a[0] && (a + b)[1..] == a[1..] + b;
      RescuedCapturesAppend(a[1..], b);
      var p := CapturePiece(a[0]);
      assert RescuedCaptures(a + b) == p + RescuedCaptures(a[1..] + b);
      assert p + (RescuedCaptures(a[1..]) + RescuedCaptures(b))
          == (p + RescuedCaptures(a[1..])) + RescuedCaptures(b);
    }
  }

  /** One capture is kept, rescued, exactly when it is longer than two
      characters after rescue. */
  lemma RescuedCapturesOne(g: string)
    ensures RescuedCaptures([g]) == if |RescuedCapture(g)| > 2 then [RescuedCapture(g)] else []
  {
    assert [g][1..] == [];
    assert RescuedCaptures([g]) == CapturePiece(g) + [];
  }

  /** Whether the reply looks as if it holds JSON beats. */
  predicate MentionsBeats(trimmed: string) {
    Contains(trimmed, "\"text\"") || Contains(trimmed, "\"beats\"")
  }

  /** `rescueTextFromJson`: a reply that mentions neither `"text"` nor `"beats"`
      comes back trimmed; otherwise the spoken beats of its JSON block, else the
      `"text": "..."` captures, else the trimmed reply.  `textCaptures` stands
      for the capture groups of `"text"\s*:\s*"((?:[^"\\]|\\.)*)"`. */
  function RescueTextFromJson(text: string, parse: string -> Option<Json>,
                              textCaptures: string -> seq<string>, numberText: real -> string): (r: string)
    ensures Trim(r) == r
    ensures r == "" <==> AllWith(text, IsSpace)
    ensures !MentionsBeats(Trim(text)) ==> r == Trim(text)
    ensures MentionsBeats(Trim(text)) && JsonBlockTexts(Trim(text), parse, numberText) != [] ==>
              r == Join(JsonBlockTexts(Trim(text), parse, numberText), " ")
    ensures MentionsBeats(Trim(text)) && JsonBlockTexts(Trim(text), parse, numberText) == []
            && RescuedCaptures(textCaptures(Trim(text))) != [] ==>
              r == Join(RescuedCaptures(textCaptures(Trim(text))), " ")
    ensures MentionsBeats(Trim(text)) && JsonBlockTexts(Trim(text), parse, numberText) == []
            && RescuedCaptures(textCaptures(Trim(text))) == [] ==>
              r == Trim(text)
  {
    var trimmed := Trim(text);
    TrimWithStripped(trimmed, IsSpace);
    if !MentionsBeats(trimmed) then trimmed
    else
      var fromJson := JsonBlockTexts(trimmed, parse, numberText);
      if fromJson != [] then
        JoinTrimmed(fromJson, " ");
        JoinEnds(fromJson, " ");
        Join(fromJson, " ")
      else
        var fromRegex := RescuedCaptures(textCaptures(trimmed));
        if fromRegex != [] then
          JoinTrimmed(fromRegex, " ");
          JoinEnds(fromRegex, " ");
          Join(fromRegex, " ")
        else trimmed
  }

  /** A reply without a double quote is never taken for JSON: it comes back
      trimmed, whatever the parser and the pattern would find. */
  lemma PlainReplyKept(text: string, parse: string -> Option<Json>,
                       textCaptures: string -> seq<string>, numberText: real -> string)
    requires '"' !in text
    ensures RescueTextFromJson(text, parse, textCaptures, numberText) == Trim(text)
  {
    var trimmed := Trim(text);
    var lead := TrimWithSplit(text, IsSpace);
    assert '"' !in trimmed by {
      forall k | 0 <= k < |trimmed|
        ensures trimmed[k] == text[lead + k]
      {
      }
    }
    if Contains(trimmed, "\"text\"") {
      ContainsHead(trimmed, "\"text\"");
    }
    if Contains(trimmed, "\"beats\"") {
      ContainsHead(trimmed, "\"beats\"");
    }
  }

  /** `clampOutput`: the reply rescued from JSON, then capped.  A blank reply
      gives ""; any other reply gives non-empty text within the length cap. */
  function ClampOutput(text: string, parse: string -> Option<Json>,
                       textCaptures: string -> seq<string>, numberText: real -> string): (r: string)
    ensures |r| <= OUTPUT_CHAR_LIMIT + 3
    ensures r == "" <==> AllWith(text, IsSpace)
    ensures '"' !in text ==> r == ClampRescued(Trim(text))
  {
    var rescued := RescueTextFromJson(text, parse, textCaptures, numberText);
    if '"' !in text then
      PlainReplyKept(text, parse, textCaptures, numberText);
      ClampRescued(rescued)
    else ClampRescued(rescued)
  }

  /** `clampOutput` after the rescue: blank text gives ""; otherwise the
      sentence-capped text within the length cap. */
  function ClampRescued(rescued: string): (r: string)
    ensures |r| <= OUTPUT_CHAR_LIMIT + 3
    ensures r == "" <==> AllWith(rescued, IsSpace)
    ensures r != "" ==> !IsSpace(r[0])
    ensures !AllWith(rescued, IsSpace) && |Capped(rescued)| <= OUTPUT_CHAR_LIMIT ==> r == Capped(rescued)
    ensures !AllWith(rescued, IsSpace) ==> StartsWith(Capped(rescued), r) || EndsWith(r, "...")
  {
    var normalized := NormalizeInput(rescued);
    NormalizeInputFacts(rescued);
    if normalized == "" then ""
    else
      var capped := LimitSentenceCount(normalized, MAX_OUTPUT_SENTENCES);
      CappedNotBlank(normalized);
      ClampPrefix(capped);
      ClampCapped(capped)
  }

  /** The clamped text is a prefix of its input or ends in "...". */
  lemma ClampPrefix(capped: string)
    requires capped == "" || !IsSpace(capped[0])
    ensures StartsWith(capped, ClampCapped(capped)) || EndsWith(ClampCapped(capped), "...")
  {
    if |capped| <= OUTPUT_CHAR_LIMIT {
      assert capped[..|capped|] == capped;
    }
  }

  /** Capping a non-blank normalised text at some sentences leaves text. */
  lemma CappedNotBlank(normalized: string)
    requires normalized != "" && Normalized(normalized)
    ensures LimitSentenceCount(normalized, MAX_OUTPUT_SENTENCES) != ""
  {
    LimitSentenceCountNotBlank(normalized, MAX_OUTPUT_SENTENCES);
  }

  /** Text that does not end in whitespace keeps something under any positive
      sentence cap. */
  lemma LimitSentenceCountNotBlank(text: string, maxSentences: nat)
    requires text != "" && !IsSpace(text[|text| - 1]) && maxSentences > 0
    ensures LimitSentenceCount(text, maxSentences) != ""
  {
    var matched := SentenceChunks(text);
    if matched != [] {
      FirstChunkNotBlank(text);
      var selected := TrimmedChunks(matched);
      assert selected != [] && selected[0] != "";
      var kept := FirstN(selected, maxSentences);
      assert kept[0] == selected[0];
      JoinStartsWithFirst(kept);
    }
  }

  /** Under that condition the first chunk does not trim away. */
  lemma {:induction false} FirstChunkNotBlank(text: string)
    requires text != "" && !IsSpace(text[|text| - 1]) && SentenceChunks(text) != []
    ensures Trim(SentenceChunks(text)[0]) != ""
    decreases |text|
  {
    if IsStop(text[0]) {
      assert SentenceChunks(text) == SentenceChunks(text[1..]);
      FirstChunkNotBlank(text[1..]);
    } else {
      var k := RunLength(text);
      var e := if k < |text| then k + 1 else k;
      var c := text[..e];
      assert SentenceChunks(text)[0] == c;
      assert c[e - 1] == text[e - 1];
      assert !IsSpace(c[e - 1]);
    }
  }

  /** A join whose first piece starts with text is not blank. */
  lemma JoinStartsWithFirst(ps: seq<string>)
    requires |ps| > 0 && ps[0] != "" && !IsSpace(ps[0][0])
    ensures Trim(Join(ps, " ")) != ""
  {
    var j := Join(ps, " ");
    if |ps| > 1 {
      assert j == ps[0] + " " + Join(ps[1..], " ");
    }
    assert j[0] == ps[0][0];
  }

  /** A sentence end in a prefix is a sentence end in the whole. */
  lemma StopCountPrefix(s: string, p: string)
    requires StartsWith(s, p)
    ensures StopCount(p) <= StopCount(s)
  {
    assert s == p + s[|p|..];
    StopCountAppend(p, s[|p|..]);
  }

  /** A clamped reply that is a prefix of the capped text carries at most two
      sentence ends whenever the normalised text holds anything besides sentence
      ends. */
  lemma ClampOutputSentences(rescued: string)
    requires exists i :: 0 <= i < |NormalizeInput(rescued)| && !IsStop(NormalizeInput(rescued)[i])
    requires StartsWith(Capped(rescued), ClampRescued(rescued))
    ensures StopCount(ClampRescued(rescued)) <= MAX_OUTPUT_SENTENCES
  {
    StopCountPrefix(Capped(rescued), ClampRescued(rescued));
  }

  // ---------------------------------------------------------- history compaction

  /** `compactForHistory`: normalised text of at most 800 characters is kept;
      longer text is cut at 800 characters, trimmed and given "...". */
  function CompactForHistory(text: string): (r: string)
    ensures |r| <= INPUT_CHAR_LIMIT + 3
    ensures |NormalizeInput(text)| <= INPUT_CHAR_LIMIT ==> r == NormalizeInput(text)
    ensures |NormalizeInput(text)| > INPUT_CHAR_LIMIT ==>
              EndsWith(r, "...") && StartsWith(NormalizeInput(text), r[..|r| - 3])
    ensures r == "" <==> AllWith(text, IsSpace)
  {
    var normalized := NormalizeInput(text);
    NormalizeInputFacts(text);
    if |normalized| <= INPUT_CHAR_LIMIT then normalized
    else
      assert !IsSpace(normalized[0]);
      CutWithEllipsis(normalized, INPUT_CHAR_LIMIT)
  }

  // ------------------------------------------------------------------ TTL

  /** `sanitizeTtlMs`, over `String(value)`: a value that does not parse as a
      finite integer, or parses below 15000, gives the fallback. */
  function SanitizeTtlMs(value: string, fallbackMs: int): (r: int)
    ensures var v := JsParseIntFinite(value);
            && (v.Some? && v.value >= MIN_TTL_MS ==> r == v.value)
            && (v.None? || v.value < MIN_TTL_MS ==> r == fallbackMs)
  {
    var v := JsParseIntFinite(value);
    if v.None? || v.value < MIN_TTL_MS then fallbackMs else v.value
  }

  /** A TTL written as a decimal integer is taken when it is at least 15000 ms and
      replaced by the fallback otherwise. */
  lemma SanitizeTtlOfDecimal(n: int, fallbackMs: int)
    requires -DOUBLE_OVERFLOW < n < DOUBLE_OVERFLOW
    ensures n >= MIN_TTL_MS ==> SanitizeTtlMs(IntToStr(n), fallbackMs) == n
    ensures n < MIN_TTL_MS ==> SanitizeTtlMs(IntToStr(n), fallbackMs) == fallbackMs
  {
    JsParseIntFiniteOfIntToStr(n);
  }
}

=== FILE: benchmark.dfy ===
/** The command-line and statistics helpers of the LLM latency benchmark: the
    `--key value` parser, the interpolated percentile, the summary of a list of
    timings and the clamps applied to the numeric options. */
module Benchmark {
  import opened Wrappers
  import opened Strs
  import opened JsonText
  import opened JsConv
  import opened Sorting

  // ------------------------------------------------------------ parseArgs

  datatype ArgValue = Text(s: string) | Flag

  type Args = map<string, ArgValue>

  predicate IsOption(arg: string) { StartsWith(arg, "--") }

  /** The pieces of an option after its `--`, split at `=`. */
  function OptionPieces(arg: string): (r: seq<string>)
    requires IsOption(arg)
    ensures |r| >= 1
  {
    SplitOn(arg[2..], '=')
  }

  /** The key of an option: the text between `--` and the first `=`. */
  function ArgKey(arg: string): string
    requires IsOption(arg)
  {
    OptionPieces(arg)[0]
  }

  /** The keys of all options in `argv`. */
  function OptionKeys(argv: seq<string>): set<string> {
    if |argv| == 0 then {}
    else (if IsOption(argv[0]) then {ArgKey(argv[0])} else {}) + OptionKeys(argv[1..])
  }

  /** The loop of `parseArgs` from the current argument on, with the options
      read so far in `out`. Only the piece between the first and a second `=` is
      the inline value; a following argument is consumed as the value when it is
      non-empty and not itself an option. */
  function ParseFrom(argv: seq<string>, out: Args): (r: Args)
    ensures r.Keys == out.Keys + OptionKeys(argv)
    decreases |argv|
  {
    if |argv| == 0 then out
    else if !IsOption(argv[0]) then
      assert OptionKeys(argv) == OptionKeys(argv[1..]);
      ParseFrom(argv[1..], out)
    else
      var pieces := OptionPieces(argv[0]);
      var k := pieces[0];
      assert OptionKeys(argv) == {k} + OptionKeys(argv[1..]);
      if |pieces| >= 2 then ParseFrom(argv[1..], out[k := Text(pieces[1])])
      else if |argv| >= 2 && argv[1] != "" && !IsOption(argv[1]) then
        assert OptionKeys(argv[1..]) == OptionKeys(argv[2..]);
        ParseFrom(argv[2..], out[k := Text(argv[1])])
      else ParseFrom(argv[1..], out[k := Flag])
  }

  /** `parseArgs(argv)`: exactly the options' keys are set. */
  function ParseArgs(argv: seq<string>): (r: Args)
    ensures r.Keys == OptionKeys(argv)
  {
    ParseFrom(argv, map[])
  }

  /** `--key=value` for each pair, in order. */
  function Render(pairs: seq<(string, string)>): seq<string> {
    if |pairs| == 0 then [] else ["--" + pairs[0].0 + "=" + pairs[0].1] + Render(pairs[1..])
  }

  /** The options the pairs set, a later pair overriding an earlier one. */
  function Assign(out: Args, pairs: seq<(string, string)>): Args
    decreases |pairs|
  {
    if |pairs| == 0 then out else Assign(out[pairs[0].0 := Text(pairs[0].1)], pairs[1..])
  }

  predicate NoEquals(pairs: seq<(string, string)>) {
    forall i :: 0 <= i < |pairs| ==> '=' !in pairs[i].0 && '=' !in pairs[i].1
  }

  lemma InlinePieces(k: string, v: string)
    requires '=' !in k && '=' !in v
    ensures IsOption("--" + k + "=" + v)
    ensures OptionPieces("--" + k + "=" + v) == [k, v]
  {
    var arg := "--" + k + "=" + v;
    assert arg[..2] == "--";
    assert arg[2..] == k + "=" + v;
    assert Join([k, v], "=") == k + "=" + v by {
      assert [k, v][1..] == [v];
    }
    SplitJoin([k, v], '=');
  }

  /** Rendering options as `--key=value` and parsing them back gives the same
      settings, as long as neither keys nor values contain `=`. */
  lemma {:induction false} ParseRendered(pairs: seq<(string, string)>, out: Args)
    requires NoEquals(pairs)
    ensures ParseFrom(Render(pairs), out) == Assign(out, pairs)
  {
    if |pairs| > 0 {
      var (k, v) := pairs[0];
      InlinePieces(k, v);
      assert Render(pairs)[1..] == Render(pairs[1..]);
      ParseRendered(pairs[1..], out[k := Text(v)]);
    }
  }

  lemma BareKeyPieces(k: string)
    requires '=' !in k
    ensures IsOption("--" + k) && OptionPieces("--" + k) == [k]
  {
    var arg := "--" + k;
    assert arg[..2] == "--";
    assert arg[2..] == k;
    SplitJoin([k], '=');
  }

  /** `--key value` sets `value` and consumes it when it is non-empty and not
      an option; `--key` with nothing usable after it is a flag. */
  lemma SpacedOption(k: string, v: string, rest: seq<string>, out: Args)
    requires '=' !in k
    ensures v != "" && !IsOption(v) ==>
              ParseFrom(["--" + k, v] + rest, out) == ParseFrom(rest, out[k := Text(v)])
    ensures v == "" || IsOption(v) ==>
              ParseFrom(["--" + k, v] + rest, out) == ParseFrom([v] + rest, out[k := Flag])
  {
    BareKeyPieces(k);
    var argv := ["--" + k, v] + rest;
    assert argv[1..] == [v] + rest;
    assert argv[2..] == rest;
  }

  // ------------------------------------------------------------ statistics

  function Id(x: real): real { x }

  predicate Ascending(s: seq<real>) { SortedBy(s, Id) }

  /** `Math.ceil` on reals. */
  function Ceil(x: real): (c: int)
    ensures x <= c as real < x + 1.0
    ensures c == x.Floor || c == x.Floor + 1
    ensures c == x.Floor <==> x.Floor as real == x
  {
    if x.Floor as real == x then x.Floor else x.Floor + 1
  }

  /** The fractional position `(n - 1) * p` of percentile `p` in a list of
      `n` entries. */
  function Pos(n: nat, p: real): (x: real)
    requires n >= 1 && 0.0 <= p <= 1.0
    ensures 0.0 <= x <= (n - 1) as real
    ensures 0 <= x.Floor <= Ceil(x) <= n - 1
  {
    var m := (n - 1) as real;
    ScaleMonotone(m, 0.0, p);
    ScaleMonotone(m, p, 1.0);
    InRange(m * p, n - 1);
    m * p
  }

  lemma PosIs(n: nat, p: real)
    requires n >= 1 && 0.0 <= p <= 1.0
    ensures Pos(n, p) == (n - 1) as real * p
  {
  }

  lemma ScaleMonotone(m: real, p: real, q: real)
    requires m >= 0.0 && p <= q
    ensures m * p <= m * q
  {
    assert m * q - m * p == m * (q - p);
  }

  lemma InRange(x: real, last: nat)
    requires 0.0 <= x <= last as real
    ensures 0 <= x.Floor <= Ceil(x) <= last
  {
  }

  lemma FloorMonotone(x: real, y: real)
    requires x <= y
    ensures x.Floor <= y.Floor
  {
  }

  /** A higher percentile sits no earlier in the list. */
  lemma PosMonotone(n: nat, p: real, q: real)
    requires n >= 1 && 0.0 <= p <= q <= 1.0
    ensures Pos(n, p) <= Pos(n, q) && Pos(n, p).Floor <= Pos(n, q).Floor
  {
    var m := (n - 1) as real;
    var a, b := m * p, m * q;
    ScaleMonotone(m, p, q);
    assert a <= b;
    PosIs(n, p);
    PosIs(n, q);
    FloorMonotone(a, b);
  }

  /** Entries of an ascending list are ordered by position. */
  lemma AscendingAt(s: seq<real>, i: int, j: int)
    requires Ascending(s) && 0 <= i <= j < |s|
    ensures s[i] <= s[j]
  {
    if i < j {
      assert Id(s[i]) <= Id(s[j]);
    }
  }

  /** `percentile(sorted, p)` for `p` in [0, 1]: linear interpolation between
      the two entries around position `(n - 1) * p`. */
  function Percentile(s: seq<real>, p: real): (r: real)
    requires 0.0 <= p <= 1.0
    ensures |s| == 0 ==> r == 0.0
    ensures |s| == 1 ==> r == s[0]
    ensures |s| >= 2 ==>
              var idx := Pos(|s|, p);
              0 <= idx.Floor <= Ceil(idx) < |s|
              && (Ascending(s) ==> s[idx.Floor] <= r <= s[Ceil(idx)])
  {
    if |s| == 0 then 0.0
    else if |s| == 1 then s[0]
    else
      var idx := Pos(|s|, p);
      var lo := idx.Floor;
      var hi := Ceil(idx);
      if lo == hi then s[lo]
      else
        AscendingBetween(s, lo, hi, idx - lo as real);
        Lerp(s[lo], s[hi], idx - lo as real)
  }

  /** The point a fraction `f` of the way from `a` to `b`. */
  function Lerp(a: real, b: real, f: real): real {
    a + (b - a) * f
  }

  lemma AscendingBetween(s: seq<real>, lo: int, hi: int, f: real)
    requires 0 <= lo <= hi < |s| && 0.0 <= f <= 1.0
    ensures Ascending(s) ==> s[lo] <= Lerp(s[lo], s[hi], f) <= s[hi]
  {
    if Ascending(s) {
      AscendingAt(s, lo, hi);
      Between(s[lo], s[hi], f);
    }
  }

  lemma Between(a: real, b: real, f: real)
    requires 0.0 <= f <= 1.0
    ensures a <= b ==> a <= Lerp(a, b, f) <= b
  {
    if a <= b {
      ScaleMonotone(b - a, 0.0, f);
      ScaleMonotone(b - a, f, 1.0);
    }
  }

  /** Interpolating further along one step never goes down. */
  lemma StepMonotone(a: real, b: real, f: real, g: real)
    requires a <= b && 0.0 <= f <= g
    ensures Lerp(a, b, f) <= Lerp(a, b, g)
  {
    ScaleMonotone(b - a, f, g);
  }

  /** Within one step of the list the interpolation is `s[l] + (s[l+1] - s[l]) * f`,
      also at the step's start. */
  lemma PercentileInStep(s: seq<real>, p: real)
    requires |s| >= 2 && 0.0 <= p <= 1.0
    ensures var idx := Pos(|s|, p);
            var l := idx.Floor;
            && 0 <= l <= Ceil(idx) < |s|
            && (Ceil(idx) == l ==> Percentile(s, p) == s[l])
            && (Ceil(idx) != l ==> l + 1 < |s| && Percentile(s, p) == Lerp(s[l], s[l + 1], idx - l as real))
  {
  }

  /** Two positions in the same step of the list. */
  lemma MonotoneSameStep(s: seq<real>, p: real, q: real)
    requires Ascending(s) && |s| >= 2 && 0.0 <= p <= q <= 1.0
    requires Pos(|s|, p) <= Pos(|s|, q)
    requires (Pos(|s|, p)).Floor == (Pos(|s|, q)).Floor
    ensures Percentile(s, p) <= Percentile(s, q)
  {
    var ip := Pos(|s|, p);
    var iq := Pos(|s|, q);
    var l := ip.Floor;
    PercentileInStep(s, p);
    PercentileInStep(s, q);
    if Ceil(ip) != l {
      assert Ceil(iq) != l;
      AscendingAt(s, l, l + 1);
      StepMonotone(s[l], s[l + 1], ip - l as real, iq - l as real);
    }
  }

  /** A position in a later step. */
  lemma MonotoneLaterStep(s: seq<real>, p: real, q: real)
    requires Ascending(s) && |s| >= 2 && 0.0 <= p <= q <= 1.0
    requires (Pos(|s|, p)).Floor < (Pos(|s|, q)).Floor
    ensures Percentile(s, p) <= Percentile(s, q)
  {
    var ip := Pos(|s|, p);
    var iq := Pos(|s|, q);
    assert Ceil(ip) <= iq.Floor;
    AscendingAt(s, Ceil(ip), iq.Floor);
  }

  /** On a sorted list a higher percentile is never smaller. */
  lemma PercentileMonotone(s: seq<real>, p: real, q: real)
    requires Ascending(s) && 0.0 <= p <= q <= 1.0
    ensures Percentile(s, p) <= Percentile(s, q)
  {
    if |s| >= 2 {
      PosMonotone(|s|, p, q);
      if Pos(|s|, p).Floor == Pos(|s|, q).Floor {
        MonotoneSameStep(s, p, q);
      } else {
        MonotoneLaterStep(s, p, q);
      }
    }
  }

  function Sum(values: seq<real>): real {
    if |values| == 0 then 0.0 else values[0] + Sum(values[1..])
  }

  /** A sum of values within [lo, hi] lies within n * lo and n * hi. */
  lemma {:induction false} SumBounds(values: seq<real>, lo: real, hi: real)
    requires forall i :: 0 <= i < |values| ==> lo <= values[i] <= hi
    ensures |values| as real * lo <= Sum(values) <= |values| as real * hi
  {
    if |values| > 0 {
      SumBounds(values[1..], lo, hi);
    }
  }

  datatype Summary = Summary(n: nat, mean: real, p50: real, p95: real, min: real, max: real)

  /** The extremes of a sorted list bound all of its members. */
  lemma SortedBounds(values: seq<real>)
    requires |values| > 0
    ensures var s := SortBy(values, Id);
            forall i :: 0 <= i < |values| ==> s[0] <= values[i] <= s[|s| - 1]
  {
    forall i | 0 <= i < |values|
      ensures SortBy(values, Id)[0] <= values[i] <= SortBy(values, Id)[|values| - 1]
    {
      SortedBound(values, i);
    }
  }

  lemma SortedBound(values: seq<real>, i: int)
    requires 0 <= i < |values|
    ensures var s := SortBy(values, Id);
            s[0] <= values[i] <= s[|s| - 1]
  {
    var s := SortBy(values, Id);
    OriginalMember(values, Id, i);
    var j :| 0 <= j < |s| && s[j] == values[i];
    AscendingAt(s, 0, j);
    AscendingAt(s, j, |s| - 1);
  }

  /** The mean of values lies between their extremes. */
  lemma MeanBounds(values: seq<real>, lo: real, hi: real)
    requires |values| > 0
    requires forall i :: 0 <= i < |values| ==> lo <= values[i] <= hi
    ensures lo <= Sum(values) / |values| as real <= hi
  {
    SumBounds(values, lo, hi);
    DivBounds(|values| as real, lo, Sum(values), hi);
  }

  lemma DivBounds(n: real, lo: real, x: real, hi: real)
    requires n > 0.0 && n * lo <= x <= n * hi
    ensures lo <= x / n <= hi
  {
    var q := x / n;
    assert n * q == x;
    if q < lo {
      ScaleStrict(n, q, lo);
    }
    if q > hi {
      ScaleStrict(n, hi, q);
    }
  }

  lemma ScaleStrict(m: real, p: real, q: real)
    requires m > 0.0 && p < q
    ensures m * p < m * q
  {
    assert m * q - m * p == m * (q - p);
  }

  /** The median and the 95th percentile of a sorted list lie in order between
      its extremes. */
  lemma QuantilesOrdered(sorted: seq<real>)
    requires |sorted| > 0 && Ascending(sorted)
    ensures sorted[0] <= Percentile(sorted, 0.5) <= Percentile(sorted, 0.95) <= sorted[|sorted| - 1]
  {
    PercentileMonotone(sorted, 0.5, 0.95);
    PercentileMonotone(sorted, 0.0, 0.5);
    PercentileMonotone(sorted, 0.95, 1.0);
    if |sorted| >= 2 {
      PercentileInStep(sorted, 0.0);
      PercentileInStep(sorted, 1.0);
      assert ((|sorted| - 1) as real * 0.0).Floor == 0;
      assert ((|sorted| - 1) as real * 1.0).Floor == |sorted| - 1;
    }
  }

  /** `summarize(values)`: all zeros for no values; otherwise the count, the
      mean, the median and 95th percentile, and the extremes. */
  function Summarize(values: seq<real>): (r: Summary)
    ensures |values| == 0 ==> r == Summary(0, 0.0, 0.0, 0.0, 0.0, 0.0)
    ensures |values| > 0 ==>
              && r.n == |values|
              && r.min in values && r.max in values
              && (forall i :: 0 <= i < |values| ==> r.min <= values[i] <= r.max)
              && r.min <= r.mean <= r.max
              && r.min <= r.p50 <= r.p95 <= r.max
    ensures |values| > 0 ==>
              && r.mean == Sum(values) / |values| as real
              && r.p50 == Percentile(SortBy(values, Id), 0.5)
              && r.p95 == Percentile(SortBy(values, Id), 0.95)
  {
    if |values| == 0 then Summary(0, 0.0, 0.0, 0.0, 0.0, 0.0)
    else
      var sorted := SortBy(values, Id);
      SortedBounds(values);
      SortedMember(values, Id, 0);
      SortedMember(values, Id, |sorted| - 1);
      MeanBounds(values, sorted[0], sorted[|sorted| - 1]);
      QuantilesOrdered(sorted);
      Summary(|values|, Sum(values) / |values| as real, Percentile(sorted, 0.5), Percentile(sorted, 0.95),
              sorted[0], sorted[|sorted| - 1])
  }

  // ------------------------------------------------------------ options

  /** `String(args[key])` of a present option: a flag prints as `true`. */
  function ArgText(v: ArgValue): string {
    match v
    case Text(s) => s
    case Flag => "true"
  }

  /** `String(args[key] ?? fallback)`. */
  function TextOrDefault(args: Args, key: string, fallback: string): string {
    if key in args then ArgText(args[key]) else fallback
  }

  /** `String(args[key] || fallback)`: an empty value also falls back. */
  function TextOrFallback(args: Args, key: string, fallback: string): string {
    if key in args && args[key] != Text("") then ArgText(args[key]) else fallback
  }

  function Max(a: int, b: int): int { if a >= b then a else b }

  /** `Math.max(1, Number.isFinite(raw) ? raw : 3)` with
      `raw = parseInt(String(args.runs ?? '3'))`. */
  function RunsOf(args: Args): (v: int)
    ensures v >= 1
    ensures "runs" !in args ==> v == 3
  {
    var raw := JsParseIntFinite(TextOrDefault(args, "runs", "3"));
    Default3();
    Max(1, if raw.Some? then raw.value else 3)
  }

  /** `Math.max(0, Number.isFinite(raw) ? raw : 1)` with
      `raw = parseInt(String(args.warmup ?? '1'))`. */
  function WarmupOf(args: Args): (v: int)
    ensures v >= 0
    ensures "warmup" !in args ==> v == 1
  {
    var raw := JsParseIntFinite(TextOrDefault(args, "warmup", "1"));
    Default1();
    Max(0, if raw.Some? then raw.value else 1)
  }

  /** `Math.max(1000, parseInt(String(args.timeout_ms || '45000')) || 45000)`. */
  function TimeoutOf(args: Args): (v: int)
    ensures v >= 1000
    ensures "timeout_ms" !in args ==> v == 45000
  {
    var raw := JsParseInt(TextOrFallback(args, "timeout_ms", "45000"));
    Default45000();
    Max(1000, if raw.None? || raw.value == 0 then 45000 else raw.value)
  }

  /** `Math.max(32, parseInt(String(args.max_tokens || '256')) || 256)`. */
  function MaxTokensOf(args: Args): (v: int)
    ensures v >= 32
    ensures "max_tokens" !in args ==> v == 256
  {
    var raw := JsParseInt(TextOrFallback(args, "max_tokens", "256"));
    Default256();
    Max(32, if raw.None? || raw.value == 0 then 256 else raw.value)
  }

  /** `Number(args.temperature)` when finite, else 0.2. `parseNumber` is
      `Number` on a string, `None` for NaN and the infinities; a bare flag is
      `Number(true)`, which is 1. */
  function TemperatureOf(args: Args, parseNumber: string -> Option<real>): (v: real)
    ensures "temperature" !in args ==> v == 0.2
    ensures "temperature" in args && args["temperature"] == Flag ==> v == 1.0
  {
    var t :=
      if "temperature" !in args then None
      else if args["temperature"] == Flag then Some(1.0)
      else parseNumber(args["temperature"].s);
    if t.Some? then t.value else 0.2
  }

  /** A default written as digits is read back as itself. */
  lemma DefaultDigits(s: string, n: nat)
    requires s == NatToStr(n) && n < DOUBLE_OVERFLOW
    ensures JsParseIntFinite(s) == Some(n) && JsParseInt(s) == Some(n)
  {
    JsParseIntOfIntToStr(n, []);
    assert IntToStr(n) + [] == NatToStr(n);
  }

  lemma Default3()
    ensures JsParseIntFinite("3") == Some(3)
  {
    assert NatToStr(3) == "3";
    DefaultDigits("3", 3);
  }

  lemma Default1()
    ensures JsParseIntFinite("1") == Some(1)
  {
    assert NatToStr(1) == "1";
    DefaultDigits("1", 1);
  }

  lemma Default45000()
    ensures JsParseInt("45000") == Some(45000)
  {
    assert NatToStr(45000) == "45000";
    DefaultDigits("45000", 45000);
  }

  lemma Default256()
    ensures JsParseInt("256") == Some(256)
  {
    assert NatToStr(256) == "256";
    DefaultDigits("256", 256);
  }

  /** A run count given in decimal is used as it is when it is at least 1. */
  lemma RunsGiven(args: Args, n: int)
    requires "runs" in args && args["runs"] == Text(IntToStr(n))
    requires 1 <= n < DOUBLE_OVERFLOW
    ensures RunsOf(args) == n
  {
    JsParseIntOfIntToStr(n, []);
    assert IntToStr(n) + [] == IntToStr(n);
  }
}

=== FILE: chat_log.dfy ===
/** The conversation log panel: which entries the verbosity setting shows, how
    the setting cycles, the cap on the number of entries kept, and the turn
    counter shown beside it. */
module ChatLog {
  import opened Wrappers

  const MAX_MESSAGES: nat := 300
  const TRIM_TO: nat := 200

  /** The settings in toggle order. */
  const VERBOSITY_CYCLE: seq<string> := ["all", "chat", "minimal"]

  /** `isVisibleForVerbosity(type)` under the setting `verbosity`: "chat" hides
      system lines, "minimal" shows only what the user said, anything else
      shows everything. */
  predicate IsVisible(verbosity: string, kind: string) {
    if verbosity == "chat" then kind != "sys"
    else if verbosity == "minimal" then kind == "in"
    else true
  }

  /** The settings are nested: what "minimal" shows, "chat" shows, and what
      "chat" shows, every other setting shows. */
  lemma VisibilityNested(kind: string, other: string)
    requires other != "chat" && other != "minimal"
    ensures IsVisible("minimal", kind) ==> IsVisible("chat", kind)
    ensures IsVisible("chat", kind) ==> IsVisible(other, kind)
    ensures IsVisible("minimal", kind) <==> kind == "in"
    ensures !IsVisible("chat", kind) <==> kind == "sys"
  {
  }

  /** One line of the log: its type, time stamp, shown text and visibility. */
  datatype Entry = Entry(kind: string, time: string, text: string, hidden: bool)

  /** Every entry that carries a type is hidden exactly when the setting does
      not show its type. */
  predicate Consistent(entries: seq<Entry>, verbosity: string) {
    forall i :: 0 <= i < |entries| && entries[i].kind != "" ==>
      entries[i].hidden == !IsVisible(verbosity, entries[i].kind)
  }

  /** The marker in front of a line: the user's words, the assistant's words,
      and everything else. */
  function Prefix(kind: string): (r: string)
    ensures |r| == 1
    ensures r == "◂" <==> kind == "in"
    ensures r == "▸" <==> kind == "out"
    ensures kind != "in" && kind != "out" ==> r == "◆"
  {
    if kind == "in" then "◂" else if kind == "out" then "▸" else "◆"
  }

  /** The panel state the log touches. `totalMessages` is counted elsewhere. */
  datatype ChatState = ChatState(verbosity: string, totalMessages: nat, turns: int,
                                 lastHeard: string, entries: seq<Entry>)

  /** The cap: a log that grew past 300 lines keeps its newest 200. */
  function TrimLog(entries: seq<Entry>): (r: seq<Entry>)
    ensures |entries| <= MAX_MESSAGES ==> r == entries
    ensures |entries| > MAX_MESSAGES ==> |r| == TRIM_TO
    ensures |r| <= |entries| && r == entries[|entries| - |r|..]
  {
    if |entries| > MAX_MESSAGES then entries[|entries| - TRIM_TO..] else entries
  }

  /** `logChat(type, text)` at clock text `ts`: the turn counter follows the
      message count on the user's and the assistant's lines, the time stamp is
      recorded, the line is appended (hidden when the setting does not show
      it) and the log is capped. */
  function LogChat(st: ChatState, kind: string, text: string, ts: string): (r: ChatState)
    ensures kind == "in" || kind == "out" ==> r.turns == st.totalMessages / 2 && 2 * r.turns <= st.totalMessages
    ensures kind != "in" && kind != "out" ==> r.turns == st.turns
    ensures r.lastHeard == ts && r.verbosity == st.verbosity && r.totalMessages == st.totalMessages
    ensures |r.entries| > 0 && r.entries[|r.entries| - 1] == Entry(kind, ts, Prefix(kind) + " " + text, !IsVisible(st.verbosity, kind))
    ensures |r.entries| <= |st.entries| + 1
    ensures r.entries == (st.entries + [r.entries[|r.entries| - 1]])[|st.entries| + 1 - |r.entries|..]
    ensures |st.entries| < MAX_MESSAGES ==> r.entries == st.entries + [r.entries[|r.entries| - 1]]
    ensures |st.entries| <= MAX_MESSAGES ==> |r.entries| <= MAX_MESSAGES
    ensures Consistent(st.entries, st.verbosity) ==> Consistent(r.entries, r.verbosity)
  {
    var turns := if kind == "in" || kind == "out" then st.totalMessages / 2 else st.turns;
    var line := Entry(kind, ts, Prefix(kind) + " " + text, !IsVisible(st.verbosity, kind));
    var grown := st.entries + [line];
    var kept := TrimLog(grown);
    assert kept[|kept| - 1] == grown[|grown| - 1];
    AppendConsistent(st.entries, line, st.verbosity);
    ChatState(st.verbosity, st.totalMessages, turns, ts, kept)
  }

  /** Appending a line the setting agrees with, and capping, keeps a
      consistent log consistent. */
  lemma AppendConsistent(entries: seq<Entry>, line: Entry, verbosity: string)
    requires line.hidden == !IsVisible(verbosity, line.kind)
    ensures Consistent(entries, verbosity) ==> Consistent(TrimLog(entries + [line]), verbosity)
  {
    var grown := entries + [line];
    var kept := TrimLog(grown);
    if Consistent(entries, verbosity) {
      forall i | 0 <= i < |kept| && kept[i].kind != ""
        ensures kept[i].hidden == !IsVisible(verbosity, kept[i].kind)
      {
        assert kept[i] == grown[|grown| - |kept| + i];
      }
    }
  }

  /** A log that starts within the cap stays within it however many lines are
      logged. */
  lemma {:induction false} LogStaysCapped(st: ChatState, lines: seq<(string, string, string)>)
    requires |st.entries| <= MAX_MESSAGES
    ensures |LogAll(st, lines).entries| <= MAX_MESSAGES
    decreases |lines|
  {
    if |lines| > 0 {
      var next := LogChat(st, lines[0].0, lines[0].1, lines[0].2);
      LogStaysCapped(next, lines[1..]);
    }
  }

  /** Logging several lines in order. */
  function LogAll(st: ChatState, lines: seq<(string, string, string)>): ChatState
    decreases |lines|
  {
    if |lines| == 0 then st
    else LogAll(LogChat(st, lines[0].0, lines[0].1, lines[0].2), lines[1..])
  }

  /** The position of `v` in the cycle, or -1 (`indexOf`). */
  function CycleIndex(v: string): (i: int)
    ensures -1 <= i < |VERBOSITY_CYCLE|
    ensures i == -1 <==> v !in VERBOSITY_CYCLE
    ensures i >= 0 ==> VERBOSITY_CYCLE[i] == v
  {
    if v == "all" then 0 else if v == "chat" then 1 else if v == "minimal" then 2 else -1
  }

  /** The setting a click on the toggle moves to: the next one in the cycle,
      and the first one from a setting outside the cycle. */
  function NextVerbosity(v: string): (r: string)
    ensures r in VERBOSITY_CYCLE
    ensures v == "all" ==> r == "chat"
    ensures v == "chat" ==> r == "minimal"
    ensures v == "minimal" ==> r == "all"
    ensures v !in VERBOSITY_CYCLE ==> r == "all"
  {
    VERBOSITY_CYCLE[(CycleIndex(v) + 1) % |VERBOSITY_CYCLE|]
  }

  /** Three clicks bring every setting of the cycle back. */
  lemma ThreeClicksRestore(v: string)
    requires v in VERBOSITY_CYCLE
    ensures NextVerbosity(NextVerbosity(NextVerbosity(v))) == v
  {
  }

  /** `VERBOSITY_LABELS[v]`: absent for a setting outside the cycle. */
  function Label(v: string): (r: Option<string>)
    ensures r.Some? <==> v in VERBOSITY_CYCLE
    ensures v == "all" ==> r == Some("ALL")
    ensures v == "chat" ==> r == Some("CHAT")
    ensures v == "minimal" ==> r == Some("MIN")
  {
    if v == "all" then Some("ALL")
    else if v == "chat" then Some("CHAT")
    else if v == "minimal" then Some("MIN")
    else None
  }

  /** `applyVerbosityFilter()`: every typed line is re-hidden by the setting;
      lines without a type are left alone. */
  function ApplyVerbosityFilter(entries: seq<Entry>, verbosity: string): (r: seq<Entry>)
    ensures |r| == |entries|
    ensures Consistent(r, verbosity)
    ensures forall i :: 0 <= i < |r| ==> r[i].kind == entries[i].kind && r[i].time == entries[i].time && r[i].text == entries[i].text
    ensures forall i :: 0 <= i < |r| && entries[i].kind == "" ==> r[i] == entries[i]
  {
    seq(|entries|, i requires 0 <= i < |entries| =>
      if entries[i].kind == "" then entries[i]
      else entries[i].(hidden := !IsVisible(verbosity, entries[i].kind)))
  }

  /** Filtering a log that already agrees with the setting changes nothing. */
  lemma FilterFixesConsistent(entries: seq<Entry>, verbosity: string)
    requires Consistent(entries, verbosity)
    ensures ApplyVerbosityFilter(entries, verbosity) == entries
  {
    var r := ApplyVerbosityFilter(entries, verbosity);
    forall i | 0 <= i < |entries|
      ensures r[i] == entries[i]
    {
    }
  }

  /** A click on the toggle: the next setting, its label and the re-filtered log. */
  function Toggle(st: ChatState): (r: (ChatState, Option<string>))
    ensures r.0.verbosity == NextVerbosity(st.verbosity) && r.1.Some?
    ensures r.1 == Label(r.0.verbosity)
    ensures r.0.entries == ApplyVerbosityFilter(st.entries, r.0.verbosity)
    ensures Consistent(r.0.entries, r.0.verbosity)
    ensures |r.0.entries| == |st.entries|
    ensures r.0.turns == st.turns && r.0.totalMessages == st.totalMessages && r.0.lastHeard == st.lastHeard
  {
    var v := NextVerbosity(st.verbosity);
    (st.(verbosity := v, entries := ApplyVerbosityFilter(st.entries, v)), Label(v))
  }

  /** Clicking three times from a consistent log returns the same log under
      the same setting. */
  lemma ToggleThriceRestores(st: ChatState)
    requires st.verbosity in VERBOSITY_CYCLE && Consistent(st.entries, st.verbosity)
    ensures Toggle(Toggle(Toggle(st).0).0).0 == st
  {
    var a := Toggle(st).0;
    var b := Toggle(a).0;
    var c := Toggle(b).0;
    ThreeClicksRestore(st.verbosity);
    var f := ApplyVerbosityFilter(b.entries, st.verbosity);
    assert c.entries == f;
    forall i | 0 <= i < |st.entries|
      ensures f[i] == st.entries[i]
    {
      assert b.entries[i].kind == st.entries[i].kind && b.entries[i].time == st.entries[i].time
        && b.entries[i].text == st.entries[i].text by {
        assert a.entries[i].kind == st.entries[i].kind && a.entries[i].time == st.entries[i].time
          && a.entries[i].text == st.entries[i].text;
      }
      if st.entries[i].kind == "" {
        assert a.entries[i] == st.entries[i];
        assert b.entries[i] == a.entries[i];
      }
    }
  }
}

=== FILE: client_provider.dfy ===
/** The Node side of the realtime LLM provider: its readiness check, the payload
    it sends to the gateway, how it turns a non-2xx or malformed reply into an
    error, and how `streamContent` ends (aborted before the response, rejected,
    cut off mid-stream, or complete).  Environment variables are parameters:
    `None` is an unset variable. */
module RealtimeClient {
  import opened Wrappers
  import opened Strs
  import opened Json
  import opened LineReader
  import opened LlmStream
  import opened ProcessEnv

  const OPENAI_KEY_WARNING: string :=
    "[LLM] OPENAI_API_KEY missing for realtime openai provider. Conversational requests will fail."

  /** Whether conversational requests can be made, the warning to log when not,
      and the credentials to use. */
  datatype AuthState = AuthState(ready: bool, warning: Option<string>, apiKey: Option<string>)

  /** `REALTIME_LLM_PROVIDER`, trimmed and lower-cased, `ollama` when unset. */
  function ProviderName(providerEnv: Option<string>): string {
    LowerStr(Trim(Or(providerEnv, "ollama")))
  }

  /** `getAuthState`: only the OpenAI provider needs a key, and it is not ready
      without one. */
  function AuthStateOf(providerEnv: Option<string>, apiKeyEnv: Option<string>): (r: AuthState)
    ensures r.ready <==> ProviderName(providerEnv) != "openai" || (apiKeyEnv.Some? && apiKeyEnv.value != "")
    ensures r.warning.Some? <==> !r.ready
    ensures r.warning.Some? ==> r.warning.value == OPENAI_KEY_WARNING
    ensures r.apiKey.Some? <==> ProviderName(providerEnv) == "openai" && r.ready
    ensures r.apiKey.Some? ==> apiKeyEnv == r.apiKey
  {
    if ProviderName(providerEnv) == "openai" then
      if apiKeyEnv.None? || apiKeyEnv.value == "" then AuthState(false, Some(OPENAI_KEY_WARNING), None)
      else AuthState(true, None, apiKeyEnv)
    else AuthState(true, None, None)
  }

  /** The arguments of a provider call that the payload forwards unchanged. */
  datatype Forwarded = Forwarded(contents: Option<Json>, maxOutputTokens: Option<Json>, temperature: Option<Json>,
                                 timeoutMs: Option<Json>, responseMimeType: Option<Json>,
                                 responseSchema: Option<Json>)

  /** The caller's arguments; absent text arguments are `""`. */
  datatype CallArgs = CallArgs(model: string, systemInstruction: string, forwarded: Forwarded)

  /** The JSON body sent to `/llm/generate` and `/llm/stream`. */
  datatype Payload = Payload(model: string, systemInstruction: string, forwarded: Forwarded)

  datatype PayloadError = ModelNotConfigured | SystemPromptMissing

  /** `/^gemini[-._]/i`: a model name meant for the hosted provider.  The
      case-insensitive match maps no non-ASCII character to an ASCII one, so ASCII
      case folding is exact here. */
  predicate IsHostedModelName(m: string) {
    |m| >= 7 && LowerStr(m[..6]) == "gemini" && m[6] in {'-', '.', '_'}
  }

  /** The model actually requested: the caller's, unless it is empty or a hosted
      model name, in which case the configured `REALTIME_LLM_MODEL`. */
  function ChosenModel(requested: string, configured: string): (m: string)
    ensures Trim(requested) != "" && !IsHostedModelName(Trim(requested)) ==> m == Trim(requested)
    ensures Trim(requested) == "" || IsHostedModelName(Trim(requested)) ==> m == configured
  {
    var t := Trim(requested);
    if t == "" || IsHostedModelName(t) then configured else t
  }

  /** `buildPayload`.  `configuredModel` is `REALTIME_LLM_MODEL` (trimmed, `""`
      when unset).  A missing model is reported before a missing instruction. */
  function BuildPayload(args: CallArgs, configuredModel: string): (r: Result<Payload, PayloadError>)
    ensures ChosenModel(args.model, configuredModel) == "" <==> r == Failure(ModelNotConfigured)
    ensures (ChosenModel(args.model, configuredModel) != "" && Trim(args.systemInstruction) == "")
            <==> r == Failure(SystemPromptMissing)
    ensures r.Success? ==>
              r.value.model != "" && r.value.systemInstruction != ""
              && r.value.systemInstruction == Trim(args.systemInstruction)
              && r.value.forwarded == args.forwarded
              && (var t := Trim(args.model);
                  if t != "" && !IsHostedModelName(t) then r.value.model == t else r.value.model == configuredModel)
  {
    var model := ChosenModel(args.model, configuredModel);
    var instruction := Trim(args.systemInstruction);
    if model == "" then Failure(ModelNotConfigured)
    else if instruction == "" then Failure(SystemPromptMissing)
    else Success(Payload(model, instruction, args.forwarded))
  }

  /** JavaScript `trim` leaves a trimmed string as it is. */
  lemma TrimTrimmed(s: string)
    ensures Trim(Trim(s)) == Trim(s)
  {
    TrimWithStripped(Trim(s), IsSpace);
  }

  /** Building a payload from a built payload's own model and instruction gives
      it back: the chosen model is never rejected or replaced a second time. */
  lemma BuildPayloadIdempotent(args: CallArgs, configuredModel: string)
    requires Trim(configuredModel) == configuredModel
    requires BuildPayload(args, configuredModel).Success?
    ensures var p := BuildPayload(args, configuredModel).value;
            BuildPayload(CallArgs(p.model, p.systemInstruction, p.forwarded), configuredModel) == Success(p)
  {
    TrimTrimmed(args.model);
    TrimTrimmed(args.systemInstruction);
  }

  /** The text of a gateway error: the reply's `error` field, else its `message`
      field (each only when truthy), else the first 300 characters of the raw body,
      else `HTTP <status>`.  A field value that is not a string is kept as JSON. */
  datatype Detail = FieldDetail(value: Json) | RawDetail(text: string) | StatusDetail(status: int)

  datatype ClientError =
    | PayloadRejected(reason: PayloadError)
    | HttpError(status: int, detail: Detail)
    | BadResponse(message: string)
    | NetworkError(message: string)

  const NON_JSON_MESSAGE: string := "Realtime LLM API returned non-JSON response"
  const NO_BODY_MESSAGE: string := "Realtime LLM stream API returned no response body"

  /** `json?.[key]`: absent unless the parsed body is an object with that key. */
  function Field(parsed: Option<Json>, key: string): Option<Json> {
    if parsed.Some? then Get(parsed.value, key) else None
  }

  function ErrorDetail(status: int, raw: string, parsed: Option<Json>): (d: Detail)
    ensures OptJsTruthy(Field(parsed, "error")) ==> d == FieldDetail(Field(parsed, "error").value)
    ensures d.FieldDetail? ==> JsTruthy(d.value)
    ensures d.RawDetail? ==> d.text != "" && StartsWith(raw, d.text) && |d.text| <= 300
    ensures d.StatusDetail? <==> raw == "" && !OptJsTruthy(Field(parsed, "error")) && !OptJsTruthy(Field(parsed, "message"))
  {
    if OptJsTruthy(Field(parsed, "error")) then FieldDetail(Field(parsed, "error").value)
    else if OptJsTruthy(Field(parsed, "message")) then FieldDetail(Field(parsed, "message").value)
    else if Take(raw, 300) != "" then RawDetail(Take(raw, 300))
    else StatusDetail(status)
  }

  /** `parseJsonResponse`.  `parsed` is what `JSON.parse(raw)` gave (`None` when it
      threw).  Every non-2xx reply is an error; a 2xx reply must be a JSON object
      or array. */
  function ParseJsonResponse(ok: bool, status: int, raw: string, parsed: Option<Json>): (r: Result<Json, ClientError>)
    ensures !ok ==> r == Failure(HttpError(status, ErrorDetail(status, raw, parsed)))
    ensures r.Success? <==> ok && parsed.Some? && (parsed.value.JObj? || parsed.value.JArr?)
    ensures r.Success? ==> r.value == parsed.value
    ensures ok && r.Failure? ==> r.error == BadResponse(NON_JSON_MESSAGE)
  {
    if !ok then Failure(HttpError(status, ErrorDetail(status, raw, parsed)))
    else if parsed.None? || !(parsed.value.JObj? || parsed.value.JArr?) then Failure(BadResponse(NON_JSON_MESSAGE))
    else Success(parsed.value)
  }

  /** How the stream request went on the wire.  `abortAfter` is the number of
      chunks read before the abort signal fired mid-read, when it did. */
  datatype Transport =
    | FetchAborted
    | FetchFailed(message: string)
    | Responded(ok: bool, status: int, errorBody: string, errorParsed: Option<Json>,
                body: Option<seq<string>>, abortAfter: Option<nat>)

  /** What `streamContent` resolves with. */
  datatype StreamResult = StreamResult(acc: Acc, aborted: bool)

  /** `streamContent`: an abort before the response resolves with empty text; a
      failed request, a non-2xx status or a missing body rejects; an abort
      mid-read resolves with what the complete lines so far gave (the unfinished
      tail is dropped); otherwise the whole body is read. */
  function StreamContent(args: CallArgs, configuredModel: string, t: Transport): (r: Result<StreamResult, ClientError>)
    ensures BuildPayload(args, configuredModel).Failure? ==>
              r == Failure(PayloadRejected(BuildPayload(args, configuredModel).error))
    ensures BuildPayload(args, configuredModel).Success? && t.FetchAborted? ==>
              r == Success(StreamResult(Acc("", [], None, args.model), true))
    ensures r.Success? && r.value.aborted ==> t.FetchAborted? || (t.Responded? && t.abortAfter.Some?)
    ensures r.Success? && !r.value.aborted ==>
              t.Responded? && t.ok && t.body.Some? && r.value.acc == ReadStream(t.body.value, args.model)
    ensures t.Responded? && !t.ok && BuildPayload(args, configuredModel).Success? ==>
              r == Failure(HttpError(t.status, ErrorDetail(t.status, t.errorBody, t.errorParsed)))
  {
    if BuildPayload(args, configuredModel).Failure? then
      Failure(PayloadRejected(BuildPayload(args, configuredModel).error))
    else match t
    case FetchAborted => Success(StreamResult(Acc("", [], None, args.model), true))
    case FetchFailed(m) => Failure(NetworkError(m))
    case Responded(ok, status, errorBody, errorParsed, body, abortAfter) =>
      if !ok then Failure(HttpError(status, ErrorDetail(status, errorBody, errorParsed)))
      else if body.None? then Failure(BadResponse(NO_BODY_MESSAGE))
      else if abortAfter.Some? && abortAfter.value <= |body.value| then
        var rd := ConsumeAll(HandleLine, InitialReader(args.model), body.value[..abortAfter.value]);
        Success(StreamResult(rd.acc, true))
      else Success(StreamResult(ReadStream(body.value, args.model), false))
  }

  /** Handling a line only ever appends to the text and to the delivered deltas. */
  lemma HandleLineExtends(acc: Acc, line: string)
    ensures acc.text <= HandleLine(acc, line).text
    ensures acc.delivered <= HandleLine(acc, line).delivered
  {
  }

  lemma {:induction false} HandleLinesExtend(acc: Acc, lines: seq<string>)
    ensures acc.text <= HandleLines(HandleLine, acc, lines).text
    ensures acc.delivered <= HandleLines(HandleLine, acc, lines).delivered
    decreases |lines|
  {
    if |lines| > 0 {
      var next := HandleLine(acc, lines[0]);
      HandleLineExtends(acc, lines[0]);
      HandleLinesExtend(next, lines[1..]);
    }
  }

  lemma {:induction false} ConsumeAllExtends(rd: Reader<Acc>, chunks: seq<string>)
    ensures rd.acc.text <= ConsumeAll(HandleLine, rd, chunks).acc.text
    ensures rd.acc.delivered <= ConsumeAll(HandleLine, rd, chunks).acc.delivered
    decreases |chunks|
  {
    if |chunks| > 0 {
      var next := ConsumeChunk(HandleLine, rd, chunks[0]);
      var ls := SplitOn(rd.buffer + chunks[0], '\n');
      HandleLinesExtend(rd.acc, ls[..|ls| - 1]);
      ConsumeAllExtends(next, chunks[1..]);
    }
  }

  lemma {:induction false} ConsumeAllAppend<A>(h: (A, string) -> A, rd: Reader<A>, a: seq<string>, b: seq<string>)
    ensures ConsumeAll(h, rd, a + b) == ConsumeAll(h, ConsumeAll(h, rd, a), b)
    decreases |a|
  {
    if |a| == 0 {
      assert a + b == b;
    } else {
      assert (a + b)[0] == a[0];
      assert (a + b)[1..] == a[1..] + b;
      ConsumeAllAppend(h, ConsumeChunk(h, rd, a[0]), a[1..], b);
    }
  }

  /** An abort mid-read keeps a prefix of what the complete read would have
      produced: no delta is invented, reordered or delivered twice. */
  lemma AbortedReadIsPrefix(args: CallArgs, configuredModel: string, t: Transport)
    requires StreamContent(args, configuredModel, t).Success?
    requires t.Responded? && t.body.Some?
    ensures var acc := StreamContent(args, configuredModel, t).value.acc;
            var full := ReadStream(t.body.value, args.model);
            acc.text <= full.text && acc.delivered <= full.delivered
  {
    var chunks := t.body.value;
    if t.abortAfter.Some? && t.abortAfter.value <= |chunks| {
      var k := t.abortAfter.value;
      assert chunks == chunks[..k] + chunks[k..];
      var rd := ConsumeAll(HandleLine, InitialReader(args.model), chunks[..k]);
      ConsumeAllAppend(HandleLine, InitialReader(args.model), chunks[..k], chunks[k..]);
      ConsumeAllExtends(rd, chunks[k..]);
      HandleLineExtends(ConsumeAll(HandleLine, rd, chunks[k..]).acc, ConsumeAll(HandleLine, rd, chunks[k..]).buffer);
    }
  }

  /** The Node client's view of a successful `/llm/stream` body that arrives
      whole: it resolves, unaborted, with the text the gateway generated. */
  lemma StreamContentRoundTrip(args: CallArgs, configuredModel: string, text: string, cs: int,
                               usage: Usage, model: string, chunks: seq<string>)
    requires BuildPayload(args, configuredModel).Success?
    requires cs >= 1
    requires Concat(chunks) == StreamBody(text, cs, usage, model)
    ensures var r := StreamContent(args, configuredModel, Responded(true, 200, "", None, Some(chunks), None));
            r.Success? && !r.value.aborted && r.value.acc.text == text
            && r.value.acc.delivered == Deltas(text, cs) && r.value.acc.usage == Some(usage)
  {
    var r := StreamContent(args, configuredModel, Responded(true, 200, "", None, Some(chunks), None));
    assert r == Success(StreamResult(ReadStream(chunks, args.model), false));
    StreamRoundTrip(text, cs, usage, model, chunks, args.model);
  }
}

=== FILE: config.dfy ===
/** The bridge's runtime configuration and its speech-to-text model rule: a model
    name is trimmed and lower-cased, and must then be a non-empty run of
    `[a-z0-9._-]`. */
module Config {
  import opened Wrappers
  import opened Strs
  import opened ProcessEnv

  /** Both rejections carry the code `BAD_CONFIG`. */
  datatype ConfigError = EmptyModel | InvalidModelCharacters

  predicate IsModelChar(c: char) {
    IsLowerAscii(c) || IsDigit(c) || c == '.' || c == '_' || c == '-'
  }

  predicate IsModelName(m: string) {
    m != "" && forall i :: 0 <= i < |m| ==> IsModelChar(m[i])
  }

  /** `normalizeSttModel`; `model` is `String(model || '')`. */
  function NormalizeSttModel(model: string): (r: Result<string, ConfigError>)
    ensures r.Success? <==> IsModelName(LowerStr(Trim(model)))
    ensures r.Success? ==> r.value == LowerStr(Trim(model))
    ensures LowerStr(Trim(model)) == "" <==> r == Failure(EmptyModel)
  {
    var n := LowerStr(Trim(model));
    if n == "" then Failure(EmptyModel)
    else if !IsModelName(n) then Failure(InvalidModelCharacters)
    else Success(n)
  }

  /** A normalised model name is accepted unchanged, so normalising twice (as a
      restart with an already resolved model does) is harmless. */
  lemma NormalizeSttModelIdempotent(model: string)
    requires NormalizeSttModel(model).Success?
    ensures NormalizeSttModel(NormalizeSttModel(model).value) == NormalizeSttModel(model)
  {
    var m := NormalizeSttModel(model).value;
    assert !IsSpace(m[0]) && !IsSpace(m[|m| - 1]) by {
      assert IsModelChar(m[0]) && IsModelChar(m[|m| - 1]);
    }
    TrimWithStripped(m, IsSpace);
    LowerStrOfLower(m);
  }

  /** Upper-case letters are folded rather than rejected. */
  lemma UpperCaseModelAccepted(model: string)
    requires IsModelName(model)
    ensures NormalizeSttModel(UpperStr(model)) == Success(model)
  {
    var u := UpperStr(model);
    UpperModelEnds(model);
    TrimWithStripped(u, IsSpace);
    LowerOfUpperModel(model);
    assert LowerStr(Trim(u)) == model;
  }

  lemma UpperModelEnds(model: string)
    requires IsModelName(model)
    ensures var u := UpperStr(model); !IsSpace(u[0]) && !IsSpace(u[|u| - 1])
  {
    assert IsModelChar(model[0]) && IsModelChar(model[|model| - 1]);
  }

  lemma LowerOfUpperModel(model: string)
    requires IsModelName(model)
    ensures LowerStr(UpperStr(model)) == model
  {
    var u := UpperStr(model);
    forall i | 0 <= i < |model|
      ensures LowerStr(u)[i] == model[i]
    {
      assert IsModelChar(model[i]);
    }
  }

  /** The settings the bridge changes at run time; `""` is an unset field. */
  datatype RuntimeConfig = RuntimeConfig(sttModel: string, sttBackend: string, ttsBackend: string,
                                         kokoroVoice: string)

  /** `DEFAULT_STT_MODEL`: `WHISPER_MODEL`, or `small`. */
  function DefaultSttModel(env: Env): (m: string)
    ensures m != ""
    ensures "WHISPER_MODEL" in env && env["WHISPER_MODEL"] != "" ==> m == env["WHISPER_MODEL"]
  {
    Or(Var(env, "WHISPER_MODEL"), "small")
  }

  /** The configuration at start-up: only the speech model is set. */
  function InitialRuntimeConfig(env: Env): (c: RuntimeConfig)
    ensures c.sttModel != "" && c.sttBackend == "" && c.ttsBackend == "" && c.kokoroVoice == ""
  {
    RuntimeConfig(DefaultSttModel(env), "", "", "")
  }
}

=== FILE: context.dfy ===
/** The assistant's conversation context: the remembered facts (a map in
    insertion order, at most eight, the oldest evicted first), the stored
    conversation history (at most 24 turns, expired turns pruned from the
    front), and the request contents built from the most recent turns.  The
    source keeps all of this in module-level variables; here it is passed in and
    returned, and the clock is the `now` parameter. */
module Context {
  import opened Wrappers
  import opened Strs
  import opened JsConv
  import opened JsonText
  import ProcessEnv
  import opened AssistantText

  const HISTORY_CONTEXT_SIZE: nat := 6
  const HISTORY_STORE_LIMIT: nat := 24
  const MEMORY_LIMIT: nat := 8
  const MEMORY_CONTEXT_SIZE: nat := 4
  const HISTORY_TTL_FALLBACK_MS: int := 240000
  const MEMORY_TTL_FALLBACK_MS: int := 360000
  const FACT_KEY_LIMIT: nat := 80
  const SILENCE_TURN: string := "[silence]"
  const IMAGE_MIME: string := "image/jpeg"

  /** 10^21: from here on `String(n)` switches to exponent notation. */
  const EXPONENT_FORM: int := 1_000_000_000_000_000_000_000

  datatype Fact = Fact(key: string, labelText: string, value: string, updatedAt: int)
  datatype Entry = Entry(role: string, text: string, ts: int)

  /** The module-level state: history, memory facts, reply counter and the
      missing-key warning flag. */
  datatype State = State(history: seq<Entry>, memory: seq<Fact>, replyCount: int, warnedMissingApiKey: bool)

  datatype Part = TextPart(text: string) | InlineData(mimeType: string, data: string)
  datatype Content = Content(role: string, parts: seq<Part>)

  /** `buildContents(..., { returnMeta: true })`, together with the history as
      pruning left it. */
  datatype Built = Built(contents: seq<Content>, historyMessages: nat, historyChars: nat,
                         imageAttached: bool, history: seq<Entry>)

  // ------------------------------------------------------------------ TTLs

  /** `sanitizeTtlMs(Number.parseInt(process.env[name] || fallback, 10), fallbackMs)`:
      the parsed number is printed with `String` and parsed again.  NaN and
      Infinity print as words and give the fallback; an integer of at least
      10^21 prints in exponent form, whose leading digit is below the 15000 ms
      minimum, so it gives the fallback too. */
  function TtlFromEnv(env: ProcessEnv.Env, name: string, fallbackMs: int): (r: int)
    ensures r == fallbackMs || MIN_TTL_MS <= r < EXPONENT_FORM
  {
    var v := JsParseInt(ProcessEnv.Or(ProcessEnv.Var(env, name), IntToStr(fallbackMs)));
    if v.None? || v.value <= -EXPONENT_FORM || v.value >= EXPONENT_FORM then fallbackMs
    else
      SanitizeTtlOfDecimal(v.value, fallbackMs);
      SanitizeTtlMs(IntToStr(v.value), fallbackMs)
  }

  lemma ExponentFormFinite()
    ensures EXPONENT_FORM < DOUBLE_OVERFLOW
  {
  }

  /** A variable holding a decimal TTL of at least 15000 ms (and below 10^21)
      is taken as it is; a smaller one gives the fallback. */
  lemma TtlOfDecimalVar(env: ProcessEnv.Env, name: string, fallbackMs: int, n: int)
    requires ProcessEnv.Var(env, name) == Some(IntToStr(n))
    ensures MIN_TTL_MS <= n < EXPONENT_FORM ==> TtlFromEnv(env, name, fallbackMs) == n
    ensures n < MIN_TTL_MS ==> TtlFromEnv(env, name, fallbackMs) == fallbackMs
  {
    var s := IntToStr(n);
    assert ProcessEnv.Or(ProcessEnv.Var(env, name), IntToStr(fallbackMs)) == s;
    JsParseIntOfIntToStr(n, "");
    assert s + "" == s;
    if -EXPONENT_FORM < n < EXPONENT_FORM {
      ExponentFormFinite();
      SanitizeTtlOfDecimal(n, fallbackMs);
    }
  }

  /** An unset or empty variable gives the fallback. */
  lemma TtlOfUnsetVar(env: ProcessEnv.Env, name: string, fallbackMs: int)
    requires ProcessEnv.Or(ProcessEnv.Var(env, name), "") == ""
    requires MIN_TTL_MS <= fallbackMs < EXPONENT_FORM
    ensures TtlFromEnv(env, name, fallbackMs) == fallbackMs
  {
    var s := IntToStr(fallbackMs);
    assert ProcessEnv.Or(ProcessEnv.Var(env, name), s) == s;
    JsParseIntOfIntToStr(fallbackMs, "");
    assert s + "" == s;
    ExponentFormFinite();
    SanitizeTtlOfDecimal(fallbackMs, fallbackMs);
  }

  function HistoryTtl(env: ProcessEnv.Env): int {
    TtlFromEnv(env, "ASSISTANT_HISTORY_TTL_MS", HISTORY_TTL_FALLBACK_MS)
  }

  function MemoryTtl(env: ProcessEnv.Env): int {
    TtlFromEnv(env, "ASSISTANT_MEMORY_TTL_MS", MEMORY_TTL_FALLBACK_MS)
  }

  // ------------------------------------------------------------------ memory

  predicate UniqueKeys(mem: seq<Fact>) {
    forall i, j :: 0 <= i < j < |mem| ==> mem[i].key != mem[j].key
  }

  predicate NonEmptyKeys(mem: seq<Fact>) {
    forall i :: 0 <= i < |mem| ==> mem[i].key != ""
  }

  /** Position of `key` in the map, or -1. */
  function KeyIndex(mem: seq<Fact>, key: string): (i: int)
    ensures -1 <= i < |mem|
    ensures i >= 0 ==> mem[i].key == key
    ensures i == -1 <==> forall k :: 0 <= k < |mem| ==> mem[k].key != key
  {
    if |mem| == 0 then -1
    else if mem[0].key == key then 0
    else
      var i := KeyIndex(mem[1..], key);
      assert forall k :: 1 <= k < |mem| ==> mem[k] == mem[1..][k - 1];
      if i == -1 then -1 else i + 1
  }

  /** `Map.prototype.set`: an existing key is overwritten where it stands, a new
      key goes last. */
  function SetFact(mem: seq<Fact>, f: Fact): (r: seq<Fact>)
    ensures KeyIndex(mem, f.key) >= 0 ==> r == mem[KeyIndex(mem, f.key) := f]
    ensures KeyIndex(mem, f.key) == -1 ==> r == mem + [f]
  {
    var i := KeyIndex(mem, f.key);
    if i >= 0 then mem[i := f] else mem + [f]
  }

  /** Setting a key leaves one fact under it, the new one, and every other fact
      where it was. */
  lemma SetFactFacts(mem: seq<Fact>, f: Fact)
    requires UniqueKeys(mem)
    ensures UniqueKeys(SetFact(mem, f))
    ensures f in SetFact(mem, f)
    ensures KeyIndex(SetFact(mem, f), f.key) >= 0 && SetFact(mem, f)[KeyIndex(SetFact(mem, f), f.key)] == f
    ensures forall k :: 0 <= k < |mem| && mem[k].key != f.key ==> SetFact(mem, f)[k] == mem[k]
    ensures |SetFact(mem, f)| == if KeyIndex(mem, f.key) >= 0 then |mem| else |mem| + 1
  {
    var r := SetFact(mem, f);
    var i := KeyIndex(mem, f.key);
    var j := if i >= 0 then i else |mem|;
    assert r[j] == f;
    assert forall k :: 0 <= k < |r| && k != j ==> r[k] == mem[k] && r[k].key != f.key;
  }

  /** The fact the eviction loop picks: the first one with the smallest
      `updatedAt` (a strict `<` scan in insertion order). */
  function OldestIndex(mem: seq<Fact>): (i: nat)
    requires |mem| > 0
    ensures i < |mem|
    ensures forall k :: 0 <= k < |mem| ==> mem[i].updatedAt <= mem[k].updatedAt
    ensures forall k :: 0 <= k < i ==> mem[k].updatedAt > mem[i].updatedAt
  {
    if |mem| == 1 then 0
    else
      var j := OldestIndex(mem[1..]);
      assert forall k :: 1 <= k < |mem| ==> mem[k] == mem[1..][k - 1];
      if mem[0].updatedAt <= mem[j + 1].updatedAt then 0 else j + 1
  }

  function RemoveAt(mem: seq<Fact>, i: nat): (r: seq<Fact>)
    requires i < |mem|
    ensures |r| == |mem| - 1
    ensures forall k :: 0 <= k < i ==> r[k] == mem[k]
    ensures forall k :: i <= k < |r| ==> r[k] == mem[k + 1]
  {
    mem[..i] + mem[i + 1..]
  }

  /** The `while (memoryFacts.size > MEMORY_LIMIT)` loop: evicts the oldest
      fact until eight remain; a fact stored under the empty key stops it. */
  function Evict(mem: seq<Fact>): (r: seq<Fact>)
    ensures NonEmptyKeys(mem) ==> |r| == if |mem| <= MEMORY_LIMIT then |mem| else MEMORY_LIMIT
    ensures |mem| <= MEMORY_LIMIT ==> r == mem
    ensures forall k :: 0 <= k < |r| ==> r[k] in mem
    ensures UniqueKeys(mem) ==> UniqueKeys(r)
    ensures NonEmptyKeys(mem) ==> NonEmptyKeys(r)
    decreases |mem|
  {
    if |mem| <= MEMORY_LIMIT then mem
    else
      var i := OldestIndex(mem);
      if mem[i].key == "" then mem
      else
        var rest := RemoveAt(mem, i);
        assert forall k :: 0 <= k < |rest| ==> rest[k] in mem;
        assert UniqueKeys(mem) ==> UniqueKeys(rest);
        Evict(rest)
  }

  /** `rememberFact`: an empty key or value is ignored; otherwise the fact is
      stored at time `now` and the oldest facts are evicted down to eight. */
  function RememberFact(mem: seq<Fact>, key: string, labelText: string, value: string, now: int): (r: seq<Fact>)
    ensures key == "" || value == "" ==> r == mem
    ensures NonEmptyKeys(mem) ==> NonEmptyKeys(r)
    ensures NonEmptyKeys(mem) && (|mem| <= MEMORY_LIMIT || (key != "" && value != "")) ==> |r| <= MEMORY_LIMIT
    ensures UniqueKeys(mem) ==> UniqueKeys(r)
    ensures forall k :: 0 <= k < |r| ==> r[k] in mem || r[k] == Fact(key, labelText, value, now)
    ensures key != "" && value != "" && |SetFact(mem, Fact(key, labelText, value, now))| <= MEMORY_LIMIT ==>
              r == SetFact(mem, Fact(key, labelText, value, now))
  {
    if key == "" || value == "" then mem
    else
      var f := Fact(key, labelText, value, now);
      var s := SetFact(mem, f);
      assert forall k :: 0 <= k < |s| ==> s[k] in mem || s[k] == f;
      assert NonEmptyKeys(mem) ==> NonEmptyKeys(s);
      assert UniqueKeys(mem) ==> UniqueKeys(s) by {
        if UniqueKeys(mem) { SetFactFacts(mem, f); }
      }
      Evict(s)
  }

  /** With eight facts stored and a new key, exactly one fact goes: the first
      of those with the smallest `updatedAt`, the new one included. */
  lemma RememberFactEvictsOldest(mem: seq<Fact>, key: string, labelText: string, value: string, now: int)
    requires key != "" && value != "" && NonEmptyKeys(mem)
    requires |mem| == MEMORY_LIMIT && KeyIndex(mem, key) == -1
    ensures var s := mem + [Fact(key, labelText, value, now)];
            RememberFact(mem, key, labelText, value, now) == RemoveAt(s, OldestIndex(s))
  {
    var s := mem + [Fact(key, labelText, value, now)];
    assert SetFact(mem, Fact(key, labelText, value, now)) == s;
    assert NonEmptyKeys(s);
    assert s[OldestIndex(s)].key != "";
  }

  /** When the clock has not gone backwards, a remembered fact survives its own
      eviction pass. */
  lemma {:induction false} RememberFactKeepsNew(mem: seq<Fact>, key: string, labelText: string, value: string, now: int)
    requires key != "" && value != "" && NonEmptyKeys(mem) && |mem| <= MEMORY_LIMIT
    requires forall k :: 0 <= k < |mem| ==> mem[k].updatedAt <= now
    ensures Fact(key, labelText, value, now) in RememberFact(mem, key, labelText, value, now)
  {
    var f := Fact(key, labelText, value, now);
    var s := SetFact(mem, f);
    if KeyIndex(mem, key) >= 0 {
      assert s[KeyIndex(mem, key)] == f;
    } else if |mem| < MEMORY_LIMIT {
      assert s[|mem|] == f;
    } else {
      RememberFactEvictsOldest(mem, key, labelText, value, now);
      var i := OldestIndex(s);
      assert s[0].updatedAt <= now;
      assert i < |mem|;
      assert RemoveAt(s, i)[|mem| - 1] == f;
    }
  }

  /** A fact is still live while its age does not exceed `maxAgeMs`. */
  predicate FactFresh(f: Fact, now: int, maxAgeMs: int) {
    now - f.updatedAt <= maxAgeMs
  }

  /** `pruneMemoryFacts`: facts older than `maxAgeMs` are deleted, the rest keep
      their order. */
  function PruneMemoryFacts(mem: seq<Fact>, now: int, maxAgeMs: int): (r: seq<Fact>)
    ensures forall k :: 0 <= k < |r| ==> r[k] in mem && FactFresh(r[k], now, maxAgeMs)
    ensures forall k :: 0 <= k < |mem| && FactFresh(mem[k], now, maxAgeMs) ==> mem[k] in r
    ensures |r| <= |mem|
    ensures multiset(r) <= multiset(mem)
  {
    if |mem| == 0 then []
    else
      var rest := PruneMemoryFacts(mem[1..], now, maxAgeMs);
      PruneStep(mem, now, maxAgeMs, rest);
      if FactFresh(mem[0], now, maxAgeMs) then [mem[0]] + rest else rest
  }

  lemma PruneStep(mem: seq<Fact>, now: int, maxAgeMs: int, rest: seq<Fact>)
    requires |mem| > 0
    requires forall k :: 0 <= k < |rest| ==> rest[k] in mem[1..] && FactFresh(rest[k], now, maxAgeMs)
    requires forall k :: 0 <= k < |mem[1..]| && FactFresh(mem[1..][k], now, maxAgeMs) ==> mem[1..][k] in rest
    requires multiset(rest) <= multiset(mem[1..])
    ensures var r := if FactFresh(mem[0], now, maxAgeMs) then [mem[0]] + rest else rest;
            && (forall k :: 0 <= k < |r| ==> r[k] in mem && FactFresh(r[k], now, maxAgeMs))
            && (forall k :: 0 <= k < |mem| && FactFresh(mem[k], now, maxAgeMs) ==> mem[k] in r)
            && multiset(r) <= multiset(mem)
  {
    assert mem == [mem[0]] + mem[1..];
    assert forall k :: 1 <= k < |mem| ==> mem[k] == mem[1..][k - 1];
  }

  /** Pruning twice at the same time is pruning once. */
  lemma {:induction false} PruneMemoryIdempotent(mem: seq<Fact>, now: int, maxAgeMs: int)
    ensures PruneMemoryFacts(PruneMemoryFacts(mem, now, maxAgeMs), now, maxAgeMs) == PruneMemoryFacts(mem, now, maxAgeMs)
  {
    if |mem| > 0 {
      PruneMemoryIdempotent(mem[1..], now, maxAgeMs);
      var rest := PruneMemoryFacts(mem[1..], now, maxAgeMs);
      if FactFresh(mem[0], now, maxAgeMs) {
        assert ([mem[0]] + rest)[1..] == rest;
      }
    }
  }

  /** Facts newest first. */
  predicate NewestFirst(fs: seq<Fact>) {
    forall i, j :: 0 <= i < j < |fs| ==> fs[i].updatedAt >= fs[j].updatedAt
  }

  /** Places `f` after every fact at least as new as it. */
  function InsertByAge(sorted: seq<Fact>, f: Fact): (r: seq<Fact>)
    requires NewestFirst(sorted)
    ensures NewestFirst(r)
    ensures multiset(r) == multiset(sorted) + multiset{f}
    ensures |r| == |sorted| + 1
    decreases |sorted|
  {
    if |sorted| == 0 then [f]
    else
      var last := sorted[|sorted| - 1];
      var init := sorted[..|sorted| - 1];
      assert sorted == init + [last];
      if last.updatedAt >= f.updatedAt then sorted + [f]
      else
        var r := InsertByAge(init, f);
        assert forall k :: 0 <= k < |r| ==> r[k].updatedAt >= last.updatedAt by {
          forall k | 0 <= k < |r|
            ensures r[k].updatedAt >= last.updatedAt
          {
            assert r[k] in multiset(r);
            assert r[k] in multiset(init) || r[k] == f;
          }
        }
        r + [last]
  }

  /** `.sort((a, b) => b.updatedAt - a.updatedAt)`: a stable sort, newest
      first. */
  function SortNewestFirst(fs: seq<Fact>): (r: seq<Fact>)
    ensures NewestFirst(r)
    ensures multiset(r) == multiset(fs)
    ensures |r| == |fs|
  {
    if |fs| == 0 then []
    else
      assert fs == fs[..|fs| - 1] + [fs[|fs| - 1]];
      InsertByAge(SortNewestFirst(fs[..|fs| - 1]), fs[|fs| - 1])
  }

  function Min(a: nat, b: nat): nat { if a <= b then a else b }

  /** The facts `getMemoryContextText` shows: the live facts, newest first,
      the first four. */
  function ShownFacts(mem: seq<Fact>, now: int, maxAgeMs: int): (r: seq<Fact>)
    ensures var live := PruneMemoryFacts(mem, now, maxAgeMs);
            && |r| == Min(MEMORY_CONTEXT_SIZE, |live|)
            && NewestFirst(r)
            && multiset(r) <= multiset(live)
            && forall x, k :: x in multiset(live) - multiset(r) && 0 <= k < |r| ==> x.updatedAt <= r[k].updatedAt
  {
    var live := PruneMemoryFacts(mem, now, maxAgeMs);
    var sorted := SortNewestFirst(live);
    var n := Min(MEMORY_CONTEXT_SIZE, |sorted|);
    TakeOfSorted(sorted, n, live);
    sorted[..n]
  }

  /** The first `n` facts of a newest-first arrangement of `live` are at least
      as new as every fact left behind. */
  lemma TakeOfSorted(sorted: seq<Fact>, n: nat, live: seq<Fact>)
    requires NewestFirst(sorted) && n <= |sorted| && multiset(sorted) == multiset(live)
    ensures NewestFirst(sorted[..n])
    ensures multiset(sorted[..n]) <= multiset(live)
    ensures forall x, k :: x in multiset(live) - multiset(sorted[..n]) && 0 <= k < n ==> x.updatedAt <= sorted[..n][k].updatedAt
  {
    assert sorted == sorted[..n] + sorted[n..];
    assert multiset(sorted) == multiset(sorted[..n]) + multiset(sorted[n..]);
    forall x, k | x in multiset(sorted) - multiset(sorted[..n]) && 0 <= k < n
      ensures x.updatedAt <= sorted[k].updatedAt
    {
      assert x in multiset(sorted[n..]);
      var j :| 0 <= j < |sorted[n..]| && sorted[n..][j] == x;
      assert sorted[n + j] == x;
    }
  }

  function FactLine(f: Fact): string {
    "- " + f.labelText + ": " + f.value
  }

  function FactLines(fs: seq<Fact>): (r: seq<string>)
    ensures |r| == |fs|
    ensures forall k :: 0 <= k < |fs| ==> r[k] == FactLine(fs[k])
  {
    seq(|fs|, k requires 0 <= k < |fs| => FactLine(fs[k]))
  }

  /** `getMemoryContextText`, with the memory as pruning leaves it: one line
      `- labelText: value` per shown fact, joined by newlines; empty exactly when no
      live fact remains. */
  function GetMemoryContextText(mem: seq<Fact>, now: int, maxAgeMs: int): (r: (string, seq<Fact>))
    ensures r.1 == PruneMemoryFacts(mem, now, maxAgeMs)
    ensures r.0 == Join(FactLines(ShownFacts(mem, now, maxAgeMs)), "\n")
    ensures r.0 == "" <==> r.1 == []
  {
    var live := PruneMemoryFacts(mem, now, maxAgeMs);
    var lines := FactLines(ShownFacts(mem, now, maxAgeMs));
    assert |lines| > 0 ==> Join(lines, "\n")[0] == '-';
    (Join(lines, "\n"), live)
  }

  /** When no label or value holds a newline, the text splits back into the
      lines of the shown facts. */
  lemma MemoryTextLines(mem: seq<Fact>, now: int, maxAgeMs: int)
    requires forall k :: 0 <= k < |mem| ==> '\n' !in mem[k].labelText && '\n' !in mem[k].value
    requires PruneMemoryFacts(mem, now, maxAgeMs) != []
    ensures SplitOn(GetMemoryContextText(mem, now, maxAgeMs).0, '\n') == FactLines(ShownFacts(mem, now, maxAgeMs))
  {
    var shown := ShownFacts(mem, now, maxAgeMs);
    var lines := FactLines(shown);
    ShownFromMemory(mem, now, maxAgeMs);
    forall k | 0 <= k < |lines|
      ensures '\n' !in lines[k]
    {
      LineWithoutNewline(shown[k]);
    }
    SplitJoin(lines, '\n');
  }

  lemma ShownFromMemory(mem: seq<Fact>, now: int, maxAgeMs: int)
    ensures forall k :: 0 <= k < |ShownFacts(mem, now, maxAgeMs)| ==> ShownFacts(mem, now, maxAgeMs)[k] in mem
  {
    var shown := ShownFacts(mem, now, maxAgeMs);
    var live := PruneMemoryFacts(mem, now, maxAgeMs);
    forall k | 0 <= k < |shown|
      ensures shown[k] in mem
    {
      assert shown[k] in multiset(shown);
      assert shown[k] in multiset(live);
      assert shown[k] in live;
    }
  }

  lemma LineWithoutNewline(f: Fact)
    requires '\n' !in f.labelText && '\n' !in f.value
    ensures '\n' !in FactLine(f)
  {
    var line := FactLine(f);
    forall i | 0 <= i < |line|
      ensures line[i] != '\n'
    {
      if i < 2 {
      } else if i < 2 + |f.labelText| {
        assert line[i] == f.labelText[i - 2];
      } else if i < 4 + |f.labelText| {
      } else {
        assert line[i] == f.value[i - 4 - |f.labelText|];
      }
    }
  }

  // ------------------------------------------------------------------ history

  /** The `while (length > HISTORY_STORE_LIMIT) shift()` loop. */
  function DropOldest(h: seq<Entry>): (r: seq<Entry>)
    ensures |r| == Min(|h|, HISTORY_STORE_LIMIT)
    ensures r == h[|h| - |r|..]
    decreases |h|
  {
    if |h| <= HISTORY_STORE_LIMIT then h else DropOldest(h[1..])
  }

  /** `pushHistory`: text that compacts to nothing is ignored; otherwise the
      compacted turn is appended at time `now` and the oldest turns are dropped
      down to 24. */
  function PushHistory(h: seq<Entry>, role: string, text: string, now: int): (r: seq<Entry>)
    ensures AllWith(text, IsSpace) ==> r == h
    ensures !AllWith(text, IsSpace) ==>
              var e := Entry(role, CompactForHistory(text), now);
              && |r| == Min(|h| + 1, HISTORY_STORE_LIMIT)
              && r == (h + [e])[|h| + 1 - |r|..]
              && r[|r| - 1] == e
              && e.text != ""
    ensures |h| <= HISTORY_STORE_LIMIT ==> |r| <= HISTORY_STORE_LIMIT
  {
    var compact := CompactForHistory(text);
    if compact == "" then h else DropOldest(h + [Entry(role, compact, now)])
  }

  /** A turn that the pruning loop shifts away: no timestamp (`!entry.ts`), or
      older than `maxAgeMs`. */
  predicate Expired(e: Entry, now: int, maxAgeMs: int) {
    e.ts == 0 || now - e.ts > maxAgeMs
  }

  /** `pruneConversationHistory`: drops expired turns from the front and stops
      at the first live one; nothing after it is looked at. */
  function PruneHistory(h: seq<Entry>, now: int, maxAgeMs: int): (r: seq<Entry>)
    ensures |r| <= |h| && r == h[|h| - |r|..]
    ensures forall k :: 0 <= k < |h| - |r| ==> Expired(h[k], now, maxAgeMs)
    ensures r == [] || !Expired(r[0], now, maxAgeMs)
  {
    if |h| == 0 then h
    else if Expired(h[0], now, maxAgeMs) then
      var r := PruneHistory(h[1..], now, maxAgeMs);
      assert forall k :: 1 <= k < |h| ==> h[k] == h[1..][k - 1];
      r
    else h
  }

  /** Pruning twice at the same time is pruning once. */
  lemma PruneHistoryIdempotent(h: seq<Entry>, now: int, maxAgeMs: int)
    ensures PruneHistory(PruneHistory(h, now, maxAgeMs), now, maxAgeMs) == PruneHistory(h, now, maxAgeMs)
  {
    var r := PruneHistory(h, now, maxAgeMs);
    assert r == [] || PruneHistory(r, now, maxAgeMs) == r;
  }

  /** `history.slice(-HISTORY_CONTEXT_SIZE)`. */
  function Recent(h: seq<Entry>): (r: seq<Entry>)
    ensures |r| == Min(|h|, HISTORY_CONTEXT_SIZE)
    ensures r == h[|h| - |r|..]
  {
    h[|h| - Min(|h|, HISTORY_CONTEXT_SIZE)..]
  }

  function Turns(recent: seq<Entry>): (r: seq<Content>)
    ensures |r| == |recent|
    ensures forall k :: 0 <= k < |r| ==> r[k] == Content(recent[k].role, [TextPart(recent[k].text)])
  {
    seq(|recent|, k requires 0 <= k < |recent| => Content(recent[k].role, [TextPart(recent[k].text)]))
  }

  /** The summed length of the recent turns' text. */
  function TextChars(es: seq<Entry>): nat {
    if |es| == 0 then 0 else |es[0].text| + TextChars(es[1..])
  }

  /** The user turn: the compacted text, then the image when one is given. */
  function UserParts(nextUserText: string, image: string): (r: seq<Part>)
    ensures |r| >= 1 && r[0] == TextPart(CompactForHistory(nextUserText))
    ensures |r| == 2 <==> image != ""
    ensures |r| == 2 ==> r[1] == InlineData(IMAGE_MIME, image)
    ensures |r| <= 2
  {
    var textPart := [TextPart(CompactForHistory(nextUserText))];
    if image != "" then textPart + [InlineData(IMAGE_MIME, image)] else textPart
  }

  /** `buildContents`: the history is pruned, its last six turns become the
      leading contents in order, and one user turn closes the list. */
  function BuildContents(h: seq<Entry>, nextUserText: string, image: string, now: int, maxAgeMs: int): (r: Built)
    ensures r.history == PruneHistory(h, now, maxAgeMs)
    ensures var recent := Recent(r.history);
            && |r.contents| == |recent| + 1
            && r.contents[..|recent|] == Turns(recent)
            && r.historyMessages == |recent|
            && r.historyChars == TextChars(recent)
    ensures r.historyMessages == Min(|r.history|, HISTORY_CONTEXT_SIZE)
    ensures r.contents[|r.contents| - 1] == Content("user", UserParts(nextUserText, image))
    ensures r.imageAttached <==> image != ""
  {
    var pruned := PruneHistory(h, now, maxAgeMs);
    var recent := Recent(pruned);
    var contents := Turns(recent) + [Content("user", UserParts(nextUserText, image))];
    assert contents[..|recent|] == Turns(recent);
    Built(contents, |recent|, TextChars(recent), image != "", pruned)
  }

  /** `buildProactiveContents`: the same recent turns, closed by a `[silence]`
      user turn; the pruned history is returned with them. */
  function BuildProactiveContents(h: seq<Entry>, now: int, maxAgeMs: int): (r: (seq<Content>, seq<Entry>))
    ensures r.1 == PruneHistory(h, now, maxAgeMs)
    ensures |r.0| == Min(|r.1|, HISTORY_CONTEXT_SIZE) + 1
    ensures r.0[|r.0| - 1] == Content("user", [TextPart(SILENCE_TURN)])
  {
    var pruned := PruneHistory(h, now, maxAgeMs);
    (Turns(Recent(pruned)) + [Content("user", [TextPart(SILENCE_TURN)])], pruned)
  }

  /** A proactive turn carries the same history as a user turn built at the same
      moment; only the closing turn differs. */
  lemma ProactiveMatchesBuild(h: seq<Entry>, nextUserText: string, image: string, now: int, maxAgeMs: int)
    ensures var p := BuildProactiveContents(h, now, maxAgeMs);
            var b := BuildContents(h, nextUserText, image, now, maxAgeMs);
            && p.1 == b.history
            && |p.0| == |b.contents|
            && p.0[..|p.0| - 1] == b.contents[..|b.contents| - 1]
  {
    var pruned := PruneHistory(h, now, maxAgeMs);
    var turns := Turns(Recent(pruned));
    assert (turns + [Content("user", [TextPart(SILENCE_TURN)])])[..|turns|] == turns;
  }

  // ------------------------------------------------------------------ state

  /** What the operations keep true of the state. */
  predicate Valid(st: State) {
    && |st.history| <= HISTORY_STORE_LIMIT
    && |st.memory| <= MEMORY_LIMIT
    && UniqueKeys(st.memory)
    && NonEmptyKeys(st.memory)
  }

  /** `clearAssistantContext`: history and memory emptied, reply count reset;
      the missing-key warning flag is left alone. */
  function ClearAssistantContext(st: State): (r: State)
    ensures Valid(r)
    ensures r.warnedMissingApiKey == st.warnedMissingApiKey
    ensures forall now, maxAgeMs :: GetMemoryContextText(r.memory, now, maxAgeMs).0 == ""
    ensures forall now, maxAgeMs :: BuildProactiveContents(r.history, now, maxAgeMs).0 == [Content("user", [TextPart(SILENCE_TURN)])]
    ensures r.replyCount == 0
  {
    State([], [], 0, st.warnedMissingApiKey)
  }

  /** Remembering, pruning and pushing keep the state valid. */
  lemma OperationsKeepValid(st: State, key: string, labelText: string, value: string,
                            role: string, text: string, now: int, maxAgeMs: int)
    requires Valid(st)
    ensures Valid(st.(memory := RememberFact(st.memory, key, labelText, value, now)))
    ensures Valid(st.(memory := PruneMemoryFacts(st.memory, now, maxAgeMs)))
    ensures Valid(st.(history := PushHistory(st.history, role, text, now)))
    ensures Valid(st.(history := PruneHistory(st.history, now, maxAgeMs)))
  {
    var p := PruneMemoryFacts(st.memory, now, maxAgeMs);
    assert forall k :: 0 <= k < |p| ==> p[k] in st.memory;
    PruneKeepsUnique(st.memory, now, maxAgeMs);
  }

  lemma {:induction false} PruneKeepsUnique(mem: seq<Fact>, now: int, maxAgeMs: int)
    requires UniqueKeys(mem)
    ensures UniqueKeys(PruneMemoryFacts(mem, now, maxAgeMs))
  {
    if |mem| > 0 {
      PruneKeepsUnique(mem[1..], now, maxAgeMs);
      var rest := PruneMemoryFacts(mem[1..], now, maxAgeMs);
      forall k | 0 <= k < |rest|
        ensures rest[k].key != mem[0].key
      {
        assert rest[k] in mem[1..];
      }
    }
  }

  // ------------------------------------------------------------------ fact keys

  predicate FactKeyChar(c: char) { IsLowerAscii(c) || IsDigit(c) || c == ':' }

  predicate NotFactKeyChar(c: char) { !FactKeyChar(c) }

  /** `replace(/[^a-z0-9:]+/g, '-')`: each maximal run of other characters
      becomes one hyphen. */
  function HyphenateRuns(s: string): (r: string)
    ensures forall i :: 0 <= i < |r| ==> FactKeyChar(r[i]) || r[i] == '-'
    ensures forall i :: 0 <= i < |r| - 1 ==> !(r[i] == '-' && r[i + 1] == '-')
    ensures |s| > 0 && FactKeyChar(s[0]) ==> |r| > 0 && r[0] == s[0]
    ensures AllWith(s, FactKeyChar) ==> r == s
    decreases |s|
  {
    if |s| == 0 then ""
    else if FactKeyChar(s[0]) then
      var rest := HyphenateRuns(s[1..]);
      assert AllWith(s, FactKeyChar) ==> AllWith(s[1..], FactKeyChar);
      [s[0]] + rest
    else
      var n := 1 + LeadCount(s[1..], NotFactKeyChar);
      assert n == |s| || FactKeyChar(s[n]);
      "-" + HyphenateRuns(s[n..])
  }

  /** `replace(/-+/g, '-')`. */
  function CollapseHyphens(s: string): (r: string)
    decreases |s|
  {
    if |s| == 0 then ""
    else if s[0] == '-' then "-" + CollapseHyphens(s[1 + LeadCount(s[1..], c => c == '-')..])
    else [s[0]] + CollapseHyphens(s[1..])
  }

  predicate NoDoubleHyphen(s: string) {
    forall i :: 0 <= i < |s| - 1 ==> !(s[i] == '-' && s[i + 1] == '-')
  }

  /** Collapsing hyphen runs changes nothing once no two hyphens touch. */
  lemma {:induction false} CollapseHyphensNoop(s: string)
    requires NoDoubleHyphen(s)
    ensures CollapseHyphens(s) == s
    decreases |s|
  {
    if |s| > 0 {
      assert NoDoubleHyphen(s[1..]);
      CollapseHyphensNoop(s[1..]);
      if s[0] == '-' {
        assert LeadCount(s[1..], c => c == '-') == 0;
      }
    }
  }

  /** A well-formed fact key: at most 80 characters of `[a-z0-9:-]` with no two
      hyphens in a row. */
  predicate IsFactKey(k: string) {
    && |k| <= FACT_KEY_LIMIT
    && (forall i :: 0 <= i < |k| ==> FactKeyChar(k[i]) || k[i] == '-')
    && NoDoubleHyphen(k)
  }

  /** The normalisation before the 80-character cut. */
  function Slug(s: string): (r: string)
    ensures forall i :: 0 <= i < |r| ==> FactKeyChar(r[i]) || r[i] == '-'
    ensures NoDoubleHyphen(r)
  {
    var h := HyphenateRuns(LowerStr(s));
    CollapseHyphensNoop(h);
    CollapseHyphens(h)
  }

  /** `toFactKey(label, value)`: the first 80 characters of the slug. */
  function ToFactKey(labelText: string, value: string): (r: string)
    ensures IsFactKey(r)
    ensures StartsWith(Slug(labelText + ":" + value), r)
    ensures |r| == Min(|Slug(labelText + ":" + value)|, FACT_KEY_LIMIT)
  {
    Take(Slug(labelText + ":" + value), FACT_KEY_LIMIT)
  }

  /** A fact key normalises to itself, so `toFactKey` is idempotent on its own
      output. */
  lemma {:induction false} SlugOfFactKey(k: string)
    requires forall i :: 0 <= i < |k| ==> FactKeyChar(k[i]) || k[i] == '-'
    requires NoDoubleHyphen(k)
    ensures HyphenateRuns(k) == k
    decreases |k|
  {
    if |k| > 0 {
      assert NoDoubleHyphen(k[1..]);
      SlugOfFactKey(k[1..]);
      if !FactKeyChar(k[0]) {
        assert LeadCount(k[1..], NotFactKeyChar) == 0;
      }
    }
  }

  lemma FactKeyIsFixed(k: string)
    requires IsFactKey(k)
    ensures Slug(k) == k
  {
    LowerStrOfLower(k);
    SlugOfFactKey(k);
    CollapseHyphensNoop(k);
  }

  /** Text already in key form keeps its characters, lower-cased. */
  lemma FactKeyOfPlainText(labelText: string, value: string)
    requires AllWith(LowerStr(labelText + ":" + value), FactKeyChar)
    requires |labelText| + 1 + |value| <= FACT_KEY_LIMIT
    ensures ToFactKey(labelText, value) == LowerStr(labelText + ":" + value)
  {
    var l := LowerStr(labelText + ":" + value);
    assert NoDoubleHyphen(l);
    CollapseHyphensNoop(l);
  }
}

=== FILE: donation.dfy ===
/** Donation prompts in assistant replies: the QR marker the model may emit, the
    keyword fallback, the payload handed to the face, and the periodic nudge. */
module Donation {
  import opened Wrappers
  import opened Strs
  import opened Json
  import opened JsonText
  import opened ProcessEnv

  /** The canonical marker; the marker pattern accepts looser spellings. */
  const DONATION_MARKER: string := "[[SHOW_QR]]"
  /** Every sixth reply carries a nudge. */
  const DONATION_NUDGE_INTERVAL: int := 6

  // ------------------------------------------------------------ the marker

  /** Up to two copies of `c` at the front of `s`, the `{1,2}` quantifier taken
      greedily. */
  function Brackets(s: string, c: char): (n: nat)
    ensures n <= 2 && n <= |s|
    ensures forall i :: 0 <= i < n ==> s[i] == c
    ensures n < 2 && n < |s| ==> s[n] != c
  {
    if |s| >= 1 && s[0] == c then (if |s| >= 2 && s[1] == c then 2 else 1) else 0
  }

  /** The separators allowed between SHOW and QR (`[\s_-]`). */
  predicate IsQrSep(c: char) { IsSpace(c) || c == '_' || c == '-' }

  /** Whether `s` spells `word` in any ASCII letter case, as a non-unicode `/i`
      pattern compares letters. */
  predicate SpellsAt(s: string, p: nat, word: string) {
    p + |word| <= |s| && UpperStr(s[p..p + |word|]) == word
  }

  /** The length of the match of `/\[{1,2}\s*SHOW[\s_-]*QR\s*\]{1,2}/i` at the
      front of `s`, or 0.  Every quantifier meets a character it cannot take
      before the next part of the pattern, so the greedy choices are final and no
      backtracking can produce another match. */
  function MarkerAt(s: string): (n: nat)
    ensures n == 0 || 8 <= n <= |s|
    ensures n > 0 ==> s[0] == '[' && s[n - 1] == ']'
  {
    var b := Brackets(s, '[');
    if b == 0 then 0
    else
      var p := b + LeadCount(s[b..], IsSpace);
      if !SpellsAt(s, p, "SHOW") then 0
      else
        var q := p + 4 + LeadCount(s[p + 4..], IsQrSep);
        if !SpellsAt(s, q, "QR") then 0
        else
          var t := q + 2 + LeadCount(s[q + 2..], IsSpace);
          var c := Brackets(s[t..], ']');
          if c == 0 then 0 else t + c
  }

  /** `DONATION_MARKER_RE.test(s)`: a marker starts somewhere in `s`. */
  predicate HasMarker(s: string) {
    |s| > 0 && (MarkerAt(s) > 0 || HasMarker(s[1..]))
  }

  /** `stripDonationMarkers`: one left-to-right pass of the global replace, each
      marker becoming one space. */
  function StripDonationMarkers(s: string): (r: string)
    ensures |r| <= |s|
    ensures |r| == |s| <==> !HasMarker(s)
    ensures !HasMarker(s) ==> r == s
  {
    if |s| == 0 then ""
    else if MarkerAt(s) > 0 then " " + StripDonationMarkers(s[MarkerAt(s)..])
    else [s[0]] + StripDonationMarkers(s[1..])
  }

  /** A marker at the front becomes a single space. */
  lemma StripLeadingMarker(m: string, rest: string)
    requires |m| > 0 && MarkerAt(m + rest) == |m|
    ensures StripDonationMarkers(m + rest) == " " + StripDonationMarkers(rest)
  {
    assert (m + rest)[|m|..] == rest;
  }

  /** Text in which no marker starts is copied through. */
  lemma {:induction false} StripPlainPrefix(a: string, b: string)
    requires forall k :: 0 <= k < |a| ==> MarkerAt((a + b)[k..]) == 0
    ensures StripDonationMarkers(a + b) == a + StripDonationMarkers(b)
    decreases |a|
  {
    if |a| > 0 {
      var s := a + b;
      var t := a[1..] + b;
      assert s[0..] == s;
      StripStep(s);
      assert s[1..] == t;
      forall k | 0 <= k < |a| - 1
        ensures MarkerAt((a[1..] + b)[k..]) == 0
      {
        assert (a[1..] + b)[k..] == s[k + 1..];
      }
      StripPlainPrefix(a[1..], b);
      ConsRest(a, StripDonationMarkers(b));
    } else {
      assert a + b == b;
    }
  }

  lemma StripStep(s: string)
    requires |s| > 0 && MarkerAt(s) == 0
    ensures StripDonationMarkers(s) == [s[0]] + StripDonationMarkers(s[1..])
  {
  }

  /** The canonical marker is matched whole, whatever follows it. */
  lemma CanonicalMarkerMatched(rest: string)
    ensures MarkerAt(DONATION_MARKER + rest) == |DONATION_MARKER|
  {
    var s := DONATION_MARKER + rest;
    assert s[..11] == DONATION_MARKER;
    assert s[0] == '[' && s[1] == '[' && s[2] == 'S';
    assert LeadCount(s[2..], IsSpace) == 0;
    assert s[2..6] == "SHOW";
    assert UpperStr(s[2..6]) == "SHOW";
    assert s[6..][0] == '_' && s[6..][1] == 'Q';
    assert LeadCount(s[6..][1..], IsQrSep) == 0;
    assert LeadCount(s[6..], IsQrSep) == 1;
    assert s[7..9] == "QR";
    assert UpperStr(s[7..9]) == "QR";
    assert s[9..][0] == ']';
    assert LeadCount(s[9..], IsSpace) == 0;
    assert s[9..][0] == ']' && s[9..][1] == ']';
    assert Brackets(s[9..], ']') == 2;
  }

  /** `includes(DONATION_MARKER)` is already covered by the pattern test. */
  lemma {:induction false} CanonicalMarkerDetected(s: string, i: nat)
    requires OccursAt(s, DONATION_MARKER, i)
    ensures HasMarker(s)
    decreases i
  {
    if i == 0 {
      assert s == DONATION_MARKER + s[11..];
      CanonicalMarkerMatched(s[11..]);
    } else {
      assert s[1..][i - 1..i - 1 + 11] == s[i..i + 11];
      CanonicalMarkerDetected(s[1..], i - 1);
    }
  }

  // ------------------------------------------------------------ the payload

  /** `encodeURIComponent` leaves these characters as they are. */
  predicate IsUriUnreserved(c: char) {
    IsLowerAscii(c) || IsUpperAscii(c) || IsDigit(c)
    || c == '-' || c == '_' || c == '.' || c == '!' || c == '~' || c == '*'
    || c == '\'' || c == '(' || c == ')'
  }

  /** The UTF-8 bytes of one Unicode scalar value. */
  function Utf8(c: char): (bs: seq<int>)
    ensures 1 <= |bs| <= 4
    ensures forall k :: 0 <= k < |bs| ==> 0 <= bs[k] < 256
    ensures (c as int < 0x80) <==> |bs| == 1
    ensures c as int < 0x80 ==> bs == [c as int]
  {
    var cp := c as int;
    if cp < 0x80 then [cp]
    else if cp < 0x800 then [0xC0 + cp / 64, 0x80 + cp % 64]
    else if cp < 0x1_0000 then [0xE0 + cp / 4096, 0x80 + (cp / 64) % 64, 0x80 + cp % 64]
    else [0xF0 + cp / 0x4_0000, 0x80 + (cp / 4096) % 64, 0x80 + (cp / 64) % 64, 0x80 + cp % 64]
  }

  /** An upper-case hexadecimal digit. */
  function HexUpper(d: int): (c: char)
    requires 0 <= d < 16
    ensures HexValue(c) == Some(d)
    ensures IsDigit(c) || 'A' <= c <= 'F'
  {
    if d < 10 then ('0' as int + d) as char else ('A' as int + d - 10) as char
  }

  function PercentBytes(bs: seq<int>): (r: string)
    requires forall k :: 0 <= k < |bs| ==> 0 <= bs[k] < 256
    ensures |r| == 3 * |bs|
  {
    if |bs| == 0 then ""
    else ['%', HexUpper(bs[0] / 16), HexUpper(bs[0] % 16)] + PercentBytes(bs[1..])
  }

  /** The characters `encodeURIComponent` can produce. */
  predicate IsUriChar(c: char) { IsUriUnreserved(c) || c == '%' }

  /** `encodeURIComponent`: unreserved characters as they are, every other
      character as its UTF-8 bytes in `%XX` form. */
  function EncodeUriComponent(s: string): (r: string)
    ensures forall k :: 0 <= k < |r| ==> IsUriChar(r[k])
    ensures (forall k :: 0 <= k < |s| ==> IsUriUnreserved(s[k])) ==> r == s
  {
    if |s| == 0 then ""
    else
      var head := if IsUriUnreserved(s[0]) then [s[0]] else PercentBytes(Utf8(s[0]));
      PercentBytesUriChars(Utf8(s[0]));
      head + EncodeUriComponent(s[1..])
  }

  lemma {:induction false} PercentBytesUriChars(bs: seq<int>)
    requires forall k :: 0 <= k < |bs| ==> 0 <= bs[k] < 256
    ensures forall k :: 0 <= k < |PercentBytes(bs)| ==> IsUriChar(PercentBytes(bs)[k])
  {
    if |bs| > 0 {
      PercentBytesUriChars(bs[1..]);
      var t := ['%', HexUpper(bs[0] / 16), HexUpper(bs[0] % 16)];
      assert PercentBytes(bs) == t + PercentBytes(bs[1..]);
    }
  }

  /** Percent-decoding of ASCII text: `%XX` gives the character with that code. */
  function DecodeAscii(s: string): Option<string>
    decreases |s|
  {
    if |s| == 0 then Some("")
    else if s[0] != '%' then
      match DecodeAscii(s[1..])
      case Some(t) => Some([s[0]] + t)
      case None => None
    else if |s| < 3 then None
    else
      match (HexValue(s[1]), HexValue(s[2]), DecodeAscii(s[3..]))
      case (Some(h), Some(l), Some(t)) => if h * 16 + l < 0x80 then Some([(h * 16 + l) as char] + t) else None
      case _ => None
  }

  /** ASCII text survives encoding and decoding. */
  lemma {:induction false} EncodeUriAsciiRoundTrip(s: string)
    requires forall k :: 0 <= k < |s| ==> s[k] as int < 0x80
    ensures DecodeAscii(EncodeUriComponent(s)) == Some(s)
  {
    if |s| > 0 {
      EncodeUriAsciiRoundTrip(s[1..]);
      var rest := EncodeUriComponent(s[1..]);
      var c := s[0];
      if IsUriUnreserved(c) {
        assert EncodeUriComponent(s) == [c] + rest;
        DecodeKept(c, rest, s[1..]);
      } else {
        EncodePercentHead(s);
        DecodePercent(c, rest, s[1..]);
      }
      assert [c] + s[1..] == s;
    }
  }

  lemma EncodePercentHead(s: string)
    requires |s| > 0 && !IsUriUnreserved(s[0]) && s[0] as int < 0x80
    ensures var cp := s[0] as int;
            EncodeUriComponent(s)
            == ['%', HexUpper(cp / 16), HexUpper(cp % 16)] + EncodeUriComponent(s[1..])
  {
    var cp := s[0] as int;
    var e := ['%', HexUpper(cp / 16), HexUpper(cp % 16)];
    assert PercentBytes([cp]) == e + "";
  }

  lemma DecodeKept(c: char, rest: string, t: string)
    requires c != '%' && DecodeAscii(rest) == Some(t)
    ensures DecodeAscii([c] + rest) == Some([c] + t)
  {
    assert ([c] + rest)[1..] == rest;
  }

  lemma DecodePercent(c: char, rest: string, t: string)
    requires c as int < 0x80 && DecodeAscii(rest) == Some(t)
    ensures var cp := c as int;
            DecodeAscii(['%', HexUpper(cp / 16), HexUpper(cp % 16)] + rest) == Some([c] + t)
  {
    var cp := c as int;
    var e := ['%', HexUpper(cp / 16), HexUpper(cp % 16)];
    assert (e + rest)[3..] == rest;
    assert (cp / 16) * 16 + cp % 16 == cp;
  }

  /** The donation settings read at start-up. */
  datatype DonationConfig = DonationConfig(venmoHandle: string, qrData: string)

  /** `DEFAULT_VENMO_HANDLE` and `DEFAULT_DONATION_QR_DATA`. */
  function DonationConfigOf(env: Env): (c: DonationConfig)
    ensures c.venmoHandle != ""
    ensures Var(env, "DONATION_VENMO").None? || Var(env, "DONATION_VENMO") == Some("") ==> c.venmoHandle == "TubsBot"
    ensures (Var(env, "DONATION_QR_DATA").None? || Var(env, "DONATION_QR_DATA") == Some(""))
            ==> c.qrData == "https://venmo.com/" + c.venmoHandle
  {
    var handle := Or(Var(env, "DONATION_VENMO"), "TubsBot");
    DonationConfig(handle, Or(Var(env, "DONATION_QR_DATA"), "https://venmo.com/" + handle))
  }

  datatype DonationPayload = DonationPayload(show: bool, reason: string, venmoHandle: string,
                                             qrData: string, qrImageUrl: string)

  const QR_SERVICE: string := "https://api.qrserver.com/v1/create-qr-code/?size=256x256&data="

  /** `buildDonationPayload`: `show` is coerced with JavaScript truthiness; the
      handle, the QR data and the QR image link come from the configuration. */
  function BuildDonationPayload(config: DonationConfig, show: Option<Json>, reason: string): (p: DonationPayload)
    ensures p.show <==> OptJsTruthy(show)
    ensures p.reason == reason
    ensures p.venmoHandle == config.venmoHandle && p.qrData == config.qrData
    ensures StartsWith(p.qrImageUrl, QR_SERVICE)
    ensures forall k :: |QR_SERVICE| <= k < |p.qrImageUrl| ==> IsUriChar(p.qrImageUrl[k])
  {
    var url := QR_SERVICE + EncodeUriComponent(config.qrData);
    assert url[..|QR_SERVICE|] == QR_SERVICE;
    DonationPayload(OptJsTruthy(show), reason, config.venmoHandle, config.qrData, url)
  }

  // ------------------------------------------------------------ extraction

  /** The `reason` values of a payload built from a reply. */
  datatype Reason = NoReason | MarkerReason | KeywordReason {
    function Name(): string {
      match this
      case NoReason => "none"
      case MarkerReason => "marker"
      case KeywordReason => "keyword"
    }
  }

  datatype Signal = Signal(text: string, show: bool, reason: Reason)

  /** `extractDonationSignal`, with the keyword pattern `DONATION_KEYWORDS` as
      the predicate `hasKeyword`: markers (when any) are stripped, whitespace is
      collapsed, and the keyword test runs only when there was no marker. */
  function ExtractDonationSignal(text: string, hasKeyword: string -> bool): (r: Signal)
    ensures r.reason == MarkerReason <==> HasMarker(text)
    ensures r.reason == KeywordReason <==> !HasMarker(text) && hasKeyword(r.text)
    ensures r.show <==> r.reason != NoReason
    ensures Normalized(r.text)
    ensures HasMarker(text) ==> r.text == NormalizeWs(StripDonationMarkers(text))
    ensures !HasMarker(text) ==> r.text == NormalizeWs(text)
  {
    var marked := HasMarker(text);
    var cleaned := NormalizeWs(if marked then StripDonationMarkers(text) else text);
    if marked then Signal(cleaned, true, MarkerReason)
    else if hasKeyword(cleaned) then Signal(cleaned, true, KeywordReason)
    else Signal(cleaned, false, NoReason)
  }

  /** The payload a reply produces. */
  function SignalPayload(config: DonationConfig, s: Signal): (p: DonationPayload)
    ensures p.show == s.show && p.reason == s.reason.Name()
  {
    BuildDonationPayload(config, Some(JBool(s.show)), s.reason.Name())
  }

  /** Extraction is stable: text that is already collapsed and carries no marker
      comes back unchanged. */
  lemma ExtractCleanText(text: string, hasKeyword: string -> bool)
    requires Normalized(text) && !HasMarker(text)
    ensures ExtractDonationSignal(text, hasKeyword).text == text
  {
    NormalizedIffFixed(text);
  }

  // ------------------------------------------------------------ the nudge

  datatype Nudged = Nudged(text: string, forcedQr: bool)

  /** `maybeInjectDonationNudge`: every sixth reply (counting from one), unless a
      QR is already showing, gains " Venmo @<handle>." and forces the QR. */
  function MaybeInjectDonationNudge(text: string, alreadyShowingQr: bool, replyCount: int,
                                    handle: string): (r: Nudged)
    ensures r.forcedQr <==> !alreadyShowingQr && replyCount != 0 && replyCount % DONATION_NUDGE_INTERVAL == 0
    ensures !r.forcedQr ==> r.text == text
    ensures r.forcedQr ==> StartsWith(r.text, text) && r.text[|text|..] == " Venmo @" + handle + "."
  {
    if alreadyShowingQr then Nudged(text, false)
    else if replyCount == 0 || replyCount % DONATION_NUDGE_INTERVAL != 0 then Nudged(text, false)
    else
      var r := text + " Venmo @" + handle + ".";
      assert r[..|text|] == text;
      assert r[|text|..] == " Venmo @" + handle + ".";
      Nudged(r, true)
  }

  /** Over six consecutive reply counts past zero, exactly one is nudged. */
  lemma OneNudgeInSix(k: int, handle: string)
    requires k >= 1
    ensures exists j :: k <= j < k + 6 && MaybeInjectDonationNudge("", false, j, handle).forcedQr
  {
    var j := k + (6 - k % 6) % 6;
    assert j % 6 == 0;
    assert MaybeInjectDonationNudge("", false, j, handle).forcedQr;
  }
}

=== FILE: dual_head.dfy ===
/** The two-head script: a reply split into beats, each spoken or acted by the
    main head or by the small side head.  A script arrives as JSON from the
    language model; each beat is normalised (actor, action, text, cue, delay),
    the beats may be regrouped by head, and the donation signal of all spoken
    beats is merged into one payload. */
module DualHead {
  import opened Wrappers
  import opened Strs
  import opened Json
  import opened JsConv
  import opened JsonText
  import opened AssistantText
  import opened Emoji
  import opened Emotion
  import opened Donation

  const MAX_BEATS: nat := 7
  const MIN_DELAY_MS: int := 120
  const MAX_DELAY_MS: int := 2500

  datatype Actor = Main | Small {
    function Name(): string {
      match this
      case Main => "main"
      case Small => "small"
    }
  }

  datatype Action = Speak | React

  /** A normalised beat; `hadDonationMarker` is the `_hadDonationMarker` flag. */
  datatype Beat = Beat(actor: Actor, action: Action, text: string, emotion: Option<Emotion>,
                       delayMs: Option<int>, hadDonationMarker: bool)

  /** What the pipeline relies on but this model takes as given: `JSON.parse`,
      the printing of a number (`String(n)`), `stripFormatting`,
      `rescueTextFromJson` (applied inside `clampOutput`) and the
      `DONATION_KEYWORDS` test. */
  datatype Helpers = Helpers(parse: string -> Option<Json>, numberText: real -> string,
                             stripFormatting: string -> string, rescueText: string -> string,
                             hasKeyword: string -> bool)

  /** A parsed script; `raw` is the parsed JSON (absent for rescued beats). */
  datatype Script = Script(beats: seq<Beat>, raw: Option<Json>)

  // ------------------------------------------------------------ field text

  /** `String(beat[key] || '')`. */
  function FieldText(beat: Json, key: string, numberText: real -> string): string {
    OrEmptyText(Get(beat, key), numberText)
  }

  /** The five fields of a raw beat as the normaliser reads them. */
  datatype Fields = Fields(actor: string, action: string, text: string, emoji: string, delayMs: string)

  function FieldsOf(beat: Json, numberText: real -> string): Fields {
    Fields(FieldText(beat, "actor", numberText), FieldText(beat, "action", numberText),
           FieldText(beat, "text", numberText), FieldText(beat, "emoji", numberText),
           FieldText(beat, "delayMs", numberText))
  }

  /** `String(v).trim().toLowerCase()`. */
  function Tag(t: string): string {
    LowerStr(Trim(t))
  }

  /** Membership in `DUAL_HEAD_ACTORS`, defaulting to the main head. */
  function ActorOf(t: string): Actor {
    if Tag(t) == "small" then Small else Main
  }

  /** Membership in `DUAL_HEAD_ACTIONS`, defaulting to speaking. */
  function ActionOf(t: string): Action {
    if Tag(t) == "react" then React else Speak
  }

  // ------------------------------------------------------------ delays

  /** `Math.max(120, Math.min(2500, n))`. */
  function ClampDelay(n: int): (d: int)
    ensures MIN_DELAY_MS <= d <= MAX_DELAY_MS
    ensures MIN_DELAY_MS <= n <= MAX_DELAY_MS ==> d == n
    ensures n < MIN_DELAY_MS ==> d == MIN_DELAY_MS
    ensures n > MAX_DELAY_MS ==> d == MAX_DELAY_MS
  {
    if n < MIN_DELAY_MS then MIN_DELAY_MS else if n > MAX_DELAY_MS then MAX_DELAY_MS else n
  }

  /** A delay read with `parseInt` and clamped, or none when it is not a finite
      number. */
  function SafeDelay(t: string): (d: Option<int>)
    ensures d.Some? <==> JsParseIntFinite(t).Some?
    ensures d.Some? ==> MIN_DELAY_MS <= d.value <= MAX_DELAY_MS
  {
    match JsParseIntFinite(t)
    case None => None
    case Some(v) => Some(ClampDelay(v))
  }

  /** A delay written as a decimal integer comes back clamped into
      [120, 2500], and unchanged when it is already inside. */
  lemma SafeDelayOfDecimal(n: int, rest: string)
    requires rest == [] || !IsDigit(rest[0])
    requires -1_000_000_000 <= n <= 1_000_000_000
    ensures SafeDelay(IntToStr(n) + rest) == Some(ClampDelay(n))
    ensures MIN_DELAY_MS <= n <= MAX_DELAY_MS ==> SafeDelay(IntToStr(n) + rest) == Some(n)
  {
    JsParseIntOfIntToStr(n, rest);
  }

  // ------------------------------------------------------------ one beat

  /** The text `normalizeScriptBeat` strips of formatting: the collapsed text
      field without its cue, or, when nothing but cues was there, with every
      emoji removed. */
  function StrippedText(raw: string, h: Helpers): string {
    var rawText := NormalizeInput(raw);
    var parsed := SplitTrailingEmotionEmoji(rawText);
    h.stripFormatting(if parsed.text != "" then parsed.text else StripEmojiClusters(rawText))
  }

  /** The spoken text of a beat: markers removed, then `clampOutput`. */
  function BeatText(stripped: string, h: Helpers): (t: string)
    ensures |t| <= OUTPUT_CHAR_LIMIT + 3
    ensures t == "" <==> AllWith(h.rescueText(StripDonationMarkers(stripped)), IsSpace)
    ensures t != "" ==> !IsSpace(t[0])
  {
    ClampRescued(h.rescueText(StripDonationMarkers(stripped)))
  }

  /** The cue of a beat: the first cue in its `emoji` field, else the cue split
      off its text; none when neither has one. */
  function BeatEmotion(emojiField: string, raw: string): (e: Option<Emotion>)
    ensures e.Some? ==> e.value.emoji in EMOJI_EMOTION_MAP && e == BuildEmotionFromEmoji(e.value.emoji)
    ensures PickSupportedEmotionEmoji(emojiField).Some? ==>
              e.Some? && e.value.emoji == PickSupportedEmotionEmoji(emojiField).value
    ensures PickSupportedEmotionEmoji(emojiField).None? ==>
              e == SplitTrailingEmotionEmoji(NormalizeInput(raw)).emotion
  {
    var fromField := PickSupportedEmotionEmoji(emojiField);
    var parsed := SplitTrailingEmotionEmoji(NormalizeInput(raw));
    var built := if fromField.Some? then BuildEmotionFromEmoji(fromField.value)
                 else if parsed.emoji.Some? then BuildEmotionFromEmoji(parsed.emoji.value)
                 else None;
    if built.Some? then built else parsed.emotion
  }

  /** Whether a beat with these fields is kept: a reaction needs a cue or text,
      a spoken beat needs text. */
  predicate Survives(f: Fields, h: Helpers) {
    var text := BeatText(StrippedText(f.text, h), h);
    text != "" || (ActionOf(f.action) == React && BeatEmotion(f.emoji, f.text).Some?)
  }

  /** A beat as the rest of the pipeline may rely on it. */
  predicate WellFormed(b: Beat) {
    && |b.text| <= OUTPUT_CHAR_LIMIT + 3
    && (b.text != "" ==> !IsSpace(b.text[0]))
    && (b.action == Speak ==> b.text != "" && b.emotion.Some?)
    && (b.action == React ==> b.text != "" || b.emotion.Some?)
    && (b.delayMs.Some? ==> MIN_DELAY_MS <= b.delayMs.value <= MAX_DELAY_MS)
    && (b.emotion.Some? ==> b.emotion == BuildEmotionFromEmoji(b.emotion.value.emoji))
  }

  predicate AllWellFormed(beats: seq<Beat>) {
    forall k :: 0 <= k < |beats| ==> WellFormed(beats[k])
  }

  lemma WellFormedCons(b: Beat, rest: seq<Beat>)
    requires WellFormed(b) && AllWellFormed(rest)
    ensures AllWellFormed([b] + rest)
  {
    assert forall k :: 1 <= k < |rest| + 1 ==> ([b] + rest)[k] == rest[k - 1];
  }

  /** `normalizeScriptBeat` over the fields of an object.  A spoken beat without
      a cue of its own takes the head's default cue (the random pick is `draw`),
      which is the only thing that moves `lasts`. */
  function NormalizeFields(f: Fields, h: Helpers, lasts: LastPicks, draw: nat): (r: (Option<Beat>, LastPicks))
    ensures r.0.Some? <==> Survives(f, h)
    ensures r.0.Some? ==> WellFormed(r.0.value)
    ensures r.0.Some? ==>
              var b := r.0.value;
              && (b.actor == Small <==> Tag(f.actor) == "small")
              && (b.action == React <==> Tag(f.action) == "react")
              && b.text == BeatText(StrippedText(f.text, h), h)
              && b.hadDonationMarker == HasMarker(StrippedText(f.text, h))
              && b.delayMs == SafeDelay(f.delayMs)
              && (BeatEmotion(f.emoji, f.text).Some? ==> b.emotion == BeatEmotion(f.emoji, f.text))
              && (BeatEmotion(f.emoji, f.text).None? && b.emotion.Some? ==>
                    b.action == Speak && b.emotion.value.emoji in Profile(b.actor.Name()))
    ensures r.1 != lasts <==> r.0.Some? && r.0.value.action == Speak && BeatEmotion(f.emoji, f.text).None?
  {
    var actor := ActorOf(f.actor);
    var action := ActionOf(f.action);
    var stripped := StrippedText(f.text, h);
    var text := BeatText(stripped, h);
    var emotion := BeatEmotion(f.emoji, f.text);
    var delay := SafeDelay(f.delayMs);
    var marked := HasMarker(stripped);
    if action == React then
      if emotion.None? && text == "" then (None, lasts)
      else (Some(Beat(actor, React, text, emotion, delay, marked)), lasts)
    else if text == "" then (None, lasts)
    else if emotion.Some? then (Some(Beat(actor, Speak, text, emotion, delay, marked)), lasts)
    else
      var (fallback, after) := DefaultDualHeadSpeakEmotion(actor.Name(), lasts, draw);
      FallbackMoves(actor, lasts, draw);
      (Some(Beat(actor, Speak, text, Some(fallback), delay, marked)), after)
  }

  /** A default pick always records a cue different from the head's previous
      one, so it always changes `lasts`. */
  lemma FallbackMoves(actor: Actor, lasts: LastPicks, draw: nat)
    ensures DefaultDualHeadSpeakEmotion(actor.Name(), lasts, draw).1 != lasts
  {
    var (e, after) := DefaultDualHeadSpeakEmotion(actor.Name(), lasts, draw);
    if actor == Small {
      assert after.small != lasts.small;
    } else {
      assert after.main != lasts.main;
    }
  }

  /** `normalizeScriptBeat`: anything but an object (arrays included, which
      have no such fields) gives no beat. */
  function NormalizeScriptBeat(beat: Json, h: Helpers, lasts: LastPicks, draw: nat): (r: (Option<Beat>, LastPicks))
    ensures !(beat.JObj? || beat.JArr?) ==> r == (None, lasts)
    ensures beat.JObj? || beat.JArr? ==> r == NormalizeFields(FieldsOf(beat, h.numberText), h, lasts, draw)
  {
    if !(beat.JObj? || beat.JArr?) then (None, lasts)
    else NormalizeFields(FieldsOf(beat, h.numberText), h, lasts, draw)
  }

  predicate Kept(beat: Json, h: Helpers) {
    (beat.JObj? || beat.JArr?) && Survives(FieldsOf(beat, h.numberText), h)
  }

  predicate KeptAsSpeech(beat: Json, h: Helpers) {
    Kept(beat, h) && ActionOf(FieldsOf(beat, h.numberText).action) == Speak
  }

  // ------------------------------------------------------------ the script

  /** Some beat of the list is spoken. */
  predicate SomeSpeech(beats: seq<Beat>) {
    exists k :: 0 <= k < |beats| && beats[k].action == Speak
  }

  /** Some raw beat is kept as a spoken beat: the first, or one after it. */
  predicate SomeKeptSpeech(raws: seq<Json>, h: Helpers) {
    |raws| > 0 && (KeptAsSpeech(raws[0], h) || SomeKeptSpeech(raws[1..], h))
  }

  /** Some raw beat is kept at all: the first, or one after it. */
  predicate SomeKept(raws: seq<Json>, h: Helpers) {
    |raws| > 0 && (Kept(raws[0], h) || SomeKept(raws[1..], h))
  }

  /** What one beat adds to the normalised list: the beat, when kept. */
  function KeptPart(x: Option<Beat>): seq<Beat> {
    if x.Some? then [x.value] else []
  }

  /** The random picks from the next one on. */
  function Shifted(draw: nat -> nat): (r: nat -> nat)
    ensures forall j: nat :: r(j) == draw(j + 1)
  {
    j => draw(j + 1)
  }

  /** The loop of `parseDualHeadScript` over the raw beats, the `j`-th default
      pick being `draw(j)`: the kept beats in order, and the picks recorded. */
  function NormalizeBeats(raws: seq<Json>, h: Helpers, lasts: LastPicks, draw: nat -> nat): (r: (seq<Beat>, LastPicks))
    ensures |r.0| <= |raws|
    ensures AllWellFormed(r.0)
    ensures SomeSpeech(r.0) <==> SomeKeptSpeech(raws, h)
    ensures r.0 != [] <==> SomeKept(raws, h)
    ensures Cores(r.0) == KeptCores(raws, h)
    decreases |raws|
  {
    if |raws| == 0 then ([], lasts)
    else
      var (b, after) := NormalizeScriptBeat(raws[0], h, lasts, draw(0));
      var (rest, final) := NormalizeBeats(raws[1..], h, after, Shifted(draw));
      BeatsStep(raws, h, lasts, draw(0), rest);
      (KeptPart(b) + rest, final)
  }

  /** The loop's facts survive one more raw beat in front. */
  lemma BeatsStep(raws: seq<Json>, h: Helpers, lasts: LastPicks, draw: nat, rest: seq<Beat>)
    requires 0 < |raws| && |rest| <= |raws| - 1 && AllWellFormed(rest)
    requires SomeSpeech(rest) <==> SomeKeptSpeech(raws[1..], h)
    requires rest != [] <==> SomeKept(raws[1..], h)
    requires Cores(rest) == KeptCores(raws[1..], h)
    ensures var out := KeptPart(NormalizeScriptBeat(raws[0], h, lasts, draw).0) + rest;
            && |out| <= |raws| && AllWellFormed(out)
            && (SomeSpeech(out) <==> SomeKeptSpeech(raws, h))
            && (out != [] <==> SomeKept(raws, h))
            && Cores(out) == KeptCores(raws, h)
  {
    var b := NormalizeScriptBeat(raws[0], h, lasts, draw).0;
    BeatKept(raws[0], h, lasts, draw);
    CoresStep(raws, h, lasts, draw, rest);
    if b.Some? {
      SpeechCons(b.value, rest);
      WellFormedCons(b.value, rest);
    } else {
      assert [] + rest == rest;
    }
  }

  /** What normalising decides about a beat whatever the default pick: head,
      action, spoken text, delay and marker flag. */
  datatype BeatCore = BeatCore(actor: Actor, action: Action, text: string, delayMs: Option<int>,
                               hadDonationMarker: bool)

  function Core(b: Beat): BeatCore {
    BeatCore(b.actor, b.action, b.text, b.delayMs, b.hadDonationMarker)
  }

  function Cores(bs: seq<Beat>): seq<BeatCore> {
    if |bs| == 0 then [] else [Core(bs[0])] + Cores(bs[1..])
  }

  /** The core a kept raw beat normalises to, read from its fields alone. */
  function CoreOf(f: Fields, h: Helpers): BeatCore {
    var stripped := StrippedText(f.text, h);
    BeatCore(ActorOf(f.actor), ActionOf(f.action), BeatText(stripped, h), SafeDelay(f.delayMs),
             HasMarker(stripped))
  }

  /** The reference list: the cores of the raw beats that are kept, in order. */
  function KeptCores(raws: seq<Json>, h: Helpers): seq<BeatCore> {
    if |raws| == 0 then []
    else (if Kept(raws[0], h) then [CoreOf(FieldsOf(raws[0], h.numberText), h)] else [])
         + KeptCores(raws[1..], h)
  }

  /** One raw beat adds its core exactly when it is kept. */
  lemma CoresStep(raws: seq<Json>, h: Helpers, lasts: LastPicks, draw: nat, rest: seq<Beat>)
    requires 0 < |raws| && Cores(rest) == KeptCores(raws[1..], h)
    ensures Cores(KeptPart(NormalizeScriptBeat(raws[0], h, lasts, draw).0) + rest) == KeptCores(raws, h)
  {
    var b := NormalizeScriptBeat(raws[0], h, lasts, draw).0;
    BeatKept(raws[0], h, lasts, draw);
    if b.Some? {
      CoresCons(b.value, rest);
      CoreOfKept(raws[0], h, lasts, draw);
    } else {
      assert [] + rest == rest;
    }
  }

  lemma CoresCons(x: Beat, rest: seq<Beat>)
    ensures Cores([x] + rest) == [Core(x)] + Cores(rest)
  {
    assert ([x] + rest)[1..] == rest;
  }

  /** A kept beat's core is read from its fields alone. */
  lemma CoreOfKept(beat: Json, h: Helpers, lasts: LastPicks, draw: nat)
    requires NormalizeScriptBeat(beat, h, lasts, draw).0.Some?
    ensures Core(NormalizeScriptBeat(beat, h, lasts, draw).0.value) == CoreOf(FieldsOf(beat, h.numberText), h)
  {
  }

  /** The loop works beat by beat: the first raw beat's normalisation, when it
      has one, and then the rest normalised with the record it leaves and the
      next random picks. */
  lemma NormalizeBeatsCons(b: Json, rest: seq<Json>, h: Helpers, lasts: LastPicks, draw: nat -> nat)
    ensures var (x, after) := NormalizeScriptBeat(b, h, lasts, draw(0));
            var tail := NormalizeBeats(rest, h, after, Shifted(draw));
            NormalizeBeats([b] + rest, h, lasts, draw) == ((if x.Some? then [x.value] else []) + tail.0, tail.1)
  {
  }

  /** Whether a raw beat is kept, and kept as speech, does not depend on the
      default picks. */
  lemma BeatKept(beat: Json, h: Helpers, lasts: LastPicks, draw: nat)
    ensures NormalizeScriptBeat(beat, h, lasts, draw).0.Some? <==> Kept(beat, h)
    ensures NormalizeScriptBeat(beat, h, lasts, draw).0.Some? ==>
              (NormalizeScriptBeat(beat, h, lasts, draw).0.value.action == Speak <==> KeptAsSpeech(beat, h))
  {
  }

  lemma SpeechCons(b: Beat, rest: seq<Beat>)
    ensures SomeSpeech([b] + rest) <==> b.action == Speak || SomeSpeech(rest)
  {
    assert ([b] + rest)[0] == b;
    if SomeSpeech(rest) {
      var k :| 0 <= k < |rest| && rest[k].action == Speak;
      assert ([b] + rest)[k + 1] == rest[k];
    }
    if SomeSpeech([b] + rest) && b.action != Speak {
      var k :| 0 <= k < |[b] + rest| && ([b] + rest)[k].action == Speak;
      assert rest[k - 1] == ([b] + rest)[k];
    }
  }

  /** `hasRequiredDualHeadCoverage`: some spoken beat has text. */
  predicate HasRequiredDualHeadCoverage(beats: seq<Beat>) {
    exists k :: 0 <= k < |beats| && beats[k].action == Speak && NormalizeInput(beats[k].text) != ""
  }

  /** Over normalised beats, coverage is just "some beat is spoken". */
  lemma CoverageOfWellFormed(beats: seq<Beat>)
    requires AllWellFormed(beats)
    ensures HasRequiredDualHeadCoverage(beats) <==> SomeSpeech(beats)
  {
    forall k | 0 <= k < |beats| && beats[k].action == Speak
      ensures NormalizeInput(beats[k].text) != ""
    {
      NormalizeInputFacts(beats[k].text);
    }
  }

  /** Regrouping keeps every beat, so it keeps well-formedness and speech. */
  lemma ReorderKeeps(beats: seq<Beat>, policy: string)
    requires AllWellFormed(beats)
    ensures AllWellFormed(ReorderDualHeadBeats(beats, policy))
    ensures SomeSpeech(ReorderDualHeadBeats(beats, policy)) <==> SomeSpeech(beats)
    ensures |ReorderDualHeadBeats(beats, policy)| == |beats|
  {
    var r := ReorderDualHeadBeats(beats, policy);
    assert |r| == |multiset(r)| == |multiset(beats)| == |beats|;
    forall k | 0 <= k < |r|
      ensures WellFormed(r[k])
    {
      assert r[k] in multiset(beats);
    }
    if SomeSpeech(beats) {
      var k :| 0 <= k < |beats| && beats[k].action == Speak;
      assert beats[k] in multiset(r);
    }
    if SomeSpeech(r) {
      var k :| 0 <= k < |r| && r[k].action == Speak;
      assert r[k] in multiset(beats);
    }
  }

  /** The raw beats of a parsed script: `parsed.beats` when it is an array,
      at most the first seven. */
  function RawBeats(parsed: Json): (raws: seq<Json>)
    ensures |raws| <= MAX_BEATS
  {
    match Get(parsed, "beats")
    case Some(JArr(items)) => Take7(items)
    case _ => []
  }

  function Take7(items: seq<Json>): (r: seq<Json>)
    ensures |r| <= MAX_BEATS
    ensures r == items[..if |items| < MAX_BEATS then |items| else MAX_BEATS]
  {
    if |items| <= MAX_BEATS then items else items[..MAX_BEATS]
  }

  /** `parseDualHeadScript`: none without a JSON block, when it does not parse,
      or when no kept beat among the first seven is spoken.  Default picks made
      while normalising stay recorded even when the script is refused. */
  function ParseDualHeadScript(rawText: string, h: Helpers, policy: string, lasts: LastPicks,
                               draw: nat -> nat): (r: (Option<Script>, LastPicks))
    ensures ExtractJsonBlock(rawText) == "" ==> r == (None, lasts)
    ensures ExtractJsonBlock(rawText) != "" && h.parse(ExtractJsonBlock(rawText)).None? ==> r == (None, lasts)
    ensures r.0.Some? <==>
              && ExtractJsonBlock(rawText) != ""
              && h.parse(ExtractJsonBlock(rawText)).Some?
              && SomeKeptSpeech(RawBeats(h.parse(ExtractJsonBlock(rawText)).value), h)
    ensures r.0.Some? ==>
              && r.0.value.raw == h.parse(ExtractJsonBlock(rawText))
              && |r.0.value.beats| <= MAX_BEATS
              && AllWellFormed(r.0.value.beats)
              && HasRequiredDualHeadCoverage(r.0.value.beats)
    ensures r.0.Some? ==>
              var normalized := NormalizeBeats(RawBeats(h.parse(ExtractJsonBlock(rawText)).value), h, lasts, draw);
              && r.0.value.beats == ReorderDualHeadBeats(normalized.0, policy)
              && r.1 == normalized.1
              && Cores(normalized.0) == KeptCores(RawBeats(h.parse(ExtractJsonBlock(rawText)).value), h)
  {
    var block := ExtractJsonBlock(rawText);
    if block == "" then (None, lasts)
    else
      match h.parse(block)
      case None => (None, lasts)
      case Some(parsed) =>
        var (beats, after) := NormalizeBeats(RawBeats(parsed), h, lasts, draw);
        CoverageOfWellFormed(beats);
        if !HasRequiredDualHeadCoverage(beats) then (None, after)
        else
          var ordered := ReorderDualHeadBeats(beats, policy);
          ReorderKeeps(beats, policy);
          CoverageOfWellFormed(ordered);
          (Some(Script(ordered, Some(parsed))), after)
  }

  // ------------------------------------------------------------ turn order

  /** The beats of one head, in order. */
  function OfActor(beats: seq<Beat>, a: Actor): (r: seq<Beat>)
    ensures |r| <= |beats|
    ensures forall k :: 0 <= k < |r| ==> r[k].actor == a
  {
    if |beats| == 0 then []
    else (if beats[0].actor == a then [beats[0]] else []) + OfActor(beats[1..], a)
  }

  /** The filter only drops beats: each kept beat is one of the input's. */
  lemma {:induction false} OfActorSubMultiset(beats: seq<Beat>, a: Actor)
    ensures multiset(OfActor(beats, a)) <= multiset(beats)
  {
    if |beats| > 0 {
      OfActorSubMultiset(beats[1..], a);
      assert beats == [beats[0]] + beats[1..];
      assert multiset(beats) == multiset{beats[0]} + multiset(beats[1..]);
    }
  }

  function Other(a: Actor): Actor {
    if a == Main then Small else Main
  }

  /** Every beat of `first` comes before every beat of the other head. */
  predicate GroupedFirst(beats: seq<Beat>, first: Actor) {
    forall i, j :: 0 <= i < j < |beats| && beats[j].actor == first ==> beats[i].actor == first
  }

  /** `reorderDualHeadBeats`: the stable sort that moves one head's beats to the
      front ("main_first" or "small_first"); any other policy keeps the order
      the model chose. */
  function ReorderDualHeadBeats(beats: seq<Beat>, policy: string): (r: seq<Beat>)
    ensures policy != "main_first" && policy != "small_first" ==> r == beats
    ensures multiset(r) == multiset(beats)
    ensures OfActor(r, Main) == OfActor(beats, Main) && OfActor(r, Small) == OfActor(beats, Small)
    ensures policy == "main_first" ==> GroupedFirst(r, Main)
    ensures policy == "small_first" ==> GroupedFirst(r, Small)
  {
    if policy == "main_first" then Partition(beats, Main)
    else if policy == "small_first" then Partition(beats, Small)
    else beats
  }

  /** The beats of `first`, then the others, each in their original order. */
  function Partition(beats: seq<Beat>, first: Actor): (r: seq<Beat>)
    ensures multiset(r) == multiset(beats)
    ensures OfActor(r, Main) == OfActor(beats, Main) && OfActor(r, Small) == OfActor(beats, Small)
    ensures GroupedFirst(r, first)
  {
    PartitionMultiset(beats, first);
    PartitionFilters(beats, first);
    PartitionGrouped(beats, first);
    OfActor(beats, first) + OfActor(beats, Other(first))
  }

  lemma PartitionFilters(beats: seq<Beat>, first: Actor)
    ensures var r := OfActor(beats, first) + OfActor(beats, Other(first));
            OfActor(r, first) == OfActor(beats, first) && OfActor(r, Other(first)) == OfActor(beats, Other(first))
    ensures var r := OfActor(beats, first) + OfActor(beats, Other(first));
            OfActor(r, Main) == OfActor(beats, Main) && OfActor(r, Small) == OfActor(beats, Small)
  {
    var a := OfActor(beats, first);
    var b := OfActor(beats, Other(first));
    OfActorAppend(a, b, first);
    OfActorAppend(a, b, Other(first));
    OfActorOnly(a, first);
    OfActorOnly(b, Other(first));
    OfActorNone(a, first);
    OfActorNone(b, Other(first));
    assert Other(Other(first)) == first;
  }

  lemma PartitionGrouped(beats: seq<Beat>, first: Actor)
    ensures GroupedFirst(OfActor(beats, first) + OfActor(beats, Other(first)), first)
  {
    var a := OfActor(beats, first);
    var b := OfActor(beats, Other(first));
    var r := a + b;
    assert forall k :: |a| <= k < |r| ==> r[k] == b[k - |a|];
    assert forall k :: 0 <= k < |a| ==> r[k].actor == first;
    assert forall k :: |a| <= k < |r| ==> r[k].actor != first;
  }

  lemma {:induction false} PartitionMultiset(beats: seq<Beat>, first: Actor)
    ensures multiset(OfActor(beats, first) + OfActor(beats, Other(first))) == multiset(beats)
  {
    var a, b := OfActor(beats, first), OfActor(beats, Other(first));
    assert multiset(a + b) == multiset(a) + multiset(b);
    SplitMultiset(beats, first);
  }

  lemma {:induction false} SplitMultiset(beats: seq<Beat>, first: Actor)
    ensures multiset(OfActor(beats, first)) + multiset(OfActor(beats, Other(first))) == multiset(beats)
  {
    if |beats| > 0 {
      var x, t := beats[0], beats[1..];
      var a, b := OfActor(t, first), OfActor(t, Other(first));
      SplitMultiset(t, first);
      assert beats == [x] + t;
      ConsMultiset(x, a, b, t);
      if x.actor == first {
        assert OfActor(beats, first) == [x] + a;
        assert OfActor(beats, Other(first)) == b by {
          assert x.actor != Other(first);
        }
      } else {
        assert OfActor(beats, first) == a;
        assert OfActor(beats, Other(first)) == [x] + b;
      }
    }
  }

  lemma {:induction false} OfActorAppend(a: seq<Beat>, b: seq<Beat>, x: Actor)
    ensures OfActor(a + b, x) == OfActor(a, x) + OfActor(b, x)
  {
    if |a| == 0 {
      assert a + b == b;
    } else {
      assert (a + b)[1..] == a[1..] + b;
      OfActorAppend(a[1..], b, x);
    }
  }

  /** Filtering a single-head list by that head keeps it whole. */
  lemma {:induction false} OfActorOnly(beats: seq<Beat>, a: Actor)
    requires forall k :: 0 <= k < |beats| ==> beats[k].actor == a
    ensures OfActor(beats, a) == beats
  {
    if |beats| > 0 {
      OfActorOnly(beats[1..], a);
    }
  }

  /** Filtering a single-head list by the other head leaves nothing. */
  lemma {:induction false} OfActorNone(beats: seq<Beat>, a: Actor)
    requires forall k :: 0 <= k < |beats| ==> beats[k].actor == a
    ensures OfActor(beats, Other(a)) == []
  {
    if |beats| > 0 {
      OfActorNone(beats[1..], a);
    }
  }

  /** The regrouped order is the only one with the grouping and the per-head
      order: any arrangement that puts one head first and keeps each head's
      beats in their original order is `Partition`. */
  lemma {:induction false} PartitionUnique(beats: seq<Beat>, t: seq<Beat>, first: Actor)
    requires GroupedFirst(t, first)
    requires OfActor(t, Main) == OfActor(beats, Main) && OfActor(t, Small) == OfActor(beats, Small)
    ensures t == Partition(beats, first)
  {
    GroupedSplit(t, first);
    assert OfActor(t, first) == OfActor(beats, first);
    assert OfActor(t, Other(first)) == OfActor(beats, Other(first));
  }

  /** A grouped list is its first head's beats followed by the other's. */
  lemma {:induction false} GroupedSplit(t: seq<Beat>, first: Actor)
    requires GroupedFirst(t, first)
    ensures t == OfActor(t, first) + OfActor(t, Other(first))
  {
    if |t| > 0 {
      GroupedTail(t, first);
      GroupedSplit(t[1..], first);
      if t[0].actor == first {
        GroupedHeadFirst(t, first);
      } else {
        GroupedHeadOther(t, first);
      }
    }
  }

  lemma GroupedTail(t: seq<Beat>, first: Actor)
    requires GroupedFirst(t, first) && |t| > 0
    ensures GroupedFirst(t[1..], first)
  {
    forall i, j | 0 <= i < j < |t[1..]| && t[1..][j].actor == first
      ensures t[1..][i].actor == first
    {
      assert t[j + 1].actor == first;
    }
  }

  lemma GroupedHeadFirst(t: seq<Beat>, first: Actor)
    requires |t| > 0 && t[0].actor == first
    requires t[1..] == OfActor(t[1..], first) + OfActor(t[1..], Other(first))
    ensures t == OfActor(t, first) + OfActor(t, Other(first))
  {
    var a := OfActor(t[1..], first);
    var b := OfActor(t[1..], Other(first));
    HeadFilters(t, first);
    Regroup(t[0], a, b);
  }

  lemma HeadFilters(t: seq<Beat>, first: Actor)
    requires |t| > 0 && t[0].actor == first
    ensures OfActor(t, first) == [t[0]] + OfActor(t[1..], first)
    ensures OfActor(t, Other(first)) == OfActor(t[1..], Other(first))
  {
  }

  lemma Regroup(x: Beat, a: seq<Beat>, b: seq<Beat>)
    ensures [x] + (a + b) == ([x] + a) + b
  {
  }

  lemma GroupedHeadOther(t: seq<Beat>, first: Actor)
    requires GroupedFirst(t, first) && |t| > 0 && t[0].actor != first
    ensures t == OfActor(t, first) + OfActor(t, Other(first))
  {
    assert forall k :: 0 <= k < |t| ==> t[k].actor != first;
    OfActorNone(t, Other(first));
    OfActorOnly(t, Other(first));
    assert Other(Other(first)) == first;
  }

  // ------------------------------------------------------------ donation merge

  datatype Merged = Merged(beats: seq<Beat>, show: bool, reason: Reason)

  /** A spoken beat whose text asks for a donation. */
  predicate SpeechShows(b: Beat, hasKeyword: string -> bool) {
    b.action == Speak && ExtractDonationSignal(b.text, hasKeyword).show
  }

  /** A beat as the merge leaves it: spoken text cleaned of markers. */
  function CleanBeat(b: Beat, hasKeyword: string -> bool): Beat {
    if b.action == Speak then b.(text := ExtractDonationSignal(b.text, hasKeyword).text) else b
  }

  /** Index of the last beat satisfying `p`, or -1. */
  function LastWhere(beats: seq<Beat>, p: Beat -> bool): (i: int)
    ensures -1 <= i < |beats|
    ensures i >= 0 ==> p(beats[i])
    ensures forall k :: i < k < |beats| ==> !p(beats[k])
  {
    if |beats| == 0 then -1
    else if p(beats[|beats| - 1]) then |beats| - 1
    else
      var i := LastWhere(beats[..|beats| - 1], p);
      assert forall k :: 0 <= k < |beats| - 1 ==> beats[k] == beats[..|beats| - 1][k];
      i
  }

  /** Index of the last spoken beat that asks for a donation, or -1. */
  function LastAsking(beats: seq<Beat>, hasKeyword: string -> bool): (i: int)
    ensures -1 <= i < |beats|
    ensures i >= 0 ==> SpeechShows(beats[i], hasKeyword)
    ensures forall k :: i < k < |beats| ==> !SpeechShows(beats[k], hasKeyword)
  {
    LastWhere(beats, b => SpeechShows(b, hasKeyword))
  }

  /** Some beat carries the marker flag. */
  function AnyMarker(beats: seq<Beat>): (b: bool)
    ensures b <==> exists k :: 0 <= k < |beats| && beats[k].hadDonationMarker
  {
    if |beats| == 0 then false
    else
      var rest := AnyMarker(beats[..|beats| - 1]);
      assert forall k :: 0 <= k < |beats| - 1 ==> beats[k] == beats[..|beats| - 1][k];
      beats[|beats| - 1].hadDonationMarker || rest
  }

  /** The reason the merged payload gives: that of the last asking spoken
      beat, else "marker" when some beat had a marker, else "none". */
  function MergedReason(beats: seq<Beat>, hasKeyword: string -> bool): Reason {
    var i := LastAsking(beats, hasKeyword);
    if i >= 0 then ExtractDonationSignal(beats[i].text, hasKeyword).reason
    else if AnyMarker(beats) then MarkerReason
    else NoReason
  }

  /** `mergeDonationSignalFromBeats`: spoken beats get their text cleaned of
      markers, other beats pass through; a QR is shown when any beat had a
      marker or any spoken beat asks, and the reason is that of the last
      spoken beat that asks, else "marker" when only markers were seen. */
  function MergeDonationSignalFromBeats(beats: seq<Beat>, hasKeyword: string -> bool): (m: Merged)
    ensures |m.beats| == |beats|
    ensures forall k :: 0 <= k < |beats| ==> m.beats[k] == CleanBeat(beats[k], hasKeyword)
    ensures m.show <==> AnyMarker(beats) || LastAsking(beats, hasKeyword) >= 0
    ensures m.reason == MergedReason(beats, hasKeyword)
    decreases |beats|
  {
    if |beats| == 0 then Merged([], false, NoReason)
    else
      var n := |beats| - 1;
      var prev := MergeDonationSignalFromBeats(beats[..n], hasKeyword);
      var b := beats[n];
      var marked := prev.show || b.hadDonationMarker;
      var reason := if b.hadDonationMarker && prev.reason == NoReason then MarkerReason else prev.reason;
      MergeStep(beats, hasKeyword, prev.beats);
      if b.action != Speak then
        Merged(prev.beats + [b], marked, reason)
      else
        var signal := ExtractDonationSignal(b.text, hasKeyword);
        var cleaned := b.(text := signal.text);
        if signal.show then Merged(prev.beats + [cleaned], true, signal.reason)
        else Merged(prev.beats + [cleaned], marked, reason)
  }

  lemma MergeStep(beats: seq<Beat>, hasKeyword: string -> bool, prev: seq<Beat>)
    requires |beats| > 0 && |prev| == |beats| - 1
    requires forall k :: 0 <= k < |prev| ==> prev[k] == CleanBeat(beats[..|beats| - 1][k], hasKeyword)
    ensures forall k :: 0 <= k < |beats| ==>
              (prev + [CleanBeat(beats[|beats| - 1], hasKeyword)])[k] == CleanBeat(beats[k], hasKeyword)
  {
  }

  /** Asked-for and reason agree: the QR shows exactly when the reason is not
      "none", and any asking spoken beat decides the reason. */
  lemma MergedShowIffReason(beats: seq<Beat>, hasKeyword: string -> bool)
    ensures MergeDonationSignalFromBeats(beats, hasKeyword).show <==> MergedReason(beats, hasKeyword) != NoReason
    ensures (exists k :: 0 <= k < |beats| && (beats[k].hadDonationMarker || SpeechShows(beats[k], hasKeyword)))
            <==> MergeDonationSignalFromBeats(beats, hasKeyword).show
  {
    var i := LastAsking(beats, hasKeyword);
    if i >= 0 {
      assert ExtractDonationSignal(beats[i].text, hasKeyword).show;
    }
  }

  /** The payload the merged signal produces. */
  function MergedPayload(config: DonationConfig, m: Merged): (p: DonationPayload)
    ensures p.show == m.show && p.reason == m.reason.Name()
  {
    BuildDonationPayload(config, Some(JBool(m.show)), m.reason.Name())
  }

  // ------------------------------------------------------------ rescue

  /** The capture groups of one `"actor": "main|small"` match and of the
      `text`, `action`, `emoji` and `delayMs` matches in the window after it. */
  datatype BeatMatch = BeatMatch(actor: string, text: Option<string>, action: Option<string>,
                                 emoji: Option<string>, delayMs: Option<string>)

  /** The capture groups of one `main: ...` / `small - ...` line. */
  datatype LineMatch = LineMatch(actor: string, text: string)

  /** `decodeJsonString` as written: five replaces in a row, then trim. */
  function DecodeJsonStringChained(v: string): (r: string)
    ensures '\\' !in v ==> r == Trim(v)
  {
    var a := ReplaceEscape(v, '\\', "\\");
    var b := ReplaceEscape(a, '"', "\"");
    var c := ReplaceEscape(b, 'n', " ");
    var d := ReplaceEscape(c, 'r', " ");
    Trim(ReplaceEscape(d, 't', " "))
  }

  /** The escapes read in one left-to-right pass: `\\` and `\"` give the
      character, `\n`, `\r` and `\t` give a space, anything else is kept. */
  function Unescape(s: string): (r: string)
    ensures |r| <= |s|
    ensures '\\' !in s ==> r == s
  {
    if |s| < 2 then s
    else if s[0] == '\\' && (s[1] == '\\' || s[1] == '"') then [s[1]] + Unescape(s[2..])
    else if s[0] == '\\' && (s[1] == 'n' || s[1] == 'r' || s[1] == 't') then " " + Unescape(s[2..])
    else [s[0]] + Unescape(s[1..])
  }

  /** `decodeJsonString` as evidently intended. */
  function DecodeJsonString(v: string): (r: string)
    ensures '\\' !in v ==> r == Trim(v)
  {
    Trim(Unescape(v))
  }

  /** How a JSON string literal writes backslashes and quotes. */
  function EscapeQuotes(s: string): (r: string)
    ensures '\\' !in s && '"' !in s ==> r == s
  {
    if |s| == 0 then ""
    else if s[0] == '\\' || s[0] == '"' then ['\\', s[0]] + EscapeQuotes(s[1..])
    else [s[0]] + EscapeQuotes(s[1..])
  }

  /** Reading escapes undoes writing them. */
  lemma {:induction false} UnescapeRoundTrip(s: string)
    ensures Unescape(EscapeQuotes(s)) == s
  {
    if |s| > 0 {
      UnescapeRoundTrip(s[1..]);
      var e := EscapeQuotes(s);
      if s[0] == '\\' || s[0] == '"' {
        assert e == ['\\', s[0]] + EscapeQuotes(s[1..]);
        assert e[2..] == EscapeQuotes(s[1..]);
      } else {
        assert e == [s[0]] + EscapeQuotes(s[1..]);
        assert e[1..] == EscapeQuotes(s[1..]);
        if |e| >= 2 {
          assert e[0] != '\\';
        }
      }
      assert s == [s[0]] + s[1..];
    }
  }

  /** The chained replaces read an escaped backslash twice: the JSON text
      `a\\nb` (a backslash, then `n`) comes out as `a b`. */
  lemma ChainedDecodeReadsTwice()
    ensures EscapeQuotes("a\\nb") == "a\\\\nb"
    ensures DecodeJsonStringChained("a\\\\nb") == "a b"
    ensures DecodeJsonString("a\\\\nb") == "a\\nb"
  {
    EscapeExample();
    ChainedExample();
    UnescapeExample();
  }

  lemma EscapeExample()
    ensures EscapeQuotes("a\\nb") == "a\\\\nb"
  {
    assert EscapeQuotes("nb") == "nb";
    assert EscapeQuotes("\\nb") == ['\\', '\\'] + "nb" by { assert "\\nb"[1..] == "nb"; }
    assert EscapeQuotes("a\\nb") == "a" + EscapeQuotes("\\nb") by { assert "a\\nb"[1..] == "\\nb"; }
  }

  lemma ChainedExample()
    ensures DecodeJsonStringChained("a\\\\nb") == "a b"
  {
    ChainedBackslash();
    ChainedQuote();
    ChainedNewline();
    assert '\\' !in "a b";
    TrimWithStripped("a b", IsSpace);
  }

  /** The first replace turns the written double backslash into one. */
  lemma ChainedBackslash()
    ensures ReplaceEscape("a\\\\nb", '\\', "\\") == "a\\nb"
  {
    var written := "a\\\\nb";
    assert written[1..] == "\\\\nb" && written[1..][2..] == "nb";
    assert ReplaceEscape(written[1..], '\\', "\\") == "\\" + ReplaceEscape("nb", '\\', "\\");
  }

  /** No `\"` in the text: the quote replace changes nothing. */
  lemma ChainedQuote()
    ensures ReplaceEscape("a\\nb", '"', "\"") == "a\\nb"
  {
    var once := "a\\nb";
    assert once[1..] == "\\nb" && once[1..][1..] == "nb";
    assert ReplaceEscape(once[1..], '"', "\"") == "\\" + ReplaceEscape("nb", '"', "\"");
  }

  /** The backslash left by the first replace now reads as a newline escape. */
  lemma ChainedNewline()
    ensures ReplaceEscape("a\\nb", 'n', " ") == "a b"
  {
    var once := "a\\nb";
    assert once[1..] == "\\nb" && once[1..][2..] == "b";
    assert ReplaceEscape(once[1..], 'n', " ") == " " + ReplaceEscape("b", 'n', " ");
  }

  lemma UnescapeExample()
    ensures DecodeJsonString("a\\\\nb") == "a\\nb"
  {
    var written := "a\\\\nb";
    var once := "a\\nb";
    assert Unescape(written) == once by {
      assert written[1..] == "\\\\nb" && written[1..][2..] == "nb";
      assert Unescape(written[1..]) == "\\" + Unescape("nb");
    }
    TrimWithStripped(once, IsSpace);
  }

  /** One rescued beat: text of at least two characters survives cleaning and
      the output clamp; its cue is the first cue of the emoji group or the
      head's default; its delay is clamped. */
  function RescueBeat(m: BeatMatch, h: Helpers, lasts: LastPicks, draw: nat): (r: (Option<Beat>, LastPicks))
    ensures r.0.Some? ==> Rescued(r.0.value)
    ensures r.0.Some? ==> |DecodeJsonStringChained(m.text.GetOr(""))| >= 2
    ensures r.0.Some? ==> (r.0.value.actor == Small <==> LowerStr(m.actor) == "small")
    ensures r.0.None? ==> r.1 == lasts
  {
    var raw := DecodeJsonStringChained(m.text.GetOr(""));
    if |raw| < 2 then (None, lasts)
    else
      var clean := ClampRescued(h.rescueText(h.stripFormatting(StripDonationMarkers(raw))));
      if clean == "" then (None, lasts)
      else
        var actor := if LowerStr(m.actor) == "small" then Small else Main;
        var action := if LowerStr(m.action.GetOr("speak")) == "react" then React else Speak;
        var cue := PickSupportedEmotionEmoji(DecodeJsonStringChained(m.emoji.GetOr("")));
        var delay := SafeDelay(m.delayMs.GetOr(""));
        if cue.Some? then
          (Some(Beat(actor, action, clean, BuildEmotionFromEmoji(cue.value), delay, false)), lasts)
        else
          var (fallback, after) := DefaultDualHeadSpeakEmotion(actor.Name(), lasts, draw);
          (Some(Beat(actor, action, clean, Some(fallback), delay, false)), after)
  }

  /** One rescued `actor: text` line, always spoken with the default cue. */
  function RescueLine(m: LineMatch, h: Helpers, lasts: LastPicks, draw: nat): (r: (Option<Beat>, LastPicks))
    ensures r.0.Some? ==> Rescued(r.0.value) && r.0.value.action == Speak && r.0.value.delayMs.None?
    ensures r.0.None? ==> r.1 == lasts
  {
    var clean := ClampRescued(h.rescueText(h.stripFormatting(DecodeJsonStringChained(m.text))));
    if clean == "" then (None, lasts)
    else
      var actor := if LowerStr(m.actor) == "small" then Small else Main;
      var (fallback, after) := DefaultDualHeadSpeakEmotion(actor.Name(), lasts, draw);
      (Some(Beat(actor, Speak, clean, Some(fallback), None, false)), after)
  }

  /** What every rescued beat carries: a well-formed beat with a cue and no
      marker flag. */
  predicate Rescued(b: Beat) {
    WellFormed(b) && b.emotion.Some? && !b.hadDonationMarker
  }

  predicate AllRescued(beats: seq<Beat>) {
    forall k :: 0 <= k < |beats| ==> Rescued(beats[k])
  }

  lemma RescuedCons(b: Beat, rest: seq<Beat>)
    requires Rescued(b) && AllRescued(rest)
    ensures AllRescued([b] + rest)
  {
    assert forall k :: 1 <= k < |rest| + 1 ==> ([b] + rest)[k] == rest[k - 1];
  }

  function RescueAll(ms: seq<BeatMatch>, i: nat, h: Helpers, lasts: LastPicks, draw: nat -> nat): (r: (seq<Beat>, LastPicks))
    requires i <= |ms|
    ensures |r.0| <= |ms| - i
    ensures AllRescued(r.0)
    decreases |ms| - i
  {
    if i == |ms| then ([], lasts)
    else
      var (b, after) := RescueBeat(ms[i], h, lasts, draw(i));
      var (rest, final) := RescueAll(ms, i + 1, h, after, draw);
      if b.Some? then
        RescuedCons(b.value, rest);
        ([b.value] + rest, final)
      else (rest, final)
  }

  function RescueLines(ls: seq<LineMatch>, i: nat, h: Helpers, lasts: LastPicks, draw: nat -> nat): (r: (seq<Beat>, LastPicks))
    requires i <= |ls|
    ensures |r.0| <= |ls| - i
    ensures AllRescued(r.0)
    decreases |ls| - i
  {
    if i == |ls| then ([], lasts)
    else
      var (b, after) := RescueLine(ls[i], h, lasts, draw(i));
      var (rest, final) := RescueLines(ls, i + 1, h, after, draw);
      if b.Some? then
        RescuedCons(b.value, rest);
        ([b.value] + rest, final)
      else (rest, final)
  }

  /** `rescueBeatsFromRawText`, over the regex matches it would find: the
      actor matches first, and the `actor: text` lines only when those give
      nothing; none when neither gives a beat. */
  function RescueBeatsFromRawText(ms: seq<BeatMatch>, ls: seq<LineMatch>, h: Helpers, lasts: LastPicks,
                                  draw: nat -> nat): (r: (Option<Script>, LastPicks))
    ensures r.0.Some? ==> r.0.value.raw.None? && r.0.value.beats != []
    ensures r.0.Some? ==> AllRescued(r.0.value.beats)
    ensures r.0.Some? ==> |r.0.value.beats| <= |ms| || |r.0.value.beats| <= |ls|
    ensures RescueAll(ms, 0, h, lasts, draw).0 != [] ==> r.0 == Some(Script(RescueAll(ms, 0, h, lasts, draw).0, None))
  {
    var (beats, after) := RescueAll(ms, 0, h, lasts, draw);
    if beats != [] then (Some(Script(beats, None)), after)
    else
      var (lined, final) := RescueLines(ls, 0, h, after, draw);
      if lined != [] then (Some(Script(lined, None)), final)
      else (None, final)
  }
}

=== FILE: emoji.dfy ===
/** Emoji clusters as the assistant and the face find them with the pattern
    `\p{Extended_Pictographic}(?:\uFE0F|\u200D\p{Extended_Pictographic})*` under
    the `u` flag: a pictographic character followed by variation selectors and
    zero-width-joined pictographs. */
module Emoji {
  import opened Strs

  const VS16: char := '\U{FE0F}'
  const ZWJ: char := '\U{200D}'

  /** An approximation of the Unicode `Extended_Pictographic` property from
      above: the ranges that hold its characters, taken whole (the symbol ranges
      of the Basic Multilingual Plane and the emoji planes from U+1F000, less the
      regional indicators and skin-tone modifiers).  It also admits symbols the
      property leaves out, such as U+219A, U+25B2 and U+2606. */
  predicate IsPictographic(c: char): (r: bool)
    ensures c as int < 0xA9 ==> !r
    ensures c == VS16 ==> !r
    ensures c == ZWJ ==> !r
    ensures 0x1F1E6 <= c as int <= 0x1F1FF ==> !r
    ensures 0x1F3FB <= c as int <= 0x1F3FF ==> !r
    ensures 0x1F600 <= c as int <= 0x1F64F || 0x2600 <= c as int <= 0x27BF ==> r
  {
    var n := c as int;
    n == 0xA9 || n == 0xAE || n == 0x203C || n == 0x2049 || n == 0x2122 || n == 0x2139 || n == 0x24C2
    || (0x2194 <= n <= 0x21AA) || (0x231A <= n <= 0x23FF) || (0x25AA <= n <= 0x25FE)
    || (0x2600 <= n <= 0x27BF) || n == 0x2934 || n == 0x2935 || (0x2B05 <= n <= 0x2B55)
    || n == 0x3030 || n == 0x303D || n == 0x3297 || n == 0x3299
    || (0x1F000 <= n <= 0x1FAFF && !(0x1F1E6 <= n <= 0x1F1FF) && !(0x1F3FB <= n <= 0x1F3FF))
    || (0x1FC00 <= n <= 0x1FFFD)
  }

  /** The `(?:\uFE0F|\u200D\p{Extended_Pictographic})*` tail at the front of `s`,
      taken greedily; a joiner not followed by a pictograph ends it. */
  function JoinTail(s: string): (n: nat)
    ensures n <= |s|
  {
    if |s| >= 1 && s[0] == VS16 then 1 + JoinTail(s[1..])
    else if |s| >= 2 && s[0] == ZWJ && IsPictographic(s[1]) then 2 + JoinTail(s[2..])
    else 0
  }

  /** Length of the emoji cluster at the front of `s`, or 0 when `s` does not
      start with a pictograph. */
  function ClusterAt(s: string): (n: nat)
    ensures n <= |s|
    ensures n > 0 <==> |s| > 0 && IsPictographic(s[0])
  {
    if |s| > 0 && IsPictographic(s[0]) then 1 + JoinTail(s[1..]) else 0
  }

  predicate NoPictograph(s: string) {
    forall i :: 0 <= i < |s| ==> !IsPictographic(s[i])
  }

  /** The matches of the global cluster pattern, left to right. */
  function Clusters(s: string): (cs: seq<string>)
    ensures forall k :: 0 <= k < |cs| ==> |cs[k]| > 0 && IsPictographic(cs[k][0])
    ensures cs == [] <==> NoPictograph(s)
    decreases |s|
  {
    if |s| == 0 then []
    else if ClusterAt(s) > 0 then
      var n := ClusterAt(s);
      [s[..n]] + Clusters(s[n..])
    else
      var cs := Clusters(s[1..]);
      assert forall i :: 1 <= i < |s| ==> s[i] == s[1..][i - 1];
      cs
  }

  /** Every cluster replaced by one space (`replace(pattern, ' ')`). */
  function ReplaceClusters(s: string): (r: string)
    ensures NoPictograph(r)
    ensures NoPictograph(s) ==> r == s
    decreases |s|
  {
    if |s| == 0 then ""
    else if ClusterAt(s) > 0 then " " + ReplaceClusters(s[ClusterAt(s)..])
    else
      var rest := ReplaceClusters(s[1..]);
      assert NoPictograph(s) ==> NoPictograph(s[1..]);
      [s[0]] + rest
  }

  /** Every cluster deleted (`replace(pattern, '')`); only characters of `s`
      remain. */
  function RemoveClusters(s: string): (r: string)
    ensures NoPictograph(r)
    ensures NoPictograph(s) ==> r == s
    ensures forall i :: 0 <= i < |r| ==> r[i] in s
    decreases |s|
  {
    if |s| == 0 then ""
    else if ClusterAt(s) > 0 then
      var rest := RemoveClusters(s[ClusterAt(s)..]);
      assert forall c :: c in s[ClusterAt(s)..] ==> c in s;
      rest
    else
      var rest := RemoveClusters(s[1..]);
      assert NoPictograph(s) ==> NoPictograph(s[1..]);
      assert forall c :: c in s[1..] ==> c in s;
      [s[0]] + rest
  }

  /** `stripEmojiClusters`: clusters become spaces, then whitespace is collapsed
      and trimmed.  No pictograph survives. */
  function StripEmojiClusters(text: string): (r: string)
    ensures NoPictograph(r)
    ensures Normalized(r)
    ensures NoPictograph(text) ==> r == NormalizeWs(text)
  {
    var replaced := ReplaceClusters(text);
    NormalizeKeepsChars(replaced);
    NormalizeWs(replaced)
  }

  /** Collapsing whitespace introduces no pictograph. */
  lemma NormalizeKeepsChars(s: string)
    requires NoPictograph(s)
    ensures NoPictograph(NormalizeWs(s))
  {
    var r := NormalizeWs(s);
    forall i | 0 <= i < |r|
      ensures !IsPictographic(r[i])
    {
      if !IsSpace(r[i]) {
        NormalizedCharFrom(s, i);
      }
    }
  }
}

=== FILE: emotion.dfy ===
/** The emoji cues the assistant understands: each of eight emoji names an emotion
    for the face, replies carry one as a leading (or, in older replies, trailing)
    cue, and a speaking head without a cue gets a default from its profile. */
module Emotion {
  import opened Wrappers
  import opened Strs
  import opened Emoji

  /** How strongly a cue pushes the face's mood. */
  datatype Impulse = Impulse(pos: real, neg: real, arousal: real)

  datatype Mapped = Mapped(emotionLabel: string, expression: string, impulse: Impulse)

  const WARM: string := "\U{1F642}"
  const JOY: string := "\U{1F604}"
  const SASSY: string := "\U{1F60F}"
  const PLEADING: string := "\U{1F97A}"
  const SAD: string := "\U{1F622}"
  const FIRED_UP: string := "\U{1F624}"
  const ROBOT: string := "\U{1F916}"
  const LOVE: string := "\U{1FAF6}"

  /** `EMOJI_EMOTION_MAP`. */
  const EMOJI_EMOTION_MAP: map<string, Mapped> := map[
    WARM := Mapped("warm_friendly", "smile", Impulse(0.58, 0.06, 0.34)),
    JOY := Mapped("joy_excited", "happy", Impulse(0.9, 0.02, 0.78)),
    SASSY := Mapped("sassy_playful", "smile", Impulse(0.5, 0.16, 0.48)),
    PLEADING := Mapped("pleading_soft", "sad", Impulse(0.36, 0.26, 0.36)),
    SAD := Mapped("sad_hurt", "sad", Impulse(0.12, 0.82, 0.42)),
    FIRED_UP := Mapped("fired_up", "sad", Impulse(0.24, 0.56, 0.82)),
    ROBOT := Mapped("robot_deadpan", "thinking", Impulse(0.32, 0.1, 0.2)),
    LOVE := Mapped("grateful_love", "love", Impulse(0.82, 0.02, 0.46))
  ]

  /** Each cue is one pictographic character. */
  lemma CuesAreClusters(e: string)
    requires e in EMOJI_EMOTION_MAP
    ensures |e| == 1 && IsPictographic(e[0])
  {
  }

  datatype Emotion = Emotion(emoji: string, emotionLabel: string, expression: string, impulse: Impulse)

  /** `buildEmotionFromEmoji`: the mapped label, expression and impulse of a cue,
      or nothing for any other string. */
  function BuildEmotionFromEmoji(emoji: string): (r: Option<Emotion>)
    ensures r.None? <==> emoji !in EMOJI_EMOTION_MAP
    ensures r.Some? ==> r.value.emoji == emoji
                        && r.value.emotionLabel == EMOJI_EMOTION_MAP[emoji].emotionLabel
                        && r.value.expression == EMOJI_EMOTION_MAP[emoji].expression
                        && r.value.impulse == EMOJI_EMOTION_MAP[emoji].impulse
  {
    if emoji !in EMOJI_EMOTION_MAP then None
    else
      var m := EMOJI_EMOTION_MAP[emoji];
      Some(Emotion(emoji, m.emotionLabel, m.expression, m.impulse))
  }

  // ------------------------------------------------------------ picking a cue

  /** The first cue among some clusters. */
  function FirstMapped(cs: seq<string>): (r: Option<string>)
    ensures r.None? <==> forall k :: 0 <= k < |cs| ==> cs[k] !in EMOJI_EMOTION_MAP
    ensures r.Some? ==> r.value in EMOJI_EMOTION_MAP
                        && exists k :: 0 <= k < |cs| && cs[k] == r.value
                             && forall j :: 0 <= j < k ==> cs[j] !in EMOJI_EMOTION_MAP
  {
    if |cs| == 0 then None
    else if cs[0] in EMOJI_EMOTION_MAP then Some(cs[0])
    else
      var r := FirstMapped(cs[1..]);
      assert forall k :: 1 <= k < |cs| ==> cs[k] == cs[1..][k - 1];
      if r.Some? then
        var k :| 0 <= k < |cs[1..]| && cs[1..][k] == r.value
                 && forall j :: 0 <= j < k ==> cs[1..][j] !in EMOJI_EMOTION_MAP;
        assert cs[k + 1] == r.value;
        r
      else r
  }

  /** `pickSupportedEmotionEmoji`: the first emoji cluster of the text that is a
      cue. */
  function PickSupportedEmotionEmoji(text: string): (r: Option<string>)
    ensures r.Some? ==> r.value in EMOJI_EMOTION_MAP
    ensures NoPictograph(text) ==> r.None?
  {
    FirstMapped(Clusters(text))
  }

  // ------------------------------------------------------------ default cues

  /** `DUAL_HEAD_DEFAULT_EMOJI_PROFILE_BY_ACTOR`. */
  function Profile(actor: string): (p: seq<string>)
    ensures |p| == 3 && p[0] != p[1] && p[1] != p[2] && p[0] != p[2]
    ensures forall k :: 0 <= k < 3 ==> p[k] in EMOJI_EMOTION_MAP
  {
    if actor == "small" then [SASSY, WARM, JOY] else [WARM, JOY, ROBOT]
  }

  /** The fallback cue each head used last (`dualHeadLastFallbackEmojiByActor`). */
  datatype LastPicks = LastPicks(main: Option<string>, small: Option<string>)

  function LastOf(lasts: LastPicks, actor: string): Option<string> {
    if actor == "small" then lasts.small else lasts.main
  }

  /** The profile without the head's previous pick (the whole profile if that
      would leave nothing). */
  function Pool(profile: seq<string>, last: Option<string>): (pool: seq<string>)
    ensures |pool| <= |profile|
    ensures forall k :: 0 <= k < |pool| ==> pool[k] in profile
    ensures last.None? || last.value !in profile ==> pool == profile
    ensures (exists k :: 0 <= k < |profile| && Some(profile[k]) != last) ==>
              forall k :: 0 <= k < |pool| ==> Some(pool[k]) != last
  {
    var candidates := Filter(profile, last);
    if |candidates| > 0 then candidates else profile
  }

  function Filter(profile: seq<string>, last: Option<string>): (r: seq<string>)
    ensures |r| <= |profile|
    ensures forall k :: 0 <= k < |r| ==> r[k] in profile && Some(r[k]) != last
    ensures (exists k :: 0 <= k < |profile| && Some(profile[k]) != last) ==> |r| > 0
    ensures last.None? || last.value !in profile ==> r == profile
  {
    if |profile| == 0 then []
    else
      var rest := Filter(profile[1..], last);
      assert forall k :: 1 <= k < |profile| ==> profile[k] == profile[1..][k - 1];
      if Some(profile[0]) != last then [profile[0]] + rest else rest
  }

  /** `defaultDualHeadSpeakEmotion`: any actor but "small" counts as the main
      head; the random pick is the index `choice` into the pool.  The cue is from
      the head's profile, differs from that head's previous fallback, and becomes
      its new previous fallback. */
  function DefaultDualHeadSpeakEmotion(actor: string, lasts: LastPicks, choice: nat): (r: (Emotion, LastPicks))
    ensures r.0.emoji in Profile(actor)
    ensures Some(r.0.emoji) != LastOf(lasts, actor)
    ensures Some(r.0) == BuildEmotionFromEmoji(r.0.emoji)
    ensures actor == "small" ==> r.1 == lasts.(small := Some(r.0.emoji))
    ensures actor != "small" ==> r.1 == lasts.(main := Some(r.0.emoji))
  {
    var profile := Profile(actor);
    var last := LastOf(lasts, actor);
    assert Some(profile[0]) != last || Some(profile[1]) != last;
    var pool := Pool(profile, last);
    var e := pool[choice % |pool|];
    var emotion := BuildEmotionFromEmoji(e).value;
    (emotion, if actor == "small" then lasts.(small := Some(e)) else lasts.(main := Some(e)))
  }

  /** Two fallback picks in a row for the same head never repeat a cue. */
  lemma NoRepeatedFallback(actor: string, lasts: LastPicks, c1: nat, c2: nat)
    ensures var (first, after) := DefaultDualHeadSpeakEmotion(actor, lasts, c1);
            DefaultDualHeadSpeakEmotion(actor, after, c2).0.emoji != first.emoji
  {
  }

  // ------------------------------------------------------------ cue splitting

  /** The reply text without its cue, the cue, and its emotion. */
  datatype Split = Split(text: string, emoji: Option<string>, emotion: Option<Emotion>)

  /** `makeResult`: a cue that is not one of the eight is dropped. */
  function MakeResult(cleanText: string, emoji: Option<string>): (r: Split)
    ensures r.text == cleanText
    ensures r.emoji.Some? <==> emoji.Some? && emoji.value in EMOJI_EMOTION_MAP
    ensures r.emoji.Some? ==> r.emoji == emoji && r.emotion == BuildEmotionFromEmoji(emoji.value)
    ensures r.emoji.None? ==> r.emotion.None?
  {
    if emoji.None? then Split(cleanText, None, None)
    else
      match BuildEmotionFromEmoji(emoji.value)
      case None => Split(cleanText, None, None)
      case Some(e) => Split(cleanText, emoji, Some(e))
  }

  /** Where the match of `/[.!?]+\s*$/` starts, if anywhere: the last run of
      sentence ends, when only whitespace follows it. */
  function TrailingPunctStart(s: string): (r: Option<nat>)
    ensures r.Some? ==> r.value < |s| && IsStopChar(s[r.value])
  {
    var w := TrailCount(s, IsSpace);
    var k := TrailCount(s[..|s| - w], IsStopChar);
    if k == 0 then None else Some(|s| - w - k)
  }

  predicate IsStopChar(c: char) { c == '.' || c == '!' || c == '?' }

  /** Whether a match of `(?:\s*)(cluster)\s*$` has its cluster at `p`. */
  predicate TrailingClusterAt(core: string, p: nat) {
    p < |core| && ClusterAt(core[p..]) > 0
    && p + ClusterAt(core[p..]) + LeadCount(core[p + ClusterAt(core[p..])..], IsSpace) == |core|
  }

  /** The leftmost cluster position of a trailing-cluster match at or after `p`. */
  function FindTrailingCluster(core: string, p: nat): (r: Option<nat>)
    ensures r.Some? ==> p <= r.value && TrailingClusterAt(core, r.value)
    ensures r.Some? ==> forall j :: p <= j < r.value ==> !TrailingClusterAt(core, j)
    ensures r.None? ==> forall j :: p <= j < |core| ==> !TrailingClusterAt(core, j)
    decreases |core| - p
  {
    if p >= |core| then None
    else if TrailingClusterAt(core, p) then Some(p)
    else FindTrailingCluster(core, p + 1)
  }

  /** The loop that peels trailing clusters off `core`: the core left over and
      the clusters peeled, in text order. */
  function PeelTrailing(core: string): (r: (string, seq<string>))
    ensures |r.0| <= |core|
    ensures forall k :: 0 <= k < |r.1| ==> |r.1[k]| > 0 && IsPictographic(r.1[k][0])
    ensures r.1 == [] <==> FindTrailingCluster(core, 0).None?
    ensures r.1 == [] ==> r.0 == core
    decreases |core|
  {
    match FindTrailingCluster(core, 0)
    case None => (core, [])
    case Some(p) =>
      var rec := PeelTrailing(BeforeCluster(core, p));
      (rec.0, rec.1 + [ClusterText(core, p)])
  }

  /** The cluster that starts at `p`. */
  function ClusterText(core: string, p: nat): (r: string)
    requires p < |core|
    ensures r == core[p..p + ClusterAt(core[p..])]
  {
    core[p..p + ClusterAt(core[p..])]
  }

  /** What the peeling loop goes on with once the cluster at `p` is cut off:
      the text before it, with the whitespace before it trimmed. */
  function BeforeCluster(core: string, p: nat): (r: string)
    requires p <= |core|
    ensures |r| <= p && r == core[..|r|]
    ensures AllWith(core[|r|..p], IsSpace)
  {
    var q := p - TrailCount(core[..p], IsSpace);
    var c := TrimEndWith(core[..q], IsSpace);
    assert core[..q][..|c|] == core[..|c|];
    assert core[..q][|c|..] == core[|c|..q];
    assert forall i :: q <= i < p ==> IsSpace(core[..p][i]);
    c
  }

  /** No whitespace inside an emoji cluster. */
  lemma {:induction false} JoinTailSolid(s: string)
    ensures forall i :: 0 <= i < JoinTail(s) ==> !IsSpace(s[i])
    decreases |s|
  {
    if |s| >= 1 && s[0] == VS16 {
      JoinTailSolid(s[1..]);
      assert forall i :: 1 <= i < JoinTail(s) ==> s[i] == s[1..][i - 1];
    } else if |s| >= 2 && s[0] == ZWJ && IsPictographic(s[1]) {
      JoinTailSolid(s[2..]);
      assert forall i :: 2 <= i < JoinTail(s) ==> s[i] == s[2..][i - 2];
    }
  }

  /** A cluster is kept whole by `NonSpace`. */
  lemma ClusterSolid(s: string)
    ensures NonSpace(s[..ClusterAt(s)]) == s[..ClusterAt(s)]
  {
    var n := ClusterAt(s);
    if n > 0 {
      JoinTailSolid(s[1..]);
      assert forall i :: 1 <= i < n ==> s[i] == s[1..][i - 1];
    }
    NonSpaceSolid(s[..n]);
  }

  lemma {:induction false} NonSpaceSolid(t: string)
    requires forall i :: 0 <= i < |t| ==> !IsSpace(t[i])
    ensures NonSpace(t) == t
    decreases |t|
  {
    if |t| > 0 {
      NonSpaceSolid(t[1..]);
    }
  }

  /** Peeling loses nothing but whitespace: what is left is a prefix of the
      core, and the rest of the core, whitespace aside, is the peeled clusters in
      order. */
  lemma {:induction false} PeelTrailingRoundTrip(core: string)
    ensures PeelTrailing(core).0 == core[..|PeelTrailing(core).0|]
    ensures NonSpace(core[|PeelTrailing(core).0|..]) == Concat(PeelTrailing(core).1)
    decreases |core|
  {
    match FindTrailingCluster(core, 0)
    case None =>
      assert core[|core|..] == "";
    case Some(p) =>
      PeelTrailingRoundTrip(BeforeCluster(core, p));
      PeelRoundTripStep(core, p);
  }

  /** One peeling step keeps the round trip. */
  lemma PeelRoundTripStep(core: string, p: nat)
    requires FindTrailingCluster(core, 0) == Some(p)
    requires var c := BeforeCluster(core, p);
             && PeelTrailing(c).0 == c[..|PeelTrailing(c).0|]
             && NonSpace(c[|PeelTrailing(c).0|..]) == Concat(PeelTrailing(c).1)
    ensures PeelTrailing(core).0 == core[..|PeelTrailing(core).0|]
    ensures NonSpace(core[|PeelTrailing(core).0|..]) == Concat(PeelTrailing(core).1)
  {
    PeelStep(core, p);
    TrailingClusterTail(core, p);
    ClusterSolid(core[p..]);
    var c := BeforeCluster(core, p);
    PeelGlue(core, p, PeelTrailing(c).0, PeelTrailing(c).1);
  }

  /** The round trip carried across one cluster. */
  lemma PeelGlue(core: string, p: nat, left: string, peeled: seq<string>)
    requires p < |core|
    requires AllWith(core[p + ClusterAt(core[p..])..], IsSpace)
    requires NonSpace(core[p..][..ClusterAt(core[p..])]) == core[p..][..ClusterAt(core[p..])]
    requires |left| <= |BeforeCluster(core, p)|
    requires left == BeforeCluster(core, p)[..|left|]
    requires NonSpace(BeforeCluster(core, p)[|left|..]) == Concat(peeled)
    ensures left == core[..|left|]
    ensures NonSpace(core[|left|..]) == Concat(peeled + [ClusterText(core, p)])
  {
    var cl := ClusterText(core, p);
    PeelLayout(core, p, |cl|, BeforeCluster(core, p), left);
    ConcatAppend(peeled, [cl]);
    assert Concat([cl]) == cl + Concat([]);
  }

  /** One unfolding of the peeling loop. */
  lemma PeelStep(core: string, p: nat)
    requires FindTrailingCluster(core, 0) == Some(p)
    ensures PeelTrailing(core) == (PeelTrailing(BeforeCluster(core, p)).0,
                                   PeelTrailing(BeforeCluster(core, p)).1 + [ClusterText(core, p)])
  {
  }

  /** Only whitespace follows a trailing cluster. */
  lemma TrailingClusterTail(core: string, p: nat)
    requires TrailingClusterAt(core, p)
    ensures AllWith(core[p + ClusterAt(core[p..])..], IsSpace)
  {
  }

  /** The sequence arithmetic behind one peeling step. */
  lemma PeelLayout(core: string, p: nat, n: nat, c: string, left: string)
    requires p + n <= |core| && c == BeforeCluster(core, p)
    requires |left| <= |c| && left == c[..|left|]
    requires NonSpace(core[p..][..n]) == core[p..][..n]
    requires AllWith(core[p + n..], IsSpace)
    ensures left == core[..|left|]
    ensures NonSpace(core[|left|..]) == NonSpace(c[|left|..]) + core[p..p + n]
  {
    var gap := core[|c|..p];
    var cl := core[p..p + n];
    var tl := core[p + n..];
    assert c[|left|..] == core[|left|..|c|];
    SliceParts(core, |left|, |c|, p, p + n);
    NonSpaceAllSpace(gap);
    NonSpaceAllSpace(tl);
    assert core[p..][..n] == cl;
    NonSpaceParts(c[|left|..], gap, cl, tl);
  }

  /** `splitTrailingEmotionEmoji`: a leading cue wins; otherwise trailing cues
      are peeled (the last one is the cue), keeping the final punctuation;
      otherwise the first cue anywhere is taken and every emoji is stripped. */
  function SplitTrailingEmotionEmoji(text: string): (r: Split)
    ensures NormalizeWs(text) == "" ==> r == Split("", None, None)
    ensures r.emoji.Some? <==> r.emotion.Some?
    ensures r.emoji.Some? ==> r.emoji.value in EMOJI_EMOTION_MAP && r.emotion == BuildEmotionFromEmoji(r.emoji.value)
    ensures Solid(r.text)
  {
    var normalized := NormalizeWs(text);
    if normalized == "" then Split("", None, None)
    else if ClusterAt(normalized) > 0 then
      var n := ClusterAt(normalized);
      var lead := n + LeadCount(normalized[n..], IsSpace);
      var rest := NormalizeWs(normalized[lead..]);
      NormalizedSolid(rest);
      MakeResult(rest, Some(normalized[..n]))
    else SplitLegacy(normalized)
  }

  /** A leading cluster takes precedence: the cue is that cluster (when it is one
      of the eight) and the text is what follows it. */
  lemma LeadingClusterWins(text: string, n: string, k: nat)
    requires n == NormalizeWs(text) && k == ClusterAt(n) && k > 0
    ensures SplitTrailingEmotionEmoji(text).text == NormalizeWs(n[k + LeadCount(n[k..], IsSpace)..])
    ensures SplitTrailingEmotionEmoji(text).emoji.Some? <==> n[..k] in EMOJI_EMOTION_MAP
    ensures SplitTrailingEmotionEmoji(text).emoji.Some? ==> SplitTrailingEmotionEmoji(text).emoji.value == n[..k]
  {
  }

  /** Text with both ends free of whitespace. */
  predicate Solid(t: string) {
    t == "" || (!IsSpace(t[0]) && !IsSpace(t[|t| - 1]))
  }

  lemma NormalizedSolid(t: string)
    requires Normalized(t)
    ensures Solid(t)
  {
  }

  /** The older protocol, for normalised text without a leading cue: trailing
      cues are peeled (the last one is the cue) and the final punctuation is kept;
      without trailing cues the first cue anywhere is taken and every emoji is
      stripped. */
  function SplitLegacy(normalized: string): (r: Split)
    ensures r.emoji.Some? <==> r.emotion.Some?
    ensures r.emoji.Some? ==> r.emoji.value in EMOJI_EMOTION_MAP && r.emotion == BuildEmotionFromEmoji(r.emoji.value)
    ensures Solid(r.text)
  {
    var parts := LegacyParts(normalized);
    var left := parts.0;
    var peeled := parts.1;
    var punctuation := parts.2;
    if peeled == [] then
      var t := StripEmojiClusters(normalized);
      NormalizedSolid(t);
      MakeResult(t, PickSupportedEmotionEmoji(normalized))
    else
      MakeResult(Trim(left + punctuation), Some(peeled[|peeled| - 1]))
  }

  /** The pieces the older protocol cuts normalised text into: the text before
      the trailing cues, the cues peeled, and the final punctuation. */
  function LegacyParts(normalized: string): (r: (string, seq<string>, string))
    ensures forall k :: 0 <= k < |r.1| ==> |r.1[k]| > 0 && IsPictographic(r.1[k][0])
  {
    var start := TrailingPunctStart(normalized);
    var punctuation := if start.Some? then Trim(normalized[start.value..]) else "";
    var core := if start.Some? then TrimEndWith(normalized[..start.value], IsSpace) else normalized;
    var peel := PeelTrailing(core);
    (peel.0, peel.1, punctuation)
  }

  /** The pieces rebuild the text: apart from whitespace, the text is the part
      before the cues, then the cues in order, then the final punctuation.  When
      cues were peeled, the reply keeps the first and last pieces and the cue is
      the last one peeled (when it is one of the eight). */
  lemma SplitLegacyRoundTrip(normalized: string)
    ensures var parts := LegacyParts(normalized);
            NonSpace(normalized) == NonSpace(parts.0) + Concat(parts.1) + NonSpace(parts.2)
    ensures var parts := LegacyParts(normalized);
            parts.1 != [] ==>
              && SplitLegacy(normalized).text == Trim(parts.0 + parts.2)
              && SplitLegacy(normalized).emoji ==
                   (if parts.1[|parts.1| - 1] in EMOJI_EMOTION_MAP then Some(parts.1[|parts.1| - 1]) else None)
    ensures LegacyParts(normalized).1 == [] ==> SplitLegacy(normalized).text == StripEmojiClusters(normalized)
  {
    var start := TrailingPunctStart(normalized);
    var core := if start.Some? then TrimEndWith(normalized[..start.value], IsSpace) else normalized;
    PeelTrailingRoundTrip(core);
    var left := PeelTrailing(core).0;
    assert LegacyParts(normalized).0 == left;
    assert LegacyParts(normalized).1 == PeelTrailing(core).1;
    NonSpaceSplit(core, |left|);
    if start.Some? {
      assert LegacyParts(normalized).2 == Trim(normalized[start.value..]);
      PunctLayout(normalized, start.value, core);
    } else {
      assert LegacyParts(normalized).2 == "";
    }
  }

  /** Cutting off the final punctuation and the whitespace before it loses no
      visible character. */
  lemma PunctLayout(normalized: string, st: nat, core: string)
    requires st <= |normalized| && core == TrimEndWith(normalized[..st], IsSpace)
    ensures NonSpace(normalized) == NonSpace(core) + NonSpace(Trim(normalized[st..]))
  {
    var head := normalized[..st];
    var tail := normalized[st..];
    NonSpaceSplit(normalized, st);
    NonSpaceSplit(head, |core|);
    NonSpaceAllSpace(head[|core|..]);
    NonSpaceTrim(tail);
    assert head[..|core|] == core;
    DropEmpty(NonSpace(normalized), NonSpace(core), NonSpace(head), NonSpace(normalized),
              NonSpace(tail), NonSpace(head[|core|..]), []);
  }

  /** A reply that opens with a cue and a space gives back the rest of the reply
      and the cue. */
  lemma LeadingCueRoundTrip(e: string, line: string)
    requires e in EMOJI_EMOTION_MAP && Normalized(line) && line != ""
    ensures SplitTrailingEmotionEmoji(e + " " + line) == Split(line, Some(e), BuildEmotionFromEmoji(e))
  {
    CuesAreClusters(e);
    var s := e + " " + line;
    CueLineNormalized(e, line);
    CueLayout(e, line, s);
    LeadingClusterWins(s, s, 1);
    NormalizedIffFixed(line);
  }

  lemma CueLayout(e: string, line: string, s: string)
    requires |e| == 1 && IsPictographic(e[0]) && line != "" && !IsSpace(line[0])
    requires s == e + " " + line
    ensures ClusterAt(s) == 1 && s[..1] == e
    ensures 1 + LeadCount(s[1..], IsSpace) == 2 && s[2..] == line
  {
    assert s[1..][0] == ' ';
    assert s[1..] == " " + line;
    assert s[1..][1..] == line;
  }

  lemma CueLineNormalized(e: string, line: string)
    requires |e| == 1 && !IsSpace(e[0]) && Normalized(line) && line != ""
    ensures NormalizeWs(e + " " + line) == e + " " + line
  {
    var s := e + " " + line;
    assert Normalized(s) by {
      forall i | 0 <= i < |s| - 1
        ensures !(s[i] == ' ' && s[i + 1] == ' ')
      {
        if i >= 2 {
          assert s[i] == line[i - 2] && s[i + 1] == line[i - 1];
        }
      }
      forall i | 0 <= i < |s| && IsSpace(s[i])
        ensures s[i] == ' '
      {
        if i >= 2 {
          assert s[i] == line[i - 2];
        }
      }
    }
    NormalizedIffFixed(s);
  }
}

=== FILE: face_detection.dfy ===
/** The face-detection loop on the page: how long to wait before the next
    camera frame, the size a frame is captured at, and the flag that keeps one
    frame at a time in the detection worker. */
module FaceDetection {
  import opened Wrappers
  import opened JsConv

  const MIN_INTERVAL: real := 800.0
  const MAX_INTERVAL: real := 5000.0
  const IDLE_INTERVAL: real := 3000.0
  const IDLE_AFTER: real := 10000.0
  const INFERENCE_MULTIPLIER: real := 1.5
  const CAPTURE_WIDTH: int := 640

  /** The module's state. `scheduled` stands for a pending capture timeout;
      clock readings are milliseconds. */
  datatype Detector = Detector(manualInterval: int, workerReady: bool, workerBusy: bool,
                               lastInferenceMs: real, currentInterval: real,
                               lastFaceSeen: real, lastNoFaceTime: real, scheduled: bool)

  /** The state when the page loads. */
  const INITIAL: Detector := Detector(0, false, false, 500.0, 1500.0, 0.0, 0.0, false)

  /** The slider: a positive value fixes the interval, zero means automatic. */
  function SetManualInterval(d: Detector, v: int): (r: Detector)
    ensures r.manualInterval == v && r.(manualInterval := d.manualInterval) == d
  {
    d.(manualInterval := v)
  }

  /** `computeInterval()` at clock reading `now`. */
  function ComputeInterval(d: Detector, now: real): (r: real)
    ensures d.manualInterval > 0 ==> r == d.manualInterval as real
    ensures d.manualInterval <= 0 ==> MIN_INTERVAL <= r <= MAX_INTERVAL
    ensures d.manualInterval <= 0 && d.lastFaceSeen > 0.0 && now - d.lastFaceSeen > IDLE_AFTER ==> r >= IDLE_INTERVAL
    ensures d.manualInterval <= 0 ==> r == MAX_INTERVAL || r >= d.lastInferenceMs * INFERENCE_MULTIPLIER
    ensures d.manualInterval <= 0 && !(d.lastFaceSeen > 0.0 && now - d.lastFaceSeen > IDLE_AFTER) ==>
              r == MAX_INTERVAL || r == MIN_INTERVAL || r == d.lastInferenceMs * INFERENCE_MULTIPLIER
    ensures d.manualInterval <= 0 ==>
              r == MathMin(MathMax(MathMax(MIN_INTERVAL, d.lastInferenceMs * INFERENCE_MULTIPLIER),
                                   if Idle(d, now) then IDLE_INTERVAL else 0.0), MAX_INTERVAL)
  {
    if d.manualInterval > 0 then d.manualInterval as real
    else
      var paced := if MIN_INTERVAL >= d.lastInferenceMs * INFERENCE_MULTIPLIER then MIN_INTERVAL
                   else d.lastInferenceMs * INFERENCE_MULTIPLIER;
      var idle := Idle(d, now);
      var interval := if idle && IDLE_INTERVAL > paced then IDLE_INTERVAL else paced;
      if interval <= MAX_INTERVAL then interval else MAX_INTERVAL
  }

  /** A face was seen, but more than ten seconds ago. */
  predicate Idle(d: Detector, now: real) {
    d.lastFaceSeen > 0.0 && now - d.lastFaceSeen > IDLE_AFTER
  }

  /** A slower worker never makes the automatic interval shorter. */
  lemma IntervalFollowsInference(d: Detector, slower: real, now: real)
    requires d.lastInferenceMs <= slower
    ensures ComputeInterval(d, now) <= ComputeInterval(d.(lastInferenceMs := slower), now)
  {
  }

  /** Going idle never makes the automatic interval shorter. */
  lemma IdleIsSlower(d: Detector, now: real)
    requires d.manualInterval <= 0 && d.lastFaceSeen > 0.0 && now - d.lastFaceSeen > IDLE_AFTER
    ensures ComputeInterval(d.(lastFaceSeen := 0.0), now) <= ComputeInterval(d, now)
  {
  }

  /** `scheduleNextCapture()`: nothing unless the camera is on and the worker
      is ready; otherwise the interval is recomputed and a capture is set. */
  function ScheduleNextCapture(d: Detector, cameraActive: bool, now: real): (r: Detector)
    ensures !(cameraActive && d.workerReady) ==> r == d
    ensures cameraActive && d.workerReady ==>
              r.scheduled && r.currentInterval == ComputeInterval(d, now)
              && r.(scheduled := d.scheduled, currentInterval := d.currentInterval) == d
  {
    if !cameraActive || !d.workerReady then d
    else d.(currentInterval := ComputeInterval(d, now), scheduled := true)
  }

  /** The capture size of a `vw` x `vh` video: at most 640 wide, with the
      height scaled by the same factor and both rounded. */
  function CaptureSize(vw: int, vh: int): (r: (int, int))
    requires vw > 0 && vh > 0
    ensures 0 < r.0 <= CAPTURE_WIDTH && r.1 >= 0
    ensures vw <= CAPTURE_WIDTH ==> r == (vw, vh)
    ensures vw > CAPTURE_WIDTH ==> r.0 == CAPTURE_WIDTH
    ensures vw > CAPTURE_WIDTH ==>
              (r.1 as real - 0.5) * vw as real <= vh as real * 640.0 < (r.1 as real + 0.5) * vw as real
  {
    var ratio := 640.0 / vw as real;
    var scale := if 1.0 <= ratio then 1.0 else ratio;
    if scale == 1.0 then
      assert JsRound(vw as real) == vw && JsRound(vh as real) == vh;
      (vw, vh)
    else
      assert vw as real * ratio == 640.0;
      var h := JsRound(vh as real * ratio);
      assert vh as real * ratio * vw as real == vh as real * 640.0;
      RoundScaled(vh as real * ratio, vw as real, h);
      assert JsRound(640.0) == 640;
      (JsRound(vw as real * ratio), h)
  }

  lemma RoundScaled(x: real, w: real, h: int)
    requires w > 0.0 && h == JsRound(x)
    ensures (h as real - 0.5) * w <= x * w < (h as real + 0.5) * w
  {
  }

  /** The video element: whether it has a stream, its ready state and size. */
  datatype Video = Video(hasStream: bool, readyState: int, width: int, height: int)

  /** `captureFrame()`, run when the capture timeout fires: without a usable
      video, a ready idle worker or a non-empty frame it only reschedules;
      otherwise the worker turns busy and is sent a frame of the given size. */
  function CaptureFrame(d: Detector, v: Video, cameraActive: bool, now: real): (r: (Detector, Option<(int, int)>))
    ensures r.1.Some? <==> v.hasStream && v.readyState >= 2 && !d.workerBusy && d.workerReady && v.width > 0 && v.height > 0
    ensures r.1.Some? ==> r.0.workerBusy && !r.0.scheduled && 0 < r.1.value.0 <= CAPTURE_WIDTH
    ensures r.1.Some? && v.width <= CAPTURE_WIDTH ==> r.1.value == (v.width, v.height)
    ensures r.1.None? ==> r.0.workerBusy == d.workerBusy && (r.0.scheduled <==> cameraActive && d.workerReady)
    ensures r.1.Some? ==> r.1.value == CaptureSize(v.width, v.height) && r.0 == d.(scheduled := false, workerBusy := true)
    ensures r.1.None? ==> r.0 == ScheduleNextCapture(d.(scheduled := false), cameraActive, now)
    ensures r.0.workerReady == d.workerReady && r.0.lastFaceSeen == d.lastFaceSeen
  {
    var fired := d.(scheduled := false);
    if !v.hasStream || v.readyState < 2 || d.workerBusy || !d.workerReady then
      (ScheduleNextCapture(fired, cameraActive, now), None)
    else if v.width <= 0 || v.height <= 0 then
      (ScheduleNextCapture(fired, cameraActive, now), None)
    else
      (fired.(workerBusy := true), Some(CaptureSize(v.width, v.height)))
  }

  /** The worker's messages, as far as the page reads them. */
  datatype WorkerMsg =
    | Ready
    | Progress(stage: string, detail: string)
    | Faces(count: nat, inferenceMs: real)
    | Failed(message: string)
    | Unknown

  /** What the face handler writes back into this module for one result:
      the inference time, and when faces were last or first not seen. */
  function SeenFaces(d: Detector, count: nat, inferenceMs: real, now: real): (r: Detector)
    ensures r.lastInferenceMs == inferenceMs
    ensures count > 0 ==> r.lastFaceSeen == now && r.lastNoFaceTime == 0.0
    ensures count == 0 ==> r.lastFaceSeen == d.lastFaceSeen
    ensures count == 0 && d.lastNoFaceTime == 0.0 ==> r.lastNoFaceTime == now
    ensures count == 0 && d.lastNoFaceTime != 0.0 ==> r.lastNoFaceTime == d.lastNoFaceTime
    ensures r.workerBusy == d.workerBusy && r.workerReady == d.workerReady && r.scheduled == d.scheduled
  {
    var timed := d.(lastInferenceMs := inferenceMs);
    if count > 0 then timed.(lastFaceSeen := now, lastNoFaceTime := 0.0)
    else if d.lastNoFaceTime == 0.0 then timed.(lastNoFaceTime := now)
    else timed
  }

  /** `worker.onmessage`: "ready" marks the worker ready, "faces" and "error"
      free it, and all three schedule the next capture. */
  function OnWorkerMessage(d: Detector, m: WorkerMsg, cameraActive: bool, now: real): (r: Detector)
    ensures m.Faces? || m.Failed? ==> !r.workerBusy && r.workerReady == d.workerReady
    ensures m.Ready? ==> r.workerReady && r.workerBusy == d.workerBusy
    ensures m.Progress? || m.Unknown? ==> r == d
    ensures m.Faces? ==> r.lastInferenceMs == m.inferenceMs
    ensures m.Faces? && m.count > 0 ==> r.lastFaceSeen == now
    ensures (m.Ready? || m.Faces? || m.Failed?) && cameraActive && r.workerReady ==>
              r.scheduled && r.currentInterval == ComputeInterval(r, now)
  {
    match m
    case Ready => ScheduleNextCapture(d.(workerReady := true), cameraActive, now)
    case Progress(_, _) => d
    case Faces(n, ms) => ScheduleNextCapture(SeenFaces(d.(workerBusy := false), n, ms, now), cameraActive, now)
    case Failed(_) => ScheduleNextCapture(d.(workerBusy := false), cameraActive, now)
    case Unknown => d
  }

  /** While the camera is on and the worker ready, a capture is pending or
      the worker holds a frame: the loop cannot stall. */
  predicate Live(d: Detector, cameraActive: bool) {
    cameraActive && d.workerReady ==> d.scheduled || d.workerBusy
  }

  /** Every step of the loop keeps it live. */
  lemma LoopNeverStalls(d: Detector, v: Video, m: WorkerMsg, cameraActive: bool, now: real)
    requires Live(d, cameraActive)
    ensures Live(CaptureFrame(d, v, cameraActive, now).0, cameraActive)
    ensures Live(OnWorkerMessage(d, m, cameraActive, now), cameraActive)
    ensures Live(ScheduleNextCapture(d, cameraActive, now), cameraActive)
  {
  }

  /** A frame sent to the worker and answered, with faces or with an error,
      leaves the worker free and, with the camera on, the next capture set. */
  lemma AnswerFreesWorker(d: Detector, v: Video, m: WorkerMsg, now: real, later: real)
    requires CaptureFrame(d, v, true, now).1.Some?
    requires m.Faces? || m.Failed?
    ensures var sent := CaptureFrame(d, v, true, now).0;
            var after := OnWorkerMessage(sent, m, true, later);
            !after.workerBusy && after.scheduled
  {
  }
}

=== FILE: face_results.dfy ===
/** What the page does with one batch of detected faces: the best library
    match per face, which known people arrived or left since the last frame,
    the debounced departure timers, the presence badge, and the presence
    timeout that forgets everyone. Cosine similarities are given inputs. */
module FaceResults {
  import opened Wrappers
  import opened Strs
  import opened JsonText
  import opened Sorting

  const MATCH_THRESHOLD: real := 0.45
  const PRESENCE_TIMEOUT: real := 5000.0
  const DEPARTURE_DEBOUNCE: real := 3000.0

  /** A library entry with its similarity to the face at hand. */
  datatype Scored = Scored(name: string, id: string, sim: real)

  /** A detected face: whether it carries an embedding, and its similarity
      to every library entry in library order. */
  datatype Face = Face(hasEmbedding: bool, scored: seq<Scored>)

  function Names(s: seq<Scored>): (r: seq<string>)
    ensures |r| == |s| && forall i :: 0 <= i < |s| ==> r[i] == s[i].name
  {
    seq(|s|, i requires 0 <= i < |s| => s[i].name)
  }

  predicate UniqueNames(s: seq<Scored>) {
    forall i, j :: 0 <= i < j < |s| ==> s[i].name != s[j].name
  }

  /** The index of `name` in `acc`, or -1. */
  function NameIndex(acc: seq<Scored>, name: string): (i: int)
    ensures -1 <= i < |acc|
    ensures i >= 0 ==> acc[i].name == name
    ensures i == -1 <==> name !in Names(acc)
  {
    if |acc| == 0 then -1
    else if acc[|acc| - 1].name == name then |acc| - 1
    else
      assert Names(acc) == Names(acc[..|acc| - 1]) + [acc[|acc| - 1].name];
      NameIndex(acc[..|acc| - 1], name)
  }

  /** One step of the `byName` loop: a new name is added at the end, a known
      name is replaced in place only by a strictly higher similarity. */
  function Place(acc: seq<Scored>, x: Scored): (r: seq<Scored>)
    requires UniqueNames(acc)
    ensures UniqueNames(r)
  {
    var i := NameIndex(acc, x.name);
    if i == -1 then
      assert forall k :: 0 <= k < |acc| ==> acc[k].name != x.name by {
        forall k | 0 <= k < |acc| ensures acc[k].name != x.name {
          assert Names(acc)[k] == acc[k].name;
        }
      }
      acc + [x]
    else if x.sim > acc[i].sim then acc[i := x]
    else acc
  }

  /** The `byName` table for the entries of `lib`, in first-insertion order. */
  function ByName(lib: seq<Scored>): (r: seq<Scored>)
    ensures UniqueNames(r)
  {
    if |lib| == 0 then [] else Place(ByName(lib[..|lib| - 1]), lib[|lib| - 1])
  }

  /** Every entry of the table comes from the library. */
  predicate FromLib(r: seq<Scored>, lib: seq<Scored>) {
    forall i :: 0 <= i < |r| ==> r[i] in lib
  }

  /** Every library name has an entry. */
  predicate CoversLib(r: seq<Scored>, lib: seq<Scored>) {
    forall j :: 0 <= j < |lib| ==> lib[j].name in Names(r)
  }

  /** Each entry holds the highest similarity of its name. */
  predicate KeepsMax(r: seq<Scored>, lib: seq<Scored>) {
    forall i, j :: 0 <= i < |r| && 0 <= j < |lib| && lib[j].name == r[i].name ==> lib[j].sim <= r[i].sim
  }

  lemma PlaceFrom(front: seq<Scored>, x: Scored, acc: seq<Scored>)
    requires UniqueNames(acc) && FromLib(acc, front)
    ensures FromLib(Place(acc, x), front + [x])
  {
    var r := Place(acc, x);
    forall i | 0 <= i < |r| ensures r[i] in front + [x] {
      if r[i] != x {
        assert i < |acc| && r[i] == acc[i];
      }
    }
  }

  lemma PlaceCovers(front: seq<Scored>, x: Scored, acc: seq<Scored>)
    requires UniqueNames(acc) && CoversLib(acc, front)
    ensures CoversLib(Place(acc, x), front + [x])
  {
    var r := Place(acc, x);
    var lib := front + [x];
    var k := NameIndex(acc, x.name);
    forall j | 0 <= j < |lib| ensures lib[j].name in Names(r) {
      if j < |front| {
        assert lib[j] == front[j];
        var m :| 0 <= m < |acc| && Names(acc)[m] == front[j].name;
        assert Names(r)[m] == r[m].name;
      } else if k == -1 {
        assert Names(r)[|acc|] == x.name;
      } else {
        assert Names(r)[k] == x.name;
      }
    }
  }

  lemma PlaceKeepsMax(front: seq<Scored>, x: Scored, acc: seq<Scored>)
    requires UniqueNames(acc) && CoversLib(acc, front) && KeepsMax(acc, front)
    ensures KeepsMax(Place(acc, x), front + [x])
  {
    var r := Place(acc, x);
    var lib := front + [x];
    var k := NameIndex(acc, x.name);
    forall i, j | 0 <= i < |r| && 0 <= j < |lib| && lib[j].name == r[i].name
      ensures lib[j].sim <= r[i].sim
    {
      if j < |front| {
        assert lib[j] == front[j];
        var m :| 0 <= m < |acc| && Names(acc)[m] == front[j].name;
      } else {
        assert lib[j] == x;
      }
    }
  }

  /** The table keeps, for every library name, one entry with the highest
      similarity of that name. */
  lemma {:induction false} ByNameSpec(lib: seq<Scored>)
    ensures FromLib(ByName(lib), lib) && CoversLib(ByName(lib), lib) && KeepsMax(ByName(lib), lib)
  {
    if |lib| > 0 {
      var front := lib[..|lib| - 1];
      var x := lib[|lib| - 1];
      assert lib == front + [x];
      ByNameSpec(front);
      PlaceFrom(front, x, ByName(front));
      PlaceCovers(front, x, ByName(front));
      PlaceKeepsMax(front, x, ByName(front));
    }
  }

  /** The loop over the sorted candidates: the running best is replaced by a
      candidate above the threshold whose similarity is strictly higher. */
  function Scan(cands: seq<Scored>, best: Option<Scored>, bestSim: real): (r: Option<Scored>)
    requires best.None? ==> bestSim == 0.0
    requires best.Some? ==> best.value.sim == bestSim > MATCH_THRESHOLD
    ensures r.Some? ==> r.value.sim > MATCH_THRESHOLD && r.value.sim >= bestSim
    ensures r.Some? ==> r == best || r.value in cands
    ensures r.Some? ==> forall c :: c in cands ==> c.sim <= r.value.sim
    ensures r.None? <==> best.None? && forall c :: c in cands ==> c.sim <= MATCH_THRESHOLD
    decreases |cands|
  {
    if |cands| == 0 then best
    else
      var c := cands[0];
      assert forall x :: x in cands ==> x == c || x in cands[1..];
      if c.sim > MATCH_THRESHOLD && c.sim > bestSim then Scan(cands[1..], Some(c), c.sim)
      else Scan(cands[1..], best, bestSim)
  }

  /** `byName` sorted by descending similarity. */
  function Candidates(lib: seq<Scored>): (r: seq<Scored>)
    ensures multiset(r) == multiset(ByName(lib)) && |r| == |ByName(lib)|
    ensures forall i, j :: 0 <= i < j < |r| ==> r[i].sim >= r[j].sim
  {
    var key := (c: Scored) => -c.sim;
    var r := SortBy(ByName(lib), key);
    assert forall i, j :: 0 <= i < j < |r| ==> key(r[i]) <= key(r[j]);
    r
  }

  /** The candidates are library entries. */
  lemma CandidatesFromLib(lib: seq<Scored>)
    ensures forall c :: c in Candidates(lib) ==> c in lib
  {
    var b := ByName(lib);
    var cands := Candidates(lib);
    ByNameSpec(lib);
    forall c | c in cands ensures c in lib {
      assert c in multiset(cands);
      assert c in b;
    }
  }

  /** Each library entry is matched or beaten by some candidate. */
  lemma CandidatesDominate(lib: seq<Scored>)
    ensures forall x :: x in lib ==> exists c :: c in Candidates(lib) && c.sim >= x.sim
  {
    ByNameSpec(lib);
    TableDominates(lib, ByName(lib), Candidates(lib));
  }

  /** A reordering of a table that covers the library and keeps each name's
      highest similarity matches or beats every entry. */
  lemma TableDominates(lib: seq<Scored>, b: seq<Scored>, cands: seq<Scored>)
    requires CoversLib(b, lib) && KeepsMax(b, lib) && multiset(cands) == multiset(b)
    ensures forall x :: x in lib ==> exists c :: c in cands && c.sim >= x.sim
  {
    forall x | x in lib ensures exists c :: c in cands && c.sim >= x.sim {
      var j :| 0 <= j < |lib| && lib[j] == x;
      assert x.name in Names(b);
      var m :| 0 <= m < |b| && Names(b)[m] == x.name;
      assert b[m].name == lib[j].name;
      assert b[m] in multiset(cands);
    }
  }

  /** The best match for a face with the given similarities: the highest
      similarity strictly above 0.45, or none. */
  function Match(lib: seq<Scored>): (r: Option<Scored>)
    ensures r.Some? ==> r.value in lib && r.value.sim > MATCH_THRESHOLD
    ensures r.Some? ==> forall x :: x in lib ==> x.sim <= r.value.sim
    ensures r.None? <==> forall x :: x in lib ==> x.sim <= MATCH_THRESHOLD
  {
    CandidatesFromLib(lib);
    CandidatesDominate(lib);
    Scan(Candidates(lib), None, 0.0)
  }

  /** The name recognised on one face, if any. */
  function Recognize(f: Face): (r: Option<string>)
    ensures r.Some? ==> f.hasEmbedding && exists x :: x in f.scored && x.name == r.value && x.sim > MATCH_THRESHOLD
    ensures r.None? <==> !f.hasEmbedding || forall x :: x in f.scored ==> x.sim <= MATCH_THRESHOLD
  {
    if !f.hasEmbedding then None
    else
      var m := Match(f.scored);
      if m.Some? then Some(m.value.name) else None
  }

  /** `recognized`: the matched names, one per matched face, in face order. */
  function Recognized(faces: seq<Face>): (r: seq<string>)
    ensures |r| + Unmatched(faces) == |faces|
    ensures forall k :: 0 <= k < |faces| && Recognize(faces[k]).Some? ==> Recognize(faces[k]).value in r
    ensures |faces| == 1 ==> r == (if Recognize(faces[0]).Some? then [Recognize(faces[0]).value] else [])
  {
    if |faces| == 0 then []
    else
      var rest := Recognized(faces[1..]);
      assert forall k :: 1 <= k < |faces| ==> faces[1..][k - 1] == faces[k];
      var here := Recognize(faces[0]);
      if here.Some? then [here.value] + rest else rest
  }

  /** Names are collected face by face, so with the one-face case the list
      holds the matched names in face order: its first entry is the first
      matched face's name. */
  lemma {:induction false} RecognizedAppend(a: seq<Face>, b: seq<Face>)
    ensures Recognized(a + b) == Recognized(a) + Recognized(b)
    decreases |a|
  {
    if |a| == 0 {
      assert a + b == b;
    } else {
      assert (a + b)[1..] == a[1..] + b;
      RecognizedAppend(a[1..], b);
    }
  }

  /** The number of faces without a match. */
  function Unmatched(faces: seq<Face>): nat {
    if |faces| == 0 then 0
    else (if Recognize(faces[0]).None? then 1 else 0) + Unmatched(faces[1..])
  }

  predicate NoDup(s: seq<string>) {
    forall i, j :: 0 <= i < j < |s| ==> s[i] != s[j]
  }

  /** Appending never moves a first occurrence already present. */
  lemma FirstIndexPrefix(front: seq<string>, x: string, y: string)
    requires y in front
    ensures FirstIndex(front + [x], y) == FirstIndex(front, y)
  {
    var i := FirstIndex(front, y);
    var j := FirstIndex(front + [x], y);
    assert (front + [x])[i] == y;
    if j < i {
      assert front[j] == y;
    }
  }

  /** `new Set(s)` iterated in insertion order: each name once, in the order of
      its first occurrence. */
  function Dedupe(s: seq<string>): (r: seq<string>)
    ensures forall x :: x in r <==> x in s
    ensures NoDup(r) && |r| <= |s|
    ensures NoDup(s) ==> r == s
    ensures forall i, j :: 0 <= i < j < |r| ==> FirstIndex(s, r[i]) < FirstIndex(s, r[j])
  {
    if |s| == 0 then []
    else
      var front := s[..|s| - 1];
      var x := s[|s| - 1];
      assert s == front + [x];
      var d := Dedupe(front);
      forall y | y in front
        ensures FirstIndex(s, y) == FirstIndex(front, y)
      {
        FirstIndexPrefix(front, x, y);
      }
      if x in d then d else d + [x]
  }

  /** `s.filter(n => !excluded.has(n))`. */
  function Without(s: seq<string>, excluded: seq<string>): (r: seq<string>)
    ensures forall x :: x in r <==> x in s && x !in excluded
    ensures NoDup(s) ==> NoDup(r)
    ensures |r| <= |s|
    ensures |s| == 1 ==> r == (if s[0] in excluded then [] else s)
  {
    if |s| == 0 then []
    else
      var rest := Without(s[1..], excluded);
      assert forall x :: x in s <==> x == s[0] || x in s[1..];
      if s[0] in excluded then rest else [s[0]] + rest
  }

  /** The filter works piece by piece, so with the one-name case the result is
      `s` with exactly the excluded names taken out, order kept. */
  lemma {:induction false} WithoutAppend(a: seq<string>, b: seq<string>, excluded: seq<string>)
    ensures Without(a + b, excluded) == Without(a, excluded) + Without(b, excluded)
    decreases |a|
  {
    if |a| == 0 {
      assert a + b == b;
    } else {
      assert (a + b)[1..] == a[1..] + b;
      WithoutAppend(a[1..], b, excluded);
    }
  }

  /** The count shown as "unknown": faces minus distinct recognised names.
      It counts every face without a match, and also every repeat of a name
      already matched on another face. */
  function UnknownCount(faces: seq<Face>): (r: nat)
    ensures r >= Unmatched(faces)
    ensures NoDup(Recognized(faces)) ==> r == Unmatched(faces)
  {
    |faces| - |Dedupe(Recognized(faces))|
  }

  /** Two faces matched to the same person count one of them as unknown. */
  lemma SameNameTwiceCountsUnknown(f: Face)
    requires Recognize(f).Some?
    ensures Unmatched([f, f]) == 0 && UnknownCount([f, f]) == 1
  {
    var n := Recognize(f).value;
    RecognizedTwice(f);
    DedupePair(n);
  }

  lemma RecognizedTwice(f: Face)
    requires Recognize(f).Some?
    ensures Recognized([f, f]) == [Recognize(f).value, Recognize(f).value] && Unmatched([f, f]) == 0
  {
    var one := [f];
    var two := [f, f];
    assert two[1..] == one && one[1..] == [];
    assert Unmatched(one) == 0;
    assert Recognized(one) == [Recognize(f).value];
  }

  lemma DedupePair(n: string)
    ensures Dedupe([n, n]) == [n]
  {
    var nn := [n, n];
    assert nn[..1] == [n];
    assert Dedupe([n]) == [n];
  }

  /** `updateBadge(recognized, unknownCount)`: the text shown, or none when
      there is nothing to show (the previous text stays). */
  function Badge(recognized: seq<string>, unknown: nat): (r: Option<string>)
    ensures r.None? <==> |recognized| == 0 && unknown == 0
    ensures |recognized| > 0 ==> r.Some? && Join(recognized, ", ") <= r.value
    ensures unknown > 0 ==> r.Some? && |r.value| >= 8 && r.value[|r.value| - 8..] == " unknown"
    ensures unknown == 0 && |recognized| > 0 ==> r == Some(Join(recognized, ", "))
    ensures unknown > 0 && |recognized| == 0 ==> r == Some(NatToStr(unknown) + " unknown")
    ensures unknown > 0 && |recognized| > 0 ==> r == Some(Join(recognized, ", ") + " + " + NatToStr(unknown) + " unknown")
  {
    var names := Join(recognized, ", ");
    var count := NatToStr(unknown) + " unknown";
    assert names + " + " + count == names + " + " + NatToStr(unknown) + " unknown";
    if |recognized| > 0 && unknown > 0 then Some(names + " + " + count)
    else if |recognized| > 0 then Some(names)
    else if unknown > 0 then Some(count)
    else None
  }

  /** What a frame asks of the rest of the page. */
  datatype Effect =
    | WakeUp(greet: Option<string>)
    | Greet(name: string)
    | Presence(present: bool, names: seq<string>, count: nat)
    | Sleep
    | Left(name: string, since: real)

  /** The change detection of one frame against the last frame's names. */
  datatype Changes = Changes(recognized: seq<string>, current: seq<string>, unknown: nat,
                             newNames: seq<string>, lost: seq<string>)

  /** `currentNames`, `unknownCount`, `newNames` and `lostNames`. */
  function Detect(prev: seq<string>, faces: seq<Face>): (c: Changes)
    ensures c.recognized == Recognized(faces)
    ensures (forall n :: n in c.current <==> n in c.recognized) && NoDup(c.current)
    ensures forall n :: n in c.newNames <==> n in c.current && n !in prev
    ensures forall n :: n in c.lost <==> n in prev && n !in c.current
    ensures c.unknown == UnknownCount(faces) && c.unknown + |c.current| == |faces|
    ensures |faces| == 0 ==> c.current == [] && c.newNames == []
  {
    var rec := Recognized(faces);
    var current := Dedupe(rec);
    Changes(rec, current, |faces| - |current|, Without(current, prev), Without(prev, current))
  }

  /** A frame reports new or lost names exactly when the set of recognised
      people differs from the last frame's. */
  lemma ChangedIffSetsDiffer(prev: seq<string>, faces: seq<Face>)
    ensures var c := Detect(prev, faces);
            (|c.newNames| > 0 || |c.lost| > 0) <==> (set n | n in c.current) != (set n | n in prev)
  {
    var c := Detect(prev, faces);
    var a := set n | n in c.current;
    var b := set n | n in prev;
    if |c.newNames| > 0 {
      assert c.newNames[0] in a && c.newNames[0] !in b;
    } else if |c.lost| > 0 {
      assert c.lost[0] in b && c.lost[0] !in a;
    } else if a != b {
      var n :| (n in a && n !in b) || (n in b && n !in a);
    }
  }

  /** The tracking state of this module. `departing` maps a name to the time
      its departure timer fires; `presenceDue` is the presence timer. */
  datatype Tracker = Tracker(prev: seq<string>, prevFaceCount: nat,
                             lastSeen: map<string, real>, firstSeen: map<string, real>,
                             departing: map<string, real>, wakeGreeted: Option<set<string>>,
                             presenceDue: Option<real>, presenceDetected: bool, badgeShown: bool)

  const INITIAL: Tracker := Tracker([], 0, map[], map[], map[], None, None, false, false)

  /** No departure is pending for someone seen in the last frame, and the
      last frame's names are distinct. */
  predicate Coherent(t: Tracker) {
    NoDup(t.prev) && forall n :: n in t.departing ==> n !in t.prev
  }

  /** The last-seen stamps and the departure timers after a frame whose
      distinct names are `current` and whose lost names are `lost`: present
      people are stamped and lose any pending departure, a lost person gets a
      timer unless one is already running. */
  function Track(t: Tracker, current: seq<string>, lost: seq<string>, now: real): (r: Tracker)
    requires forall n :: n in lost ==> n !in current
    ensures forall n :: n in r.departing <==> (n in t.departing && n !in current) || n in lost
    ensures forall n :: n in lost && n !in t.departing ==> r.departing[n] == now + DEPARTURE_DEBOUNCE
    ensures forall n :: n in t.departing && n !in current ==> r.departing[n] == t.departing[n]
    ensures forall n :: n in current ==> n in r.lastSeen && r.lastSeen[n] == now && n in r.firstSeen
    ensures forall n :: n in t.firstSeen ==> n in r.firstSeen && r.firstSeen[n] == t.firstSeen[n]
    ensures forall n :: n !in current ==> (n in r.lastSeen <==> n in t.lastSeen)
    ensures r == t.(lastSeen := r.lastSeen, firstSeen := r.firstSeen, departing := r.departing)
  {
    var seen := map n | n in current :: now;
    var first := map n | n in current && n !in t.firstSeen :: now;
    var kept := map n | n in t.departing && n !in current :: t.departing[n];
    var added := map n | n in lost && n !in t.departing :: now + DEPARTURE_DEBOUNCE;
    t.(lastSeen := t.lastSeen + seen, firstSeen := first + t.firstSeen, departing := kept + added)
  }

  /** The names greeted while awake: new names not greeted on the last wake. */
  function ToGreet(newNames: seq<string>, wakeGreeted: Option<set<string>>): (r: seq<string>)
    ensures forall n :: n in r <==> n in newNames && (wakeGreeted.None? || n !in wakeGreeted.value)
    ensures |newNames| == 1 ==> r == (if wakeGreeted.None? || newNames[0] !in wakeGreeted.value then newNames else [])
  {
    if |newNames| == 0 then []
    else
      var rest := ToGreet(newNames[1..], wakeGreeted);
      assert forall x :: x in newNames <==> x == newNames[0] || x in newNames[1..];
      if wakeGreeted.None? || newNames[0] !in wakeGreeted.value then [newNames[0]] + rest else rest
  }

  /** The filter works piece by piece, so with the one-name case the result is
      the new names, in order, less those greeted on the last wake. */
  lemma {:induction false} ToGreetAppend(a: seq<string>, b: seq<string>, wakeGreeted: Option<set<string>>)
    ensures ToGreet(a + b, wakeGreeted) == ToGreet(a, wakeGreeted) + ToGreet(b, wakeGreeted)
    decreases |a|
  {
    if |a| == 0 {
      assert a + b == b;
    } else {
      assert (a + b)[1..] == a[1..] + b;
      ToGreetAppend(a[1..], b, wakeGreeted);
    }
  }

  function GreetAll(names: seq<string>): (r: seq<Effect>)
    ensures |r| == |names| && forall i :: 0 <= i < |r| ==> r[i] == Greet(names[i])
  {
    seq(|names|, i requires 0 <= i < |names| => Greet(names[i]))
  }

  /** The branch of a frame with faces: wake-up or arrival greetings, the
      badge, a presence broadcast when the composition changed, and a fresh
      presence timer. */
  function Present(t: Tracker, c: Changes, count: nat, sleeping: bool, now: real): (r: (Tracker, seq<Effect>, Option<string>))
    requires count > 0 && c.unknown + |c.current| == count
    requires |c.recognized| == 0 ==> |c.current| == 0
    ensures r.0 == t.(wakeGreeted := r.0.wakeGreeted, presenceDue := Some(now + PRESENCE_TIMEOUT), presenceDetected := true,
                      badgeShown := true, prev := c.current, prevFaceCount := count)
    ensures r.2.Some?
    ensures sleeping ==> r.0.wakeGreeted == Some(set n | n in c.current) && |r.1| > 0
                         && r.1[0] == WakeUp(if |c.recognized| > 0 then Some(c.recognized[0]) else None)
    ensures !sleeping ==> r.0.wakeGreeted.None?
    ensures forall e :: e in r.1 && e.Greet? ==> !sleeping && e.name in c.newNames
                                                  && (t.wakeGreeted.None? || e.name !in t.wakeGreeted.value)
    ensures !sleeping ==> forall n :: n in c.newNames && (t.wakeGreeted.None? || n !in t.wakeGreeted.value) ==> Greet(n) in r.1
    ensures (exists e :: e in r.1 && e.Presence?) <==> count != t.prevFaceCount || |c.newNames| > 0 || |c.lost| > 0
    ensures forall e :: e in r.1 && e.Presence? ==> e == Presence(true, c.current, count)
    ensures forall e :: e in r.1 ==> e.WakeUp? || e.Greet? || e.Presence?
    ensures forall e :: e in r.1 && e.WakeUp? ==> sleeping && e == r.1[0]
    ensures r.2 == Badge(c.recognized, c.unknown)
  {
    var greeted := if sleeping then Some(set n | n in c.current) else None;
    (t.(wakeGreeted := greeted, presenceDue := Some(now + PRESENCE_TIMEOUT), presenceDetected := true,
        badgeShown := true, prev := c.current, prevFaceCount := count),
     PresentEffects(t, c, count, sleeping), Badge(c.recognized, c.unknown))
  }

  /** The effects of a frame with faces: the wake-up first when sleeping, else
      one greeting per newly seen name not greeted on wake-up, then a presence
      broadcast when the composition changed. */
  function PresentEffects(t: Tracker, c: Changes, count: nat, sleeping: bool): (fx: seq<Effect>)
    ensures sleeping ==> |fx| > 0 && fx[0] == WakeUp(if |c.recognized| > 0 then Some(c.recognized[0]) else None)
    ensures forall e :: e in fx && e.Greet? ==> !sleeping && e.name in c.newNames
                                                && (t.wakeGreeted.None? || e.name !in t.wakeGreeted.value)
    ensures !sleeping ==> forall n :: n in c.newNames && (t.wakeGreeted.None? || n !in t.wakeGreeted.value) ==> Greet(n) in fx
    ensures (exists e :: e in fx && e.Presence?) <==> count != t.prevFaceCount || |c.newNames| > 0 || |c.lost| > 0
    ensures forall e :: e in fx && e.Presence? ==> e == Presence(true, c.current, count)
    ensures forall e :: e in fx ==> e.WakeUp? || e.Greet? || e.Presence?
    ensures forall e :: e in fx && e.WakeUp? ==> sleeping && e == fx[0]
  {
    var wake: seq<Effect> := if sleeping then [WakeUp(if |c.recognized| > 0 then Some(c.recognized[0]) else None)] else [];
    var names := ToGreet(c.newNames, t.wakeGreeted);
    var greet: seq<Effect> := if sleeping then [] else GreetAll(names);
    var changed := count != t.prevFaceCount || |c.newNames| > 0 || |c.lost| > 0;
    var presence: seq<Effect> := if changed then [Presence(true, c.current, count)] else [];
    var fx := wake + greet + presence;
    assert forall e :: e in fx <==> e in wake || e in greet || e in presence;
    assert forall e :: e in wake ==> e.WakeUp?;
    assert changed ==> Presence(true, c.current, count) in fx by {
      if changed {
        assert presence[0] == Presence(true, c.current, count);
      }
    }
    assert forall e :: e in greet ==> e.Greet? && e.name in names by {
      forall e | e in greet ensures e.Greet? && e.name in names {
        var i :| 0 <= i < |greet| && greet[i] == e;
      }
    }
    assert !sleeping ==> forall n :: n in names ==> Greet(n) in greet by {
      if !sleeping {
        forall n | n in names ensures Greet(n) in greet {
          var i :| 0 <= i < |names| && names[i] == n;
          assert greet[i] == Greet(n);
        }
      }
    }
    fx
  }

  /** The branch of a frame without faces: the presence timer is started if
      presence is on and none runs, and sleep is asked for once no face was
      seen for longer than the sleep timeout. */
  function Absent(t: Tracker, sleeping: bool, lastFaceSeen: real, sleepTimeout: real, now: real): (r: (Tracker, seq<Effect>, Option<string>))
    ensures r.0 == t.(presenceDue := r.0.presenceDue, prev := [], prevFaceCount := 0) && r.2.None?
    ensures t.presenceDetected && t.presenceDue.None? ==> r.0.presenceDue == Some(now + PRESENCE_TIMEOUT)
    ensures !(t.presenceDetected && t.presenceDue.None?) ==> r.0.presenceDue == t.presenceDue
    ensures r.1 == [Sleep] <==> !sleeping && lastFaceSeen > 0.0 && sleepTimeout > 0.0 && now - lastFaceSeen > sleepTimeout
    ensures r.1 == [] || r.1 == [Sleep]
  {
    var due := if t.presenceDetected && t.presenceDue.None? then Some(now + PRESENCE_TIMEOUT) else t.presenceDue;
    var asleep := !sleeping && lastFaceSeen > 0.0 && sleepTimeout > 0.0 && now - lastFaceSeen > sleepTimeout;
    (t.(presenceDue := due, prev := [], prevFaceCount := 0), if asleep then [Sleep] else [], None)
  }

  /** `handleFaceResults(faces, …)` after the drawing. `sleeping`,
      `lastFaceSeen` and `sleepTimeout` are read from the page; the result is
      the new tracker, the effects and the badge text. */
  function Frame(t: Tracker, faces: seq<Face>, sleeping: bool, lastFaceSeen: real,
                 sleepTimeout: real, now: real): (r: (Tracker, seq<Effect>, Option<string>))
    ensures r.0.prev == Dedupe(Recognized(faces)) && r.0.prevFaceCount == |faces|
    ensures |faces| > 0 <==> r.2.Some?
    ensures forall n :: n in r.0.departing <==> (n in t.departing || n in t.prev) && n !in r.0.prev
    ensures forall n :: n in r.0.prev ==> n in r.0.lastSeen && r.0.lastSeen[n] == now
    ensures |faces| > 0 ==> r.0.presenceDetected && r.0.badgeShown && r.0.presenceDue == Some(now + PRESENCE_TIMEOUT)
    ensures |faces| == 0 ==> r.0.presenceDetected == t.presenceDetected && r.0.badgeShown == t.badgeShown
  {
    var c := Detect(t.prev, faces);
    var tracked := Track(t, c.current, c.lost, now);
    if |faces| > 0 then Present(tracked, c, |faces|, sleeping, now)
    else Absent(tracked, sleeping, lastFaceSeen, sleepTimeout, now)
  }

  /** A presence update is broadcast exactly when a frame with faces changes
      the face count or the set of recognised people. */
  lemma PresenceOnChange(t: Tracker, faces: seq<Face>, sleeping: bool, lastFaceSeen: real, sleepTimeout: real, now: real)
    ensures var r := Frame(t, faces, sleeping, lastFaceSeen, sleepTimeout, now);
            (exists e :: e in r.1 && e.Presence?) <==>
              |faces| > 0 && (|faces| != t.prevFaceCount || (set n | n in r.0.prev) != (set n | n in t.prev))
  {
    ChangedIffSetsDiffer(t.prev, faces);
  }

  /** Every frame keeps the tracker coherent. */
  lemma FrameCoherent(t: Tracker, faces: seq<Face>, sleeping: bool, lastFaceSeen: real, sleepTimeout: real, now: real)
    ensures Coherent(Frame(t, faces, sleeping, lastFaceSeen, sleepTimeout, now).0)
  {
  }

  /** A frame with faces while asleep wakes the page, greets nobody by
      arrival, and remembers everyone it saw as greeted on waking. */
  lemma WakeFrameGreets(t: Tracker, faces: seq<Face>, lastFaceSeen: real, sleepTimeout: real, now: real)
    requires |faces| > 0
    ensures var woke := Frame(t, faces, true, lastFaceSeen, sleepTimeout, now);
            woke.0.wakeGreeted == Some(set n | n in woke.0.prev) && |woke.1| > 0 && woke.1[0].WakeUp?
            && forall e :: e in woke.1 ==> !e.Greet?
  {
    var c := Detect(t.prev, faces);
    assert Frame(t, faces, true, lastFaceSeen, sleepTimeout, now)
        == Present(Track(t, c.current, c.lost, now), c, |faces|, true, now);
  }

  /** An awake frame greets only names that were not greeted on the last
      wake. */
  lemma AwakeRespectsWake(u: Tracker, faces: seq<Face>, lastFaceSeen: real, sleepTimeout: real, now: real)
    ensures forall e :: e in Frame(u, faces, false, lastFaceSeen, sleepTimeout, now).1 && e.Greet? ==>
              e.name !in u.prev && (u.wakeGreeted.None? || e.name !in u.wakeGreeted.value)
  {
    var c := Detect(u.prev, faces);
    var tracked := Track(u, c.current, c.lost, now);
    if |faces| > 0 {
      assert Frame(u, faces, false, lastFaceSeen, sleepTimeout, now) == Present(tracked, c, |faces|, false, now);
    } else {
      assert Frame(u, faces, false, lastFaceSeen, sleepTimeout, now) == Absent(tracked, false, lastFaceSeen, sleepTimeout, now);
    }
  }

  /** The people greeted on waking are not greeted again by the next frame. */
  lemma WakeGreetingNotRepeated(t: Tracker, faces: seq<Face>, more: seq<Face>, lastFaceSeen: real,
                                sleepTimeout: real, now: real, later: real)
    requires |faces| > 0
    ensures var woke := Frame(t, faces, true, lastFaceSeen, sleepTimeout, now).0;
            forall e :: e in Frame(woke, more, false, lastFaceSeen, sleepTimeout, later).1 && e.Greet? ==> e.name !in woke.prev
  {
    WakeFrameGreets(t, faces, lastFaceSeen, sleepTimeout, now);
    AwakeRespectsWake(Frame(t, faces, true, lastFaceSeen, sleepTimeout, now).0, more, lastFaceSeen, sleepTimeout, later);
  }

  /** A person who reappears before the debounce runs out has no pending
      departure; a person who just vanished has one. */
  lemma ReturnCancelsDeparture(t: Tracker, faces: seq<Face>, sleeping: bool, lastFaceSeen: real,
                               sleepTimeout: real, now: real, n: string)
    ensures var r := Frame(t, faces, sleeping, lastFaceSeen, sleepTimeout, now).0;
            (n in Recognized(faces) ==> n !in r.departing)
            && (n in t.prev && n !in Recognized(faces) ==> n in r.departing)
  {
  }

  /** The departure timer of `n` firing at `now`: a cleared timer does
      nothing; a person seen again in the last frame is kept; otherwise the
      departure is confirmed and their stamps are forgotten. */
  function DepartureFires(t: Tracker, n: string, now: real): (r: (Tracker, seq<Effect>))
    ensures n !in r.0.departing
    ensures n !in t.departing ==> r == (t, [])
    ensures r.1 != [] <==> n in t.departing && n !in t.prev
    ensures r.1 != [] ==> n !in r.0.lastSeen && n !in r.0.firstSeen
                          && r.1 == [Left(n, if n in t.firstSeen && t.firstSeen[n] != 0.0 then t.firstSeen[n] else now)]
    ensures r.0.prev == t.prev && forall m :: m != n ==> (m in r.0.departing <==> m in t.departing)
  {
    if n !in t.departing then (t, [])
    else
      var rest := t.(departing := t.departing - {n});
      if n in t.prev then (rest, [])
      else
        var since := if n in t.firstSeen && t.firstSeen[n] != 0.0 then t.firstSeen[n] else now;
        (rest.(lastSeen := t.lastSeen - {n}, firstSeen := t.firstSeen - {n}), [Left(n, since)])
  }

  /** In a coherent tracker every departure timer that fires confirms the
      departure: the re-check in the timer never finds the person present. */
  lemma DepartureAlwaysConfirmed(t: Tracker, n: string, now: real)
    requires Coherent(t) && n in t.departing
    ensures |DepartureFires(t, n, now).1| == 1 && Coherent(DepartureFires(t, n, now).0)
  {
  }

  /** `checkPresenceTimeout()`: the timer is spent; with no face for more
      than 5000 ms presence ends, every name, stamp and timer is forgotten,
      the badge is hidden and the absence is broadcast. */
  function CheckPresenceTimeout(t: Tracker, lastFaceSeen: real, now: real): (r: (Tracker, seq<Effect>))
    ensures r.0.presenceDue.None?
    ensures now - lastFaceSeen > PRESENCE_TIMEOUT ==>
              r.0 == INITIAL.(wakeGreeted := t.wakeGreeted) && r.1 == [Presence(false, [], 0)]
    ensures now - lastFaceSeen <= PRESENCE_TIMEOUT ==> r.0 == t.(presenceDue := None) && r.1 == []
    ensures Coherent(t) ==> Coherent(r.0)
  {
    var spent := t.(presenceDue := None);
    if now - lastFaceSeen > PRESENCE_TIMEOUT then
      (spent.(presenceDetected := false, prev := [], prevFaceCount := 0, departing := map[],
              lastSeen := map[], firstSeen := map[], badgeShown := false), [Presence(false, [], 0)])
    else (spent, [])
  }

  /** After a presence timeout the next awake frame greets every recognised
      person who was not greeted on the last wake. */
  lemma AfterTimeoutEveryoneIsNew(t: Tracker, lastFaceSeen: real, now: real, faces: seq<Face>,
                                  later: real, n: string)
    requires now - lastFaceSeen > PRESENCE_TIMEOUT
    requires n in Recognized(faces)
    requires t.wakeGreeted.None? || n !in t.wakeGreeted.value
    ensures var cleared := CheckPresenceTimeout(t, lastFaceSeen, now).0;
            Greet(n) in Frame(cleared, faces, false, lastFaceSeen, 0.0, later).1
  {
    var cleared := CheckPresenceTimeout(t, lastFaceSeen, now).0;
    var c := Detect(cleared.prev, faces);
    assert n in c.newNames;
  }
}

=== FILE: face_worker.dfy ===
/** The geometric core of the face-detection worker: the anchor grid of the
    640 x 640 detector input, the per-stride decoding of distance boxes, the
    logit check on scores, intersection over union, and greedy non-maximum
    suppression. */
module FaceWorker {
  import opened Wrappers
  import opened Sorting
  import opened JsConv

  const INPUT_SIZE: int := 640
  const STRIDES: seq<int> := [8, 16, 32]
  const NMS_THRESH: real := 0.4
  const CONF_THRESH: real := 0.5
  /** The `1e-6` added to the union. */
  const EPS: real := 0.000001

  /** An anchor centre in input pixels and the stride of its grid. */
  datatype Anchor = Anchor(cx: real, cy: real, stride: int)

  /** `Math.ceil(n / s)`. */
  function CeilDiv(n: nat, s: int): (r: nat)
    requires s > 0
    ensures s * (r - 1) < n <= s * r
  {
    (n + s - 1) / s
  }

  /** The cells per side of the grid of stride `s`. */
  function Grid(s: int): (g: nat)
    requires s > 0
    ensures g >= 1
  {
    CeilDiv(INPUT_SIZE, s)
  }

  /** The anchors of one stride: two per cell. */
  function NumAnchors(s: int): nat
    requires s > 0
  {
    Grid(s) * Grid(s) * 2
  }

  /** The centre of cell number `cell` along one axis of the grid of stride `s`. */
  function Centre(cell: int, s: int): real {
    (cell as real + 0.5) * s as real
  }

  /** The anchor of the cell in column `j` and row `i`. */
  function At(s: int, j: int, i: int): Anchor {
    Anchor(Centre(j, s), Centre(i, s), s)
  }

  /** The inner loop over `j < n` of row `i`: two equal anchors per cell. */
  function RowAnchors(s: int, i: nat, n: nat): (r: seq<Anchor>)
    ensures |r| == 2 * n
    ensures forall k :: 0 <= k < 2 * n ==> r[k] == At(s, k / 2, i)
  {
    if n == 0 then []
    else
      var a := At(s, n - 1, i);
      RowAnchors(s, i, n - 1) + [a, a]
  }

  /** The outer loop over the first `h` rows of a grid `gw` cells wide. */
  function GridRows(s: int, gw: nat, h: nat): (r: seq<Anchor>)
    ensures forall k :: 0 <= k < |r| ==> r[k].stride == s
  {
    if h == 0 then [] else GridRows(s, gw, h - 1) + RowAnchors(s, h - 1, gw)
  }

  /** `h` rows of `gw` cells hold two anchors per cell. */
  lemma {:induction false} RowsLength(s: int, gw: nat, h: nat)
    ensures |GridRows(s, gw, h)| == 2 * gw * h
  {
    if h > 0 {
      RowsLength(s, gw, h - 1);
      assert 2 * gw * (h - 1) + 2 * gw == 2 * gw * h;
    }
  }

  /** Cell (i, j) of the grid holds the two anchors just past the rows above
      it, plus 2j, both centred on the cell. */
  lemma {:induction false} GridCell(s: int, gw: nat, h: nat, i: nat, j: nat, c: nat)
    requires i < h && j < gw && c < 2
    ensures |GridRows(s, gw, i)| + 2 * j + c < |GridRows(s, gw, h)|
    ensures GridRows(s, gw, h)[|GridRows(s, gw, i)| + 2 * j + c] == At(s, j, i)
  {
    var k := |GridRows(s, gw, i)| + 2 * j + c;
    var front := GridRows(s, gw, h - 1);
    var row := RowAnchors(s, h - 1, gw);
    assert GridRows(s, gw, h) == front + row;
    if i == h - 1 {
      assert GridRows(s, gw, h)[k] == row[2 * j + c];
      assert (2 * j + c) / 2 == j;
    } else {
      GridCell(s, gw, h - 1, i, j, c);
      assert GridRows(s, gw, h)[k] == front[k];
    }
  }

  /** The anchor of entry `k` of a grid `gw` cells wide: cell `k / 2`, at
      row `(k / 2) / gw` and column `(k / 2) % gw`. */
  function CellAnchor(s: int, gw: nat, k: nat): Anchor
    requires gw > 0
  {
    At(s, (k / 2) % gw, (k / 2) / gw)
  }

  /** The anchors of one stride, entry by entry. */
  function StrideAnchors(s: int): (r: seq<Anchor>)
    requires s > 0
    ensures |r| == NumAnchors(s)
    ensures forall k :: 0 <= k < |r| ==> r[k].stride == s
  {
    seq(NumAnchors(s), k requires 0 <= k < NumAnchors(s) => CellAnchor(s, Grid(s), k))
  }

  /** The nested loops produce, entry for entry, the cell formula. */
  lemma GridRowsCells(s: int, gw: nat, h: nat, k: nat)
    requires gw > 0 && k < |GridRows(s, gw, h)|
    ensures GridRows(s, gw, h)[k] == CellAnchor(s, gw, k)
  {
    var i, j, c := (k / 2) / gw, (k / 2) % gw, k % 2;
    RowsLength(s, gw, h);
    CellSplit(k, gw, h);
    RowsLength(s, gw, i);
    GridCell(s, gw, h, i, j, c);
  }

  /** Entry `k` lies in cell `k / 2`, at row `(k / 2) / gw`, which is below
      `h`, past the `2·gw` entries of each row above it. */
  lemma CellSplit(k: nat, gw: nat, h: nat)
    requires gw > 0 && k < 2 * gw * h
    ensures (k / 2) / gw < h && (k / 2) % gw < gw
    ensures 2 * gw * ((k / 2) / gw) + 2 * ((k / 2) % gw) + k % 2 == k
  {
    var cell := k / 2;
    var i, j := cell / gw, cell % gw;
    assert cell == i * gw + j;
    if i >= h {
      MulLeft(h, i, gw);
      assert false;
    }
  }

  lemma MulLeft(a: nat, b: nat, c: nat)
    requires a <= b
    ensures a * c <= b * c
  {
  }

  /** The loops of `generateAnchors()` for one stride give its anchors. */
  lemma StrideLoops(s: int)
    requires s > 0
    ensures GridRows(s, Grid(s), Grid(s)) == StrideAnchors(s)
  {
    var g := Grid(s);
    var loops := GridRows(s, g, g);
    var cells := StrideAnchors(s);
    assert |loops| == |cells| by {
      RowsLength(s, g, g);
      assert 2 * g * g == g * g * 2;
    }
    forall k | 0 <= k < |loops| ensures loops[k] == cells[k] {
      GridRowsCells(s, g, g, k);
    }
  }

  /** `generateAnchors()` over the given strides, in order. */
  function AnchorsFor(strides: seq<int>): (r: seq<Anchor>)
    requires forall k :: 0 <= k < |strides| ==> strides[k] > 0
  {
    if |strides| == 0 then [] else StrideAnchors(strides[0]) + AnchorsFor(strides[1..])
  }

  /** `ANCHORS`. */
  function Anchors(): seq<Anchor> {
    AnchorsFor(STRIDES)
  }

  /** `anchorOffset` at the start of stride number `si` of the decode loop. */
  function Offset(si: nat): (r: nat)
    requires si <= |STRIDES|
  {
    if si == 0 then 0 else Offset(si - 1) + NumAnchors(STRIDES[si - 1])
  }

  /** The anchor table holds 12800, 3200 and 800 anchors for strides 8, 16
      and 32, 16800 in all, and the decode loop's running offset lands on the
      first anchor of each stride: anchor `a` of stride number `si` is entry
      `Offset(si) + a`. */
  lemma AnchorLayout(si: nat, a: nat)
    requires si < |STRIDES| && a < NumAnchors(STRIDES[si])
    ensures |Anchors()| == 16800 && Offset(|STRIDES|) == 16800
    ensures NumAnchors(8) == 12800 && NumAnchors(16) == 3200 && NumAnchors(32) == 800
    ensures Offset(si) + a < |Anchors()| && Anchors()[Offset(si) + a] == StrideAnchors(STRIDES[si])[a]
  {
    assert Grid(8) == 80 && Grid(16) == 40 && Grid(32) == 20;
    var s8, s16, s32 := StrideAnchors(8), StrideAnchors(16), StrideAnchors(32);
    assert |s8| == 12800 && |s16| == 3200 && |s32| == 800;
    assert STRIDES[1..] == [16, 32] && STRIDES[2..] == [32] && [32][1..] == [];
    assert AnchorsFor([32]) == s32;
    assert AnchorsFor([16, 32]) == s16 + s32;
    var all := s8 + (s16 + s32);
    assert Anchors() == all;
    assert Offset(1) == 12800 && Offset(2) == 16000 && Offset(3) == 16800;
    if si == 0 {
      assert all[a] == s8[a];
    } else if si == 1 {
      assert all[12800 + a] == s16[a];
    } else {
      assert all[16000 + a] == s32[a];
    }
  }

  /** Anchor `a` of stride number `si` in the table: the one the decode loop
      reads, carrying that stride. */
  function AnchorAt(si: nat, a: nat): (r: Anchor)
    requires si < |STRIDES| && a < NumAnchors(STRIDES[si])
    ensures r == StrideAnchors(STRIDES[si])[a] && r.stride == STRIDES[si]
  {
    AnchorLayout(si, a);
    Anchors()[Offset(si) + a]
  }

  /** A box as [x1, y1, x2, y2]. */
  datatype Box = Box(x1: real, y1: real, x2: real, y2: real)

  predicate WellFormed(b: Box) {
    b.x1 <= b.x2 && b.y1 <= b.y2
  }

  /** An SCRFD box: distances left, top, right, bottom in stride units from
      the anchor centre. */
  function DecodeBox(an: Anchor, l: real, t: real, r: real, b: real): (box: Box)
    ensures l >= 0.0 && t >= 0.0 && r >= 0.0 && b >= 0.0 && an.stride > 0 ==>
              WellFormed(box) && box.x1 <= an.cx <= box.x2 && box.y1 <= an.cy <= box.y2
  {
    var s := an.stride as real;
    assert l >= 0.0 && s > 0.0 ==> l * s >= 0.0;
    assert t >= 0.0 && s > 0.0 ==> t * s >= 0.0;
    assert r >= 0.0 && s > 0.0 ==> r * s >= 0.0;
    assert b >= 0.0 && s > 0.0 ==> b * s >= 0.0;
    Box(an.cx - l * s, an.cy - t * s, an.cx + r * s, an.cy + b * s)
  }

  /** The score and box outputs of one stride, when the model produced both. */
  datatype StrideOutput = StrideOutput(scores: seq<real>, boxes: seq<real>)

  /** The decode loop from stride number `si` on, with anchors taken at the
      running offset. A stride without outputs contributes nothing, but its
      anchors are still skipped. Outputs are assumed as long as the grid. */
  function DecodeFrom(outs: seq<Option<StrideOutput>>, si: nat): (r: (seq<real>, seq<Box>))
    requires |outs| == |STRIDES| && si <= |STRIDES|
    requires forall k :: 0 <= k < |outs| && outs[k].Some? ==>
               |outs[k].value.scores| >= NumAnchors(STRIDES[k]) && |outs[k].value.boxes| >= 4 * NumAnchors(STRIDES[k])
    ensures |r.0| == |r.1|
    ensures si < |STRIDES| ==> r.0 == Part(outs, si).0 + DecodeFrom(outs, si + 1).0
    ensures si < |STRIDES| ==> r.1 == Part(outs, si).1 + DecodeFrom(outs, si + 1).1
    decreases |STRIDES| - si
  {
    if si == |STRIDES| then ([], [])
    else
      var rest := DecodeFrom(outs, si + 1);
      match outs[si]
      case None => rest
      case Some(out) =>
        var here := DecodeStride(out, si);
        (here.0 + rest.0, here.1 + rest.1)
  }

  /** The decoded scores and boxes are those of the three strides, in stride
      order, each stride contributing its own or nothing. */
  lemma DecodeParts(outs: seq<Option<StrideOutput>>)
    requires |outs| == |STRIDES|
    requires forall k :: 0 <= k < |outs| && outs[k].Some? ==>
               |outs[k].value.scores| >= NumAnchors(STRIDES[k]) && |outs[k].value.boxes| >= 4 * NumAnchors(STRIDES[k])
    ensures DecodeFrom(outs, 0).0 == Part(outs, 0).0 + Part(outs, 1).0 + Part(outs, 2).0
    ensures DecodeFrom(outs, 0).1 == Part(outs, 0).1 + Part(outs, 1).1 + Part(outs, 2).1
  {
    var d3, d2, d1, d0 := DecodeFrom(outs, 3), DecodeFrom(outs, 2), DecodeFrom(outs, 1), DecodeFrom(outs, 0);
    var p0, p1, p2 := Part(outs, 0), Part(outs, 1), Part(outs, 2);
    assert d3 == ([], []);
    Chain(p0.0, p1.0, p2.0, d3.0, d2.0, d1.0, d0.0);
    Chain(p0.1, p1.1, p2.1, d3.1, d2.1, d1.1, d0.1);
  }

  lemma Chain<T>(a: seq<T>, b: seq<T>, c: seq<T>, d3: seq<T>, d2: seq<T>, d1: seq<T>, d0: seq<T>)
    requires d3 == [] && d2 == c + d3 && d1 == b + d2 && d0 == a + d1
    ensures d0 == a + b + c
  {
  }

  /** What stride `k` contributes: its decoded scores and boxes, or nothing
      when the model gave no output for it. */
  function Part(outs: seq<Option<StrideOutput>>, k: nat): (r: (seq<real>, seq<Box>))
    requires |outs| == |STRIDES| && k < |STRIDES|
    requires outs[k].Some? ==>
               |outs[k].value.scores| >= NumAnchors(STRIDES[k]) && |outs[k].value.boxes| >= 4 * NumAnchors(STRIDES[k])
    ensures outs[k].None? ==> r == ([], [])
    ensures outs[k].Some? ==> |r.0| == |r.1| == NumAnchors(STRIDES[k])
  {
    if outs[k].None? then ([], []) else DecodeStride(outs[k].value, k)
  }

  /** One stride: every anchor's score and the box decoded around the anchor
      the table holds for it. */
  function DecodeStride(out: StrideOutput, si: nat): (r: (seq<real>, seq<Box>))
    requires si < |STRIDES|
    requires |out.scores| >= NumAnchors(STRIDES[si]) && |out.boxes| >= 4 * NumAnchors(STRIDES[si])
    ensures |r.0| == |r.1| == NumAnchors(STRIDES[si])
    ensures forall a :: 0 <= a < |r.0| ==> r.0[a] == out.scores[a]
    ensures forall a :: 0 <= a < |r.1| ==>
              r.1[a] == DecodeBox(AnchorAt(si, a), out.boxes[4 * a], out.boxes[4 * a + 1],
                                  out.boxes[4 * a + 2], out.boxes[4 * a + 3])
  {
    var n := NumAnchors(STRIDES[si]);
    var boxes := seq(n, a requires 0 <= a < n =>
      DecodeBox(AnchorAt(si, a), out.boxes[4 * a], out.boxes[4 * a + 1], out.boxes[4 * a + 2], out.boxes[4 * a + 3]));
    (out.scores[..n], boxes)
  }

  /** The largest raw score, starting from 0. */
  function MaxScore(scores: seq<real>): (m: real)
    ensures m >= 0.0 && forall k :: 0 <= k < |scores| ==> scores[k] <= m
    ensures m == 0.0 || exists k :: 0 <= k < |scores| && scores[k] == m
  {
    if |scores| == 0 then 0.0
    else
      var rest := MaxScore(scores[..|scores| - 1]);
      var last := scores[|scores| - 1];
      if last > rest then last else rest
  }

  /** Scores whose maximum exceeds 1 are logits and go through `sigmoid`
      (`1 / (1 + exp(-x))`, a parameter here); probabilities are kept. */
  function ActivateScores(scores: seq<real>, sigmoid: real -> real): (r: seq<real>)
    ensures |r| == |scores|
    ensures (exists k :: 0 <= k < |scores| && scores[k] > 1.0) ==> forall k :: 0 <= k < |r| ==> r[k] == sigmoid(scores[k])
    ensures (forall k :: 0 <= k < |scores| ==> scores[k] <= 1.0) ==> r == scores
  {
    if MaxScore(scores) > 1.0 then seq(|scores|, k requires 0 <= k < |scores| => sigmoid(scores[k]))
    else scores
  }

  /** The overlap area of two boxes. */
  function Inter(a: Box, b: Box): (r: real)
    ensures r >= 0.0
  {
    var w := MathMax(0.0, MathMin(a.x2, b.x2) - MathMax(a.x1, b.x1));
    var h := MathMax(0.0, MathMin(a.y2, b.y2) - MathMax(a.y1, b.y1));
    assert w * h >= 0.0;
    w * h
  }

  function Area(b: Box): real {
    (b.x2 - b.x1) * (b.y2 - b.y1)
  }

  /** The denominator of `iou`. */
  function Union(a: Box, b: Box): real {
    Area(a) + Area(b) - Inter(a, b) + EPS
  }

  /** `iou(a, b)`, or none where the denominator is zero and the division
      gives Infinity or NaN. For well-formed boxes it always exists and lies
      in [0, 1). */
  function Iou(a: Box, b: Box): (r: Option<real>)
    ensures r.None? <==> Union(a, b) == 0.0
    ensures WellFormed(a) && WellFormed(b) ==> r.Some? && 0.0 <= r.value < 1.0
  {
    assert WellFormed(a) && WellFormed(b) ==> 0.0 < Union(a, b) && 0.0 <= Inter(a, b) / Union(a, b) < 1.0 by {
      if WellFormed(a) && WellFormed(b) {
        InterBelowUnion(a, b);
      }
    }
    if Union(a, b) == 0.0 then None
    else Some(Inter(a, b) / Union(a, b))
  }

  lemma InterBelowUnion(a: Box, b: Box)
    requires WellFormed(a) && WellFormed(b)
    ensures 0.0 <= Inter(a, b) < Union(a, b)
    ensures 0.0 <= Inter(a, b) / Union(a, b) < 1.0
  {
    InterWithin(a, b);
    UnionBound(Inter(a, b), Area(a), Area(b));
    DivBelowOne(Inter(a, b), Union(a, b));
  }

  /** The overlap is no larger than either box. */
  lemma InterWithin(a: Box, b: Box)
    requires WellFormed(a) && WellFormed(b)
    ensures Inter(a, b) <= Area(a) && Inter(a, b) <= Area(b)
  {
    var w := MathMax(0.0, MathMin(a.x2, b.x2) - MathMax(a.x1, b.x1));
    var h := MathMax(0.0, MathMin(a.y2, b.y2) - MathMax(a.y1, b.y1));
    assert Inter(a, b) == w * h;
    assert w <= a.x2 - a.x1 && w <= b.x2 - b.x1;
    assert h <= a.y2 - a.y1 && h <= b.y2 - b.y1;
    MulMono(w, h, a.x2 - a.x1, a.y2 - a.y1);
    MulMono(w, h, b.x2 - b.x1, b.y2 - b.y1);
  }

  lemma UnionBound(i: real, x: real, y: real)
    requires 0.0 <= i <= x && i <= y
    ensures i < x + y - i + EPS
  {
  }

  lemma MulMono(a: real, b: real, c: real, d: real)
    requires 0.0 <= a <= c && 0.0 <= b <= d
    ensures a * b <= c * d
  {
    assert a * b <= c * b;
    assert c * b <= c * d;
  }

  lemma DivBelowOne(x: real, d: real)
    requires 0.0 <= x < d
    ensures 0.0 <= x / d < 1.0
  {
    assert (x / d) * d == x;
  }

  /** `iou(a, b) > threshold` as JavaScript evaluates it, with a zero
      denominator giving Infinity (some overlap) or NaN (none). */
  predicate IouAbove(a: Box, b: Box, threshold: real) {
    if Union(a, b) == 0.0 then Inter(a, b) > 0.0 else Inter(a, b) / Union(a, b) > threshold
  }

  /** Intersection over union does not depend on the order of the boxes. */
  lemma IouSymmetric(a: Box, b: Box, threshold: real)
    ensures Iou(a, b) == Iou(b, a)
    ensures IouAbove(a, b, threshold) == IouAbove(b, a, threshold)
  {
    assert Inter(a, b) == Inter(b, a);
    assert Union(a, b) == Union(b, a);
  }

  /** The indices below `n` whose score is above the confidence threshold, ascending. */
  function Confident(scores: seq<real>, n: nat): (r: seq<int>)
    requires n <= |scores|
    ensures forall x :: x in r <==> 0 <= x < n && scores[x] > CONF_THRESH
    ensures forall p, q :: 0 <= p < q < |r| ==> r[p] < r[q]
    ensures forall p :: 0 <= p < |r| ==> 0 <= r[p] < n
  {
    if n == 0 then []
    else
      var rest := Confident(scores, n - 1);
      if scores[n - 1] > CONF_THRESH then rest + [n - 1] else rest
  }

  predicate NoRepeats(s: seq<int>) {
    forall p, q :: 0 <= p < q < |s| ==> s[p] != s[q]
  }

  /** An ascending sequence holds each value at most once. */
  lemma {:induction false} AscendingOnce(s: seq<int>, x: int)
    requires forall p, q :: 0 <= p < q < |s| ==> s[p] < s[q]
    ensures multiset(s)[x] <= 1
  {
    if |s| > 0 {
      assert s == [s[0]] + s[1..];
      AscendingOnce(s[1..], x);
      if x == s[0] {
        assert x !in s[1..];
      }
    }
  }

  /** A sequence with each value at most once has no repeats. */
  lemma OnceNoRepeats(s: seq<int>)
    requires forall x :: multiset(s)[x] <= 1
    ensures NoRepeats(s)
  {
    forall p, q | 0 <= p < q < |s| ensures s[p] != s[q] {
      var x := s[p];
      assert s == s[..q] + s[q..];
      assert multiset(s)[x] == multiset(s[..q])[x] + multiset(s[q..])[x];
      assert x in s[..q] && s[q] in s[q..];
      assert multiset(s[..q])[x] >= 1 && multiset(s[q..])[s[q]] >= 1;
    }
  }

  /** The score of index `i`, negated to sort descending; 0 outside. */
  function NegScore(scores: seq<real>): int -> real {
    (i: int) => if 0 <= i < |scores| then -scores[i] else 0.0
  }

  /** `indices` after the sort: the confident indices by descending score,
      equal scores in index order. */
  function Order(scores: seq<real>): (r: seq<int>)
    ensures forall x :: x in r <==> 0 <= x < |scores| && scores[x] > CONF_THRESH
    ensures NoRepeats(r)
    ensures forall p :: 0 <= p < |r| ==> 0 <= r[p] < |scores|
    ensures forall p, q :: 0 <= p < q < |r| ==> scores[r[p]] >= scores[r[q]]
  {
    var c := Confident(scores, |scores|);
    var r := SortBy(c, NegScore(scores));
    SortKeepsMembers(c, NegScore(scores));
    SortKeepsOnce(c, NegScore(scores));
    assert forall p :: 0 <= p < |r| ==> r[p] in r;
    assert forall p, q :: 0 <= p < q < |r| ==> NegScore(scores)(r[p]) <= NegScore(scores)(r[q]);
    r
  }

  /** Indices with equal scores keep the ascending order in which they were
      collected. */
  lemma OrderTiesByIndex(scores: seq<real>, v: real)
    ensures KeyRun(Order(scores), NegScore(scores), v) == KeyRun(Confident(scores, |scores|), NegScore(scores), v)
  {
    SortByStable(Confident(scores, |scores|), NegScore(scores), v);
  }

  lemma SortKeepsMembers(c: seq<int>, key: int -> real)
    ensures forall x :: x in SortBy(c, key) <==> x in c
  {
    var r := SortBy(c, key);
    forall x ensures x in r <==> x in c {
      assert x in r <==> x in multiset(r);
      assert x in c <==> x in multiset(c);
    }
  }

  lemma SortKeepsOnce(c: seq<int>, key: int -> real)
    requires forall p, q :: 0 <= p < q < |c| ==> c[p] < c[q]
    ensures NoRepeats(SortBy(c, key))
  {
    var r := SortBy(c, key);
    forall x ensures multiset(r)[x] <= 1 {
      AscendingOnce(c, x);
    }
    OnceNoRepeats(r);
  }

  /** `order` lists distinct indices of `scores` by descending score. */
  predicate Ranking(scores: seq<real>, order: seq<int>) {
    && (forall p :: 0 <= p < |order| ==> 0 <= order[p] < |scores|)
    && NoRepeats(order)
    && (forall p, q :: 0 <= p < q < |order| ==> scores[order[p]] >= scores[order[q]])
  }

  /** The loop state of `nms` after visiting `order[..pos]`. */
  predicate NmsState(boxes: seq<Box>, scores: seq<real>, threshold: real, order: seq<int>,
                     pos: int, keep: seq<int>, suppressed: set<int>)
  {
    NmsRanked(boxes, scores, order, pos, keep) && NmsSuppressed(boxes, threshold, order, pos, keep, suppressed)
  }

  /** Every kept index comes from the visited prefix of `order`, once, in
      descending score, and scores at least as high as any unvisited one. */
  predicate NmsRanked(boxes: seq<Box>, scores: seq<real>, order: seq<int>, pos: int, keep: seq<int>) {
    && |boxes| == |scores| && Ranking(scores, order) && 0 <= pos <= |order|
    && (forall k :: 0 <= k < |keep| ==> 0 <= keep[k] < |scores| && keep[k] in order)
    && (forall p :: pos <= p < |order| ==> order[p] !in keep)
    && NoRepeats(keep)
    && (forall x, q :: 0 <= x < |keep| && pos <= q < |order| ==> scores[keep[x]] >= scores[order[q]])
    && (forall x, y :: 0 <= x < y < |keep| ==> scores[keep[x]] >= scores[keep[y]])
  }

  /** No two kept boxes overlap, every box overlapping a kept one is
      suppressed, every suppressed box overlaps a kept one, and every visited
      index was kept or suppressed. */
  predicate NmsSuppressed(boxes: seq<Box>, threshold: real, order: seq<int>, pos: int,
                          keep: seq<int>, suppressed: set<int>)
    requires forall k :: 0 <= k < |keep| ==> 0 <= keep[k] < |boxes|
    requires forall p :: 0 <= p < |order| ==> 0 <= order[p] < |boxes|
  {
    && (forall x, y :: 0 <= x < y < |keep| ==> !IouAbove(boxes[keep[x]], boxes[keep[y]], threshold))
    && (forall x, j :: (0 <= x < |keep| && j in order && j != keep[x] && IouAbove(boxes[keep[x]], boxes[j], threshold))
                       ==> j in suppressed)
    && (forall j :: j in suppressed ==>
          j in order && exists x :: 0 <= x < |keep| && IouAbove(boxes[keep[x]], boxes[j], threshold))
    && (forall p :: 0 <= p < pos && p < |order| ==> order[p] in keep || order[p] in suppressed)
  }

  /** The indices of `order` other than `i` whose box overlaps box `i` by
      more than the threshold. */
  function Hits(boxes: seq<Box>, order: seq<int>, i: int, threshold: real): (r: set<int>)
    requires 0 <= i < |boxes|
    requires forall k :: 0 <= k < |order| ==> 0 <= order[k] < |boxes|
    ensures forall j :: j in r <==> j in order && j != i && IouAbove(boxes[i], boxes[j], threshold)
  {
    set j | j in order && j != i && IouAbove(boxes[i], boxes[j], threshold)
  }

  /** Visiting an index that is not suppressed keeps it and suppresses its overlaps. */
  lemma NmsKeep(boxes: seq<Box>, scores: seq<real>, threshold: real, order: seq<int>,
                pos: int, keep: seq<int>, suppressed: set<int>)
    requires NmsState(boxes, scores, threshold, order, pos, keep, suppressed)
    requires pos < |order| && order[pos] !in suppressed
    ensures NmsState(boxes, scores, threshold, order, pos + 1, keep + [order[pos]],
                     suppressed + Hits(boxes, order, order[pos], threshold))
  {
    NmsKeepRanked(boxes, scores, order, pos, keep);
    NmsKeepSuppressed(boxes, scores, threshold, order, pos, keep, suppressed);
  }

  lemma NmsKeepRanked(boxes: seq<Box>, scores: seq<real>, order: seq<int>, pos: int, keep: seq<int>)
    requires NmsRanked(boxes, scores, order, pos, keep) && pos < |order|
    ensures NmsRanked(boxes, scores, order, pos + 1, keep + [order[pos]])
  {
    var i := order[pos];
    var keep' := keep + [i];
    forall p | pos + 1 <= p < |order| ensures order[p] !in keep' {
      assert order[p] != order[pos];
    }
    forall x, q | 0 <= x < |keep'| && pos + 1 <= q < |order| ensures scores[keep'[x]] >= scores[order[q]] {
      if x == |keep| {
        assert keep'[x] == order[pos];
      } else {
        assert keep'[x] == keep[x];
      }
    }
    forall x, y | 0 <= x < y < |keep'| ensures scores[keep'[x]] >= scores[keep'[y]] {
      if y == |keep| {
        assert keep'[x] == keep[x] && keep'[y] == order[pos];
      } else {
        assert keep'[x] == keep[x] && keep'[y] == keep[y];
      }
    }
    forall x, y | 0 <= x < y < |keep'| ensures keep'[x] != keep'[y] {
      if y == |keep| {
        assert keep'[x] == keep[x] && keep'[y] == order[pos];
      } else {
        assert keep'[x] == keep[x] && keep'[y] == keep[y];
      }
    }
  }

  lemma NmsKeepSuppressed(boxes: seq<Box>, scores: seq<real>, threshold: real, order: seq<int>,
                          pos: int, keep: seq<int>, suppressed: set<int>)
    requires NmsState(boxes, scores, threshold, order, pos, keep, suppressed)
    requires pos < |order| && order[pos] !in suppressed
    ensures NmsRanked(boxes, scores, order, pos + 1, keep + [order[pos]])
    ensures NmsSuppressed(boxes, threshold, order, pos + 1, keep + [order[pos]],
                          suppressed + Hits(boxes, order, order[pos], threshold))
  {
    NmsKeepRanked(boxes, scores, order, pos, keep);
    var i := order[pos];
    var keep', suppressed' := keep + [i], suppressed + Hits(boxes, order, i, threshold);
    forall x, y | 0 <= x < y < |keep'|
      ensures !IouAbove(boxes[keep'[x]], boxes[keep'[y]], threshold)
    {
      if y == |keep| {
        assert keep'[x] == keep[x] && keep'[y] == i;
      }
    }
    forall j | j in suppressed'
      ensures j in order && exists x :: 0 <= x < |keep'| && IouAbove(boxes[keep'[x]], boxes[j], threshold)
    {
      if j !in suppressed {
        assert keep'[|keep|] == i;
      } else {
        var x :| 0 <= x < |keep| && IouAbove(boxes[keep[x]], boxes[j], threshold);
        assert keep'[x] == keep[x];
      }
    }
  }

  /** Visiting a suppressed index changes nothing else. */
  lemma NmsSkip(boxes: seq<Box>, scores: seq<real>, threshold: real, order: seq<int>,
                pos: int, keep: seq<int>, suppressed: set<int>)
    requires NmsState(boxes, scores, threshold, order, pos, keep, suppressed)
    requires pos < |order| && order[pos] in suppressed
    ensures NmsState(boxes, scores, threshold, order, pos + 1, keep, suppressed)
  {
  }

  /** Before the loop of `nms` nothing is kept, and its three invariants hold. */
  lemma NmsBegin(boxes: seq<Box>, scores: seq<real>, threshold: real, order: seq<int>)
    requires |boxes| == |scores| && order == Order(scores)
    ensures NmsState(boxes, scores, threshold, order, 0, [], {})
    ensures CoveredEarlier(boxes, order, 0, [], threshold)
    ensures Greedy(boxes, order[0..], threshold, []) == Greedy(boxes, order, threshold, [])
  {
    NmsStart(boxes, scores, threshold);
    assert order[0..] == order;
  }

  /** The kept list and suppressed set after visiting `order[pos]`. */
  function NmsNext(boxes: seq<Box>, threshold: real, order: seq<int>, pos: int,
                   keep: seq<int>, suppressed: set<int>): (seq<int>, set<int>)
    requires 0 <= pos < |order| && forall p :: 0 <= p < |order| ==> 0 <= order[p] < |boxes|
  {
    if order[pos] in suppressed then (keep, suppressed)
    else (keep + [order[pos]], suppressed + Hits(boxes, order, order[pos], threshold))
  }

  /** One visit of the loop of `nms` keeps its three invariants. */
  lemma NmsAdvance(boxes: seq<Box>, scores: seq<real>, threshold: real, order: seq<int>,
                   pos: int, keep: seq<int>, suppressed: set<int>)
    requires NmsState(boxes, scores, threshold, order, pos, keep, suppressed) && pos < |order|
    requires CoveredEarlier(boxes, order, pos, keep, threshold)
    requires Greedy(boxes, order[pos..], threshold, keep) == Greedy(boxes, order, threshold, [])
    ensures var n := NmsNext(boxes, threshold, order, pos, keep, suppressed);
            && NmsState(boxes, scores, threshold, order, pos + 1, n.0, n.1)
            && CoveredEarlier(boxes, order, pos + 1, n.0, threshold)
            && Greedy(boxes, order[pos + 1..], threshold, n.0) == Greedy(boxes, order, threshold, [])
  {
    GreedyStep(boxes, scores, threshold, order, pos, keep, suppressed);
    EarlierStep(boxes, scores, threshold, order, pos, keep, suppressed);
    if order[pos] !in suppressed {
      NmsKeep(boxes, scores, threshold, order, pos, keep, suppressed);
    } else {
      NmsSkip(boxes, scores, threshold, order, pos, keep, suppressed);
    }
  }

  /** `nms(boxes, scores, threshold)`: visits the confident indices from the
      highest score down, keeps each one not yet suppressed, and suppresses
      every other index whose box overlaps the kept one's by more than the
      threshold. */
  method Nms(boxes: seq<Box>, scores: seq<real>, threshold: real) returns (keep: seq<int>)
    requires |boxes| == |scores|
    ensures forall k :: 0 <= k < |keep| ==> 0 <= keep[k] < |scores| && scores[keep[k]] > CONF_THRESH
    ensures NoRepeats(keep)
    ensures forall x, y :: 0 <= x < y < |keep| ==> scores[keep[x]] >= scores[keep[y]]
    ensures forall x, y :: 0 <= x < |keep| && 0 <= y < |keep| && x != y ==>
              !IouAbove(boxes[keep[x]], boxes[keep[y]], threshold)
    ensures forall i :: 0 <= i < |scores| && scores[i] > CONF_THRESH && i !in keep ==>
              exists x :: 0 <= x < |keep| && IouAbove(boxes[keep[x]], boxes[i], threshold)
    ensures CoveredEarlier(boxes, Order(scores), |Order(scores)|, keep, threshold)
    ensures keep == Greedy(boxes, Order(scores), threshold, [])
  {
    var order := Order(scores);
    var suppressed;
    keep, suppressed := NmsVisit(boxes, scores, threshold, order);
    NmsDone(boxes, scores, threshold, order, keep, suppressed);
  }

  /** The loop of `nms` over the whole ranking: its state at the end, which is
      what the greedy reference definition keeps. */
  method NmsVisit(boxes: seq<Box>, scores: seq<real>, threshold: real, order: seq<int>)
    returns (keep: seq<int>, suppressed: set<int>)
    requires |boxes| == |scores| && order == Order(scores)
    ensures NmsState(boxes, scores, threshold, order, |order|, keep, suppressed)
    ensures CoveredEarlier(boxes, order, |order|, keep, threshold)
    ensures keep == Greedy(boxes, order, threshold, [])
  {
    keep, suppressed := [], {};
    var pos := 0;
    NmsBegin(boxes, scores, threshold, order);
    while pos < |order|
      invariant NmsState(boxes, scores, threshold, order, pos, keep, suppressed)
      invariant CoveredEarlier(boxes, order, pos, keep, threshold)
      invariant Greedy(boxes, order[pos..], threshold, keep) == Greedy(boxes, order, threshold, [])
    {
      NmsAdvance(boxes, scores, threshold, order, pos, keep, suppressed);
      var next := NmsNext(boxes, threshold, order, pos, keep, suppressed);
      keep, suppressed, pos := next.0, next.1, pos + 1;
    }
    assert order[pos..] == [];
  }

  /** Some box of `keep` overlaps box `j` by more than the threshold. */
  predicate Covered(boxes: seq<Box>, keep: seq<int>, j: int, threshold: real)
    requires forall k :: 0 <= k < |keep| ==> 0 <= keep[k] < |boxes|
    requires 0 <= j < |boxes|
  {
    exists x :: 0 <= x < |keep| && IouAbove(boxes[keep[x]], boxes[j], threshold)
  }

  /** Greedy suppression as a reference: the indices of `order` are taken in
      turn and appended to `keep` unless a box already kept overlaps theirs. */
  function Greedy(boxes: seq<Box>, order: seq<int>, threshold: real, keep: seq<int>): seq<int>
    requires forall p :: 0 <= p < |order| ==> 0 <= order[p] < |boxes|
    requires forall k :: 0 <= k < |keep| ==> 0 <= keep[k] < |boxes|
    decreases |order|
  {
    if |order| == 0 then keep
    else
      var keep' := if Covered(boxes, keep, order[0], threshold) then keep else keep + [order[0]];
      Greedy(boxes, order[1..], threshold, keep')
  }

  /** Each of the first `pos` indices of `order` that was not kept is
      overlapped by a box kept before it in `order`. */
  predicate CoveredEarlier(boxes: seq<Box>, order: seq<int>, pos: int, keep: seq<int>, threshold: real)
    requires forall p :: 0 <= p < |order| ==> 0 <= order[p] < |boxes|
    requires forall k :: 0 <= k < |keep| ==> 0 <= keep[k] < |boxes|
  {
    forall p :: 0 <= p < pos && p < |order| && order[p] !in keep ==>
      exists x :: 0 <= x < |keep| && keep[x] in order[..p] && IouAbove(boxes[keep[x]], boxes[order[p]], threshold)
  }

  /** An index not yet visited is suppressed exactly when a kept box covers it. */
  lemma SuppressedIffCovered(boxes: seq<Box>, scores: seq<real>, threshold: real, order: seq<int>,
                             pos: int, keep: seq<int>, suppressed: set<int>)
    requires NmsState(boxes, scores, threshold, order, pos, keep, suppressed) && pos < |order|
    ensures order[pos] in suppressed <==> Covered(boxes, keep, order[pos], threshold)
  {
    var i := order[pos];
    assert i !in keep;
    if Covered(boxes, keep, i, threshold) {
      var x :| 0 <= x < |keep| && IouAbove(boxes[keep[x]], boxes[i], threshold);
      assert i in order && i != keep[x];
    }
  }

  /** One visit of the loop is one step of `Greedy`. */
  lemma GreedyStep(boxes: seq<Box>, scores: seq<real>, threshold: real, order: seq<int>,
                   pos: int, keep: seq<int>, suppressed: set<int>)
    requires NmsState(boxes, scores, threshold, order, pos, keep, suppressed) && pos < |order|
    ensures Greedy(boxes, order[pos..], threshold, keep)
            == Greedy(boxes, order[pos + 1..], threshold, if order[pos] in suppressed then keep else keep + [order[pos]])
  {
    SuppressedIffCovered(boxes, scores, threshold, order, pos, keep, suppressed);
    assert order[pos..][0] == order[pos];
    assert order[pos..][1..] == order[pos + 1..];
  }

  /** One visit keeps every skipped index covered by an earlier kept box. */
  lemma EarlierStep(boxes: seq<Box>, scores: seq<real>, threshold: real, order: seq<int>,
                    pos: int, keep: seq<int>, suppressed: set<int>)
    requires NmsState(boxes, scores, threshold, order, pos, keep, suppressed) && pos < |order|
    requires CoveredEarlier(boxes, order, pos, keep, threshold)
    ensures CoveredEarlier(boxes, order, pos + 1, if order[pos] in suppressed then keep else keep + [order[pos]], threshold)
  {
    if order[pos] in suppressed {
      EarlierSkip(boxes, scores, threshold, order, pos, keep, suppressed);
    } else {
      EarlierKeep(boxes, order, pos, keep, threshold);
    }
  }

  lemma EarlierSkip(boxes: seq<Box>, scores: seq<real>, threshold: real, order: seq<int>,
                    pos: int, keep: seq<int>, suppressed: set<int>)
    requires NmsState(boxes, scores, threshold, order, pos, keep, suppressed) && pos < |order|
    requires CoveredEarlier(boxes, order, pos, keep, threshold) && order[pos] in suppressed
    ensures CoveredEarlier(boxes, order, pos + 1, keep, threshold)
  {
    var i := order[pos];
    var x :| 0 <= x < |keep| && IouAbove(boxes[keep[x]], boxes[i], threshold);
    var q :| 0 <= q < |order| && order[q] == keep[x];
    assert q < pos;
    assert keep[x] == order[..pos][q];
  }

  lemma EarlierKeep(boxes: seq<Box>, order: seq<int>, pos: int, keep: seq<int>, threshold: real)
    requires 0 <= pos < |order| && forall p :: 0 <= p < |order| ==> 0 <= order[p] < |boxes|
    requires forall k :: 0 <= k < |keep| ==> 0 <= keep[k] < |boxes|
    requires CoveredEarlier(boxes, order, pos, keep, threshold)
    ensures CoveredEarlier(boxes, order, pos + 1, keep + [order[pos]], threshold)
  {
    var keep' := keep + [order[pos]];
    forall p | 0 <= p < pos + 1 && p < |order| && order[p] !in keep'
      ensures exists x :: 0 <= x < |keep'| && keep'[x] in order[..p] && IouAbove(boxes[keep'[x]], boxes[order[p]], threshold)
    {
      assert order[p] !in keep;
      var x :| 0 <= x < |keep| && keep[x] in order[..p] && IouAbove(boxes[keep[x]], boxes[order[p]], threshold);
      assert keep'[x] == keep[x];
    }
  }


  /** Before the loop nothing is visited, kept or suppressed. */
  lemma NmsStart(boxes: seq<Box>, scores: seq<real>, threshold: real)
    requires |boxes| == |scores|
    ensures NmsState(boxes, scores, threshold, Order(scores), 0, [], {})
  {
    assert Ranking(scores, Order(scores));
  }

  /** The finished loop gives the promises of `nms`. */
  lemma NmsDone(boxes: seq<Box>, scores: seq<real>, threshold: real, order: seq<int>,
                keep: seq<int>, suppressed: set<int>)
    requires order == Order(scores) && NmsState(boxes, scores, threshold, order, |order|, keep, suppressed)
    requires CoveredEarlier(boxes, order, |order|, keep, threshold)
    requires keep == Greedy(boxes, order, threshold, [])
    ensures CoveredEarlier(boxes, Order(scores), |Order(scores)|, keep, threshold)
    ensures keep == Greedy(boxes, Order(scores), threshold, [])
    ensures forall k :: 0 <= k < |keep| ==> 0 <= keep[k] < |scores| && scores[keep[k]] > CONF_THRESH
    ensures NoRepeats(keep)
    ensures forall x, y :: 0 <= x < y < |keep| ==> scores[keep[x]] >= scores[keep[y]]
    ensures forall x, y :: 0 <= x < |keep| && 0 <= y < |keep| && x != y ==>
              !IouAbove(boxes[keep[x]], boxes[keep[y]], threshold)
    ensures forall i :: 0 <= i < |scores| && scores[i] > CONF_THRESH && i !in keep ==>
              exists x :: 0 <= x < |keep| && IouAbove(boxes[keep[x]], boxes[i], threshold)
  {
    forall x, y | 0 <= x < |keep| && 0 <= y < |keep| && x != y
      ensures !IouAbove(boxes[keep[x]], boxes[keep[y]], threshold)
    {
      if y < x {
        IouSymmetric(boxes[keep[x]], boxes[keep[y]], threshold);
      }
    }
    forall i | 0 <= i < |scores| && scores[i] > CONF_THRESH && i !in keep
      ensures exists x :: 0 <= x < |keep| && IouAbove(boxes[keep[x]], boxes[i], threshold)
    {
      assert i in order;
      var p :| 0 <= p < |order| && order[p] == i;
    }
  }
}

=== FILE: front_turn_timing.dfy ===
/** The page's turn timing: a trace of time marks per spoken turn, started
    locally when speech is detected and attached to the server's turn id once
    the server announces it, and printed once as a chart. */
module FrontTurnTiming {
  import opened Wrappers
  import opened JsonText
  import opened Langfuse
  import opened TurnTimer
  import opened Strs

  const TURN_STARTED: string := "Turn started (WS)"
  const TURN_IGNORED: string := "Turn ignored"
  const VAD_STARTED: string := "VAD started"
  const FALLBACK_SOURCE: string := "frontend-fallback"

  /** One trace. `turnId` is `None` for `null`. */
  datatype Trace = Trace(id: string, source: string, turnId: Option<string>, events: seq<Row>,
                         printed: bool, createdAt: real)

  /** The module's state: the id counter, the ids of traces still waiting for
      a turn (oldest first), the traces by id, and the trace id of each turn. */
  datatype Store = Store(sequence: nat, pending: seq<string>, byId: map<string, Trace>, byTurn: map<string, string>)

  /** The state when the page loads. */
  const EMPTY: Store := Store(0, [], map[], map[])

  /** `trace-<n>`. */
  function TraceId(n: nat): string {
    "trace-" + NatToStr(n)
  }

  /** Different counters give different ids. */
  lemma TraceIdInjective(a: nat, b: nat)
    requires TraceId(a) == TraceId(b)
    ensures a == b
  {
    assert TraceId(a)[6..] == NatToStr(a);
    assert TraceId(b)[6..] == NatToStr(b);
    DigitsValueOfNatToStr(a);
    DigitsValueOfNatToStr(b);
  }

  predicate NoDups(s: seq<string>) {
    forall p, q :: 0 <= p < q < |s| ==> s[p] != s[q]
  }

  /** A trace that can take a turn: known, and without a (truthy) turn id. */
  predicate Free(byId: map<string, Trace>, id: string) {
    id in byId && !(byId[id].turnId.Some? && byId[id].turnId.value != "")
  }

  /** What every operation keeps: traces are filed under their own id, no id
      beyond the counter is used, the pending list holds distinct known traces
      that have no turn yet, every turn points at a known trace that has a
      turn, and only traces with a turn have been printed. */
  ghost predicate Coherent(st: Store) {
    && (forall id :: id in st.byId ==> st.byId[id].id == id)
    && (forall n: nat :: n > st.sequence ==> TraceId(n) !in st.byId)
    && NoDups(st.pending)
    && (forall p :: 0 <= p < |st.pending| ==> st.pending[p] in st.byId && st.byId[st.pending[p]].turnId.None?)
    && (forall t :: t in st.byTurn ==> st.byTurn[t] in st.byId && st.byId[st.byTurn[t]].turnId.Some?)
    && (forall id :: id in st.byId && st.byId[id].printed ==> st.byId[id].turnId.Some?)
  }

  lemma EmptyCoherent()
    ensures Coherent(EMPTY)
  {
  }

  /** `createTrace(source)`: a fresh id, a trace without turn or marks, filed
      and appended to the pending list. */
  function CreateTrace(st: Store, source: string, now: real): (r: (Store, string))
    ensures r.1 == TraceId(st.sequence + 1) && r.0.sequence == st.sequence + 1
    ensures r.0.pending == st.pending + [r.1] && r.0.byTurn == st.byTurn
    ensures r.1 in r.0.byId && r.0.byId[r.1] == Trace(r.1, source, None, [], false, now)
    ensures forall id :: id != r.1 ==> (id in r.0.byId <==> id in st.byId)
    ensures forall id :: id != r.1 && id in st.byId ==> r.0.byId[id] == st.byId[id]
  {
    var id := TraceId(st.sequence + 1);
    (Store(st.sequence + 1, st.pending + [id], st.byId[id := Trace(id, source, None, [], false, now)], st.byTurn), id)
  }

  /** In a coherent store the new id was never used, and the store stays coherent. */
  lemma CreateFresh(st: Store, source: string, now: real)
    requires Coherent(st)
    ensures CreateTrace(st, source, now).1 !in st.byId
    ensures Coherent(CreateTrace(st, source, now).0)
  {
    var (st', id) := CreateTrace(st, source, now);
    assert id !in st.byId;
    forall n: nat | n > st'.sequence ensures TraceId(n) !in st'.byId {
      if TraceId(n) == id {
        TraceIdInjective(n, st.sequence + 1);
      }
    }
    forall p, q | 0 <= p < q < |st'.pending| ensures st'.pending[p] != st'.pending[q] {
      if q == |st.pending| {
        assert st'.pending[p] == st.pending[p] && st.pending[p] in st.byId;
      }
    }
  }

  /** `getTraceById(traceId)`: none for an empty or unknown id. */
  function GetTraceById(st: Store, traceId: string): (r: Option<Trace>)
    ensures r.Some? <==> traceId != "" && traceId in st.byId
    ensures r.Some? ==> r.value == st.byId[traceId]
  {
    if traceId == "" || traceId !in st.byId then None else Some(st.byId[traceId])
  }

  /** `markTrace(trace, event, at)`: appends a mark unless the event is empty.
      `at` is `Number(at)`, `None` for NaN; a missing or zero time becomes the
      clock reading `now`. */
  function MarkTrace(t: Trace, event: string, at: Option<real>, now: real): (r: Trace)
    ensures r.events == t.events + NewMarks(event, at, now)
    ensures event == "" ==> r == t
    ensures event != "" ==> |r.events| == |t.events| + 1 && r.events[..|t.events|] == t.events
    ensures event != "" ==> r.events[|t.events|].event == event
    ensures event != "" && at.Some? && at.value != 0.0 ==> r.events[|t.events|].atMs == at.value
    ensures event != "" && (at.None? || at.value == 0.0) ==> r.events[|t.events|].atMs == now
    ensures r.(events := t.events) == t
  {
    if event == "" then t
    else
      var when := if at.Some? && at.value != 0.0 then at.value else now;
      t.(events := t.events + [Row(event, when)])
  }

  /** The marks one `markTrace` call appends: none for an empty event, else
      one at the given time or, when that is missing or zero, at `now`. */
  function NewMarks(event: string, at: Option<real>, now: real): seq<Row> {
    if event == "" then []
    else [Row(event, if at.Some? && at.value != 0.0 then at.value else now)]
  }

  /** The position of the first free trace in `pending`, if any. */
  function FirstFree(byId: map<string, Trace>, pending: seq<string>): (r: Option<nat>)
    ensures r.Some? ==> r.value < |pending| && Free(byId, pending[r.value])
    ensures r.Some? ==> forall q :: 0 <= q < r.value ==> !Free(byId, pending[q])
    ensures r.None? ==> forall q :: 0 <= q < |pending| ==> !Free(byId, pending[q])
  {
    if |pending| == 0 then None
    else if Free(byId, pending[0]) then Some(0)
    else
      match FirstFree(byId, pending[1..])
      case None => None
      case Some(i) => Some(i + 1)
  }

  /** The loop of `ensureTraceByTurn`: pending ids are shifted off until a free
      trace turns up; when none does, the list is left empty and a fallback
      trace is created and popped off it again. */
  function Claim(st: Store, now: real): (r: (Store, string))
    ensures r.1 in r.0.byId && r.0.byTurn == st.byTurn
    ensures FirstFree(st.byId, st.pending).Some? ==>
              var i := FirstFree(st.byId, st.pending).value;
              r.1 == st.pending[i] && r.0 == st.(pending := st.pending[i + 1..])
    ensures FirstFree(st.byId, st.pending).None? ==>
              && r.1 == TraceId(st.sequence + 1) && r.0.pending == [] && r.0.sequence == st.sequence + 1
              && r.0.byId[r.1] == Trace(r.1, FALLBACK_SOURCE, None, [], false, now)
              && (forall id :: id != r.1 ==> (id in r.0.byId <==> id in st.byId))
              && (forall id :: id != r.1 && id in st.byId ==> r.0.byId[id] == st.byId[id])
  {
    match FirstFree(st.byId, st.pending)
    case Some(i) => (st.(pending := st.pending[i + 1..]), st.pending[i])
    case None =>
      var (made, id) := CreateTrace(st.(pending := []), FALLBACK_SOURCE, now);
      (made.(pending := made.pending[..|made.pending| - 1]), id)
  }

  /** `ensureTraceByTurn(turnId)`: the trace already attached to the turn, or
      else the first free pending trace (or a fallback one) is given the turn
      and marked as started. */
  function EnsureTraceByTurn(st: Store, turnId: string, now: real): (r: (Store, Option<string>))
    ensures turnId == "" ==> r == (st, None)
    ensures turnId != "" && turnId in st.byTurn ==> r == (st, Some(st.byTurn[turnId]))
    ensures turnId != "" ==> r.1.Some? && turnId in r.0.byTurn && r.0.byTurn[turnId] == r.1.value
    ensures turnId != "" && turnId !in st.byTurn ==>
              && r.1.value in r.0.byId && r.0.byId[r.1.value].turnId == Some(turnId)
              && |r.0.byId[r.1.value].events| > 0
              && r.0.byId[r.1.value].events[|r.0.byId[r.1.value].events| - 1].event == TURN_STARTED
              && r.0.byTurn == st.byTurn[turnId := r.1.value]
    ensures turnId != "" && turnId !in st.byTurn && FirstFree(st.byId, st.pending).Some? ==>
              var i := FirstFree(st.byId, st.pending).value;
              r.1.value == st.pending[i] && r.0.pending == st.pending[i + 1..] && r.0.sequence == st.sequence
              && r.0.byId == st.byId[st.pending[i] := st.byId[st.pending[i]].(
                   turnId := Some(turnId), events := st.byId[st.pending[i]].events + [Row(TURN_STARTED, now)])]
    ensures turnId != "" && turnId !in st.byTurn && FirstFree(st.byId, st.pending).None? ==>
              && r.1.value == TraceId(st.sequence + 1) && r.0.pending == []
              && r.0.byId[r.1.value].source == FALLBACK_SOURCE
              && r.0.byId == st.byId[r.1.value := Trace(r.1.value, FALLBACK_SOURCE, Some(turnId),
                                                       [Row(TURN_STARTED, now)], false, now)]
  {
    if turnId == "" then (st, None)
    else if turnId in st.byTurn then (st, Some(st.byTurn[turnId]))
    else
      var (claimed, id) := Claim(st, now);
      var t := MarkTrace(claimed.byId[id].(turnId := Some(turnId)), TURN_STARTED, None, now);
      (claimed.(byId := claimed.byId[id := t], byTurn := claimed.byTurn[turnId := id]), Some(id))
  }

  /** A new turn takes the oldest pending trace: local turns and server turns
      are paired first come, first served. */
  lemma EnsureClaimsOldest(st: Store, turnId: string, now: real)
    requires Coherent(st) && turnId != "" && turnId !in st.byTurn && |st.pending| > 0
    ensures EnsureTraceByTurn(st, turnId, now).1 == Some(st.pending[0])
    ensures EnsureTraceByTurn(st, turnId, now).0.pending == st.pending[1..]
  {
    assert Free(st.byId, st.pending[0]);
    assert FirstFree(st.byId, st.pending) == Some(0);
  }

  /** Asking again for the same turn gives the same trace and changes nothing. */
  lemma EnsureIdempotent(st: Store, turnId: string, now: real, later: real)
    ensures var (st', id) := EnsureTraceByTurn(st, turnId, now);
            EnsureTraceByTurn(st', turnId, later) == (st', id)
  {
  }

  /** Claiming keeps the store coherent. */
  lemma EnsureCoherent(st: Store, turnId: string, now: real)
    requires Coherent(st)
    ensures Coherent(EnsureTraceByTurn(st, turnId, now).0)
  {
    if turnId != "" && turnId !in st.byTurn {
      var (claimed, id) := Claim(st, now);
      ClaimCoherent(st, now);
      var t := MarkTrace(claimed.byId[id].(turnId := Some(turnId)), TURN_STARTED, None, now);
      assert t.id == id by {
        assert t.(events := claimed.byId[id].events) == claimed.byId[id].(turnId := Some(turnId));
      }
      StartCoherent(claimed, id, turnId, t);
    }
  }

  /** Giving a known trace that is not pending to a turn keeps the store coherent. */
  lemma StartCoherent(st: Store, id: string, turnId: string, t: Trace)
    requires Coherent(st) && id in st.byId && id !in st.pending
    requires t.id == id && t.turnId == Some(turnId)
    ensures Coherent(st.(byId := st.byId[id := t], byTurn := st.byTurn[turnId := id]))
  {
  }

  /** In a coherent store a newly claimed trace has never been printed. */
  lemma ClaimedUnprinted(st: Store, turnId: string, now: real)
    requires Coherent(st) && turnId != "" && turnId !in st.byTurn
    ensures !EnsureTraceByTurn(st, turnId, now).0.byId[EnsureTraceByTurn(st, turnId, now).1.value].printed
  {
    var (claimed, id) := Claim(st, now);
    if FirstFree(st.byId, st.pending).Some? {
      var i := FirstFree(st.byId, st.pending).value;
      assert st.byId[st.pending[i]].turnId.None?;
    }
  }

  /** After a claim the store is coherent and the claimed trace is no longer pending. */
  lemma ClaimCoherent(st: Store, now: real)
    requires Coherent(st)
    ensures Coherent(Claim(st, now).0) && Claim(st, now).1 !in Claim(st, now).0.pending
  {
    var (claimed, id) := Claim(st, now);
    match FirstFree(st.byId, st.pending)
    case Some(i) =>
      assert claimed == st.(pending := st.pending[i + 1..]);
      forall p | 0 <= p < |claimed.pending|
        ensures claimed.pending[p] in claimed.byId && claimed.byId[claimed.pending[p]].turnId.None?
      {
        assert claimed.pending[p] == st.pending[i + 1 + p];
      }
      forall p, q | 0 <= p < q < |claimed.pending| ensures claimed.pending[p] != claimed.pending[q] {
        assert claimed.pending[p] == st.pending[i + 1 + p] && claimed.pending[q] == st.pending[i + 1 + q];
      }
      forall p | 0 <= p < |claimed.pending| ensures claimed.pending[p] != id {
        assert claimed.pending[p] == st.pending[i + 1 + p];
      }
    case None =>
      var emptied := st.(pending := []);
      CreateFresh(emptied, FALLBACK_SOURCE, now);
  }

  /** Drops the first occurrence of `x`, if any. */
  function RemoveFirst(s: seq<string>, x: string): (r: seq<string>)
    ensures x !in s ==> r == s
    ensures x in s ==> r == s[..FirstIndex(s, x)] + s[FirstIndex(s, x) + 1..]
    ensures x in s ==> |r| == |s| - 1
    ensures forall y :: y in r ==> y in s
  {
    if |s| == 0 then []
    else if s[0] == x then s[1..]
    else
      var rest := RemoveFirst(s[1..], x);
      RemoveFirstCons(s, x, rest);
      [s[0]] + rest
  }

  /** Past a different head, removing from the tail and putting the head back
      removes the first occurrence from the whole. */
  lemma RemoveFirstCons(s: seq<string>, x: string, rest: seq<string>)
    requires |s| > 0 && s[0] != x
    requires x !in s[1..] ==> rest == s[1..]
    requires x in s[1..] ==> rest == s[1..][..FirstIndex(s[1..], x)] + s[1..][FirstIndex(s[1..], x) + 1..]
    requires x in s[1..] ==> |rest| == |s[1..]| - 1
    requires forall y :: y in rest ==> y in s[1..]
    ensures x !in s ==> [s[0]] + rest == s
    ensures x in s ==> [s[0]] + rest == s[..FirstIndex(s, x)] + s[FirstIndex(s, x) + 1..]
    ensures x in s ==> |[s[0]] + rest| == |s| - 1
    ensures forall y :: y in [s[0]] + rest ==> y in s
  {
    assert s == [s[0]] + s[1..];
    if x in s[1..] {
      ConsDrop(s, FirstIndex(s[1..], x));
    }
  }

  /** Only `x` loses a copy. */
  lemma RemoveFirstCount(s: seq<string>, x: string)
    ensures multiset(RemoveFirst(s, x)) == multiset(s) - multiset{x}
  {
    if x in s {
      DropAt(s, FirstIndex(s, x));
    } else {
      assert multiset(s)[x] == 0;
    }
  }

  lemma DropAt<T>(s: seq<T>, i: nat)
    requires i < |s|
    ensures multiset(s[..i] + s[i + 1..]) == multiset(s) - multiset{s[i]}
  {
    assert s == s[..i] + [s[i]] + s[i + 1..];
    assert multiset(s) == multiset(s[..i]) + multiset{s[i]} + multiset(s[i + 1..]);
  }

  /** Without repeats, removing `x` removes it for good and keeps the rest distinct. */
  lemma RemoveFirstNoDups(s: seq<string>, x: string)
    requires NoDups(s)
    ensures x !in RemoveFirst(s, x) && NoDups(RemoveFirst(s, x))
  {
    var r := RemoveFirst(s, x);
    RemoveFirstCount(s, x);
    forall y ensures multiset(s)[y] <= 1 {
      OnceEach(s, y);
    }
    assert multiset(r)[x] == 0;
    forall p, q | 0 <= p < q < |r| ensures r[p] != r[q] {
      if r[p] == r[q] {
        TwiceCounted(r, p, q);
        assert false;
      }
    }
  }

  /** A value at two positions is counted at least twice. */
  lemma TwiceCounted(s: seq<string>, p: int, q: int)
    requires 0 <= p < q < |s| && s[p] == s[q]
    ensures multiset(s)[s[p]] >= 2
  {
    assert s == s[..q] + s[q..];
    assert multiset(s) == multiset(s[..q]) + multiset(s[q..]);
    assert s[p] in s[..q] && s[q] in s[q..];
  }

  /** A sequence without repeats counts each value at most once. */
  lemma {:induction false} OnceEach(s: seq<string>, y: string)
    requires NoDups(s)
    ensures multiset(s)[y] <= 1
  {
    if |s| > 0 {
      assert s == [s[0]] + s[1..];
      OnceEach(s[1..], y);
      if y == s[0] {
        assert y !in s[1..];
      }
    }
  }

  /** `attachTurnToPending(traceId, turnId)`: the local trace takes the turn,
      is marked as started unless it already was, and leaves the pending list;
      an unknown trace falls back to `ensureTraceByTurn`. */
  function AttachTurnToPending(st: Store, traceId: string, turnId: string, now: real): (r: (Store, Option<string>))
    ensures turnId == "" ==> r == (st, None)
    ensures turnId != "" && GetTraceById(st, traceId).None? ==> r == EnsureTraceByTurn(st, turnId, now)
    ensures turnId != "" && GetTraceById(st, traceId).Some? ==>
              && r.1 == Some(traceId) && traceId in r.0.byId
              && r.0.byTurn == st.byTurn[turnId := traceId]
              && r.0.byId[traceId].turnId == Some(turnId)
              && r.0.pending == RemoveFirst(st.pending, traceId)
              && r.0.sequence == st.sequence
    ensures turnId != "" && GetTraceById(st, traceId).Some? ==>
              (HasEvent(st.byId[traceId].events, TURN_STARTED) <==> r.0.byId[traceId].events == st.byId[traceId].events)
    ensures turnId != "" && GetTraceById(st, traceId).Some? ==> HasEvent(r.0.byId[traceId].events, TURN_STARTED)
    ensures turnId != "" && GetTraceById(st, traceId).Some? ==>
              var t := st.byId[traceId];
              r.0.byId == st.byId[traceId := t.(turnId := Some(turnId), events := t.events +
                (if HasEvent(t.events, TURN_STARTED) then [] else [Row(TURN_STARTED, now)]))]
  {
    if turnId == "" then (st, None)
    else
      match GetTraceById(st, traceId)
      case None => EnsureTraceByTurn(st, turnId, now)
      case Some(t) =>
        var attached := t.(turnId := Some(turnId));
        var marked := attached.(events := t.events +
                        (if HasEvent(t.events, TURN_STARTED) then [] else [Row(TURN_STARTED, now)]));
        assert HasEvent(marked.events, TURN_STARTED) by {
          if !HasEvent(t.events, TURN_STARTED) {
            assert marked.events[|t.events|].event == TURN_STARTED;
          } else {
            var k :| 0 <= k < |t.events| && t.events[k].event == TURN_STARTED;
            assert marked.events[k] == t.events[k];
          }
        }
        (st.(byId := st.byId[traceId := marked], byTurn := st.byTurn[turnId := traceId],
             pending := RemoveFirst(st.pending, traceId)), Some(traceId))
  }

  /** `events.some(evt => evt.event === name)`. */
  predicate HasEvent(events: seq<Row>, name: string) {
    exists k :: 0 <= k < |events| && events[k].event == name
  }

  /** Attaching keeps the store coherent and takes the trace off the pending list. */
  lemma AttachCoherent(st: Store, traceId: string, turnId: string, now: real)
    requires Coherent(st)
    ensures Coherent(AttachTurnToPending(st, traceId, turnId, now).0)
    ensures turnId != "" && GetTraceById(st, traceId).Some? ==>
              traceId !in AttachTurnToPending(st, traceId, turnId, now).0.pending
  {
    if turnId != "" {
      if GetTraceById(st, traceId).None? {
        EnsureCoherent(st, turnId, now);
      } else {
        AttachKnownCoherent(st, traceId, turnId, now);
      }
    }
  }

  lemma AttachKnownCoherent(st: Store, traceId: string, turnId: string, now: real)
    requires Coherent(st) && turnId != "" && GetTraceById(st, traceId).Some?
    ensures Coherent(AttachTurnToPending(st, traceId, turnId, now).0)
    ensures traceId !in AttachTurnToPending(st, traceId, turnId, now).0.pending
  {
    RemoveFirstNoDups(st.pending, traceId);
    var st' := AttachTurnToPending(st, traceId, turnId, now).0;
    var marked := st'.byId[traceId];
    assert marked.id == traceId && marked.turnId == Some(turnId);
    assert st'.byId == st.byId[traceId := marked];
    assert st'.byTurn == st.byTurn[turnId := traceId];
    assert st'.sequence == st.sequence;
    PendingAfterRemoval(st, st', traceId);
    forall t | t in st'.byTurn ensures st'.byTurn[t] in st'.byId && st'.byId[st'.byTurn[t]].turnId.Some? {
      if t != turnId && st.byTurn[t] != traceId {
        assert st'.byTurn[t] == st.byTurn[t];
      }
    }
  }

  /** Taking `traceId` off the pending list leaves the other pending traces
      as they were. */
  lemma PendingAfterRemoval(st: Store, st': Store, traceId: string)
    requires Coherent(st)
    requires st'.pending == RemoveFirst(st.pending, traceId) && traceId !in st'.pending
    requires forall id :: id != traceId && id in st.byId ==> id in st'.byId && st'.byId[id] == st.byId[id]
    ensures forall p :: 0 <= p < |st'.pending| ==> st'.pending[p] in st'.byId && st'.byId[st'.pending[p]].turnId.None?
  {
    forall p | 0 <= p < |st'.pending|
      ensures st'.pending[p] in st'.byId && st'.byId[st'.pending[p]].turnId.None?
    {
      var y := st'.pending[p];
      assert y in st'.pending;
      assert y in st.pending;
      var q :| 0 <= q < |st.pending| && st.pending[q] == y;
    }
  }

  /** `abandonPendingTurn(traceId, event)`: marks the trace and takes it off
      the pending list; unknown traces change nothing. */
  function AbandonPendingTurn(st: Store, traceId: string, event: string, now: real): (r: Store)
    ensures GetTraceById(st, traceId).None? ==> r == st
    ensures GetTraceById(st, traceId).Some? ==>
              && traceId in r.byId && r.byId[traceId] == MarkTrace(st.byId[traceId], event, None, now)
              && r.pending == RemoveFirst(st.pending, traceId)
              && r.byTurn == st.byTurn && r.sequence == st.sequence
    ensures GetTraceById(st, traceId).Some? ==>
              r.byId == st.byId[traceId := st.byId[traceId].(events := st.byId[traceId].events + NewMarks(event, None, now))]
  {
    match GetTraceById(st, traceId)
    case None => st
    case Some(t) =>
      st.(byId := st.byId[traceId := MarkTrace(t, event, None, now)], pending := RemoveFirst(st.pending, traceId))
  }

  /** An abandoned trace never takes a later turn. */
  lemma AbandonedNotClaimed(st: Store, traceId: string, event: string, now: real)
    requires Coherent(st) && GetTraceById(st, traceId).Some?
    ensures traceId !in AbandonPendingTurn(st, traceId, event, now).pending
    ensures Coherent(AbandonPendingTurn(st, traceId, event, now))
  {
    RemoveFirstNoDups(st.pending, traceId);
    var st' := AbandonPendingTurn(st, traceId, event, now);
    assert st'.byId == st.byId[traceId := st'.byId[traceId]];
    PendingAfterRemoval(st, st', traceId);
  }

  /** `markPendingTurn(traceId, event, at)`: marks a known trace, attached
      or not; unknown traces change nothing. */
  function MarkPendingTurn(st: Store, traceId: string, event: string, at: Option<real>, now: real): (r: Store)
    ensures GetTraceById(st, traceId).None? ==> r == st
    ensures GetTraceById(st, traceId).Some? ==>
              && traceId in r.byId && r.byId[traceId] == MarkTrace(st.byId[traceId], event, at, now)
              && r.pending == st.pending && r.byTurn == st.byTurn
              && forall id :: id != traceId ==> (id in r.byId <==> id in st.byId)
    ensures GetTraceById(st, traceId).Some? ==>
              && r.byId == st.byId[traceId := st.byId[traceId].(events := st.byId[traceId].events + NewMarks(event, at, now))]
              && r.sequence == st.sequence
  {
    match GetTraceById(st, traceId)
    case None => st
    case Some(t) => st.(byId := st.byId[traceId := MarkTrace(t, event, at, now)])
  }

  /** `beginVadTurn()`: a new trace from voice detection, marked. */
  function BeginVadTurn(st: Store, now: real): (r: (Store, string))
    ensures r.1 == TraceId(st.sequence + 1) && r.0.pending == st.pending + [r.1]
    ensures r.1 in r.0.byId && r.0.byId[r.1].source == "vad" && r.0.byId[r.1].turnId.None?
    ensures |r.0.byId[r.1].events| == 1 && r.0.byId[r.1].events[0] == Row(VAD_STARTED, now)
  {
    var (made, id) := CreateTrace(st, "vad", now);
    (made.(byId := made.byId[id := MarkTrace(made.byId[id], VAD_STARTED, None, now)]), id)
  }

  /** Starting a voice turn keeps the store coherent. */
  lemma BeginVadCoherent(st: Store, now: real)
    requires Coherent(st)
    ensures Coherent(BeginVadTurn(st, now).0)
  {
    CreateFresh(st, "vad", now);
    var (made, id) := CreateTrace(st, "vad", now);
    assert BeginVadTurn(st, now).0.byId == made.byId[id := BeginVadTurn(st, now).0.byId[id]];
  }

  /** `markTurn(turnId, event, at)`: marks the turn's trace, claiming one first
      when needed; an empty turn id changes nothing. */
  function MarkTurn(st: Store, turnId: string, event: string, at: Option<real>, now: real): (r: Store)
    requires Coherent(st)
    ensures turnId == "" ==> r == st
    ensures turnId != "" ==>
              var (claimed, id) := EnsureTraceByTurn(st, turnId, now);
              && id.Some? && id.value in claimed.byId
              && turnId in r.byTurn && r.byTurn[turnId] == id.value && id.value in r.byId
              && r.byId[id.value] == MarkTrace(claimed.byId[id.value], event, at, now)
              && r.pending == claimed.pending
    ensures turnId != "" ==>
              var (claimed, id) := EnsureTraceByTurn(st, turnId, now);
              && r == claimed.(byId := claimed.byId[id.value := claimed.byId[id.value].(
                   events := claimed.byId[id.value].events + NewMarks(event, at, now))])
    ensures turnId != "" && turnId in st.byTurn ==>
              var id := st.byTurn[turnId];
              r == st.(byId := st.byId[id := st.byId[id].(events := st.byId[id].events + NewMarks(event, at, now))])
  {
    if turnId == "" then st
    else
      EnsureCoherent(st, turnId, now);
      var (claimed, id) := EnsureTraceByTurn(st, turnId, now);
      claimed.(byId := claimed.byId[id.value := MarkTrace(claimed.byId[id.value], event, at, now)])
  }

  /** Marking a turn keeps the store coherent. */
  lemma MarkTurnCoherent(st: Store, turnId: string, event: string, at: Option<real>, now: real)
    requires Coherent(st)
    ensures Coherent(MarkTurn(st, turnId, event, at, now))
  {
    if turnId != "" {
      EnsureCoherent(st, turnId, now);
      var (claimed, id) := EnsureTraceByTurn(st, turnId, now);
      EventsCoherent(claimed, id.value, claimed.byId[id.value].events + NewMarks(event, at, now));
    }
  }

  /** Replacing the marks of a known trace keeps the store coherent. */
  lemma EventsCoherent(st: Store, id: string, events: seq<Row>)
    requires Coherent(st) && id in st.byId
    ensures Coherent(st.(byId := st.byId[id := st.byId[id].(events := events)]))
  {
  }

  /** `trace.turnId || 'pending'`. */
  function TurnShown(t: Trace): string {
    if t.turnId.Some? && t.turnId.value != "" then t.turnId.value else "pending"
  }

  /** The trace as a timer whose clock starts at its earliest mark. */
  function AsTimer(t: Trace): (r: Timer)
    requires |t.events| > 0
    ensures r.rows == t.events && r.startedAt == SortByAt(t.events)[0].atMs
  {
    Timer("frontend", TurnShown(t), t.source, SortByAt(t.events)[0].atMs, t.events)
  }

  /** The chart's lines: the caption, the header, the rule and one line per
      mark in time order, the last three kinds all of one width. */
  function ChartText(t: Trace, numberText: real -> string): (r: seq<string>)
    requires |t.events| > 0
    ensures |r| == |t.events| + 3
    ensures r[0] == "Timing Chart (frontend): turn=" + TurnShown(t) + " source=" + t.source
    ensures Aligned(r, 1) && ListsMarks(r, 3, SortByAt(t.events))
    ensures var table := TimerTable(AsTimer(t), numberText);
            var w := Widths(table);
            r[1] == HeaderLine(w.0, w.1, w.2) && r[2] == Rule(w.0, w.1, w.2) && ShowsTable(r, 3, table, w.0, w.1, w.2)
  {
    var timer := AsTimer(t);
    assert !HasTitle(None);
    assert Caption(timer) == "Timing Chart (frontend): turn=" + TurnShown(t) + " source=" + t.source;
    ChartLines(timer, None, numberText)
  }

  /** `buildChart(trace)`: nothing without marks, else the chart's lines
      joined by newlines. */
  function BuildChart(t: Trace, numberText: real -> string): (r: Option<string>)
    ensures r.None? <==> |t.events| == 0
    ensures r.Some? ==> r.value == Join(ChartText(t, numberText), "\n") && r.value != ""
  {
    if |t.events| == 0 then None
    else
      var chart := Chart(AsTimer(t), None, numberText);
      assert chart != "";
      Some(chart)
  }

  /** Times are counted from the earliest mark, so the first row reads zero
      both since the start and since the previous mark. */
  lemma FirstRowAtZero(t: Trace, numberText: real -> string)
    requires |t.events| > 0
    ensures var rows := SortByAt(t.events);
            var first := Table(rows, rows[0].atMs, rows[0].atMs, numberText)[0];
            first.time == "0.00" && first.delta == "0.00"
  {
    var rows := SortByAt(t.events);
    assert rows[0].atMs - rows[0].atMs == 0.0;
  }

  /** `logTurnTiming(turnId, { force })`: the chart of the turn's trace, printed
      once unless forced; the trace is then marked printed. */
  function LogTurnTiming(st: Store, turnId: string, force: bool, numberText: real -> string): (r: (Store, Option<string>))
    ensures r.1.None? ==> r.0 == st
    ensures r.1.Some? <==>
              && turnId != "" && turnId in st.byTurn && st.byTurn[turnId] in st.byId
              && (!st.byId[st.byTurn[turnId]].printed || force)
              && |st.byId[st.byTurn[turnId]].events| > 0
    ensures r.1.Some? ==>
              var id := st.byTurn[turnId];
              && r.1 == BuildChart(st.byId[id], numberText)
              && r.0 == st.(byId := st.byId[id := st.byId[id].(printed := true)])
  {
    if turnId == "" || turnId !in st.byTurn || st.byTurn[turnId] !in st.byId then (st, None)
    else
      var id := st.byTurn[turnId];
      var t := st.byId[id];
      if t.printed && !force then (st, None)
      else
        match BuildChart(t, numberText)
        case None => (st, None)
        case Some(chart) => (st.(byId := st.byId[id := t.(printed := true)]), Some(chart))
  }

  /** A chart is printed once: logging the same turn again without `force`
      prints nothing. */
  lemma PrintedOnce(st: Store, turnId: string, force: bool, numberText: real -> string)
    requires LogTurnTiming(st, turnId, force, numberText).1.Some?
    ensures LogTurnTiming(LogTurnTiming(st, turnId, force, numberText).0, turnId, false, numberText).1.None?
  {
  }

  /** Logging keeps the store coherent. */
  lemma LogCoherent(st: Store, turnId: string, force: bool, numberText: real -> string)
    requires Coherent(st)
    ensures Coherent(LogTurnTiming(st, turnId, force, numberText).0)
  {
    if LogTurnTiming(st, turnId, force, numberText).1.Some? {
      var id := st.byTurn[turnId];
      ReplaceTrace(st, id, st.byId[id].(printed := true));
    }
  }

  /** Replacing a trace by one with the same id and turn keeps the store
      coherent, as long as it is printed only with a turn. */
  lemma ReplaceTrace(st: Store, id: string, t: Trace)
    requires Coherent(st) && id in st.byId
    requires t.id == id && t.turnId == st.byId[id].turnId && (t.printed ==> t.turnId.Some?)
    ensures Coherent(st.(byId := st.byId[id := t]))
  {
  }

  /** `markAndLog(turnId, event, { forceLog })`: the first mark of a new turn
      always prints its chart; a known turn prints when forced or not printed yet. */
  function MarkAndLog(st: Store, turnId: string, event: string, forceLog: bool, now: real,
                      numberText: real -> string): (r: (Store, Option<string>))
    requires Coherent(st)
    ensures turnId == "" ==> r == (st, None)
    ensures turnId != "" && event != "" && turnId !in st.byTurn ==> r.1.Some?
    ensures turnId != "" && event != "" && turnId in st.byTurn ==>
              (r.1.Some? <==> forceLog || !st.byId[st.byTurn[turnId]].printed)
  {
    assert turnId != "" && turnId !in st.byTurn ==>
             !EnsureTraceByTurn(st, turnId, now).0.byId[EnsureTraceByTurn(st, turnId, now).1.value].printed by {
      if turnId != "" && turnId !in st.byTurn {
        ClaimedUnprinted(st, turnId, now);
      }
    }
    LogTurnTiming(MarkTurn(st, turnId, event, None, now), turnId, forceLog, numberText)
  }
}

=== FILE: gateway_audio.dfy ===
/** The audio routes of the realtime gateway: `/transcribe`, with its early exits
    (no upload, an upload too small to hold speech, an undecodable upload) and its
    temporary-file cleanup, and `/tts`, with its blank-text and empty-synthesis
    rejections.  Model loading, decoding and synthesis are inputs (what they
    returned or that they raised); the file system is the set of temporary files
    that exist. */
module GatewayAudio {
  import opened Wrappers
  import opened Strs
  import opened GatewayChat
  import opened Wav

  /** What the client receives. */
  datatype Reply =
    | Transcript(text: string, language: string, probability: real)
    | Audio(wav: seq<byte>)
    | ErrorReply(status: int, message: string)

  /** The answer for audio that holds no usable speech. */
  const EMPTY_TRANSCRIPT: Reply := Transcript("", "en", 0.0)

  /** How an external program run ended: a non-zero exit status, a timeout, or
      any other exception (the program missing, say); each failure carries the
      text of the exception Python raised. */
  datatype ProcOutcome = ProcOk | ProcFailed(message: string) | ProcTimeout(message: string)
                       | ProcRaised(message: string)

  /** What faster-whisper returns: the segment texts, and the detected language and
      its probability as attributes that may be missing or empty. */
  datatype WhisperResult = WhisperResult(segments: seq<string>, language: Option<string>, probability: Option<real>)

  /** The speech-to-text engine's behaviour for one request: whether loading it
      raises, and what each backend's `transcribe` returns (a failure carries the
      exception text). */
  datatype SttEngine = SttEngine(loadError: Option<string>, mlx: Result<string, string>,
                                 whisper: Result<WhisperResult, string>)

  /** The outcome of a route: the reply, the temporary files that still exist,
      and whether the speech engine was consulted at all. */
  datatype Outcome = Outcome(reply: Reply, files: set<string>, engineUsed: bool)

  /** `path.rsplit(".", 1)[0]`: everything before the last dot (the whole path when
      there is none). */
  function DropExtension(path: string): (r: string)
    ensures |r| <= |path| && r == path[..|r|]
    decreases |path|
  {
    if |path| == 0 then path
    else if path[|path| - 1] == '.' then path[..|path| - 1]
    else
      var r := DropExtension(path[..|path| - 1]);
      if r == path[..|path| - 1] then path else r
  }

  /** A temporary file name made of a stem and a dot-free suffix loses exactly
      its suffix, whatever dots the stem (its directory, say) holds. */
  lemma DropSuffix(stem: string, ext: string)
    requires '.' !in ext
    ensures DropExtension(stem + "." + ext) == stem
    decreases |ext|
  {
    var p := stem + "." + ext;
    if |ext| == 0 {
      assert p[..|p| - 1] == stem;
    } else {
      assert p[..|p| - 1] == stem + "." + ext[..|ext| - 1];
      DropSuffix(stem, ext[..|ext| - 1]);
      assert DropExtension(p[..|p| - 1]) == stem;
      assert stem != p[..|p| - 1];
    }
  }

  /** The derived WAV file the MLX backend decodes a non-WAV upload into. */
  function DerivedWav(tmp: string): string {
    DropExtension(tmp) + ".stt.wav"
  }

  /** `/transcribe`.  `stem` is the path the temporary file gets before its
      suffix, `size` the size of the saved upload, `minBytes` the configured
      minimum, `ffmpeg` and `ffmpegWrote` how the conversion of a non-WAV upload
      ended. */
  function Transcribe(hasAudio: bool, mimetype: string, size: int, minBytes: int, backend: string,
                      stem: string, files: set<string>, engine: SttEngine,
                      ffmpeg: ProcOutcome, ffmpegWrote: bool): (out: Outcome)
    ensures !hasAudio ==> out == Outcome(ErrorReply(400, "No audio file provided"), files, false)
    ensures hasAudio ==> out.files <= files
    ensures hasAudio ==> stem + TempSuffix(NormalizeMime(mimetype)) !in out.files
    ensures hasAudio && size < minBytes ==> out.reply == EMPTY_TRANSCRIPT && !out.engineUsed
    ensures (hasAudio && size >= minBytes && engine.loadError.None? && backend == "mlx"
             && NormalizeMime(mimetype) == WEBM_MIME && (ffmpeg.ProcFailed? || ffmpeg.ProcTimeout?))
            ==> out.reply == EMPTY_TRANSCRIPT
    ensures (hasAudio && size >= minBytes && engine.loadError.None? && backend == "mlx"
             && NormalizeMime(mimetype) == WEBM_MIME && ffmpeg.ProcRaised?)
            ==> out.reply == ErrorReply(500, ffmpeg.message)
    ensures out.reply.Transcript? && out.reply.text != "" ==> out.engineUsed
  {
    if !hasAudio then Outcome(ErrorReply(400, "No audio file provided"), files, false)
    else
      var mime := NormalizeMime(mimetype);
      var tmp := stem + TempSuffix(mime);
      var saved := TranscribeSaved(tmp, size, minBytes, backend, files + {tmp}, engine, ffmpeg, ffmpegWrote);
      TempNames(stem, mime);
      Outcome(saved.0, saved.1 - {tmp}, saved.2)
  }

  lemma TempNames(stem: string, mime: string)
    requires mime == WAV_MIME || mime == WEBM_MIME
    ensures var tmp := stem + TempSuffix(mime);
            (EndsWith(LowerStr(tmp), ".wav") <==> mime == WAV_MIME)
            && (mime == WEBM_MIME ==> DerivedWav(tmp) == stem + ".stt.wav")
  {
    var tmp := stem + TempSuffix(mime);
    if mime == WAV_MIME {
      assert LowerStr(tmp)[|tmp| - 4..] == LowerStr(tmp[|tmp| - 4..]);
      assert tmp[|tmp| - 4..] == ".wav";
    } else {
      assert LowerStr(tmp)[|tmp| - 1] == 'm';
      assert tmp == stem + "." + "webm";
      DropSuffix(stem, "webm");
    }
  }

  /** The body of the `try` after the upload was saved as `tmp` (which is in
      `files`); the outer `finally` removing `tmp` is applied by the caller. */
  function TranscribeSaved(tmp: string, size: int, minBytes: int, backend: string, files: set<string>,
                           engine: SttEngine, ffmpeg: ProcOutcome, ffmpegWrote: bool)
    : (r: (Reply, set<string>, bool))
    ensures r.1 <= files + {DerivedWav(tmp)}
    ensures DerivedWav(tmp) !in files && backend == "mlx" && !EndsWith(LowerStr(tmp), ".wav") ==> DerivedWav(tmp) !in r.1
    ensures size < minBytes ==> r == (EMPTY_TRANSCRIPT, files, false)
    ensures r.0.Transcript? && r.0.text != "" ==> r.2
    ensures size >= minBytes && engine.loadError.None? && backend == "mlx" && !EndsWith(LowerStr(tmp), ".wav") ==>
              && ((ffmpeg.ProcFailed? || ffmpeg.ProcTimeout?) ==> r.0 == EMPTY_TRANSCRIPT)
              && (ffmpeg.ProcRaised? ==> r.0 == ErrorReply(500, ffmpeg.message))
  {
    if size < minBytes then (EMPTY_TRANSCRIPT, files, false)
    else if engine.loadError.Some? then (ErrorReply(500, engine.loadError.value), files, true)
    else if backend == "mlx" then
      var isWav := EndsWith(LowerStr(tmp), ".wav");
      var wavPath := if isWav then tmp else DerivedWav(tmp);
      var afterFfmpeg := if !isWav && ffmpegWrote then files + {wavPath} else files;
      var reply :=
        if !isWav && ffmpeg.ProcRaised? then ErrorReply(500, ffmpeg.message)
        else if !isWav && !ffmpeg.ProcOk? then EMPTY_TRANSCRIPT
        else
          match engine.mlx
          case Failure(e) => ErrorReply(500, e)
          case Success(t) => Transcript(PyStrip(t), "en", 1.0);
      var cleaned := if !isWav then afterFfmpeg - {wavPath} else afterFfmpeg;
      (reply, cleaned, true)
    else
      var reply :=
        match engine.whisper
        case Failure(e) => ErrorReply(500, e)
        case Success(w) => Transcript(PyStrip(Join(w.segments, " ")), WhisperLanguage(w), WhisperProbability(w));
      (reply, files, true)
  }

  /** `getattr(info, "language", "en")`. */
  function WhisperLanguage(w: WhisperResult): (r: string)
    ensures w.language.Some? ==> r == w.language.value
  {
    if w.language.Some? then w.language.value else "en"
  }

  /** `float(getattr(info, "language_probability", 1.0) or 1.0)`: a missing or zero
      probability reads as certainty. */
  function WhisperProbability(w: WhisperResult): (r: real)
    ensures r != 0.0
    ensures w.probability.Some? && w.probability.value != 0.0 ==> r == w.probability.value
  {
    if w.probability.Some? && w.probability.value != 0.0 then w.probability.value else 1.0
  }

  /** With fresh temporary names, a transcription leaves the file system as it
      found it, whichever way it ends. */
  lemma TranscribeCleansUp(hasAudio: bool, mimetype: string, size: int, minBytes: int, backend: string,
                           stem: string, files: set<string>, engine: SttEngine,
                           ffmpeg: ProcOutcome, ffmpegWrote: bool)
    requires stem + ".wav" !in files && stem + ".webm" !in files && stem + ".stt.wav" !in files
    ensures Transcribe(hasAudio, mimetype, size, minBytes, backend, stem, files, engine, ffmpeg, ffmpegWrote).files == files
  {
    if hasAudio {
      var mime := NormalizeMime(mimetype);
      var tmp := stem + TempSuffix(mime);
      TempNames(stem, mime);
      var r := TranscribeSaved(tmp, size, minBytes, backend, files + {tmp}, engine, ffmpeg, ffmpegWrote);
      if mime == WAV_MIME {
        assert r.1 <= files + {tmp};
      } else if backend == "mlx" {
        assert DerivedWav(tmp) !in r.1;
      } else {
        assert r.1 == files + {tmp};
      }
    }
  }

  const KOKORO_RATE: int := 24000

  /** The Kokoro synthesiser for one request: whether loading or generating raises,
      and the audio of each generated segment. */
  datatype TtsEngine = TtsEngine(error: Option<string>, segments: seq<seq<real>>)

  function ConcatAudio(segs: seq<seq<real>>): (r: seq<real>)
    ensures segs == [] ==> r == []
  {
    if |segs| == 0 then [] else segs[0] + ConcatAudio(segs[1..])
  }

  /** `/tts` on the Kokoro backend.  `text` is the request's text field (`""`
      when absent). */
  function TtsKokoro(text: string, engine: TtsEngine): (r: Reply)
    ensures PyStrip(text) == "" ==> r == ErrorReply(400, "No text provided")
    ensures PyStrip(text) != "" && engine.error.None? && engine.segments == [] ==>
              r == ErrorReply(500, "Kokoro generated no audio")
    ensures r.Audio? ==>
              engine.error.None? && engine.segments != []
              && PcmToWavBytes(ConcatAudio(engine.segments), KOKORO_RATE) == Success(r.wav)
  {
    if PyStrip(text) == "" then ErrorReply(400, "No text provided")
    else if engine.error.Some? then ErrorReply(500, engine.error.value)
    else if engine.segments == [] then ErrorReply(500, "Kokoro generated no audio")
    else
      match PcmToWavBytes(ConcatAudio(engine.segments), KOKORO_RATE)
      case Success(bs) => Audio(bs)
      case Failure(e) => ErrorReply(500, e)
  }

  /** A Kokoro reply with audio is a 24 kHz mono 16-bit WAV file holding every
      generated sample. */
  lemma TtsKokoroAudio(text: string, engine: TtsEngine)
    requires TtsKokoro(text, engine).Audio?
    ensures var bs := TtsKokoro(text, engine).wav;
            var n := |ConcatAudio(engine.segments)|;
            ParseHeader(bs) == Some(WavInfo(36 + 2 * n, 16, 1, 1, KOKORO_RATE, 2 * KOKORO_RATE, 2, 16, 2 * n))
            && DecodeSamples(bs[HEADER_SIZE..]) == ServerSamples(ConcatAudio(engine.segments))
  {
  }

  /** The macOS speech pipeline for one request: how `say` and `afconvert` ended,
      whether each left its output file, and the bytes of the converted file. */
  datatype SystemTts = SystemTts(say: ProcOutcome, sayWrote: bool, convert: ProcOutcome, convertWrote: bool,
                                 wav: seq<byte>)

  /** `/tts` on the system backend: `say` renders AIFF, `afconvert` turns it into
      WAV, and the two temporaries named after `name` are removed on every path. */
  function TtsSystem(text: string, name: string, files: set<string>, sys: SystemTts): (out: Outcome)
    ensures PyStrip(text) == "" ==> out == Outcome(ErrorReply(400, "No text provided"), files, false)
    ensures out.files <= files
    ensures PyStrip(text) != "" ==> name + ".aiff" !in out.files && name + ".wav" !in out.files
    ensures out.reply.Audio? <==> PyStrip(text) != "" && sys.say.ProcOk? && sys.convert.ProcOk? && sys.convertWrote
    ensures out.reply.Audio? ==> out.reply.wav == sys.wav
  {
    if PyStrip(text) == "" then Outcome(ErrorReply(400, "No text provided"), files, false)
    else
      var aiff := name + ".aiff";
      var wav := name + ".wav";
      var afterSay := if sys.sayWrote then files + {aiff} else files;
      var afterConvert := if sys.say.ProcOk? && sys.convertWrote then afterSay + {wav} else afterSay;
      var reply :=
        if !sys.say.ProcOk? then ProcError(sys.say)
        else if !sys.convert.ProcOk? then ProcError(sys.convert)
        else if !sys.convertWrote then ErrorReply(500, "TTS conversion failed")
        else Audio(sys.wav);
      Outcome(reply, afterConvert - {aiff, wav}, false)
  }

  /** A failed run is reported with its exception text; a non-zero exit status
      gets the `TTS process failed` prefix, a timeout or other exception does not. */
  function ProcError(p: ProcOutcome): (r: Reply)
    requires !p.ProcOk?
    ensures r.ErrorReply? && r.status == 500
    ensures p.ProcFailed? ==> StartsWith(r.message, "TTS process failed: ")
    ensures !p.ProcFailed? ==> r.message == p.message
  {
    match p
    case ProcFailed(m) => ErrorReply(500, "TTS process failed: " + m)
    case ProcTimeout(m) => ErrorReply(500, m)
    case ProcRaised(m) => ErrorReply(500, m)
  }
}

=== FILE: gateway_chat.dfy ===
/** The request-normalising half of the realtime gateway: the upload MIME rule,
    flattening a chat turn's parts to text, building the provider's message list
    (a mandatory leading system message, role mapping, empty turns dropped), and
    rewriting a vendor response schema's upper-case `type` tags to the type names
    of section 6.1.1 of JSON Schema Validation 2020-12. */
module GatewayChat {
  import opened Wrappers
  import opened Strs
  import opened Json

  const WAV_MIME: string := "audio/wav"
  const WEBM_MIME: string := "audio/webm"

  /** `normalize_audio_mime_type`: anything naming a WAV type becomes `audio/wav`,
      everything else (including the empty type) `audio/webm`. */
  function NormalizeMime(v: string): (r: string)
    ensures r == WAV_MIME || r == WEBM_MIME
    ensures r == WAV_MIME <==>
              Contains(LowerStr(v), "audio/wav") || Contains(LowerStr(v), "audio/x-wav")
  {
    var n := LowerStr(v);
    WaveNamesWav(n);
    if Contains(n, "audio/wav") || Contains(n, "audio/x-wav") || Contains(n, "audio/wave") then WAV_MIME
    else WEBM_MIME
  }

  /** `audio/wave` contains `audio/wav`, so the third test never decides anything. */
  lemma WaveNamesWav(s: string)
    ensures Contains(s, "audio/wave") ==> Contains(s, "audio/wav")
  {
    if Contains(s, "audio/wave") {
      var i :| 0 <= i <= |s| - 10 && OccursAt(s, "audio/wave", i);
      assert s[i..i + 9] == s[i..i + 10][..9];
      assert OccursAt(s, "audio/wav", i);
    }
  }

  /** A normalised type normalises to itself. */
  lemma NormalizeMimeIdempotent(v: string)
    ensures NormalizeMime(NormalizeMime(v)) == NormalizeMime(v)
  {
    var r := NormalizeMime(v);
    var n := LowerStr(r);
    if r == WAV_MIME {
      assert n == "audio/wav";
      assert OccursAt(n, "audio/wav", 0);
    } else {
      assert n == "audio/webm";
      forall i | 0 <= i <= |n| - 9
        ensures !OccursAt(n, "audio/wav", i)
      {
        assert n[i + 7] != 'a';
      }
    }
  }

  /** The suffix of the upload's temporary file. */
  function TempSuffix(mime: string): (r: string)
    requires mime == WAV_MIME || mime == WEBM_MIME
    ensures r == ".wav" || r == ".webm"
    ensures EndsWith(r, ".wav") <==> mime == WAV_MIME
  {
    if mime == WAV_MIME then ".wav" else ".webm"
  }

  /** What `for x in (v or [])` visits: the items of a list, the keys of a dict or
      the characters of a string (keys and characters are strings, never dicts);
      iterating a non-zero number or `True` raises `TypeError`. */
  function PyIterOrEmpty(v: Option<Json>): (r: Result<seq<Json>, string>)
    ensures !OptPyTruthy(v) ==> r == Success([])
    ensures r.Failure? <==> v.Some? && (v.value.JNum? || v.value.JBool?) && PyTruthy(v.value)
    ensures r.Success? && v.Some? && v.value.JArr? ==> r.value == v.value.items
    ensures r.Success? && v.Some? && !v.value.JArr? ==> forall i :: 0 <= i < |r.value| ==> r.value[i].JStr?
  {
    if !OptPyTruthy(v) then Success([])
    else
      match v.value
      case JArr(items) => Success(items)
      case JObj(fields) => Success(KeyStrings(fields))
      case JStr(s) => Success(CharStrings(s))
      case _ => Failure("TypeError")
  }

  function KeyStrings(fields: seq<(string, Json)>): (r: seq<Json>)
    ensures |r| == |fields|
    ensures forall i :: 0 <= i < |r| ==> r[i] == JStr(fields[i].0)
  {
    if |fields| == 0 then [] else [JStr(fields[0].0)] + KeyStrings(fields[1..])
  }

  function CharStrings(s: string): (r: seq<Json>)
    ensures |r| == |s|
    ensures forall i :: 0 <= i < |r| ==> r[i] == JStr([s[i]])
  {
    if |s| == 0 then [] else [JStr([s[0]])] + CharStrings(s[1..])
  }

  const IMAGE_OMITTED: string := "[image omitted]"

  /** A chunk is a non-empty string whose ends are not whitespace. */
  predicate IsChunk(t: string) {
    t != [] && !IsPySpace(t[0]) && !IsPySpace(t[|t| - 1])
  }

  /** What one part contributes: its stripped text when that is non-blank, else the
      image placeholder when it carries truthy `inline_data`, else nothing. */
  function PartChunk(part: Json): (r: Option<string>)
    ensures r.Some? ==> IsChunk(r.value)
    ensures r.Some? ==> part.JObj?
    ensures r.Some? && r.value != IMAGE_OMITTED ==>
              exists s :: Lookup(part.fields, "text") == Some(JStr(s)) && r.value == PyStrip(s)
  {
    if !part.JObj? then None
    else
      var text := Lookup(part.fields, "text");
      if text.Some? && text.value.JStr? && PyStrip(text.value.s) != "" then Some(PyStrip(text.value.s))
      else if OptPyTruthy(Lookup(part.fields, "inline_data")) then Some(IMAGE_OMITTED)
      else None
  }

  function PartChunks(parts: seq<Json>): (cs: seq<string>)
    ensures |cs| <= |parts|
    ensures forall i :: 0 <= i < |cs| ==> IsChunk(cs[i])
  {
    if |parts| == 0 then []
    else
      match PartChunk(parts[0])
      case Some(c) => [c] + PartChunks(parts[1..])
      case None => PartChunks(parts[1..])
  }

  /** `parts_to_text`: the contributing chunks joined by newlines.  The final
      `.strip()` never changes anything, because every chunk is already stripped. */
  function PartsToText(parts: Option<Json>): (r: Result<string, string>)
    ensures r.Failure? <==> PyIterOrEmpty(parts).Failure?
    ensures r.Success? ==>
              var cs := PartChunks(PyIterOrEmpty(parts).value);
              r.value == Join(cs, "\n") && (r.value == "" <==> cs == [])
  {
    var items :- PyIterOrEmpty(parts);
    var cs := PartChunks(items);
    JoinOfChunks(cs);
    TrimWithStripped(Join(cs, "\n"), IsPySpace);
    Success(PyStrip(Join(cs, "\n")))
  }

  /** Chunks joined with a separator start and end with a chunk's ends. */
  lemma {:induction false} JoinOfChunks(cs: seq<string>)
    requires forall i :: 0 <= i < |cs| ==> IsChunk(cs[i])
    ensures var j := Join(cs, "\n");
            (j == "" <==> cs == []) && (j == "" || IsChunk(j))
    decreases |cs|
  {
    if |cs| > 1 {
      JoinOfChunks(cs[1..]);
      var j := Join(cs, "\n");
      var t := Join(cs[1..], "\n");
      assert j == cs[0] + "\n" + t;
      assert j[0] == cs[0][0];
      assert j[|j| - 1] == t[|t| - 1];
    }
  }

  /** One provider message. */
  datatype Message = Message(role: string, content: string)

  const ROLE_USER: string := "user"
  const ROLE_ASSISTANT: string := "assistant"
  const ROLE_SYSTEM: string := "system"

  predicate IsProviderRole(r: string) {
    r == ROLE_USER || r == ROLE_ASSISTANT || r == ROLE_SYSTEM
  }

  /** The role of a turn: `model` becomes `assistant`, the three provider roles pass
      through (after stripping and lower-casing), anything else is `user`.  A
      missing role is `user`; a non-string role prints as something that is none of
      these names, so it is `user` as well. */
  function MapRole(role: Option<Json>): (r: string)
    ensures IsProviderRole(r)
    ensures role.Some? && role.value.JStr? && LowerStr(PyStrip(role.value.s)) == "model" ==> r == ROLE_ASSISTANT
    ensures role.Some? && role.value.JStr? && IsProviderRole(LowerStr(PyStrip(role.value.s))) ==>
              r == LowerStr(PyStrip(role.value.s))
    ensures !(role.Some? && role.value.JStr?) ==> r == ROLE_USER
  {
    if role.None? || !role.value.JStr? then ROLE_USER
    else
      var n := LowerStr(PyStrip(role.value.s));
      if n == "model" then ROLE_ASSISTANT
      else if IsProviderRole(n) then n
      else ROLE_USER
  }

  /** Mapping a role that is already a provider role changes nothing. */
  lemma MapRoleFixesProviderRoles(r: string)
    requires IsProviderRole(r)
    ensures MapRole(Some(JStr(r))) == r
  {
    TrimWithStripped(r, IsPySpace);
    LowerStrOfLower(r);
  }

  /** The text of one dict turn: its parts (`item.get("parts") or []`) joined. */
  function TurnText(item: Json): Result<string, string>
    requires item.JObj?
  {
    var parts := Lookup(item.fields, "parts");
    PartsToText(if OptPyTruthy(parts) then parts else None)
  }

  /** What one turn contributes: nothing for a non-dict turn or one without
      text, the role-mapped message with the turn's text otherwise; a dict turn
      whose parts cannot be iterated raises. */
  function TurnOutcome(item: Json): (r: Result<Option<Message>, string>)
    ensures r.Failure? <==> item.JObj? && TurnText(item).Failure?
    ensures r.Success? && r.value.Some? <==> item.JObj? && TurnText(item).Success? && TurnText(item).value != ""
    ensures r.Success? && r.value.Some? ==>
              r.value.value == Message(MapRole(Lookup(item.fields, "role")), TurnText(item).value)
  {
    if !item.JObj? then Success(None)
    else
      var text :- TurnText(item);
      if text == "" then Success(None)
      else Success(Some(Message(MapRole(Lookup(item.fields, "role")), text)))
  }

  /** A turn that yields a message. */
  predicate Speaks(item: Json) {
    TurnOutcome(item).Success? && TurnOutcome(item).value.Some?
  }

  /** The turns that yield a message, in order. */
  function Speaking(items: seq<Json>): seq<Json> {
    if |items| == 0 then [] else (if Speaks(items[0]) then [items[0]] else []) + Speaking(items[1..])
  }

  /** The message a speaking turn contributes. */
  function TurnMessage(item: Json): Message {
    if Speaks(item) then TurnOutcome(item).value.value else Message(ROLE_USER, "")
  }

  /** The k-th message is the message of the k-th turn. */
  predicate MessagesOfTurns(ms: seq<Message>, turns: seq<Json>) {
    |ms| == |turns| && forall k :: 0 <= k < |ms| ==> ms[k] == TurnMessage(turns[k])
  }

  /** Some dict turn has parts that cannot be iterated. */
  predicate SomeTurnFails(items: seq<Json>) {
    exists i :: 0 <= i < |items| && TurnOutcome(items[i]).Failure?
  }

  /** The messages for the turns of `contents`, in order; the first dict turn
      whose parts cannot be iterated raises. */
  function TurnMessages(items: seq<Json>): (r: Result<seq<Message>, string>)
    ensures r.Success? ==> |r.value| <= |items|
  {
    if |items| == 0 then Success([])
    else
      var first :- TurnOutcome(items[0]);
      var rest :- TurnMessages(items[1..]);
      Success((if first.Some? then [first.value] else []) + rest)
  }

  /** The k-th message is the k-th speaking turn's, and the turns raise exactly
      when some dict turn's parts cannot be iterated. */
  lemma {:induction false} TurnMessagesAreSpeakingTurns(items: seq<Json>)
    ensures TurnMessages(items).Failure? <==> SomeTurnFails(items)
    ensures TurnMessages(items).Success? ==> MessagesOfTurns(TurnMessages(items).value, Speaking(items))
  {
    if |items| > 0 {
      var tail := items[1..];
      TurnMessagesAreSpeakingTurns(tail);
      SomeTurnFailsCons(items);
      var r := TurnMessages(items);
      if r.Success? {
        var ms, ts := TurnMessages(tail).value, Speaking(tail);
        if Speaks(items[0]) {
          assert r.value == [TurnMessage(items[0])] + ms;
          assert Speaking(items) == [items[0]] + ts;
          PointwiseCons(TurnMessage, items[0], ms, ts);
        } else {
          assert r.value == ms;
          assert Speaking(items) == ts;
        }
      }
    }
  }

  /** Consing onto two sequences related pointwise by `f` keeps them related. */
  lemma PointwiseCons<A, B>(f: A -> B, t: A, ms: seq<B>, ts: seq<A>)
    requires |ms| == |ts| && forall k :: 0 <= k < |ms| ==> ms[k] == f(ts[k])
    ensures forall k :: 0 <= k < |ms| + 1 ==> ([f(t)] + ms)[k] == f(([t] + ts)[k])
  {
    forall k | 1 <= k < |ms| + 1
      ensures ([f(t)] + ms)[k] == f(([t] + ts)[k])
    {
      assert ([f(t)] + ms)[k] == ms[k - 1];
      assert ([t] + ts)[k] == ts[k - 1];
    }
  }

  lemma SomeTurnFailsCons(items: seq<Json>)
    requires |items| > 0
    ensures SomeTurnFails(items) <==> TurnOutcome(items[0]).Failure? || SomeTurnFails(items[1..])
  {
    if SomeTurnFails(items[1..]) {
      var i :| 0 <= i < |items[1..]| && TurnOutcome(items[1..][i]).Failure?;
      assert items[i + 1] == items[1..][i];
    }
    if SomeTurnFails(items) {
      var i :| 0 <= i < |items| && TurnOutcome(items[i]).Failure?;
      if i > 0 {
        assert items[1..][i - 1] == items[i];
      }
    }
  }

  /** Every message has a provider role and some text. */
  lemma TurnMessagesShape(items: seq<Json>)
    requires TurnMessages(items).Success?
    ensures var ms := TurnMessages(items).value;
            forall k :: 0 <= k < |ms| ==> IsProviderRole(ms[k].role) && ms[k].content != ""
  {
    var ms := TurnMessages(items).value;
    TurnMessagesAreSpeakingTurns(items);
    forall k | 0 <= k < |ms|
      ensures IsProviderRole(ms[k].role) && ms[k].content != ""
    {
      assert MessagesOfTurns(ms, Speaking(items));
      assert ms[k] == TurnMessage(Speaking(items)[k]);
    }
  }

  /** A system instruction that is a non-blank string. */
  predicate HasInstruction(instruction: Json) {
    instruction.JStr? && PyStrip(instruction.s) != ""
  }

  /** `build_messages`: the stripped instruction as a leading system message when it
      is a non-blank string, then the turns' messages. */
  function BuildMessages(instruction: Json, contents: Option<Json>): (r: Result<seq<Message>, string>)
    ensures r.Success? && HasInstruction(instruction) ==>
              |r.value| >= 1 && r.value[0] == Message(ROLE_SYSTEM, PyStrip(instruction.s))
    ensures r.Failure? <==>
              PyIterOrEmpty(contents).Failure? || SomeTurnFails(PyIterOrEmpty(contents).value)
    ensures r.Success? ==> forall k :: 0 <= k < |r.value| ==> r.value[k].content != ""
  {
    var items :- PyIterOrEmpty(contents);
    TurnMessagesAreSpeakingTurns(items);
    var turns :- TurnMessages(items);
    TurnMessagesShape(items);
    if HasInstruction(instruction) then
      Success([Message(ROLE_SYSTEM, PyStrip(instruction.s))] + turns)
    else Success(turns)
  }

  /** After the optional system message, the k-th message is the k-th speaking
      turn's. */
  lemma BuildMessagesLayout(instruction: Json, contents: Option<Json>)
    requires BuildMessages(instruction, contents).Success?
    ensures var ms := BuildMessages(instruction, contents).value;
            var sys := if HasInstruction(instruction) then 1 else 0;
            |ms| >= sys && MessagesOfTurns(ms[sys..], Speaking(PyIterOrEmpty(contents).value))
  {
    var items := PyIterOrEmpty(contents).value;
    TurnMessagesAreSpeakingTurns(items);
    var turns := TurnMessages(items).value;
    var ms := BuildMessages(instruction, contents).value;
    if HasInstruction(instruction) {
      assert ms == [Message(ROLE_SYSTEM, PyStrip(instruction.s))] + turns;
      assert ms[1..] == turns;
    } else {
      assert ms == turns;
      assert ms[0..] == turns;
    }
  }

  /** The vendor tags and the JSON Schema type names they stand for. */
  function TypeMap(upper: string): Option<string> {
    if upper == "OBJECT" then Some("object")
    else if upper == "ARRAY" then Some("array")
    else if upper == "STRING" then Some("string")
    else if upper == "NUMBER" then Some("number")
    else if upper == "INTEGER" then Some("integer")
    else if upper == "BOOLEAN" then Some("boolean")
    else if upper == "NULL" then Some("null")
    else None
  }

  /** The rewritten value of one `type` tag: the mapped name of its upper-cased form,
      else the tag lower-cased. */
  function TypeTag(v: string): (r: string)
    ensures |r| == |v|
  {
    match TypeMap(UpperStr(v))
    case Some(m) => (UpperLowerTag(v, m); m)
    case None => LowerStr(v)
  }

  lemma UpperLowerTag(v: string, m: string)
    requires TypeMap(UpperStr(v)) == Some(m)
    ensures |m| == |v|
  {
  }

  /** With ASCII case mapping every mapped name is the tag's own lower-case form,
      so a rewritten tag is always the lower-cased tag. */
  lemma TypeTagIsLower(v: string)
    ensures TypeTag(v) == LowerStr(v)
  {
    match TypeMap(UpperStr(v))
    case None =>
    case Some(m) =>
      var u := UpperStr(v);
      assert |u| == |m| == |v|;
      forall i | 0 <= i < |v|
        ensures LowerStr(v)[i] == m[i]
      {
        assert Upper(v[i]) == u[i];
        CaseRoundTrip(v[i], m[i]);
      }
  }

  /** If `c` upper-cases to the upper case of the lower-case letter `l`, it lower-cases to `l`. */
  lemma CaseRoundTrip(c: char, l: char)
    requires IsLowerAscii(l)
    requires Upper(c) == Upper(l)
    ensures Lower(c) == l
  {
  }

  /** The `walk` of `normalize_response_schema`: string `type` values are rewritten,
      every other value is walked, lists element by element, scalars unchanged. */
  function Walk(node: Json): (r: Json)
    ensures node.JObj? <==> r.JObj?
    ensures node.JArr? <==> r.JArr?
    ensures !node.JObj? && !node.JArr? ==> r == node
    ensures node.JArr? ==> |r.items| == |node.items|
    ensures node.JObj? ==> |r.fields| == |node.fields|
    ensures node.JObj? ==> forall i :: 0 <= i < |node.fields| ==> r.fields[i].0 == node.fields[i].0
    ensures node.JObj? ==> forall i :: 0 <= i < |node.fields| ==>
              var (k, v) := node.fields[i];
              if k == "type" && v.JStr? then r.fields[i].1 == JStr(TypeTag(v.s))
              else r.fields[i].1 == Walk(v)
    ensures node.JArr? ==> forall i :: 0 <= i < |node.items| ==> r.items[i] == Walk(node.items[i])
    decreases node
  {
    match node
    case JObj(fields) =>
      JObj(seq(|fields|, i requires 0 <= i < |fields| =>
                 (fields[i].0, WalkField(fields[i].0, fields[i].1, node))))
    case JArr(items) => JArr(seq(|items|, i requires 0 <= i < |items| => Walk(items[i])))
    case _ => node
  }

  /** The new value of the field `k: v` of `parent`. */
  function WalkField(k: string, v: Json, ghost parent: Json): Json
    requires v < parent
    decreases parent, 0
  {
    if k == "type" && v.JStr? then JStr(TypeTag(v.s)) else Walk(v)
  }

  /** `normalize_response_schema`: `None` for anything but a dict, else the walk:
      the same keys in the same order, each string `type` value rewritten to its
      JSON Schema name and every other value walked. */
  function NormalizeSchema(schema: Option<Json>): (r: Option<Json>)
    ensures r.Some? <==> schema.Some? && schema.value.JObj?
    ensures r.Some? ==> r.value.JObj? && |r.value.fields| == |schema.value.fields|
    ensures r.Some? ==> forall i :: 0 <= i < |schema.value.fields| ==>
              var (k, v) := schema.value.fields[i];
              r.value.fields[i].0 == k
              && r.value.fields[i].1 == (if k == "type" && v.JStr? then JStr(TypeTag(v.s)) else Walk(v))
  {
    if schema.Some? && schema.value.JObj? then Some(Walk(schema.value)) else None
  }

  /** Every string `type` value anywhere in a walked schema is lower-case. */
  predicate TypesLower(node: Json)
    decreases node
  {
    match node
    case JObj(fields) =>
      forall i :: 0 <= i < |fields| ==>
        (if fields[i].0 == "type" && fields[i].1.JStr? then LowerStr(fields[i].1.s) == fields[i].1.s
         else TypesLower(fields[i].1))
    case JArr(items) => forall i :: 0 <= i < |items| ==> TypesLower(items[i])
    case _ => true
  }

  /** A walked schema carries only lower-case type tags. */
  lemma {:induction false} WalkTypesLower(node: Json)
    ensures TypesLower(Walk(node))
    decreases node
  {
    match node
    case JObj(fields) =>
      var r := Walk(node).fields;
      forall i | 0 <= i < |r|
        ensures if r[i].0 == "type" && r[i].1.JStr? then LowerStr(r[i].1.s) == r[i].1.s
                else TypesLower(r[i].1)
      {
        assert r[i] == (fields[i].0, WalkField(fields[i].0, fields[i].1, node));
        if fields[i].0 == "type" && fields[i].1.JStr? {
          TypeTagIsLower(fields[i].1.s);
          LowerStrIdempotent(fields[i].1.s);
        } else {
          WalkTypesLower(fields[i].1);
        }
      }
    case JArr(items) =>
      forall i | 0 <= i < |items|
        ensures TypesLower(Walk(node).items[i])
      {
        WalkTypesLower(items[i]);
      }
    case _ =>
  }

  /** A node whose type tags are already lower-case is left as it is. */
  lemma {:induction false} WalkFixesLower(node: Json)
    requires TypesLower(node)
    ensures Walk(node) == node
    decreases node
  {
    match node
    case JObj(fields) =>
      var r := Walk(node).fields;
      forall i | 0 <= i < |fields|
        ensures r[i] == fields[i]
      {
        assert r[i] == (fields[i].0, WalkField(fields[i].0, fields[i].1, node));
        if fields[i].0 == "type" && fields[i].1.JStr? {
          TypeTagIsLower(fields[i].1.s);
        } else {
          WalkFixesLower(fields[i].1);
        }
      }
      assert r == fields;
    case JArr(items) =>
      var w := Walk(node).items;
      forall i | 0 <= i < |items|
        ensures w[i] == items[i]
      {
        WalkFixesLower(items[i]);
      }
      assert w == items;
    case _ =>
  }

  /** Normalising a normalised schema changes nothing. */
  lemma NormalizeSchemaIdempotent(schema: Option<Json>)
    ensures NormalizeSchema(schema).Some? ==>
              NormalizeSchema(NormalizeSchema(schema)) == NormalizeSchema(schema)
  {
    if schema.Some? && schema.value.JObj? {
      WalkTypesLower(schema.value);
      WalkFixesLower(Walk(schema.value));
    }
  }

  /** Each vendor tag, in any letter case, becomes its JSON Schema type name. */
  lemma VendorTagsMapped(v: string)
    requires TypeMap(UpperStr(v)).Some?
    ensures TypeTag(v) == TypeMap(UpperStr(v)).value
  {
  }
}

=== FILE: gateway_llm.dfy ===
/** The language-model half of the realtime gateway: how a `/llm/generate` or
    `/llm/stream` request is turned into one call to Ollama's `/api/chat` or
    OpenAI's `/chat/completions`, in which order its fields are checked, how a
    failed reply is reported, and what `/llm/stream` writes for a successful one.
    The HTTP exchange is an input: the status and raw body of the reply, the model
    names `/api/tags` lists, and the fields read out of a successful reply. */
module GatewayLlm {
  import opened Wrappers
  import opened Strs
  import opened Json
  import opened JsonText
  import opened PyConv
  import opened GatewayChat
  import opened LlmStream

  /** A request body.  `model`, `provider` and `responseMimeType` are the strings
      sent (`""` when absent or empty); the other fields are the decoded values. */
  datatype GenerateRequest = GenerateRequest(
    model: string,
    provider: string,
    responseMimeType: string,
    systemInstruction: Option<Json>,
    contents: Option<Json>,
    temperature: Option<Json>,
    maxOutputTokens: Option<Json>,
    responseSchema: Option<Json>,
    streamChunkSize: Option<Json>)

  /** The `format` field of an Ollama request. */
  datatype Format = NoFormat | JsonFormat | SchemaFormat(schema: Json)

  /** The one provider request a generation makes. */
  datatype ProviderCall =
    | OllamaChat(model: string, messages: seq<Message>, temperature: real, numPredict: int, format: Format)
    | OpenAiChat(model: string, messages: seq<Message>, temperature: real, maxTokens: int)

  /** Why a generation fails (each is a 500 reply of the route). */
  datatype GenerateError =
    | BadTemperature
    | MissingInstruction
    | NotIterable
    | BadMaxTokens
    | MissingOpenAiKey
    | ProviderFailed(message: string)
    | BadReply

  const DEFAULT_MODEL: string := "llama3.1:8b"
  const DEFAULT_TEMPERATURE: real := 0.7
  const DEFAULT_MAX_OUTPUT_TOKENS: real := 256.0
  const FALLBACK_PROMPT: string := "Say hello in one short sentence."
  const OPENAI: string := "openai"
  const JSON_MIME: string := "application/json"
  const ERROR_DETAIL_LIMIT: nat := 400
  const LISTED_MODELS_LIMIT: nat := 8

  /** `float(temperature)`, 0.7 when the field is absent or `null`. */
  function Temperature(raw: Option<Json>): (r: Result<real, GenerateError>)
    ensures raw.None? || raw.value.JNull? ==> r == Success(DEFAULT_TEMPERATURE)
    ensures raw.Some? && !raw.value.JNull? ==>
              (r.Success? <==> PyFloat(raw.value).Some?) && (r.Success? ==> r.value == PyFloat(raw.value).value)
    ensures r.Failure? ==> r.error == BadTemperature
  {
    if raw.None? || raw.value.JNull? then Success(DEFAULT_TEMPERATURE)
    else
      match PyFloat(raw.value)
      case Some(t) => Success(t)
      case None => Failure(BadTemperature)
  }

  /** The provider name: the request's, else the configured default, stripped and
      lower-cased. */
  function ResolvedProvider(requested: string, configured: string): string {
    LowerStr(PyStrip(if requested != "" then requested else configured))
  }

  /** A non-empty dict schema wins; otherwise `json` for a JSON MIME type; otherwise
      no format. */
  function OllamaFormat(schema: Option<Json>, mime: string): (f: Format)
    ensures f.SchemaFormat? <==> schema.Some? && schema.value.JObj? && schema.value.fields != []
    ensures f.SchemaFormat? ==> f.schema == schema.value
    ensures f == JsonFormat <==> !(schema.Some? && schema.value.JObj? && schema.value.fields != []) && mime == JSON_MIME
  {
    if schema.Some? && schema.value.JObj? && PyTruthy(schema.value) then SchemaFormat(schema.value)
    else if mime == JSON_MIME then JsonFormat
    else NoFormat
  }

  /** The instruction is usable when it is a string with non-blank text. */
  predicate UsableInstruction(si: Json) {
    si.JStr? && PyStrip(si.s) != ""
  }

  /** `payload.get(key) or default` for a JSON field. */
  function OrDefault(v: Option<Json>, d: Json): Json {
    if OptPyTruthy(v) then v.value else d
  }

  /** The first part of `llm_generate`: every field is read in the source's order,
      so a bad temperature is reported before a missing instruction, and the
      instruction is checked before the messages are built or any provider is
      contacted. */
  function PlanGenerate(req: GenerateRequest, configuredProvider: string, openAiKey: string)
    : (r: Result<ProviderCall, GenerateError>)
    ensures Temperature(req.temperature).Failure? ==> r == Failure(BadTemperature)
    ensures (Temperature(req.temperature).Success?
             && !UsableInstruction(OrDefault(req.systemInstruction, JStr("")))) ==> r == Failure(MissingInstruction)
    ensures r.Success? ==>
              var si := OrDefault(req.systemInstruction, JStr(""));
              UsableInstruction(si)
              && |r.value.messages| >= 1
              && r.value.messages[0] == Message(ROLE_SYSTEM, PyStrip(si.s))
              && r.value.temperature == Temperature(req.temperature).value
              && r.value.model == (if req.model != "" then req.model else DEFAULT_MODEL)
    ensures r.Success? ==> (r.value.OpenAiChat? <==> ResolvedProvider(req.provider, configuredProvider) == OPENAI)
    ensures r.Success? && r.value.OpenAiChat? ==> openAiKey != ""
    ensures r == Failure(MissingOpenAiKey) ==> ResolvedProvider(req.provider, configuredProvider) == OPENAI && openAiKey == ""
  {
    var model := if req.model != "" then req.model else DEFAULT_MODEL;
    var si := OrDefault(req.systemInstruction, JStr(""));
    var contents := if OptPyTruthy(req.contents) then req.contents else None;
    var temperature :- Temperature(req.temperature);
    var maxTokens := OrDefault(req.maxOutputTokens, JNum(DEFAULT_MAX_OUTPUT_TOKENS));
    var provider := ResolvedProvider(req.provider, configuredProvider);
    var mime := LowerStr(PyStrip(req.responseMimeType));
    var schema := NormalizeSchema(req.responseSchema);
    if !UsableInstruction(si) then Failure(MissingInstruction)
    else
      var built := BuildMessages(si, contents);
      if built.Failure? then Failure(NotIterable)
      else
        var messages := if built.value == [] then [Message(ROLE_USER, FALLBACK_PROMPT)] else built.value;
        if provider == OPENAI then
          if openAiKey == "" then Failure(MissingOpenAiKey)
          else
            match PyInt(maxTokens)
            case None => Failure(BadMaxTokens)
            case Some(n) => Success(OpenAiChat(model, messages, temperature, n))
        else
          match PyInt(maxTokens)
          case None => Failure(BadMaxTokens)
          case Some(n) => Success(OllamaChat(model, messages, temperature, n, OllamaFormat(schema, mime)))
  }

  /** The fallback message list of `llm_generate` is never used: whenever messages
      are built at all, the instruction was usable, so the list starts with it. */
  lemma FallbackUnreachable(req: GenerateRequest, configuredProvider: string, openAiKey: string)
    requires PlanGenerate(req, configuredProvider, openAiKey).Success?
    ensures var call := PlanGenerate(req, configuredProvider, openAiKey).value;
            var si := OrDefault(req.systemInstruction, JStr(""));
            var contents := if OptPyTruthy(req.contents) then req.contents else None;
            call.messages == BuildMessages(si, contents).value
            && call.messages != [Message(ROLE_USER, FALLBACK_PROMPT)]
  {
  }

  /** The schema an Ollama request carries has only JSON Schema (lower-case) type
      names. */
  lemma SchemaFormatIsNormalized(req: GenerateRequest, configuredProvider: string, openAiKey: string)
    requires PlanGenerate(req, configuredProvider, openAiKey).Success?
    requires PlanGenerate(req, configuredProvider, openAiKey).value.OllamaChat?
    requires PlanGenerate(req, configuredProvider, openAiKey).value.format.SchemaFormat?
    ensures TypesLower(PlanGenerate(req, configuredProvider, openAiKey).value.format.schema)
  {
    WalkTypesLower(req.responseSchema.value);
  }

  /** The `detail` of a failed Ollama reply: the first 400 characters of the body;
      for a 404 whose body mentions `not found`, followed by at most eight of the
      locally installed model names, or by a note that there are none. */
  function OllamaDetail(status: int, raw: string, available: seq<string>): (d: string)
    ensures StartsWith(d, Take(raw, ERROR_DETAIL_LIMIT))
    ensures !(status == 404 && Contains(LowerStr(raw), "not found")) ==> d == Take(raw, ERROR_DETAIL_LIMIT)
    ensures status == 404 && Contains(LowerStr(raw), "not found") && available != [] ==>
              d == Take(raw, ERROR_DETAIL_LIMIT) + " | available models: "
                   + Join(available[..if |available| < LISTED_MODELS_LIMIT then |available| else LISTED_MODELS_LIMIT], ", ")
  {
    var detail := Take(raw, ERROR_DETAIL_LIMIT);
    if status == 404 && Contains(LowerStr(raw), "not found") then
      if available != [] then
        var shown := available[..if |available| < LISTED_MODELS_LIMIT then |available| else LISTED_MODELS_LIMIT];
        PrefixOfAppend(detail, " | available models: " + Join(shown, ", "));
        detail + " | available models: " + Join(shown, ", ")
      else
        PrefixOfAppend(detail, " | no local models found from /api/tags");
        detail + " | no local models found from /api/tags"
    else detail
  }

  lemma PrefixOfAppend(a: string, b: string)
    ensures StartsWith(a + b, a)
  {
    assert (a + b)[..|a|] == a;
  }

  /** Where the names in a 404 detail come from: at most eight, the first ones
      `/api/tags` listed. */
  lemma ListedModelsBounded(available: seq<string>)
    ensures var shown := available[..if |available| < LISTED_MODELS_LIMIT then |available| else LISTED_MODELS_LIMIT];
            |shown| <= LISTED_MODELS_LIMIT && shown <= available
  {
  }

  /** An HTTP reply from the provider: its status and raw body. */
  datatype HttpReply = HttpReply(status: int, raw: string)

  /** What a successful reply's JSON holds: the message content, the two token
      counts (already `int(... or 0)`) and the model name it reports (`""` if none);
      `None` stands for a body that does not decode to that shape. */
  datatype ReplyFields = ReplyFields(content: string, promptTokens: int, candidatesTokens: int, model: string)

  /** The result of a generation. */
  datatype Generated = Generated(text: string, usage: Usage, model: string, provider: string)

  function IsOk(status: int): bool { 200 <= status < 300 }

  /** The provider's reply turned into a result: a non-2xx status raises with the
      provider's name, the status and the detail; a 2xx reply yields the stripped
      content and the reported model, falling back to the requested one. */
  function ReplyResult(call: ProviderCall, provider: string, reply: HttpReply, available: seq<string>,
                       fields: Option<ReplyFields>): (r: Result<Generated, GenerateError>)
    ensures !IsOk(reply.status) && call.OllamaChat? ==>
              r == Failure(ProviderFailed("Ollama error (" + IntToStr(reply.status) + "): "
                                          + OllamaDetail(reply.status, reply.raw, available)))
    ensures !IsOk(reply.status) && call.OpenAiChat? ==>
              r == Failure(ProviderFailed("OpenAI error (" + IntToStr(reply.status) + "): "
                                          + Take(reply.raw, ERROR_DETAIL_LIMIT)))
    ensures IsOk(reply.status) && fields.None? ==> r == Failure(BadReply)
    ensures r.Success? ==>
              IsOk(reply.status) && fields.Some?
              && r.value.text == PyStrip(fields.value.content)
              && r.value.usage == Usage(fields.value.promptTokens, fields.value.candidatesTokens)
              && (r.value.model == if fields.value.model != "" then fields.value.model else call.model)
  {
    if !IsOk(reply.status) then
      if call.OllamaChat? then
        Failure(ProviderFailed("Ollama error (" + IntToStr(reply.status) + "): "
                               + OllamaDetail(reply.status, reply.raw, available)))
      else
        Failure(ProviderFailed("OpenAI error (" + IntToStr(reply.status) + "): "
                               + Take(reply.raw, ERROR_DETAIL_LIMIT)))
    else if fields.None? then Failure(BadReply)
    else
      var f := fields.value;
      Success(Generated(PyStrip(f.content), Usage(f.promptTokens, f.candidatesTokens),
                        if f.model != "" then f.model else call.model, provider))
  }

  /** `llm_generate`: plan the call, then read the provider's reply.  A planning
      failure means the provider was never contacted. */
  function LlmGenerate(req: GenerateRequest, configuredProvider: string, openAiKey: string,
                       reply: HttpReply, available: seq<string>, fields: Option<ReplyFields>)
    : (r: Result<Generated, GenerateError>)
    ensures PlanGenerate(req, configuredProvider, openAiKey).Failure? ==>
              r == Failure(PlanGenerate(req, configuredProvider, openAiKey).error)
    ensures r.Success? ==> r.value.provider == ResolvedProvider(req.provider, configuredProvider)
  {
    var call :- PlanGenerate(req, configuredProvider, openAiKey);
    ReplyResult(call, ResolvedProvider(req.provider, configuredProvider), reply, available, fields)
  }

  /** `/llm/stream`: on success the NDJSON body of the deltas and the done record;
      on failure the error, answered with status 500 instead of a stream. */
  function StreamRoute(req: GenerateRequest, configuredProvider: string, openAiKey: string,
                       reply: HttpReply, available: seq<string>, fields: Option<ReplyFields>)
    : (r: Result<string, GenerateError>)
    ensures r.Success? <==> LlmGenerate(req, configuredProvider, openAiKey, reply, available, fields).Success?
  {
    var g :- LlmGenerate(req, configuredProvider, openAiKey, reply, available, fields);
    Success(StreamBody(g.text, StreamChunkSize(req.streamChunkSize), g.usage, g.model))
  }

  /** End to end: however the network splits a successful `/llm/stream` body, the
      Node client ends with exactly the generated text, delta by delta, and the
      reply's usage and model. */
  lemma StreamRouteRoundTrip(req: GenerateRequest, configuredProvider: string, openAiKey: string,
                             reply: HttpReply, available: seq<string>, fields: Option<ReplyFields>,
                             chunks: seq<string>, requestModel: string)
    requires StreamRoute(req, configuredProvider, openAiKey, reply, available, fields).Success?
    requires Concat(chunks) == StreamRoute(req, configuredProvider, openAiKey, reply, available, fields).value
    ensures var g := LlmGenerate(req, configuredProvider, openAiKey, reply, available, fields).value;
            var acc := ReadStream(chunks, requestModel);
            acc.text == g.text && acc.text == PyStrip(fields.value.content)
            && acc.delivered == Deltas(g.text, StreamChunkSize(req.streamChunkSize))
            && acc.usage == Some(g.usage)
  {
    var g := LlmGenerate(req, configuredProvider, openAiKey, reply, available, fields).value;
    StreamRoundTrip(g.text, StreamChunkSize(req.streamChunkSize), g.usage, g.model, chunks, requestModel);
  }
}

=== FILE: glitch_utils.dfy ===
/** The pure helpers of the glitch face effect: the renderer setting, the
    configuration merge, the per-hue colour table cache and the unit clamp. */
module GlitchUtils {
  import opened Wrappers
  import opened Strs
  import opened Json
  import opened JsConv

  // ------------------------------------------------------------ renderer

  /** `normalizeRenderer(value)`: the trimmed, lower-cased text of the value
      when it names a known renderer, else "auto"; a missing or falsy value
      is "auto". `numberText` is JavaScript's `String` on a number. */
  function NormalizeRenderer(value: Option<Json>, numberText: real -> string): (r: string)
    ensures r == "webgpu" || r == "canvas2d" || r == "auto"
    ensures value.Some? && value.value.JStr? ==>
              (r == "webgpu" <==> LowerStr(Trim(value.value.s)) == "webgpu") &&
              (r == "canvas2d" <==> LowerStr(Trim(value.value.s)) == "canvas2d")
    ensures !OptJsTruthy(value) ==> r == "auto"
  {
    var mode := LowerStr(Trim(if OptJsTruthy(value) then JsString(value.value, numberText) else ""));
    if mode == "webgpu" || mode == "canvas2d" || mode == "auto" then mode else "auto"
  }

  /** A normalized setting normalizes to itself. */
  lemma NormalizeRendererFixed(r: string, numberText: real -> string)
    requires r == "webgpu" || r == "canvas2d" || r == "auto"
    ensures NormalizeRenderer(Some(JStr(r)), numberText) == r
  {
    TrimWithStripped(r, IsSpace);
    LowerStrOfLower(r);
  }

  // ------------------------------------------------------------ objects

  /** The keys of a field list. */
  function Keys(fields: seq<(string, Json)>): set<string> {
    set i | 0 <= i < |fields| :: fields[i].0
  }

  /** No key occurs twice, as in every JavaScript object. */
  predicate UniqueKeys(fields: seq<(string, Json)>) {
    forall i, j :: 0 <= i < j < |fields| ==> fields[i].0 != fields[j].0
  }

  lemma LookupUnique(fields: seq<(string, Json)>, i: int)
    requires UniqueKeys(fields) && 0 <= i < |fields|
    ensures Lookup(fields, fields[i].0) == Some(fields[i].1)
  {
    var r := Lookup(fields, fields[i].0);
    assert r.Some?;
    var j :| 0 <= j < |fields| && fields[j] == (fields[i].0, r.value);
    assert j == i;
  }

  lemma LookupAbsent(fields: seq<(string, Json)>, key: string)
    requires key !in Keys(fields)
    ensures Lookup(fields, key) == None
  {
    forall i | 0 <= i < |fields|
      ensures fields[i].0 != key
    {
      assert fields[i].0 in Keys(fields);
    }
  }

  /** A lookup in a list with one field in front: the later fields win. */
  lemma {:induction false} LookupCons(e: (string, Json), rest: seq<(string, Json)>, key: string)
    ensures Lookup([e] + rest, key) ==
              if key in Keys(rest) then Lookup(rest, key) else if e.0 == key then Some(e.1) else None
    decreases |rest|
  {
    var s := [e] + rest;
    if |rest| == 0 {
      assert s[..0] == [];
    } else {
      var last := rest[|rest| - 1];
      var front := rest[..|rest| - 1];
      assert s[..|s| - 1] == [e] + front;
      assert Keys(rest) == Keys(front) + {last.0} by {
        assert forall i :: 0 <= i < |front| ==> front[i] == rest[i];
      }
      if last.0 != key {
        LookupCons(e, front, key);
      }
    }
  }

  /** `obj[key] = value`: an existing key is overwritten in place, a new key
      goes at the end. */
  function Put(fields: seq<(string, Json)>, key: string, value: Json): (r: seq<(string, Json)>)
    requires UniqueKeys(fields)
    ensures UniqueKeys(r)
    ensures Keys(r) == Keys(fields) + {key}
    ensures Lookup(r, key) == Some(value)
    ensures forall k :: k != key ==> Lookup(r, k) == Lookup(fields, k)
    ensures key in Keys(fields) ==> |r| == |fields|
    ensures key !in Keys(fields) ==> r == fields + [(key, value)]
  {
    if key in Keys(fields) then
      var r := seq(|fields|, i requires 0 <= i < |fields| => if fields[i].0 == key then (key, value) else fields[i]);
      PutInPlace(fields, key, value, r);
      r
    else
      var r := fields + [(key, value)];
      PutAppended(fields, key, value, r);
      r
  }

  lemma PutInPlace(fields: seq<(string, Json)>, key: string, value: Json, r: seq<(string, Json)>)
    requires UniqueKeys(fields) && key in Keys(fields)
    requires |r| == |fields|
    requires forall i :: 0 <= i < |fields| ==> r[i] == if fields[i].0 == key then (key, value) else fields[i]
    ensures UniqueKeys(r)
    ensures Keys(r) == Keys(fields) + {key}
    ensures Lookup(r, key) == Some(value)
    ensures forall k :: k != key ==> Lookup(r, k) == Lookup(fields, k)
  {
    assert forall i :: 0 <= i < |r| ==> r[i].0 == fields[i].0;
    assert Keys(r) == Keys(fields);
    var i :| 0 <= i < |fields| && fields[i].0 == key;
    LookupUnique(r, i);
    forall k | k != key
      ensures Lookup(r, k) == Lookup(fields, k)
    {
      if k in Keys(fields) {
        var j :| 0 <= j < |fields| && fields[j].0 == k;
        LookupUnique(r, j);
        LookupUnique(fields, j);
      } else {
        LookupAbsent(r, k);
        LookupAbsent(fields, k);
      }
    }
  }

  lemma PutAppended(fields: seq<(string, Json)>, key: string, value: Json, r: seq<(string, Json)>)
    requires UniqueKeys(fields) && key !in Keys(fields)
    requires r == fields + [(key, value)]
    ensures UniqueKeys(r)
    ensures Keys(r) == Keys(fields) + {key}
    ensures Lookup(r, key) == Some(value)
    ensures forall k :: k != key ==> Lookup(r, k) == Lookup(fields, k)
  {
    forall i | 0 <= i < |fields|
      ensures fields[i].0 != key
    {
      assert fields[i].0 in Keys(fields);
    }
    assert r[..|r| - 1] == fields;
    assert Keys(r) == Keys(fields) + {key} by {
      assert forall i :: 0 <= i < |fields| ==> r[i] == fields[i];
      assert r[|fields|].0 == key;
    }
  }

  lemma KeysCons(e: (string, Json), rest: seq<(string, Json)>)
    ensures Keys([e] + rest) == Keys(rest) + {e.0}
  {
    var s := [e] + rest;
    forall x
      ensures x in Keys(s) <==> x in Keys(rest) || x == e.0
    {
      if x in Keys(s) {
        var i :| 0 <= i < |s| && s[i].0 == x;
        if i > 0 {
          assert rest[i - 1] == s[i];
        }
      }
      if x in Keys(rest) {
        var i :| 0 <= i < |rest| && rest[i].0 == x;
        assert s[i + 1] == rest[i];
      }
      if x == e.0 {
        assert s[0] == e;
      }
    }
  }

  /** What one recursion step of `FoldPut` needs: the facts about the rest
      carry over to the whole list. */
  lemma FoldPutStep(acc: seq<(string, Json)>, e: (string, Json), rest: seq<(string, Json)>, r: seq<(string, Json)>)
    requires UniqueKeys(acc)
    requires Keys(r) == Keys(Put(acc, e.0, e.1)) + Keys(rest)
    requires forall k :: Lookup(r, k) == if k in Keys(rest) then Lookup(rest, k) else Lookup(Put(acc, e.0, e.1), k)
    ensures Keys(r) == Keys(acc) + Keys([e] + rest)
    ensures forall k :: Lookup(r, k) == if k in Keys([e] + rest) then Lookup([e] + rest, k) else Lookup(acc, k)
  {
    KeysCons(e, rest);
    forall k
      ensures Lookup(r, k) == if k in Keys([e] + rest) then Lookup([e] + rest, k) else Lookup(acc, k)
    {
      LookupCons(e, rest, k);
    }
  }

  /** Assigning the fields of `entries` one after the other. */
  function FoldPut(acc: seq<(string, Json)>, entries: seq<(string, Json)>): (r: seq<(string, Json)>)
    requires UniqueKeys(acc)
    ensures UniqueKeys(r)
    ensures Keys(r) == Keys(acc) + Keys(entries)
    ensures forall k :: Lookup(r, k) == if k in Keys(entries) then Lookup(entries, k) else Lookup(acc, k)
    decreases |entries|
  {
    if |entries| == 0 then acc
    else
      var r := FoldPut(Put(acc, entries[0].0, entries[0].1), entries[1..]);
      assert entries == [entries[0]] + entries[1..];
      FoldPutStep(acc, entries[0], entries[1..], r);
      r
  }

  /** The JavaScript object a field list describes: one field per key, at the
      key's first position, holding its last value. */
  function ObjectOf(fields: seq<(string, Json)>): (r: seq<(string, Json)>)
    ensures UniqueKeys(r) && Keys(r) == Keys(fields)
    ensures forall k :: Lookup(r, k) == Lookup(fields, k)
  {
    var r := FoldPut([], fields);
    ObjectOfLookups(fields, r);
    r
  }

  lemma ObjectOfLookups(fields: seq<(string, Json)>, r: seq<(string, Json)>)
    requires forall k :: Lookup(r, k) == if k in Keys(fields) then Lookup(fields, k) else Lookup([], k)
    ensures forall k :: Lookup(r, k) == Lookup(fields, k)
  {
    forall k
      ensures Lookup(r, k) == Lookup(fields, k)
    {
      if k !in Keys(fields) {
        LookupAbsent(fields, k);
      }
    }
  }

  /** `{ ...a, ...b }`: the keys of both, the values of `b` winning. */
  function Spread(a: seq<(string, Json)>, b: seq<(string, Json)>): (r: seq<(string, Json)>)
    ensures UniqueKeys(r) && Keys(r) == Keys(a) + Keys(b)
    ensures forall k :: Lookup(r, k) == if k in Keys(b) then Lookup(b, k) else Lookup(a, k)
  {
    FoldPut(ObjectOf(a), b)
  }

  // ------------------------------------------------------------ merge

  /** The merged value of one patched key: a one-level merge when the old and
      the new value are both plain objects, else the new value. */
  function Combine(prior: Option<Json>, value: Json): Json {
    if value.JObj? && prior.Some? && prior.value.JObj? then JObj(Spread(prior.value.fields, value.fields)) else value
  }

  /** The key in front of a list without repeated keys is not among the rest. */
  lemma ConsKeyFresh(e: (string, Json), rest: seq<(string, Json)>)
    requires UniqueKeys([e] + rest)
    ensures e.0 !in Keys(rest)
  {
    var s := [e] + rest;
    forall i | 0 <= i < |rest|
      ensures rest[i].0 != e.0
    {
      assert rest[i] == s[i + 1] && s[0] == e;
    }
  }

  /** What one recursion step of `MergeFold` needs. */
  lemma MergeFoldStep(merged: seq<(string, Json)>, e: (string, Json), rest: seq<(string, Json)>, r: seq<(string, Json)>)
    requires UniqueKeys(merged) && e.0 !in Keys(rest)
    requires var step := Put(merged, e.0, Combine(Lookup(merged, e.0), e.1));
             forall k :: Lookup(r, k) ==
               if k in Keys(rest) then Some(Combine(Lookup(step, k), Lookup(rest, k).value)) else Lookup(step, k)
    ensures forall k :: Lookup(r, k) ==
              if k in Keys([e] + rest) then Some(Combine(Lookup(merged, k), Lookup([e] + rest, k).value)) else Lookup(merged, k)
  {
    var step := Put(merged, e.0, Combine(Lookup(merged, e.0), e.1));
    forall k
      ensures Lookup(r, k) ==
              if k in Keys([e] + rest) then Some(Combine(Lookup(merged, k), Lookup([e] + rest, k).value)) else Lookup(merged, k)
    {
      MergeFoldAt(merged, e, rest, step, Lookup(r, k), k);
    }
  }

  lemma MergeFoldAt(merged: seq<(string, Json)>, e: (string, Json), rest: seq<(string, Json)>,
                    step: seq<(string, Json)>, got: Option<Json>, k: string)
    requires UniqueKeys(merged) && e.0 !in Keys(rest)
    requires step == Put(merged, e.0, Combine(Lookup(merged, e.0), e.1))
    requires got == if k in Keys(rest) then Some(Combine(Lookup(step, k), Lookup(rest, k).value)) else Lookup(step, k)
    ensures got == if k in Keys([e] + rest) then Some(Combine(Lookup(merged, k), Lookup([e] + rest, k).value)) else Lookup(merged, k)
  {
    KeysCons(e, rest);
    LookupCons(e, rest, k);
  }

  function MergeFold(merged: seq<(string, Json)>, entries: seq<(string, Json)>): (r: seq<(string, Json)>)
    requires UniqueKeys(merged) && UniqueKeys(entries)
    ensures UniqueKeys(r)
    ensures Keys(r) == Keys(merged) + Keys(entries)
    ensures forall k :: Lookup(r, k) ==
              if k in Keys(entries) then Some(Combine(Lookup(merged, k), Lookup(entries, k).value)) else Lookup(merged, k)
    decreases |entries|
  {
    if |entries| == 0 then merged
    else
      var e := entries[0];
      assert entries == [e] + entries[1..];
      var r := MergeFold(Put(merged, e.0, Combine(Lookup(merged, e.0), e.1)), entries[1..]);
      ConsKeyFresh(e, entries[1..]);
      KeysCons(e, entries[1..]);
      MergeFoldStep(merged, e, entries[1..], r);
      r
  }

  /** `mergeConfig(base, patch)` on two configuration objects (a missing patch
      is the empty object): a fresh object with the keys of both; a patched
      key takes the patch's value, except that two plain objects are merged
      one level deep with the patch's fields winning. Arrays and other values
      are replaced whole. `base` itself is a value and stays as it was. */
  function MergeConfig(base: seq<(string, Json)>, patch: seq<(string, Json)>): (r: seq<(string, Json)>)
    ensures UniqueKeys(r)
    ensures Keys(r) == Keys(base) + Keys(patch)
    ensures forall k :: k !in Keys(patch) ==> Lookup(r, k) == Lookup(base, k)
    ensures forall k :: k in Keys(patch) && !(Lookup(patch, k).value.JObj? && Lookup(base, k).Some? && Lookup(base, k).value.JObj?)
              ==> Lookup(r, k) == Lookup(patch, k)
    ensures forall k :: k in Keys(patch) && Lookup(patch, k).value.JObj? && Lookup(base, k).Some? && Lookup(base, k).value.JObj?
              ==> Lookup(r, k) == Some(JObj(Spread(Lookup(base, k).value.fields, Lookup(patch, k).value.fields)))
  {
    KeysPresent(patch);
    MergeFold(ObjectOf(base), ObjectOf(patch))
  }

  lemma KeysPresent(fields: seq<(string, Json)>)
    ensures forall k :: k in Keys(fields) ==> Lookup(fields, k).Some?
  {
    forall k | k in Keys(fields)
      ensures Lookup(fields, k).Some?
    {
      var i :| 0 <= i < |fields| && fields[i].0 == k;
    }
  }

  /** Inside a merged object the patch's fields win and the base's other
      fields stay. */
  lemma MergeNested(base: seq<(string, Json)>, patch: seq<(string, Json)>, k: string, f: string)
    requires k in Keys(patch) && Lookup(patch, k).value.JObj? && Lookup(base, k).Some? && Lookup(base, k).value.JObj?
    ensures var inner := Lookup(MergeConfig(base, patch), k).value;
            && inner.JObj?
            && Keys(inner.fields) == Keys(Lookup(base, k).value.fields) + Keys(Lookup(patch, k).value.fields)
            && Lookup(inner.fields, f) ==
                 if f in Keys(Lookup(patch, k).value.fields) then Lookup(Lookup(patch, k).value.fields, f)
                 else Lookup(Lookup(base, k).value.fields, f)
  {
  }

  /** Merging the same patch a second time changes no value (the nested
      objects of a patch, like all JavaScript objects, have distinct keys). */
  lemma MergeAgainSame(base: seq<(string, Json)>, patch: seq<(string, Json)>, k: string)
    requires forall k :: k in Keys(patch) && Lookup(patch, k).value.JObj? ==> UniqueKeys(Lookup(patch, k).value.fields)
    ensures Lookup(MergeConfig(MergeConfig(base, patch), patch), k) == Lookup(MergeConfig(base, patch), k)
  {
    var once := MergeConfig(base, patch);
    if k in Keys(patch) {
      var v := Lookup(patch, k).value;
      var o := Lookup(base, k);
      if v.JObj? {
        if o.Some? && o.value.JObj? {
          SpreadAgain(o.value.fields, v.fields);
        } else {
          SpreadAgain([], v.fields);
          assert Spread([], v.fields) == v.fields by {
            FoldPutFresh([], v.fields);
            assert [] + v.fields == v.fields;
          }
          FoldPutFresh([], v.fields);
          assert ObjectOf(v.fields) == v.fields by {
            assert [] + v.fields == v.fields;
          }
        }
      }
    }
  }

  /** Assigning a key the value it already has changes nothing. */
  lemma PutSame(acc: seq<(string, Json)>, key: string, value: Json)
    requires UniqueKeys(acc) && Lookup(acc, key) == Some(value)
    ensures Put(acc, key, value) == acc
  {
    var j :| 0 <= j < |acc| && acc[j] == (key, value);
    assert key in Keys(acc);
    var r := Put(acc, key, value);
    forall i | 0 <= i < |acc|
      ensures r[i] == acc[i]
    {
      if acc[i].0 == key {
        LookupUnique(acc, i);
      }
    }
  }

  /** Assigning fresh keys one by one appends them in order. */
  lemma {:induction false} FoldPutFresh(acc: seq<(string, Json)>, f: seq<(string, Json)>)
    requires UniqueKeys(acc + f)
    ensures UniqueKeys(acc)
    ensures FoldPut(acc, f) == acc + f
    decreases |f|
  {
    assert forall i, j :: 0 <= i < j < |acc| ==> acc[i] == (acc + f)[i] && acc[j] == (acc + f)[j];
    if |f| > 0 {
      var e := f[0];
      assert e.0 !in Keys(acc) by {
        forall i | 0 <= i < |acc|
          ensures acc[i].0 != e.0
        {
          assert (acc + f)[i] == acc[i] && (acc + f)[|acc|] == e;
        }
      }
      assert acc + [e] + f[1..] == acc + f;
      FoldPutFresh(acc + [e], f[1..]);
    }
  }

  /** Assigning keys the values they already have changes nothing. */
  lemma {:induction false} FoldPutPresent(acc: seq<(string, Json)>, b: seq<(string, Json)>)
    requires UniqueKeys(acc)
    requires forall i :: 0 <= i < |b| ==> Lookup(acc, b[i].0) == Some(b[i].1)
    ensures FoldPut(acc, b) == acc
    decreases |b|
  {
    if |b| > 0 {
      PutSame(acc, b[0].0, b[0].1);
      assert forall i :: 0 <= i < |b[1..]| ==> b[1..][i] == b[i + 1];
      FoldPutPresent(acc, b[1..]);
    }
  }

  /** Spreading the same object twice is spreading it once. */
  lemma SpreadAgain(a: seq<(string, Json)>, b: seq<(string, Json)>)
    requires UniqueKeys(b)
    ensures Spread(Spread(a, b), b) == Spread(a, b)
  {
    var s1 := Spread(a, b);
    FoldPutFresh([], s1);
    assert [] + s1 == s1;
    forall i | 0 <= i < |b|
      ensures Lookup(s1, b[i].0) == Some(b[i].1)
    {
      assert b[i].0 in Keys(b);
      LookupUnique(b, i);
    }
    FoldPutPresent(s1, b);
  }

  // ------------------------------------------------------------ colour tables

  /** `(Math.round(h) + 360) % 360` with JavaScript's remainder: a key in
      [0, 360) for every hue from -360.5 up, congruent to the rounded hue;
      a hue rounded below -360 and not a multiple of 360 gets a negative key. */
  function LutKey(h: real): (k: int)
    ensures -360 < k < 360
    ensures (k - JsRound(h)) % 360 == 0
    ensures JsRound(h) >= -360 ==> 0 <= k
    ensures JsRound(h) < -360 && JsRound(h) % 360 != 0 ==> k < 0
  {
    var a := JsRound(h) + 360;
    if a >= 0 then a % 360 else -((-a) % 360)
  }

  /** `getColorLUT(cache, h, s)`: the cached table of the hue's key, or a new
      table of 101 shades, one per lightness 0..100, which is then cached.
      `shade(h, s, l)` is the hex colour of `hslToRGB(h, s, l)`. The key
      leaves the saturation out: the caller clears the cache when the base
      colour changes. */
  function ColorLut(cache: map<int, seq<string>>, h: real, s: real, shade: (real, real, int) -> string)
    : (r: (seq<string>, map<int, seq<string>>))
    ensures LutKey(h) in r.1 && r.1[LutKey(h)] == r.0
    ensures LutKey(h) in cache ==> r.1 == cache
    ensures LutKey(h) !in cache ==> |r.0| == 101 && forall l :: 0 <= l <= 100 ==> r.0[l] == shade(h, s, l)
    ensures forall k :: k in cache ==> k in r.1 && r.1[k] == cache[k]
    ensures r.1.Keys == cache.Keys + {LutKey(h)}
  {
    var key := LutKey(h);
    if key in cache then (cache[key], cache)
    else
      var lut := seq(101, l requires 0 <= l < 101 => shade(h, s, l));
      (lut, cache[key := lut])
  }

  /** A second request for a hue with the same key, whatever its saturation,
      gets the first table back and leaves the cache alone. */
  lemma ColorLutRepeat(cache: map<int, seq<string>>, h: real, s: real, h2: real, s2: real,
                       shade: (real, real, int) -> string)
    requires LutKey(h2) == LutKey(h)
    ensures var first := ColorLut(cache, h, s, shade);
            ColorLut(first.1, h2, s2, shade) == first
  {
  }

  /** Hues a full turn apart share a table once both round above -360. */
  lemma LutKeyPeriodic(h: real)
    requires JsRound(h) >= -360
    ensures LutKey(h + 360.0) == LutKey(h)
  {
    assert JsRound(h + 360.0) == JsRound(h) + 360;
  }

  // ------------------------------------------------------------ clamp

  /** `clamp01(v)`. */
  function Clamp01(v: real): (r: real)
    ensures 0.0 <= r <= 1.0
    ensures 0.0 <= v <= 1.0 ==> r == v
    ensures v < 0.0 ==> r == 0.0
    ensures v > 1.0 ==> r == 1.0
  {
    if v < 0.0 then 0.0 else if v > 1.0 then 1.0 else v
  }

  /** The clamp keeps order. */
  lemma Clamp01Monotone(a: real, b: real)
    requires a <= b
    ensures Clamp01(a) <= Clamp01(b)
  {
  }
}

=== FILE: greetings.dfy ===
/** The face page's spoken greetings: a line is drawn at random from a list,
    avoiding the lines said recently (to anyone, and to the same person), and
    `%name%` is filled with the person's name. The greeting lists themselves
    are data and come in as a `Library`; the random draw is a number `draw`,
    reduced to an index of the candidates, so every candidate can be drawn. */
module Greetings {
  import opened Wrappers
  import opened Strs
  import opened Json

  const JOIN_GLOBAL_RECENT_LIMIT: nat := 20
  const JOIN_PER_NAME_RECENT_LIMIT: nat := 6
  const UNKNOWN_JOIN_RECENT_LIMIT: nat := 6
  const DEPARTURE_RECENT_LIMIT: nat := 8
  const UNKNOWN_DEPARTURE_RECENT_LIMIT: nat := 3
  const NAME_SLOT: string := "%name%"

  /** The greeting lists: wake greetings without and with a name, join and
      departure greetings for known and unknown people. */
  datatype Library = Library(wakeUnnamed: seq<string>, wakeNamed: seq<string>,
                             join: seq<string>, unknownJoin: seq<string>,
                             departure: seq<string>, unknownDeparture: seq<string>)
  {
    predicate Valid() {
      |wakeUnnamed| > 0 && |wakeNamed| > 0 && |join| > 0 && |unknownJoin| > 0
      && |departure| > 0 && |unknownDeparture| > 0
    }
  }

  /** The recent-line histories, oldest first; per-name histories are keyed
      by the trimmed, lower-cased name. */
  datatype Recents = Recents(joinGlobal: seq<string>, joinByName: map<string, seq<string>>,
                             unknownJoin: seq<string>, departure: seq<string>,
                             unknownDeparture: seq<string>)

  // ------------------------------------------------------------ histories

  /** The `while (history.length > limit) history.shift()` loop. */
  function DropOldest(history: seq<string>, limit: nat): (r: seq<string>)
    ensures |r| == if |history| <= limit then |history| else limit
    ensures r == history[|history| - |r|..]
    decreases |history|
  {
    if |history| > limit then DropOldest(history[1..], limit) else history
  }

  /** `pushRecent(history, value, limit)`: the newest `limit` entries of the
      history with `value` appended. */
  function PushRecent(history: seq<string>, value: string, limit: nat): (r: seq<string>)
    ensures |r| <= limit && |r| <= |history| + 1
    ensures |history| < limit ==> r == history + [value]
    ensures limit > 0 ==> |r| > 0 && r[|r| - 1] == value
    ensures r == (history + [value])[|history| + 1 - |r|..]
  {
    DropOldest(history + [value], limit)
  }

  // ------------------------------------------------------------ picking

  /** The lines not in `avoid`, in order (`lines.filter(l => !set.has(l))`). */
  function Avoiding(lines: seq<string>, avoid: seq<string>): (r: seq<string>)
    ensures forall k :: 0 <= k < |r| ==> r[k] in lines && r[k] !in avoid
    ensures forall l :: l in lines && l !in avoid ==> l in r
    ensures |lines| == 1 ==> r == (if lines[0] in avoid then [] else lines)
  {
    if |lines| == 0 then []
    else (if lines[0] in avoid then [] else [lines[0]]) + Avoiding(lines[1..], avoid)
  }

  /** The filter works piece by piece, so with the one-line case the result is
      the list with exactly the avoided lines taken out, order kept. */
  lemma {:induction false} AvoidingAppend(a: seq<string>, b: seq<string>, avoid: seq<string>)
    ensures Avoiding(a + b, avoid) == Avoiding(a, avoid) + Avoiding(b, avoid)
    decreases |a|
  {
    if |a| == 0 {
      assert a + b == b;
    } else {
      assert (a + b)[1..] == a[1..] + b;
      AvoidingAppend(a[1..], b, avoid);
    }
  }

  /** `candidates[Math.floor(Math.random() * candidates.length)]`. */
  function Draw(candidates: seq<string>, draw: nat): (c: string)
    requires |candidates| > 0
    ensures c in candidates
  {
    candidates[draw % |candidates|]
  }

  /** A line not said recently if there is one, else any line. */
  function PickFresh(lines: seq<string>, recent: seq<string>, draw: nat): (c: string)
    requires |lines| > 0
    ensures c in lines
    ensures (exists l :: l in lines && l !in recent) ==> c !in recent
  {
    var unsaid := Avoiding(lines, recent);
    Draw(if |unsaid| > 0 then unsaid else lines, draw)
  }

  /** The distinct lines of a list. */
  function Distinct(lines: seq<string>): set<string> {
    set l | l in lines
  }

  lemma {:induction false} DistinctBound(s: seq<string>)
    ensures |Distinct(s)| <= |s|
  {
    if |s| > 0 {
      DistinctBound(s[1..]);
      assert Distinct(s) == {s[0]} + Distinct(s[1..]);
    }
  }

  /** A history shorter than the number of distinct lines leaves a line out. */
  lemma FreshExists(lines: seq<string>, recent: seq<string>)
    requires |recent| < |Distinct(lines)|
    ensures exists l :: l in lines && l !in recent
  {
    if forall l :: l in lines ==> l in recent {
      assert Distinct(lines) <= Distinct(recent);
      DistinctBound(recent);
      SubsetCard(Distinct(lines), Distinct(recent));
      assert false;
    }
  }

  lemma {:induction false} SubsetCard(a: set<string>, b: set<string>)
    requires a <= b
    ensures |a| <= |b|
    decreases |b|
  {
    if a != {} {
      var x :| x in a;
      SubsetCard(a - {x}, b - {x});
    }
  }

  /** With more distinct lines than the history keeps, the same list never
      gives the same line twice in a row. */
  lemma NoImmediateRepeat(lines: seq<string>, recent: seq<string>, limit: nat, d1: nat, d2: nat)
    requires |lines| > 0 && 0 < limit < |Distinct(lines)|
    ensures var c1 := PickFresh(lines, recent, d1);
            PickFresh(lines, PushRecent(recent, c1, limit), d2) != c1
  {
    var c1 := PickFresh(lines, recent, d1);
    var after := PushRecent(recent, c1, limit);
    FreshExists(lines, after);
    assert c1 in after;
  }

  /** `String(name || '').trim().toLowerCase()`. */
  function NameKey(name: Option<Json>, numberText: real -> string): (r: string)
    ensures !OptJsTruthy(name) ==> r == ""
    ensures forall t :: name == Some(JStr(t)) ==> |r| == |Trim(t)|
    ensures r == [] || (!IsSpace(r[0]) && !IsSpace(r[|r| - 1]))
    ensures forall i :: 0 <= i < |r| ==> !('A' <= r[i] <= 'Z')
  {
    LowerStr(Trim(OrEmptyText(name, numberText)))
  }

  /** The line for a person: new both globally and for them if there is
      one, else new for them, else any. */
  function PickForName(lines: seq<string>, global: seq<string>, perName: seq<string>, draw: nat): (c: string)
    requires |lines| > 0
    ensures c in lines
    ensures (exists l :: l in lines && l !in global && l !in perName) ==> c !in global && c !in perName
    ensures (exists l :: l in lines && l !in perName) ==> c !in perName
  {
    var unsaid := Avoiding(Avoiding(lines, global), perName);
    var notForName := Avoiding(lines, perName);
    assert (exists l :: l in lines && l !in global && l !in perName) ==> |unsaid| > 0;
    Draw(if |unsaid| > 0 then unsaid else if |notForName| > 0 then notForName else lines, draw)
  }

  /** The person's join history (`joinRecentByName.get(key)`, empty if none). */
  function PerName(h: Recents, key: string): seq<string> {
    if key in h.joinByName then h.joinByName[key] else []
  }

  /** The histories after `chosen` was said to the person with this key: it
      is the newest entry of the global history (at most 20) and of the
      person's (at most 6); nothing else changes. */
  function RecordJoin(h: Recents, key: string, chosen: string): (h': Recents)
    ensures h'.joinGlobal == PushRecent(h.joinGlobal, chosen, JOIN_GLOBAL_RECENT_LIMIT)
    ensures PerName(h', key) == PushRecent(PerName(h, key), chosen, JOIN_PER_NAME_RECENT_LIMIT)
    ensures h'.unknownJoin == h.unknownJoin && h'.departure == h.departure
            && h'.unknownDeparture == h.unknownDeparture
  {
    var global := PushRecent(h.joinGlobal, chosen, JOIN_GLOBAL_RECENT_LIMIT);
    var mine := PushRecent(PerName(h, key), chosen, JOIN_PER_NAME_RECENT_LIMIT);
    var byName := h.joinByName[key := mine];
    assert key in byName && byName[key] == mine;
    Recents(global, byName, h.unknownJoin, h.departure, h.unknownDeparture)
  }

  /** Other people's join histories are untouched. */
  lemma RecordJoinOthers(h: Recents, key: string, chosen: string, other: string)
    requires other != key
    ensures PerName(RecordJoin(h, key, chosen), other) == PerName(h, other)
  {
  }

  /** `pickJoinTemplate(name)` for the name's key: for a blank key any line
      and nothing is recorded; otherwise the line for the person, recorded in
      both the global and the person's history. */
  function PickJoinTemplate(lines: seq<string>, h: Recents, key: string, draw: nat): (r: (string, Recents))
    requires |lines| > 0
    ensures r.0 in lines
    ensures key == "" ==> r.1 == h
    ensures key != "" ==>
              && r.0 == PickForName(lines, h.joinGlobal, PerName(h, key), draw)
              && r.1 == RecordJoin(h, key, r.0)
  {
    if key == "" then (Draw(lines, draw), h)
    else
      var chosen := PickForName(lines, h.joinGlobal, PerName(h, key), draw);
      (chosen, RecordJoin(h, key, chosen))
  }

  /** With more than six distinct join lines, one person never gets the same
      join line twice in a row. */
  lemma JoinNoImmediateRepeat(lines: seq<string>, h: Recents, key: string, d1: nat, d2: nat)
    requires |lines| > 0 && JOIN_PER_NAME_RECENT_LIMIT < |Distinct(lines)| && key != ""
    ensures var first := PickJoinTemplate(lines, h, key, d1);
            PickJoinTemplate(lines, first.1, key, d2).0 != first.0
  {
    var c1 := PickForName(lines, h.joinGlobal, PerName(h, key), d1);
    var h1 := RecordJoin(h, key, c1);
    assert PickJoinTemplate(lines, h, key, d1) == (c1, h1);
    assert PickJoinTemplate(lines, h1, key, d2).0 == PickForName(lines, h1.joinGlobal, PerName(h1, key), d2);
    ForNameNoRepeat(lines, h.joinGlobal, h1.joinGlobal, PerName(h, key), d1, d2);
  }

  lemma ForNameNoRepeat(lines: seq<string>, global: seq<string>, global': seq<string>, perName: seq<string>,
                        d1: nat, d2: nat)
    requires |lines| > 0 && JOIN_PER_NAME_RECENT_LIMIT < |Distinct(lines)|
    ensures var c1 := PickForName(lines, global, perName, d1);
            PickForName(lines, global', PushRecent(perName, c1, JOIN_PER_NAME_RECENT_LIMIT), d2) != c1
  {
    var c1 := PickForName(lines, global, perName, d1);
    var after := PushRecent(perName, c1, JOIN_PER_NAME_RECENT_LIMIT);
    FreshExists(lines, after);
    assert c1 in after;
  }

  // ------------------------------------------------------------ names in templates

  /** The replacement text `String.prototype.replace` inserts for a string
      pattern (GetSubstitution, section 22.1.3.19.1 of ECMA-262): `$$` is a
      dollar sign, `$&` the matched text, `` $` `` the text before the match and
      `$'` the text after it; a string pattern has no capture groups, so every
      other `$` is literal. */
  function Substitute(rep: string, matched: string, before: string, after: string): (r: string)
    ensures '$' !in rep ==> r == rep
    decreases |rep|
  {
    if |rep| == 0 then ""
    else if rep[0] == '$' && |rep| >= 2 && rep[1] == '$' then "$" + Substitute(rep[2..], matched, before, after)
    else if rep[0] == '$' && |rep| >= 2 && rep[1] == '&' then matched + Substitute(rep[2..], matched, before, after)
    else if rep[0] == '$' && |rep| >= 2 && rep[1] == '`' then before + Substitute(rep[2..], matched, before, after)
    else if rep[0] == '$' && |rep| >= 2 && rep[1] == '\'' then after + Substitute(rep[2..], matched, before, after)
    else [rep[0]] + Substitute(rep[1..], matched, before, after)
  }

  /** `s.replace(pat, rep)`: the first occurrence replaced by the substitution
      for `rep`, or `s` unchanged when `pat` does not occur. */
  function ReplaceFirst(s: string, pat: string, rep: string): (r: string)
    requires pat != ""
    ensures !Contains(s, pat) ==> r == s
    ensures Contains(s, pat) ==>
              var i := IndexOf(s, pat);
              var sub := Substitute(rep, pat, s[..i], s[i + |pat|..]);
              && |r| == |s| - |pat| + |sub|
              && r[..i] == s[..i] && OccursAt(r, sub, i) && r[i + |sub|..] == s[i + |pat|..]
  {
    var i := IndexOf(s, pat);
    if i < 0 then s
    else
      var sub := Substitute(rep, pat, s[..i], s[i + |pat|..]);
      var r := s[..i] + sub + s[i + |pat|..];
      assert r[..i] == s[..i] && r[i..i + |sub|] == sub && r[i + |sub|..] == s[i + |pat|..];
      r
  }

  /** A name spelled with a replacement pattern is not inserted as written:
      filling `hi %name%` with the name `$&` gives back `hi %name%`. */
  lemma DollarNameReinsertsSlot()
    ensures ReplaceFirst("hi %name%", NAME_SLOT, "$&") == "hi %name%"
  {
    var t := "hi %name%";
    assert t[3..9] == NAME_SLOT;
    assert t[0] != '%' && t[1] != '%' && t[2] != '%';
    assert IndexOf(t, NAME_SLOT) == 3;
    assert t[..3] == "hi " && t[9..] == "";
    assert Substitute("$&", NAME_SLOT, "hi ", "") == NAME_SLOT + "";
  }

  /** The name as the template receives it (`String(name)`). */
  function NameText(name: Option<Json>, numberText: real -> string): string
    requires name.Some?
  {
    JsString(name.value, numberText)
  }

  function FillName(template: string, name: Option<Json>, numberText: real -> string): string
    requires name.Some?
  {
    ReplaceFirst(template, NAME_SLOT, NameText(name, numberText))
  }

  /** A name free of `$` lands verbatim where the template's first slot was,
      with the text around the slot kept. */
  lemma FillNameInserts(template: string, name: Option<Json>, numberText: real -> string)
    requires name.Some? && '$' !in NameText(name, numberText) && Contains(template, NAME_SLOT)
    ensures var i := IndexOf(template, NAME_SLOT);
            var r := FillName(template, name, numberText);
            && r[..i] == template[..i]
            && OccursAt(r, NameText(name, numberText), i)
            && r[i + |NameText(name, numberText)|..] == template[i + |NAME_SLOT|..]
  {
  }

  /** `getRandomWakeGreeting(name)`: an unnamed line for a falsy name, else a
      named line with its first slot filled. */
  function GetRandomWakeGreeting(lib: Library, name: Option<Json>, draw: nat,
                                 numberText: real -> string): (r: string)
    requires lib.Valid()
    ensures !OptJsTruthy(name) ==> r in lib.wakeUnnamed
    ensures OptJsTruthy(name) ==>
              exists t :: t in lib.wakeNamed && r == FillName(t, name, numberText)
  {
    if !OptJsTruthy(name) then Draw(lib.wakeUnnamed, draw)
    else FillName(Draw(lib.wakeNamed, draw), name, numberText)
  }

  /** `getRandomJoinGreeting(name)`: a falsy name draws an unknown-person
      line against its own history; otherwise a join template for the
      person, filled with the name. */
  function GetRandomJoinGreeting(lib: Library, h: Recents, name: Option<Json>, draw: nat,
                                 numberText: real -> string): (r: (string, Recents))
    requires lib.Valid()
    ensures !OptJsTruthy(name) ==>
              && r.0 in lib.unknownJoin
              && ((exists l :: l in lib.unknownJoin && l !in h.unknownJoin) ==> r.0 !in h.unknownJoin)
              && r.1 == h.(unknownJoin := PushRecent(h.unknownJoin, r.0, UNKNOWN_JOIN_RECENT_LIMIT))
    ensures OptJsTruthy(name) ==>
              var t := PickJoinTemplate(lib.join, h, NameKey(name, numberText), draw);
              r == (FillName(t.0, name, numberText), t.1)
  {
    if !OptJsTruthy(name) then
      var chosen := PickFresh(lib.unknownJoin, h.unknownJoin, draw);
      (chosen, h.(unknownJoin := PushRecent(h.unknownJoin, chosen, UNKNOWN_JOIN_RECENT_LIMIT)))
    else
      var t := PickJoinTemplate(lib.join, h, NameKey(name, numberText), draw);
      (FillName(t.0, name, numberText), t.1)
  }

  /** `getRandomDepartureGreeting(name)`: the known or unknown departure
      list, each avoiding its own history, the name filled in for a known
      person. */
  function GetRandomDepartureGreeting(lib: Library, h: Recents, name: Option<Json>, draw: nat,
                                      numberText: real -> string): (r: (string, Recents))
    requires lib.Valid()
    ensures !OptJsTruthy(name) ==>
              && r.0 in lib.unknownDeparture
              && ((exists l :: l in lib.unknownDeparture && l !in h.unknownDeparture) ==> r.0 !in h.unknownDeparture)
              && r.1 == h.(unknownDeparture := PushRecent(h.unknownDeparture, r.0, UNKNOWN_DEPARTURE_RECENT_LIMIT))
    ensures OptJsTruthy(name) ==>
              var t := PickFresh(lib.departure, h.departure, draw);
              && r.0 == FillName(t, name, numberText)
              && r.1 == h.(departure := PushRecent(h.departure, t, DEPARTURE_RECENT_LIMIT))
  {
    if !OptJsTruthy(name) then
      var chosen := PickFresh(lib.unknownDeparture, h.unknownDeparture, draw);
      (chosen, h.(unknownDeparture := PushRecent(h.unknownDeparture, chosen, UNKNOWN_DEPARTURE_RECENT_LIMIT)))
    else
      var t := PickFresh(lib.departure, h.departure, draw);
      (FillName(t, name, numberText), h.(departure := PushRecent(h.departure, t, DEPARTURE_RECENT_LIMIT)))
  }
}

=== FILE: js_conv.dfy ===
/** JavaScript's number conversions, as far as the model needs them. */
module JsConv {
  import opened Wrappers
  import opened Strs
  import opened JsonText
  import opened PyConv

  /** `Number.parseInt(s, 10)`: leading JavaScript whitespace is skipped, an
      optional sign is read, then the longest run of decimal digits; no digits
      gives `NaN` (`None`).  Anything after the digits is ignored. */
  function JsParseInt(s: string): (r: Option<int>)
    ensures (forall k :: 0 <= k < |s| ==> !IsDigit(s[k])) ==> r.None?
  {
    var t := TrimStartWith(s, IsSpace);
    var neg := |t| > 0 && t[0] == '-';
    var body := Unsigned(t);
    var k := DigitRun(body);
    if k == 0 then None
    else
      assert IsDigit(s[|s| - |body|]) by {
        assert body[0] == t[|t| - |body|];
      }
      var v := DigitsValue(body[..k]);
      Some(if neg then -v else v)
  }

  /** `Math.round(x)`: the nearest integer, halves rounded up. */
  function JsRound(x: real): (r: int)
    ensures r as real - 0.5 <= x < r as real + 0.5
  {
    (x + 0.5).Floor
  }

  /** `Math.max(a, b)` for numbers that are not NaN. */
  function MathMax(a: real, b: real): real { if a >= b then a else b }

  /** `Math.min(a, b)` for numbers that are not NaN. */
  function MathMin(a: real, b: real): real { if a <= b then a else b }

  /** Integers of this magnitude or more round to an infinity as IEEE 754
      doubles: 2^1024 - 2^970, the largest finite double plus half of its last
      unit. */
  const DOUBLE_OVERFLOW: int :=
    0xffff_ffff_ffff_fc00_0000_0000_0000_0000_0000_0000_0000_0000_0000_0000_0000_0000_0000_0000_0000_0000_0000_0000_0000_0000_0000_0000_0000_0000_0000_0000_0000_0000_0000_0000_0000_0000_0000_0000_0000_0000_0000_0000_0000_0000_0000_0000_0000_0000_0000_0000_0000_0000_0000_0000_0000_0000_0000_0000_0000_0000_0000_0000_0000_0000

  /** `Number.parseInt(s, 10)` when `Number.isFinite` accepts it: `None` for
      `NaN` and for a digit run too long to be a finite double. */
  function JsParseIntFinite(s: string): (r: Option<int>)
    ensures r.Some? <==> JsParseInt(s).Some? && -DOUBLE_OVERFLOW < JsParseInt(s).value < DOUBLE_OVERFLOW
    ensures r.Some? ==> r == JsParseInt(s)
  {
    var v := JsParseInt(s);
    if v.Some? && -DOUBLE_OVERFLOW < v.value < DOUBLE_OVERFLOW then v else None
  }

  /** The decimal text of a number within the double range is read back as
      that number. */
  lemma JsParseIntFiniteOfIntToStr(n: int)
    requires -DOUBLE_OVERFLOW < n < DOUBLE_OVERFLOW
    ensures JsParseIntFinite(IntToStr(n)) == Some(n)
  {
    JsParseIntOfIntToStr(n, "");
    assert IntToStr(n) + "" == IntToStr(n);
  }

  /** The decimal text of a number is read back by `parseInt` as that number,
      whatever non-digit text follows it. */
  lemma JsParseIntOfIntToStr(n: int, rest: string)
    requires rest == [] || !IsDigit(rest[0])
    ensures JsParseInt(IntToStr(n) + rest) == Some(n)
  {
    var m: nat := if n < 0 then -n else n;
    var ds := NatToStr(m);
    var sign := if n < 0 then "-" else "";
    var s := IntToStr(n) + rest;
    assert s == sign + ds + rest;
    SignedText(sign, ds, rest, s);
    DigitRunPrefix(ds, rest);
    DigitsValueOfNatToStr(m);
    JsParseIntDigits(s, ds, rest, n < 0);
  }

  /** The layout of an optionally negated digit run followed by other text. */
  lemma SignedText(sign: string, ds: string, rest: string, s: string)
    requires sign == "-" || sign == ""
    requires |ds| > 0 && AllDigits(ds)
    requires s == sign + ds + rest
    ensures TrimStartWith(s, IsSpace) == s
    ensures Unsigned(s) == ds + rest
    ensures s[0] == '-' <==> sign == "-"
  {
    if sign == "-" {
      assert s == "-" + (ds + rest);
    } else {
      assert s == ds + rest;
      assert IsDigit(s[0]);
    }
    TrimStartKept(s, IsSpace);
  }

  /** `parseInt` of text with no leading whitespace, whose unsigned part is a digit
      run followed by a non-digit. */
  lemma JsParseIntDigits(s: string, ds: string, rest: string, neg: bool)
    requires TrimStartWith(s, IsSpace) == s
    requires Unsigned(s) == ds + rest && (neg <==> |s| > 0 && s[0] == '-')
    requires ds != [] && AllDigits(ds) && DigitRun(ds + rest) == |ds|
    ensures JsParseInt(s) == Some(if neg then -DigitsValue(ds) else DigitsValue(ds))
  {
    assert (ds + rest)[..|ds|] == ds;
  }

  lemma {:induction false} DigitRunPrefix(ds: string, rest: string)
    requires AllDigits(ds)
    requires rest == [] || !IsDigit(rest[0])
    ensures DigitRun(ds + rest) == |ds|
    decreases |ds|
  {
    if |ds| > 0 {
      assert (ds + rest)[1..] == ds[1..] + rest;
      DigitRunPrefix(ds[1..], rest);
    } else {
      assert ds + rest == rest;
    }
  }

  // ------------------------------------------------------------ toFixed(2)

  /** A decimal digit. */
  function Digit(d: int): (c: char)
    requires 0 <= d < 10
    ensures IsDigit(c)
  {
    ('0' as int + d) as char
  }

  /** `toFixed(2)` of `n` cents: the whole part, a dot and two digits. */
  function CentsText(n: nat): (r: string)
    ensures |r| >= 4 && r[|r| - 3] == '.'
  {
    NatToStr(n / 100) + "." + [Digit(n / 10 % 10), Digit(n % 10)]
  }

  /** Reads `digits.dd` back as a number of cents. */
  function ParseCents(s: string): (r: Option<nat>)
    ensures r.Some? ==> |s| >= 4 && s[|s| - 3] == '.'
  {
    var k := DigitRun(s);
    if k == 0 || k + 3 != |s| || s[k] != '.' || !IsDigit(s[k + 1]) || !IsDigit(s[k + 2]) then None
    else Some(DigitsValue(s[..k]) * 100 + (s[k + 1] as int - '0' as int) * 10 + (s[k + 2] as int - '0' as int))
  }

  /** The printed amount reads back as the same number of cents. */
  lemma CentsTextRoundTrip(n: nat)
    ensures ParseCents(CentsText(n)) == Some(n)
  {
    var w := NatToStr(n / 100);
    var s := CentsText(n);
    assert s == w + ['.', Digit(n / 10 % 10), Digit(n % 10)];
    DigitRunOf(w, ['.', Digit(n / 10 % 10), Digit(n % 10)]);
    assert s[..|w|] == w;
    DigitsValueOfNatToStr(n / 100);
  }

  /** The number of cents `toFixed(2)` prints for a non-negative number below
      10^21: `x * 100` rounded half up. */
  function Cents(x: real): (n: nat)
    requires 0.0 <= x < 1000000000000000000000.0
    ensures n as real <= x * 100.0 + 0.5 < n as real + 1.0
  {
    (x * 100.0 + 0.5).Floor
  }

  /** `x.toFixed(2)` for `x >= 0`: the nearest multiple of 0.01, the larger one
      on a tie (section 21.1.3.3 of ECMA-262); from 10^21 on it prints the
      number itself. */
  function Fixed2Text(x: real, numberText: real -> string): (r: string)
    requires x >= 0.0
  {
    if x >= 1000000000000000000000.0 then numberText(x)
    else CentsText(Cents(x))
  }

  /** Below 10^21 the printed text reads back as the value rounded to the
      nearest cent. */
  lemma Fixed2TextReadsBack(x: real, numberText: real -> string)
    requires 0.0 <= x < 1000000000000000000000.0
    ensures ParseCents(Fixed2Text(x, numberText)) == Some(Cents(x))
  {
    CentsTextRoundTrip(Cents(x));
  }

}

=== FILE: json.dfy ===
/** A JSON value as the gateway and the browser code see a parsed request body or
    response: objects keep their fields in order (both Python dicts and JavaScript
    objects preserve insertion order), and a duplicated key resolves to its last
    occurrence, as both `json.loads` and `JSON.parse` do. */
module Json {
  import opened Wrappers

  datatype Json =
    | JNull
    | JBool(b: bool)
    | JNum(n: real)
    | JStr(s: string)
    | JArr(items: seq<Json>)
    | JObj(fields: seq<(string, Json)>)

  /** The value stored under `key` in a field list (last occurrence wins). */
  function Lookup(fields: seq<(string, Json)>, key: string): (r: Option<Json>)
    ensures r.None? <==> forall i :: 0 <= i < |fields| ==> fields[i].0 != key
    ensures r.Some? ==> exists i :: 0 <= i < |fields| && fields[i] == (key, r.value)
  {
    if |fields| == 0 then None
    else if fields[|fields| - 1].0 == key then Some(fields[|fields| - 1].1)
    else Lookup(fields[..|fields| - 1], key)
  }

  /** `obj.get(key)` / `obj[key]`: absent when `j` is not an object or lacks the key. */
  function Get(j: Json, key: string): Option<Json> {
    if j.JObj? then Lookup(j.fields, key) else None
  }

  /** Python truthiness (`bool(x)`). */
  predicate PyTruthy(j: Json) {
    match j
    case JNull => false
    case JBool(b) => b
    case JNum(n) => n != 0.0
    case JStr(s) => s != ""
    case JArr(items) => items != []
    case JObj(fields) => fields != []
  }

  /** JavaScript truthiness (`Boolean(x)`); NaN is not representable here. */
  predicate JsTruthy(j: Json) {
    match j
    case JNull => false
    case JBool(b) => b
    case JNum(n) => n != 0.0
    case JStr(s) => s != ""
    case JArr(_) => true
    case JObj(_) => true
  }

  /** An optional value is truthy when present and truthy (`undefined`/`None` is not). */
  predicate OptPyTruthy(o: Option<Json>) { o.Some? && PyTruthy(o.value) }
  predicate OptJsTruthy(o: Option<Json>) { o.Some? && JsTruthy(o.value) }

  /** JavaScript `String(v)` of a JSON value. */
  function JsString(j: Json, numberText: real -> string): string
    decreases j, 1, 0
  {
    match j
    case JNull => "null"
    case JBool(b) => if b then "true" else "false"
    case JNum(n) => numberText(n)
    case JStr(s) => s
    case JArr(_) => JoinItems(j, 0, numberText)
    case JObj(_) => "[object Object]"
  }

  /** `Array.prototype.join(',')` from item `i` on; `null` items print as
      nothing. */
  function JoinItems(arr: Json, i: nat, numberText: real -> string): string
    requires arr.JArr?
    decreases arr, 0, |arr.items| - i
  {
    if i >= |arr.items| then ""
    else
      var head := if arr.items[i].JNull? then "" else JsString(arr.items[i], numberText);
      if i + 1 == |arr.items| then head else head + "," + JoinItems(arr, i + 1, numberText)
  }

  /** `String(v || '')`: a missing or falsy value reads as the empty string. */
  function OrEmptyText(v: Option<Json>, numberText: real -> string): (r: string)
    ensures !OptJsTruthy(v) ==> r == ""
    ensures v.Some? && v.value.JStr? ==> r == v.value.s
  {
    if OptJsTruthy(v) then JsString(v.value, numberText) else ""
  }

  /** JavaScript `Number(v)`; `None` stands for NaN. Strings go through
      `parseNumber` (the `StringToNumber` grammar, which is not modelled here),
      arrays and objects through their `String` form, as `ToPrimitive` does. */
  function JsNumber(v: Option<Json>, numberText: real -> string,
                    parseNumber: string -> Option<real>): (r: Option<real>)
    ensures v.None? ==> r.None?
    ensures v == Some(JNull) ==> r == Some(0.0)
    ensures v.Some? && v.value.JNum? ==> r == Some(v.value.n)
  {
    match v
    case None => None
    case Some(JNull) => Some(0.0)
    case Some(JBool(b)) => Some(if b then 1.0 else 0.0)
    case Some(JNum(n)) => Some(n)
    case Some(JStr(s)) => parseNumber(s)
    case Some(j) => parseNumber(JsString(j, numberText))
  }

  /** `Number(v) || 0`: NaN reads as zero. */
  function JsNumberOrZero(v: Option<Json>, numberText: real -> string,
                          parseNumber: string -> Option<real>): (r: real)
    ensures JsNumber(v, numberText, parseNumber).None? ==> r == 0.0
    ensures JsNumber(v, numberText, parseNumber).Some? ==> r == JsNumber(v, numberText, parseNumber).value
  {
    match JsNumber(v, numberText, parseNumber)
    case None => 0.0
    case Some(x) => x
  }
}

=== FILE: json_text.dfy ===
/** The JSON text of the gateway's streaming records.  The gateway serialises each
    record with Python's `json.dumps` (default separators `", "` and `": "`,
    `ensure_ascii` on) and the browser-side client reads each line back with
    `JSON.parse`.  This module models the string-literal and integer grammars of
    RFC 8259 (sections 6 and 7) as the two libraries use them: the encoder writes
    exactly what `json.dumps` writes, the decoder accepts what `JSON.parse` accepts
    for a string literal or an integer. */
module JsonText {
  import opened Wrappers
  import opened Strs

  /** Printable ASCII, the only characters `json.dumps` emits with `ensure_ascii`. */
  predicate Printable(c: char) { ' ' <= c <= '~' }

  predicate AllPrintable(s: string) {
    forall i :: 0 <= i < |s| ==> Printable(s[i])
  }

  function HexDigit(d: int): (c: char)
    requires 0 <= d < 16
    ensures Printable(c)
  {
    if d < 10 then ('0' as int + d) as char else ('a' as int + d - 10) as char
  }

  /** The value of a hexadecimal digit of either case. */
  function HexValue(c: char): (r: Option<int>)
    ensures r.Some? ==> 0 <= r.value < 16
  {
    if '0' <= c <= '9' then Some(c as int - '0' as int)
    else if 'a' <= c <= 'f' then Some(c as int - 'a' as int + 10)
    else if 'A' <= c <= 'F' then Some(c as int - 'A' as int + 10)
    else None
  }

  lemma HexDigitValue(d: int)
    requires 0 <= d < 16
    ensures HexValue(HexDigit(d)) == Some(d)
  {
  }

  /** The four lower-case hex digits of a 16-bit code unit. */
  function Hex4(n: int): (r: string)
    requires 0 <= n < 0x1_0000
    ensures |r| == 4 && AllPrintable(r)
  {
    [HexDigit(n / 4096), HexDigit((n / 256) % 16), HexDigit((n / 16) % 16), HexDigit(n % 16)]
  }

  /** Reads four hex digits at the front of `s`. */
  function ReadHex4(s: string): (r: Option<int>)
    ensures r.Some? ==> |s| >= 4 && 0 <= r.value < 0x1_0000
  {
    if |s| < 4 then None
    else
      match (HexValue(s[0]), HexValue(s[1]), HexValue(s[2]), HexValue(s[3]))
      case (Some(a), Some(b), Some(c), Some(d)) => Some(a * 4096 + b * 256 + c * 16 + d)
      case _ => None
  }

  lemma ReadHex4RoundTrip(n: int, rest: string)
    requires 0 <= n < 0x1_0000
    ensures ReadHex4(Hex4(n) + rest) == Some(n)
  {
    var s := Hex4(n) + rest;
    var a, b, c, d := n / 4096, (n / 256) % 16, (n / 16) % 16, n % 16;
    HexDigitValue(a);
    HexDigitValue(b);
    HexDigitValue(c);
    HexDigitValue(d);
    assert s[0] == HexDigit(a) && s[1] == HexDigit(b);
    assert s[2] == HexDigit(c) && s[3] == HexDigit(d);
    HexPlaces(n);
  }

  /** A 16-bit value is the sum of its four hex digits times their place values. */
  lemma HexPlaces(n: int)
    requires 0 <= n < 0x1_0000
    ensures (n / 4096) * 4096 + ((n / 256) % 16) * 256 + ((n / 16) % 16) * 16 + n % 16 == n
  {
    var q1 := n / 16;
    var q2 := q1 / 16;
    var q3 := q2 / 16;
    assert n == q1 * 16 + n % 16;
    assert q1 == q2 * 16 + q1 % 16;
    assert q2 == q3 * 16 + q2 % 16;
    assert q2 == n / 256;
    assert q3 == n / 4096;
  }

  /** `\uXXXX` for one UTF-16 code unit. */
  function UEscape(n: int): (r: string)
    requires 0 <= n < 0x1_0000
    ensures |r| == 6 && AllPrintable(r) && r[0] == '\\' && r[1] == 'u'
  {
    "\\u" + Hex4(n)
  }

  /** How `json.dumps` writes one character inside a string literal. */
  function EscapeChar(c: char): (r: string)
    ensures 1 <= |r| && AllPrintable(r)
    ensures r[0] != '"'
  {
    if c == '"' then "\\\""
    else if c == '\\' then "\\\\"
    else if c == '\n' then "\\n"
    else if c == '\r' then "\\r"
    else if c == '\t' then "\\t"
    else if c == '\U{0008}' then "\\b"
    else if c == '\U{000C}' then "\\f"
    else if Printable(c) then [c]
    else if c as int < 0x1_0000 then UEscape(c as int)
    else
      var n := c as int - 0x1_0000;
      UEscape(0xD800 + n / 1024) + UEscape(0xDC00 + n % 1024)
  }

  /** The body of a string literal as `json.dumps` writes it. */
  function Escape(s: string): (r: string)
    ensures AllPrintable(r)
    ensures '\n' !in r
  {
    if |s| == 0 then "" else EscapeChar(s[0]) + Escape(s[1..])
  }

  /** Decodes one character of a string literal body at the front of `s`
      (which must not start with the closing quote), and how many characters it used. */
  function NextChar(s: string): (r: Option<(char, nat)>)
    requires |s| > 0 && s[0] != '"'
    ensures r.Some? ==> 1 <= r.value.1 <= |s|
  {
    if s[0] == '\\' then
      if |s| < 2 then None
      else if s[1] == '"' then Some(('"', 2))
      else if s[1] == '\\' then Some(('\\', 2))
      else if s[1] == '/' then Some(('/', 2))
      else if s[1] == 'b' then Some(('\U{0008}', 2))
      else if s[1] == 'f' then Some(('\U{000C}', 2))
      else if s[1] == 'n' then Some(('\n', 2))
      else if s[1] == 'r' then Some(('\r', 2))
      else if s[1] == 't' then Some(('\t', 2))
      else if s[1] == 'u' then
        match ReadHex4(s[2..])
        case None => None
        case Some(u) =>
          if 0xDC00 <= u <= 0xDFFF then None
          else if 0xD800 <= u <= 0xDBFF then
            if |s| >= 12 && s[6] == '\\' && s[7] == 'u' then
              match ReadHex4(s[8..])
              case Some(lo) =>
                if 0xDC00 <= lo <= 0xDFFF
                then Some(((0x1_0000 + (u - 0xD800) * 1024 + (lo - 0xDC00)) as char, 12))
                else None
              case None => None
            else None
          else Some((u as char, 6))
      else None
    else if s[0] < ' ' then None
    else Some((s[0], 1))
  }

  /** Reads a string literal body up to and including its closing quote;
      returns the decoded string and what follows the quote. */
  function ParseStringBody(s: string): (r: Option<(string, string)>)
    ensures r.Some? ==> |r.value.1| < |s|
    decreases |s|
  {
    if |s| == 0 then None
    else if s[0] == '"' then Some(("", s[1..]))
    else
      match NextChar(s)
      case None => None
      case Some((c, k)) =>
        match ParseStringBody(s[k..])
        case None => None
        case Some((t, rest)) => Some(([c] + t, rest))
  }

  lemma NextCharEscape(c: char, rest: string)
    ensures NextChar(EscapeChar(c) + rest) == Some((c, |EscapeChar(c)|))
  {
    if c == '"' || c == '\\' || c == '\n' || c == '\r' || c == '\t' || c == '\U{0008}'
       || c == '\U{000C}' || Printable(c) {
      var s := EscapeChar(c) + rest;
      assert s[0] == EscapeChar(c)[0];
      assert |EscapeChar(c)| == 2 ==> s[1] == EscapeChar(c)[1];
    } else if c as int < 0x1_0000 {
      NextCharBmp(c, rest);
    } else {
      NextCharAstral(c, rest);
    }
  }

  lemma NextCharBmp(c: char, rest: string)
    requires !(c == '"' || c == '\\' || c == '\n' || c == '\r' || c == '\t' || c == '\U{0008}'
               || c == '\U{000C}' || Printable(c))
    requires c as int < 0x1_0000
    ensures NextChar(EscapeChar(c) + rest) == Some((c, 6))
  {
    var s := EscapeChar(c) + rest;
    assert EscapeChar(c) == UEscape(c as int);
    assert s[0] == '\\' && s[1] == 'u';
    assert s[2..] == Hex4(c as int) + rest;
    ReadHex4RoundTrip(c as int, rest);
  }

  /** The UTF-16 surrogate pair of a supplementary-plane code point recombines to it. */
  lemma SurrogatePair(cv: int)
    requires 0x1_0000 <= cv <= 0x10_FFFF
    ensures 0xD800 <= 0xD800 + (cv - 0x1_0000) / 1024 <= 0xDBFF
    ensures 0xDC00 <= 0xDC00 + (cv - 0x1_0000) % 1024 <= 0xDFFF
    ensures 0x1_0000 + ((0xD800 + (cv - 0x1_0000) / 1024) - 0xD800) * 1024
            + ((0xDC00 + (cv - 0x1_0000) % 1024) - 0xDC00) == cv
  {
  }

  lemma NextCharAstral(c: char, rest: string)
    requires c as int >= 0x1_0000
    ensures NextChar(EscapeChar(c) + rest) == Some((c, 12))
  {
    var n := c as int - 0x1_0000;
    var hi := 0xD800 + n / 1024;
    var lo := 0xDC00 + n % 1024;
    SurrogatePair(c as int);
    EscapeAstral(c);
    PairLayout(hi, lo, rest);
    NextCharPair(UEscape(hi) + UEscape(lo) + rest, hi, lo, c);
  }

  lemma EscapeAstral(c: char)
    requires c as int >= 0x1_0000
    ensures EscapeChar(c) == UEscape(0xD800 + (c as int - 0x1_0000) / 1024)
                             + UEscape(0xDC00 + (c as int - 0x1_0000) % 1024)
  {
  }

  lemma PairLayout(hi: int, lo: int, rest: string)
    requires 0 <= hi < 0x1_0000 && 0 <= lo < 0x1_0000
    ensures var s := UEscape(hi) + UEscape(lo) + rest;
            |s| >= 12 && s[0] == '\\' && s[1] == 'u' && s[6] == '\\' && s[7] == 'u'
            && ReadHex4(s[2..]) == Some(hi) && ReadHex4(s[8..]) == Some(lo)
  {
    var e1 := UEscape(hi);
    var e2 := UEscape(lo);
    var s := e1 + e2 + rest;
    assert s[6] == e2[0] && s[7] == e2[1];
    assert s[2..] == Hex4(hi) + (e2 + rest);
    ReadHex4RoundTrip(hi, e2 + rest);
    assert s[8..] == Hex4(lo) + rest;
    ReadHex4RoundTrip(lo, rest);
  }

  lemma NextCharPair(s: string, hi: int, lo: int, c: char)
    requires |s| >= 12 && s[0] == '\\' && s[1] == 'u' && s[6] == '\\' && s[7] == 'u'
    requires ReadHex4(s[2..]) == Some(hi) && 0xD800 <= hi <= 0xDBFF
    requires ReadHex4(s[8..]) == Some(lo) && 0xDC00 <= lo <= 0xDFFF
    requires 0x1_0000 + (hi - 0xD800) * 1024 + (lo - 0xDC00) == c as int
    ensures NextChar(s) == Some((c, 12))
  {
  }

  /** The decoder reads back exactly what the encoder wrote, whatever follows. */
  lemma {:induction false} StringRoundTrip(s: string, rest: string)
    ensures ParseStringBody(Escape(s) + "\"" + rest) == Some((s, rest))
    decreases |s|
  {
    if |s| == 0 {
      assert Escape(s) + "\"" + rest == "\"" + rest;
    } else {
      var e := EscapeChar(s[0]);
      var tail := Escape(s[1..]) + "\"" + rest;
      assert Escape(s) + "\"" + rest == e + tail;
      NextCharEscape(s[0], tail);
      assert (e + tail)[|e|..] == tail;
      StringRoundTrip(s[1..], rest);
      assert [s[0]] + s[1..] == s;
    }
  }

  /** Decimal digits of a natural number, without leading zeros. */
  function NatToStr(n: nat): (r: string)
    ensures |r| >= 1 && (forall i :: 0 <= i < |r| ==> IsDigit(r[i]))
    ensures |r| > 1 ==> r[0] != '0'
  {
    if n < 10 then [('0' as int + n) as char]
    else NatToStr(n / 10) + [('0' as int + n % 10) as char]
  }

  /** `str(n)` for an integer. */
  function IntToStr(n: int): (r: string)
    ensures |r| >= 1 && AllPrintable(r)
  {
    if n < 0 then "-" + NatToStr(-n) else NatToStr(n)
  }

  /** The value of a string of decimal digits. */
  function DigitsValue(ds: string): (v: int)
    requires forall i :: 0 <= i < |ds| ==> IsDigit(ds[i])
    ensures v >= 0
  {
    if |ds| == 0 then 0
    else
      assert IsDigit(ds[|ds| - 1]);
      DigitsValue(ds[..|ds| - 1]) * 10 + (ds[|ds| - 1] as int - '0' as int)
  }

  lemma {:induction false} DigitsValueOfNatToStr(n: nat)
    ensures DigitsValue(NatToStr(n)) == n
  {
    if n >= 10 {
      var r := NatToStr(n);
      assert r[..|r| - 1] == NatToStr(n / 10);
      DigitsValueOfNatToStr(n / 10);
    }
  }

  /** Length of the run of decimal digits at the front of `s`. */
  function DigitRun(s: string): (k: nat)
    ensures k <= |s|
    ensures forall i :: 0 <= i < k ==> IsDigit(s[i])
    ensures k < |s| ==> !IsDigit(s[k])
  {
    if |s| == 0 || !IsDigit(s[0]) then 0 else 1 + DigitRun(s[1..])
  }

  /** Reads an RFC 8259 integer (`-?(0|[1-9][0-9]*)`) at the front of `s`;
      returns its value and what follows. */
  function ParseInt(s: string): (r: Option<(int, string)>)
    ensures r.Some? ==> |r.value.1| < |s|
  {
    var neg := |s| > 0 && s[0] == '-';
    var body := if neg then s[1..] else s;
    var k := DigitRun(body);
    if k == 0 || (k > 1 && body[0] == '0') then None
    else
      var v := DigitsValue(body[..k]);
      var n: int := if neg then -v else v;
      Some((n, body[k..]))
  }

  lemma {:induction false} IntRoundTrip(n: int, rest: string)
    requires rest == [] || !IsDigit(rest[0])
    ensures ParseInt(IntToStr(n) + rest) == Some((n, rest))
  {
    if n < 0 {
      NegativeRoundTrip(n, rest);
    } else {
      NonNegativeRoundTrip(n, rest);
    }
  }

  lemma {:induction false} NegativeRoundTrip(n: int, rest: string)
    requires n < 0
    requires rest == [] || !IsDigit(rest[0])
    ensures ParseInt(IntToStr(n) + rest) == Some((n, rest))
  {
    var ds := NatToStr(-n);
    BodyDigits(-n, rest);
    AppendAssoc("-", ds, rest);
    ParseIntSigned(ds + rest, |ds|);
  }

  lemma {:induction false} NonNegativeRoundTrip(n: nat, rest: string)
    requires rest == [] || !IsDigit(rest[0])
    ensures ParseInt(IntToStr(n) + rest) == Some((n, rest))
  {
    var ds := NatToStr(n);
    BodyDigits(n, rest);
    assert IntToStr(n) + rest == ds + rest;
    ParseIntUnsigned(ds + rest, |ds|);
  }

  lemma {:induction false} ParseIntUnsigned(body: string, k: nat)
    requires |body| > 0 && IsDigit(body[0]) && DigitRun(body) == k
    requires k > 1 ==> body[0] != '0'
    ensures ParseInt(body) == Some((DigitsValue(body[..k]), body[k..]))
  {
  }

  lemma {:induction false} ParseIntSigned(body: string, k: nat)
    requires |body| > 0 && IsDigit(body[0]) && DigitRun(body) == k
    requires k > 1 ==> body[0] != '0'
    ensures ParseInt("-" + body) == Some((-DigitsValue(body[..k]), body[k..]))
  {
    assert ("-" + body)[1..] == body;
  }

  /** The digits of `m` followed by a non-digit are read as `m`. */
  lemma {:induction false} BodyDigits(m: nat, rest: string)
    requires rest == [] || !IsDigit(rest[0])
    ensures var ds := NatToStr(m);
            && DigitRun(ds + rest) == |ds| && |ds| > 0
            && (ds + rest)[..|ds|] == ds && (ds + rest)[|ds|..] == rest
            && DigitsValue(ds) == m
            && (|ds| > 1 ==> ds[0] != '0')
  {
    var ds := NatToStr(m);
    DigitRunOf(ds, rest);
    assert (ds + rest)[..|ds|] == ds;
    assert (ds + rest)[|ds|..] == rest;
    DigitsValueOfNatToStr(m);
  }

  lemma {:induction false} DigitRunOf(ds: string, rest: string)
    requires forall i :: 0 <= i < |ds| ==> IsDigit(ds[i])
    requires rest == [] || !IsDigit(rest[0])
    ensures DigitRun(ds + rest) == |ds|
  {
    if |ds| == 0 {
      assert ds + rest == rest;
    } else {
      assert (ds + rest)[0] == ds[0];
      assert (ds + rest)[1..] == ds[1..] + rest;
      DigitRunOf(ds[1..], rest);
    }
  }
}

=== FILE: langfuse.dfy ===
/** The local half of the Langfuse tracing hook: reading the three settings out
    of the environment, and turning a turn timer's rows into the ordered timing
    summary that is attached to each trace. */
module Langfuse {
  import opened Wrappers
  import opened Strs
  import opened Json
  import opened ProcessEnv
  import opened Sorting

  // ------------------------------------------------------------ settings

  predicate IsQuote(c: char) { c == '\'' || c == '"' }

  /** `String(value || '').trim()` with one leading and one trailing quote
      removed (`/^['"]|['"]$/g`). */
  function NormalizeEnvValue(value: Option<string>): (r: string)
    ensures var t := Trim(ProcessEnv.Or(value, ""));
            |t| >= 2 ==> r == t[(if IsQuote(t[0]) then 1 else 0)..|t| - (if IsQuote(t[|t| - 1]) then 1 else 0)]
    ensures var t := Trim(ProcessEnv.Or(value, ""));
            |t| <= 1 ==> r == (if |t| == 1 && IsQuote(t[0]) then "" else t)
  {
    var t := Trim(ProcessEnv.Or(value, ""));
    var a := if |t| > 0 && IsQuote(t[0]) then t[1..] else t;
    var r := if |a| > 0 && IsQuote(a[|a| - 1]) then a[..|a| - 1] else a;
    r
  }

  /** A value wrapped in one pair of quotes loses exactly those quotes. */
  lemma QuotedValue(q: char, x: string, p: char)
    requires IsQuote(q) && IsQuote(p)
    ensures NormalizeEnvValue(Some([q] + x + [p])) == x
  {
    var t := [q] + x + [p];
    TrimWithStripped(t, IsSpace);
    assert t[1..] == x + [p];
    assert (x + [p])[..|x|] == x;
  }

  /** A value without surrounding quotes or blanks is kept as it is. */
  lemma PlainValue(x: string)
    requires |x| > 0 && !IsQuote(x[0]) && !IsQuote(x[|x| - 1])
    requires !IsSpace(x[0]) && !IsSpace(x[|x| - 1])
    ensures NormalizeEnvValue(Some(x)) == x
  {
    TrimWithStripped(x, IsSpace);
  }

  datatype LangfuseSettings = LangfuseSettings(publicKey: string, secretKey: string, baseUrl: string)

  /** The settings `getLangfuseClient` builds its client from; tracing is
      disabled (`None`) unless all three are non-empty after normalising. */
  function LangfuseSettingsOf(env: Env): (r: Option<LangfuseSettings>)
    ensures r.Some? <==>
              && NormalizeEnvValue(Var(env, "LANGFUSE_PUBLIC_KEY")) != ""
              && NormalizeEnvValue(Var(env, "LANGFUSE_SECRET_KEY")) != ""
              && NormalizeEnvValue(Var(env, "LANGFUSE_BASE_URL")) != ""
    ensures r.Some? ==> r.value.publicKey != "" && r.value.secretKey != "" && r.value.baseUrl != ""
    ensures r.Some? ==> && r.value.publicKey == NormalizeEnvValue(Var(env, "LANGFUSE_PUBLIC_KEY"))
                        && r.value.secretKey == NormalizeEnvValue(Var(env, "LANGFUSE_SECRET_KEY"))
                        && r.value.baseUrl == NormalizeEnvValue(Var(env, "LANGFUSE_BASE_URL"))
  {
    var publicKey := NormalizeEnvValue(Var(env, "LANGFUSE_PUBLIC_KEY"));
    var secretKey := NormalizeEnvValue(Var(env, "LANGFUSE_SECRET_KEY"));
    var baseUrl := NormalizeEnvValue(Var(env, "LANGFUSE_BASE_URL"));
    if publicKey == "" || secretKey == "" || baseUrl == "" then None
    else Some(LangfuseSettings(publicKey, secretKey, baseUrl))
  }

  // ------------------------------------------------------------ timing rows

  datatype Row = Row(event: string, atMs: real)

  /** `{ event: String(row?.event || ''), atMs: Number(row?.atMs) || 0 }`. */
  function RowOf(j: Json, numberText: real -> string, parseNumber: string -> Option<real>): Row {
    Row(OrEmptyText(Get(j, "event"), numberText), JsNumberOrZero(Get(j, "atMs"), numberText, parseNumber))
  }

  /** The filter: a named event at a positive time. */
  predicate Kept(r: Row) { r.event != "" && r.atMs > 0.0 }

  /** `r` is one of the converted raw rows. */
  predicate FromRaw(r: Row, raw: seq<Json>, numberText: real -> string, parseNumber: string -> Option<real>) {
    exists i :: 0 <= i < |raw| && RowOf(raw[i], numberText, parseNumber) == r
  }

  /** `rowsRaw.map(...).filter(...)`, in input order. */
  function KeptRows(raw: seq<Json>, numberText: real -> string, parseNumber: string -> Option<real>)
    : (r: seq<Row>)
    ensures |r| <= |raw|
    ensures forall k :: 0 <= k < |r| ==> Kept(r[k]) && FromRaw(r[k], raw, numberText, parseNumber)
    ensures forall i :: 0 <= i < |raw| && Kept(RowOf(raw[i], numberText, parseNumber)) ==>
              RowOf(raw[i], numberText, parseNumber) in r
    ensures |raw| == 1 ==> r == (if Kept(RowOf(raw[0], numberText, parseNumber)) then [RowOf(raw[0], numberText, parseNumber)] else [])
  {
    if |raw| == 0 then []
    else
      var row := RowOf(raw[0], numberText, parseNumber);
      var rest := KeptRows(raw[1..], numberText, parseNumber);
      KeptRowsCons(raw, rest, numberText, parseNumber);
      if Kept(row) then [row] + rest else rest
  }

  /** One more raw row in front: the kept list gains it when it passes. */
  lemma KeptRowsCons(raw: seq<Json>, rest: seq<Row>, numberText: real -> string,
                     parseNumber: string -> Option<real>)
    requires |raw| > 0 && |rest| <= |raw| - 1
    requires forall k :: 0 <= k < |rest| ==> Kept(rest[k]) && FromRaw(rest[k], raw[1..], numberText, parseNumber)
    requires forall i :: 0 <= i < |raw[1..]| && Kept(RowOf(raw[1..][i], numberText, parseNumber)) ==>
               RowOf(raw[1..][i], numberText, parseNumber) in rest
    ensures var row := RowOf(raw[0], numberText, parseNumber);
            var r := if Kept(row) then [row] + rest else rest;
            && |r| <= |raw|
            && (forall k :: 0 <= k < |r| ==> Kept(r[k]) && FromRaw(r[k], raw, numberText, parseNumber))
            && (forall i :: 0 <= i < |raw| && Kept(RowOf(raw[i], numberText, parseNumber)) ==>
                  RowOf(raw[i], numberText, parseNumber) in r)
            && (|raw| == 1 ==> r == (if Kept(row) then [row] else []))
  {
    var row := RowOf(raw[0], numberText, parseNumber);
    forall k | 0 <= k < |rest|
      ensures FromRaw(rest[k], raw, numberText, parseNumber)
    {
      var i :| 0 <= i < |raw[1..]| && RowOf(raw[1..][i], numberText, parseNumber) == rest[k];
      assert RowOf(raw[i + 1], numberText, parseNumber) == rest[k];
    }
    forall i | 0 < i < |raw| && Kept(RowOf(raw[i], numberText, parseNumber))
      ensures RowOf(raw[i], numberText, parseNumber) in rest
    {
      assert raw[i] == raw[1..][i - 1];
    }
    if Kept(row) {
      ConsAll(row, rest, r => Kept(r) && FromRaw(r, raw, numberText, parseNumber));
    }
  }

  /** Rows are converted and filtered one by one, so with the one-row case the
      kept list is the converted rows that pass the filter, in input order. */
  lemma {:induction false} KeptRowsAppend(a: seq<Json>, b: seq<Json>, numberText: real -> string,
                                          parseNumber: string -> Option<real>)
    ensures KeptRows(a + b, numberText, parseNumber)
         == KeptRows(a, numberText, parseNumber) + KeptRows(b, numberText, parseNumber)
    decreases |a|
  {
    if |a| == 0 {
      assert a + b == b;
    } else {
      assert (a + b)[1..] == a[1..] + b;
      assert (a + b)[0] == a[0];
      KeptRowsAppend(a[1..], b, numberText, parseNumber);
    }
  }

  /** The sort key of a row. */
  function AtMs(r: Row): real { r.atMs }

  /** Rows in ascending time order. */
  predicate SortedByAt(s: seq<Row>) { SortedBy(s, AtMs) }

  /** `rows.sort((a, b) => a.atMs - b.atMs)`. */
  function SortByAt(s: seq<Row>): (r: seq<Row>)
    ensures SortedByAt(r) && multiset(r) == multiset(s) && |r| == |s|
  {
    SortBy(s, AtMs)
  }

  // ------------------------------------------------------------ timing summary

  datatype TimedEvent = TimedEvent(event: string, offsetMs: real, deltaMs: real)

  datatype Timing = Timing(startedAt: real, endedAt: real, totalMs: real, rows: seq<Row>, events: seq<TimedEvent>)

  /** One event per row, named after it, with non-negative offset and gap. */
  predicate EventsFit(t: Timing) {
    && |t.events| == |t.rows|
    && (forall k :: 0 <= k < |t.events| ==>
          t.events[k].event == t.rows[k].event && t.events[k].offsetMs >= 0.0 && t.events[k].deltaMs >= 0.0)
  }

  function Max0(x: real): (r: real)
    ensures r >= 0.0 && r >= x && (r == 0.0 || r == x)
  {
    if x > 0.0 then x else 0.0
  }

  /** The `events` map: the offset from the start of the turn and the gap since
      the previous row (the first row measures from `prev`, the start). */
  function Events(rows: seq<Row>, startedAt: real, prev: real): (r: seq<TimedEvent>)
    ensures |r| == |rows|
    ensures forall i :: 0 <= i < |r| ==> r[i].offsetMs >= 0.0 && r[i].deltaMs >= 0.0
    ensures forall i :: 0 <= i < |r| ==>
              && r[i].event == rows[i].event
              && r[i].offsetMs == Max0(rows[i].atMs - startedAt)
              && r[i].deltaMs == Max0(rows[i].atMs - (if i == 0 then prev else rows[i - 1].atMs))
  {
    if |rows| == 0 then []
    else
      [TimedEvent(rows[0].event, Max0(rows[0].atMs - startedAt), Max0(rows[0].atMs - prev))]
        + Events(rows[1..], startedAt, rows[0].atMs)
  }

  function SumDeltas(es: seq<TimedEvent>): real {
    if |es| == 0 then 0.0 else es[0].deltaMs + SumDeltas(es[1..])
  }

  /** Over sorted rows the gaps add up: from `prev` to the last row. */
  lemma {:induction false} DeltasTelescope(rows: seq<Row>, startedAt: real, prev: real)
    requires |rows| > 0 && SortedByAt(rows) && prev <= rows[0].atMs
    ensures SumDeltas(Events(rows, startedAt, prev)) == rows[|rows| - 1].atMs - prev
  {
    if |rows| > 1 {
      DeltasTelescope(rows[1..], startedAt, rows[0].atMs);
    }
  }

  /** `turnTimer?.rows` when it is an array, else no rows. */
  function RawRows(turnTimer: Option<Json>): seq<Json> {
    if turnTimer.Some? && Get(turnTimer.value, "rows").Some? && Get(turnTimer.value, "rows").value.JArr? then
      Get(turnTimer.value, "rows").value.items
    else []
  }

  /** The timer's own start when it is a non-zero number (`Number(x) || ...`). */
  function GivenStart(turnTimer: Option<Json>, numberText: real -> string, parseNumber: string -> Option<real>): real {
    if turnTimer.Some? then JsNumberOrZero(Get(turnTimer.value, "startedAt"), numberText, parseNumber) else 0.0
  }

  /** No raw row survives the filter exactly when the kept list is empty. */
  lemma KeptRowsEmpty(raw: seq<Json>, numberText: real -> string, parseNumber: string -> Option<real>)
    ensures KeptRows(raw, numberText, parseNumber) == [] <==>
              forall i :: 0 <= i < |raw| ==> !Kept(RowOf(raw[i], numberText, parseNumber))
  {
    var kept := KeptRows(raw, numberText, parseNumber);
    if kept != [] {
      assert Kept(kept[0]) && FromRaw(kept[0], raw, numberText, parseNumber);
    }
  }

  /** Every row of the sorted list passed the filter. */
  lemma SortedKept(kept: seq<Row>)
    requires forall k :: 0 <= k < |kept| ==> Kept(kept[k])
    ensures forall k :: 0 <= k < |SortByAt(kept)| ==> Kept(SortByAt(kept)[k])
  {
    forall k | 0 <= k < |SortByAt(kept)|
      ensures Kept(SortByAt(kept)[k])
    {
      SortedMember(kept, AtMs, k);
    }
  }

  /** `t` summarises the kept rows `kept`: they appear in time order, the turn
      starts at `given` (or at the first row when that is 0) and ends at the
      last row, and every row has its event. */
  predicate SummaryOf(t: Timing, kept: seq<Row>, given: real) {
    && |t.rows| > 0
    && SortedByAt(t.rows)
    && multiset(t.rows) == multiset(kept)
    && (forall k :: 0 <= k < |t.rows| ==> Kept(t.rows[k]))
    && t.startedAt == (if given != 0.0 then given else t.rows[0].atMs)
    && t.endedAt == t.rows[|t.rows| - 1].atMs
    && (forall k :: 0 <= k < |t.rows| ==> t.rows[k].atMs <= t.endedAt)
    && t.totalMs == Max0(t.endedAt - t.startedAt)
    && EventsFit(t)
  }

  /** The summary of a non-empty list of kept rows. */
  function TimingOf(kept: seq<Row>, given: real): (t: Timing)
    requires |kept| > 0 && forall k :: 0 <= k < |kept| ==> Kept(kept[k])
    ensures SummaryOf(t, kept, given)
    ensures t.events == Events(t.rows, t.startedAt, t.startedAt)
  {
    SummaryOfSorted(kept, given);
    TimingOfSorted(SortByAt(kept), given)
  }

  /** The timing record over rows already in time order. */
  function TimingOfSorted(rows: seq<Row>, given: real): Timing
    requires |rows| > 0
  {
    var startedAt := if given != 0.0 then given else rows[0].atMs;
    var endedAt := rows[|rows| - 1].atMs;
    Timing(startedAt, endedAt, Max0(endedAt - startedAt), rows, Events(rows, startedAt, startedAt))
  }

  lemma SummaryOfSorted(kept: seq<Row>, given: real)
    requires |kept| > 0 && forall k :: 0 <= k < |kept| ==> Kept(kept[k])
    ensures SummaryOf(TimingOfSorted(SortByAt(kept), given), kept, given)
    ensures var t := TimingOfSorted(SortByAt(kept), given);
            t.events == Events(t.rows, t.startedAt, t.startedAt)
  {
    var rows := SortByAt(kept);
    var t := TimingOfSorted(rows, given);
    assert t.rows == rows;
    SortedKept(kept);
    SortedLast(rows);
    EventsOfRows(t);
  }

  lemma SortedLast(rows: seq<Row>)
    requires |rows| > 0 && SortedByAt(rows)
    ensures forall k :: 0 <= k < |rows| ==> rows[k].atMs <= rows[|rows| - 1].atMs
  {
  }

  lemma EventsOfRows(t: Timing)
    requires t.events == Events(t.rows, t.startedAt, t.startedAt)
    ensures EventsFit(t)
  {
  }

  /** `normalizeTiming`: `None` when no row survives the filter; otherwise the
      summary of the kept rows. */
  function NormalizeTiming(turnTimer: Option<Json>, numberText: real -> string,
                           parseNumber: string -> Option<real>): (r: Option<Timing>)
    ensures var raw := RawRows(turnTimer);
            r.None? <==> forall i :: 0 <= i < |raw| ==> !Kept(RowOf(raw[i], numberText, parseNumber))
    ensures r.Some? ==>
              SummaryOf(r.value, KeptRows(RawRows(turnTimer), numberText, parseNumber),
                        GivenStart(turnTimer, numberText, parseNumber))
    ensures r.Some? ==> r.value.events == Events(r.value.rows, r.value.startedAt, r.value.startedAt)
  {
    var raw := RawRows(turnTimer);
    var kept := KeptRows(raw, numberText, parseNumber);
    KeptRowsEmpty(raw, numberText, parseNumber);
    if |raw| == 0 || |kept| == 0 then None
    else Some(TimingOf(kept, GivenStart(turnTimer, numberText, parseNumber)))
  }

  /** When the timer gives no start of its own, the per-row gaps add up to the
      turn's total time. */
  lemma DefaultStartTelescopes(turnTimer: Option<Json>, numberText: real -> string,
                               parseNumber: string -> Option<real>)
    requires NormalizeTiming(turnTimer, numberText, parseNumber).Some?
    requires GivenStart(turnTimer, numberText, parseNumber) == 0.0
    ensures var t := NormalizeTiming(turnTimer, numberText, parseNumber).value;
            SumDeltas(t.events) == t.totalMs
  {
    var t := NormalizeTiming(turnTimer, numberText, parseNumber).value;
    TimingTelescopes(t, KeptRows(RawRows(turnTimer), numberText, parseNumber),
                     GivenStart(turnTimer, numberText, parseNumber));
  }

  /** With a given start no later than the first row, the same holds. */
  lemma EarlyStartTelescopes(turnTimer: Option<Json>, numberText: real -> string,
                             parseNumber: string -> Option<real>)
    requires NormalizeTiming(turnTimer, numberText, parseNumber).Some?
    requires NormalizeTiming(turnTimer, numberText, parseNumber).value.startedAt
             <= NormalizeTiming(turnTimer, numberText, parseNumber).value.rows[0].atMs
    ensures var t := NormalizeTiming(turnTimer, numberText, parseNumber).value;
            SumDeltas(t.events) == t.totalMs
  {
    var t := NormalizeTiming(turnTimer, numberText, parseNumber).value;
    TimingTelescopes(t, KeptRows(RawRows(turnTimer), numberText, parseNumber),
                     GivenStart(turnTimer, numberText, parseNumber));
  }

  /** A summary that starts no later than its first row has gaps adding up to
      its total time. */
  lemma TimingTelescopes(t: Timing, kept: seq<Row>, given: real)
    requires SummaryOf(t, kept, given) && t.events == Events(t.rows, t.startedAt, t.startedAt)
    requires t.startedAt <= t.rows[0].atMs
    ensures SumDeltas(t.events) == t.totalMs
  {
    DeltasTelescope(t.rows, t.startedAt, t.startedAt);
  }
}

=== FILE: line_reader.dfy ===
/** A newline-delimited reader over a chunked byte stream, as the realtime client
    reads `/llm/stream`: every chunk is appended to a buffer, the buffer is split on
    `"\n"`, every complete piece is handed to a line handler, and the last
    (unfinished) piece stays in the buffer.  The handler is a parameter, so the
    framing is proved once, independently of what a line means. */
module LineReader {
  import opened Strs

  /** The reader state between two chunks: the unfinished line and the handler's
      accumulated result. */
  datatype Reader<A> = Reader(buffer: string, acc: A)

  function HandleLines<A>(h: (A, string) -> A, acc: A, lines: seq<string>): A
    decreases |lines|
  {
    if |lines| == 0 then acc else HandleLines(h, h(acc, lines[0]), lines[1..])
  }

  /** One chunk: `buffer += chunk; lines = buffer.split('\n'); buffer = lines.pop()`,
      then every remaining line is handled in order. */
  function ConsumeChunk<A>(h: (A, string) -> A, rd: Reader<A>, chunk: string): (out: Reader<A>)
    ensures '\n' !in out.buffer
  {
    var ls := SplitOn(rd.buffer + chunk, '\n');
    Reader(ls[|ls| - 1], HandleLines(h, rd.acc, ls[..|ls| - 1]))
  }

  function ConsumeAll<A>(h: (A, string) -> A, rd: Reader<A>, chunks: seq<string>): Reader<A>
    decreases |chunks|
  {
    if |chunks| == 0 then rd else ConsumeAll(h, ConsumeChunk(h, rd, chunks[0]), chunks[1..])
  }

  /** The reference reader: one character at a time, a newline ends a line. */
  function FeedAll<A>(h: (A, string) -> A, rd: Reader<A>, s: string): Reader<A>
    decreases |s|
  {
    if |s| == 0 then rd
    else if s[0] == '\n' then FeedAll(h, Reader("", h(rd.acc, rd.buffer)), s[1..])
    else FeedAll(h, Reader(rd.buffer + [s[0]], rd.acc), s[1..])
  }

  lemma HandleLinesCons<A>(h: (A, string) -> A, acc: A, x: string, xs: seq<string>)
    ensures HandleLines(h, acc, [x] + xs) == HandleLines(h, h(acc, x), xs)
  {
    assert ([x] + xs)[0] == x;
    assert ([x] + xs)[1..] == xs;
  }

  lemma SplitAfterLine(b: string, s: string)
    requires '\n' !in b && |s| > 0 && s[0] == '\n'
    ensures SplitOn(b + s, '\n') == [b] + SplitOn(s[1..], '\n')
  {
    IndexAfterFree(b, s, '\n');
    assert (b + s)[..|b|] == b;
    assert (b + s)[|b| + 1..] == s[1..];
  }

  lemma SplitFree(b: string)
    requires '\n' !in b
    ensures SplitOn(b, '\n') == [b]
  {
  }

  /** The state a chunked read leaves after `s` was appended to the buffer. */
  function SplitState<A>(h: (A, string) -> A, rd: Reader<A>, s: string): Reader<A> {
    var ls := SplitOn(rd.buffer + s, '\n');
    Reader(ls[|ls| - 1], HandleLines(h, rd.acc, ls[..|ls| - 1]))
  }

  lemma {:induction false} FeedAllSplit<A>(h: (A, string) -> A, rd: Reader<A>, s: string)
    requires '\n' !in rd.buffer
    ensures FeedAll(h, rd, s) == SplitState(h, rd, s)
    decreases |s|
  {
    if |s| == 0 {
      assert rd.buffer + s == rd.buffer;
      SplitFree(rd.buffer);
    } else if s[0] == '\n' {
      var next := Reader("", h(rd.acc, rd.buffer));
      FeedAllSplit(h, next, s[1..]);
      SplitStateNewline(h, rd, s);
    } else {
      var next := Reader(rd.buffer + [s[0]], rd.acc);
      assert next.buffer + s[1..] == rd.buffer + s;
      FeedAllSplit(h, next, s[1..]);
    }
  }

  lemma SplitStateNewline<A>(h: (A, string) -> A, rd: Reader<A>, s: string)
    requires '\n' !in rd.buffer && |s| > 0 && s[0] == '\n'
    ensures SplitState(h, rd, s) == SplitState(h, Reader("", h(rd.acc, rd.buffer)), s[1..])
  {
    var tl := SplitOn(s[1..], '\n');
    var ls := SplitOn(rd.buffer + s, '\n');
    SplitAfterLine(rd.buffer, s);
    assert ls == [rd.buffer] + tl;
    assert "" + s[1..] == s[1..];
    LastAndInit(rd.buffer, tl);
    HandleLinesCons(h, rd.acc, rd.buffer, tl[..|tl| - 1]);
  }

  lemma LastAndInit(x: string, tl: seq<string>)
    requires |tl| >= 1
    ensures var ls := [x] + tl;
            ls[|ls| - 1] == tl[|tl| - 1] && ls[..|ls| - 1] == [x] + tl[..|tl| - 1]
  {
  }

  lemma {:induction false} FeedAllAppend<A>(h: (A, string) -> A, rd: Reader<A>, a: string, b: string)
    ensures FeedAll(h, rd, a + b) == FeedAll(h, FeedAll(h, rd, a), b)
    decreases |a|
  {
    if |a| == 0 {
      assert a + b == b;
    } else {
      assert (a + b)[0] == a[0];
      assert (a + b)[1..] == a[1..] + b;
      if a[0] == '\n' {
        FeedAllAppend(h, Reader("", h(rd.acc, rd.buffer)), a[1..], b);
      } else {
        FeedAllAppend(h, Reader(rd.buffer + [a[0]], rd.acc), a[1..], b);
      }
    }
  }

  /** Reading chunk by chunk is reading the concatenation character by character. */
  lemma {:induction false} ConsumeAllIsFeed<A>(h: (A, string) -> A, rd: Reader<A>, chunks: seq<string>)
    requires '\n' !in rd.buffer
    ensures ConsumeAll(h, rd, chunks) == FeedAll(h, rd, Concat(chunks))
    decreases |chunks|
  {
    if |chunks| > 0 {
      FeedAllSplit(h, rd, chunks[0]);
      var next := ConsumeChunk(h, rd, chunks[0]);
      ConsumeAllIsFeed(h, next, chunks[1..]);
      FeedAllAppend(h, rd, chunks[0], Concat(chunks[1..]));
    }
  }

  /** The result depends only on the characters received, not on where the
      network cut them into chunks. */
  lemma ChunkingInvariant<A>(h: (A, string) -> A, rd: Reader<A>, c1: seq<string>, c2: seq<string>)
    requires '\n' !in rd.buffer
    requires Concat(c1) == Concat(c2)
    ensures ConsumeAll(h, rd, c1) == ConsumeAll(h, rd, c2)
  {
    ConsumeAllIsFeed(h, rd, c1);
    ConsumeAllIsFeed(h, rd, c2);
  }

  lemma {:induction false} FeedNoNewline<A>(h: (A, string) -> A, rd: Reader<A>, s: string)
    requires '\n' !in s
    ensures FeedAll(h, rd, s) == Reader(rd.buffer + s, rd.acc)
    decreases |s|
  {
    if |s| == 0 {
      assert rd.buffer + s == rd.buffer;
    } else {
      assert s[0] in s;
      FeedNoNewline(h, Reader(rd.buffer + [s[0]], rd.acc), s[1..]);
      assert rd.buffer + [s[0]] + s[1..] == rd.buffer + s;
    }
  }

  /** A complete line at the front of the stream is handed to the handler whole. */
  lemma FeedLine<A>(h: (A, string) -> A, acc: A, line: string, more: string)
    requires '\n' !in line
    ensures FeedAll(h, Reader("", acc), line + "\n" + more)
            == FeedAll(h, Reader("", h(acc, line)), more)
  {
    assert line + "\n" + more == line + ("\n" + more);
    FeedAllAppend(h, Reader("", acc), line, "\n" + more);
    FeedNoNewline(h, Reader("", acc), line);
    assert "" + line == line;
    assert ("\n" + more)[0] == '\n';
    assert ("\n" + more)[1..] == more;
  }
}

=== FILE: llm_stream.dfy ===
/** The `/llm/stream` protocol between the realtime gateway and its Node client.
    The gateway cuts the generated text into fixed-size deltas and writes one JSON
    record per line (NDJSON): one `{"delta": ...}` line per delta, then a
    `{"done": true, "usage": ..., "model": ...}` line.  The client accumulates
    network chunks in a buffer, splits it on newlines, keeps the unfinished last
    piece, trims and parses every complete line, and finally parses the trimmed
    tail.  The central theorem, `StreamRoundTrip`, says that however the network
    splits the body, the client rebuilds the gateway's text, delta by delta. */
module LlmStream {
  import opened Wrappers
  import opened Strs
  import opened Json
  import opened JsonText
  import opened LineReader
  import opened PyConv

  /** Token counts reported by the model provider. */
  datatype Usage = Usage(promptTokenCount: int, candidatesTokenCount: int)

  /** One NDJSON line of the stream. */
  datatype StreamRecord =
    | DeltaRecord(delta: string)
    | DoneRecord(usage: Usage, model: string)

  const DELTA_KEY: string := "\"delta\": \""
  const DELTA_OPEN: string := "{" + DELTA_KEY
  const DONE_OPEN: string := "{" + DONE_HEAD
  const CANDIDATES_SEP: string := ", \"candidatesTokenCount\": "
  const MODEL_SEP: string := "}, \"model\": \""
  const RECORD_CLOSE: string := "\"}"

  /** `json.dumps(record)` for the two record shapes the gateway writes. */
  function EncodeRecord(r: StreamRecord): (line: string)
    ensures '\n' !in line
    ensures |line| >= 2 && line[0] == '{' && line[|line| - 1] == '}'
  {
    var inner := RecordInner(r);
    "{" + inner + "}"
  }

  /** The record between its braces. */
  function RecordInner(r: StreamRecord): (s: string)
    ensures '\n' !in s
  {
    match r
    case DeltaRecord(d) => DeltaInner(d)
    case DoneRecord(u, m) => DoneInner(u, m)
  }

  function DeltaInner(d: string): (s: string)
    ensures '\n' !in s
  {
    NoNewlineInPrintable(Escape(d));
    DELTA_KEY + Escape(d) + "\""
  }

  function DoneInner(u: Usage, m: string): (s: string)
    ensures '\n' !in s
  {
    var p := IntToStr(u.promptTokenCount);
    var c := IntToStr(u.candidatesTokenCount);
    var e := Escape(m);
    NoNewlineInPrintable(e);
    NoNewlineInPrintable(p);
    NoNewlineInPrintable(c);
    NoNewlineJoin5(DONE_HEAD, p, CANDIDATES_SEP, c, MODEL_SEP);
    DONE_HEAD + p + CANDIDATES_SEP + c + MODEL_SEP + e + "\""
  }

  const DONE_HEAD: string := "\"done\": true, \"usage\": {\"promptTokenCount\": "

  lemma NoNewlineJoin5(a: string, b: string, c: string, d: string, e: string)
    requires '\n' !in b && '\n' !in d
    requires a == DONE_HEAD && c == CANDIDATES_SEP && e == MODEL_SEP
    ensures '\n' !in a + b + c + d + e
  {
    assert AllPrintable(DONE_HEAD) && AllPrintable(CANDIDATES_SEP) && AllPrintable(MODEL_SEP);
    NoNewlineInPrintable(a);
    NoNewlineInPrintable(c);
    NoNewlineInPrintable(e);
    NoNewlineCat(a, b);
    NoNewlineCat(a + b, c);
    NoNewlineCat(a + b + c, d);
    NoNewlineCat(a + b + c + d, e);
  }

  lemma NoNewlineCat(x: string, y: string)
    requires '\n' !in x && '\n' !in y
    ensures '\n' !in x + y
  {
  }

  lemma NoNewlineInPrintable(s: string)
    requires AllPrintable(s)
    ensures '\n' !in s
  {
  }

  /** `JSON.parse(line)` restricted to the two record shapes; any other text is
      treated as a line that fails to parse. */
  function DecodeRecord(line: string): (r: Option<StreamRecord>)
    ensures r.Some? && r.value.DeltaRecord? ==> StartsWith(line, DELTA_OPEN)
    ensures r.Some? && r.value.DoneRecord? ==> StartsWith(line, DONE_OPEN) && !StartsWith(line, DELTA_OPEN)
    ensures !StartsWith(line, DELTA_OPEN) && !StartsWith(line, DONE_OPEN) ==> r.None?
  {
    if StartsWith(line, DELTA_OPEN) then DecodeDeltaBody(line[|DELTA_OPEN|..])
    else if StartsWith(line, DONE_OPEN) then DecodeDoneBody(line[|DONE_OPEN|..])
    else None
  }

  function DecodeDeltaBody(s: string): (r: Option<StreamRecord>)
    ensures r.Some? ==> r.value.DeltaRecord?
  {
    match ParseStringBody(s)
    case Some((d, rest)) => if rest == "}" then Some(DeltaRecord(d)) else None
    case None => None
  }

  function DecodeDoneBody(s: string): (r: Option<StreamRecord>)
    ensures r.Some? ==> r.value.DoneRecord?
  {
    match ParseInt(s)
    case None => None
    case Some((p, r1)) => DecodeAfterPrompt(p, r1)
  }

  function DecodeAfterPrompt(p: int, r1: string): (r: Option<StreamRecord>)
    ensures r.Some? ==> r.value.DoneRecord?
  {
    if !StartsWith(r1, CANDIDATES_SEP) then None
    else
      match ParseInt(r1[|CANDIDATES_SEP|..])
      case None => None
      case Some((c, r2)) => DecodeAfterCandidates(p, c, r2)
  }

  function DecodeAfterCandidates(p: int, c: int, r2: string): (r: Option<StreamRecord>)
    ensures r.Some? ==> r.value.DoneRecord? && r.value.usage == Usage(p, c)
  {
    if !StartsWith(r2, MODEL_SEP) then None
    else
      match ParseStringBody(r2[|MODEL_SEP|..])
      case None => None
      case Some((m, r3)) => if r3 == "}" then Some(DoneRecord(Usage(p, c), m)) else None
  }

  /** Every record the gateway writes is read back as that record. */
  lemma DecodeEncode(r: StreamRecord)
    ensures DecodeRecord(EncodeRecord(r)) == Some(r)
  {
    match r
    case DeltaRecord(d) => DecodeDelta(d);
    case DoneRecord(u, m) => DecodeDone(u, m);
  }

  lemma DecodeDelta(d: string)
    ensures DecodeRecord(EncodeRecord(DeltaRecord(d))) == Some(DeltaRecord(d))
  {
    var body := Escape(d) + "\"" + "}";
    DeltaLayout(d);
    DeltaLineDispatch(DELTA_OPEN + body, body);
    StringRoundTrip(d, "}");
  }

  lemma DeltaLayout(d: string)
    ensures EncodeRecord(DeltaRecord(d)) == DELTA_OPEN + (Escape(d) + "\"" + "}")
  {
    var e := Escape(d);
    AppendAssoc(DELTA_KEY, e, "\"");
    AppendAssoc("{", DELTA_KEY, e + "\"");
    AppendAssoc(DELTA_OPEN, e + "\"", "}");
  }

  lemma DeltaLineDispatch(line: string, body: string)
    requires line == DELTA_OPEN + body
    ensures DecodeRecord(line) == DecodeDeltaBody(body)
  {
    assert StartsWith(line, DELTA_OPEN);
    assert line[|DELTA_OPEN|..] == body;
  }

  lemma DecodeDone(u: Usage, m: string)
    ensures DecodeRecord(EncodeRecord(DoneRecord(u, m))) == Some(DoneRecord(u, m))
  {
    var ms := Escape(m) + "\"" + "}";
    var r1 := CANDIDATES_SEP + IntToStr(u.candidatesTokenCount) + (MODEL_SEP + ms);
    var body := IntToStr(u.promptTokenCount) + r1;
    DoneLayout(u, m);
    DoneLineDispatch(EncodeRecord(DoneRecord(u, m)), body);
    IntRoundTrip(u.promptTokenCount, r1);
    DecodeAfterPromptOk(u, m);
  }

  /** Where the fields of a done line sit. */
  lemma DoneLayout(u: Usage, m: string)
    ensures EncodeRecord(DoneRecord(u, m))
            == DONE_OPEN + (IntToStr(u.promptTokenCount)
                            + (CANDIDATES_SEP + IntToStr(u.candidatesTokenCount)
                               + (MODEL_SEP + (Escape(m) + "\"" + "}"))))
  {
    Regroup(DONE_HEAD, IntToStr(u.promptTokenCount), CANDIDATES_SEP,
            IntToStr(u.candidatesTokenCount), MODEL_SEP, Escape(m));
  }

  lemma Regroup(a: string, b: string, c: string, d: string, e: string, f: string)
    ensures "{" + (a + b + c + d + e + f + "\"") + "}"
            == ("{" + a) + (b + (c + d + (e + (f + "\"" + "}"))))
  {
  }

  lemma DoneLineDispatch(line: string, body: string)
    requires line == DONE_OPEN + body
    ensures DecodeRecord(line) == DecodeDoneBody(body)
  {
    assert line[3] == 'o' && DELTA_OPEN[3] == 'e';
    assert StartsWith(line, DONE_OPEN);
    assert line[|DONE_OPEN|..] == body;
  }

  lemma DecodeAfterPromptOk(u: Usage, m: string)
    ensures DecodeAfterPrompt(u.promptTokenCount,
                              CANDIDATES_SEP + IntToStr(u.candidatesTokenCount)
                              + (MODEL_SEP + (Escape(m) + "\"" + "}")))
            == Some(DoneRecord(u, m))
  {
    var ms := Escape(m) + "\"" + "}";
    var r2 := MODEL_SEP + ms;
    AfterPromptStep(u.promptTokenCount, u.candidatesTokenCount, r2);
    AfterCandidatesOk(u, m);
  }

  lemma AfterPromptStep(p: int, c: int, r2: string)
    requires r2 == [] || !IsDigit(r2[0])
    ensures DecodeAfterPrompt(p, CANDIDATES_SEP + IntToStr(c) + r2) == DecodeAfterCandidates(p, c, r2)
  {
    var r1 := CANDIDATES_SEP + IntToStr(c) + r2;
    assert StartsWith(r1, CANDIDATES_SEP);
    assert r1[|CANDIDATES_SEP|..] == IntToStr(c) + r2;
    IntRoundTrip(c, r2);
  }

  lemma AfterCandidatesOk(u: Usage, m: string)
    ensures DecodeAfterCandidates(u.promptTokenCount, u.candidatesTokenCount,
                                  MODEL_SEP + (Escape(m) + "\"" + "}"))
            == Some(DoneRecord(u, m))
  {
    var ms := Escape(m) + "\"" + "}";
    var r2 := MODEL_SEP + ms;
    assert StartsWith(r2, MODEL_SEP);
    assert r2[|MODEL_SEP|..] == ms;
    StringRoundTrip(m, "}");
  }

  const DEFAULT_CHUNK_SIZE: int := 96
  const MIN_CHUNK_SIZE: int := 24
  const MAX_CHUNK_SIZE: int := 320

  /** The delta size the gateway uses for a request's `streamChunkSize`. */
  function StreamChunkSize(raw: Option<Json>): (cs: int)
    ensures MIN_CHUNK_SIZE <= cs <= MAX_CHUNK_SIZE
    ensures !OptPyTruthy(raw) ==> cs == DEFAULT_CHUNK_SIZE
    ensures raw.Some? && PyTruthy(raw.value) && PyInt(raw.value).None? ==> cs == DEFAULT_CHUNK_SIZE
    ensures raw.Some? && PyTruthy(raw.value) && PyInt(raw.value).Some? ==>
              var n := PyInt(raw.value).value;
              (MIN_CHUNK_SIZE <= n <= MAX_CHUNK_SIZE ==> cs == n)
              && (n < MIN_CHUNK_SIZE ==> cs == MIN_CHUNK_SIZE)
              && (n > MAX_CHUNK_SIZE ==> cs == MAX_CHUNK_SIZE)
  {
    var requested :=
      if !OptPyTruthy(raw) then DEFAULT_CHUNK_SIZE
      else match PyInt(raw.value)
           case Some(n) => n
           case None => DEFAULT_CHUNK_SIZE;
    if requested < MIN_CHUNK_SIZE then MIN_CHUNK_SIZE
    else if requested > MAX_CHUNK_SIZE then MAX_CHUNK_SIZE
    else requested
  }

  /** The deltas `text[idx:idx + cs]` for `idx` in `range(0, len(text), cs)`. */
  function Deltas(text: string, cs: int): (ds: seq<string>)
    requires cs >= 1
    ensures Concat(ds) == text
    ensures forall i :: 0 <= i < |ds| ==> 1 <= |ds[i]| <= cs
    ensures forall i :: 0 <= i < |ds| - 1 ==> |ds[i]| == cs
    decreases |text|
  {
    if |text| == 0 then []
    else if |text| <= cs then [text]
    else
      var rest := Deltas(text[cs..], cs);
      assert text == text[..cs] + text[cs..];
      ConcatCons(text[..cs], rest);
      [text[..cs]] + rest
  }

  lemma ConcatCons(x: string, xs: seq<string>)
    ensures Concat([x] + xs) == x + Concat(xs)
  {
    assert ([x] + xs)[1..] == xs;
  }

  /** The NDJSON lines for a list of deltas. */
  function DeltaLines(ds: seq<string>): string {
    if |ds| == 0 then "" else EncodeRecord(DeltaRecord(ds[0])) + "\n" + DeltaLines(ds[1..])
  }

  /** The full response body of `/llm/stream` for a successful generation. */
  function StreamBody(text: string, cs: int, usage: Usage, model: string): string
    requires cs >= 1
  {
    DeltaLines(Deltas(text, cs)) + EncodeRecord(DoneRecord(usage, model)) + "\n"
  }

  /** What the client has accumulated: the text, every delta handed to `onChunk`,
      the last usage and model seen (`None` stands for the initial empty object). */
  datatype Acc = Acc(text: string, delivered: seq<string>, usage: Option<Usage>, model: string)

  /** Handles one line (or the tail): trim, skip blanks and unparseable lines,
      and absorb a parsed record. */
  function HandleLine(acc: Acc, raw: string): Acc {
    var line := Trim(raw);
    if line == "" then acc
    else
      match DecodeRecord(line)
      case None => acc
      case Some(r) => Absorb(acc, r)
  }

  /** A non-empty delta is appended to the text and handed to `onChunk`; a done
      record replaces the usage and, when it names one, the model. */
  function Absorb(acc: Acc, r: StreamRecord): Acc {
    match r
    case DeltaRecord(d) =>
      if d != "" then acc.(text := acc.text + d, delivered := acc.delivered + [d]) else acc
    case DoneRecord(u, m) =>
      acc.(usage := Some(u), model := if m != "" then m else acc.model)
  }

  function InitialReader(requestModel: string): Reader<Acc> {
    Reader("", Acc("", [], None, requestModel))
  }

  /** The client's accumulated result for a body delivered as `chunks`: every
      chunk is consumed, then the trimmed tail is handled like a line. */
  function ReadStream(chunks: seq<string>, requestModel: string): Acc {
    var rd := ConsumeAll(HandleLine, InitialReader(requestModel), chunks);
    HandleLine(rd.acc, rd.buffer)
  }

  /** The client's result depends only on the body, not on how the network cut
      it into chunks. */
  lemma ReadStreamChunkingInvariant(c1: seq<string>, c2: seq<string>, requestModel: string)
    requires Concat(c1) == Concat(c2)
    ensures ReadStream(c1, requestModel) == ReadStream(c2, requestModel)
  {
    ChunkingInvariant(HandleLine, InitialReader(requestModel), c1, c2);
  }

  /** A record line, trimmed, is the record's own text. */
  lemma HandleRecord(acc: Acc, r: StreamRecord)
    ensures HandleLine(acc, EncodeRecord(r)) == Absorb(acc, r)
  {
    var line := EncodeRecord(r);
    TrimWithStripped(line, IsSpace);
    DecodeEncode(r);
  }

  /** Reading the lines of non-empty deltas appends exactly those deltas. */
  lemma {:induction false} FeedDeltaLines(acc: Acc, ds: seq<string>, more: string)
    requires forall i :: 0 <= i < |ds| ==> ds[i] != ""
    ensures FeedAll(HandleLine, Reader("", acc), DeltaLines(ds) + more)
            == FeedAll(HandleLine, Reader("", acc.(text := acc.text + Concat(ds),
                                                   delivered := acc.delivered + ds)), more)
    decreases |ds|
  {
    if |ds| == 0 {
      assert acc.(text := acc.text + Concat(ds), delivered := acc.delivered + ds) == acc;
      assert DeltaLines(ds) + more == more;
    } else {
      var acc1 := acc.(text := acc.text + ds[0], delivered := acc.delivered + [ds[0]]);
      FeedDeltaLine(acc, ds, more);
      FeedDeltaLines(acc1, ds[1..], more);
      AccAppend(acc, ds);
    }
  }

  lemma FeedDeltaLine(acc: Acc, ds: seq<string>, more: string)
    requires |ds| > 0 && ds[0] != ""
    ensures FeedAll(HandleLine, Reader("", acc), DeltaLines(ds) + more)
            == FeedAll(HandleLine, Reader("", acc.(text := acc.text + ds[0],
                                                   delivered := acc.delivered + [ds[0]])),
                       DeltaLines(ds[1..]) + more)
  {
    var line := EncodeRecord(DeltaRecord(ds[0]));
    var rest := DeltaLines(ds[1..]) + more;
    assert DeltaLines(ds) + more == line + "\n" + rest;
    FeedLine(HandleLine, acc, line, rest);
    HandleRecord(acc, DeltaRecord(ds[0]));
  }

  lemma AccAppend(acc: Acc, ds: seq<string>)
    requires |ds| > 0
    ensures var acc1 := acc.(text := acc.text + ds[0], delivered := acc.delivered + [ds[0]]);
            acc1.(text := acc1.text + Concat(ds[1..]), delivered := acc1.delivered + ds[1..])
            == acc.(text := acc.text + Concat(ds), delivered := acc.delivered + ds)
  {
    TextAppend(acc.text, ds);
    DeliveredAppend(acc.delivered, ds);
  }

  /** The text grows by the first delta, then by the rest. */
  lemma TextAppend(t: string, ds: seq<string>)
    requires |ds| > 0
    ensures (t + ds[0]) + Concat(ds[1..]) == t + Concat(ds)
  {
    AppendAssoc(t, ds[0], Concat(ds[1..]));
  }

  /** The delivered list grows by the first delta, then by the rest. */
  lemma DeliveredAppend(d: seq<string>, ds: seq<string>)
    requires |ds| > 0
    ensures (d + [ds[0]]) + ds[1..] == d + ds
  {
    assert [ds[0]] + ds[1..] == ds;
  }

  /** Whatever chunk size the gateway uses and however the network splits the
      body, the client rebuilds the gateway's text, hands `onChunk` exactly the
      gateway's deltas in order, and ends with the gateway's usage and model
      (the request's model when the gateway's model name is empty). */
  lemma StreamRoundTrip(text: string, cs: int, usage: Usage, model: string,
                        chunks: seq<string>, requestModel: string)
    requires cs >= 1
    requires Concat(chunks) == StreamBody(text, cs, usage, model)
    ensures var acc := ReadStream(chunks, requestModel);
            && acc.text == text
            && acc.delivered == Deltas(text, cs)
            && acc.usage == Some(usage)
            && acc.model == (if model != "" then model else requestModel)
  {
    var ds := Deltas(text, cs);
    var acc1 := Acc(text, ds, None, requestModel);
    ConsumeAllIsFeed(HandleLine, InitialReader(requestModel), chunks);
    FeedBody(text, cs, usage, model, requestModel);
    assert Trim("") == "";
  }

  /** The whole body, read character by character, leaves an empty buffer and the
      done record absorbed after every delta. */
  lemma FeedBody(text: string, cs: int, usage: Usage, model: string, requestModel: string)
    requires cs >= 1
    ensures FeedAll(HandleLine, InitialReader(requestModel), StreamBody(text, cs, usage, model))
            == Reader("", Absorb(Acc(text, Deltas(text, cs), None, requestModel),
                                 DoneRecord(usage, model)))
  {
    var ds := Deltas(text, cs);
    var acc0 := Acc("", [], None, requestModel);
    var done := EncodeRecord(DoneRecord(usage, model));
    BodyLayout(text, cs, usage, model);
    FeedDeltaLines(acc0, ds, done + "\n");
    FreshAccFed(ds, text, requestModel);
    FeedDone(Acc(text, ds, None, requestModel), usage, model);
  }

  lemma BodyLayout(text: string, cs: int, usage: Usage, model: string)
    requires cs >= 1
    ensures StreamBody(text, cs, usage, model)
            == DeltaLines(Deltas(text, cs)) + (EncodeRecord(DoneRecord(usage, model)) + "\n")
  {
  }

  lemma FreshAccFed(ds: seq<string>, text: string, requestModel: string)
    requires Concat(ds) == text
    ensures var acc0 := Acc("", [], None, requestModel);
            acc0.(text := acc0.text + Concat(ds), delivered := acc0.delivered + ds)
            == Acc(text, ds, None, requestModel)
  {
    assert "" + text == text;
    assert [] + ds == ds;
  }

  /** The done line, read last, is absorbed and leaves an empty buffer. */
  lemma FeedDone(acc: Acc, usage: Usage, model: string)
    ensures FeedAll(HandleLine, Reader("", acc), EncodeRecord(DoneRecord(usage, model)) + "\n")
            == Reader("", Absorb(acc, DoneRecord(usage, model)))
  {
    var done := EncodeRecord(DoneRecord(usage, model));
    assert done + "\n" == done + "\n" + "";
    FeedLine(HandleLine, acc, done, "");
    HandleRecord(acc, DoneRecord(usage, model));
  }
}

=== FILE: manual_beats.dfy ===
/** The operator's manual turn panel: the single-beat form and the pasted
    script, each turned into a `{ beats: [...] }` payload for the two heads or
    rejected with the message the panel shows. */
module ManualBeats {
  import opened Wrappers
  import opened JsConv
  import opened Strs
  import opened Json
  import opened SpeechText
  import TurnScript

  // ------------------------------------------------------------ text

  /** `cleanText(value)`: line breaks unified, control characters removed,
      whitespace runs collapsed and the ends trimmed.  The result is the words
      of the control-free text joined by single spaces; unifying the line
      breaks changes no word. */
  function CleanText(s: string): (r: string)
    ensures Normalized(r) && NoControl(r)
    ensures r == Join(SpaceWords(RemoveControls(s)), " ")
  {
    var noControls := RemoveControls(ReplaceCr(ReplaceCrLf(s)));
    NormalizeAvoids(noControls, IsStrippedControl);
    WordsIgnoreBreaks(s);
    NormalizeWs(noControls)
  }

  /** Text that is already clean passes unchanged. */
  lemma CleanTextFixed(s: string)
    requires Normalized(s) && NoControl(s)
    ensures CleanText(s) == s
  {
    assert '\r' !in s by {
      if '\r' in s {
        var i :| 0 <= i < |s| && s[i] == '\r';
        assert IsSpace(s[i]);
      }
    }
    assert ReplaceCr(s) == s;
    NormalizedIffFixed(s);
  }

  /** Cleaning twice is cleaning once. */
  lemma CleanTextIdempotent(s: string)
    ensures CleanText(CleanText(s)) == CleanText(s)
  {
    CleanTextFixed(CleanText(s));
  }

  // ------------------------------------------------------------ delay

  const MIN_DELAY_MS: int := 120
  const MAX_DELAY_MS: int := 8000
  const DELAY_ERROR: string := "Delay must be a number between 120 and 8000"

  /** `parseDelayMs(value)`: nothing for a missing or empty value, an error
      for text that is not a finite number, otherwise the rounded number
      clamped to [120, 8000]. `parseNumber` is `Number` on a string, with
      `None` for NaN and the infinities. */
  function ParseDelayMs(value: Option<string>, parseNumber: string -> Option<real>): (r: Result<Option<int>, string>)
    ensures value.None? || value == Some("") ==> r == Success(None)
    ensures value.Some? && value.value != "" && parseNumber(value.value).None? ==> r == Failure(DELAY_ERROR)
    ensures value.Some? && value.value != "" && parseNumber(value.value).Some? ==>
              && r.Success? && r.value.Some?
              && MIN_DELAY_MS <= r.value.value <= MAX_DELAY_MS
              && var x := parseNumber(value.value).value;
                 && (MIN_DELAY_MS as real <= x <= MAX_DELAY_MS as real ==> (r.value.value as real - x) * (r.value.value as real - x) <= 0.25)
                 && (x < MIN_DELAY_MS as real ==> r.value.value == MIN_DELAY_MS)
                 && (x >= MAX_DELAY_MS as real ==> r.value.value == MAX_DELAY_MS)
  {
    if value.None? || value.value == "" then Success(None)
    else match parseNumber(value.value)
      case None => Failure(DELAY_ERROR)
      case Some(x) =>
        var n := JsRound(x);
        var capped := if MAX_DELAY_MS <= n then MAX_DELAY_MS else n;
        Success(Some(if MIN_DELAY_MS >= capped then MIN_DELAY_MS else capped))
  }

  /** A whole number of milliseconds inside the range is kept as it is. */
  lemma DelayInRangeKept(value: string, n: int, parseNumber: string -> Option<real>)
    requires value != "" && parseNumber(value) == Some(n as real)
    requires MIN_DELAY_MS <= n <= MAX_DELAY_MS
    ensures ParseDelayMs(Some(value), parseNumber) == Success(Some(n))
  {
    assert JsRound(n as real) == n;
  }

  // ------------------------------------------------------------ the single-beat form

  /** The emoji cues a beat may carry. */
  const SUPPORTED_EMOJI_CUES: set<string> :=
    {"\U{1F642}", "\U{1F604}", "\U{1F60F}", "\U{1F97A}", "\U{1F622}", "\U{1F624}", "\U{1F916}", "\U{1FAF6}"}

  const TEXT_REQUIRED_ERROR: string := "Text is required for speak beats"
  const EMOJI_ERROR: string := "Unsupported emoji cue"

  /** The form's field values, as the page reads them. */
  datatype BeatForm = BeatForm(actor: string, action: string, text: string, delay: string,
                               expression: string, emoji: string)

  datatype FormAction = SpeakBeat | ReactBeat | WaitBeat

  datatype Emotion = Emotion(expression: Option<string>, emoji: Option<string>)

  /** The beat the form describes; absent fields are left out. */
  datatype FormBeat = FormBeat(actor: TurnScript.Actor, action: FormAction, text: Option<string>,
                               delayMs: Option<int>, emotion: Option<Emotion>)

  /** `String(dom.action.value || 'speak').toLowerCase()`, then anything but
      `react` and `wait` is speech (`speak` is already lower case). */
  function FormActionOf(action: string): (a: FormAction)
    ensures a == ReactBeat <==> LowerStr(action) == "react"
    ensures a == WaitBeat <==> LowerStr(action) == "wait"
  {
    var raw := if action == "" then "speak" else LowerStr(action);
    if raw == "react" then ReactBeat else if raw == "wait" then WaitBeat else SpeakBeat
  }

  /** A field that is present only when its cleaned text is not empty. */
  function NonEmpty(s: string): (r: Option<string>)
    ensures r.Some? <==> s != ""
    ensures r.Some? ==> r.value == s
  {
    if s == "" then None else Some(s)
  }

  /** `parseSingleBeatFromDom` up to the wrapping payload: the checks in the
      source's order (text for speech, the delay, the emoji cue) and the beat
      they let through. */
  function ReadBeatForm(form: BeatForm, parseNumber: string -> Option<real>): (r: Result<FormBeat, string>)
    ensures var action := FormActionOf(form.action);
            var text := CleanText(form.text);
            var delay := ParseDelayMs(Some(form.delay), parseNumber);
            var emoji := CleanText(form.emoji);
            && (r.Success? <==> !(action == SpeakBeat && text == "") && delay.Success?
                                && (emoji == "" || emoji in SUPPORTED_EMOJI_CUES))
            && (action == SpeakBeat && text == "" ==> r == Failure(TEXT_REQUIRED_ERROR))
            && (!(action == SpeakBeat && text == "") && delay.Failure? ==> r == Failure(delay.error))
            && (r.Success? ==>
                  && (r.value.actor == TurnScript.Small <==> form.actor == "small")
                  && r.value.action == action
                  && r.value.text == NonEmpty(text)
                  && r.value.delayMs == delay.value
                  && (r.value.emotion.Some? <==> emoji != "" || CleanText(form.expression) != "")
                  && (r.value.emotion.Some? ==>
                        r.value.emotion.value == Emotion(NonEmpty(LowerStr(CleanText(form.expression))), NonEmpty(emoji))))
  {
    var actor := if form.actor == "small" then TurnScript.Small else TurnScript.Main;
    var action := FormActionOf(form.action);
    var text := CleanText(form.text);
    if action == SpeakBeat && text == "" then Failure(TEXT_REQUIRED_ERROR)
    else match ParseDelayMs(Some(form.delay), parseNumber)
      case Failure(e) => Failure(e)
      case Success(delayMs) =>
        var expression := LowerStr(CleanText(form.expression));
        var emoji := CleanText(form.emoji);
        if emoji != "" && emoji !in SUPPORTED_EMOJI_CUES then Failure(EMOJI_ERROR)
        else
          var emotion := if expression != "" || emoji != "" then Some(Emotion(NonEmpty(expression), NonEmpty(emoji))) else None;
          Success(FormBeat(actor, action, NonEmpty(text), delayMs, emotion))
  }

  /** Optional fields of a JSON object, in insertion order. */
  function OptField(key: string, v: Option<Json>): seq<(string, Json)> {
    if v.Some? then [(key, v.value)] else []
  }

  function ActionName(a: FormAction): string {
    match a
    case SpeakBeat => "speak"
    case ReactBeat => "react"
    case WaitBeat => "wait"
  }

  function EmotionJson(e: Emotion): Json {
    JObj(OptField("expression", if e.expression.Some? then Some(JStr(e.expression.value)) else None)
         + OptField("emoji", if e.emoji.Some? then Some(JStr(e.emoji.value)) else None))
  }

  /** The beat object the page builds. */
  function BeatJson(b: FormBeat): Json {
    JObj([("actor", JStr(if b.actor == TurnScript.Small then "small" else "main")),
          ("action", JStr(ActionName(b.action)))]
         + OptField("text", if b.text.Some? then Some(JStr(b.text.value)) else None)
         + OptField("delayMs", if b.delayMs.Some? then Some(JNum(b.delayMs.value as real)) else None)
         + OptField("emotion", if b.emotion.Some? then Some(EmotionJson(b.emotion.value)) else None))
  }

  /** `parseSingleBeatFromDom(dom)`: `{ beats: [beat] }` or the form's error. */
  function ParseSingleBeatFromDom(form: BeatForm, parseNumber: string -> Option<real>): (r: Result<Json, string>)
    ensures r.Success? <==> ReadBeatForm(form, parseNumber).Success?
    ensures r.Failure? ==> r.error == ReadBeatForm(form, parseNumber).error
    ensures r.Success? ==> Get(r.value, "beats") == Some(JArr([BeatJson(ReadBeatForm(form, parseNumber).value)]))
  {
    match ReadBeatForm(form, parseNumber)
    case Failure(e) => Failure(e)
    case Success(b) => Success(JObj([("beats", JArr([BeatJson(b)]))]))
  }

  /** A key held at exactly one place is looked up there. */
  lemma UniqueKey(fields: seq<(string, Json)>, i: nat, key: string)
    requires i < |fields| && fields[i].0 == key
    requires forall j :: 0 <= j < |fields| && j != i ==> fields[j].0 != key
    ensures Lookup(fields, key) == Some(fields[i].1)
  {
    var r := Lookup(fields, key);
    var j :| 0 <= j < |fields| && fields[j] == (key, r.value);
  }

  lemma OptFieldKey(key: string, v: Option<Json>)
    ensures |OptField(key, v)| <= 1
    ensures forall j :: 0 <= j < |OptField(key, v)| ==> OptField(key, v)[j].0 == key
  {
  }

  /** The beat object's keys: `actor`, `action`, then `text`, `delayMs` and
      `emotion` where present, each once. */
  lemma BeatJsonLayout(b: FormBeat)
    ensures var f := BeatJson(b).fields;
            var t := if b.text.Some? then 1 else 0;
            && |f| >= 2 && f[0] == ("actor", JStr(if b.actor == TurnScript.Small then "small" else "main"))
            && f[1] == ("action", JStr(ActionName(b.action)))
            && (forall j :: 2 <= j < 2 + t ==> f[j].0 == "text")
            && (b.delayMs.Some? ==> 2 + t < |f| && f[2 + t] == ("delayMs", JNum(b.delayMs.value as real)))
            && forall j :: 2 + t + (if b.delayMs.Some? then 1 else 0) <= j < |f| ==> f[j].0 == "emotion"
  {
    var t := OptField("text", if b.text.Some? then Some(JStr(b.text.value)) else None);
    var d := OptField("delayMs", if b.delayMs.Some? then Some(JNum(b.delayMs.value as real)) else None);
    var e := OptField("emotion", if b.emotion.Some? then Some(EmotionJson(b.emotion.value)) else None);
    var head := [("actor", JStr(if b.actor == TurnScript.Small then "small" else "main")),
                 ("action", JStr(ActionName(b.action)))];
    var f := BeatJson(b).fields;
    assert f == head + t + d + e;
    OptFieldKey("text", if b.text.Some? then Some(JStr(b.text.value)) else None);
    OptFieldKey("emotion", if b.emotion.Some? then Some(EmotionJson(b.emotion.value)) else None);
    forall j | 2 + |t| + |d| <= j < |f|
      ensures f[j].0 == "emotion"
    {
      assert f[j] == e[j - 2 - |t| - |d|];
    }
  }

  /** The beat the form builds reads back, in the turn timeline both heads
      play, as the form said: the same actor, a reaction exactly when the form
      chose one, and an explicit delay used as the beat's duration. */
  lemma FormBeatInTimeline(b: FormBeat, numberText: real -> string, parseNumber: string -> Option<real>)
    requires b.delayMs.Some? ==> MIN_DELAY_MS <= b.delayMs.value <= MAX_DELAY_MS
    ensures TurnScript.ActorOf(BeatJson(b), numberText) == b.actor
    ensures TurnScript.IsReact(BeatJson(b), numberText) <==> b.action == ReactBeat
    ensures b.delayMs.Some? ==>
              TurnScript.EstimateBeatDurationMs(BeatJson(b), numberText, parseNumber) == b.delayMs.value as real
  {
    BeatJsonLayout(b);
    ActorReadsBack(b, numberText);
    ActionReadsBack(b, numberText);
    if b.delayMs.Some? {
      DelayReadsBack(b, numberText, parseNumber);
    }
  }

  lemma ActorReadsBack(b: FormBeat, numberText: real -> string)
    ensures TurnScript.ActorOf(BeatJson(b), numberText) == b.actor
  {
    BeatJsonLayout(b);
    var f := BeatJson(b).fields;
    UniqueKey(f, 0, "actor");
    var actor := if b.actor == TurnScript.Small then "small" else "main";
    assert Get(BeatJson(b), "actor") == Some(JStr(actor));
    assert LowerStr(actor) == actor;
  }

  lemma ActionReadsBack(b: FormBeat, numberText: real -> string)
    ensures TurnScript.IsReact(BeatJson(b), numberText) <==> b.action == ReactBeat
  {
    BeatJsonLayout(b);
    var f := BeatJson(b).fields;
    UniqueKey(f, 1, "action");
    var name := ActionName(b.action);
    assert Get(BeatJson(b), "action") == Some(JStr(name));
    assert LowerStr(name) == name;
  }

  lemma DelayReadsBack(b: FormBeat, numberText: real -> string, parseNumber: string -> Option<real>)
    requires b.delayMs.Some? && MIN_DELAY_MS <= b.delayMs.value <= MAX_DELAY_MS
    ensures TurnScript.EstimateBeatDurationMs(BeatJson(b), numberText, parseNumber) == b.delayMs.value as real
  {
    BeatJsonLayout(b);
    var f := BeatJson(b).fields;
    var t := if b.text.Some? then 1 else 0;
    UniqueKey(f, 2 + t, "delayMs");
    assert TurnScript.ExplicitDelay(BeatJson(b), numberText, parseNumber) == Some(b.delayMs.value as real);
  }

  // ------------------------------------------------------------ pasted scripts

  const EMPTY_SCRIPT_ERROR: string := "Script JSON is empty"
  const INVALID_SCRIPT_ERROR: string := "Script JSON is invalid"
  const SHAPE_ERROR: string := "Script JSON must be an array or include beats[]"

  /** An object whose `beats` is an array. */
  predicate HasBeats(j: Json) {
    Get(j, "beats").Some? && Get(j, "beats").value.JArr?
  }

  /** `parseScriptPayload(raw)`: a bare array is wrapped as `{ beats }`, an
      object with a `beats` array is taken as it is, else its `turn_script`
      when that has one; empty text, text `JSON.parse` refuses (`jsonParse`
      gives `None`) and any other shape are rejected. */
  function ParseScriptPayload(raw: string, jsonParse: string -> Option<Json>): (r: Result<Json, string>)
    ensures Trim(raw) == "" ==> r == Failure(EMPTY_SCRIPT_ERROR)
    ensures Trim(raw) != "" && jsonParse(Trim(raw)).None? ==> r == Failure(INVALID_SCRIPT_ERROR)
    ensures r.Failure? ==> r.error in {EMPTY_SCRIPT_ERROR, INVALID_SCRIPT_ERROR, SHAPE_ERROR}
    ensures r.Success? ==> HasBeats(r.value)
    ensures Trim(raw) != "" && jsonParse(Trim(raw)).Some? ==>
              var parsed := jsonParse(Trim(raw)).value;
              && (parsed.JArr? ==> r == Success(JObj([("beats", parsed)])))
              && (HasBeats(parsed) ==> r == Success(parsed))
              && (r.Success? ==> parsed.JArr? || HasBeats(parsed)
                                 || (Get(parsed, "turn_script").Some? && r.value == Get(parsed, "turn_script").value))
    ensures Trim(raw) != "" && jsonParse(Trim(raw)).Some? ==>
              var parsed := jsonParse(Trim(raw)).value;
              var ts := Get(parsed, "turn_script");
              && (parsed.JObj? && !HasBeats(parsed) && OptJsTruthy(ts) && HasBeats(ts.value) ==> r == Success(ts.value))
              && (r == Failure(SHAPE_ERROR) <==>
                    !parsed.JArr? && !HasBeats(parsed) && !(parsed.JObj? && OptJsTruthy(ts) && HasBeats(ts.value)))
  {
    var text := Trim(raw);
    if text == "" then Failure(EMPTY_SCRIPT_ERROR)
    else match jsonParse(text)
      case None => Failure(INVALID_SCRIPT_ERROR)
      case Some(parsed) =>
        if parsed.JArr? then Success(JObj([("beats", parsed)]))
        else if parsed.JObj? && HasBeats(parsed) then Success(parsed)
        else
          var ts := Get(parsed, "turn_script");
          if parsed.JObj? && OptJsTruthy(ts) && HasBeats(ts.value) then Success(ts.value)
          else Failure(SHAPE_ERROR)
  }

  /** A payload the panel accepted is accepted again, unchanged, when pasted
      back in as its own JSON text. */
  lemma PayloadStable(raw: string, jsonParse: string -> Option<Json>, again: string)
    requires ParseScriptPayload(raw, jsonParse).Success?
    requires Trim(again) != "" && jsonParse(Trim(again)) == Some(ParseScriptPayload(raw, jsonParse).value)
    ensures ParseScriptPayload(again, jsonParse) == ParseScriptPayload(raw, jsonParse)
  {
  }

  /** Both heads see the same beats whichever accepted shape was pasted: a
      bare array gives exactly its items to the turn timeline. */
  lemma ArrayPayloadBeats(raw: string, jsonParse: string -> Option<Json>, items: seq<Json>)
    requires Trim(raw) != "" && jsonParse(Trim(raw)) == Some(JArr(items))
    ensures ParseScriptPayload(raw, jsonParse).Success?
    ensures TurnScript.Source(Get(ParseScriptPayload(raw, jsonParse).value, "beats")) == items
  {
    assert Lookup([("beats", JArr(items))], "beats") == Some(JArr(items));
  }
}

=== FILE: mini_main.dfy ===
/** The small head's page: its gain clamp, the main head's "speaking" flag
    with its staleness timeout, the start/end notices of its own speech, the
    wait for the other head, and the way a turn script's beats are queued. */
module MiniHead {
  import opened Wrappers
  import opened Strs
  import opened Json
  import opened SpeechText
  import opened TurnScript

  // ------------------------------------------------------------ gain

  /** `clampGain(value)`: a finite number clamped to [0, 1], anything else 0.9. */
  function ClampGain(value: Option<Json>, numberText: real -> string,
                     parseNumber: string -> Option<real>): (r: real)
    ensures 0.0 <= r <= 1.0
    ensures JsNumber(value, numberText, parseNumber).None? ==> r == 0.9
    ensures JsNumber(value, numberText, parseNumber).Some? ==>
              var x := JsNumber(value, numberText, parseNumber).value;
              && (0.0 <= x <= 1.0 ==> r == x)
              && (x < 0.0 ==> r == 0.0)
              && (x > 1.0 ==> r == 1.0)
  {
    match JsNumber(value, numberText, parseNumber)
    case None => 0.9
    case Some(x) =>
      var capped := if 1.0 <= x then 1.0 else x;
      if 0.0 >= capped then 0.0 else capped
  }

  // ------------------------------------------------------------ the main head

  const REMOTE_SPEECH_STALE_MS: real := 20000.0

  /** `mainHeadSpeaking` and `mainHeadSpeakingUntil`. */
  datatype MainHead = MainHead(speaking: bool, until: real)

  /** `markMainHeadSpeaking(isSpeaking, ts)`. */
  function MarkMainHeadSpeaking(isSpeaking: Option<Json>, ts: real): (h: MainHead)
    ensures h.speaking <==> OptJsTruthy(isSpeaking)
    ensures h.speaking ==> h.until == ts + REMOTE_SPEECH_STALE_MS
    ensures !h.speaking ==> h.until == 0.0
  {
    var speaking := OptJsTruthy(isSpeaking);
    MainHead(speaking, if speaking then ts + REMOTE_SPEECH_STALE_MS else 0.0)
  }

  /** `isMainHeadSpeakingNow()` at time `now`: the answer and the flag after
      a stale mark has been cleared. */
  function IsMainHeadSpeakingNow(h: MainHead, now: real): (r: (bool, MainHead))
    ensures r.0 <==> h.speaking && now <= h.until
    ensures r.0 ==> r.1 == h
    ensures !r.0 ==> !r.1.speaking
  {
    if !h.speaking then (false, h)
    else if now > h.until then (false, MainHead(false, 0.0))
    else (true, h)
  }

  /** A "speaking" mark holds for 20 seconds after its time stamp and no
      longer. */
  lemma SpeakingExpires(ts: real, now: real)
    ensures IsMainHeadSpeakingNow(MarkMainHeadSpeaking(Some(JBool(true)), ts), now).0
            <==> now <= ts + REMOTE_SPEECH_STALE_MS
  {
  }

  /** `isRemoteActorSpeaking(actor)`: only the main head can be heard. */
  function IsRemoteActorSpeaking(actor: Option<Json>, h: MainHead, now: real,
                                 numberText: real -> string): (r: (bool, MainHead))
    ensures LowerStr(OrEmptyText(actor, numberText)) != "main" ==> r == (false, h)
    ensures LowerStr(OrEmptyText(actor, numberText)) == "main" ==> r == IsMainHeadSpeakingNow(h, now)
  {
    if LowerStr(OrEmptyText(actor, numberText)) == "main" then IsMainHeadSpeakingNow(h, now)
    else (false, h)
  }

  // ------------------------------------------------------------ own speech notices

  datatype Notice = StartNotice | EndNotice

  /** `markLocalSpeechStart()`: the new flag and the notice sent, if any. */
  function MarkLocalSpeechStart(active: bool): (r: (bool, Option<Notice>))
    ensures r.0
    ensures r.1.Some? <==> !active
    ensures r.1.Some? ==> r.1.value == StartNotice
  {
    if active then (true, None) else (true, Some(StartNotice))
  }

  /** `markLocalSpeechEnd()`. */
  function MarkLocalSpeechEnd(active: bool): (r: (bool, Option<Notice>))
    ensures !r.0
    ensures r.1.Some? <==> active
    ensures r.1.Some? ==> r.1.value == EndNotice
  {
    if active then (false, Some(EndNotice)) else (false, None)
  }

  /** A run of start (`true`) and end (`false`) calls: the final flag and the
      notices sent, in order. */
  function SpeechNotices(active: bool, calls: seq<bool>): (r: (bool, seq<Notice>))
    ensures |r.1| <= |calls|
    decreases |calls|
  {
    if |calls| == 0 then (active, [])
    else
      var step := if calls[0] then MarkLocalSpeechStart(active) else MarkLocalSpeechEnd(active);
      var rest := SpeechNotices(step.0, calls[1..]);
      (rest.0, (if step.1.Some? then [step.1.value] else []) + rest.1)
  }

  /** The notice that changes the flag away from `active`. */
  function NextNotice(active: bool): Notice {
    if active then EndNotice else StartNotice
  }

  /** Notices strictly alternate, starting with the one that leaves the
      initial state, and the final flag is the state the last notice announced:
      one notice per transition, never two starts or two ends in a row. */
  lemma {:induction false} NoticesAlternate(active: bool, calls: seq<bool>)
    ensures var (final, ns) := SpeechNotices(active, calls);
            && (ns == [] ==> final == active)
            && (ns != [] ==> ns[0] == NextNotice(active) && final == (ns[|ns| - 1] == StartNotice))
            && forall i :: 0 <= i < |ns| - 1 ==> ns[i] != ns[i + 1]
    decreases |calls|
  {
    if |calls| > 0 {
      var step := if calls[0] then MarkLocalSpeechStart(active) else MarkLocalSpeechEnd(active);
      NoticesAlternate(step.0, calls[1..]);
      var rest := SpeechNotices(step.0, calls[1..]).1;
      if step.1.Some? {
        var ns := [step.1.value] + rest;
        forall i | 0 <= i < |ns| - 1
          ensures ns[i] != ns[i + 1]
        {
          if i > 0 {
            assert ns[i] == rest[i - 1] && ns[i + 1] == rest[i];
          }
        }
      }
    }
  }

  // ------------------------------------------------------------ waiting for the other head

  const REMOTE_WAIT_TIMEOUT_PAD_MS: real := 1500.0
  const MIN_REMOTE_WAIT_MS: real := 1000.0

  /** `_waitRemoteStartedAt` (0 while unset) and `_waitRemoteSawStart`. */
  datatype WaitMarks = WaitMarks(startedAt: real, sawStart: bool)

  /** `Math.max(1000, Number(item.delayMs) || 0) + 1500`. */
  function RemoteWaitTimeout(delayMs: Option<Json>, numberText: real -> string,
                             parseNumber: string -> Option<real>): (t: real)
    ensures t >= MIN_REMOTE_WAIT_MS + REMOTE_WAIT_TIMEOUT_PAD_MS
    ensures t >= JsNumberOrZero(delayMs, numberText, parseNumber) + REMOTE_WAIT_TIMEOUT_PAD_MS
    ensures t == MIN_REMOTE_WAIT_MS + REMOTE_WAIT_TIMEOUT_PAD_MS
         || t == JsNumberOrZero(delayMs, numberText, parseNumber) + REMOTE_WAIT_TIMEOUT_PAD_MS
  {
    var d := JsNumberOrZero(delayMs, numberText, parseNumber);
    (if MIN_REMOTE_WAIT_MS >= d then MIN_REMOTE_WAIT_MS else d) + REMOTE_WAIT_TIMEOUT_PAD_MS
  }

  /** One poll of `waitForRemoteActor` at time `now`, given whether the other
      head is speaking: whether the wait is over, and the item's marks. */
  function WaitPoll(marks: WaitMarks, timeout: real, now: real, remoteSpeaking: bool): (r: (bool, WaitMarks))
    ensures r.1.startedAt == (if marks.startedAt == 0.0 then now else marks.startedAt)
    ensures r.1.sawStart <==> remoteSpeaking || (marks.startedAt != 0.0 && marks.sawStart)
    ensures r.0 <==> (r.1.sawStart && !remoteSpeaking) || (!r.1.sawStart && now - r.1.startedAt >= timeout)
  {
    var started := if marks.startedAt == 0.0 then WaitMarks(now, false) else marks;
    var m := if remoteSpeaking then started.(sawStart := true) else started;
    var elapsed := now - m.startedAt;
    ((m.sawStart && !remoteSpeaking) || (!m.sawStart && elapsed >= timeout), m)
  }

  /** Polls at the given times with the other head's state at each: the index
      of the poll that ends the wait, if one does. */
  function PollsUntilDone(marks: WaitMarks, timeout: real, polls: seq<(real, bool)>): (r: Option<nat>)
    ensures r.Some? ==> r.value < |polls|
    decreases |polls|
  {
    if |polls| == 0 then None
    else
      var (done, next) := WaitPoll(marks, timeout, polls[0].0, polls[0].1);
      if done then Some(0)
      else match PollsUntilDone(next, timeout, polls[1..])
        case None => None
        case Some(k) => Some(k + 1)
  }

  /** While the other head is speaking the wait never ends. */
  lemma {:induction false} SpeakingHolds(marks: WaitMarks, timeout: real, polls: seq<(real, bool)>)
    requires forall k :: 0 <= k < |polls| ==> polls[k].1
    ensures PollsUntilDone(marks, timeout, polls).None?
    decreases |polls|
  {
    if |polls| > 0 {
      var next := WaitPoll(marks, timeout, polls[0].0, polls[0].1).1;
      SpeakingHolds(next, timeout, polls[1..]);
    }
  }

  /** Once the other head has been heard, the first poll at which it is quiet
      ends the wait. */
  lemma {:induction false} HeardThenQuiet(marks: WaitMarks, timeout: real, polls: seq<(real, bool)>)
    requires marks.startedAt != 0.0 && marks.sawStart
    requires |polls| > 0 && !polls[|polls| - 1].1
    ensures PollsUntilDone(marks, timeout, polls).Some?
    decreases |polls|
  {
    var (done, next) := WaitPoll(marks, timeout, polls[0].0, polls[0].1);
    if !done {
      assert polls[0].1;
      assert |polls| > 1;
      HeardThenQuiet(next, timeout, polls[1..]);
    }
  }

  /** A head that is never heard is given up on at the first poll at least
      `timeout` after the first poll. */
  lemma NeverHeardTimesOut(timeout: real, polls: seq<(real, bool)>, k: nat)
    requires 0 < k < |polls| && polls[0].0 != 0.0
    requires forall i :: 0 <= i < |polls| ==> !polls[i].1
    requires polls[k].0 - polls[0].0 >= timeout
    ensures PollsUntilDone(WaitMarks(0.0, false), timeout, polls).Some?
  {
    var (done, next) := WaitPoll(WaitMarks(0.0, false), timeout, polls[0].0, polls[0].1);
    if !done {
      QuietUntil(next, timeout, polls[1..], k - 1);
    }
  }

  lemma {:induction false} QuietUntil(marks: WaitMarks, timeout: real, polls: seq<(real, bool)>, k: nat)
    requires k < |polls| && marks.startedAt != 0.0 && !marks.sawStart
    requires forall i :: 0 <= i < |polls| ==> !polls[i].1
    requires polls[k].0 - marks.startedAt >= timeout
    ensures PollsUntilDone(marks, timeout, polls).Some?
    decreases k
  {
    var (done, next) := WaitPoll(marks, timeout, polls[0].0, polls[0].1);
    if !done && k > 0 {
      QuietUntil(next, timeout, polls[1..], k - 1);
    }
  }

  // ------------------------------------------------------------ queueing a script

  const REACTION_PAUSE_MS: real := 420.0
  const MIN_QUEUED_DELAY_MS: real := 120.0

  datatype QueueItem =
    | QWait(delayMs: real)
    | QReact(emotion: Json, text: string, delayMs: real)
    | QWaitRemote(actor: Json, delayMs: real)
    | QSpeak(text: string, emotion: Json)

  datatype BeatAction = ActReact | ActWaitRemote | ActWait | ActSpeak

  /** `react`, `wait_remote` and `wait` are taken as they are, anything else is
      speech. */
  function ActionOf(beat: Json, numberText: real -> string): (a: BeatAction) {
    var raw := LowerField(beat, "action", numberText);
    if raw == "react" then ActReact
    else if raw == "wait_remote" then ActWaitRemote
    else if raw == "wait" then ActWait
    else ActSpeak
  }

  /** `Number(beat.delayMs) || 420`, then at least 120. */
  function QueuedDelay(beat: Json, numberText: real -> string,
                       parseNumber: string -> Option<real>): (d: real)
    ensures d >= MIN_QUEUED_DELAY_MS
    ensures JsNumberOrZero(Get(beat, "delayMs"), numberText, parseNumber) == 0.0 ==> d == REACTION_PAUSE_MS
    ensures var n := JsNumberOrZero(Get(beat, "delayMs"), numberText, parseNumber);
            n != 0.0 ==> d >= n && (d == n || d == MIN_QUEUED_DELAY_MS)
  {
    var n := JsNumberOrZero(Get(beat, "delayMs"), numberText, parseNumber);
    var d := if n == 0.0 then REACTION_PAUSE_MS else n;
    if MIN_QUEUED_DELAY_MS >= d then MIN_QUEUED_DELAY_MS else d
  }

  /** `normalizeText(beat.text || '')`. */
  function BeatText(beat: Json, numberText: real -> string): string {
    NormalizeString(OrEmptyText(Get(beat, "text"), numberText))
  }

  /** The beats `hasSpeakBeat` looks for: action exactly `speak` with text. */
  predicate IsSpeakWithText(beat: Json, numberText: real -> string) {
    IsBeatObject(beat) && LowerField(beat, "action", numberText) == "speak" && BeatText(beat, numberText) != ""
  }

  function HasSpeakBeat(beats: seq<Json>, numberText: real -> string): (b: bool)
    ensures b <==> exists k :: 0 <= k < |beats| && IsSpeakWithText(beats[k], numberText)
  {
    if |beats| == 0 then false
    else IsSpeakWithText(beats[0], numberText) || HasSpeakBeat(beats[1..], numberText)
  }

  /** A reaction whose text could be promoted. */
  predicate IsReactWithText(beat: Json, numberText: real -> string) {
    IsBeatObject(beat) && ActionOf(beat, numberText) == ActReact && BeatText(beat, numberText) != ""
  }

  function AnyReactWithText(beats: seq<Json>, numberText: real -> string): (b: bool)
    ensures b <==> exists k :: 0 <= k < |beats| && IsReactWithText(beats[k], numberText)
  {
    if |beats| == 0 then false
    else IsReactWithText(beats[0], numberText) || AnyReactWithText(beats[1..], numberText)
  }

  /** Object beats queued as speech with text (promotion aside). */
  function SpokenBeats(beats: seq<Json>, numberText: real -> string): nat {
    if |beats| == 0 then 0
    else (if IsBeatObject(beats[0]) && ActionOf(beats[0], numberText) == ActSpeak
             && BeatText(beats[0], numberText) != "" then 1 else 0)
         + SpokenBeats(beats[1..], numberText)
  }

  /** Object beats whose action is `react`. */
  function ReactBeats(beats: seq<Json>, numberText: real -> string): nat {
    if |beats| == 0 then 0
    else (if IsBeatObject(beats[0]) && ActionOf(beats[0], numberText) == ActReact then 1 else 0)
         + ReactBeats(beats[1..], numberText)
  }

  function SpeakItems(q: seq<QueueItem>): nat {
    if |q| == 0 then 0 else (if q[0].QSpeak? then 1 else 0) + SpeakItems(q[1..])
  }

  function ReactItems(q: seq<QueueItem>): nat {
    if |q| == 0 then 0 else (if q[0].QReact? then 1 else 0) + ReactItems(q[1..])
  }

  /** Every timed item waits at least 120 ms and every line has text. */
  predicate WellQueued(q: seq<QueueItem>) {
    forall k :: 0 <= k < |q| ==>
      && (q[k].QWait? || q[k].QReact? || q[k].QWaitRemote? ==> q[k].delayMs >= MIN_QUEUED_DELAY_MS)
      && (q[k].QSpeak? ==> q[k].text != "")
  }

  /** The items one beat adds, given its action, normalised text, emotion,
      actor and delay, and whether a reaction has now been promoted. */
  function BeatItems(action: BeatAction, text: string, emotion: Json, actor: Json, delayMs: real,
                     hasSpeak: bool, promoted: bool): (r: (seq<QueueItem>, bool))
  {
    match action
    case ActWait => ([QWait(delayMs)], promoted)
    case ActReact =>
      if !hasSpeak && text != "" && !promoted then ([QSpeak(text, emotion)], true)
      else ([QReact(emotion, text, delayMs)], promoted)
    case ActWaitRemote => ([QWaitRemote(actor, delayMs)], promoted)
    case ActSpeak =>
      if text == "" then ([], promoted) else ([QSpeak(text, emotion)], promoted)
  }

  /** What one beat contributes: at most one item, well queued; a line for a
      spoken beat with text, and a line instead of a reaction exactly when
      this beat is the promoted one. */
  lemma BeatItemsFacts(action: BeatAction, text: string, emotion: Json, actor: Json, delayMs: real,
                       hasSpeak: bool, promoted: bool)
    requires delayMs >= MIN_QUEUED_DELAY_MS
    ensures var (items, promoted') := BeatItems(action, text, emotion, actor, delayMs, hasSpeak, promoted);
            var here := !hasSpeak && !promoted && action == ActReact && text != "";
            && |items| <= 1 && WellQueued(items)
            && (promoted' <==> promoted || here)
            && SpeakItems(items) == (if action == ActSpeak && text != "" then 1 else 0) + (if here then 1 else 0)
            && ReactItems(items) + (if here then 1 else 0) == (if action == ActReact then 1 else 0)
  {
    var items := BeatItems(action, text, emotion, actor, delayMs, hasSpeak, promoted).0;
    if items != [] {
      OneItem(items[0]);
    }
  }

  lemma OneItem(x: QueueItem)
    ensures SpeakItems([x]) == (if x.QSpeak? then 1 else 0)
    ensures ReactItems([x]) == (if x.QReact? then 1 else 0)
  {
    assert [x][1..] == [];
  }

  /** The items of an object beat and the promotion flag after it. */
  function BeatStep(b: Json, hasSpeak: bool, promoted: bool, numberText: real -> string,
                    parseNumber: string -> Option<real>): (seq<QueueItem>, bool) {
    BeatItems(ActionOf(b, numberText), BeatText(b, numberText), OrJson(Get(b, "emotion"), JNull),
              OrJson(Get(b, "actor"), JStr("main")), QueuedDelay(b, numberText, parseNumber), hasSpeak, promoted)
  }

  /** `BeatItemsFacts` for an object beat. */
  lemma BeatStepFacts(b: Json, hasSpeak: bool, promoted: bool, numberText: real -> string,
                      parseNumber: string -> Option<real>)
    requires IsBeatObject(b)
    ensures var (items, promoted') := BeatStep(b, hasSpeak, promoted, numberText, parseNumber);
            var action := ActionOf(b, numberText);
            var text := BeatText(b, numberText);
            var here := !hasSpeak && !promoted && IsReactWithText(b, numberText);
            && |items| <= 1 && WellQueued(items)
            && (promoted' <==> promoted || here)
            && SpeakItems(items) == (if action == ActSpeak && text != "" then 1 else 0) + (if here then 1 else 0)
            && ReactItems(items) + (if here then 1 else 0) == (if action == ActReact then 1 else 0)
  {
    BeatItemsFacts(ActionOf(b, numberText), BeatText(b, numberText), OrJson(Get(b, "emotion"), JNull),
                   OrJson(Get(b, "actor"), JStr("main")), QueuedDelay(b, numberText, parseNumber), hasSpeak, promoted);
  }

  /** The loop of `enqueueSmallBeats` over the remaining beats. */
  function Enqueue(beats: seq<Json>, hasSpeak: bool, promoted: bool, numberText: real -> string,
                   parseNumber: string -> Option<real>): (r: seq<QueueItem>)
    ensures WellQueued(r)
    ensures var promotes := !hasSpeak && !promoted && AnyReactWithText(beats, numberText);
            && SpeakItems(r) == SpokenBeats(beats, numberText) + (if promotes then 1 else 0)
            && ReactItems(r) + (if promotes then 1 else 0) == ReactBeats(beats, numberText)
    decreases |beats|
  {
    if |beats| == 0 then []
    else if !IsBeatObject(beats[0]) then Enqueue(beats[1..], hasSpeak, promoted, numberText, parseNumber)
    else
      var step := BeatStep(beats[0], hasSpeak, promoted, numberText, parseNumber);
      var rest := Enqueue(beats[1..], hasSpeak, step.1, numberText, parseNumber);
      BeatStepFacts(beats[0], hasSpeak, promoted, numberText, parseNumber);
      CountAppend(step.0, rest);
      step.0 + rest
  }

  /** Whether a reaction has been promoted once `beats` are queued. */
  function PromotedAfter(beats: seq<Json>, hasSpeak: bool, promoted: bool, numberText: real -> string): bool {
    promoted || (!hasSpeak && AnyReactWithText(beats, numberText))
  }

  /** Queueing works beat by beat: the items of a script are the items of its
      first part followed by those of the rest, the rest queued knowing
      whether the first part promoted a reaction. */
  lemma {:induction false} EnqueueAppend(a: seq<Json>, b: seq<Json>, hasSpeak: bool, promoted: bool,
                                         numberText: real -> string, parseNumber: string -> Option<real>)
    ensures Enqueue(a + b, hasSpeak, promoted, numberText, parseNumber)
         == Enqueue(a, hasSpeak, promoted, numberText, parseNumber)
            + Enqueue(b, hasSpeak, PromotedAfter(a, hasSpeak, promoted, numberText), numberText, parseNumber)
    decreases |a|
  {
    if |a| == 0 {
      assert a + b == b;
    } else {
      var s := a + b;
      assert s[0] == a[0] && s[1..] == a[1..] + b;
      var p' := StepPromoted(a[0], hasSpeak, promoted, numberText, parseNumber);
      var e1 := Enqueue([a[0]], hasSpeak, promoted, numberText, parseNumber);
      var ra := Enqueue(a[1..], hasSpeak, p', numberText, parseNumber);
      var rb := Enqueue(b, hasSpeak, PromotedAfter(a, hasSpeak, promoted, numberText), numberText, parseNumber);
      EnqueueUnfold(s, hasSpeak, promoted, numberText, parseNumber);
      EnqueueUnfold(a, hasSpeak, promoted, numberText, parseNumber);
      EnqueueAppend(a[1..], b, hasSpeak, p', numberText, parseNumber);
      StepPromotedAfter(a, hasSpeak, promoted, numberText, parseNumber);
      assert Enqueue(a[1..] + b, hasSpeak, p', numberText, parseNumber) == ra + rb;
      QueueAssoc(e1, ra, rb);
    }
  }

  lemma QueueAssoc(x: seq<QueueItem>, y: seq<QueueItem>, z: seq<QueueItem>)
    ensures x + (y + z) == (x + y) + z
  {
  }

  /** The flag after one beat. */
  function StepPromoted(x: Json, hasSpeak: bool, promoted: bool, numberText: real -> string,
                        parseNumber: string -> Option<real>): bool {
    if IsBeatObject(x) then
      BeatStep(x, hasSpeak, promoted, numberText, parseNumber).1
    else promoted
  }

  /** One unfolding of the queueing loop. */
  lemma EnqueueUnfold(s: seq<Json>, hasSpeak: bool, promoted: bool, numberText: real -> string,
                      parseNumber: string -> Option<real>)
    requires |s| > 0
    ensures Enqueue(s, hasSpeak, promoted, numberText, parseNumber)
         == Enqueue([s[0]], hasSpeak, promoted, numberText, parseNumber)
            + Enqueue(s[1..], hasSpeak, StepPromoted(s[0], hasSpeak, promoted, numberText, parseNumber),
                      numberText, parseNumber)
  {
    if IsBeatObject(s[0]) {
      UnfoldObject(s, hasSpeak, promoted, numberText, parseNumber);
    } else {
      UnfoldSkip(s, hasSpeak, promoted, numberText, parseNumber);
    }
  }

  lemma UnfoldObject(s: seq<Json>, hasSpeak: bool, promoted: bool, numberText: real -> string,
                     parseNumber: string -> Option<real>)
    requires |s| > 0 && IsBeatObject(s[0])
    ensures Enqueue(s, hasSpeak, promoted, numberText, parseNumber)
         == Enqueue([s[0]], hasSpeak, promoted, numberText, parseNumber)
            + Enqueue(s[1..], hasSpeak, StepPromoted(s[0], hasSpeak, promoted, numberText, parseNumber),
                      numberText, parseNumber)
  {
    var b := s[0];
    var step := BeatStep(b, hasSpeak, promoted, numberText, parseNumber);
    EnqueueCons(s, hasSpeak, promoted, numberText, parseNumber);
    EnqueueCons([b], hasSpeak, promoted, numberText, parseNumber);
    assert [b][0] == b && [b][1..] == [];
    Regroup(Enqueue(s, hasSpeak, promoted, numberText, parseNumber), step.0,
            Enqueue(s[1..], hasSpeak, step.1, numberText, parseNumber),
            Enqueue([], hasSpeak, step.1, numberText, parseNumber),
            Enqueue([b], hasSpeak, promoted, numberText, parseNumber));
  }

  /** The queueing loop at an object beat. */
  lemma EnqueueCons(s: seq<Json>, hasSpeak: bool, promoted: bool, numberText: real -> string,
                    parseNumber: string -> Option<real>)
    requires |s| > 0 && IsBeatObject(s[0])
    ensures Enqueue(s, hasSpeak, promoted, numberText, parseNumber)
         == BeatStep(s[0], hasSpeak, promoted, numberText, parseNumber).0
            + Enqueue(s[1..], hasSpeak, BeatStep(s[0], hasSpeak, promoted, numberText, parseNumber).1,
                      numberText, parseNumber)
  {
  }

  lemma Regroup<T>(x: seq<T>, y: seq<T>, z: seq<T>, e: seq<T>, w: seq<T>)
    requires x == y + z && w == y + e && e == []
    ensures x == w + z
  {
    assert w == y;
  }

  lemma UnfoldSkip(s: seq<Json>, hasSpeak: bool, promoted: bool, numberText: real -> string,
                   parseNumber: string -> Option<real>)
    requires |s| > 0 && !IsBeatObject(s[0])
    ensures Enqueue(s, hasSpeak, promoted, numberText, parseNumber)
         == Enqueue([s[0]], hasSpeak, promoted, numberText, parseNumber)
            + Enqueue(s[1..], hasSpeak, StepPromoted(s[0], hasSpeak, promoted, numberText, parseNumber),
                      numberText, parseNumber)
  {
    assert [s[0]][1..] == [];
  }

  lemma StepPromotedAfter(s: seq<Json>, hasSpeak: bool, promoted: bool, numberText: real -> string,
                          parseNumber: string -> Option<real>)
    requires |s| > 0
    ensures PromotedAfter(s[1..], hasSpeak, StepPromoted(s[0], hasSpeak, promoted, numberText, parseNumber), numberText)
         == PromotedAfter(s, hasSpeak, promoted, numberText)
  {
    var b := s[0];
    assert AnyReactWithText(s, numberText) <==> IsReactWithText(b, numberText) || AnyReactWithText(s[1..], numberText);
    if IsBeatObject(b) {
      BeatStepFacts(b, hasSpeak, promoted, numberText, parseNumber);
    }
  }

  /** The items of one beat: nothing for a non-object or a line without text;
      a wait or a wait for the other head with the beat's delay; a line with
      its text and emotion; and a reaction, unless it is the one promoted to a
      line because the script has no line and none was promoted yet. */
  lemma EnqueueOne(b: Json, hasSpeak: bool, promoted: bool, numberText: real -> string,
                   parseNumber: string -> Option<real>)
    ensures var r := Enqueue([b], hasSpeak, promoted, numberText, parseNumber);
            var text := BeatText(b, numberText);
            var emotion := OrJson(Get(b, "emotion"), JNull);
            var delayMs := QueuedDelay(b, numberText, parseNumber);
            && (!IsBeatObject(b) ==> r == [])
            && (IsBeatObject(b) ==> match ActionOf(b, numberText)
                  case ActWait => r == [QWait(delayMs)]
                  case ActWaitRemote => r == [QWaitRemote(OrJson(Get(b, "actor"), JStr("main")), delayMs)]
                  case ActSpeak => r == (if text == "" then [] else [QSpeak(text, emotion)])
                  case ActReact =>
                    r == (if !hasSpeak && !promoted && text != "" then [QSpeak(text, emotion)]
                          else [QReact(emotion, text, delayMs)]))
  {
    assert [b][0] == b && [b][1..] == [];
  }

  lemma CountAppend(a: seq<QueueItem>, b: seq<QueueItem>)
    requires |a| <= 1 && WellQueued(a) && WellQueued(b)
    ensures SpeakItems(a + b) == SpeakItems(a) + SpeakItems(b)
    ensures ReactItems(a + b) == ReactItems(a) + ReactItems(b)
    ensures WellQueued(a + b)
  {
    if |a| == 1 {
      assert (a + b)[1..] == b;
    } else {
      assert a + b == b;
    }
  }

  /** `enqueueSmallBeats(beats)` on a queue: the new items follow the queued
      ones; each spoken line has text, each timed item waits at least 120 ms,
      and at most one reaction becomes a line, only when no beat is a line
      with text. */
  function EnqueueSmallBeats(queue: seq<QueueItem>, beats: Option<Json>, numberText: real -> string,
                             parseNumber: string -> Option<real>): (r: seq<QueueItem>)
    ensures |r| >= |queue| && r[..|queue|] == queue
    ensures r[|queue|..] == Enqueue(Source(beats), HasSpeakBeat(Source(beats), numberText), false, numberText, parseNumber)
    ensures WellQueued(r[|queue|..])
    ensures var src := Source(beats);
            var promotes := !HasSpeakBeat(src, numberText) && AnyReactWithText(src, numberText);
            && SpeakItems(r[|queue|..]) == SpokenBeats(src, numberText) + (if promotes then 1 else 0)
            && ReactItems(r[|queue|..]) + (if promotes then 1 else 0) == ReactBeats(src, numberText)
  {
    var src := Source(beats);
    var added := Enqueue(src, HasSpeakBeat(src, numberText), false, numberText, parseNumber);
    assert (queue + added)[..|queue|] == queue;
    assert (queue + added)[|queue|..] == added;
    queue + added
  }
}

=== FILE: paypal_client.dfy ===
/** The PayPal REST client's local rules: which API host the environment selects,
    the credentials it needs, and how an order body and a capture request are put
    together from the caller's values before anything is sent. */
module PayPalClient {
  import opened Wrappers
  import opened Strs
  import opened Json
  import opened JsonText
  import opened ProcessEnv
  import opened Donation
  import opened Routes
  import opened JsConv

  datatype PayPalError = MissingCredentials | BadAmount | BadCurrency | BadOrderId {
    /** The `code` property of the thrown error. */
    function Code(): string {
      match this
      case MissingCredentials => "MISSING_PAYPAL_CREDENTIALS"
      case BadAmount => "BAD_PAYPAL_AMOUNT"
      case BadCurrency => "BAD_PAYPAL_CURRENCY"
      case BadOrderId => "BAD_PAYPAL_ORDER_ID"
    }
  }

  const LIVE_BASE_URL: string := "https://api-m.paypal.com"
  const SANDBOX_BASE_URL: string := "https://api-m.sandbox.paypal.com"

  // ------------------------------------------------------------ environment

  /** `PAYPAL_ENV`, trimmed and lower-cased, `sandbox` when unset or empty. */
  function PayPalEnv(env: Env): string {
    LowerStr(Trim(ProcessEnv.Or(Var(env, "PAYPAL_ENV"), "sandbox")))
  }

  /** `getPayPalBaseUrl`: the live host exactly when the environment says `live`. */
  function BaseUrl(env: Env): (r: string)
    ensures r == LIVE_BASE_URL <==> PayPalEnv(env) == "live"
    ensures r == LIVE_BASE_URL || r == SANDBOX_BASE_URL
  {
    if PayPalEnv(env) == "live" then LIVE_BASE_URL else SANDBOX_BASE_URL
  }

  /** Without `PAYPAL_ENV` the client talks to the sandbox. */
  lemma DefaultIsSandbox(env: Env)
    requires "PAYPAL_ENV" !in env
    ensures BaseUrl(env) == SANDBOX_BASE_URL
  {
    var s := "sandbox";
    TrimWithStripped(s, IsSpace);
    assert LowerStr(s) == s;
  }

  datatype Credentials = Credentials(clientId: string, clientSecret: string)

  /** `getPayPalCredentials`: both values trimmed; either one blank is an error. */
  function GetPayPalCredentials(env: Env): (r: Result<Credentials, PayPalError>)
    ensures r.Failure? <==>
              Trim(OrEmpty(Var(env, "PAYPAL_CLIENT_ID"))) == "" || Trim(OrEmpty(Var(env, "PAYPAL_CLIENT_SECRET"))) == ""
    ensures r.Failure? ==> r.error == MissingCredentials
    ensures r.Success? ==> r.value.clientId != "" && r.value.clientSecret != ""
    ensures r.Success? ==> r.value.clientId == Trim(OrEmpty(Var(env, "PAYPAL_CLIENT_ID")))
    ensures r.Success? ==> r.value.clientSecret == Trim(OrEmpty(Var(env, "PAYPAL_CLIENT_SECRET")))
  {
    var clientId := Trim(ProcessEnv.Or(Var(env, "PAYPAL_CLIENT_ID"), ""));
    var clientSecret := Trim(ProcessEnv.Or(Var(env, "PAYPAL_CLIENT_SECRET"), ""));
    if clientId == "" || clientSecret == "" then Failure(MissingCredentials)
    else Success(Credentials(clientId, clientSecret))
  }

  // ------------------------------------------------------------ amounts

  /** The cents `toFixed(2)` prints are those the donation routes round to. */
  lemma CentsAgreeWithRoundCents(x: real)
    requires 0.0 <= x < 1000000000000000000000.0
    ensures (Cents(x) as real) / 100.0 == RoundCents(x)
  {
  }

  /** `String(value)`, where an absent value prints as `undefined`. */
  function ValueText(value: Option<Json>, numberText: real -> string): string {
    if value.None? then "undefined" else JsString(value.value, numberText)
  }

  /** `formatAmount` as the source writes it: any positive finite number is
      accepted and printed with two decimals, even one that prints as `0.00`. */
  function FormatAmountAsWritten(value: Option<Json>, numberText: real -> string,
                                 parseFloat: string -> Option<real>): (r: Result<string, PayPalError>)
    ensures r.Failure? ==> r.error == BadAmount
    ensures r.Failure? <==>
              parseFloat(ValueText(value, numberText)).None? || parseFloat(ValueText(value, numberText)).value <= 0.0
  {
    var amount := parseFloat(ValueText(value, numberText));
    if amount.None? || amount.value <= 0.0 then Failure(BadAmount)
    else Success(Fixed2Text(amount.value, numberText))
  }

  /** An amount of 0.004 passes the positivity check and is sent as `0.00`. */
  lemma TinyAmountSentAsZero(numberText: real -> string, parseFloat: string -> Option<real>)
    requires parseFloat("0.004") == Some(0.004)
    ensures FormatAmountAsWritten(Some(JStr("0.004")), numberText, parseFloat) == Success("0.00")
  {
    assert Cents(0.004) == 0;
    assert CentsText(0) == "0.00" by {
      assert NatToStr(0) == "0";
    }
  }

  /** `formatAmount` as intended: the printed amount is positive. */
  function FormatAmount(value: Option<Json>, numberText: real -> string,
                        parseFloat: string -> Option<real>): (r: Result<string, PayPalError>)
    ensures r.Failure? ==> r.error == BadAmount
    ensures r.Success? ==>
              var x := parseFloat(ValueText(value, numberText));
              x.Some? && x.value > 0.0
              && (x.value < 1000000000000000000000.0 ==>
                    ParseCents(r.value).Some? && ParseCents(r.value).value > 0
                    && ParseCents(r.value) == Some(Cents(x.value)))
  {
    var amount := parseFloat(ValueText(value, numberText));
    if amount.None? || amount.value <= 0.0 then Failure(BadAmount)
    else if amount.value < 1000000000000000000000.0 && Cents(amount.value) == 0 then Failure(BadAmount)
    else if amount.value < 1000000000000000000000.0 then
      Fixed2TextReadsBack(amount.value, numberText);
      Success(Fixed2Text(amount.value, numberText))
    else Success(Fixed2Text(amount.value, numberText))
  }

  /** The corrected check only adds the rejection of amounts below half a cent. */
  lemma FormatAmountDiffersOnlyAtZero(value: Option<Json>, numberText: real -> string,
                                      parseFloat: string -> Option<real>)
    ensures var w := FormatAmountAsWritten(value, numberText, parseFloat);
            var c := FormatAmount(value, numberText, parseFloat);
            w == c || (w == Success("0.00") && c == Failure(BadAmount))
  {
    var amount := parseFloat(ValueText(value, numberText));
    if amount.Some? && 0.0 < amount.value < 1000000000000000000000.0 && Cents(amount.value) == 0 {
      assert CentsText(0) == "0.00" by {
        assert NatToStr(0) == "0";
      }
    }
  }

  // ------------------------------------------------------------ currency

  /** `normalizeCurrency`: a missing or falsy value means `USD`; the result must be
      a three-letter code. */
  function NormalizeCurrency(value: Option<Json>, numberText: real -> string): (r: Result<string, PayPalError>)
    ensures r.Success? ==> IsCurrencyCode(r.value)
    ensures r.Failure? ==> r.error == BadCurrency
    ensures !OptJsTruthy(value) ==> r == Success("USD")
  {
    var text := if OptJsTruthy(value) then JsString(value.value, numberText) else "USD";
    var currency := UpperStr(Trim(text));
    if !IsCurrencyCode(currency) then Failure(BadCurrency)
    else
      assert !OptJsTruthy(value) ==> currency == "USD" by {
        if !OptJsTruthy(value) { UsdIsCode(); }
      }
      Success(currency)
  }

  lemma UsdIsCode()
    ensures UpperStr(Trim("USD")) == "USD" && IsCurrencyCode("USD")
  {
    TrimWithStripped("USD", IsSpace);
  }

  /** For a value that is present, the client and the donation routes agree on
      which currency codes are valid and how they are written. */
  lemma CurrencyRulesAgree(value: Option<Json>, numberText: real -> string)
    requires OptJsTruthy(value)
    ensures NormalizeCurrency(value, numberText).Success? <==> NormalizeCurrencyCode(value, numberText).Some?
    ensures NormalizeCurrency(value, numberText).Success? ==>
              NormalizeCurrency(value, numberText).value == NormalizeCurrencyCode(value, numberText).value
  {
  }

  // ------------------------------------------------------------ order body

  const MAX_UNIT_TEXT: nat := 120

  datatype PurchaseUnit = PurchaseUnit(currencyCode: string, value: string,
                                       description: Option<string>, referenceId: Option<string>)

  datatype OrderBody = OrderBody(intent: string, purchaseUnits: seq<PurchaseUnit>)

  /** An optional text field of the unit: present only when truthy, cut to 120
      characters. */
  function UnitText(v: Option<Json>, numberText: real -> string): (r: Option<string>)
    ensures r.Some? <==> OptJsTruthy(v)
    ensures r.Some? ==> |r.value| <= MAX_UNIT_TEXT && StartsWith(JsString(v.value, numberText), r.value)
  {
    if OptJsTruthy(v) then Some(Take(JsString(v.value, numberText), MAX_UNIT_TEXT)) else None
  }

  /** `buildCreateOrderBody`: the amount is checked first, then the currency; the
      body asks for capture of exactly one purchase unit. */
  function BuildCreateOrderBody(amount: Option<Json>, currency: Option<Json>, description: Option<Json>,
                                referenceId: Option<Json>, numberText: real -> string,
                                parseFloat: string -> Option<real>): (r: Result<OrderBody, PayPalError>)
    ensures FormatAmountAsWritten(amount, numberText, parseFloat).Failure? ==> r == Failure(BadAmount)
    ensures r.Failure? <==>
              FormatAmountAsWritten(amount, numberText, parseFloat).Failure?
              || NormalizeCurrency(currency, numberText).Failure?
    ensures r.Success? ==>
              && r.value.intent == "CAPTURE"
              && |r.value.purchaseUnits| == 1
              && r.value.purchaseUnits[0].value == FormatAmountAsWritten(amount, numberText, parseFloat).value
              && (r.value.purchaseUnits[0].value != "0.00" ==>
                    FormatAmount(amount, numberText, parseFloat) == Success(r.value.purchaseUnits[0].value))
              && IsCurrencyCode(r.value.purchaseUnits[0].currencyCode)
              && r.value.purchaseUnits[0].currencyCode == NormalizeCurrency(currency, numberText).value
              && r.value.purchaseUnits[0].description == UnitText(description, numberText)
              && r.value.purchaseUnits[0].referenceId == UnitText(referenceId, numberText)
  {
    FormatAmountDiffersOnlyAtZero(amount, numberText, parseFloat);
    var total :- FormatAmountAsWritten(amount, numberText, parseFloat);
    var code :- NormalizeCurrency(currency, numberText);
    var unit := PurchaseUnit(code, total, UnitText(description, numberText), UnitText(referenceId, numberText));
    Success(OrderBody("CAPTURE", [unit]))
  }

  // ------------------------------------------------------------ capture

  datatype CaptureRequest = CaptureRequest(url: string, credentials: Credentials)

  const ORDERS_PATH: string := "/v2/checkout/orders/"

  /** `/v2/checkout/orders/<id>/capture` under `base`; the encoded id is one path
      segment. */
  function CaptureUrl(base: string, encoded: string): (url: string)
    requires forall k :: 0 <= k < |encoded| ==> IsUriChar(encoded[k])
    ensures StartsWith(url, base + ORDERS_PATH) && EndsWith(url, "/capture")
    ensures |url| == |base| + |ORDERS_PATH| + |encoded| + |"/capture"|
    ensures url[|base| + |ORDERS_PATH|..|url| - |"/capture"|] == encoded
    ensures '/' !in encoded
  {
    var url := base + ORDERS_PATH + encoded + "/capture";
    assert url[..|base + ORDERS_PATH|] == base + ORDERS_PATH;
    assert url[|url| - |"/capture"|..] == "/capture";
    assert url[|base| + |ORDERS_PATH|..|url| - |"/capture"|] == encoded;
    forall k | 0 <= k < |encoded|
      ensures encoded[k] != '/'
    {
      assert IsUriChar(encoded[k]);
    }
    url
  }

  /** What `captureOrder` prepares before it talks to PayPal: a blank order id is
      rejected before the credentials are even looked at; otherwise the id is
      percent-encoded into the capture URL. */
  function CaptureOrderRequest(orderId: Option<Json>, env: Env, numberText: real -> string)
    : (r: Result<CaptureRequest, PayPalError>)
    ensures Trim(OrEmptyText(orderId, numberText)) == "" ==> r == Failure(BadOrderId)
    ensures Trim(OrEmptyText(orderId, numberText)) != "" ==>
              (r.Failure? <==> GetPayPalCredentials(env).Failure?)
    ensures r.Success? ==>
              && StartsWith(r.value.url, BaseUrl(env) + ORDERS_PATH)
              && EndsWith(r.value.url, "/capture")
              && |r.value.url| >= |BaseUrl(env)| + |ORDERS_PATH| + |"/capture"|
              && '/' !in r.value.url[|BaseUrl(env)| + |ORDERS_PATH|..|r.value.url| - |"/capture"|]
    ensures r.Success? ==>
              && r.value.credentials == GetPayPalCredentials(env).value
              && |r.value.url| >= |BaseUrl(env)| + |ORDERS_PATH| + |"/capture"|
              && r.value.url[|BaseUrl(env)| + |ORDERS_PATH|..|r.value.url| - |"/capture"|]
                 == EncodeUriComponent(Trim(OrEmptyText(orderId, numberText)))
    ensures r.Success? && (forall k :: 0 <= k < |Trim(OrEmptyText(orderId, numberText))| ==>
                             Trim(OrEmptyText(orderId, numberText))[k] as int < 0x80) ==>
              DecodeAscii(r.value.url[|BaseUrl(env)| + |ORDERS_PATH|..|r.value.url| - |"/capture"|])
                == Some(Trim(OrEmptyText(orderId, numberText)))
  {
    var trimmed := Trim(OrEmptyText(orderId, numberText));
    if trimmed == "" then Failure(BadOrderId)
    else
      var credentials := GetPayPalCredentials(env);
      if credentials.Failure? then Failure(credentials.error)
      else
        AsciiIdDecodes(trimmed);
        Success(CaptureRequest(CaptureUrl(BaseUrl(env), EncodeUriComponent(trimmed)), credentials.value))
  }

  /** An ASCII order id is read back from its encoded path segment. */
  lemma AsciiIdDecodes(s: string)
    ensures (forall k :: 0 <= k < |s| ==> s[k] as int < 0x80) ==> DecodeAscii(EncodeUriComponent(s)) == Some(s)
  {
    if forall k :: 0 <= k < |s| ==> s[k] as int < 0x80 {
      EncodeUriAsciiRoundTrip(s);
    }
  }
}

=== FILE: persona.dfy ===
/** The persona's greeting shortcut: a short utterance that is only a greeting
    ("hi", "hello tubs", ...) is answered with a canned response instead of a model
    call.  The greeting configuration comes from a JSON file whose triggers are
    normalised and whose responses are trimmed, with built-in defaults for anything
    missing. */
module Persona {
  import opened Wrappers
  import opened Strs
  import opened Json

  datatype GreetingConfig = GreetingConfig(maxWords: int, triggers: seq<string>, responses: seq<string>)

  const DEFAULT_MAX_WORDS: int := 5
  const DEFAULT_TRIGGERS: seq<string> := ["hi", "hello", "hey"]
  const DEFAULT_RESPONSES: seq<string> := ["Hey. Tubs online."]
  const DEFAULT_GREETINGS: GreetingConfig :=
    GreetingConfig(DEFAULT_MAX_WORDS, DEFAULT_TRIGGERS, DEFAULT_RESPONSES)

  /** The defaults as the JSON value the loader falls back to when the file is
      missing or does not parse. */
  const DEFAULT_GREETINGS_JSON: Json := JObj([
    ("maxWords", JNum(5.0)),
    ("triggers", JArr(StrArray(DEFAULT_TRIGGERS))),
    ("responses", JArr(StrArray(DEFAULT_RESPONSES)))
  ])

  /** A JSON array of strings. */
  function StrArray(ss: seq<string>): (r: seq<Json>)
    ensures |r| == |ss|
    ensures forall k :: 0 <= k < |ss| ==> r[k] == JStr(ss[k])
  {
    seq(|ss|, k requires 0 <= k < |ss| => JStr(ss[k]))
  }

  /** Names the assistant answers to after a greeting word ("hey tubs"). */
  const WAKE_NAME_SUFFIXES: set<string> := {"tubs", "tub", "tubbs", "tops", "top"}

  // ------------------------------------------------------------ normalisation

  /** Characters a normalised greeting keeps: `[a-z0-9']`. */
  predicate IsGreetingChar(c: char) { IsLowerAscii(c) || IsDigit(c) || c == '\'' }

  /** Every character that is neither `[a-z0-9']` nor whitespace becomes a space. */
  function Scrub(s: string): (r: string)
    ensures |r| == |s|
    ensures forall i :: 0 <= i < |s| ==> if IsGreetingChar(s[i]) || IsSpace(s[i]) then r[i] == s[i] else r[i] == ' '
  {
    seq(|s|, i requires 0 <= i < |s| => if IsGreetingChar(s[i]) || IsSpace(s[i]) then s[i] else ' ')
  }

  /** The maximal runs of `[a-z0-9']` characters of a string, in order, read
      left to right with `cur` the run being read. */
  function GreetingWordsFrom(t: string, cur: string): seq<string>
    decreases |t|
  {
    if |t| == 0 then Flush(cur)
    else if !IsGreetingChar(t[0]) then Flush(cur) + GreetingWordsFrom(t[1..], "")
    else GreetingWordsFrom(t[1..], cur + [t[0]])
  }

  function GreetingWords(t: string): seq<string> {
    GreetingWordsFrom(t, "")
  }

  /** After scrubbing, the whitespace-separated words are the `[a-z0-9']` runs. */
  lemma {:induction false} ScrubWords(t: string, cur: string)
    ensures SpaceWordsFrom(Scrub(t), cur) == GreetingWordsFrom(t, cur)
    decreases |t|
  {
    if |t| > 0 {
      var u := Scrub(t);
      assert u[1..] == Scrub(t[1..]);
      assert IsSpace(u[0]) <==> !IsGreetingChar(t[0]);
      ScrubWords(t[1..], if IsGreetingChar(t[0]) then cur + [t[0]] else "");
    }
  }

  /** The `[a-z0-9']` characters of a string, in order. */
  function GreetingChars(s: string): string {
    if |s| == 0 then "" else (if IsGreetingChar(s[0]) then [s[0]] else "") + GreetingChars(s[1..])
  }

  /** A normalised greeting: words of `[a-z0-9']` separated by single spaces. */
  predicate GreetingText(r: string) {
    Normalized(r) && forall i :: 0 <= i < |r| ==> IsGreetingChar(r[i]) || r[i] == ' '
  }

  /** `normalizeText`: lower-case, decompose and drop diacritics (`fold`), replace
      every other character by a space, collapse whitespace and trim.  The result
      keeps exactly the `[a-z0-9']` characters of the folded text, in order. */
  function NormalizeText(input: string, fold: string -> string): (r: string)
    ensures GreetingText(r)
    ensures NonSpace(r) == GreetingChars(fold(LowerStr(input)))
    ensures r == Join(GreetingWords(fold(LowerStr(input))), " ")
  {
    var s := Scrub(fold(LowerStr(input)));
    var r := NormalizeWs(s);
    NonSpaceOfScrub(fold(LowerStr(input)));
    ScrubWords(fold(LowerStr(input)), "");
    forall i | 0 <= i < |r|
      ensures IsGreetingChar(r[i]) || r[i] == ' '
    {
      if !IsGreetingChar(r[i]) {
        NonSpaceMember(r, s, i, IsGreetingChar);
      }
    }
    r
  }

  lemma {:induction false} NonSpaceOfScrub(t: string)
    ensures NonSpace(Scrub(t)) == GreetingChars(t)
  {
    if |t| > 0 {
      NonSpaceOfScrub(t[1..]);
      assert Scrub(t)[1..] == Scrub(t[1..]);
    }
  }

  /** A normalised greeting is its own normal form (for any fold that leaves ASCII
      alone), so normalising twice is normalising once. */
  lemma NormalizeTextFixed(r: string, fold: string -> string)
    requires FoldKeepsAscii(fold)
    requires GreetingText(r)
    ensures NormalizeText(r, fold) == r
  {
    LowerStrOfLower(r);
    assert AllAscii(r);
    assert Scrub(r) == r;
    NormalizedIffFixed(r);
  }

  lemma NormalizeTextIdempotent(input: string, fold: string -> string)
    requires FoldKeepsAscii(fold)
    ensures NormalizeText(NormalizeText(input, fold), fold) == NormalizeText(input, fold)
  {
    NormalizeTextFixed(NormalizeText(input, fold), fold);
  }

  // ------------------------------------------------------------ configuration

  /** `normalizeText` applied to an element of the `triggers` array: a falsy value
      reads as the empty string, a string is normalised, and any other value has no
      `toLowerCase` method, which throws. */
  function NormalizeTrigger(j: Json, fold: string -> string): (r: Result<string, string>)
    ensures r.Failure? <==> JsTruthy(j) && !j.JStr?
    ensures r.Success? ==> GreetingText(r.value)
    ensures r.Success? && r.value != "" ==> j.JStr? && r.value == NormalizeText(j.s, fold)
  {
    if !JsTruthy(j) then Success("")  // the empty string normalises to itself
    else if j.JStr? then Success(NormalizeText(j.s, fold))
    else Failure("TypeError: input.toLowerCase is not a function")
  }

  /** What a trigger that does not throw normalises to: a falsy value reads as
      empty, and a non-empty string is normalised. */
  function TriggerText(j: Json, fold: string -> string): string {
    if JsTruthy(j) && j.JStr? then NormalizeText(j.s, fold) else ""
  }

  lemma TriggerTextOf(j: Json, fold: string -> string)
    ensures NormalizeTrigger(j, fold).Success? ==> NormalizeTrigger(j, fold).value == TriggerText(j, fold)
  {
  }

  /** `triggers.map(normalizeText)` for an array that does not throw. */
  function TriggerTexts(items: seq<Json>, fold: string -> string): (r: seq<string>)
    ensures |r| == |items|
  {
    if |items| == 0 then [] else [TriggerText(items[0], fold)] + TriggerTexts(items[1..], fold)
  }

  /** The normalised non-empty triggers, in order; fails on the first element that
      cannot be normalised. */
  function NormalizeTriggers(items: seq<Json>, fold: string -> string): (r: Result<seq<string>, string>)
    ensures r.Failure? <==> AnyBad(items)
    ensures r.Success? ==> forall k :: 0 <= k < |r.value| ==> r.value[k] != "" && GreetingText(r.value[k])
    ensures r.Success? ==> r.value == NonEmptyParts(TriggerTexts(items, fold))
  {
    if |items| == 0 then Success([])
    else
      AnyBadCons(items);
      match NormalizeTrigger(items[0], fold)
      case Failure(e) => Failure(e)
      case Success(head) =>
        match NormalizeTriggers(items[1..], fold)
        case Failure(e) => Failure(e)
        case Success(tail) =>
          TriggersCons(items, fold, head, tail);
          Success(if head == "" then tail else [head] + tail)
  }

  /** One more element in front of the normalised triggers: kept when its
      text is not empty. */
  lemma TriggersCons(items: seq<Json>, fold: string -> string, head: string, tail: seq<string>)
    requires |items| > 0 && NormalizeTrigger(items[0], fold) == Success(head)
    requires forall k :: 0 <= k < |tail| ==> tail[k] != "" && GreetingText(tail[k])
    requires tail == NonEmptyParts(TriggerTexts(items[1..], fold))
    ensures var r := if head == "" then tail else [head] + tail;
            && (forall k :: 0 <= k < |r| ==> r[k] != "" && GreetingText(r[k]))
            && r == NonEmptyParts(TriggerTexts(items, fold))
  {
    TriggerTextOf(items[0], fold);
    assert TriggerTexts(items, fold) == [head] + TriggerTexts(items[1..], fold);
    NonEmptyPartsCons(head, TriggerTexts(items[1..], fold));
    if head != "" {
      GreetingCons(head, tail);
    }
  }

  lemma GreetingCons(head: string, tail: seq<string>)
    requires head != "" && GreetingText(head)
    requires forall k :: 0 <= k < |tail| ==> tail[k] != "" && GreetingText(tail[k])
    ensures forall k :: 0 <= k < |[head] + tail| ==> ([head] + tail)[k] != "" && GreetingText(([head] + tail)[k])
  {
    ConsAll(head, tail, s => s != "" && GreetingText(s));
  }

  /** An element of `triggers` that makes the loader throw. */
  predicate BadTrigger(j: Json) { JsTruthy(j) && !j.JStr? }

  predicate AnyBad(items: seq<Json>) {
    exists k :: 0 <= k < |items| && BadTrigger(items[k])
  }

  lemma AnyBadCons(items: seq<Json>)
    requires |items| > 0
    ensures AnyBad(items) <==> BadTrigger(items[0]) || AnyBad(items[1..])
  {
    if AnyBad(items[1..]) {
      var k :| 0 <= k < |items| - 1 && BadTrigger(items[1..][k]);
      assert items[k + 1] == items[1..][k];
    }
    if AnyBad(items) && !BadTrigger(items[0]) {
      var k :| 0 <= k < |items| && BadTrigger(items[k]);
      assert items[1..][k - 1] == items[k];
    }
  }

  /** `String(s || '').trim()` for one element of `responses`. */
  function ResponseText(j: Json, numberText: real -> string): (r: string)
    ensures r == [] || (!IsSpace(r[0]) && !IsSpace(r[|r| - 1]))
    ensures !JsTruthy(j) ==> r == ""
    ensures j.JStr? ==> r == Trim(j.s)
  {
    Trim(OrEmptyText(Some(j), numberText))
  }

  /** `responses.map((s) => String(s || '').trim())`. */
  function ResponseTexts(items: seq<Json>, numberText: real -> string): (r: seq<string>)
    ensures |r| == |items|
  {
    if |items| == 0 then [] else [ResponseText(items[0], numberText)] + ResponseTexts(items[1..], numberText)
  }

  /** The trimmed non-empty responses, in order. */
  function Responses(items: seq<Json>, numberText: real -> string): (r: seq<string>)
    ensures |r| <= |items|
    ensures forall k :: 0 <= k < |r| ==> r[k] != "" && Trim(r[k]) == r[k]
    ensures r == NonEmptyParts(ResponseTexts(items, numberText))
  {
    if |items| == 0 then []
    else
      var head := ResponseText(items[0], numberText);
      var tail := Responses(items[1..], numberText);
      ResponsesCons(items, numberText, head, tail);
      if head == "" then tail else [head] + tail
  }

  /** One more element in front of `Responses`: kept when its text is not empty. */
  lemma ResponsesCons(items: seq<Json>, numberText: real -> string, head: string, tail: seq<string>)
    requires |items| > 0 && head == ResponseText(items[0], numberText)
    requires |tail| <= |items| - 1
    requires forall k :: 0 <= k < |tail| ==> tail[k] != "" && Trim(tail[k]) == tail[k]
    requires tail == NonEmptyParts(ResponseTexts(items[1..], numberText))
    ensures var r := if head == "" then tail else [head] + tail;
            && |r| <= |items|
            && (forall k :: 0 <= k < |r| ==> r[k] != "" && Trim(r[k]) == r[k])
            && r == NonEmptyParts(ResponseTexts(items, numberText))
  {
    assert ResponseTexts(items, numberText) == [head] + ResponseTexts(items[1..], numberText);
    NonEmptyPartsCons(head, ResponseTexts(items[1..], numberText));
    if head != "" {
      TrimmedCons(head, tail);
    }
  }

  /** JavaScript `Math.max(1, Math.floor(n))`. */
  function MaxWordsOf(n: real): (m: int)
    ensures m >= 1
    ensures m == 1 || (m as real <= n < m as real + 1.0)
  {
    if n.Floor < 1 then 1 else n.Floor
  }

  /** What every loaded configuration satisfies. */
  predicate ValidConfig(c: GreetingConfig) {
    && c.maxWords >= 1
    && |c.triggers| >= 1
    && |c.responses| >= 1
    && (forall k :: 0 <= k < |c.triggers| ==> c.triggers[k] != "" && GreetingText(c.triggers[k]))
    && (forall k :: 0 <= k < |c.responses| ==> c.responses[k] != "" && Trim(c.responses[k]) == c.responses[k])
  }

  /** The `triggers` array of a configuration, when it is one. */
  function ArrayField(config: Json, key: string): Option<seq<Json>> {
    match Get(config, key)
    case Some(JArr(items)) => Some(items)
    case _ => None
  }

  /** `loadGreetingConfig`.  `raw` is the parsed greetings file (`None` when it is
      missing or does not parse, in which case the defaults are read the same way).
      A file holding `null` throws on the first property access; a `triggers` array
      with a truthy non-string element throws in `normalizeText`. */
  function LoadGreetingConfig(raw: Option<Json>, fold: string -> string, numberText: real -> string)
    : (r: Result<GreetingConfig, string>)
    ensures r.Failure? <==>
              raw == Some(JNull)
              || (raw.Some? && ArrayField(raw.value, "triggers").Some?
                  && AnyBad(ArrayField(raw.value, "triggers").value))
    ensures r.Success? ==> ValidConfig(r.value)
    ensures r.Success? ==>
              var config := if raw.None? then DEFAULT_GREETINGS_JSON else raw.value;
              && (match Get(config, "maxWords")
                  case Some(JNum(n)) => r.value.maxWords == MaxWordsOf(n)
                  case _ => r.value.maxWords == DEFAULT_MAX_WORDS)
              && (match ArrayField(config, "triggers")
                  case Some(items) =>
                    var kept := NonEmptyParts(TriggerTexts(items, fold));
                    r.value.triggers == if |kept| > 0 then kept else DEFAULT_TRIGGERS
                  case None => r.value.triggers == DEFAULT_TRIGGERS)
              && (match ArrayField(config, "responses")
                  case Some(items) =>
                    var kept := NonEmptyParts(ResponseTexts(items, numberText));
                    r.value.responses == if |kept| > 0 then kept else DEFAULT_RESPONSES
                  case None => r.value.responses == DEFAULT_RESPONSES)
  {
    var config := if raw.None? then DEFAULT_GREETINGS_JSON else raw.value;
    if config.JNull? then Failure("TypeError: cannot read properties of null")
    else
      var triggers :- ConfigTriggers(config, fold);
      Success(GreetingConfig(ConfigMaxWords(config), triggers, ConfigResponses(config, numberText)))
  }

  /** The `triggers` of a configuration, the defaults standing in for a
      missing array or one that keeps nothing. */
  function ConfigTriggers(config: Json, fold: string -> string): (r: Result<seq<string>, string>)
    ensures r.Failure? <==> ArrayField(config, "triggers").Some? && AnyBad(ArrayField(config, "triggers").value)
    ensures r.Success? ==> |r.value| >= 1 && forall k :: 0 <= k < |r.value| ==> r.value[k] != "" && GreetingText(r.value[k])
    ensures r.Success? ==>
              match ArrayField(config, "triggers")
              case Some(items) =>
                var kept := NonEmptyParts(TriggerTexts(items, fold));
                r.value == if |kept| > 0 then kept else DEFAULT_TRIGGERS
              case None => r.value == DEFAULT_TRIGGERS
  {
    DefaultsValid();
    var triggers :- match ArrayField(config, "triggers")
                    case Some(items) => NormalizeTriggers(items, fold)
                    case None => Success(DEFAULT_TRIGGERS);
    Success(if |triggers| > 0 then triggers else DEFAULT_TRIGGERS)
  }

  /** The `responses` of a configuration, the defaults standing in for a
      missing array or one that keeps nothing. */
  function ConfigResponses(config: Json, numberText: real -> string): (r: seq<string>)
    ensures |r| >= 1 && forall k :: 0 <= k < |r| ==> r[k] != "" && Trim(r[k]) == r[k]
    ensures match ArrayField(config, "responses")
            case Some(items) =>
              var kept := NonEmptyParts(ResponseTexts(items, numberText));
              r == if |kept| > 0 then kept else DEFAULT_RESPONSES
            case None => r == DEFAULT_RESPONSES
  {
    DefaultsValid();
    var responses := match ArrayField(config, "responses")
                     case Some(items) => Responses(items, numberText)
                     case None => DEFAULT_RESPONSES;
    if |responses| > 0 then responses else DEFAULT_RESPONSES
  }

  /** The `maxWords` of a configuration: a number floored and at least one,
      else the default. */
  function ConfigMaxWords(config: Json): (r: int)
    ensures r >= 1
    ensures match Get(config, "maxWords")
            case Some(JNum(n)) => r == MaxWordsOf(n)
            case _ => r == DEFAULT_MAX_WORDS
  {
    match Get(config, "maxWords")
    case Some(JNum(n)) => MaxWordsOf(n)
    case _ => DEFAULT_MAX_WORDS
  }

  lemma DefaultsValid()
    ensures ValidConfig(DEFAULT_GREETINGS)
  {
    assert GreetingText("hi") && GreetingText("hello") && GreetingText("hey");
    assert Trim("Hey. Tubs online.") == "Hey. Tubs online." by {
      TrimWithStripped("Hey. Tubs online.", IsSpace);
    }
  }

  // ------------------------------------------------------------ answering

  /** `s.split(' ').filter(Boolean)`.  On normalised text, the only text it is
      given, these are the whitespace-separated words. */
  function Words(s: string): (r: seq<string>)
    ensures forall k :: 0 <= k < |r| ==> r[k] != "" && ' ' !in r[k]
    ensures Normalized(s) ==> r == SpaceWords(s)
  {
    WordsOfNormalized(s);
    NonEmptyParts(SplitOn(s, ' '))
  }

  lemma WordsOfNormalized(s: string)
    ensures Normalized(s) ==> NonEmptyParts(SplitOn(s, ' ')) == SpaceWords(s)
  {
    if !Normalized(s) { return; }
    var ws := SpaceWords(s);
    NormalizedIsJoin(s);
    SpaceWordsFacts(s);
    if |ws| == 0 {
      assert s == "";
      assert SplitOn(s, ' ') == [""];
    } else {
      forall k | 0 <= k < |ws|
        ensures ' ' !in ws[k]
      {
        assert AllWith(ws[k], IsSolid);
      }
      SplitJoin(ws, ' ');
      NonEmptyPartsAll(ws);
    }
  }

  /** The utterance is the trigger itself, or the trigger, a space, and one of the
      assistant's names. */
  predicate Matches(normalized: string, trigger: string) {
    normalized == trigger
    || (StartsWith(normalized, trigger + " ")
        && Trim(normalized[|trigger|..]) in WAKE_NAME_SUFFIXES)
  }

  /** The loop over the triggers, in order: does any of them match? */
  function AnyTrigger(normalized: string, triggers: seq<string>): (b: bool)
    ensures b <==> exists k :: 0 <= k < |triggers| && Matches(normalized, triggers[k])
  {
    if |triggers| == 0 then false
    else Matches(normalized, triggers[0]) || AnyTrigger(normalized, triggers[1..])
  }

  /** The answer for an already normalised, non-empty utterance.  `draw` stands for
      `Math.floor(Math.random() * responses.length)` before the reduction. */
  function Answer(normalized: string, cfg: GreetingConfig, draw: nat): (r: Option<string>)
    requires ValidConfig(cfg)
    ensures r.Some? <==>
              0 < |Words(normalized)| <= cfg.maxWords
              && exists k :: 0 <= k < |cfg.triggers| && Matches(normalized, cfg.triggers[k])
    ensures r.Some? ==> r.value in cfg.responses
  {
    var words := Words(normalized);
    if |words| == 0 || |words| > cfg.maxWords then None
    else if AnyTrigger(normalized, cfg.triggers) then Some(cfg.responses[draw % |cfg.responses|])
    else None
  }

  /** `pickGreetingResponse`: `None` for an utterance that normalises to nothing
      (without reading the configuration), otherwise the configuration is loaded and
      asked.  A configuration that throws makes the whole call fail. */
  function PickGreetingResponse(text: string, raw: Option<Json>, fold: string -> string,
                                numberText: real -> string, draw: nat): (r: Result<Option<string>, string>)
    ensures NormalizeText(text, fold) == "" ==> r == Success(None)
    ensures r.Failure? <==> NormalizeText(text, fold) != "" && LoadGreetingConfig(raw, fold, numberText).Failure?
    ensures r.Success? && r.value.Some? ==>
              && LoadGreetingConfig(raw, fold, numberText).Success?
              && r.value.value in LoadGreetingConfig(raw, fold, numberText).value.responses
  {
    var normalized := NormalizeText(text, fold);
    if normalized == "" then Success(None)
    else
      var cfg :- LoadGreetingConfig(raw, fold, numberText);
      Success(Answer(normalized, cfg, draw))
  }

  // ------------------------------------------------------------ properties

  /** A greeting followed by one of the assistant's names matches that greeting. */
  lemma NameSuffixMatches(trigger: string, name: string)
    requires name in WAKE_NAME_SUFFIXES
    ensures Matches(trigger + " " + name, trigger)
  {
    var n := trigger + " " + name;
    assert n[..|trigger| + 1] == trigger + " ";
    assert n[|trigger|..] == " " + name;
    TrimSpaceName(name);
  }

  lemma TrimSpaceName(name: string)
    requires name in WAKE_NAME_SUFFIXES
    ensures Trim(" " + name) == name
  {
    SuffixesSolid(name);
    TrimOneSpace(name);
  }

  lemma SuffixesSolid(name: string)
    requires name in WAKE_NAME_SUFFIXES
    ensures name != "" && !IsSpace(name[0]) && !IsSpace(name[|name| - 1])
  {
  }

  /** Trimming one leading space off a string without whitespace at its ends. */
  lemma TrimOneSpace(x: string)
    requires x != "" && !IsSpace(x[0]) && !IsSpace(x[|x| - 1])
    ensures Trim(" " + x) == x
  {
    var s := " " + x;
    assert s[1..] == x;
    assert LeadCount(s, IsSpace) == 1;
    assert TrailCount(x, IsSpace) == 0;
  }

  /** With no greetings file, the loader yields exactly the built-in defaults. */
  lemma DefaultsLoad(fold: string -> string, numberText: real -> string)
    requires FoldKeepsAscii(fold)
    ensures LoadGreetingConfig(None, fold, numberText) == Success(DEFAULT_GREETINGS)
  {
    DefaultFields();
    DefaultTriggersLoad(fold);
    DefaultResponsesLoad(numberText);
    assert MaxWordsOf(5.0) == 5;
    LoadFields(DEFAULT_GREETINGS_JSON, fold, numberText, DEFAULT_TRIGGERS, DEFAULT_RESPONSES, 5.0);
  }

  lemma DefaultTriggersLoad(fold: string -> string)
    requires FoldKeepsAscii(fold)
    ensures NormalizeTriggers(StrArray(DEFAULT_TRIGGERS), fold) == Success(DEFAULT_TRIGGERS)
  {
    LetterWord("hey");
    LetterWord("hello");
    LetterWord("hi");
    StringTriggersLoad(DEFAULT_TRIGGERS, fold);
  }

  lemma DefaultFields()
    ensures ArrayField(DEFAULT_GREETINGS_JSON, "triggers") == Some(StrArray(DEFAULT_TRIGGERS))
    ensures ArrayField(DEFAULT_GREETINGS_JSON, "responses") == Some(StrArray(DEFAULT_RESPONSES))
    ensures Get(DEFAULT_GREETINGS_JSON, "maxWords") == Some(JNum(5.0))
  {
    var fields := DEFAULT_GREETINGS_JSON.fields;
    assert fields[..2][..1] == [("maxWords", JNum(5.0))];
    assert Lookup(fields[..2], "maxWords") == Lookup(fields[..2][..1], "maxWords");
  }

  /** Loading a configuration object whose three fields are all present and usable. */
  lemma LoadFields(config: Json, fold: string -> string, numberText: real -> string,
                   triggers: seq<string>, responses: seq<string>, n: real)
    requires config.JObj?
    requires ArrayField(config, "triggers").Some?
    requires NormalizeTriggers(ArrayField(config, "triggers").value, fold) == Success(triggers)
    requires ArrayField(config, "responses").Some?
    requires Responses(ArrayField(config, "responses").value, numberText) == responses
    requires Get(config, "maxWords") == Some(JNum(n))
    requires |triggers| > 0 && |responses| > 0
    ensures LoadGreetingConfig(Some(config), fold, numberText) == Success(GreetingConfig(MaxWordsOf(n), triggers, responses))
    ensures config == DEFAULT_GREETINGS_JSON ==>
              LoadGreetingConfig(None, fold, numberText) == LoadGreetingConfig(Some(config), fold, numberText)
  {
  }

  /** An array of triggers already in normal form loads as they are. */
  lemma {:induction false} StringTriggersLoad(ts: seq<string>, fold: string -> string)
    requires FoldKeepsAscii(fold)
    requires forall k :: 0 <= k < |ts| ==> ts[k] != "" && GreetingText(ts[k])
    ensures NormalizeTriggers(StrArray(ts), fold) == Success(ts)
  {
    if |ts| > 0 {
      var items := StrArray(ts);
      assert items[1..] == StrArray(ts[1..]);
      StringTriggersLoad(ts[1..], fold);
      TriggerOfString(ts[0], fold);
      TriggersStep(items, fold, ts[0], ts[1..]);
      assert ts == [ts[0]] + ts[1..];
    }
  }

  lemma TriggerOfString(t: string, fold: string -> string)
    requires FoldKeepsAscii(fold)
    requires t != "" && GreetingText(t)
    ensures NormalizeTrigger(JStr(t), fold) == Success(t)
  {
    NormalizeTextFixed(t, fold);
  }

  lemma TriggersStep(items: seq<Json>, fold: string -> string, head: string, tail: seq<string>)
    requires |items| > 0
    requires NormalizeTrigger(items[0], fold) == Success(head)
    requires NormalizeTriggers(items[1..], fold) == Success(tail)
    ensures NormalizeTriggers(items, fold) == Success(if head == "" then tail else [head] + tail)
  {
  }

  lemma DefaultResponsesLoad(numberText: real -> string)
    ensures Responses(StrArray(DEFAULT_RESPONSES), numberText) == DEFAULT_RESPONSES
  {
    var items := StrArray(DEFAULT_RESPONSES);
    assert items[1..] == [];
    TrimWithStripped("Hey. Tubs online.", IsSpace);
  }

  /** A word of lower-case letters is a normalised greeting. */
  lemma LetterWord(t: string)
    requires forall i :: 0 <= i < |t| ==> IsLowerAscii(t[i])
    ensures GreetingText(t)
  {
  }

  /** Every trigger the loader keeps is already in normal form, so an utterance
      that is exactly a trigger normalises to it. */
  lemma LoadedTriggerFixed(raw: Option<Json>, fold: string -> string, numberText: real -> string, k: nat)
    requires FoldKeepsAscii(fold)
    requires LoadGreetingConfig(raw, fold, numberText).Success?
    requires k < |LoadGreetingConfig(raw, fold, numberText).value.triggers|
    ensures var t := LoadGreetingConfig(raw, fold, numberText).value.triggers[k];
            NormalizeText(t, fold) == t
  {
    NormalizeTextFixed(LoadGreetingConfig(raw, fold, numberText).value.triggers[k], fold);
  }

  /** With the defaults, "Hey Tubs" is answered with the default response. */
  lemma HeyTubsAnswered(fold: string -> string, numberText: real -> string, draw: nat)
    requires FoldKeepsAscii(fold)
    ensures PickGreetingResponse("Hey Tubs", None, fold, numberText, draw) == Success(Some("Hey. Tubs online."))
  {
    HeyTubsNormalized(fold);
    DefaultsLoad(fold, numberText);
    DefaultsValid();
    HeyTubsDefaultAnswer(draw);
    PickLoaded("Hey Tubs", None, fold, numberText, draw, DEFAULT_GREETINGS);
  }

  lemma HeyTubsNormalized(fold: string -> string)
    requires FoldKeepsAscii(fold)
    ensures NormalizeText("Hey Tubs", fold) == "hey tubs"
  {
    var n := "hey tubs";
    assert LowerStr("Hey Tubs") == n;
    LowerStrOfLower(n);
    assert GreetingText(n);
    NormalizeTextFixed(n, fold);
  }

  lemma HeyTubsDefaultAnswer(draw: nat)
    ensures ValidConfig(DEFAULT_GREETINGS)
    ensures Answer("hey tubs", DEFAULT_GREETINGS, draw) == Some("Hey. Tubs online.")
  {
    DefaultsValid();
    var cfg := DEFAULT_GREETINGS;
    assert cfg.triggers[2] == "hey";
    HeyTubsMatches();
    HeyTubsWords();
    assert |cfg.responses| == 1 && draw % 1 == 0;
  }

  lemma HeyTubsMatches()
    ensures Matches("hey tubs", "hey")
  {
    assert "hey tubs"[..4] == "hey" + " ";
    assert "hey tubs"[3..] == " " + "tubs";
    TrimSpaceName("tubs");
  }

  /** Once the utterance is non-empty and the configuration loads, the answer is
      the configuration's. */
  lemma PickLoaded(text: string, raw: Option<Json>, fold: string -> string, numberText: real -> string,
                   draw: nat, cfg: GreetingConfig)
    requires NormalizeText(text, fold) != ""
    requires LoadGreetingConfig(raw, fold, numberText) == Success(cfg)
    ensures ValidConfig(cfg)
    ensures PickGreetingResponse(text, raw, fold, numberText, draw) == Success(Answer(NormalizeText(text, fold), cfg, draw))
  {
  }

  lemma HeyTubsWords()
    ensures Words("hey tubs") == ["hey", "tubs"]
  {
    SplitHeyTubs();
    SplitTubs();
    assert ["hey"] + ["tubs"] == ["hey", "tubs"];
    assert NonEmptyParts(["hey", "tubs"][1..]) == ["tubs"];
  }

  lemma SplitHeyTubs()
    ensures SplitOn("hey tubs", ' ') == ["hey"] + SplitOn("tubs", ' ')
  {
    var n := "hey tubs";
    assert IndexOfChar(n, ' ') == 3 by {
      assert n[3] == ' ' && ' ' !in n[..3];
    }
    assert n[..3] == "hey" && n[4..] == "tubs";
  }

  lemma SplitTubs()
    ensures SplitOn("tubs", ' ') == ["tubs"]
  {
    assert ' ' !in "tubs";
  }
}

=== FILE: process_env.dfy ===
/** The process environment as the Node side reads it: `process.env.NAME || fallback`
    chains, and the `.env` file loader, which adds a variable only when the
    environment does not already define it.  The environment is a map; a missing
    key is an undefined variable. */
module ProcessEnv {
  import opened Wrappers
  import opened Strs

  type Env = map<string, string>

  /** `process.env[key]`. */
  function Var(env: Env, key: string): Option<string> {
    if key in env then Some(env[key]) else None
  }

  /** `v || fallback` for an optional string: an undefined or empty value gives the
      fallback. */
  function Or(v: Option<string>, fallback: string): (r: string)
    ensures v.Some? && v.value != "" ==> r == v.value
    ensures (v.None? || v.value == "") ==> r == fallback
  {
    if v.Some? && v.value != "" then v.value else fallback
  }

  /** `a || b || ... || fallback` over strings: the first non-empty candidate. */
  function FirstSet(candidates: seq<string>, fallback: string): (r: string)
    ensures r == fallback || r in candidates
    ensures r != "" <==> fallback != "" || exists i :: 0 <= i < |candidates| && candidates[i] != ""
    ensures |candidates| > 0 && candidates[0] != "" ==> r == candidates[0]
  {
    if |candidates| == 0 then fallback
    else if candidates[0] != "" then candidates[0]
    else
      var r := FirstSet(candidates[1..], fallback);
      assert forall i :: 1 <= i < |candidates| ==> candidates[i] == candidates[1..][i - 1];
      r
  }

  /** An optional variable as a candidate of such a chain. */
  function OrEmpty(v: Option<string>): string {
    if v.Some? then v.value else ""
  }

  /** One parsed `.env` assignment. */
  datatype Assignment = Assignment(key: string, value: string)

  predicate IsKeyStart(c: char) { ('A' <= c <= 'Z') || ('a' <= c <= 'z') || c == '_' }
  predicate IsKeyChar(c: char) { IsKeyStart(c) || IsDigit(c) }

  /** Length of the longest prefix of `s` made of key characters. */
  function KeyLength(s: string): (n: nat)
    ensures n <= |s|
    ensures forall i :: 0 <= i < n ==> IsKeyChar(s[i])
    ensures n < |s| ==> !IsKeyChar(s[n])
  {
    if |s| == 0 || !IsKeyChar(s[0]) then 0 else 1 + KeyLength(s[1..])
  }

  predicate NoTerminator(s: string) {
    forall i :: 0 <= i < |s| ==> !IsLineTerminator(s[i])
  }

  /** `value.slice(1, -1)` when the value is wrapped in matching double or single
      quotes (a lone quote character counts as wrapped). */
  function Unquote(v: string): (r: string)
    ensures |r| <= |v|
    ensures NoTerminator(v) ==> NoTerminator(r)
  {
    if |v| >= 1 && ((v[0] == '"' && v[|v| - 1] == '"') || (v[0] == '\'' && v[|v| - 1] == '\'')) then
      (if |v| >= 2 then v[1..|v| - 1] else "")
    else v
  }

  /** `parseEnvLine`: blank lines and comments give nothing; otherwise the trimmed
      line must be `KEY = value`, with a key of `[A-Za-z_][A-Za-z0-9_]*`, optional
      whitespace around `=`, and a value (after its leading whitespace) free of line
      terminators. */
  function ParseEnvLine(line: string): (r: Option<Assignment>)
    ensures var t := Trim(line); t == "" || t[0] == '#' ==> r.None?
    ensures r.Some? ==> IsKey(r.value.key) && StartsWith(Trim(line), r.value.key) && NoTerminator(r.value.value)
  {
    var t := Trim(line);
    if t == "" || t[0] == '#' then None else ParseAssignment(t)
  }

  predicate IsKey(k: string) {
    k != "" && IsKeyStart(k[0]) && forall i :: 0 <= i < |k| ==> IsKeyChar(k[i])
  }

  /** The `KEY = value` match on a trimmed, non-comment line. */
  function ParseAssignment(t: string): (r: Option<Assignment>)
    ensures r.Some? ==> IsKey(r.value.key) && StartsWith(t, r.value.key) && NoTerminator(r.value.value)
  {
    var k := KeyLength(t);
    if k == 0 || !IsKeyStart(t[0]) then None
    else
      var afterKey := TrimStartWith(t[k..], IsSpace);
      if afterKey == "" || afterKey[0] != '=' then None
      else
        var value := TrimStartWith(afterKey[1..], IsSpace);
        if !NoTerminator(value) then None
        else Some(Assignment(t[..k], Unquote(value)))
  }

  /** The lines of a file split on `\r?\n`: a `\r` goes only where a newline
      follows it, so the last line keeps a final `\r`. */
  function FileLines(raw: string): (ls: seq<string>)
    ensures |ls| == |SplitOn(raw, '\n')| >= 1
    ensures ls[|ls| - 1] == SplitOn(raw, '\n')[|ls| - 1]
  {
    var pieces := SplitOn(raw, '\n');
    seq(|pieces|, i requires 0 <= i < |pieces| => if i < |pieces| - 1 then DropCr(pieces[i]) else pieces[i])
  }

  function DropCr(s: string): (r: string)
    ensures |r| <= |s|
  {
    if |s| > 0 && s[|s| - 1] == '\r' then s[..|s| - 1] else s
  }

  /** `parseEnvLine` of every line, in order. */
  function ParseLines(lines: seq<string>): (r: seq<Option<Assignment>>)
    ensures |r| == |lines|
    ensures forall i :: 0 <= i < |lines| ==> r[i] == ParseEnvLine(lines[i])
  {
    if |lines| == 0 then [] else [ParseEnvLine(lines[0])] + ParseLines(lines[1..])
  }

  /** One parsed line: its assignment is kept only when the variable is not
      defined yet. */
  function Step(env: Env, p: Option<Assignment>): (r: Env)
    ensures env.Keys <= r.Keys
    ensures forall k :: k in env ==> r[k] == env[k]
    ensures p.Some? ==> p.value.key in r
    ensures forall k :: k in r && k !in env ==> p == Some(Assignment(k, r[k]))
  {
    match p
    case Some(a) => if a.key in env then env else env[a.key := a.value]
    case None => env
  }

  /** Applies the assignments in file order; a variable already defined (by the
      environment or by an earlier line) is kept. */
  function Apply(env: Env, ps: seq<Option<Assignment>>): (r: Env)
    ensures env.Keys <= r.Keys
    ensures forall k :: k in env ==> r[k] == env[k]
    decreases |ps|
  {
    if |ps| == 0 then env else Apply(Step(env, ps[0]), ps[1..])
  }

  /** `loadEnvFile`: nothing happens when the file does not exist (`raw` is
      `None`). */
  function LoadEnvFile(env: Env, raw: Option<string>): (r: Env)
    ensures env.Keys <= r.Keys
    ensures forall k :: k in env ==> r[k] == env[k]
    ensures raw.None? ==> r == env
  {
    if raw.None? then env else Apply(env, ParseLines(FileLines(raw.value)))
  }

  /** No assignment before index `i` is to `k`. */
  predicate NotAssignedBefore(ps: seq<Option<Assignment>>, k: string, i: int)
    requires 0 <= i <= |ps|
  {
    forall j :: 0 <= j < i ==> ps[j].None? || ps[j].value.key != k
  }

  /** Every variable the file adds comes from the first line that assigns it. */
  lemma {:induction false} ApplyAddsFirst(env: Env, ps: seq<Option<Assignment>>, k: string) returns (i: nat)
    requires k in Apply(env, ps) && k !in env
    ensures i < |ps| && ps[i] == Some(Assignment(k, Apply(env, ps)[k]))
    ensures NotAssignedBefore(ps, k, i)
    decreases |ps|
  {
    assert |ps| > 0;
    var env1 := Step(env, ps[0]);
    var v := Apply(env, ps)[k];
    if k in env1 {
      i := 0;
    } else {
      var i' := ApplyAddsFirst(env1, ps[1..], k);
      i := i' + 1;
      assert ps[1..][i'] == ps[i];
      forall j | 0 <= j < i
        ensures ps[j].None? || ps[j].value.key != k
      {
        if j > 0 {
          assert ps[j] == ps[1..][j - 1];
        }
      }
    }
  }

  /** A variable the `.env` file adds has the value of the first line that assigns
      it; lines further down do not override it. */
  lemma LoadEnvFileFirstWins(env: Env, raw: string, k: string) returns (i: nat)
    requires k in LoadEnvFile(env, Some(raw)) && k !in env
    ensures var lines := FileLines(raw);
            i < |lines| && ParseEnvLine(lines[i]) == Some(Assignment(k, LoadEnvFile(env, Some(raw))[k]))
            && forall j :: 0 <= j < i ==> ParseEnvLine(lines[j]).None? || ParseEnvLine(lines[j]).value.key != k
  {
    var ps := ParseLines(FileLines(raw));
    i := ApplyAddsFirst(env, ps, k);
  }

  /** Loading the same file twice changes nothing the first load did not. */
  lemma LoadEnvFileIdempotent(env: Env, raw: Option<string>)
    ensures LoadEnvFile(LoadEnvFile(env, raw), raw) == LoadEnvFile(env, raw)
  {
    if raw.Some? {
      ApplyAgain(env, ParseLines(FileLines(raw.value)));
    }
  }

  lemma {:induction false} ApplyAgain(env: Env, ps: seq<Option<Assignment>>)
    ensures Apply(Apply(env, ps), ps) == Apply(env, ps)
    decreases |ps|
  {
    if |ps| > 0 {
      var env1 := Step(env, ps[0]);
      var e := Apply(env1, ps[1..]);
      assert Step(e, ps[0]) == e;
      ApplyAgain(env1, ps[1..]);
    }
  }

  /** A variable written as `KEY="value"` reads back as the value, whatever
      spaces, quotes, `=` or `#` the value holds, as long as it stays on one line. */
  lemma QuotedLineRoundTrip(key: string, value: string)
    requires IsKey(key) && NoTerminator(value)
    ensures ParseEnvLine(key + "=\"" + value + "\"") == Some(Assignment(key, value))
  {
    var q := "\"" + value + "\"";
    var rest := "=" + q;
    var line := key + rest;
    assert key + "=\"" + value + "\"" == line;
    TrimWithStripped(line, IsSpace);
    assert ParseEnvLine(line) == ParseAssignment(line);
    QuotedAssignment(key, rest, q, value);
  }

  lemma QuotedAssignment(key: string, rest: string, q: string, value: string)
    requires IsKey(key) && NoTerminator(value)
    requires q == "\"" + value + "\"" && rest == "=" + q
    ensures ParseAssignment(key + rest) == Some(Assignment(key, value))
  {
    var t := key + rest;
    KeyLengthOf(key, rest);
    assert t[..|key|] == key && t[|key|..] == rest;
    TrimStartKept(rest, IsSpace);
    assert rest[1..] == q;
    TrimStartKept(q, IsSpace);
    QuotedValue(q, value);
    var afterKey := TrimStartWith(t[|key|..], IsSpace);
    assert afterKey == rest;
    var v := TrimStartWith(afterKey[1..], IsSpace);
    assert v == q;
  }

  lemma QuotedValue(q: string, value: string)
    requires NoTerminator(value) && q == "\"" + value + "\""
    ensures NoTerminator(q) && Unquote(q) == value
  {
    assert q[1..|q| - 1] == value;
    forall i | 0 <= i < |q|
      ensures !IsLineTerminator(q[i])
    {
      if 0 < i < |q| - 1 {
        assert q[i] == value[i - 1];
      }
    }
  }

  lemma {:induction false} KeyLengthOf(key: string, rest: string)
    requires forall i :: 0 <= i < |key| ==> IsKeyChar(key[i])
    requires |rest| > 0 && !IsKeyChar(rest[0])
    ensures KeyLength(key + rest) == |key|
    decreases |key|
  {
    if |key| > 0 {
      assert (key + rest)[1..] == key[1..] + rest;
      KeyLengthOf(key[1..], rest);
    }
  }
}

=== FILE: py.dfy ===
/** Python's `int(x)` and `float(x)` applied to a decoded JSON value, as the
    gateway applies them to request fields: booleans count as 0 and 1, numbers are
    taken as they are (`int` truncates toward zero), and strings are parsed after
    stripping surrounding whitespace; anything else raises (`None` here). */
module PyConv {
  import opened Wrappers
  import opened Strs
  import opened Json
  import opened JsonText

  /** Python `int(x)`. */
  function PyInt(j: Json): (r: Option<int>)
    ensures j.JBool? ==> r == Some(if j.b then 1 else 0)
    ensures j.JNum? ==> r.Some? && (r.value as real) <= (if j.n >= 0.0 then j.n else -j.n) + 0.0
    ensures j.JNum? && j.n >= 0.0 ==> r.Some? && r.value as real <= j.n < r.value as real + 1.0
    ensures j.JNum? && j.n < 0.0 ==> r.Some? && r.value as real - 1.0 < j.n <= r.value as real
    ensures j.JNull? || j.JArr? || j.JObj? ==> r.None?
    ensures j.JStr? && r.Some? ==> IntText(PyStrip(j.s))
  {
    match j
    case JBool(b) => Some(if b then 1 else 0)
    case JNum(n) => Some(if n >= 0.0 then n.Floor else -((-n).Floor))
    case JStr(s) => ParseIntText(PyStrip(s))
    case _ => None
  }

  /** An optionally signed, non-empty run of decimal digits. */
  predicate IntText(t: string) {
    var body := Unsigned(t);
    |body| > 0 && AllDigits(body)
  }

  /** `t` without a leading sign. */
  function Unsigned(t: string): string {
    if |t| > 0 && (t[0] == '-' || t[0] == '+') then t[1..] else t
  }

  predicate AllDigits(s: string) {
    forall i :: 0 <= i < |s| ==> IsDigit(s[i])
  }

  function ParseIntText(t: string): (r: Option<int>)
    ensures r.Some? <==> IntText(t)
  {
    var neg := |t| > 0 && t[0] == '-';
    var body := Unsigned(t);
    var k := DigitRun(body);
    DigitRunAll(body);
    if k == 0 || k != |body| then None
    else Some(if neg then -DigitsValue(body) else DigitsValue(body))
  }

  /** The digit run covers the string exactly when the string is all digits. */
  lemma DigitRunAll(s: string)
    ensures DigitRun(s) == |s| <==> AllDigits(s)
  {
    var k := DigitRun(s);
    if k < |s| {
      assert !IsDigit(s[k]);
    }
  }

  /** `int(str(n))` is `n`. */
  lemma PyIntOfIntToStr(n: int)
    ensures PyInt(JStr(IntToStr(n))) == Some(n)
  {
    var t := IntToStr(n);
    assert !IsPySpace(t[0]) && !IsPySpace(t[|t| - 1]) by {
      assert IsDigit(t[|t| - 1]) by { NatToStrEnds(if n < 0 then -n else n); }
      if n < 0 { assert t[0] == '-'; } else { NatToStrEnds(n); }
    }
    TrimWithStripped(t, IsPySpace);
    ParseIntOfIntToStr(n);
  }

  lemma NatToStrEnds(n: nat)
    ensures IsDigit(NatToStr(n)[0]) && IsDigit(NatToStr(n)[|NatToStr(n)| - 1])
  {
  }

  lemma ParseIntOfIntToStr(n: int)
    ensures ParseIntText(IntToStr(n)) == Some(n)
  {
    var t := IntToStr(n);
    if n < 0 {
      assert t == "-" + NatToStr(-n);
      assert t[1..] == NatToStr(-n);
      DigitRunAll(NatToStr(-n));
      DigitsValueOfNatToStr(-n);
    } else {
      DigitRunAll(NatToStr(n));
      DigitsValueOfNatToStr(n);
    }
  }

  function Pow10(k: nat): (p: nat)
    ensures p >= 1
  {
    if k == 0 then 1 else 10 * Pow10(k - 1)
  }

  /** The decimal literals `float()` reads here: an optional sign, digits, and an
      optional fraction after a point, with at least one digit in all. */
  function ParseDecimalText(t: string): (r: Option<real>)
    ensures IntText(t) ==> r.Some? && r == Some(ParseIntText(t).value as real)
  {
    var neg := |t| > 0 && t[0] == '-';
    var body := Unsigned(t);
    var k := DigitRun(body);
    DigitRunAll(body);
    assert k == |body| ==> body[..k] == body;
    var ip := DigitsValue(body[..k]) as real;
    if k == |body| then
      if k == 0 then None else Some(if neg then -ip else ip)
    else if body[k] != '.' then None
    else
      var frac := body[k + 1..];
      var m := DigitRun(frac);
      if m != |frac| || (k == 0 && m == 0) then None
      else
        var v := ip + (DigitsValue(frac) as real) / (Pow10(m) as real);
        Some(if neg then -v else v)
  }

  /** Python `float(x)`. */
  function PyFloat(j: Json): (r: Option<real>)
    ensures j.JNum? ==> r == Some(j.n)
    ensures j.JBool? ==> r == Some(if j.b then 1.0 else 0.0)
    ensures j.JNull? || j.JArr? || j.JObj? ==> r.None?
    ensures PyInt(j).Some? && j.JStr? ==> r == Some(PyInt(j).value as real)
  {
    match j
    case JBool(b) => Some(if b then 1.0 else 0.0)
    case JNum(n) => Some(n)
    case JStr(s) => ParseDecimalText(PyStrip(s))
    case _ => None
  }
}

=== FILE: realtime_service.dfy ===
/** The bridge's side of the realtime processing service: the port both processes
    agree on, the environment the Python child is started with, the multipart
    upload that carries an utterance to `/transcribe` (framed as in sections 4.1
    and 4.2 of RFC 7578), and the retry loop around it.  Process spawning, timers
    and logging are left out; their observable decisions are modelled. */
module RealtimeService {
  import opened Wrappers
  import opened Strs
  import opened Json
  import opened JsonText
  import opened PyConv
  import opened JsConv
  import opened ProcessEnv
  import opened Config
  import opened GatewayChat

  // ---------------------------------------------------------------- the port

  const FALLBACK_PORT: int := 3002

  /** `Number.parseInt(process.env.REALTIME_PROCESSING_PORT || '3002', 10) || 3002`:
      an unset, unreadable or zero setting falls back to 3002. */
  function ServicePort(env: Env): (p: int)
    ensures p != 0
    ensures var v := JsParseInt(Or(Var(env, "REALTIME_PROCESSING_PORT"), "3002"));
            v.Some? && v.value != 0 ==> p == v.value
  {
    var v := JsParseInt(Or(Var(env, "REALTIME_PROCESSING_PORT"), "3002"));
    if v.None? || v.value == 0 then FALLBACK_PORT else v.value
  }

  // ------------------------------------------------------ the child's environment

  /** What `buildRealtimeChildEnv` resolves, and the environment it hands the child. */
  datatype ChildConfig = ChildConfig(model: string, sttBackend: string, ttsBackend: string, voice: string,
                                     env: Env)

  /** The variables the bridge sets in the child's environment. */
  const CHILD_KEYS: set<string> := {"REALTIME_PROCESSING_PORT", "REALTIME_STT_MODEL", "REALTIME_STT_BACKEND",
                                    "REALTIME_TTS_BACKEND", "REALTIME_KOKORO_VOICE", "STT_BACKEND",
                                    "TTS_BACKEND", "KOKORO_VOICE"}

  /** `String(a || b || c || fallback).trim().toLowerCase()`. */
  function Setting(candidates: seq<string>, fallback: string): string {
    LowerStr(Trim(FirstSet(candidates, fallback)))
  }

  /** The speech model before normalisation: the argument, the runtime
      configuration, `REALTIME_STT_MODEL`, `WHISPER_MODEL`, then `small`. */
  function RequestedSttModel(sttModel: string, cfg: RuntimeConfig, env: Env): string {
    FirstSet([sttModel, cfg.sttModel, OrEmpty(Var(env, "REALTIME_STT_MODEL")), OrEmpty(Var(env, "WHISPER_MODEL"))],
             "small")
  }

  /** `buildRealtimeChildEnv`: resolves the model and the three backend settings
      (runtime configuration first, then the `REALTIME_` variable, then the shared
      one, then the default) and overlays them on the bridge's environment,
      writing the shared variables with the same values so both modes agree. */
  function BuildChildEnv(sttModel: string, cfg: RuntimeConfig, env: Env): (r: Result<ChildConfig, ConfigError>)
    ensures r.Success? <==> NormalizeSttModel(RequestedSttModel(sttModel, cfg, env)).Success?
    ensures r.Success? ==>
              var c := r.value;
              && c.model == NormalizeSttModel(RequestedSttModel(sttModel, cfg, env)).value
              && (sttModel != "" ==> c.model == NormalizeSttModel(sttModel).value)
              && (cfg.sttBackend != "" ==> c.sttBackend == LowerStr(Trim(cfg.sttBackend)))
              && (cfg.ttsBackend != "" ==> c.ttsBackend == LowerStr(Trim(cfg.ttsBackend)))
              && (cfg.kokoroVoice != "" ==> c.voice == LowerStr(Trim(cfg.kokoroVoice)))
              && c.env.Keys == env.Keys + CHILD_KEYS
              && (forall k :: k in env && k !in CHILD_KEYS ==> c.env[k] == env[k])
              && c.env["REALTIME_PROCESSING_PORT"] == IntToStr(ServicePort(env))
              && c.env["REALTIME_STT_MODEL"] == c.model
              && c.env["REALTIME_STT_BACKEND"] == c.env["STT_BACKEND"] == c.sttBackend
              && c.env["REALTIME_TTS_BACKEND"] == c.env["TTS_BACKEND"] == c.ttsBackend
              && c.env["REALTIME_KOKORO_VOICE"] == c.env["KOKORO_VOICE"] == c.voice
  {
    var model :- NormalizeSttModel(RequestedSttModel(sttModel, cfg, env));
    var stt := Setting([cfg.sttBackend, OrEmpty(Var(env, "REALTIME_STT_BACKEND")), OrEmpty(Var(env, "STT_BACKEND"))], "mlx");
    var tts := Setting([cfg.ttsBackend, OrEmpty(Var(env, "REALTIME_TTS_BACKEND")), OrEmpty(Var(env, "TTS_BACKEND"))], "kokoro");
    var voice := Setting([cfg.kokoroVoice, OrEmpty(Var(env, "REALTIME_KOKORO_VOICE")), OrEmpty(Var(env, "KOKORO_VOICE"))], "am_puck");
    Success(ChildConfig(model, stt, tts, voice, Overlay(env, IntToStr(ServicePort(env)), model, stt, tts, voice)))
  }

  /** `{...process.env, REALTIME_PROCESSING_PORT: ..., ...}`: the bridge's
      environment with the child's variables written over it. */
  function Overlay(env: Env, port: string, model: string, stt: string, tts: string, voice: string): (e: Env)
    ensures e.Keys == env.Keys + CHILD_KEYS
    ensures forall k :: k in env && k !in CHILD_KEYS ==> e[k] == env[k]
    ensures e["REALTIME_PROCESSING_PORT"] == port && e["REALTIME_STT_MODEL"] == model
    ensures e["REALTIME_STT_BACKEND"] == e["STT_BACKEND"] == stt
    ensures e["REALTIME_TTS_BACKEND"] == e["TTS_BACKEND"] == tts
    ensures e["REALTIME_KOKORO_VOICE"] == e["KOKORO_VOICE"] == voice
  {
    env["REALTIME_PROCESSING_PORT" := port]["REALTIME_STT_MODEL" := model]
       ["REALTIME_STT_BACKEND" := stt]["REALTIME_TTS_BACKEND" := tts]["REALTIME_KOKORO_VOICE" := voice]
       ["STT_BACKEND" := stt]["TTS_BACKEND" := tts]["KOKORO_VOICE" := voice]
  }

  /** The settings the Python gateway reads at start-up: `os.environ.get` with a
      default (a variable set to `""` is kept), the port through `int(...)` (`None`
      when it raises), the backends stripped and lower-cased. */
  datatype GatewaySettings = GatewaySettings(port: Option<int>, sttModel: string, sttBackend: string,
                                             ttsBackend: string, voice: string)

  /** `os.environ.get(key, default)`. */
  function PyGet(env: Env, key: string, default: string): string {
    if key in env then env[key] else default
  }

  function ReadGatewaySettings(env: Env): (g: GatewaySettings)
    ensures "REALTIME_STT_BACKEND" in env ==> g.sttBackend == LowerStr(PyStrip(env["REALTIME_STT_BACKEND"]))
    ensures "REALTIME_STT_MODEL" in env ==> g.sttModel == env["REALTIME_STT_MODEL"]
  {
    GatewaySettings(
      PyInt(JStr(PyGet(env, "REALTIME_PROCESSING_PORT", "3002"))),
      PyGet(env, "REALTIME_STT_MODEL", PyGet(env, "WHISPER_MODEL", "small")),
      LowerStr(PyStrip(PyGet(env, "REALTIME_STT_BACKEND", PyGet(env, "STT_BACKEND", "mlx")))),
      LowerStr(PyStrip(PyGet(env, "REALTIME_TTS_BACKEND", PyGet(env, "TTS_BACKEND", "kokoro")))),
      PyGet(env, "REALTIME_KOKORO_VOICE", PyGet(env, "KOKORO_VOICE", "am_puck")))
  }

  /** Neither end is a character Python's `strip` removes. */
  predicate PyStripped(s: string) {
    s == [] || (!IsPySpace(s[0]) && !IsPySpace(s[|s| - 1]))
  }

  /** The child started with the bridge's environment reads the port, model and
      voice the bridge resolved; it reads the backends the bridge resolved unless
      their ends hold a character Python strips but JavaScript's `trim` keeps
      (U+001C..U+001F, U+0085), which it drops. */
  lemma ChildReadsResolvedSettings(sttModel: string, cfg: RuntimeConfig, env: Env)
    requires BuildChildEnv(sttModel, cfg, env).Success?
    ensures var c := BuildChildEnv(sttModel, cfg, env).value;
            var g := ReadGatewaySettings(c.env);
            && g.port == Some(ServicePort(env))
            && g.sttModel == c.model
            && g.voice == c.voice
            && g.sttBackend == LowerStr(PyStrip(c.sttBackend))
            && g.ttsBackend == LowerStr(PyStrip(c.ttsBackend))
            && (PyStripped(c.sttBackend) ==> g.sttBackend == c.sttBackend)
            && (PyStripped(c.ttsBackend) ==> g.ttsBackend == c.ttsBackend)
  {
    var c := BuildChildEnv(sttModel, cfg, env).value;
    PyIntOfIntToStr(ServicePort(env));
    if PyStripped(c.sttBackend) {
      TrimWithStripped(c.sttBackend, IsPySpace);
      LowerStrIdempotent(Trim(FirstSet([cfg.sttBackend, OrEmpty(Var(env, "REALTIME_STT_BACKEND")),
                                        OrEmpty(Var(env, "STT_BACKEND"))], "mlx")));
    }
    if PyStripped(c.ttsBackend) {
      TrimWithStripped(c.ttsBackend, IsPySpace);
      LowerStrIdempotent(Trim(FirstSet([cfg.ttsBackend, OrEmpty(Var(env, "REALTIME_TTS_BACKEND")),
                                        OrEmpty(Var(env, "TTS_BACKEND"))], "kokoro")));
    }
  }

  /** A restart with the model the service is already running resolves the
      same model. */
  lemma RestartKeepsModel(sttModel: string, cfg: RuntimeConfig, env: Env)
    requires BuildChildEnv(sttModel, cfg, env).Success?
    ensures var m := BuildChildEnv(sttModel, cfg, env).value.model;
            BuildChildEnv(m, cfg, env).Success? && BuildChildEnv(m, cfg, env).value.model == m
  {
    NormalizeSttModelIdempotent(RequestedSttModel(sttModel, cfg, env));
  }

  // ---------------------------------------------------------- the upload body

  const BOUNDARY: string := "---BOUNDARY"
  const CRLF: string := "\r\n"
  /** The delimiter line that opens the part. */
  const DELIMITER: string := "--" + BOUNDARY
  /** The closing delimiter, with the CRLF before it that belongs to it. */
  const CLOSE_DELIMITER: string := CRLF + DELIMITER + "--" + CRLF

  /** The file extension of the upload's file name. */
  function Extension(mime: string): (e: string)
    ensures e == "wav" || e == "webm"
  {
    if mime == WAV_MIME then "wav" else "webm"
  }

  const DISPOSITION_HEAD: string := "Content-Disposition: "
  const FORM_DATA: string := "form-data; "
  const NAME_AUDIO: string := "name=\"audio\"; "
  const FILENAME_HEAD: string := "filename=\"audio."
  const CONTENT_TYPE_HEAD: string := "Content-Type: "

  /** The part's header lines for a normalised type. */
  function PartHeaders(mime: string): seq<string> {
    [DISPOSITION_HEAD + FORM_DATA + NAME_AUDIO + FILENAME_HEAD + Extension(mime) + "\"",
     CONTENT_TYPE_HEAD + mime]
  }

  /** The request body `transcribeAudioRealtime` writes: the opening delimiter, the
      part's headers, a blank line, the audio, the closing delimiter.  The audio's
      bytes are characters of the same codes. */
  function MultipartBody(audio: string, mimeType: string): string {
    var hs := PartHeaders(NormalizeMime(mimeType));
    DELIMITER + CRLF + hs[0] + CRLF + hs[1] + CRLF + CRLF + audio + CLOSE_DELIMITER
  }

  /** One part of a `multipart/form-data` body. */
  datatype FormPart = FormPart(headers: seq<string>, data: string)

  /** The text up to the first CR, which must start a CRLF, and what follows it. */
  function ReadLine(s: string): (r: Option<(string, string)>)
    ensures r.Some? ==> |r.value.1| < |s| && '\r' !in r.value.0
  {
    var i := IndexOfChar(s, '\r');
    if i < 0 || i + 1 >= |s| || s[i + 1] != '\n' then None else Some((s[..i], s[i + 2..]))
  }

  /** Header lines up to the blank line that ends them, and the rest. */
  function ReadHeaders(s: string): (r: Option<(seq<string>, string)>)
    decreases |s|
  {
    match ReadLine(s)
    case None => None
    case Some((line, rest)) =>
      if line == "" then Some(([], rest))
      else
        match ReadHeaders(rest)
        case None => None
        case Some((more, after)) => Some(([line] + more, after))
  }

  /** The first part of a body with the given boundary: an opening delimiter
      line, header lines, a blank line, and the data up to the first CRLF that
      starts the next delimiter (section 5.1.1 of RFC 2046). */
  function ParseFirstPart(body: string, boundary: string): (r: Option<FormPart>)
  {
    match ReadLine(body)
    case None => None
    case Some((first, r0)) =>
      if first != "--" + boundary then None
      else
        match ReadHeaders(r0)
        case None => None
        case Some((hs, r1)) =>
          var e := IndexOf(r1, CRLF + "--" + boundary);
          if e < 0 then None else Some(FormPart(hs, r1[..e]))
  }

  /** The value of the first `Content-Type` header, as the server takes the
      upload's type from it. */
  function ContentType(headers: seq<string>): (r: Option<string>)
    ensures r.Some? ==> exists i :: 0 <= i < |headers| && headers[i] == CONTENT_TYPE_HEAD + r.value
  {
    if |headers| == 0 then None
    else if StartsWith(headers[0], CONTENT_TYPE_HEAD) then
      assert headers[0] == CONTENT_TYPE_HEAD + headers[0][14..];
      Some(headers[0][14..])
    else
      var r := ContentType(headers[1..]);
      if r.Some? then
        var i :| 0 <= i < |headers[1..]| && headers[1..][i] == CONTENT_TYPE_HEAD + r.value;
        assert headers[i + 1] == headers[1..][i];
        r
      else r
  }

  /** The server reads back the audio the bridge sent, and a type that it maps to
      the same normalised type, stored under the extension the bridge named,
      provided the audio does not itself contain the closing delimiter — section
      4.1 of RFC 7578 asks the sender to choose a boundary that does not occur in
      the data, and the bridge's boundary is fixed. */
  lemma MultipartRoundTrip(audio: string, mimeType: string)
    requires !Contains(audio, CRLF + "--" + BOUNDARY)
    ensures ParseFirstPart(MultipartBody(audio, mimeType), BOUNDARY)
            == Some(FormPart(PartHeaders(NormalizeMime(mimeType)), audio))
    ensures ContentType(PartHeaders(NormalizeMime(mimeType))) == Some(NormalizeMime(mimeType))
    ensures NormalizeMime(NormalizeMime(mimeType)) == NormalizeMime(mimeType)
    ensures TempSuffix(NormalizeMime(mimeType)) == "." + Extension(NormalizeMime(mimeType))
  {
    var mime := NormalizeMime(mimeType);
    var hs := PartHeaders(mime);
    PartParses(audio, mime, MultipartBody(audio, mimeType));
    NormalizeMimeIdempotent(mimeType);
    ContentTypeOf(mime);
    SuffixOfExtension(mime);
  }

  /** The parse of a body laid out as `MultipartBody` lays it out. */
  lemma PartParses(audio: string, mime: string, body: string)
    requires mime == WAV_MIME || mime == WEBM_MIME
    requires !Contains(audio, CRLF + "--" + BOUNDARY)
    requires var hs := PartHeaders(mime);
             body == DELIMITER + CRLF + hs[0] + CRLF + hs[1] + CRLF + CRLF + audio + CLOSE_DELIMITER
    ensures ParseFirstPart(body, BOUNDARY) == Some(FormPart(PartHeaders(mime), audio))
  {
    var hs := PartHeaders(mime);
    var r1 := audio + CLOSE_DELIMITER;
    var r0 := hs[0] + CRLF + hs[1] + CRLF + CRLF + r1;
    Regroup(DELIMITER, CRLF, hs[0], hs[1], audio, CLOSE_DELIMITER);
    assert body == DELIMITER + CRLF + r0;
    ReadLineOf(DELIMITER, r0);
    HeaderLinesFree(mime);
    TwoHeaders(hs[0], hs[1], r1);
    assert [hs[0], hs[1]] == hs;
    ClosingDelimiterFirst(audio);
    assert r1[..|audio|] == audio;
    ParseFirstPartOf(body, BOUNDARY, r0, hs, r1, |audio|);
  }

  lemma Regroup(a: string, n: string, b: string, c: string, d: string, e: string)
    ensures a + n + b + n + c + n + n + d + e == a + n + (b + n + c + n + n + (d + e))
  {
  }

  /** The server's temporary file takes the extension the bridge named. */
  lemma SuffixOfExtension(mime: string)
    requires mime == WAV_MIME || mime == WEBM_MIME
    ensures TempSuffix(mime) == "." + Extension(mime)
  {
    if mime == WAV_MIME {
      assert "." + "wav" == ".wav";
    } else {
      assert "." + "webm" == ".webm";
    }
  }

  /** `ParseFirstPart` once its three steps are known. */
  lemma ParseFirstPartOf(body: string, boundary: string, r0: string, hs: seq<string>, r1: string, e: nat)
    requires ReadLine(body) == Some(("--" + boundary, r0))
    requires ReadHeaders(r0) == Some((hs, r1))
    requires IndexOf(r1, CRLF + "--" + boundary) == e
    ensures ParseFirstPart(body, boundary) == Some(FormPart(hs, r1[..e]))
  {
  }

  lemma TwoHeaders(h0: string, h1: string, rest: string)
    requires '\r' !in h0 && '\r' !in h1 && h0 != "" && h1 != ""
    ensures ReadHeaders(h0 + CRLF + h1 + CRLF + CRLF + rest) == Some(([h0, h1], rest))
  {
    var t2 := CRLF + rest;
    var t1 := h1 + CRLF + t2;
    var t0 := h0 + CRLF + t1;
    assert h0 + CRLF + h1 + CRLF + CRLF + rest == t0;
    BlankLineEndsHeaders(rest, t2);
    HeaderLine(h1, t2, t1);
    assert [h1] + [] == [h1];
    assert ReadHeaders(t1) == Some(([h1], rest));
    HeaderLine(h0, t1, t0);
    assert [h0] + [h1] == [h0, h1];
    assert ReadHeaders(t0) == Some(([h0, h1], rest));
  }

  lemma BlankLineEndsHeaders(rest: string, s: string)
    requires s == CRLF + rest
    ensures ReadHeaders(s) == Some(([], rest))
  {
    ReadLineOf("", rest);
    assert "" + CRLF + rest == s;
  }

  lemma HeaderLine(line: string, rest: string, s: string)
    requires '\r' !in line && line != ""
    requires s == line + CRLF + rest
    requires ReadHeaders(rest).Some?
    ensures ReadHeaders(s) == Some(([line] + ReadHeaders(rest).value.0, ReadHeaders(rest).value.1))
  {
    ReadLineOf(line, rest);
  }

  lemma ContentTypeOf(mime: string)
    requires mime == WAV_MIME || mime == WEBM_MIME
    ensures ContentType(PartHeaders(mime)) == Some(mime)
  {
    var hs := PartHeaders(mime);
    var tl := FORM_DATA + NAME_AUDIO + FILENAME_HEAD + Extension(mime) + "\"";
    assert hs[0] == DISPOSITION_HEAD + tl;
    assert hs[0][8] == DISPOSITION_HEAD[8] == 'D';
    assert !StartsWith(hs[0], CONTENT_TYPE_HEAD) by {
      assert |hs[0]| >= 14 ==> hs[0][..14][8] == hs[0][8];
    }
    assert hs[1..] == [hs[1]];
    assert StartsWith(hs[1], CONTENT_TYPE_HEAD);
    assert hs[1][14..] == mime;
  }

  lemma ReadLineOf(line: string, rest: string)
    requires '\r' !in line
    ensures ReadLine(line + CRLF + rest) == Some((line, rest))
  {
    var s := line + CRLF + rest;
    assert s == line + (CRLF + rest);
    IndexAfterFree(line, CRLF + rest, '\r');
    assert s[|line| + 1] == '\n';
    assert s[..|line|] == line;
    assert s[|line| + 2..] == rest;
  }

  lemma HeaderLinesFree(mime: string)
    requires mime == WAV_MIME || mime == WEBM_MIME
    ensures var hs := PartHeaders(mime); '\r' !in hs[0] && '\r' !in hs[1] && hs[0] != "" && hs[1] != ""
  {
    assert '\r' !in DISPOSITION_HEAD && '\r' !in FORM_DATA && '\r' !in NAME_AUDIO && '\r' !in FILENAME_HEAD;
    assert '\r' !in Extension(mime) && '\r' !in "\"";
    assert '\r' !in CONTENT_TYPE_HEAD && '\r' !in mime;
  }

  /** The closing delimiter is found right after the audio: not inside it (it does
      not contain one) and not straddling its end (the delimiter's only CR is its
      first character). */
  lemma ClosingDelimiterFirst(audio: string)
    requires !Contains(audio, CRLF + "--" + BOUNDARY)
    ensures IndexOf(audio + CLOSE_DELIMITER, CRLF + "--" + BOUNDARY) == |audio|
  {
    var delim := CRLF + "--" + BOUNDARY;
    var s := audio + CLOSE_DELIMITER;
    assert CLOSE_DELIMITER[..|delim|] == delim;
    assert s[|audio|..|audio| + |delim|] == delim;
    forall j | 0 <= j < |audio|
      ensures !OccursAt(s, delim, j)
    {
      if j + |delim| <= |audio| {
        assert audio[j..j + |delim|] == s[j..j + |delim|];
        assert !OccursAt(audio, delim, j);
      } else {
        var k := |audio| - j;
        assert s[j + k] == '\r';
        assert delim[k] != '\r';
      }
    }
    IndexOfFirst(s, delim, |audio|);
  }

  // ------------------------------------------------------------ the retry loop

  /** How one request attempt ended: refused connection, another request error
      (its code), or a complete reply. */
  datatype Attempt = Refused | RequestFailed(code: string) | Answered(status: int, body: string, parsed: Option<Json>)

  datatype TranscribeError = ConnectionError(code: string) | InvalidJson | TranscriptionFailed(body: string)

  const MAX_RETRIES: nat := 10

  /** A complete reply: status 200 with a JSON body resolves with it. */
  function ReplyResult(status: int, body: string, parsed: Option<Json>): (r: Result<Json, TranscribeError>)
    ensures r.Success? <==> status == 200 && parsed.Some?
  {
    if status == 200 then
      if parsed.Some? then Success(parsed.value) else Failure(InvalidJson)
    else Failure(TranscriptionFailed(body))
  }

  /** `tryRequest(retries)` from attempt number `i`: a refused connection is retried
      while retries remain; anything else ends the loop.  The result also says how
      many attempts were made in total. */
  function TryRequest(attempt: nat -> Attempt, i: nat, retries: nat): (r: (Result<Json, TranscribeError>, nat))
    ensures i < r.1 <= i + retries + 1
    ensures forall j :: i <= j < r.1 - 1 ==> attempt(j) == Refused
    ensures attempt(r.1 - 1) == Refused ==> r.1 == i + retries + 1 && r.0 == Failure(ConnectionError("ECONNREFUSED"))
    ensures attempt(r.1 - 1).RequestFailed? ==> r.0 == Failure(ConnectionError(attempt(r.1 - 1).code))
    ensures attempt(r.1 - 1).Answered? ==>
              var a := attempt(r.1 - 1); r.0 == ReplyResult(a.status, a.body, a.parsed)
    decreases retries
  {
    match attempt(i)
    case Refused =>
      if retries > 0 then TryRequest(attempt, i + 1, retries - 1)
      else (Failure(ConnectionError("ECONNREFUSED")), i + 1)
    case RequestFailed(code) => (Failure(ConnectionError(code)), i + 1)
    case Answered(status, body, parsed) => (ReplyResult(status, body, parsed), i + 1)
  }

  /** `transcribeAudioRealtime`: at most eleven attempts, all but the last refused. */
  function TranscribeAudio(attempt: nat -> Attempt): (r: (Result<Json, TranscribeError>, nat))
    ensures 1 <= r.1 <= MAX_RETRIES + 1
    ensures forall j :: 0 <= j < r.1 - 1 ==> attempt(j) == Refused
  {
    TryRequest(attempt, 0, MAX_RETRIES)
  }

  /** A service that never comes up is given up on after eleven refused attempts. */
  lemma AlwaysRefusedGivesUp(attempt: nat -> Attempt)
    requires forall j :: attempt(j) == Refused
    ensures TranscribeAudio(attempt) == (Failure(ConnectionError("ECONNREFUSED")), MAX_RETRIES + 1)
  {
  }

  /** A service that answers on attempt `n` (after `n` refusals, `n <= 10`) is
      heard: its reply decides the result. */
  lemma AnswerAfterRefusals(attempt: nat -> Attempt, n: nat)
    requires n <= MAX_RETRIES
    requires forall j: nat :: j < n ==> attempt(j) == Refused
    requires attempt(n).Answered?
    ensures TranscribeAudio(attempt).1 == n + 1
    ensures TranscribeAudio(attempt).0 == ReplyResult(attempt(n).status, attempt(n).body, attempt(n).parsed)
  {
  }
}

=== FILE: routes.dfy ===
/** The bridge's HTTP request rules: the validators behind the donation endpoints
    (currency codes, amounts, certainty, webhook authorisation), the mapping of a
    PayPal webhook event to a donation signal, the conversation window of the
    `/voice` endpoint, the speech-to-text restart rule of `POST /config` and the
    file-name guard of `/shapes/`. */
module Routes {
  import opened Wrappers
  import opened Strs
  import opened Json
  import opened WakeWord
  import opened Config

  // ------------------------------------------------------------ JSON access

  /** `o?.[key]` on a parsed value: absent when `o` is absent or not an object. */
  function Prop(o: Option<Json>, key: string): Option<Json> {
    if o.Some? then Get(o.value, key) else None
  }

  /** `a || b` on two optional values. */
  function Or(a: Option<Json>, b: Option<Json>): (r: Option<Json>)
    ensures OptJsTruthy(a) ==> r == a
    ensures !OptJsTruthy(a) ==> r == b
  {
    if OptJsTruthy(a) then a else b
  }

  /** `typeof v === 'object'` for a truthy value: objects and arrays. */
  predicate IsObjectLike(j: Json) { j.JObj? || j.JArr? }

  // ------------------------------------------------------------ currency

  /** Exactly three letters `A`..`Z`. */
  predicate IsCurrencyCode(s: string) {
    |s| == 3 && forall i :: 0 <= i < 3 ==> IsUpperAscii(s[i])
  }

  /** `normalizeCurrencyCode`: trimmed and upper-cased, kept only when it is a
      three-letter code. */
  function NormalizeCurrencyCode(value: Option<Json>, numberText: real -> string): (r: Option<string>)
    ensures r.Some? ==> IsCurrencyCode(r.value)
    ensures r.Some? <==> IsCurrencyCode(UpperStr(Trim(OrEmptyText(value, numberText))))
    ensures r.Some? ==> r.value == UpperStr(Trim(OrEmptyText(value, numberText)))
  {
    var normalized := UpperStr(Trim(OrEmptyText(value, numberText)));
    if normalized == "" then None
    else if !IsCurrencyCode(normalized) then None
    else Some(normalized)
  }

  /** A normalised code is accepted again unchanged. */
  lemma CurrencyCodeIdempotent(value: Option<Json>, numberText: real -> string)
    requires NormalizeCurrencyCode(value, numberText).Some?
    ensures var c := NormalizeCurrencyCode(value, numberText).value;
            NormalizeCurrencyCode(Some(JStr(c)), numberText) == Some(c)
  {
    var c := NormalizeCurrencyCode(value, numberText).value;
    TrimWithStripped(c, IsSpace);
    assert UpperStr(c) == c;
  }

  /** Three letters in any case, with any whitespace around them, name the
      upper-case code. */
  lemma CurrencyCodeOfLetters(pre: string, code: string, post: string, numberText: real -> string)
    requires AllWith(pre, IsSpace) && AllWith(post, IsSpace)
    requires |code| == 3 && forall i :: 0 <= i < 3 ==> IsUpperAscii(code[i]) || IsLowerAscii(code[i])
    ensures NormalizeCurrencyCode(Some(JStr(pre + code + post)), numberText) == Some(UpperStr(code))
  {
    TrimPadded(pre, code, post);
  }

  // ------------------------------------------------------------ amounts

  /** `Number(x.toFixed(2))` on the exact value: the nearest multiple of 0.01, the
      larger one on a tie (section 21.1.3.3 of ECMA-262); from 10^21 on, `toFixed`
      prints the number itself. */
  function ToFixed2(x: real): (r: real)
    ensures 0.0 <= x < 1000000000000000000000.0 ==>
              (r * 100.0).Floor as real == r * 100.0 && x - 0.005 < r <= x + 0.005
    ensures x >= 0.0 ==> r >= 0.0
  {
    if x < 0.0 then -RoundCents(-x) else RoundCents(x)
  }

  /** `toFixed(2)` of a non-negative magnitude. */
  function RoundCents(m: real): (r: real)
    requires m >= 0.0
    ensures r >= 0.0
  {
    if m >= 1000000000000000000000.0 then m
    else ((m * 100.0 + 0.5).Floor as real) / 100.0
  }

  /** `toSafeAmount` as the source writes it: `undefined` for a missing, `null`
      or empty value, for text that does not parse to a finite number and for a
      number that is not positive; otherwise the number rounded to cents.
      `parseFloat` is `Number.parseFloat`, with `None` for NaN and the infinities. */
  function ToSafeAmountAsWritten(value: Option<Json>, numberText: real -> string,
                                 parseFloat: string -> Option<real>): (r: Option<real>)
    ensures r.Some? ==> r.value >= 0.0
    ensures value.None? || value == Some(JNull) || value == Some(JStr("")) ==> r.None?
    ensures r.Some? ==>
              var p := parseFloat(JsString(value.value, numberText));
              p.Some? && p.value > 0.0 && (p.value < 1000000000000000000000.0 ==> p.value - 0.005 < r.value <= p.value + 0.005)
  {
    if value.None? || value.value.JNull? || value.value == JStr("") then None
    else
      var parsed := parseFloat(JsString(value.value, numberText));
      if parsed.None? || parsed.value <= 0.0 then None
      else Some(ToFixed2(parsed.value))
  }

  /** Half a cent is the smallest amount that survives rounding, so `0.004` comes
      back as an amount of 0. */
  lemma TinyAmountBecomesZero(numberText: real -> string, parseFloat: string -> Option<real>)
    requires parseFloat("0.004") == Some(0.004)
    ensures ToSafeAmountAsWritten(Some(JStr("0.004")), numberText, parseFloat) == Some(0.0)
  {
    assert ToFixed2(0.004) == 0.0 by {
      assert (0.004 * 100.0 + 0.5).Floor == 0;
    }
  }

  /** `toSafeAmount` as intended: a positive amount in cents, or nothing. */
  function ToSafeAmount(value: Option<Json>, numberText: real -> string,
                        parseFloat: string -> Option<real>): (r: Option<real>)
    ensures r.Some? ==> r.value > 0.0
    ensures value.None? || value == Some(JNull) || value == Some(JStr("")) ==> r.None?
    ensures r.Some? ==>
              var p := parseFloat(JsString(value.value, numberText));
              p.Some? && p.value > 0.0 && (p.value < 1000000000000000000000.0 ==> p.value - 0.005 < r.value <= p.value + 0.005)
  {
    if value.None? || value.value.JNull? || value.value == JStr("") then None
    else
      var parsed := parseFloat(JsString(value.value, numberText));
      if parsed.None? || parsed.value <= 0.0 then None
      else
        var rounded := ToFixed2(parsed.value);
        if rounded <= 0.0 then None else Some(rounded)
  }

  /** The two differ only where the source yields an amount of 0. */
  lemma SafeAmountDiffersOnlyAtZero(value: Option<Json>, numberText: real -> string,
                                    parseFloat: string -> Option<real>)
    ensures var w := ToSafeAmountAsWritten(value, numberText, parseFloat);
            var c := ToSafeAmount(value, numberText, parseFloat);
            w == c || (w == Some(0.0) && c.None?)
  {
  }

  // ------------------------------------------------------------ certainty

  datatype Certainty = Confident | Implied

  function CertaintyName(c: Certainty): string {
    match c
    case Confident => "confident"
    case Implied => "implied"
  }

  /** `normalizeDonationSignalCertainty`: one of the two names, in any case and
      with any surrounding whitespace; anything else is a `BAD_CONFIG` error. */
  function NormalizeCertainty(value: Option<Json>, numberText: real -> string): (r: Result<Certainty, string>)
    ensures r.Success? <==> LowerStr(Trim(OrEmptyText(value, numberText))) in {"confident", "implied"}
    ensures r.Success? ==> CertaintyName(r.value) == LowerStr(Trim(OrEmptyText(value, numberText)))
  {
    var normalized := LowerStr(Trim(OrEmptyText(value, numberText)));
    if normalized == "confident" then Success(Confident)
    else if normalized == "implied" then Success(Implied)
    else Failure("Donation certainty must be \"confident\" or \"implied\"")
  }

  /** Each certainty is read back from its name written in capitals. */
  lemma CertaintyOfName(c: Certainty, numberText: real -> string)
    ensures NormalizeCertainty(Some(JStr(UpperStr(CertaintyName(c)))), numberText) == Success(c)
  {
    var u := UpperStr(CertaintyName(c));
    assert Trim(u) == u by {
      CapitalsSolid(c);
      TrimWithStripped(u, IsSpace);
    }
    assert LowerStr(u) == CertaintyName(c) by {
      LowerOfCapitals(c);
    }
  }

  lemma CapitalsSolid(c: Certainty)
    ensures var u := UpperStr(CertaintyName(c)); u != [] && !IsSpace(u[0]) && !IsSpace(u[|u| - 1])
  {
  }

  lemma LowerOfCapitals(c: Certainty)
    ensures LowerStr(UpperStr(CertaintyName(c))) == CertaintyName(c)
  {
  }

  // ------------------------------------------------------------ authorisation

  const BEARER_PREFIX: string := "bearer "

  /** `extractBearerToken` over the `Authorization` header: the trimmed rest after
      a `bearer ` prefix in any case, or `None`. */
  function ExtractBearerToken(authorization: Option<string>): (r: Option<string>)
    ensures r.Some? <==> StartsWith(LowerStr(Trim(authorization.GetOr(""))), BEARER_PREFIX)
    ensures r.Some? ==> r.value == [] || (!IsSpace(r.value[0]) && !IsSpace(r.value[|r.value| - 1]))
    ensures r.Some? ==> r.value == Trim(Trim(authorization.GetOr(""))[7..])
  {
    var auth := Trim(authorization.GetOr(""));
    if !StartsWith(LowerStr(auth), BEARER_PREFIX) then None
    else Some(Trim(auth[7..]))
  }

  /** A token sent as `Bearer <token>` (with the scheme in any case) is read back. */
  lemma BearerRoundTrip(scheme: string, token: string)
    requires |scheme| == 6 && LowerStr(scheme) == "bearer"
    requires token != "" && !IsSpace(token[0]) && !IsSpace(token[|token| - 1])
    ensures ExtractBearerToken(Some(scheme + " " + token)) == Some(token)
  {
    var h := scheme + " " + token;
    BearerHeaderSolid(scheme, token);
    BearerPrefixOf(scheme, token);
    assert h[7..] == token;
    TrimWithStripped(token, IsSpace);
  }

  lemma BearerHeaderSolid(scheme: string, token: string)
    requires |scheme| == 6 && LowerStr(scheme) == "bearer"
    requires token != "" && !IsSpace(token[|token| - 1])
    ensures Trim(scheme + " " + token) == scheme + " " + token
  {
    var h := scheme + " " + token;
    assert Lower(scheme[0]) == 'b';
    assert h[0] == scheme[0];
    assert h[|h| - 1] == token[|token| - 1];
    TrimWithStripped(h, IsSpace);
  }

  lemma BearerPrefixOf(scheme: string, token: string)
    requires |scheme| == 6 && LowerStr(scheme) == "bearer"
    ensures StartsWith(LowerStr(scheme + " " + token), BEARER_PREFIX)
  {
    var h := scheme + " " + token;
    var l := LowerStr(h);
    forall i | 0 <= i < 7
      ensures l[i] == BEARER_PREFIX[i]
    {
      if i < 6 {
        assert h[i] == scheme[i];
        assert LowerStr(scheme)[i] == Lower(scheme[i]);
      } else {
        assert h[6] == ' ';
      }
    }
  }

  /** `isDonationWebhookAuthorized`: with no `DONATION_WEBHOOK_TOKEN` configured
      every request passes; otherwise the `X-Donation-Token` header or the bearer
      token must equal it exactly (both trimmed). */
  function IsDonationWebhookAuthorized(configured: Option<string>, donationToken: Option<string>,
                                       authorization: Option<string>): (b: bool)
    ensures Trim(configured.GetOr("")) == "" ==> b
    ensures Trim(configured.GetOr("")) != "" ==>
              (b <==> Trim(donationToken.GetOr("")) == Trim(configured.GetOr(""))
                      || ExtractBearerToken(authorization) == Some(Trim(configured.GetOr(""))))
  {
    var expected := Trim(configured.GetOr(""));
    if expected == "" then true
    else
      var headerToken := Trim(donationToken.GetOr(""));
      var bearerToken := ExtractBearerToken(authorization);
      headerToken == expected || bearerToken == Some(expected)
  }

  /** With a token configured, a request carrying neither header is refused. */
  lemma NoCredentialsRefused(configured: string)
    requires Trim(configured) != ""
    ensures !IsDonationWebhookAuthorized(Some(configured), None, None)
  {
    assert Trim("") == "";
  }

  /** With a token configured, `Authorization: Bearer <token>` (the scheme in any
      case) is accepted. */
  lemma BearerAuthorizes(configured: string, scheme: string)
    requires Trim(configured) != ""
    requires |scheme| == 6 && LowerStr(scheme) == "bearer"
    ensures IsDonationWebhookAuthorized(Some(configured), None, Some(scheme + " " + Trim(configured)))
  {
    BearerRoundTrip(scheme, Trim(configured));
  }

  // ------------------------------------------------------------ PayPal events

  const MAX_DONOR_LENGTH: nat := 64

  /** `[given, surname].filter(Boolean).join(' ').trim()`. */
  function FullName(given: string, surname: string): string {
    Trim(Join(NonEmptyParts([given, surname]), " "))
  }

  /** `extractPaypalDonor`: the payer's full name, else the payer's e-mail
      address, cut to 64 characters; `None` when the payer is not an object or
      both are blank. */
  function ExtractPaypalDonor(resource: Option<Json>, numberText: real -> string): (r: Option<string>)
    ensures r.Some? ==> 0 < |r.value| <= MAX_DONOR_LENGTH
    ensures var payer := Prop(resource, "payer");
            r.None? <==>
              !OptJsTruthy(payer) || !IsObjectLike(payer.value)
              || (FullName(Trim(OrEmptyText(Prop(Prop(payer, "name"), "given_name"), numberText)),
                           Trim(OrEmptyText(Prop(Prop(payer, "name"), "surname"), numberText))) == ""
                  && Trim(OrEmptyText(Prop(payer, "email_address"), numberText)) == "")
  {
    var payer := Prop(resource, "payer");
    if !OptJsTruthy(payer) || !IsObjectLike(payer.value) then None
    else
      var given := Trim(OrEmptyText(Prop(Prop(payer, "name"), "given_name"), numberText));
      var surname := Trim(OrEmptyText(Prop(Prop(payer, "name"), "surname"), numberText));
      var fullName := FullName(given, surname);
      if fullName != "" then Some(Take(fullName, MAX_DONOR_LENGTH))
      else
        var email := Trim(OrEmptyText(Prop(payer, "email_address"), numberText));
        if email != "" then Some(Take(email, MAX_DONOR_LENGTH)) else None
  }

  /** Given and family name, both non-blank, are joined by one space. */
  lemma FullNameOfBoth(given: string, surname: string)
    requires given != "" && !IsSpace(given[0]) && !IsSpace(given[|given| - 1])
    requires surname != "" && !IsSpace(surname[0]) && !IsSpace(surname[|surname| - 1])
    ensures FullName(given, surname) == given + " " + surname
  {
    assert NonEmptyParts([given, surname]) == [given, surname] by {
      assert [given, surname][1..] == [surname];
    }
    var j := given + " " + surname;
    assert Join([given, surname], " ") == j by {
      assert [given, surname][1..] == [surname];
    }
    TrimPadded("", j, "");
    assert "" + j + "" == j;
  }

  /** The amount and currency a webhook resource carries. */
  datatype Money = Money(amount: Option<real>, currency: Option<string>)

  /** An amount object's value and currency code. The amount is the one the
      source computes, so a value under half a cent comes through as 0; any
      positive amount is the intended one. */
  function MoneyOf(amount: Option<Json>, numberText: real -> string, parseFloat: string -> Option<real>): (m: Money)
    ensures m.amount.Some? ==> m.amount.value >= 0.0
    ensures m.amount.Some? && m.amount.value > 0.0 ==>
              m.amount == ToSafeAmount(Prop(amount, "value"), numberText, parseFloat)
    ensures m.amount.None? ==> ToSafeAmount(Prop(amount, "value"), numberText, parseFloat).None?
    ensures m.currency.Some? ==> IsCurrencyCode(m.currency.value)
  {
    SafeAmountDiffersOnlyAtZero(Prop(amount, "value"), numberText, parseFloat);
    Money(ToSafeAmountAsWritten(Prop(amount, "value"), numberText, parseFloat),
          NormalizeCurrencyCode(Prop(amount, "currency_code"), numberText))
  }

  /** `extractPaypalAmount`: `amount`, else `gross_amount`, else
      `seller_receivable_breakdown.gross_amount`. */
  function ExtractPaypalAmount(resource: Json, numberText: real -> string,
                               parseFloat: string -> Option<real>): (m: Money)
    ensures m.amount.Some? ==> m.amount.value >= 0.0
    ensures m.currency.Some? ==> IsCurrencyCode(m.currency.value)
    ensures !JsTruthy(resource) || !IsObjectLike(resource) ==> m == Money(None, None)
    ensures IsObjectLike(resource) && OptJsTruthy(Get(resource, "amount")) ==>
              m == MoneyOf(Get(resource, "amount"), numberText, parseFloat)
    ensures IsObjectLike(resource) && !OptJsTruthy(Get(resource, "amount"))
            && OptJsTruthy(Get(resource, "gross_amount")) ==>
              m == MoneyOf(Get(resource, "gross_amount"), numberText, parseFloat)
    ensures var gross := Prop(Get(resource, "seller_receivable_breakdown"), "gross_amount");
            IsObjectLike(resource) && !OptJsTruthy(Get(resource, "amount"))
            && !OptJsTruthy(Get(resource, "gross_amount")) ==>
              m == (if OptJsTruthy(gross) then MoneyOf(gross, numberText, parseFloat) else Money(None, None))
  {
    if !JsTruthy(resource) || !IsObjectLike(resource) then Money(None, None)
    else
      var direct := Or(Get(resource, "amount"), Get(resource, "gross_amount"));
      if OptJsTruthy(direct) then MoneyOf(direct, numberText, parseFloat)
      else
        var gross := Prop(Get(resource, "seller_receivable_breakdown"), "gross_amount");
        if OptJsTruthy(gross) then MoneyOf(gross, numberText, parseFloat)
        else Money(None, None)
  }

  datatype Signal = Signal(certainty: Certainty, source: string, amount: Option<real>,
                           currency: Option<string>, donor: Option<string>, reference: Option<string>)

  const CAPTURE_COMPLETED: string := "PAYMENT.CAPTURE.COMPLETED"
  const ORDER_APPROVED: string := "CHECKOUT.ORDER.APPROVED"

  /** `event?.resource || {}`. */
  function EventResource(event: Json): (r: Json)
    ensures OptJsTruthy(Get(event, "resource")) ==> r == Get(event, "resource").value
    ensures !OptJsTruthy(Get(event, "resource")) ==> r == JObj([])
  {
    var field := Get(event, "resource");
    if OptJsTruthy(field) then field.value else JObj([])
  }

  /** The resource's id when it is a string, else "". */
  function IdText(event: Json): string {
    match Get(EventResource(event), "id")
    case Some(JStr(t)) => t
    case _ => ""
  }

  /** `t || undefined` for a trimmed text. */
  function NonBlank(t: string): Option<string> {
    if t == "" then None else Some(t)
  }

  /** What every signal built from a webhook event satisfies. */
  predicate WellFormedSignal(s: Signal) {
    && (s.amount.Some? ==> s.amount.value >= 0.0)
    && (s.currency.Some? ==> IsCurrencyCode(s.currency.value))
    && (s.donor.Some? ==> 0 < |s.donor.value| <= MAX_DONOR_LENGTH)
    && (s.reference.Some? ==> s.reference.value != "")
  }

  /** `toDonationSignalFromPaypalEvent`: a completed capture is a confident
      donation, an approved order an implied one, and every other event type
      yields no signal. */
  function ToDonationSignalFromPaypalEvent(eventType: string, event: Json, numberText: real -> string,
                                           parseFloat: string -> Option<real>): (r: Option<Signal>)
    ensures r.Some? <==> eventType == CAPTURE_COMPLETED || eventType == ORDER_APPROVED
    ensures r.Some? ==> (r.value.certainty == Confident <==> eventType == CAPTURE_COMPLETED)
    ensures r.Some? ==> WellFormedSignal(r.value)
    ensures r.Some? ==>
              && r.value.source == (if eventType == CAPTURE_COMPLETED then "paypal-webhook-capture"
                                    else "paypal-webhook-approved")
              && r.value.amount == ExtractPaypalAmount(EventResource(event), numberText, parseFloat).amount
              && r.value.currency == ExtractPaypalAmount(EventResource(event), numberText, parseFloat).currency
              && r.value.donor == ExtractPaypalDonor(Some(EventResource(event)), numberText)
    ensures r.Some? && Get(EventResource(event), "id") == Some(JStr(IdText(event))) && IdText(event) != "" ==>
              r.value.reference == NonBlank(Trim(IdText(event)))
    ensures forall eventId: string ::
              (r.Some? && !OptJsTruthy(Get(EventResource(event), "id")) && Get(event, "id") == Some(JStr(eventId)))
              ==> r.value.reference == NonBlank(Trim(eventId))
    ensures r.Some? && !OptJsTruthy(Get(EventResource(event), "id")) && !OptJsTruthy(Get(event, "id")) ==>
              r.value.reference.None?
  {
    var resource := EventResource(event);
    var money := ExtractPaypalAmount(resource, numberText, parseFloat);
    var donor := ExtractPaypalDonor(Some(resource), numberText);
    var refText := Trim(OrEmptyText(Or(Get(resource, "id"), Get(event, "id")), numberText));
    var reference := if refText == "" then None else Some(refText);
    if eventType == CAPTURE_COMPLETED then
      Some(Signal(Confident, "paypal-webhook-capture", money.amount, money.currency, donor, reference))
    else if eventType == ORDER_APPROVED then
      Some(Signal(Implied, "paypal-webhook-approved", money.amount, money.currency, donor, reference))
    else None
  }

  // ------------------------------------------------------------ /voice

  /** After an accepted utterance, speech without the wake word is still handled
      for this long. */
  const CONVERSATION_WINDOW_MS: int := 45000

  /** `lastConversationAt`, the time of the last accepted utterance (0 at start). */
  datatype VoiceState = VoiceState(lastConversationAt: int)

  const INITIAL_VOICE: VoiceState := VoiceState(0)

  predicate InConversation(s: VoiceState, now: int) {
    now - s.lastConversationAt < CONVERSATION_WINDOW_MS
  }

  datatype VoiceOutcome = Ignored | Accepted

  /** A transcribed `/voice` request: with `wakeWord=true` it is ignored when no
      wake word is heard and the conversation window has run out; otherwise it is
      accepted and the window restarts at `acceptedAt` (the clock read after the
      decision, taken at `heardAt`). */
  function HandleVoice(s: VoiceState, wakeWordFlag: bool, text: string, fold: string -> string,
                       heardAt: int, acceptedAt: int): (r: (VoiceOutcome, VoiceState))
    ensures r.0 == Ignored <==>
              wakeWordFlag && !DetectWakeWord(text, fold).detected && !InConversation(s, heardAt)
    ensures r.0 == Ignored ==> r.1 == s
    ensures r.0 == Accepted ==> r.1 == VoiceState(acceptedAt)
  {
    var inConversation := heardAt - s.lastConversationAt < CONVERSATION_WINDOW_MS;
    if wakeWordFlag && !DetectWakeWord(text, fold).detected && !inConversation then (Ignored, s)
    else (Accepted, VoiceState(acceptedAt))
  }

  /** `/sleep` closes the window. */
  function Sleep(s: VoiceState): (r: VoiceState)
    ensures forall now :: now >= CONVERSATION_WINDOW_MS ==> !InConversation(r, now)
  {
    VoiceState(0)
  }

  /** Within 45 s of an accepted utterance, every request is accepted. */
  lemma WindowAcceptsFollowUp(s: VoiceState, fold: string -> string,
                              flag1: bool, text1: string, heard1: int, accepted1: int,
                              flag2: bool, text2: string, heard2: int, accepted2: int)
    requires HandleVoice(s, flag1, text1, fold, heard1, accepted1).0 == Accepted
    requires heard2 < accepted1 + CONVERSATION_WINDOW_MS
    ensures HandleVoice(HandleVoice(s, flag1, text1, fold, heard1, accepted1).1, flag2, text2, fold, heard2, accepted2).0
            == Accepted
  {
  }

  /** After `/sleep`, a request that asks for the wake word and has none is
      ignored (at any time past the first 45 s of the epoch). */
  lemma SleepRequiresWakeWord(s: VoiceState, text: string, fold: string -> string, heardAt: int, acceptedAt: int)
    requires !DetectWakeWord(text, fold).detected && heardAt >= CONVERSATION_WINDOW_MS
    ensures HandleVoice(Sleep(s), true, text, fold, heardAt, acceptedAt).0 == Ignored
  {
  }

  /** A request without the `wakeWord` flag is always accepted. */
  lemma UnflaggedAccepted(s: VoiceState, text: string, fold: string -> string, heardAt: int, acceptedAt: int)
    ensures HandleVoice(s, false, text, fold, heardAt, acceptedAt) == (Accepted, VoiceState(acceptedAt))
  {
  }

  // ------------------------------------------------------------ POST /config

  datatype Rejection = Rejection(status: int, message: string)

  datatype ConfigOutcome =
    | Rejected(rejection: Rejection)
    | Applied(sttModel: string, sttRestarted: bool)

  /** `Object.hasOwn(config, key)`. */
  predicate HasOwn(fields: seq<(string, Json)>, key: string) {
    exists i :: 0 <= i < |fields| && fields[i].0 == key
  }

  function RejectionOf(e: ConfigError): Rejection {
    match e
    case EmptyModel => Rejection(400, "sttModel must be a non-empty string")
    case InvalidModelCharacters => Rejection(400, "sttModel contains invalid characters")
  }

  /** The speech-to-text part of `POST /config`.  `payload` is the parsed body
      (`None` for a syntax error); `others` is the verdict of the normalisers of the
      other fields, which run after `sttModel`'s; `restartOk` says whether
      restarting the transcription service succeeded.  The service restarts exactly
      when the normalised `sttModel` differs from the current one. */
  function PostConfig(currentStt: string, payload: Option<Json>, numberText: real -> string,
                      others: Option<Rejection>, restartOk: bool): (r: ConfigOutcome)
    ensures r.Applied? ==> (r.sttRestarted <==> r.sttModel != currentStt)
    ensures r.Applied? && r.sttModel != currentStt ==>
              payload.Some? && payload.value.JObj? && HasOwn(payload.value.fields, "sttModel")
              && NormalizeSttModel(OrEmptyText(Lookup(payload.value.fields, "sttModel"), numberText))
                 == Success(r.sttModel)
    ensures payload.None? || !payload.value.JObj? ==> r.Rejected? && r.rejection.status == 400
  {
    if payload.None? then Rejected(Rejection(400, "SyntaxError"))
    else if !payload.value.JObj? then Rejected(Rejection(400, "Config payload must be a JSON object"))
    else
      var fields := payload.value.fields;
      var next: Result<string, ConfigError> :=
        if HasOwn(fields, "sttModel") then NormalizeSttModel(OrEmptyText(Lookup(fields, "sttModel"), numberText))
        else Success(currentStt);
      if next.Failure? then Rejected(RejectionOf(next.error))
      else if others.Some? then Rejected(others.value)
      else
        var shouldRestartStt := next.value != currentStt;
        if shouldRestartStt && !restartOk then Rejected(Rejection(500, "restart failed"))
        else Applied(next.value, shouldRestartStt)
  }

  /** Posting the same payload again after it was applied restarts nothing. */
  lemma RepostDoesNotRestart(currentStt: string, payload: Option<Json>, numberText: real -> string,
                             restartOk: bool)
    requires PostConfig(currentStt, payload, numberText, None, restartOk).Applied?
    ensures var m := PostConfig(currentStt, payload, numberText, None, restartOk).sttModel;
            PostConfig(m, payload, numberText, None, restartOk) == Applied(m, false)
  {
  }

  /** A payload without `sttModel` never restarts the service. */
  lemma NoSttModelNoRestart(currentStt: string, fields: seq<(string, Json)>, numberText: real -> string,
                            restartOk: bool)
    requires !HasOwn(fields, "sttModel")
    ensures PostConfig(currentStt, Some(JObj(fields)), numberText, None, restartOk) == Applied(currentStt, false)
  {
  }

  // ------------------------------------------------------------ /shapes

  predicate IsShapeNameChar(c: char) {
    IsLowerAscii(c) || IsUpperAscii(c) || IsDigit(c) || c == '.' || c == '_' || c == '-'
  }

  /** `/^[a-zA-Z0-9._-]+\.svg$/`. */
  predicate IsShapeFileName(n: string) {
    |n| >= 5 && EndsWith(n, ".svg") && forall i :: 0 <= i < |n| - 4 ==> IsShapeNameChar(n[i])
  }

  datatype ShapeOutcome = BadName | Forbidden | Serve(path: string)

  /** `path.join(dir, name)` for a name that is one plain path segment. */
  function JoinSegment(dir: string, name: string): (p: string)
    requires '/' !in name && name != "." && name != ".."
    ensures StartsWith(p, dir)
  {
    dir + "/" + name
  }

  /** The `/shapes/` guard: a name outside the pattern is a bad request, a path
      escaping the shapes directory is forbidden, anything else is served from it. */
  function ShapeRequest(shapesDir: string, filename: string): (r: ShapeOutcome)
    ensures r.Serve? <==> IsShapeFileName(filename)
    ensures r.Serve? ==> r.path == shapesDir + "/" + filename
    ensures !r.Forbidden?
  {
    if !IsShapeFileName(filename) then BadName
    else
      ShapeNameIsSegment(filename);
      var fullPath := JoinSegment(shapesDir, filename);
      if !StartsWith(fullPath, shapesDir) then Forbidden else Serve(fullPath)
  }

  /** A name the pattern accepts is one segment that is neither `.` nor `..`, so
      the directory guard never fires. */
  lemma ShapeNameIsSegment(n: string)
    requires IsShapeFileName(n)
    ensures '/' !in n && n != "." && n != ".."
  {
    forall i | 0 <= i < |n|
      ensures n[i] != '/'
    {
      if i >= |n| - 4 {
        assert n[|n| - 4..] == ".svg";
        assert n[i] == ".svg"[i - (|n| - 4)];
      }
    }
  }
}

=== FILE: sentence_splitter.dfy ===
/** The streaming reply's sentence splitter: deltas from the model are appended
    to a buffer, and complete chunks are cut off its front as soon as they
    appear: a sentence ending in `.`, `!` or `?`; failing that, once the buffer
    reaches 56 characters, everything up to its last clause mark; failing that,
    once it reaches 120 characters, a hard cut near the last space.  The
    streaming caller speaks at most two of the chunks it receives. */
module SentenceSplitter {
  import opened Wrappers
  import opened Strs
  import opened AssistantText
  import opened Emotion
  import opened Donation

  const SOFT_SPLIT_MIN_CHARS: nat := 56
  const HARD_SPLIT_MAX_CHARS: nat := 120
  /** A space at or below this index is too early for the hard cut. */
  const MIN_SPACE_CUT: nat := 28

  predicate IsClauseMark(c: char) { c == ',' || c == ';' || c == ':' }

  /** `/[.!?](?=\s|$)/` matches at `i`. */
  predicate SentenceEndAt(s: string, i: int) {
    0 <= i < |s| && IsStop(s[i]) && (i + 1 == |s| || IsSpace(s[i + 1]))
  }

  /** `/[,;:](?=\s)/` matches at `i`. */
  predicate ClauseEndAt(s: string, i: int) {
    0 <= i && i + 1 < |s| && IsClauseMark(s[i]) && IsSpace(s[i + 1])
  }

  function FirstSentenceEnd(s: string, from: nat): (i: int)
    requires from <= |s|
    ensures i == -1 || from <= i < |s|
    ensures i >= 0 ==> SentenceEndAt(s, i) && forall k :: from <= k < i ==> !SentenceEndAt(s, k)
    ensures i == -1 ==> forall k :: from <= k < |s| ==> !SentenceEndAt(s, k)
    decreases |s| - from
  {
    if from == |s| then -1
    else if SentenceEndAt(s, from) then from
    else FirstSentenceEnd(s, from + 1)
  }

  /** The last clause mark below `upto`, as the `matchAll` loop leaves it. */
  function LastClauseEnd(s: string, upto: nat): (i: int)
    requires upto <= |s|
    ensures i == -1 || 0 <= i < upto
    ensures i >= 0 ==> ClauseEndAt(s, i) && forall k :: i < k < upto ==> !ClauseEndAt(s, k)
    ensures i == -1 ==> forall k :: 0 <= k < upto ==> !ClauseEndAt(s, k)
  {
    if upto == 0 then -1
    else if ClauseEndAt(s, upto - 1) then upto - 1
    else LastClauseEnd(s, upto - 1)
  }

  /** `s.lastIndexOf(' ', j)` for `j` inside the string. */
  function LastSpaceUpTo(s: string, j: int): (i: int)
    requires -1 <= j < |s|
    ensures -1 <= i <= j
    ensures i >= 0 ==> s[i] == ' ' && forall k :: i < k <= j ==> s[k] != ' '
    ensures i == -1 ==> forall k :: 0 <= k <= j ==> s[k] != ' '
    decreases j + 1
  {
    if j < 0 then -1
    else if s[j] == ' ' then j
    else LastSpaceUpTo(s, j - 1)
  }

  /** Where `lastIndexOf(' ', 120)` starts looking: index 120, or the last
      index of a 120-character buffer. */
  function HardFrom(s: string): int {
    if |s| > HARD_SPLIT_MAX_CHARS then HARD_SPLIT_MAX_CHARS else |s| - 1
  }

  /** The hard cut: at the last space at or before index 120 when that space is
      past index 28, otherwise at 120. */
  function HardCut(s: string): (n: nat)
    requires |s| >= HARD_SPLIT_MAX_CHARS
    ensures MIN_SPACE_CUT < n <= HARD_SPLIT_MAX_CHARS
    ensures n < HARD_SPLIT_MAX_CHARS ==> s[n] == ' ' && forall k :: n < k <= HardFrom(s) ==> s[k] != ' '
    ensures n == HARD_SPLIT_MAX_CHARS ==>
              (|s| > HARD_SPLIT_MAX_CHARS && s[HARD_SPLIT_MAX_CHARS] == ' ')
              || forall k :: MIN_SPACE_CUT < k <= HardFrom(s) ==> s[k] != ' '
  {
    var sp := LastSpaceUpTo(s, HardFrom(s));
    if sp > MIN_SPACE_CUT then sp else HARD_SPLIT_MAX_CHARS
  }

  /** The buffer holds no complete chunk yet. */
  predicate NoChunk(s: string) {
    && (forall k :: 0 <= k < |s| ==> !SentenceEndAt(s, k))
    && (|s| < SOFT_SPLIT_MIN_CHARS || forall k :: 0 <= k < |s| ==> !ClauseEndAt(s, k))
    && |s| < HARD_SPLIT_MAX_CHARS
  }

  /** Where the next chunk ends; the rules are tried in order. */
  function CutPoint(s: string): (r: Option<nat>)
    ensures r.Some? ==> 0 < r.value <= |s|
    ensures r.None? <==> NoChunk(s)
    ensures (exists k :: SentenceEndAt(s, k)) ==>
              r.Some? && SentenceEndAt(s, r.value - 1) && forall k :: 0 <= k < r.value - 1 ==> !SentenceEndAt(s, k)
    ensures (forall k :: 0 <= k < |s| ==> !SentenceEndAt(s, k)) && |s| >= SOFT_SPLIT_MIN_CHARS && (exists k :: ClauseEndAt(s, k)) ==>
              r.Some? && ClauseEndAt(s, r.value - 1) && forall k :: r.value - 1 < k < |s| ==> !ClauseEndAt(s, k)
    ensures ((forall k :: 0 <= k < |s| ==> !SentenceEndAt(s, k))
             && (|s| < SOFT_SPLIT_MIN_CHARS || forall k :: 0 <= k < |s| ==> !ClauseEndAt(s, k))
             && |s| >= HARD_SPLIT_MAX_CHARS) ==> r == Some(HardCut(s))
  {
    var i := FirstSentenceEnd(s, 0);
    if i >= 0 then Some(i + 1)
    else if |s| >= SOFT_SPLIT_MIN_CHARS && LastClauseEnd(s, |s|) >= 0 then Some(LastClauseEnd(s, |s|) + 1)
    else if |s| >= HARD_SPLIT_MAX_CHARS then Some(HardCut(s))
    else None
  }

  /** An emitted chunk: non-empty, no whitespace at either end. */
  predicate Trimmed(e: string) {
    e != "" && !IsSpace(e[0]) && !IsSpace(e[|e| - 1])
  }

  predicate AllTrimmed(es: seq<string>) {
    forall k :: 0 <= k < |es| ==> Trimmed(es[k])
  }

  function Emitted(e: Option<string>): seq<string> {
    if e.Some? then [e.value] else []
  }

  /** One pass of `emitNextChunk` that found a chunk: what it hands to the
      callback (nothing when the chunk is blank) and the new buffer. */
  datatype Step = Step(emitted: Option<string>, rest: string)

  /** Cutting at `c`, trimming the piece and skipping the whitespace after the
      cut loses no visible character. */
  lemma CutKeepsText(s: string, c: nat, next: nat)
    requires c <= next <= |s| && forall k :: c <= k < next ==> IsSpace(s[k])
    ensures NonSpace(s) == NonSpace(Trim(s[..c])) + NonSpace(s[next..])
  {
    var a, b, d := s[..c], s[c..next], s[next..];
    SplitThree(s, c, next);
    NonSpaceAppend(a, b + d);
    GapIsBlank(s, c, next);
    NonSpaceTrim(a);
  }

  lemma SplitThree(s: string, c: nat, next: nat)
    requires c <= next <= |s|
    ensures s == s[..c] + (s[c..next] + s[next..])
  {
  }

  lemma GapIsBlank(s: string, c: nat, next: nat)
    requires c <= next <= |s| && forall k :: c <= k < next ==> IsSpace(s[k])
    ensures NonSpace(s[c..next] + s[next..]) == NonSpace(s[next..])
  {
    var b := s[c..next];
    assert AllWith(b, IsSpace);
    NonSpaceAppend(b, s[next..]);
    NonSpaceAllSpace(b);
  }

  /** The chunk cut at `c`: the trimmed piece (nothing when it is blank) and
      the buffer after the whitespace that follows the cut. */
  function CutAt(s: string, c: nat): (r: Step)
    requires 0 < c <= |s|
    ensures |r.rest| < |s| && r.rest == s[|s| - |r.rest|..]
    ensures r.rest == [] || !IsSpace(r.rest[0])
    ensures r.emitted.Some? ==> Trimmed(r.emitted.value)
    ensures NonSpace(s) == NonSpace(Concat(Emitted(r.emitted))) + NonSpace(r.rest)
  {
    var sentence := Trim(s[..c]);
    var next := c + LeadCount(s[c..], IsSpace);
    assert forall k :: c <= k < next ==> s[k] == s[c..][k - c];
    CutKeepsText(s, c, next);
    assert next < |s| ==> s[next] == s[c..][next - c];
    var e := if sentence == "" then None else Some(sentence);
    EmittedText(e);
    Step(e, s[next..])
  }

  lemma EmittedText(e: Option<string>)
    ensures NonSpace(Concat(Emitted(e))) == if e.Some? then NonSpace(e.value) else ""
  {
    if e.Some? {
      assert Concat([e.value]) == e.value + Concat([]);
      assert e.value + "" == e.value;
    }
  }

  /** `emitNextChunk`: `None` when it returns false. */
  function EmitNextChunk(s: string): (r: Option<Step>)
    ensures r.None? <==> NoChunk(s)
    ensures r.Some? ==> |r.value.rest| < |s| && r.value.rest == s[|s| - |r.value.rest|..]
    ensures r.Some? ==> r.value.rest == [] || !IsSpace(r.value.rest[0])
    ensures r.Some? && r.value.emitted.Some? ==> Trimmed(r.value.emitted.value)
    ensures r.Some? ==> NonSpace(s) == NonSpace(Concat(Emitted(r.value.emitted))) + NonSpace(r.value.rest)
  {
    var cut := CutPoint(s);
    if cut.None? then None else Some(CutAt(s, cut.value))
  }

  /** The `while (emitNextChunk()) {}` loop. */
  function Drain(s: string): (r: (seq<string>, string))
    ensures AllTrimmed(r.0)
    ensures NoChunk(r.1)
    decreases |s|
  {
    match EmitNextChunk(s)
    case None => ([], s)
    case Some(step) =>
      var more := Drain(step.rest);
      EmittedTrimmed(step.emitted);
      AllTrimmedAppend(Emitted(step.emitted), more.0);
      (Emitted(step.emitted) + more.0, more.1)
  }

  /** The chunks and what the loop leaves in the buffer spell the same visible
      text as the buffer it started with. */
  lemma {:induction false} DrainKeepsText(s: string)
    ensures NonSpace(s) == NonSpace(Concat(Drain(s).0)) + NonSpace(Drain(s).1)
    decreases |s|
  {
    var o := EmitNextChunk(s);
    if o.Some? {
      var step := o.value;
      var more := Drain(step.rest);
      assert Drain(s) == (Emitted(step.emitted) + more.0, more.1);
      DrainKeepsText(step.rest);
      KeepsJoin(s, Emitted(step.emitted), step.rest, more.0, more.1);
    }
  }

  predicate IsSuffix(u: string, s: string) {
    |u| <= |s| && u == s[|s| - |u|..]
  }

  /** One turn of the loop. */
  lemma DrainUnfold(s: string)
    ensures EmitNextChunk(s).None? ==> Drain(s) == ([], s)
    ensures EmitNextChunk(s).Some? ==>
              Drain(s) == (Emitted(EmitNextChunk(s).value.emitted) + Drain(EmitNextChunk(s).value.rest).0,
                           Drain(EmitNextChunk(s).value.rest).1)
  {
  }

  /** What the loop leaves in the buffer is a suffix of what it started with. */
  lemma {:induction false} DrainLeavesSuffix(s: string)
    ensures IsSuffix(Drain(s).1, s)
    decreases |s|
  {
    DrainUnfold(s);
    var o := EmitNextChunk(s);
    if o.Some? {
      var rest := o.value.rest;
      assert IsSuffix(rest, s);
      DrainLeavesSuffix(rest);
      SuffixOfSuffix(s, rest, Drain(rest).1);
    }
  }

  lemma EmittedTrimmed(o: Option<string>)
    requires o.Some? ==> Trimmed(o.value)
    ensures AllTrimmed(Emitted(o))
  {
  }

  lemma AllTrimmedAppend(a: seq<string>, b: seq<string>)
    requires AllTrimmed(a) && AllTrimmed(b)
    ensures AllTrimmed(a + b)
  {
    forall k | 0 <= k < |a + b|
      ensures Trimmed((a + b)[k])
    {
      if k < |a| {
        assert (a + b)[k] == a[k];
      } else {
        assert (a + b)[k] == b[k - |a|];
      }
    }
  }

  lemma KeepsJoin(s: string, e: seq<string>, rest: string, m: seq<string>, mb: string)
    requires NonSpace(s) == NonSpace(Concat(e)) + NonSpace(rest)
    requires NonSpace(rest) == NonSpace(Concat(m)) + NonSpace(mb)
    ensures NonSpace(s) == NonSpace(Concat(e + m)) + NonSpace(mb)
  {
    var x, y, z := NonSpace(Concat(e)), NonSpace(Concat(m)), NonSpace(mb);
    AppendAssoc(x, y, z);
    ConcatAppend(e, m);
    NonSpaceAppend(Concat(e), Concat(m));
  }

  lemma SuffixOfSuffix(s: string, t: string, u: string)
    requires IsSuffix(t, s) && IsSuffix(u, t)
    ensures IsSuffix(u, s)
  {
  }

  /** `push(delta)`: returns the chunks handed to the callback and the new
      buffer, which holds no complete chunk and so is under 120 characters. */
  function Push(buffer: string, delta: string): (r: (seq<string>, string))
    ensures AllTrimmed(r.0)
    ensures NoChunk(r.1) && |r.1| < HARD_SPLIT_MAX_CHARS
    ensures NonSpace(buffer + delta) == NonSpace(Concat(r.0)) + NonSpace(r.1)
  {
    DrainKeepsText(buffer + delta);
    Drain(buffer + delta)
  }

  /** `flush()`: the trimmed remainder, when there is one; the buffer empties. */
  function Flush(buffer: string): (r: (seq<string>, string))
    ensures r.1 == ""
    ensures AllTrimmed(r.0) && |r.0| <= 1
    ensures r.0 == [] <==> AllWith(buffer, IsSpace)
    ensures NonSpace(Concat(r.0)) == NonSpace(buffer)
  {
    var remaining := Trim(buffer);
    NonSpaceTrim(buffer);
    if remaining == "" then ([], "")
    else
      assert Concat([remaining]) == remaining + Concat([]);
      assert remaining + "" == remaining;
      ([remaining], "")
  }

  /** Several pushes in a row. */
  function Run(buffer: string, deltas: seq<string>): (r: (seq<string>, string))
    ensures AllTrimmed(r.0)
    decreases |deltas|
  {
    if |deltas| == 0 then ([], buffer)
    else
      var p := Push(buffer, deltas[0]);
      var q := Run(p.1, deltas[1..]);
      AllTrimmedAppend(p.0, q.0);
      (p.0 + q.0, q.1)
  }

  /** Pushing never loses or reorders a visible character: the chunks so far
      and the buffer spell the input. */
  lemma {:induction false} RunKeepsText(buffer: string, deltas: seq<string>)
    ensures var r := Run(buffer, deltas);
            NonSpace(Concat(r.0)) + NonSpace(r.1) == NonSpace(buffer + Concat(deltas))
    decreases |deltas|
  {
    if |deltas| == 0 {
      assert buffer + Concat(deltas) == buffer;
    } else {
      var p := Push(buffer, deltas[0]);
      var q := Run(p.1, deltas[1..]);
      RunKeepsText(p.1, deltas[1..]);
      assert deltas == [deltas[0]] + deltas[1..];
      KeepsStep(buffer, deltas[0], deltas[1..], p.0, p.1, q.0, q.1);
    }
  }

  /** The bookkeeping of one push followed by the rest of the run. */
  lemma KeepsStep(buffer: string, d: string, tail: seq<string>,
                  pe: seq<string>, pb: string, qe: seq<string>, qb: string)
    requires NonSpace(buffer + d) == NonSpace(Concat(pe)) + NonSpace(pb)
    requires NonSpace(Concat(qe)) + NonSpace(qb) == NonSpace(pb + Concat(tail))
    ensures NonSpace(Concat(pe + qe)) + NonSpace(qb) == NonSpace(buffer + Concat([d] + tail))
  {
    var cp, cq, ct := Concat(pe), Concat(qe), Concat(tail);
    var a, b, q, p, t := NonSpace(cp), NonSpace(cq), NonSpace(qb), NonSpace(pb), NonSpace(ct);
    ConcatAppend(pe, qe);
    NonSpaceAppend(cp, cq);
    assert NonSpace(Concat(pe + qe)) == a + b;
    AppendAssoc(a, b, q);
    NonSpaceAppend(pb, ct);
    assert b + q == p + t;
    AppendAssoc(a, p, t);
    assert (a + b) + q == (a + p) + t;
    NonSpaceAppend(buffer + d, ct);
    assert (a + p) + t == NonSpace((buffer + d) + ct);
    ConcatCons(d, tail);
    AppendAssoc(buffer, d, ct);
  }

  lemma ConcatCons(d: string, tail: seq<string>)
    ensures Concat([d] + tail) == d + Concat(tail)
  {
    assert ([d] + tail)[1..] == tail;
  }

  /** A whole reply: every delta pushed from an empty buffer, then a flush. */
  function Stream(deltas: seq<string>): (r: seq<string>)
    ensures AllTrimmed(r)
  {
    var run := Run("", deltas);
    AllTrimmedAppend(run.0, Flush(run.1).0);
    run.0 + Flush(run.1).0
  }

  /** The chunks of a whole reply spell its text, whitespace aside. */
  lemma StreamKeepsText(deltas: seq<string>)
    ensures NonSpace(Concat(Stream(deltas))) == NonSpace(Concat(deltas))
  {
    var run := Run("", deltas);
    RunKeepsText("", deltas);
    assert "" + Concat(deltas) == Concat(deltas);
    ConcatAppend(run.0, Flush(run.1).0);
    NonSpaceAppend(Concat(run.0), Concat(Flush(run.1).0));
  }

  /** A single sentence, pushed whole, comes out whole and leaves the buffer
      empty. */
  lemma OneSentence(s: string)
    requires Trimmed(s) && IsStop(s[|s| - 1])
    requires forall k :: 0 <= k < |s| - 1 ==> !SentenceEndAt(s, k)
    ensures Push("", s) == ([s], "")
  {
    assert "" + s == s;
    WholeChunk(s);
    DrainUnfold(s);
    assert NoChunk("");
    DrainUnfold("");
    assert Emitted(Some(s)) + [] == [s];
  }

  lemma WholeChunk(s: string)
    requires Trimmed(s) && IsStop(s[|s| - 1])
    requires forall k :: 0 <= k < |s| - 1 ==> !SentenceEndAt(s, k)
    ensures EmitNextChunk(s) == Some(Step(Some(s), ""))
  {
    assert SentenceEndAt(s, |s| - 1);
    assert CutPoint(s) == Some(|s|);
    assert s[..|s|] == s;
    TrimWithStripped(s, IsSpace);
    assert LeadCount(s[|s|..], IsSpace) == 0;
  }

  // ------------------------------------------------------------------ the caller

  /** The streaming caller's state: sentences spoken, the reply so far, the
      chunks broadcast, the emotion taken from the first chunk carrying one, and
      whether a donation marker went by. */
  datatype Speaker = Speaker(count: nat, fullText: string, chunks: seq<string>,
                             emotion: Option<Emotion>, emotionExtracted: bool, donationMarkerDetected: bool)

  const SILENT: Speaker := Speaker(0, "", [], None, false, false)

  /** The splitter's callback in the streaming reply: past two spoken
      sentences everything is dropped; otherwise the first emotion cue is
      taken out, marker detection is noted, formatting and markers are
      stripped, and a non-empty remainder is spoken.  `stripFormatting` is
      code this model does not see. */
  function OnSentence(st: Speaker, sentence: string, stripFormatting: string -> string): (r: Speaker)
    ensures st.count >= MAX_OUTPUT_SENTENCES ==> r == st
    ensures r.count == st.count + (|r.chunks| - |st.chunks|)
    ensures |st.chunks| <= |r.chunks| <= |st.chunks| + 1 && r.chunks[..|st.chunks|] == st.chunks
    ensures |r.chunks| > |st.chunks| ==> r.chunks[|st.chunks|] != "" && st.count < MAX_OUTPUT_SENTENCES
    ensures st.emotionExtracted ==> r.emotion == st.emotion && r.emotionExtracted
    ensures st.donationMarkerDetected ==> r.donationMarkerDetected
    ensures NoBlank(st.chunks) ==> NoBlank(r.chunks)
    ensures st.fullText == Join(st.chunks, " ") && NoBlank(st.chunks) ==> r.fullText == Join(r.chunks, " ")
  {
    if st.count >= MAX_OUTPUT_SENTENCES then st
    else
      var parsed := if st.emotionExtracted then Split(sentence, None, None) else SplitTrailingEmotionEmoji(sentence);
      var emotion := if parsed.emotion.Some? then parsed.emotion else st.emotion;
      var extracted := st.emotionExtracted || parsed.emotion.Some?;
      var marker := st.donationMarkerDetected || Contains(parsed.text, DONATION_MARKER) || HasMarker(parsed.text);
      var text := StripDonationMarkers(stripFormatting(parsed.text));
      if text == "" then st.(emotion := emotion, emotionExtracted := extracted, donationMarkerDetected := marker)
      else
        assert NoBlank(st.chunks) ==> NoBlank(st.chunks + [text]);
        assert NoBlank(st.chunks) && st.fullText == Join(st.chunks, " ") ==>
                 Join(st.chunks + [text], " ") == st.fullText + (if st.fullText != "" then " " else "") + text by {
          if NoBlank(st.chunks) && st.fullText == Join(st.chunks, " ") {
            JoinSnoc(st.chunks, text);
            if st.chunks != [] { JoinHeadNonEmpty(st.chunks); }
          }
        }
        assert (st.chunks + [text])[..|st.chunks|] == st.chunks;
        Speaker(st.count + 1, st.fullText + (if st.fullText != "" then " " else "") + text,
                st.chunks + [text], emotion, extracted, marker)
  }

  predicate NoBlank(parts: seq<string>) {
    forall k :: 0 <= k < |parts| ==> parts[k] != ""
  }

  /** Joining one more piece adds a separator only after a non-empty join. */
  lemma {:induction false} JoinSnoc(parts: seq<string>, t: string)
    requires NoBlank(parts)
    ensures Join(parts + [t], " ") == if parts == [] then t else Join(parts, " ") + " " + t
    decreases |parts|
  {
    if |parts| == 1 {
      assert parts + [t] == [parts[0], t];
      assert [parts[0], t][1..] == [t];
    } else if |parts| > 1 {
      assert (parts + [t])[1..] == parts[1..] + [t];
      JoinSnoc(parts[1..], t);
    }
  }

  lemma JoinHeadNonEmpty(parts: seq<string>)
    requires |parts| > 0 && parts[0] != ""
    ensures Join(parts, " ") != ""
  {
    if |parts| > 1 {
      assert Join(parts, " ")[0] == parts[0][0];
    }
  }

  /** The callback over the chunks of a reply, in order. */
  function Forward(st: Speaker, sentences: seq<string>, stripFormatting: string -> string): (r: Speaker)
    decreases |sentences|
  {
    if |sentences| == 0 then st
    else Forward(OnSentence(st, sentences[0], stripFormatting), sentences[1..], stripFormatting)
  }

  /** However many chunks the splitter hands over, at most two sentences are
      spoken, each non-empty, and the reply text is their join. */
  lemma {:induction false} ForwardCap(st: Speaker, sentences: seq<string>, stripFormatting: string -> string)
    requires st.count <= MAX_OUTPUT_SENTENCES
    requires st.count == |st.chunks| && st.fullText == Join(st.chunks, " ")
    requires NoBlank(st.chunks)
    ensures var r := Forward(st, sentences, stripFormatting);
            && r.count <= MAX_OUTPUT_SENTENCES
            && r.count == |r.chunks|
            && r.fullText == Join(r.chunks, " ")
            && NoBlank(r.chunks)
    decreases |sentences|
  {
    if |sentences| > 0 {
      var next := OnSentence(st, sentences[0], stripFormatting);
      ForwardCap(next, sentences[1..], stripFormatting);
    }
  }
}

=== FILE: sorting.dfy ===
/** `Array.prototype.sort` with a numeric comparator `(a, b) => key(a) - key(b)`:
    a stable sort into ascending key order (section 23.1.3.30 of ECMA-262 has
    required stability since 2019). */
module Sorting {
  predicate SortedBy<T>(s: seq<T>, key: T -> real) {
    forall i, j :: 0 <= i < j < |s| ==> key(s[i]) <= key(s[j])
  }

  /** Inserts `x` before the first element whose key is not smaller. */
  function InsertBy<T>(x: T, s: seq<T>, key: T -> real): (r: seq<T>)
    requires SortedBy(s, key)
    ensures SortedBy(r, key)
    ensures multiset(r) == multiset(s) + multiset{x}
    ensures |r| == |s| + 1 && (r[0] == x || (|s| > 0 && r[0] == s[0]))
  {
    if |s| == 0 || key(x) <= key(s[0]) then [x] + s
    else
      var rest := InsertBy(x, s[1..], key);
      assert s == [s[0]] + s[1..];
      [s[0]] + rest
  }

  /** The sorted permutation of `s`. */
  function SortBy<T>(s: seq<T>, key: T -> real): (r: seq<T>)
    ensures SortedBy(r, key)
    ensures multiset(r) == multiset(s)
    ensures |r| == |s|
  {
    if |s| == 0 then []
    else
      assert s == [s[0]] + s[1..];
      InsertBy(s[0], SortBy(s[1..], key), key)
  }

  /** The elements whose key is `v`, in order. */
  function KeyRun<T>(s: seq<T>, key: T -> real, v: real): seq<T> {
    if |s| == 0 then [] else (if key(s[0]) == v then [s[0]] else []) + KeyRun(s[1..], key, v)
  }

  /** Inserting `x` puts it ahead of every element with the same key. */
  lemma {:induction false} InsertByRun<T>(x: T, s: seq<T>, key: T -> real, v: real)
    requires SortedBy(s, key)
    ensures KeyRun(InsertBy(x, s, key), key, v) == (if key(x) == v then [x] else []) + KeyRun(s, key, v)
  {
    if |s| == 0 || key(x) <= key(s[0]) {
      assert ([x] + s)[1..] == s;
    } else {
      var r := InsertBy(x, s, key);
      var rest := InsertBy(x, s[1..], key);
      InsertByRun(x, s[1..], key, v);
      assert r == [s[0]] + rest && r[1..] == rest;
      assert !(key(s[0]) == v && key(x) == v);
    }
  }

  /** The sort is stable: elements with equal keys keep their input order. */
  lemma {:induction false} SortByStable<T>(s: seq<T>, key: T -> real, v: real)
    ensures KeyRun(SortBy(s, key), key, v) == KeyRun(s, key, v)
  {
    if |s| > 0 {
      SortByStable(s[1..], key, v);
      InsertByRun(s[0], SortBy(s[1..], key), key, v);
    }
  }

  /** Members of the sorted list come from the original. */
  lemma SortedMember<T>(s: seq<T>, key: T -> real, k: int)
    requires 0 <= k < |SortBy(s, key)|
    ensures SortBy(s, key)[k] in s
  {
    var r := SortBy(s, key);
    assert r[k] in multiset(r);
  }

  /** Members of the original are in the sorted list. */
  lemma OriginalMember<T>(s: seq<T>, key: T -> real, k: int)
    requires 0 <= k < |s|
    ensures s[k] in SortBy(s, key)
  {
    assert s[k] in multiset(s);
  }
}

=== FILE: strs.dfy ===
/** String helpers shared by the model: the whitespace classes of JavaScript's
    `\s`/`String.prototype.trim` and of Python's `str.strip`, trimming, collapsing
    whitespace runs, ASCII case mapping, splitting on one character and joining. */
module Strs {

  /** JavaScript `\s` (WhiteSpace and LineTerminator, section 22.2.2.9 of ECMA-262). */
  predicate IsSpace(c: char) {
    c == ' ' || ('\t' <= c <= '\r') || c == '\U{00A0}' || c == '\U{1680}'
    || ('\U{2000}' <= c <= '\U{200A}') || c == '\U{2028}' || c == '\U{2029}'
    || c == '\U{202F}' || c == '\U{205F}' || c == '\U{3000}' || c == '\U{FEFF}'
  }

  /** Python `str.isspace` for the characters `str.strip()` removes. */
  predicate IsPySpace(c: char) {
    c == ' ' || ('\t' <= c <= '\r') || ('\U{001C}' <= c <= '\U{001F}') || c == '\U{0085}'
    || c == '\U{00A0}' || c == '\U{1680}' || ('\U{2000}' <= c <= '\U{200A}')
    || c == '\U{2028}' || c == '\U{2029}' || c == '\U{202F}' || c == '\U{205F}' || c == '\U{3000}'
  }

  /** A character JavaScript's `.` does not match (section 22.2.2.8 of ECMA-262). */
  predicate IsLineTerminator(c: char) {
    c == '\n' || c == '\r' || c == '\U{2028}' || c == '\U{2029}'
  }

  predicate IsDigit(c: char) { '0' <= c <= '9' }
  predicate IsLowerAscii(c: char) { 'a' <= c <= 'z' }
  predicate IsUpperAscii(c: char) { 'A' <= c <= 'Z' }

  /** ASCII lower-casing (non-ASCII characters are left as they are). */
  function Lower(c: char): (r: char)
    ensures IsUpperAscii(c) ==> IsLowerAscii(r) && r as int == c as int + 32
    ensures !IsUpperAscii(c) ==> r == c
  {
    if IsUpperAscii(c) then (c as int + 32) as char else c
  }

  function Upper(c: char): (r: char)
    ensures IsLowerAscii(c) ==> IsUpperAscii(r) && r as int + 32 == c as int
    ensures !IsLowerAscii(c) ==> r == c
  {
    if IsLowerAscii(c) then (c as int - 32) as char else c
  }

  function LowerStr(s: string): (r: string)
    ensures |r| == |s|
    ensures forall i :: 0 <= i < |s| ==> r[i] == Lower(s[i])
  {
    seq(|s|, i requires 0 <= i < |s| => Lower(s[i]))
  }

  function UpperStr(s: string): (r: string)
    ensures |r| == |s|
    ensures forall i :: 0 <= i < |s| ==> r[i] == Upper(s[i])
  {
    seq(|s|, i requires 0 <= i < |s| => Upper(s[i]))
  }

  /** A string without upper-case ASCII letters is its own lower case. */
  lemma LowerStrOfLower(s: string)
    requires forall i :: 0 <= i < |s| ==> !IsUpperAscii(s[i])
    ensures LowerStr(s) == s
  {
  }

  lemma LowerStrIdempotent(s: string)
    ensures LowerStr(LowerStr(s)) == LowerStr(s)
  {
  }

  predicate AllAscii(s: string) {
    forall i :: 0 <= i < |s| ==> s[i] as int < 128
  }

  /** What is known of `normalize('NFKD')` followed by the removal of the
      combining marks U+0300..U+036F: it leaves ASCII text as it is. */
  ghost predicate FoldKeepsAscii(fold: string -> string) {
    forall s :: AllAscii(s) ==> fold(s) == s
  }

  predicate AllWith(s: string, ws: char -> bool) {
    forall i :: 0 <= i < |s| ==> ws(s[i])
  }

  /** Number of leading characters of class `ws`. */
  function LeadCount(s: string, ws: char -> bool): (n: nat)
    ensures n <= |s|
    ensures forall i :: 0 <= i < n ==> ws(s[i])
    ensures n < |s| ==> !ws(s[n])
  {
    if |s| == 0 || !ws(s[0]) then 0 else 1 + LeadCount(s[1..], ws)
  }

  /** Number of trailing characters of class `ws`. */
  function TrailCount(s: string, ws: char -> bool): (n: nat)
    ensures n <= |s|
    ensures forall i :: |s| - n <= i < |s| ==> ws(s[i])
    ensures n < |s| ==> !ws(s[|s| - n - 1])
  {
    if |s| == 0 || !ws(s[|s| - 1]) then 0 else 1 + TrailCount(s[..|s| - 1], ws)
  }

  /** Removes the leading characters of class `ws`. */
  function TrimStartWith(s: string, ws: char -> bool): (r: string)
    ensures |r| <= |s| && r == s[|s| - |r|..]
    ensures AllWith(s[..|s| - |r|], ws)
    ensures r == [] || !ws(r[0])
  {
    s[LeadCount(s, ws)..]
  }

  /** Removes the trailing characters of class `ws`. */
  function TrimEndWith(s: string, ws: char -> bool): (r: string)
    ensures |r| <= |s| && r == s[..|r|]
    ensures AllWith(s[|r|..], ws)
    ensures r == [] || !ws(r[|r| - 1])
  {
    s[..|s| - TrailCount(s, ws)]
  }

  /** The middle slice of `s` left when both ends are stripped of class `ws`. */
  function TrimWith(s: string, ws: char -> bool): (r: string)
    ensures |r| <= |s|
    ensures r == [] || (!ws(r[0]) && !ws(r[|r| - 1]))
    ensures r == [] <==> AllWith(s, ws)
  {
    var L := LeadCount(s, ws);
    var T := TrailCount(s[L..], ws);
    assert L < |s| ==> s[L..][0] == s[L];
    s[L..][..|s| - L - T]
  }

  /** `s` is its trimmed middle with whitespace of class `ws` on both sides. */
  lemma TrimWithSplit(s: string, ws: char -> bool) returns (i: nat)
    ensures i + |TrimWith(s, ws)| <= |s|
    ensures s == s[..i] + TrimWith(s, ws) + s[i + |TrimWith(s, ws)|..]
    ensures AllWith(s[..i], ws) && AllWith(s[i + |TrimWith(s, ws)|..], ws)
  {
    i := LeadCount(s, ws);
    var t := s[i..];
    var T := TrailCount(t, ws);
    var j := |s| - T;
    assert TrimWith(s, ws) == s[i..j] by {
      assert s[i..][..|s| - i - T] == s[i..j];
    }
    SplitAt(s, i, j);
    assert AllWith(s[..i], ws) by {
      LeadAll(s, ws);
    }
    assert AllWith(s[j..], ws) by {
      TrailAll(t, ws);
      assert s[j..] == t[|t| - T..];
    }
  }

  lemma SplitAt(s: string, i: nat, j: nat)
    requires i <= j <= |s|
    ensures s == s[..i] + s[i..j] + s[j..]
  {
  }

  lemma LeadAll(s: string, ws: char -> bool)
    ensures AllWith(s[..LeadCount(s, ws)], ws)
  {
    var p := s[..LeadCount(s, ws)];
    forall k | 0 <= k < |p|
      ensures ws(p[k])
    {
      assert p[k] == s[k];
    }
  }

  lemma TrailAll(t: string, ws: char -> bool)
    ensures AllWith(t[|t| - TrailCount(t, ws)..], ws)
  {
    var n := TrailCount(t, ws);
    var p := t[|t| - n..];
    forall k | 0 <= k < |p|
      ensures ws(p[k])
    {
      assert p[k] == t[|t| - n + k];
    }
  }

  /** JavaScript `String.prototype.trim`. */
  function Trim(s: string): (r: string)
    ensures |r| <= |s|
    ensures r == [] || (!IsSpace(r[0]) && !IsSpace(r[|r| - 1]))
    ensures r == [] <==> AllWith(s, IsSpace)
  {
    TrimWith(s, IsSpace)
  }

  /** Python `str.strip()` with no argument. */
  function PyStrip(s: string): (r: string)
    ensures |r| <= |s|
    ensures r == [] || (!IsPySpace(r[0]) && !IsPySpace(r[|r| - 1]))
    ensures r == [] <==> AllWith(s, IsPySpace)
  {
    TrimWith(s, IsPySpace)
  }

  /** A string already stripped of class `ws` is left unchanged by trimming. */
  lemma TrimWithStripped(s: string, ws: char -> bool)
    requires s == [] || (!ws(s[0]) && !ws(s[|s| - 1]))
    ensures TrimWith(s, ws) == s
  {
  }

  /** A string that does not start in class `ws` is kept by trimming its start. */
  lemma TrimStartKept(s: string, ws: char -> bool)
    requires |s| > 0 && !ws(s[0])
    ensures TrimStartWith(s, ws) == s
  {
  }

  /** Trimming a string that does not start in class `ws` only trims its end, so
      the result is a prefix. */
  lemma TrimSolidStart(s: string, ws: char -> bool)
    requires |s| > 0 && !ws(s[0])
    ensures TrimWith(s, ws) == TrimEndWith(s, ws)
    ensures StartsWith(s, TrimWith(s, ws))
  {
    assert LeadCount(s, ws) == 0;
  }

  /** Putting a string's first character back in front of the rest. */
  lemma ConsRest(a: string, x: string)
    requires |a| > 0
    ensures [a[0]] + (a[1..] + x) == a + x
  {
  }

  /** Characters of `s` outside the whitespace class, in order. */
  function NonSpace(s: string): string {
    if |s| == 0 then "" else (if IsSpace(s[0]) then "" else [s[0]]) + NonSpace(s[1..])
  }

  lemma {:induction false} NonSpaceAppend(a: string, b: string)
    ensures NonSpace(a + b) == NonSpace(a) + NonSpace(b)
  {
    if |a| == 0 {
      assert a + b == b;
    } else {
      var h := if IsSpace(a[0]) then "" else [a[0]];
      assert (a + b)[0] == a[0];
      assert (a + b)[1..] == a[1..] + b;
      NonSpaceAppend(a[1..], b);
      calc {
        NonSpace(a + b);
        h + NonSpace(a[1..] + b);
        h + (NonSpace(a[1..]) + NonSpace(b));
        (h + NonSpace(a[1..])) + NonSpace(b);
        NonSpace(a) + NonSpace(b);
      }
    }
  }

  lemma NonSpaceAllSpace(s: string)
    requires AllWith(s, IsSpace)
    ensures NonSpace(s) == ""
  {
    if |s| > 0 { NonSpaceAllSpace(s[1..]); }
  }

  /** A suffix cut at three points. */
  lemma SliceParts<T>(s: seq<T>, a: nat, b: nat, p: nat, q: nat)
    requires a <= b <= p <= q <= |s|
    ensures s[a..] == s[a..b] + s[b..p] + s[p..q] + s[q..]
  {
  }

  /** Blank pieces add nothing to the non-space characters. */
  lemma NonSpaceParts(a: string, gap: string, cl: string, tl: string)
    requires |NonSpace(gap)| == 0 && |NonSpace(tl)| == 0
    ensures NonSpace(a + gap + cl + tl) == NonSpace(a) + NonSpace(cl)
  {
    NonSpaceAppend(a + gap + cl, tl);
    NonSpaceAppend(a + gap, cl);
    NonSpaceAppend(a, gap);
    DropEmpty(NonSpace(a + gap + cl + tl), NonSpace(a), NonSpace(a + gap), NonSpace(a + gap + cl),
              NonSpace(cl), NonSpace(gap), NonSpace(tl));
  }

  /** Empty pieces drop out of a concatenation. */
  lemma DropEmpty<T>(w: seq<T>, a: seq<T>, ag: seq<T>, agc: seq<T>, cl: seq<T>, gap: seq<T>, tl: seq<T>)
    requires w == agc + tl && agc == ag + cl && ag == a + gap && |gap| == 0 && |tl| == 0
    ensures w == a + cl
  {
    assert tl == [] && gap == [];
  }

  /** The non-space characters of a text split at `k`. */
  lemma NonSpaceSplit(s: string, k: nat)
    requires k <= |s|
    ensures NonSpace(s) == NonSpace(s[..k]) + NonSpace(s[k..])
  {
    assert s == s[..k] + s[k..];
    NonSpaceAppend(s[..k], s[k..]);
  }

  lemma NonSpaceTrim(s: string)
    ensures NonSpace(Trim(s)) == NonSpace(s)
  {
    var r := Trim(s);
    var i := TrimWithSplit(s, IsSpace);
    NonSpaceAppend(s[..i] + r, s[i + |r|..]);
    NonSpaceAppend(s[..i], r);
    NonSpaceAllSpace(s[..i]);
    NonSpaceAllSpace(s[i + |r|..]);
  }

  /** The string with every maximal run of whitespace replaced by one space
      (JavaScript `s.replace(/\s+/g, ' ')`). */
  function CollapseWs(s: string): (r: string)
    ensures |r| == 0 <==> |s| == 0
    ensures |r| > 0 ==> (r[0] == ' ' <==> IsSpace(s[0]))
    ensures Collapsed(r)
    ensures NonSpace(r) == NonSpace(s)
    decreases |s|
  {
    if |s| == 0 then ""
    else if IsSpace(s[0]) then
      var rest := TrimStartWith(s, IsSpace);
      var tail := CollapseWs(rest);
      NonSpaceOfRun(s, rest);
      ConsCollapsed(' ', tail);
      NonSpaceAppend(" ", tail);
      " " + tail
    else
      var tail := CollapseWs(s[1..]);
      ConsCollapsed(s[0], tail);
      NonSpaceAppend([s[0]], tail);
      [s[0]] + tail
  }

  /** Only plain spaces, never two in a row. */
  predicate Collapsed(r: string) {
    (forall i :: 0 <= i < |r| && IsSpace(r[i]) ==> r[i] == ' ')
    && (forall i :: 0 <= i < |r| - 1 ==> !(r[i] == ' ' && r[i + 1] == ' '))
  }

  lemma ConsCollapsed(c: char, t: string)
    requires Collapsed(t)
    requires IsSpace(c) ==> c == ' ' && (|t| == 0 || t[0] != ' ')
    ensures Collapsed([c] + t)
  {
    var r := [c] + t;
    assert forall i :: 1 <= i < |r| ==> r[i] == t[i - 1];
  }

  /** Dropping a leading whitespace run keeps the non-whitespace characters. */
  lemma NonSpaceOfRun(s: string, rest: string)
    requires rest == TrimStartWith(s, IsSpace)
    ensures NonSpace(s) == NonSpace(rest)
  {
    var head := s[..|s| - |rest|];
    assert s == head + rest;
    NonSpaceAppend(head, rest);
    NonSpaceAllSpace(head);
  }

  /** A string in normal form: only plain spaces, never two in a row, none at the ends. */
  predicate Normalized(s: string) {
    (forall i :: 0 <= i < |s| && IsSpace(s[i]) ==> s[i] == ' ')
    && (forall i :: 0 <= i < |s| - 1 ==> !(s[i] == ' ' && s[i + 1] == ' '))
    && (s == [] || (s[0] != ' ' && s[|s| - 1] != ' '))
  }

  /** `s.replace(/\s+/g, ' ').trim()`: collapse whitespace, then trim. */
  function NormalizeWs(s: string): (r: string)
    ensures Normalized(r)
    ensures NonSpace(r) == NonSpace(s)
    ensures r == [] <==> AllWith(s, IsSpace)
    ensures r == Join(SpaceWords(s), " ")
  {
    NormalizeFacts(s);
    NormalizeWords(s);
    Trim(CollapseWs(s))
  }

  lemma NormalizeFacts(s: string)
    ensures var r := Trim(CollapseWs(s));
            Normalized(r) && NonSpace(r) == NonSpace(s) && (r == [] <==> AllWith(s, IsSpace))
  {
    var c := CollapseWs(s);
    TrimCollapsedIsNormalized(c);
    NonSpaceTrim(c);
    NonSpaceEmptyIffAllSpace(s);
    NonSpaceEmptyIffAllSpace(Trim(c));
  }

  lemma TrimCollapsedIsNormalized(c: string)
    requires forall i :: 0 <= i < |c| && IsSpace(c[i]) ==> c[i] == ' '
    requires forall i :: 0 <= i < |c| - 1 ==> !(c[i] == ' ' && c[i + 1] == ' ')
    ensures Normalized(Trim(c))
  {
    var r := Trim(c);
    var i := TrimWithSplit(c, IsSpace);
    assert forall k :: 0 <= k < |r| ==> r[k] == c[i + k];
  }

  lemma NonSpaceEmptyIffAllSpace(s: string)
    ensures NonSpace(s) == "" <==> AllWith(s, IsSpace)
  {
    if AllWith(s, IsSpace) {
      NonSpaceAllSpace(s);
    } else {
      var k :| 0 <= k < |s| && !IsSpace(s[k]);
      NonSpaceHasChar(s, k);
    }
  }

  lemma NonSpaceHasChar(s: string, k: int)
    requires 0 <= k < |s| && !IsSpace(s[k])
    ensures NonSpace(s) != ""
  {
    if k > 0 {
      NonSpaceHasChar(s[1..], k - 1);
      NonSpaceAppend((if IsSpace(s[0]) then "" else [s[0]]), NonSpace(s[1..]));
    }
  }

  /** A character outside the whitespace class is kept by `NonSpace`. */
  lemma {:induction false} NonSpaceContains(s: string, i: int)
    requires 0 <= i < |s| && !IsSpace(s[i])
    ensures s[i] in NonSpace(s)
  {
    if i > 0 {
      NonSpaceContains(s[1..], i - 1);
    }
  }

  /** `NonSpace` only keeps characters of its argument. */
  lemma {:induction false} NonSpaceOnlyFrom(s: string, c: char)
    requires c in NonSpace(s)
    ensures c in s
  {
    if |s| > 0 {
      if c != s[0] {
        NonSpaceOnlyFrom(s[1..], c);
      }
    }
  }

  /** Every non-whitespace character of the normal form comes from the input. */
  lemma NormalizedCharFrom(s: string, i: int)
    requires 0 <= i < |NormalizeWs(s)| && !IsSpace(NormalizeWs(s)[i])
    ensures NormalizeWs(s)[i] in s
  {
    NonSpaceContains(NormalizeWs(s), i);
    NonSpaceOnlyFrom(s, NormalizeWs(s)[i]);
  }

  /** In a normal form of a text made of `keep` characters and whitespace, a
      character outside `keep` can only be the single space. */
  lemma NonSpaceMember(r: string, s: string, i: int, keep: char -> bool)
    requires Normalized(r) && NonSpace(r) == NonSpace(s) && 0 <= i < |r|
    requires forall k :: 0 <= k < |s| ==> keep(s[k]) || IsSpace(s[k])
    requires !keep(r[i])
    ensures r[i] == ' '
  {
    if !IsSpace(r[i]) {
      NonSpaceContains(r, i);
      NonSpaceFrom(s, keep);
      assert false;
    }
  }

  /** Dropping the whitespace of such a text leaves only `keep` characters. */
  lemma {:induction false} NonSpaceFrom(s: string, keep: char -> bool)
    requires forall k :: 0 <= k < |s| ==> keep(s[k]) || IsSpace(s[k])
    ensures forall c :: c in NonSpace(s) ==> keep(c)
  {
    if |s| > 0 {
      NonSpaceFrom(s[1..], keep);
    }
  }

  /** Collapsing leaves a string without whitespace runs unchanged. */
  lemma {:induction false} CollapseFixed(s: string)
    requires forall i :: 0 <= i < |s| && IsSpace(s[i]) ==> s[i] == ' '
    requires forall i :: 0 <= i < |s| - 1 ==> !(s[i] == ' ' && s[i + 1] == ' ')
    ensures CollapseWs(s) == s
    decreases |s|
  {
    if |s| > 0 {
      if IsSpace(s[0]) {
        var rest := TrimStartWith(s, IsSpace);
        if |s| > 1 {
          assert !IsSpace(s[1]);
          assert rest == s[1..];
        } else {
          assert rest == [];
        }
        CollapseFixed(rest);
      } else {
        CollapseFixed(s[1..]);
      }
    }
  }

  /** Normal form is exactly the set of fixed points of `NormalizeWs`. */
  lemma {:induction false} NormalizedIffFixed(s: string)
    ensures Normalized(s) <==> NormalizeWs(s) == s
  {
    if Normalized(s) {
      CollapseFixed(s);
      TrimWithStripped(s, IsSpace);
    }
  }

  /** Normalizing twice is normalizing once. */
  lemma NormalizeIdempotent(s: string)
    ensures NormalizeWs(NormalizeWs(s)) == NormalizeWs(s)
  {
    NormalizedIffFixed(NormalizeWs(s));
  }

  /** Index of the first occurrence of `c`, or -1 (JavaScript `indexOf`). */
  function IndexOfChar(s: string, c: char): (i: int)
    ensures -1 <= i < |s|
    ensures i == -1 <==> c !in s
    ensures i >= 0 ==> s[i] == c && c !in s[..i]
  {
    if |s| == 0 then -1
    else if s[0] == c then 0
    else
      var j := IndexOfChar(s[1..], c);
      assert s[1..] == s[1..];
      if j == -1 then -1 else (assert s[..j + 1] == [s[0]] + s[1..][..j]; j + 1)
  }

  /** Index of the last occurrence of `c`, or -1 (JavaScript `lastIndexOf`). */
  function LastIndexOfChar(s: string, c: char): (i: int)
    ensures -1 <= i < |s|
    ensures i == -1 <==> c !in s
    ensures i >= 0 ==> s[i] == c && c !in s[i + 1..]
  {
    if |s| == 0 then -1
    else if s[|s| - 1] == c then |s| - 1
    else
      var j := LastIndexOfChar(s[..|s| - 1], c);
      LastIndexStep(s, c, j);
      j
  }

  lemma LastIndexStep(s: string, c: char, j: int)
    requires |s| > 0 && s[|s| - 1] != c
    requires -1 <= j < |s| - 1
    requires j == -1 <==> c !in s[..|s| - 1]
    requires j >= 0 ==> s[j] == c && c !in s[..|s| - 1][j + 1..]
    ensures j == -1 <==> c !in s
    ensures j >= 0 ==> c !in s[j + 1..]
  {
    var p := s[..|s| - 1];
    assert s == p + [s[|s| - 1]];
    if j >= 0 {
      assert s[j + 1..] == p[j + 1..] + [s[|s| - 1]];
    }
  }

  lemma AppendAssoc(a: string, b: string, c: string)
    ensures (a + b) + c == a + (b + c)
  {
  }

  /** `parts.join(sep)`. */
  function Join(parts: seq<string>, sep: string): string {
    if |parts| == 0 then ""
    else if |parts| == 1 then parts[0]
    else parts[0] + sep + Join(parts[1..], sep)
  }

  /** JavaScript `s.split(c)` for a one-character separator: always at least one piece,
      no piece contains the separator. */
  function SplitOn(s: string, c: char): (r: seq<string>)
    ensures |r| >= 1
    ensures forall k :: 0 <= k < |r| ==> c !in r[k]
    decreases |s|
  {
    var i := IndexOfChar(s, c);
    if i == -1 then [s] else [s[..i]] + SplitOn(s[i + 1..], c)
  }

  /** Joining the pieces with the separator gives back the string. */
  lemma {:induction false} JoinSplit(s: string, c: char)
    ensures Join(SplitOn(s, c), [c]) == s
    decreases |s|
  {
    var i := IndexOfChar(s, c);
    if i != -1 {
      var rest := s[i + 1..];
      var r := SplitOn(rest, c);
      JoinSplit(rest, c);
      assert SplitOn(s, c) == [s[..i]] + r;
      JoinCons(s[..i], r, [c]);
      SplitAt(s, i, i + 1);
      assert s[i..i + 1] == [c];
    }
  }

  lemma JoinCons(a: string, r: seq<string>, sep: string)
    requires |r| >= 1
    ensures Join([a] + r, sep) == a + sep + Join(r, sep)
  {
    assert ([a] + r)[1..] == r;
  }

  /** Splitting a join of separator-free pieces gives back the pieces. */
  lemma {:induction false} SplitJoin(parts: seq<string>, c: char)
    requires |parts| >= 1
    requires forall k :: 0 <= k < |parts| ==> c !in parts[k]
    ensures SplitOn(Join(parts, [c]), c) == parts
    decreases |parts|
  {
    if |parts| > 1 {
      var rest := Join(parts[1..], [c]);
      AppendAssoc(parts[0], [c], rest);
      SplitAtFree(parts[0], rest, c);
      SplitJoin(parts[1..], c);
      assert parts == [parts[0]] + parts[1..];
    }
  }

  /** Splitting at the first separator when it follows separator-free text. */
  lemma SplitAtFree(a: string, rest: string, c: char)
    requires c !in a
    ensures SplitOn(a + ([c] + rest), c) == [a] + SplitOn(rest, c)
  {
    var s := a + ([c] + rest);
    IndexAfterFree(a, [c] + rest, c);
    assert s[..|a|] == a;
    assert s[|a| + 1..] == rest;
  }

  lemma IndexAfterFree(a: string, b: string, c: char)
    requires c !in a && |b| > 0 && b[0] == c
    ensures IndexOfChar(a + b, c) == |a|
  {
    assert (a + b)[|a|] == c;
  }

  predicate StartsWith(s: string, p: string) {
    |p| <= |s| && s[..|p|] == p
  }

  predicate EndsWith(s: string, p: string) {
    |p| <= |s| && s[|s| - |p|..] == p
  }

  /** `sub` occurs in `s` at index `i`. */
  predicate OccursAt(s: string, sub: string, i: int) {
    0 <= i <= |s| - |sub| && s[i..i + |sub|] == sub
  }

  /** JavaScript `s.includes(sub)` / Python `sub in s`. */
  predicate Contains(s: string, sub: string) {
    exists i | 0 <= i <= |s| - |sub| :: OccursAt(s, sub, i)
  }

  /** Text that contains `sub` contains its first character. */
  lemma ContainsHead(s: string, sub: string)
    requires |sub| > 0 && Contains(s, sub)
    ensures sub[0] in s
  {
    var i :| 0 <= i <= |s| - |sub| && OccursAt(s, sub, i);
    assert s[i..i + |sub|][0] == s[i];
  }

  /** Index of the first occurrence of `sub` in `s` at or after `k`, or -1. */
  function IndexOfFrom(s: string, sub: string, k: nat): (i: int)
    ensures i == -1 || (k <= i && OccursAt(s, sub, i))
    ensures i == -1 ==> forall j :: k <= j <= |s| - |sub| ==> !OccursAt(s, sub, j)
    ensures i >= 0 ==> forall j :: k <= j < i ==> !OccursAt(s, sub, j)
    decreases |s| - k
  {
    if k + |sub| > |s| then -1
    else if OccursAt(s, sub, k) then k
    else IndexOfFrom(s, sub, k + 1)
  }

  /** `s.indexOf(sub)` / Python `s.find(sub)`. */
  function IndexOf(s: string, sub: string): (i: int)
    ensures i == -1 <==> !Contains(s, sub)
    ensures i >= 0 ==> OccursAt(s, sub, i) && forall j :: 0 <= j < i ==> !OccursAt(s, sub, j)
  {
    IndexOfFrom(s, sub, 0)
  }

  /** The first occurrence is where `sub` occurs with no earlier occurrence. */
  lemma IndexOfFirst(s: string, sub: string, i: int)
    requires OccursAt(s, sub, i)
    requires forall j :: 0 <= j < i ==> !OccursAt(s, sub, j)
    ensures IndexOf(s, sub) == i
  {
  }

  /** JavaScript `s.slice(0, n)` for `n >= 0`. */
  function Take(s: string, n: nat): (r: string)
    ensures |r| == if n < |s| then n else |s|
    ensures StartsWith(s, r)
  {
    if n < |s| then s[..n] else s
  }

  /** JavaScript `array.slice(0, n)` for `n >= 0`: the first `n` elements, or
      all of them. */
  function FirstN<T>(s: seq<T>, n: nat): (r: seq<T>)
    ensures |r| == if n < |s| then n else |s|
    ensures r == s[..|r|]
  {
    if n < |s| then s[..n] else s
  }

  /** Joining non-empty pieces puts the first piece's first character first and
      the last piece's last character last. */
  lemma {:induction false} JoinEnds(ps: seq<string>, sep: string)
    requires |ps| > 0 && forall k :: 0 <= k < |ps| ==> ps[k] != ""
    ensures Join(ps, sep) != ""
    ensures Join(ps, sep)[0] == ps[0][0]
    ensures Join(ps, sep)[|Join(ps, sep)| - 1] == ps[|ps| - 1][|ps[|ps| - 1]| - 1]
  {
    if |ps| > 1 {
      JoinEnds(ps[1..], sep);
      var t := Join(ps[1..], sep);
      assert Join(ps, sep) == ps[0] + sep + t;
      assert (ps[0] + sep + t)[|ps[0] + sep + t| - 1] == t[|t| - 1];
    }
  }

  /** Pieces that are each already trimmed and non-empty join into trimmed
      text. */
  lemma JoinTrimmed(ps: seq<string>, sep: string)
    requires forall k :: 0 <= k < |ps| ==> ps[k] != "" && !IsSpace(ps[k][0]) && !IsSpace(ps[k][|ps[k]| - 1])
    ensures Trim(Join(ps, sep)) == Join(ps, sep)
  {
    if |ps| > 0 {
      JoinEnds(ps, sep);
    }
    TrimWithStripped(Join(ps, sep), IsSpace);
  }

  /** Every backslash followed by `c` replaced by `rep`, left to right without
      overlap (`replace(/\\c/g, rep)`). */
  function ReplaceEscape(s: string, c: char, rep: string): (r: string)
    ensures '\\' !in s ==> r == s
  {
    if |s| < 2 then s
    else if s[0] == '\\' && s[1] == c then rep + ReplaceEscape(s[2..], c, rep)
    else [s[0]] + ReplaceEscape(s[1..], c, rep)
  }

  /** `c` repeated `n` times. */
  function Repeat(c: char, n: nat): (r: string)
    ensures |r| == n
    ensures forall i :: 0 <= i < n ==> r[i] == c
  {
    seq(n, _ => c)
  }

  /** The index of the first occurrence of `x` in `s`, or `|s|`. */
  function FirstIndex(s: seq<string>, x: string): (i: nat)
    ensures i <= |s| && (i < |s| <==> x in s)
    ensures i < |s| ==> s[i] == x && forall k :: 0 <= k < i ==> s[k] != x
  {
    if |s| == 0 then 0
    else if s[0] == x then 0
    else 1 + FirstIndex(s[1..], x)
  }

  /** The concatenation of all pieces, in order. */
  function Concat(ss: seq<string>): string {
    if |ss| == 0 then "" else ss[0] + Concat(ss[1..])
  }

  lemma {:induction false} ConcatAppend(a: seq<string>, b: seq<string>)
    ensures Concat(a + b) == Concat(a) + Concat(b)
  {
    if |a| == 0 {
      assert a + b == b;
    } else {
      assert (a + b)[1..] == a[1..] + b;
      ConcatAppend(a[1..], b);
    }
  }

  /** The non-empty pieces, in order (`parts.filter(Boolean)`). */
  function NonEmptyParts(ps: seq<string>): (r: seq<string>)
    ensures |r| <= |ps|
    ensures forall k :: 0 <= k < |r| ==> r[k] != "" && r[k] in ps
  {
    if |ps| == 0 then []
    else if ps[0] == "" then NonEmptyParts(ps[1..])
    else [ps[0]] + NonEmptyParts(ps[1..])
  }

  /** A property of every element and its index survives one more element
      at the end. */
  lemma SnocAll<T>(xs: seq<T>, x: T, P: (nat, T) -> bool)
    requires P(|xs|, x) && forall k :: 0 <= k < |xs| ==> P(k, xs[k])
    ensures forall k :: 0 <= k < |xs + [x]| ==> P(k, (xs + [x])[k])
  {
    forall k | 0 <= k < |xs + [x]|
      ensures P(k, (xs + [x])[k])
    {
      if k < |xs| {
        assert (xs + [x])[k] == xs[k];
      }
    }
  }

  /** A split of `t` into two parts stays a split of `[x] + t` when `x`
      joins either part. */
  lemma ConsMultiset<T>(x: T, a: seq<T>, b: seq<T>, t: seq<T>)
    requires multiset(a) + multiset(b) == multiset(t)
    ensures multiset([x] + a) + multiset(b) == multiset([x] + t)
    ensures multiset(a) + multiset([x] + b) == multiset([x] + t)
  {
    assert multiset([x] + a) == multiset{x} + multiset(a);
    assert multiset([x] + b) == multiset{x} + multiset(b);
    assert multiset([x] + t) == multiset{x} + multiset(t);
  }

  /** Dropping element `i` of the tail, then putting the head back, drops
      element `i + 1` of the whole. */
  lemma ConsDrop<T>(s: seq<T>, i: nat)
    requires i + 1 < |s|
    ensures [s[0]] + (s[1..][..i] + s[1..][i + 1..]) == s[..i + 1] + s[i + 2..]
  {
    assert s[..i + 1] == [s[0]] + s[1..][..i];
    assert s[i + 2..] == s[1..][i + 1..];
  }

  /** A property of every element survives one more element in front. */
  lemma ConsAll<T>(x: T, xs: seq<T>, P: T -> bool)
    requires P(x) && forall k :: 0 <= k < |xs| ==> P(xs[k])
    ensures forall k :: 0 <= k < |[x] + xs| ==> P(([x] + xs)[k])
  {
    forall k | 0 <= k < |[x] + xs|
      ensures P(([x] + xs)[k])
    {
      if k > 0 {
        assert ([x] + xs)[k] == xs[k - 1];
      }
    }
  }

  /** Trimmed non-empty texts stay so with one more such text in front. */
  lemma TrimmedCons(x: string, xs: seq<string>)
    requires x != "" && !IsSpace(x[0]) && !IsSpace(x[|x| - 1])
    requires forall k :: 0 <= k < |xs| ==> xs[k] != "" && Trim(xs[k]) == xs[k]
    ensures forall k :: 0 <= k < |[x] + xs| ==> ([x] + xs)[k] != "" && Trim(([x] + xs)[k]) == ([x] + xs)[k]
  {
    TrimWithStripped(x, IsSpace);
    ConsAll(x, xs, s => s != "" && Trim(s) == s);
  }

  lemma NonEmptyPartsCons(x: string, rest: seq<string>)
    ensures NonEmptyParts([x] + rest) == if x == "" then NonEmptyParts(rest) else [x] + NonEmptyParts(rest)
  {
    assert ([x] + rest)[0] == x && ([x] + rest)[1..] == rest;
  }

  /** Pieces that are all non-empty are kept as they are. */
  lemma {:induction false} NonEmptyPartsAll(ps: seq<string>)
    requires forall k :: 0 <= k < |ps| ==> ps[k] != ""
    ensures NonEmptyParts(ps) == ps
  {
    if |ps| > 0 {
      NonEmptyPartsAll(ps[1..]);
      assert ps == [ps[0]] + ps[1..];
    }
  }

  /** Leading whitespace counts through a whitespace prefix. */
  lemma {:induction false} LeadCountAfter(a: string, y: string, ws: char -> bool)
    requires AllWith(a, ws)
    ensures LeadCount(a + y, ws) == |a| + LeadCount(y, ws)
    decreases |a|
  {
    if |a| > 0 {
      assert (a + y)[1..] == a[1..] + y;
      LeadCountAfter(a[1..], y, ws);
    } else {
      assert a + y == y;
    }
  }

  /** Trailing whitespace counts through a whitespace suffix. */
  lemma {:induction false} TrailCountBefore(y: string, b: string, ws: char -> bool)
    requires AllWith(b, ws)
    ensures TrailCount(y + b, ws) == |b| + TrailCount(y, ws)
    decreases |b|
  {
    if |b| > 0 {
      assert (y + b)[..|y + b| - 1] == y + b[..|b| - 1];
      TrailCountBefore(y, b[..|b| - 1], ws);
    } else {
      assert y + b == y;
    }
  }

  /** Trimming removes exactly the whitespace padding around a solid string. */
  lemma TrimPadded(a: string, x: string, b: string)
    requires AllWith(a, IsSpace) && AllWith(b, IsSpace)
    requires x != [] && !IsSpace(x[0]) && !IsSpace(x[|x| - 1])
    ensures Trim(a + x + b) == x
  {
    var s := a + x + b;
    assert s == a + (x + b);
    LeadCountAfter(a, x + b, IsSpace);
    assert LeadCount(x + b, IsSpace) == 0;
    assert s[|a|..] == x + b;
    TrailCountBefore(x, b, IsSpace);
    assert TrailCount(x, IsSpace) == 0;
  }

  // ------------------------------------------------------------ words

  predicate IsSolid(c: char) { !IsSpace(c) }

  /** Every piece is a non-empty run of non-whitespace characters. */
  predicate SolidWords(ws: seq<string>) {
    forall k :: 0 <= k < |ws| ==> ws[k] != [] && AllWith(ws[k], IsSolid)
  }

  /** A string made of whole runs is counted to its end. */
  lemma LeadCountAll(a: string, ws: char -> bool)
    requires AllWith(a, ws)
    ensures LeadCount(a, ws) == |a|
  {
    LeadCountAfter(a, "", ws);
    assert a + "" == a;
  }

  /** The word read so far, as a list of at most one word. */
  function Flush(cur: string): (r: seq<string>)
    ensures |r| <= 1
  {
    if cur == [] then [] else [cur]
  }

  /** Reads `s` left to right: `cur` is the word being read, a whitespace
      character ends it, and empty words are dropped. */
  function SpaceWordsFrom(s: string, cur: string): seq<string>
    decreases |s|
  {
    if |s| == 0 then Flush(cur)
    else if IsSpace(s[0]) then Flush(cur) + SpaceWordsFrom(s[1..], "")
    else SpaceWordsFrom(s[1..], cur + [s[0]])
  }

  /** `s.trim().split(/\s+/).filter(Boolean)`: the runs of non-whitespace
      characters of `s`, in order; `SpaceWordsFacts` states what they are. */
  function SpaceWords(s: string): seq<string> {
    SpaceWordsFrom(s, "")
  }

  lemma {:induction false} SpaceWordsFromFacts(s: string, cur: string)
    requires AllWith(cur, IsSolid)
    ensures SolidWords(SpaceWordsFrom(s, cur))
    ensures Concat(SpaceWordsFrom(s, cur)) == cur + NonSpace(s)
    ensures |SpaceWordsFrom(s, cur)| == 0 <==> cur == [] && AllWith(s, IsSpace)
    decreases |s|
  {
    if |s| == 0 {
      assert cur + NonSpace(s) == cur;
    } else if IsSpace(s[0]) {
      SpaceWordsFromFacts(s[1..], "");
      var w := SpaceWordsFrom(s[1..], "");
      ConcatAppend(Flush(cur), w);
      assert Concat(Flush(cur)) == cur by {
        if cur != [] { assert Flush(cur)[1..] == []; }
      }
      assert AllWith(s, IsSpace) <==> AllWith(s[1..], IsSpace) by {
        assert forall k :: 1 <= k < |s| ==> s[k] == s[1..][k - 1];
      }
    } else {
      var c := cur + [s[0]];
      SpaceWordsFromFacts(s[1..], c);
      AppendAssoc(cur, [s[0]], NonSpace(s[1..]));
    }
  }

  /** The words are non-empty and free of whitespace, together they hold
      exactly the non-whitespace characters of `s`, and there are none only
      for an all-whitespace string. */
  lemma SpaceWordsFacts(s: string)
    ensures SolidWords(SpaceWords(s))
    ensures Concat(SpaceWords(s)) == NonSpace(s)
    ensures |SpaceWords(s)| == 0 <==> AllWith(s, IsSpace)
  {
    SpaceWordsFromFacts(s, "");
    assert "" + NonSpace(s) == NonSpace(s);
  }

  /** A run of word characters goes into the word being read. */
  lemma {:induction false} ReadWord(w: string, x: string, cur: string)
    requires AllWith(w, IsSolid)
    ensures SpaceWordsFrom(w + x, cur) == SpaceWordsFrom(x, cur + w)
    decreases |w|
  {
    if |w| == 0 {
      assert w + x == x && cur + w == cur;
    } else {
      assert (w + x)[1..] == w[1..] + x;
      ReadWord(w[1..], x, cur + [w[0]]);
      assert cur + [w[0]] + w[1..] == cur + w;
    }
  }

  /** Words joined by single spaces, read after a partial word `cur`: the
      first word is glued to `cur`, the others come back unchanged. */
  lemma {:induction false} JoinFrom(ws: seq<string>, cur: string)
    requires |ws| > 0 && SolidWords(ws)
    ensures SpaceWordsFrom(Join(ws, " "), cur) == [cur + ws[0]] + ws[1..]
    decreases |ws|
  {
    ReadWord(ws[0], if |ws| == 1 then "" else " " + Join(ws[1..], " "), cur);
    if |ws| == 1 {
      assert ws[0] + "" == ws[0];
      assert ws[1..] == [];
    } else {
      var j := Join(ws[1..], " ");
      assert Join(ws, " ") == ws[0] + (" " + j);
      assert (" " + j)[1..] == j;
      JoinFrom(ws[1..], "");
      assert "" + ws[1..][0] == ws[1];
      assert [ws[1]] + ws[1..][1..] == ws[1..];
    }
  }

  /** Joining words with single spaces and splitting them again gives the
      words back. */
  lemma SpaceWordsJoin(ws: seq<string>)
    requires SolidWords(ws)
    ensures SpaceWords(Join(ws, " ")) == ws
  {
    if |ws| > 0 {
      JoinFrom(ws, "");
      assert "" + ws[0] == ws[0];
    }
  }

  // ------------------------------------------------------------ words of the normal form

  /** A non-empty whitespace run ends the word being read. */
  lemma {:induction false} SpaceWordsDropLead(a: string, x: string, cur: string)
    requires |a| > 0 && AllWith(a, IsSpace)
    ensures SpaceWordsFrom(a + x, cur) == Flush(cur) + SpaceWordsFrom(x, "")
    decreases |a|
  {
    assert (a + x)[1..] == a[1..] + x;
    if |a| == 1 {
      assert a[1..] + x == x;
    } else {
      SpaceWordsDropLead(a[1..], x, "");
    }
  }

  /** Trailing whitespace does not change the words. */
  lemma {:induction false} SpaceWordsDropTrail(x: string, z: string, cur: string)
    requires AllWith(z, IsSpace)
    ensures SpaceWordsFrom(x + z, cur) == SpaceWordsFrom(x, cur)
    decreases |x|
  {
    if |x| == 0 {
      assert x + z == z;
      if |z| > 0 {
        SpaceWordsDropLead(z, "", cur);
        assert z + "" == z;
      }
    } else {
      assert (x + z)[0] == x[0] && (x + z)[1..] == x[1..] + z;
      SpaceWordsDropTrail(x[1..], z, if IsSpace(x[0]) then "" else cur + [x[0]]);
    }
  }

  /** Collapsing whitespace runs keeps the words. */
  lemma {:induction false} SpaceWordsCollapse(s: string, cur: string)
    ensures SpaceWordsFrom(CollapseWs(s), cur) == SpaceWordsFrom(s, cur)
    decreases |s|, 1
  {
    if |s| > 0 {
      if IsSpace(s[0]) {
        SpaceWordsCollapseRun(s, cur);
      } else {
        SpaceWordsCollapseChar(s, cur);
      }
    }
  }

  /** A leading whitespace run becomes one space and ends the current word. */
  lemma {:induction false} SpaceWordsCollapseRun(s: string, cur: string)
    requires |s| > 0 && IsSpace(s[0])
    ensures SpaceWordsFrom(CollapseWs(s), cur) == SpaceWordsFrom(s, cur)
    decreases |s|, 0
  {
    var rest := TrimStartWith(s, IsSpace);
    var a := s[..|s| - |rest|];
    assert |a| > 0 by {
      assert LeadCount(s, IsSpace) > 0;
    }
    assert CollapseWs(s) == " " + CollapseWs(rest);
    assert AllWith(" ", IsSpace) by {
      assert " "[0] == ' ';
    }
    SpaceWordsDropLead(" ", CollapseWs(rest), cur);
    SpaceWordsCollapse(rest, "");
    assert s == a + rest;
    SpaceWordsDropLead(a, rest, cur);
  }

  /** A leading word character is kept and joins the current word. */
  lemma {:induction false} SpaceWordsCollapseChar(s: string, cur: string)
    requires |s| > 0 && !IsSpace(s[0])
    ensures SpaceWordsFrom(CollapseWs(s), cur) == SpaceWordsFrom(s, cur)
    decreases |s|, 0
  {
    assert CollapseWs(s) == [s[0]] + CollapseWs(s[1..]);
    assert ([s[0]] + CollapseWs(s[1..]))[1..] == CollapseWs(s[1..]);
    SpaceWordsCollapse(s[1..], cur + [s[0]]);
  }

  /** Trimming keeps the words. */
  lemma SpaceWordsTrim(c: string)
    ensures SpaceWords(Trim(c)) == SpaceWords(c)
  {
    var r := Trim(c);
    var i := TrimWithSplit(c, IsSpace);
    var a, z := c[..i], c[i + |r|..];
    assert c == a + (r + z);
    if |a| > 0 {
      SpaceWordsDropLead(a, r + z, "");
    }
    SpaceWordsDropTrail(r, z, "");
  }

  /** Single plain spaces, never two in a row, none at the end. */
  predicate SpacedOut(x: string) {
    (forall i :: 0 <= i < |x| && IsSpace(x[i]) ==> x[i] == ' ')
    && (forall i :: 0 <= i < |x| - 1 ==> !(x[i] == ' ' && x[i + 1] == ' '))
    && (x == [] || x[|x| - 1] != ' ')
  }

  lemma SpacedOutTail(x: string)
    requires |x| > 0 && SpacedOut(x)
    ensures SpacedOut(x[1..])
    ensures x[0] == ' ' ==> |x| > 1 && x[1] != ' '
  {
    var t := x[1..];
    assert forall i :: 0 <= i < |t| ==> t[i] == x[i + 1];
  }

  /** Text in that form, starting with a space only while a word is being
      read, is read back as it was written. */
  lemma {:induction false} ReadNormalized(x: string, cur: string)
    requires SpacedOut(x)
    requires |x| > 0 && x[0] == ' ' ==> cur != []
    requires AllWith(cur, IsSolid)
    ensures Join(SpaceWordsFrom(x, cur), " ") == cur + x
    decreases |x|
  {
    if |x| == 0 {
      assert cur + x == cur;
    } else {
      var t := x[1..];
      SpacedOutTail(x);
      if IsSpace(x[0]) {
        ReadNormalized(t, "");
        ReadAfterSpace(x, cur, SpaceWordsFrom(t, ""));
      } else {
        ReadNormalized(t, cur + [x[0]]);
        assert cur + [x[0]] + t == cur + x;
      }
    }
  }

  lemma ReadAfterSpace(x: string, cur: string, w: seq<string>)
    requires |x| > 1 && x[0] == ' ' && cur != []
    requires Join(w, " ") == "" + x[1..]
    requires x[1] != ' '
    ensures Join([cur] + w, " ") == cur + x
  {
    assert |Join(w, " ")| > 0;
    JoinCons(cur, w, " ");
    assert cur + x == cur + " " + x[1..];
  }

  /** A string in normal form is its words joined by single spaces. */
  lemma NormalizedIsJoin(x: string)
    requires Normalized(x)
    ensures x == Join(SpaceWords(x), " ")
  {
    assert SpacedOut(x);
    ReadNormalized(x, "");
    assert "" + x == x;
  }

  /** The normal form is the words of the input joined by single spaces. */
  lemma NormalizeWords(s: string)
    ensures Trim(CollapseWs(s)) == Join(SpaceWords(s), " ")
  {
    var c := CollapseWs(s);
    NormalizeFacts(s);
    SpaceWordsCollapse(s, "");
    SpaceWordsTrim(c);
    NormalizedIsJoin(Trim(c));
  }
}

=== FILE: subtitles.dfy ===
/** Subtitles for a spoken line: the words are cut into segments that fit the
    subtitle bar, each word gets a share of the speaking time by its length,
    and the word to highlight is found from the elapsed fraction of the time. */
module Subtitles {
  import opened Wrappers
  import opened Strs
  import opened Json

  const DEFAULT_MAX_SEGMENT_CHARS: int := 36

  // ------------------------------------------------------------ segments

  /** `String(text || '').split(/\s+/).filter(Boolean)`. */
  function Words(text: Option<Json>, numberText: real -> string): (ws: seq<string>)
    ensures SolidWords(ws)
    ensures Concat(ws) == NonSpace(OrEmptyText(text, numberText))
    ensures Join(ws, " ") == NormalizeWs(OrEmptyText(text, numberText))
  {
    SpaceWordsFacts(OrEmptyText(text, numberText));
    SpaceWords(OrEmptyText(text, numberText))
  }

  /** The words of the segments, in order. */
  function Flatten(segments: seq<seq<string>>): seq<string> {
    if |segments| == 0 then [] else segments[0] + Flatten(segments[1..])
  }

  lemma {:induction false} FlattenSnoc(segments: seq<seq<string>>, last: seq<string>)
    ensures Flatten(segments + [last]) == Flatten(segments) + last
  {
    if |segments| == 0 {
      assert segments + [last] == [last];
      assert Flatten([last]) == last + Flatten([]);
    } else {
      assert (segments + [last])[1..] == segments[1..] + [last];
      FlattenSnoc(segments[1..], last);
    }
  }

  lemma {:induction false} JoinSnoc(ws: seq<string>, w: string)
    ensures Join(ws + [w], " ") == if ws == [] then w else Join(ws, " ") + " " + w
  {
    if |ws| == 0 {
      assert ws + [w] == [w];
    } else if |ws| == 1 {
      assert ws + [w] == [ws[0], w];
      assert [ws[0], w][1..] == [w];
    } else {
      assert (ws + [w])[1..] == ws[1..] + [w];
      JoinSnoc(ws[1..], w);
    }
  }

  /** A segment fits when its space-joined text is at most `max` characters
      long or it is a single word. */
  predicate Fits(segment: seq<string>, max: int) {
    |segment| == 1 || |Join(segment, " ")| <= max
  }

  /** A segment is closed only when the next word would not have fit on it. */
  predicate Greedy(segment: seq<string>, next: string, max: int) {
    |Join(segment, " ")| + 1 + |next| > max
  }

  predicate WellSegmented(segments: seq<seq<string>>, max: int) {
    && (forall k :: 0 <= k < |segments| ==> segments[k] != [] && Fits(segments[k], max))
    && (forall k :: 0 <= k < |segments| - 1 ==> Greedy(segments[k], segments[k + 1][0], max))
  }

  /** The loop state of `segmentText` after the first `i` words: the closed
      segments and the open one give back those words, the open one's length
      is tracked in `len`, and everything closed is well cut. */
  predicate SegState(words: seq<string>, i: nat, segments: seq<seq<string>>, current: seq<string>,
                     len: int, max: int)
    requires i <= |words|
  {
    && Flatten(segments) + current == words[..i]
    && len == |Join(current, " ")|
    && (current == [] <==> i == 0)
    && (current != [] ==> len > 0 && Fits(current, max))
    && (segments != [] ==> current != [])
    && WellSegmented(segments, max)
    && (segments != [] ==> Greedy(segments[|segments| - 1], current[0], max))
  }

  lemma CloseSegment(words: seq<string>, i: nat, segments: seq<seq<string>>, current: seq<string>,
                     len: int, max: int)
    requires i < |words| && words[i] != [] && SegState(words, i, segments, current, len, max)
    requires current != [] && len + 1 + |words[i]| > max
    ensures SegState(words, i + 1, segments + [current], [words[i]], |words[i]|, max)
  {
    FlattenSnoc(segments, current);
    assert words[..i + 1] == words[..i] + [words[i]];
    JoinSnoc(current, words[i]);
    var s' := segments + [current];
    assert s'[|s'| - 1] == current;
    forall k | 0 <= k < |s'| - 1
      ensures Greedy(s'[k], s'[k + 1][0], max)
    {
      if k < |segments| - 1 {
        assert s'[k] == segments[k] && s'[k + 1] == segments[k + 1];
      } else {
        assert s'[k + 1] == current;
      }
    }
  }

  lemma ExtendSegment(words: seq<string>, i: nat, segments: seq<seq<string>>, current: seq<string>,
                      len: int, max: int)
    requires i < |words| && words[i] != [] && SegState(words, i, segments, current, len, max)
    requires !(current != [] && len + 1 + |words[i]| > max)
    ensures var added := if len == 0 then |words[i]| else len + 1 + |words[i]|;
            SegState(words, i + 1, segments, current + [words[i]], added, max)
  {
    assert words[..i + 1] == words[..i] + [words[i]];
    JoinSnoc(current, words[i]);
    if segments != [] {
      assert (current + [words[i]])[0] == current[0];
    }
  }

  /** `segmentText(text, maxSegmentChars)`: the words in order, cut greedily
      into non-empty segments that fit, a segment closed only when its next
      word would overflow it. */
  method SegmentText(text: Option<Json>, maxSegmentChars: int, numberText: real -> string)
    returns (segments: seq<seq<string>>)
    ensures Flatten(segments) == Words(text, numberText)
    ensures WellSegmented(segments, maxSegmentChars)
    ensures segments == [] <==> Words(text, numberText) == []
  {
    segments := SegmentWords(Words(text, numberText), maxSegmentChars);
  }

  /** The greedy cut of non-empty words into segments. */
  method SegmentWords(words: seq<string>, maxSegmentChars: int) returns (segments: seq<seq<string>>)
    requires forall k :: 0 <= k < |words| ==> words[k] != []
    ensures Flatten(segments) == words
    ensures WellSegmented(segments, maxSegmentChars)
    ensures segments == [] <==> words == []
  {
    segments := [];
    var current: seq<string> := [];
    var len := 0;
    for i := 0 to |words|
      invariant SegState(words, i, segments, current, len, maxSegmentChars)
    {
      var word := words[i];
      assert word != [];
      var added := if len == 0 then |word| else len + 1 + |word|;
      if added > maxSegmentChars && |current| > 0 {
        CloseSegment(words, i, segments, current, len, maxSegmentChars);
        segments := segments + [current];
        current := [word];
        len := |word|;
      } else {
        ExtendSegment(words, i, segments, current, len, maxSegmentChars);
        current := current + [word];
        len := added;
      }
    }
    assert words[..|words|] == words;
    if |current| > 0 {
      CloseLast(words, segments, current, len, maxSegmentChars);
      segments := segments + [current];
    }
  }

  lemma CloseLast(words: seq<string>, segments: seq<seq<string>>, current: seq<string>, len: int, max: int)
    requires SegState(words, |words|, segments, current, len, max) && current != []
    ensures Flatten(segments + [current]) == words
    ensures WellSegmented(segments + [current], max)
  {
    FlattenSnoc(segments, current);
    assert words[..|words|] == words;
    var s' := segments + [current];
    forall k | 0 <= k < |s'| - 1
      ensures Greedy(s'[k], s'[k + 1][0], max)
    {
      if k < |segments| - 1 {
        assert s'[k] == segments[k] && s'[k + 1] == segments[k + 1];
      } else {
        assert s'[k + 1] == current;
      }
    }
  }

  // ------------------------------------------------------------ timing

  /** `Math.max(w.length, 2)`: short words still take some time. */
  function Weight(w: string): (r: nat)
    ensures r >= 2 && r >= |w|
  {
    if |w| >= 2 then |w| else 2
  }

  /** `weights.reduce((sum, w) => sum + w, 0)`. */
  function TotalWeight(ws: seq<string>): (r: nat)
    ensures r >= 2 * |ws|
  {
    if |ws| == 0 then 0 else TotalWeight(ws[..|ws| - 1]) + Weight(ws[|ws| - 1])
  }

  /** The `cumWeight` table: entry `i` is the weight of the first `i` words. */
  method CumWeights(words: seq<string>) returns (cum: seq<int>)
    ensures |cum| == |words| + 1
    ensures forall i :: 0 <= i <= |words| ==> cum[i] == TotalWeight(words[..i])
    ensures forall i :: 0 <= i < |words| ==> cum[i] < cum[i + 1]
  {
    cum := [0];
    for i := 0 to |words|
      invariant |cum| == i + 1
      invariant forall j :: 0 <= j <= i ==> cum[j] == TotalWeight(words[..j])
      invariant forall j :: 0 <= j < i ==> cum[j] < cum[j + 1]
    {
      assert words[..i + 1][..i] == words[..i];
      cum := cum + [cum[i] + Weight(words[i])];
    }
  }

  predicate Ascending(cum: seq<int>) {
    forall i, j :: 0 <= i <= j < |cum| ==> cum[i] <= cum[j]
  }

  /** The reference answer: the last of the first `n` words whose start weight
      is at most `target`, or the first word. */
  function LastAtMost(cum: seq<int>, n: nat, target: real): (r: nat)
    requires n <= |cum|
    ensures n >= 1 ==> r < n
    ensures n == 0 ==> r == 0
  {
    if n <= 1 then 0
    else if cum[n - 1] as real <= target then n - 1
    else LastAtMost(cum, n - 1, target)
  }

  /** What the search finds: below it every later start is past the target. */
  predicate IsLastAtMost(cum: seq<int>, n: nat, target: real, r: int)
    requires n <= |cum|
  {
    && 0 <= r < n
    && (r == 0 || cum[r] as real <= target)
    && forall i :: r < i < n ==> cum[i] as real > target
  }

  lemma {:induction false} LastAtMostUnique(cum: seq<int>, n: nat, target: real, r: int)
    requires n <= |cum| && IsLastAtMost(cum, n, target, r)
    ensures r == LastAtMost(cum, n, target)
    decreases n
  {
    if n > 1 && r < n - 1 {
      LastAtMostUnique(cum, n - 1, target, r);
    }
  }

  /** `timeToWordIndex(t)` for `target = t * totalWeight`: a binary search
      for the last word that has started by the target. */
  method TimeToWordIndex(cum: seq<int>, n: nat, target: real) returns (lo: int)
    requires |cum| == n + 1 && Ascending(cum)
    ensures n == 0 ==> lo == 0
    ensures n >= 1 ==> IsLastAtMost(cum, n, target, lo) && lo == LastAtMost(cum, n, target)
  {
    lo := 0;
    var hi := n - 1;
    while lo < hi
      invariant 0 <= lo && (n >= 1 ==> lo <= hi < n) && (n == 0 ==> lo == 0 && hi == -1)
      invariant lo == 0 || cum[lo] as real <= target
      invariant forall i :: hi < i < n ==> cum[i] as real > target
      decreases hi - lo
    {
      var mid := (lo + hi + 1) / 2;
      if cum[mid] as real <= target {
        lo := mid;
      } else {
        hi := mid - 1;
      }
    }
    if n >= 1 {
      LastAtMostUnique(cum, n, target, lo);
    }
  }

  /** Prefix sums of positive weights ascend. */
  lemma {:induction false} StepsAscending(cum: seq<int>)
    requires forall i :: 0 <= i < |cum| - 1 ==> cum[i] < cum[i + 1]
    ensures Ascending(cum)
  {
    forall i, j | 0 <= i <= j < |cum|
      ensures cum[i] <= cum[j]
    {
      AscendingFrom(cum, i, j);
    }
  }

  lemma {:induction false} AscendingFrom(cum: seq<int>, i: nat, j: nat)
    requires forall k :: 0 <= k < |cum| - 1 ==> cum[k] < cum[k + 1]
    requires i <= j < |cum|
    ensures cum[i] <= cum[j]
    decreases j - i
  {
    if i < j {
      AscendingFrom(cum, i, j - 1);
    }
  }

  /** The weight reached at a fraction of the line. */
  function Target(fraction: real, totalWeight: nat): real {
    fraction * totalWeight as real
  }

  /** The word highlighted at fraction `t` of the line: the last word whose
      preceding words weigh at most `t` of the whole line. */
  method WordIndexAt(words: seq<string>, t: real) returns (r: int)
    requires |words| >= 1
    ensures 0 <= r < |words|
    ensures r == 0 || TotalWeight(words[..r]) as real <= Target(t, TotalWeight(words))
    ensures forall i :: r < i < |words| ==> TotalWeight(words[..i]) as real > Target(t, TotalWeight(words))
  {
    var cum := CumWeights(words);
    StepsAscending(cum);
    assert words[..|words|] == words;
    var total := cum[|words|];
    assert total == TotalWeight(words);
    var target := Target(t, total);
    r := TimeToWordIndex(cum, |words|, target);
    assert cum[r] == TotalWeight(words[..r]);
    forall i | r < i < |words|
      ensures TotalWeight(words[..i]) as real > target
    {
      assert cum[i] == TotalWeight(words[..i]);
    }
  }

  /** A later target never picks an earlier word. */
  lemma {:induction false} LastAtMostMonotone(cum: seq<int>, n: nat, t1: real, t2: real)
    requires n <= |cum| && t1 <= t2
    ensures LastAtMost(cum, n, t1) <= LastAtMost(cum, n, t2)
    decreases n
  {
    if n > 1 && !(cum[n - 1] as real <= t2) {
      LastAtMostMonotone(cum, n - 1, t1, t2);
    }
  }

  /** `(typeof source === 'number' && source > 0) ? source : totalWords * 0.35`:
      the line's duration in seconds. */
  function SubtitleDuration(source: Option<Json>, totalWords: nat): (d: real)
    ensures source.Some? && source.value.JNum? && source.value.n > 0.0 ==> d == source.value.n
    ensures !(source.Some? && source.value.JNum? && source.value.n > 0.0) ==> d == 0.35 * totalWords as real
    ensures totalWords > 0 ==> d > 0.0
  {
    if source.Some? && source.value.JNum? && source.value.n > 0.0 then source.value.n
    else totalWords as real * 0.35
  }

  /** The highlighting runs for 85% of the duration, in milliseconds. */
  function HighlightSpanMs(duration: real): real {
    duration * 0.85 * 1000.0
  }

  /** The elapsed fraction, capped at 0.99. */
  function Fraction(elapsed: real, spanMs: real): real
    requires spanMs > 0.0
  {
    var f := elapsed / spanMs;
    if f <= 0.99 then f else 0.99
  }

  lemma FractionMonotone(e1: real, e2: real, spanMs: real)
    requires spanMs > 0.0 && e1 <= e2
    ensures Fraction(e1, spanMs) <= Fraction(e2, spanMs)
  {
    assert e2 / spanMs - e1 / spanMs == (e2 - e1) / spanMs;
  }

  /** One timer tick, `elapsed` ms after the start: `None` once the span is
      over (the subtitles stop), else the word to highlight. */
  function HighlightAt(elapsed: real, spanMs: real, cum: seq<int>, n: nat, totalWeight: nat): (r: Option<nat>)
    requires spanMs > 0.0 && n <= |cum|
    ensures elapsed >= spanMs <==> r.None?
    ensures r.Some? ==> r.value == LastAtMost(cum, n, Target(Fraction(elapsed, spanMs), totalWeight))
  {
    if elapsed >= spanMs then None
    else
      var idx := LastAtMost(cum, n, Target(Fraction(elapsed, spanMs), totalWeight));
      Some(if n >= 1 && idx > n - 1 then n - 1 else idx)
  }

  lemma TargetMonotone(f1: real, f2: real, totalWeight: nat)
    requires f1 <= f2
    ensures Target(f1, totalWeight) <= Target(f2, totalWeight)
  {
    var w := totalWeight as real;
    assert f2 * w - f1 * w == (f2 - f1) * w;
  }

  /** While the subtitles run, the highlighted word never moves backwards. */
  lemma HighlightMonotone(e1: real, e2: real, spanMs: real, cum: seq<int>, n: nat, totalWeight: nat)
    requires spanMs > 0.0 && n <= |cum| && e1 <= e2 < spanMs
    ensures HighlightAt(e1, spanMs, cum, n, totalWeight).value <= HighlightAt(e2, spanMs, cum, n, totalWeight).value
  {
    FractionMonotone(e1, e2, spanMs);
    TargetMonotone(Fraction(e1, spanMs), Fraction(e2, spanMs), totalWeight);
    LastAtMostMonotone(cum, n, Target(Fraction(e1, spanMs), totalWeight), Target(Fraction(e2, spanMs), totalWeight));
  }
}

=== FILE: svg_shapes.dfy ===
/** The pure parts of the SVG face-shape normaliser: reading a viewBox and an
    inline style, normalising paint, tracing a rectangle as a path, decoding a
    colour, resampling a polyline to a fixed number of points, and filling in
    the face profiles that failed to load.

    `Number.parseFloat` is a parameter `parseFloat` that answers `Some(v)`
    exactly when the JavaScript call yields a finite number `v`, and `None`
    for `NaN` and the infinities; number-to-text is a parameter
    `numberText`. An absent attribute reads as the empty text, which is what
    every caller here turns a missing attribute into. */
module SvgShapes {
  import opened Wrappers
  import opened Strs
  import opened PyConv

  // ------------------------------------------------------------ viewBox

  datatype ViewBox = ViewBox(x: real, y: real, width: real, height: real)

  /** The viewBox every shape is scaled into. */
  const CANONICAL_VIEWBOX: ViewBox := ViewBox(0.0, 0.0, 55.44, 33.34)

  /** The separators of a viewBox list: JavaScript whitespace and commas. */
  predicate ViewBoxSep(c: char) {
    IsSpace(c) || c == ','
  }

  predicate NotSep(c: char) {
    !ViewBoxSep(c)
  }

  /** A piece holding no separator. */
  predicate Unbroken(w: string) {
    AllWith(w, NotSep)
  }

  /** `s.split(/[\s,]+/)`: the text between maximal runs of separators, with
      an empty first (last) piece when `s` starts (ends) with a run. */
  function SplitRuns(s: string): (r: seq<string>)
    ensures |r| >= 1
    ensures forall k :: 0 <= k < |r| ==> Unbroken(r[k])
    decreases |s|
  {
    var i := LeadCount(s, NotSep);
    if i == |s| then [s]
    else
      var n := LeadCount(s[i + 1..], ViewBoxSep);
      [s[..i]] + SplitRuns(s[i + 1 + n..])
  }

  /** The fields of a viewBox attribute. */
  function ViewBoxFields(attr: string): seq<string> {
    SplitRuns(Trim(attr))
  }

  /** The four fields read, in order, as the four numbers of `v`. */
  predicate FieldsRead(fields: seq<string>, parseFloat: string -> Option<real>, v: ViewBox) {
    |fields| == 4
    && parseFloat(fields[0]) == Some(v.x) && parseFloat(fields[1]) == Some(v.y)
    && parseFloat(fields[2]) == Some(v.width) && parseFloat(fields[3]) == Some(v.height)
  }

  /** `parseViewBox`: the attribute's four numbers, or the canonical viewBox
      when it is blank, does not hold exactly four fields, or holds a field
      that is not a finite number. */
  function ParseViewBox(attr: string, parseFloat: string -> Option<real>): (r: ViewBox)
    ensures AllWith(attr, IsSpace) ==> r == CANONICAL_VIEWBOX
    ensures |ViewBoxFields(attr)| != 4 ==> r == CANONICAL_VIEWBOX
    ensures (exists k :: 0 <= k < |ViewBoxFields(attr)| && parseFloat(ViewBoxFields(attr)[k]).None?) ==>
              r == CANONICAL_VIEWBOX
    ensures r == CANONICAL_VIEWBOX || FieldsRead(ViewBoxFields(attr), parseFloat, r)
  {
    var raw := Trim(attr);
    if raw == "" then CANONICAL_VIEWBOX
    else
      var fields := SplitRuns(raw);
      if |fields| != 4 || exists k :: 0 <= k < 4 && parseFloat(fields[k]).None? then CANONICAL_VIEWBOX
      else ViewBox(parseFloat(fields[0]).value, parseFloat(fields[1]).value,
                   parseFloat(fields[2]).value, parseFloat(fields[3]).value)
  }

  /** A separator-free piece is split into itself. */
  lemma SplitRunsWhole(a: string)
    requires Unbroken(a)
    ensures SplitRuns(a) == [a]
  {
    LeadCountAll(a, NotSep);
  }

  /** A separator-free piece, one separator and a piece that starts with no
      separator split at that separator. */
  lemma SplitRunsStep(a: string, c: char, rest: string)
    requires Unbroken(a) && ViewBoxSep(c)
    requires |rest| > 0 && !ViewBoxSep(rest[0])
    ensures SplitRuns(a + ([c] + rest)) == [a] + SplitRuns(rest)
  {
    var s := a + ([c] + rest);
    LeadCountAfter(a, [c] + rest, NotSep);
    assert LeadCount([c] + rest, NotSep) == 0;
    assert s[..|a|] == a;
    assert s[|a| + 1..] == rest;
    assert LeadCount(rest, ViewBoxSep) == 0;
  }

  /** Four number texts written out with single spaces are read back as the
      four numbers. */
  lemma ViewBoxRoundTrip(t0: string, t1: string, t2: string, t3: string, v: ViewBox,
                         parseFloat: string -> Option<real>)
    requires t0 != [] && t1 != [] && t2 != [] && t3 != []
    requires Unbroken(t0) && Unbroken(t1) && Unbroken(t2) && Unbroken(t3)
    requires parseFloat(t0) == Some(v.x) && parseFloat(t1) == Some(v.y)
    requires parseFloat(t2) == Some(v.width) && parseFloat(t3) == Some(v.height)
    ensures ParseViewBox(t0 + " " + t1 + " " + t2 + " " + t3, parseFloat) == v
  {
    var s := t0 + " " + t1 + " " + t2 + " " + t3;
    SpacedFields(t0, t1, t2, t3);
    var fields := ViewBoxFields(s);
    assert fields == [t0, t1, t2, t3];
    assert forall k :: 0 <= k < 4 ==> parseFloat(fields[k]).Some?;
  }

  /** The fields of four separator-free texts written out with single spaces. */
  lemma SpacedFields(t0: string, t1: string, t2: string, t3: string)
    requires t0 != [] && t1 != [] && t2 != [] && t3 != []
    requires Unbroken(t0) && Unbroken(t1) && Unbroken(t2) && Unbroken(t3)
    ensures ViewBoxFields(t0 + " " + t1 + " " + t2 + " " + t3) == [t0, t1, t2, t3]
  {
    var mid := t1 + ([' '] + (t2 + ([' '] + t3)));
    var s := t0 + ([' '] + mid);
    Spaced(t0, t1, t2, t3);
    SpacedTrimmed(t0, mid, t3);
    TailFields(t1, t2, t3);
    SplitRunsStep(t0, ' ', mid);
    ConsFields(ViewBoxFields(s), SplitRuns(s), t0, SplitRuns(mid), [t1, t2, t3]);
  }

  /** The spaced text, associated to the right. */
  lemma Spaced(t0: string, t1: string, t2: string, t3: string)
    ensures t0 + " " + t1 + " " + t2 + " " + t3 == t0 + ([' '] + (t1 + ([' '] + (t2 + ([' '] + t3)))))
  {
  }

  /** Text that starts and ends with separator-free pieces is already trimmed. */
  lemma SpacedTrimmed(t0: string, mid: string, t3: string)
    requires t0 != [] && t3 != [] && Unbroken(t0) && Unbroken(t3)
    requires |mid| >= |t3| && mid[|mid| - |t3|..] == t3
    ensures Trim(t0 + ([' '] + mid)) == t0 + ([' '] + mid)
  {
    var s := t0 + ([' '] + mid);
    assert NotSep(t0[0]) && NotSep(t3[|t3| - 1]);
    assert s[0] == t0[0];
    assert s[|s| - 1] == mid[|mid| - 1] == t3[|t3| - 1];
    TrimWithStripped(s, IsSpace);
  }

  lemma TailFields(t1: string, t2: string, t3: string)
    requires t1 != [] && t2 != [] && t3 != []
    requires Unbroken(t1) && Unbroken(t2) && Unbroken(t3)
    ensures SplitRuns(t1 + ([' '] + (t2 + ([' '] + t3)))) == [t1, t2, t3]
  {
    SplitRunsWhole(t3);
    SplitRunsStep(t2, ' ', t3);
    SplitRunsStep(t1, ' ', t2 + ([' '] + t3));
  }

  lemma ConsFields(f: seq<string>, x: seq<string>, a: string, y: seq<string>, z: seq<string>)
    requires f == x && x == [a] + y && y == z && |z| == 3
    ensures f == [a, z[0], z[1], z[2]]
  {
  }



  // ------------------------------------------------------------ inline style

  /** A style declaration as read: a lower-case key and a value without
      surrounding whitespace, neither holding a colon. */
  predicate Declaration(key: string, value: string) {
    ':' !in key && (forall i :: 0 <= i < |key| ==> !IsUpperAscii(key[i])) && ':' !in value
    && (value == [] || (!IsSpace(value[0]) && !IsSpace(value[|value| - 1])))
  }

  /** One `key:value` chunk of a style attribute: only the text before a
      second colon is kept, and a chunk with an empty key or value text is
      skipped. The key is trimmed and lower-cased, the value trimmed. */
  function StyleEntry(chunk: string): (r: Option<(string, string)>)
    ensures r.Some? ==> Declaration(r.value.0, r.value.1)
  {
    EntryOf(SplitOn(chunk, ':'))
  }

  /** The entry the colon-separated pieces of a chunk give. */
  function EntryOf(parts: seq<string>): (r: Option<(string, string)>)
    requires forall k :: 0 <= k < |parts| ==> ':' !in parts[k]
    ensures r.Some? ==> Declaration(r.value.0, r.value.1)
    ensures r.Some? <==> |parts| >= 2 && parts[0] != "" && parts[1] != ""
    ensures r.Some? ==> r.value == (LowerStr(Trim(parts[0])), Trim(parts[1]))
  {
    if |parts| < 2 || parts[0] == "" || parts[1] == "" then None
    else
      TrimInside(parts[0], ':');
      TrimInside(parts[1], ':');
      Some((LowerStr(Trim(parts[0])), Trim(parts[1])))
  }

  /** A character missing from a string is missing from its trimmed middle. */
  lemma TrimInside(s: string, c: char)
    requires c !in s
    ensures c !in Trim(s)
    ensures !IsLowerAscii(c) ==> c !in LowerStr(Trim(s))
  {
    var i := TrimWithSplit(s, IsSpace);
    var t := Trim(s);
    forall k | 0 <= k < |t|
      ensures t[k] != c
    {
      assert t[k] == s[i + k];
    }
  }

  /** The entry names `key`. */
  predicate Names(e: Option<(string, string)>, key: string) {
    e.Some? && e.value.0 == key
  }

  /** Entries stored into a map left to right: a later entry for a key
      replaces an earlier one, and a skipped chunk stores nothing. */
  function Assign(entries: seq<Option<(string, string)>>): (r: map<string, string>)
    ensures forall key :: key in r <==> exists k :: 0 <= k < |entries| && Names(entries[k], key)
    ensures forall key :: key in r ==> exists k :: 0 <= k < |entries| && entries[k] == Some((key, r[key]))
  {
    if |entries| == 0 then map[]
    else
      var init := entries[..|entries| - 1];
      assert forall k :: 0 <= k < |init| ==> init[k] == entries[k];
      var m := Assign(init);
      match entries[|entries| - 1]
      case None => m
      case Some(kv) => m[kv.0 := kv.1]
  }

  /** A key holds the value of the last entry that names it. */
  lemma {:induction false} AssignLastWins(entries: seq<Option<(string, string)>>, k: int, key: string, v: string)
    requires 0 <= k < |entries| && entries[k] == Some((key, v))
    requires forall j :: k < j < |entries| ==> !Names(entries[j], key)
    ensures key in Assign(entries) && Assign(entries)[key] == v
    decreases |entries|
  {
    if k < |entries| - 1 {
      var init := entries[..|entries| - 1];
      assert init[k] == entries[k];
      assert forall j :: k < j < |init| ==> init[j] == entries[j];
      AssignLastWins(init, k, key, v);
      assert !Names(entries[|entries| - 1], key);
    }
  }

  /** The semicolon-separated chunks of a style attribute. */
  function StyleChunks(text: string): seq<string> {
    SplitOn(Trim(text), ';')
  }

  function StyleEntries(chunks: seq<string>): (r: seq<Option<(string, string)>>)
    ensures |r| == |chunks|
    ensures forall k :: 0 <= k < |r| ==> r[k] == StyleEntry(chunks[k])
  {
    seq(|chunks|, k requires 0 <= k < |chunks| => StyleEntry(chunks[k]))
  }

  /** `parseInlineStyle`: the declarations of a style attribute, split at
      semicolons; a key declared twice keeps its last value. */
  function ParseInlineStyle(text: string): (r: map<string, string>)
    ensures AllWith(text, IsSpace) ==> r == map[]
    ensures forall key :: key in r ==> Declaration(key, r[key]) && ';' !in r[key]
    ensures forall key :: key in r <==> Declared(StyleChunks(text), key)
  {
    var raw := Trim(text);
    if raw == "" then
      NoStyle(text);
      map[]
    else
      AssignedFree(SplitOn(raw, ';'));
      StyleKeys(SplitOn(raw, ';'));
      Assign(StyleEntries(SplitOn(raw, ';')))
  }

  /** Blank style text is one empty chunk, which declares nothing. */
  lemma NoStyle(text: string)
    requires Trim(text) == ""
    ensures forall key :: !Declared(StyleChunks(text), key)
  {
    assert SplitOn("", ':') == [""];
    assert StyleEntry("") == None;
    assert StyleChunks(text) == [""];
  }

  /** Some chunk declares `key`. */
  predicate Declared(chunks: seq<string>, key: string) {
    exists k :: 0 <= k < |chunks| && Names(StyleEntry(chunks[k]), key)
  }

  /** The keys stored are those some chunk declares. */
  lemma StyleKeys(chunks: seq<string>)
    ensures forall key :: key in Assign(StyleEntries(chunks)) <==> Declared(chunks, key)
  {
    var entries := StyleEntries(chunks);
    forall key
      ensures key in Assign(entries) <==> Declared(chunks, key)
    {
      if key in Assign(entries) {
        var k :| 0 <= k < |entries| && Names(entries[k], key);
        assert Names(StyleEntry(chunks[k]), key);
      }
      if exists k :: 0 <= k < |chunks| && Names(StyleEntry(chunks[k]), key) {
        var k :| 0 <= k < |chunks| && Names(StyleEntry(chunks[k]), key);
        assert Names(entries[k], key);
      }
    }
  }

  /** Values read from semicolon-free chunks are semicolon-free. */
  lemma AssignedFree(chunks: seq<string>)
    requires forall k :: 0 <= k < |chunks| ==> ';' !in chunks[k]
    ensures forall key :: key in Assign(StyleEntries(chunks)) ==>
              Declaration(key, Assign(StyleEntries(chunks))[key]) && ';' !in Assign(StyleEntries(chunks))[key]
  {
    var entries := StyleEntries(chunks);
    var m := Assign(entries);
    forall key | key in m
      ensures Declaration(key, m[key]) && ';' !in m[key]
    {
      var k :| 0 <= k < |entries| && entries[k] == Some((key, m[key]));
      EntryFree(chunks[k]);
    }
  }

  /** A value read from a semicolon-free chunk is semicolon-free. */
  lemma EntryFree(chunk: string)
    requires ';' !in chunk
    ensures StyleEntry(chunk).Some? ==> ';' !in StyleEntry(chunk).value.1
  {
    var parts := SplitOn(chunk, ':');
    if |parts| >= 2 && parts[0] != "" && parts[1] != "" {
      PieceInside(chunk, ':', ';');
      TrimInside(parts[1], ';');
    }
  }

  /** A character missing from a string is missing from its first two pieces. */
  lemma PieceInside(s: string, sep: char, c: char)
    requires c !in s
    ensures |SplitOn(s, sep)| >= 2 ==> c !in SplitOn(s, sep)[0] && c !in SplitOn(s, sep)[1]
  {
    var i := IndexOfChar(s, sep);
    if i != -1 {
      var rest := s[i + 1..];
      SliceMissing(s, 0, i, c);
      SliceMissing(s, i + 1, |s|, c);
      assert s[..i] == s[0..i] && rest == s[i + 1..|s|];
      var j := IndexOfChar(rest, sep);
      if j != -1 {
        SliceMissing(rest, 0, j, c);
        assert rest[..j] == rest[0..j];
      }
    }
  }

  /** A character missing from a string is missing from every slice of it. */
  lemma SliceMissing(s: string, a: int, b: int, c: char)
    requires 0 <= a <= b <= |s| && c !in s
    ensures c !in s[a..b]
  {
  }

  /** The value of a key is the one the last chunk declaring it gives. */
  lemma StyleLastWins(text: string, k: int, key: string, v: string)
    requires 0 <= k < |StyleChunks(text)| && StyleEntry(StyleChunks(text)[k]) == Some((key, v))
    requires forall j :: k < j < |StyleChunks(text)| ==> !Names(StyleEntry(StyleChunks(text)[j]), key)
    ensures key in ParseInlineStyle(text) && ParseInlineStyle(text)[key] == v
  {
    var chunks := StyleChunks(text);
    AssignLastWins(StyleEntries(chunks), k, key, v);
  }

  /** Text after a second colon in a chunk is dropped. */
  lemma SecondColonDropped(k: string, v: string, w: string)
    requires ':' !in k && ':' !in v
    ensures StyleEntry(k + ":" + v + ":" + w) == StyleEntry(k + ":" + v)
  {
    SplitThree(k, v, w);
    SplitTwo(k, v);
  }

  lemma SplitThree(k: string, v: string, w: string)
    requires ':' !in k && ':' !in v
    ensures var ps := SplitOn(k + ":" + v + ":" + w, ':'); |ps| >= 2 && ps[0] == k && ps[1] == v
  {
    assert k + ":" + v + ":" + w == k + ([':'] + (v + ([':'] + w)));
    SplitAtFree(k, v + ([':'] + w), ':');
    SplitAtFree(v, w, ':');
  }

  lemma SplitTwo(k: string, v: string)
    requires ':' !in k && ':' !in v
    ensures SplitOn(k + ":" + v, ':') == [k, v]
  {
    assert k + ":" + v == k + ([':'] + v);
    SplitAtFree(k, v, ':');
    assert SplitOn(v, ':') == [v];
  }

  /** An element's attributes. */
  type Attrs = map<string, string>

  /** `getAttribute(name)`, with a missing attribute read as empty text. */
  function Attr(el: Attrs, name: string): string {
    if name in el then el[name] else ""
  }

  /** A non-empty value is kept; an empty one gives way to `dflt`, as `||`
      does for text. */
  function OrText(value: string, dflt: string): (r: string)
    ensures r == [] <==> value == [] && dflt == []
  {
    if value == "" then dflt else value
  }

  /** A non-empty value of property `cssName` in the inline style `style`. */
  function StyleProperty(style: string, cssName: string): (r: Option<string>)
    ensures r.Some? <==> cssName in ParseInlineStyle(style) && ParseInlineStyle(style)[cssName] != ""
    ensures r.Some? ==> r.value == ParseInlineStyle(style)[cssName]
    ensures r.Some? ==> r.value != [] && !IsSpace(r.value[0]) && !IsSpace(r.value[|r.value| - 1])
  {
    var styles := ParseInlineStyle(style);
    if cssName in styles && styles[cssName] != "" then Some(styles[cssName]) else None
  }

  /** `readStyleOrAttr`: the trimmed attribute when it is not blank, else a
      non-empty value of the inline style's property, else nothing (`None`:
      the caller's fallback applies). */
  function ReadStyleOrAttr(el: Attrs, attrName: string, cssName: string): (r: Option<string>)
    ensures !AllWith(Attr(el, attrName), IsSpace) ==> r == Some(Trim(Attr(el, attrName)))
    ensures AllWith(Attr(el, attrName), IsSpace) ==> r == StyleProperty(Attr(el, "style"), cssName)
    ensures r.Some? ==> r.value != [] && !IsSpace(r.value[0]) && !IsSpace(r.value[|r.value| - 1])
  {
    var attr := Trim(Attr(el, attrName));
    if attr != "" then Some(attr)
    else StyleProperty(Attr(el, "style"), cssName)
  }

  /** `readStyleOrAttr` with a text fallback. */
  function ReadOr(el: Attrs, attrName: string, cssName: string, fallback: string): string {
    match ReadStyleOrAttr(el, attrName, cssName)
    case Some(v) => v
    case None => fallback
  }

  // ------------------------------------------------------------ paint

  /** `normalizeColor`: the trimmed, lower-cased value; "none" for "none" and
      "transparent"; the fallback for blank text. */
  function NormalizeColor(value: string, fallback: string): (r: string)
    ensures AllWith(value, IsSpace) ==> r == fallback
    ensures !AllWith(value, IsSpace) ==> r != [] && r == LowerStr(r) && !IsSpace(r[0]) && !IsSpace(r[|r| - 1])
    ensures !AllWith(value, IsSpace) && r != "none" ==> r == LowerStr(Trim(value))
    ensures LowerStr(Trim(value)) == "transparent" ==> r == "none"
  {
    var raw := LowerStr(Trim(value));
    LowerTrimmed(value);
    if raw == "" then fallback
    else if raw == "none" || raw == "transparent" then "none"
    else raw
  }

  /** Trimmed and lower-cased text is empty only for blank text, keeps no
      space at either end and is its own lower case. */
  lemma LowerTrimmed(value: string)
    ensures var raw := LowerStr(Trim(value));
            (raw == [] <==> AllWith(value, IsSpace))
            && (raw == [] || (!IsSpace(raw[0]) && !IsSpace(raw[|raw| - 1])))
            && LowerStr(raw) == raw
  {
    LowerStrIdempotent(Trim(value));
  }

  /** Normalising a colour that is not blank a second time changes nothing,
      whatever the fallback. */
  lemma NormalizeColorIdempotent(value: string, fallback: string, other: string)
    requires !AllWith(value, IsSpace)
    ensures NormalizeColor(NormalizeColor(value, fallback), other) == NormalizeColor(value, fallback)
  {
    var r := NormalizeColor(value, fallback);
    TrimWithStripped(r, IsSpace);
    LowerStrOfLower(r);
  }

  /** `x` clamped into [0, 1]. */
  function Clamp01(x: real): (r: real)
    ensures 0.0 <= r <= 1.0
    ensures 0.0 <= x <= 1.0 ==> r == x
    ensures x < 0.0 ==> r == 0.0
    ensures x > 1.0 ==> r == 1.0
  {
    if x < 0.0 then 0.0 else if x > 1.0 then 1.0 else x
  }

  /** `normalizeOpacity`: the number clamped into [0, 1], or the fallback
      when the text is not a finite number. */
  function NormalizeOpacity(value: string, fallback: real, parseFloat: string -> Option<real>): (r: real)
    ensures parseFloat(value).None? ==> r == fallback
    ensures parseFloat(value).Some? ==> 0.0 <= r <= 1.0
    ensures parseFloat(value).Some? && 0.0 <= parseFloat(value).value <= 1.0 ==> r == parseFloat(value).value
  {
    match parseFloat(value)
    case None => fallback
    case Some(v) => Clamp01(v)
  }

  /** A larger opacity never normalises to a smaller one. */
  lemma NormalizeOpacityMonotone(a: string, b: string, fallback: real, parseFloat: string -> Option<real>)
    requires parseFloat(a).Some? && parseFloat(b).Some? && parseFloat(a).value <= parseFloat(b).value
    ensures NormalizeOpacity(a, fallback, parseFloat) <= NormalizeOpacity(b, fallback, parseFloat)
  {
  }

  /** `toNum`: the text's number, or the fallback when it is not finite. */
  function ToNum(raw: string, fallback: real, parseFloat: string -> Option<real>): real {
    match parseFloat(raw)
    case Some(v) => v
    case None => fallback
  }

  function Max0(x: real): real {
    if x >= 0.0 then x else 0.0
  }

  /** The defaults a caller hands to `parsePaint`; an empty text or a zero
      stands for a missing default, since `||` skips both. */
  datatype PaintDefaults = PaintDefaults(fill: string, stroke: string, strokeWidth: real,
                                         linecap: string, linejoin: string, opacity: real)

  datatype Paint = Paint(fill: string, stroke: string, strokeWidth: real,
                         linecap: string, linejoin: string, opacity: real)

  /** A number default as `||` reads it: zero gives way to `dflt`. */
  function OrNum(value: real, dflt: real): real {
    if value == 0.0 then dflt else value
  }

  /** A colour property: the attribute or inline style normalised, with
      `dflt` for a missing or blank value. */
  function PaintColor(el: Attrs, name: string, dflt: string): (r: string)
    ensures !AllWith(Attr(el, name), IsSpace) ==> r == NormalizeColor(Attr(el, name), dflt)
  {
    NormalizeTrimmed(Attr(el, name));
    NormalizeColor(ReadOr(el, name, name, dflt), dflt)
  }

  /** The stroke width as read, before a visible stroke is widened. */
  function ReadStrokeWidth(el: Attrs, d: PaintDefaults, parseFloat: string -> Option<real>): real {
    match ReadStyleOrAttr(el, "stroke-width", "stroke-width")
    case Some(t) => ToNum(t, OrNum(d.strokeWidth, 0.0), parseFloat)
    case None => OrNum(d.strokeWidth, 0.0)
  }

  /** The stroke width: as read, except that a visible stroke without a
      positive width is drawn 4 wide. */
  function StrokeWidth(el: Attrs, d: PaintDefaults, stroke: string, parseFloat: string -> Option<real>): (r: real)
    ensures stroke != "none" ==> r > 0.0
    ensures stroke == "none" || ReadStrokeWidth(el, d, parseFloat) > 0.0 ==> r == ReadStrokeWidth(el, d, parseFloat)
  {
    var width := ReadStrokeWidth(el, d, parseFloat);
    if stroke != "none" && width <= 0.0 then 4.0 else width
  }

  /** The opacity: a value that is read is clamped into [0, 1], and an
      unreadable one falls back to the default; with nothing to read the
      default is clamped. */
  function PaintOpacity(el: Attrs, d: PaintDefaults, parseFloat: string -> Option<real>): (r: real)
    ensures 0.0 <= r <= 1.0 || (r == OrNum(d.opacity, 1.0) && ReadStyleOrAttr(el, "opacity", "opacity").Some?)
    ensures ReadStyleOrAttr(el, "opacity", "opacity").None? ==> r == Clamp01(OrNum(d.opacity, 1.0))
  {
    var opacityDefault := OrNum(d.opacity, 1.0);
    match ReadStyleOrAttr(el, "opacity", "opacity")
    case Some(t) => NormalizeOpacity(t, opacityDefault, parseFloat)
    case None => Clamp01(opacityDefault)
  }

  /** A line cap or join: the value read, else the default, else "round". */
  function LineStyle(el: Attrs, name: string, dflt: string): (r: string)
    ensures r != ""
    ensures ReadStyleOrAttr(el, name, name).Some? ==> r == ReadStyleOrAttr(el, name, name).value
  {
    OrText(Trim(ReadOr(el, name, name, OrText(dflt, "round"))), "round")
  }

  /** `parsePaint`: fill and stroke colours, stroke width, line cap and join
      and opacity, each read from the attribute or the inline style, else
      from the defaults. A visible stroke without a positive width is drawn
      4 wide. */
  function ParsePaint(el: Attrs, d: PaintDefaults, parseFloat: string -> Option<real>): (r: Paint)
    ensures r.stroke != "none" ==> r.strokeWidth > 0.0
    ensures r.stroke == "none" ==> r.strokeWidth == ReadStrokeWidth(el, d, parseFloat)
    ensures 0.0 <= r.opacity <= 1.0 || (r.opacity == OrNum(d.opacity, 1.0) && ReadStyleOrAttr(el, "opacity", "opacity").Some?)
    ensures r.linecap != "" && r.linejoin != ""
    ensures !AllWith(Attr(el, "fill"), IsSpace) ==> r.fill == NormalizeColor(Attr(el, "fill"), OrText(d.fill, "none"))
    ensures !AllWith(Attr(el, "stroke"), IsSpace) ==> r.stroke == NormalizeColor(Attr(el, "stroke"), OrText(d.stroke, "none"))
  {
    var stroke := PaintColor(el, "stroke", OrText(d.stroke, "none"));
    Paint(PaintColor(el, "fill", OrText(d.fill, "none")), stroke, StrokeWidth(el, d, stroke, parseFloat),
          LineStyle(el, "stroke-linecap", d.linecap), LineStyle(el, "stroke-linejoin", d.linejoin),
          PaintOpacity(el, d, parseFloat))
  }

  /** Normalising the trimmed text is normalising the text. */
  lemma NormalizeTrimmed(value: string)
    ensures forall f :: NormalizeColor(Trim(value), f) == NormalizeColor(value, f)
  {
    if Trim(value) != [] {
      TrimWithStripped(Trim(value), IsSpace);
    }
  }

  // ------------------------------------------------------------ rectangles

  datatype Point = Point(x: real, y: real)

  /** An SVG path command. Every arc here has rotation 0, the small-arc flag
      and the clockwise sweep flag (`0 0 1`). */
  datatype Cmd =
    | MoveTo(x: real, y: real)
    | HorizTo(x: real)
    | VertTo(y: real)
    | ArcTo(rx: real, ry: real, x: real, y: real)
    | Close

  function Min(a: real, b: real): real {
    if a <= b then a else b
  }

  /** The outline `pathFromRect` draws for the numbers it read: nothing for
      a rectangle without area, four sides when neither corner radius is
      positive, else four sides joined by quarter arcs whose radii are
      capped at half the side lengths. Negative sizes and radii count as 0. */
  function RectCommands(x: real, y: real, width: real, height: real, rx: real, ry: real): (r: seq<Cmd>)
    ensures r == [] <==> width <= 0.0 || height <= 0.0
    ensures r != [] ==> r[0].MoveTo? && r[|r| - 1].Close? && (|r| == 5 || |r| == 10)
    ensures forall k :: 0 <= k < |r| && r[k].ArcTo? ==>
              0.0 <= r[k].rx <= width / 2.0 && 0.0 <= r[k].ry <= height / 2.0
              && r[k].rx <= Max0(rx) && r[k].ry <= Max0(ry)
    ensures forall k :: 0 <= k < |r| && r[k].ArcTo? ==> r[k].rx == Max0(rx) || r[k].rx == width / 2.0
    ensures forall k :: 0 <= k < |r| && r[k].ArcTo? ==> r[k].ry == Max0(ry) || r[k].ry == height / 2.0
    ensures |r| == 5 <==> width > 0.0 && height > 0.0 && Max0(rx) == 0.0 && Max0(ry) == 0.0
  {
    var w := Max0(width);
    var h := Max0(height);
    if w <= 0.0 || h <= 0.0 then []
    else
      var rX := Min(Max0(rx), w / 2.0);
      var rY := Min(Max0(ry), h / 2.0);
      if rX <= 0.0 && rY <= 0.0 then [MoveTo(x, y), HorizTo(x + w), VertTo(y + h), HorizTo(x), Close]
      else
        [MoveTo(x + rX, y), HorizTo(x + w - rX), ArcTo(rX, rY, x + w, y + rY), VertTo(y + h - rY),
         ArcTo(rX, rY, x + w - rX, y + h), HorizTo(x + rX), ArcTo(rX, rY, x, y + h - rY),
         VertTo(y + rY), ArcTo(rX, rY, x + rX, y), Close]
  }

  /** Where the pen is after drawing `c` from `p`. */
  function Step(p: Point, c: Cmd): Point {
    match c
    case MoveTo(x, y) => Point(x, y)
    case HorizTo(x) => Point(x, p.y)
    case VertTo(y) => Point(p.x, y)
    case ArcTo(_, _, x, y) => Point(x, y)
    case Close => p
  }

  /** Where the pen is after the commands up to and including `cmds[k]`. */
  function Pen(cmds: seq<Cmd>, p: Point, k: nat): Point
    requires k < |cmds|
  {
    if k == 0 then Step(p, cmds[0]) else Step(Pen(cmds, p, k - 1), cmds[k])
  }

  predicate InBox(q: Point, x: real, y: real, w: real, h: real) {
    x <= q.x <= x + w && y <= q.y <= y + h
  }

  /** The outline stays inside its rectangle, and the segment `Z` draws runs
      straight up the left side to the start: the outline is closed. */
  lemma RectOutline(x: real, y: real, width: real, height: real, rx: real, ry: real, p: Point)
    requires width > 0.0 && height > 0.0
    ensures var cmds := RectCommands(x, y, width, height, rx, ry);
            |cmds| >= 2 && (forall k :: 0 <= k < |cmds| ==> InBox(Pen(cmds, p, k), x, y, width, height))
            && Pen(cmds, p, |cmds| - 2).x == Pen(cmds, p, 0).x
            && Pen(cmds, p, |cmds| - 1) == Pen(cmds, p, |cmds| - 2)
  {
    var cmds := RectCommands(x, y, width, height, rx, ry);
    if |cmds| == 5 {
      SharpOutline(cmds, x, y, width, height, p);
    } else {
      var rX := Min(Max0(rx), width / 2.0);
      var rY := Min(Max0(ry), height / 2.0);
      RoundOutline(cmds, x, y, width, height, rX, rY, p);
    }
  }

  lemma SharpOutline(cmds: seq<Cmd>, x: real, y: real, w: real, h: real, p: Point)
    requires w > 0.0 && h > 0.0
    requires cmds == [MoveTo(x, y), HorizTo(x + w), VertTo(y + h), HorizTo(x), Close]
    ensures forall k :: 0 <= k < |cmds| ==> InBox(Pen(cmds, p, k), x, y, w, h)
    ensures Pen(cmds, p, 3).x == Pen(cmds, p, 0).x && Pen(cmds, p, 4) == Pen(cmds, p, 3)
  {
    assert Pen(cmds, p, 0) == Point(x, y);
    assert Pen(cmds, p, 1) == Point(x + w, y);
    assert Pen(cmds, p, 2) == Point(x + w, y + h);
    assert Pen(cmds, p, 3) == Point(x, y + h);
    assert Pen(cmds, p, 4) == Point(x, y + h);
  }

  lemma RoundOutline(cmds: seq<Cmd>, x: real, y: real, w: real, h: real, rX: real, rY: real, p: Point)
    requires w > 0.0 && h > 0.0 && 0.0 <= rX <= w / 2.0 && 0.0 <= rY <= h / 2.0
    requires cmds == [MoveTo(x + rX, y), HorizTo(x + w - rX), ArcTo(rX, rY, x + w, y + rY), VertTo(y + h - rY),
                      ArcTo(rX, rY, x + w - rX, y + h), HorizTo(x + rX), ArcTo(rX, rY, x, y + h - rY),
                      VertTo(y + rY), ArcTo(rX, rY, x + rX, y), Close]
    ensures forall k :: 0 <= k < |cmds| ==> InBox(Pen(cmds, p, k), x, y, w, h)
    ensures Pen(cmds, p, 8) == Pen(cmds, p, 0) && Pen(cmds, p, 9) == Pen(cmds, p, 8)
  {
    assert Pen(cmds, p, 0) == Point(x + rX, y);
    assert Pen(cmds, p, 1) == Point(x + w - rX, y);
    assert Pen(cmds, p, 2) == Point(x + w, y + rY);
    assert Pen(cmds, p, 3) == Point(x + w, y + h - rY);
    assert Pen(cmds, p, 4) == Point(x + w - rX, y + h);
    assert Pen(cmds, p, 5) == Point(x + rX, y + h);
    assert Pen(cmds, p, 6) == Point(x, y + h - rY);
    assert Pen(cmds, p, 7) == Point(x, y + rY);
    assert Pen(cmds, p, 8) == Point(x + rX, y);
    assert Pen(cmds, p, 9) == Point(x + rX, y);
  }

  /** The text of one command, numbers written by `numberText`. */
  function CmdText(c: Cmd, numberText: real -> string): (r: string)
    ensures r != []
  {
    match c
    case MoveTo(x, y) => "M " + numberText(x) + " " + numberText(y)
    case HorizTo(x) => "H " + numberText(x)
    case VertTo(y) => "V " + numberText(y)
    case ArcTo(rx, ry, x, y) =>
      "A " + numberText(rx) + " " + numberText(ry) + " 0 0 1 " + numberText(x) + " " + numberText(y)
    case Close => "Z"
  }

  /** Path data: the commands' texts joined by single spaces. */
  function Render(cmds: seq<Cmd>, numberText: real -> string): (r: string)
    ensures r == [] <==> cmds == []
  {
    var texts := seq(|cmds|, k requires 0 <= k < |cmds| => CmdText(cmds[k], numberText));
    JoinKeepsFirst(texts, " ");
    Join(texts, " ")
  }

  /** A join is at least as long as its first piece. */
  lemma JoinKeepsFirst(parts: seq<string>, sep: string)
    ensures |parts| > 0 ==> |Join(parts, sep)| >= |parts[0]|
  {
  }

  /** `pathFromRect`: path data for a `<rect>`; empty when the rectangle has
      no area. A missing or empty `ry` takes the value of `rx`. */
  function PathFromRect(el: Attrs, numberText: real -> string, parseFloat: string -> Option<real>): (r: string)
    ensures r == "" <==> ToNum(Attr(el, "width"), 0.0, parseFloat) <= 0.0 || ToNum(Attr(el, "height"), 0.0, parseFloat) <= 0.0
  {
    Render(RectCommands(ToNum(Attr(el, "x"), 0.0, parseFloat), ToNum(Attr(el, "y"), 0.0, parseFloat),
                        ToNum(Attr(el, "width"), 0.0, parseFloat), ToNum(Attr(el, "height"), 0.0, parseFloat),
                        ToNum(Attr(el, "rx"), 0.0, parseFloat),
                        ToNum(OrText(Attr(el, "ry"), Attr(el, "rx")), 0.0, parseFloat)),
           numberText)
  }

  // ------------------------------------------------------------ colours

  datatype Rgb = Rgb(r: real, g: real, b: real)

  predicate IsHexDigit(c: char) {
    '0' <= c <= '9' || 'a' <= c <= 'f' || 'A' <= c <= 'F'
  }

  predicate AllHex(s: string) {
    forall i :: 0 <= i < |s| ==> IsHexDigit(s[i])
  }

  function HexDigitValue(c: char): (v: nat)
    requires IsHexDigit(c)
    ensures v < 16
  {
    if '0' <= c <= '9' then c as int - '0' as int
    else if 'a' <= c <= 'f' then c as int - 'a' as int + 10
    else c as int - 'A' as int + 10
  }

  /** The value of a run of hex digits, most significant first. */
  function HexValue(s: string): nat
    requires AllHex(s)
  {
    if |s| == 0 then 0 else HexValue(s[..|s| - 1]) * 16 + HexDigitValue(s[|s| - 1])
  }

  /** Number of leading hex digits. */
  function HexRun(s: string): (k: nat)
    ensures k <= |s| && AllHex(s[..k])
    ensures k < |s| ==> !IsHexDigit(s[k])
  {
    if |s| == 0 || !IsHexDigit(s[0]) then 0
    else
      var k := 1 + HexRun(s[1..]);
      assert forall i :: 1 <= i < k ==> s[..k][i] == s[1..][..k - 1][i - 1];
      k
  }

  /** `Number.parseInt(s, 16)`: leading whitespace is skipped, then an
      optional sign, then an optional `0x`/`0X`, then the longest run of hex
      digits; no digits gives `NaN` (`None`). */
  function JsParseHex(s: string): Option<int> {
    var t := TrimStartWith(s, IsSpace);
    var body := HexBody(Unsigned(t));
    var k := HexRun(body);
    if k == 0 then None
    else
      var v: int := HexValue(body[..k]);
      Some(if |t| > 0 && t[0] == '-' then -v else v)
  }

  /** The text after an optional `0x`/`0X`. */
  function HexBody(u: string): (r: string)
    ensures |r| <= |u|
  {
    if |u| >= 2 && u[0] == '0' && (u[1] == 'x' || u[1] == 'X') then u[2..] else u
  }

  /** Hex digits alone are read as their value. */
  lemma JsParseHexDigits(s: string)
    requires |s| > 0 && AllHex(s)
    ensures JsParseHex(s) == Some(HexValue(s))
  {
    TrimStartKept(s, IsSpace);
    assert TrimStartWith(s, IsSpace) == s;
    assert Unsigned(s) == s;
    assert HexBody(s) == s by {
      assert |s| >= 2 ==> IsHexDigit(s[1]);
    }
    HexRunAll(s);
    assert s[..|s|] == s;
  }

  lemma {:induction false} HexRunAll(s: string)
    requires AllHex(s)
    ensures HexRun(s) == |s|
    decreases |s|
  {
    if |s| > 0 {
      HexRunAll(s[1..]);
    }
  }

  /** What `parseInt(text, 16)` reads from two characters lies in [-15, 255]:
      a sign leaves room for one digit only. */
  lemma JsParseHexTwo(s: string)
    requires |s| == 2
    ensures JsParseHex(s).Some? ==> -15 <= JsParseHex(s).value <= 255
  {
    var t := TrimStartWith(s, IsSpace);
    var u := Unsigned(t);
    var body := HexBody(u);
    var k := HexRun(body);
    if k > 0 {
      var ds := body[..k];
      TwoDigitsAtMost(ds);
      assert |t| > 0 && t[0] == '-' ==> |ds| <= 1;
    }
  }

  lemma TwoDigitsAtMost(ds: string)
    requires 0 < |ds| <= 2 && AllHex(ds)
    ensures HexValue(ds) <= 255 && (|ds| == 1 ==> HexValue(ds) <= 15)
  {
    if |ds| == 2 {
      assert ds[..1][..0] == [];
      assert HexValue(ds) == HexDigitValue(ds[0]) * 16 + HexDigitValue(ds[1]);
    } else {
      assert ds[..0] == [];
      assert HexValue(ds) == HexDigitValue(ds[0]);
    }
  }

  /** Three optional components, present only when all three are. */
  function Triple(r: Option<int>, g: Option<int>, b: Option<int>): (c: Option<Rgb>)
    ensures c.Some? <==> r.Some? && g.Some? && b.Some?
    ensures c.Some? ==> c.value == Rgb(r.value as real, g.value as real, b.value as real)
  {
    if r.Some? && g.Some? && b.Some? then Some(Rgb(r.value as real, g.value as real, b.value as real))
    else None
  }

  /** The digits after `#` as `parseColorToRgb` reads them: each pair (or
      doubled single digit) through `parseInt(…, 16)`, which also accepts a
      sign, spaces and trailing junk. */
  function HexColorAsWritten(hex: string): (r: Option<Rgb>)
    ensures r.Some? ==> |hex| == 3 || |hex| == 6
    ensures r.Some? ==> -15.0 <= r.value.r <= 255.0 && -15.0 <= r.value.g <= 255.0 && -15.0 <= r.value.b <= 255.0
  {
    if |hex| == 3 then
      JsParseHexTwo([hex[0], hex[0]]);
      JsParseHexTwo([hex[1], hex[1]]);
      JsParseHexTwo([hex[2], hex[2]]);
      Triple(JsParseHex([hex[0], hex[0]]), JsParseHex([hex[1], hex[1]]), JsParseHex([hex[2], hex[2]]))
    else if |hex| == 6 then
      JsParseHexTwo(hex[0..2]);
      JsParseHexTwo(hex[2..4]);
      JsParseHexTwo(hex[4..6]);
      Triple(JsParseHex(hex[0..2]), JsParseHex(hex[2..4]), JsParseHex(hex[4..6]))
    else None
  }

  predicate ByteRange(c: Rgb) {
    0.0 <= c.r <= 255.0 && 0.0 <= c.g <= 255.0 && 0.0 <= c.b <= 255.0
  }

  /** `#rgb` and `#rrggbb` read strictly: three or six hex digits and nothing
      else, a single digit standing for itself twice. */
  function HexColor(hex: string): (r: Option<Rgb>)
    ensures r.Some? <==> (|hex| == 3 || |hex| == 6) && AllHex(hex)
    ensures r.Some? ==> ByteRange(r.value)
  {
    if (|hex| == 3 || |hex| == 6) && AllHex(hex) then
      if |hex| == 3 then
        Some(Rgb((17 * HexDigitValue(hex[0])) as real, (17 * HexDigitValue(hex[1])) as real,
                 (17 * HexDigitValue(hex[2])) as real))
      else
        Some(Rgb(Pair(hex[0], hex[1]) as real, Pair(hex[2], hex[3]) as real, Pair(hex[4], hex[5]) as real))
    else None
  }

  /** Two hex digits, most significant first. */
  function Pair(hi: char, lo: char): (v: nat)
    requires IsHexDigit(hi) && IsHexDigit(lo)
    ensures v <= 255
  {
    HexDigitValue(hi) * 16 + HexDigitValue(lo)
  }

  /** On real hex digits the strict reading is the one `parseInt` gives: the
      two differ only on text that is not a hex colour. */
  lemma HexColorAgrees(hex: string)
    requires (|hex| == 3 || |hex| == 6) && AllHex(hex)
    ensures HexColorAsWritten(hex) == HexColor(hex)
  {
    if |hex| == 3 {
      ShortHexAgrees(hex);
    } else {
      PairValue(hex[0..2]);
      PairValue(hex[2..4]);
      PairValue(hex[4..6]);
    }
  }

  lemma ShortHexAgrees(hex: string)
    requires |hex| == 3 && AllHex(hex)
    ensures HexColorAsWritten(hex) == HexColor(hex)
  {
    DoubledDigit(hex[0]);
    DoubledDigit(hex[1]);
    DoubledDigit(hex[2]);
  }

  /** A digit written twice reads as 17 times its value. */
  lemma DoubledDigit(c: char)
    requires IsHexDigit(c)
    ensures JsParseHex([c, c]) == Some(17 * HexDigitValue(c))
  {
    PairValue([c, c]);
  }

  lemma PairValue(s: string)
    requires |s| == 2 && AllHex(s)
    ensures JsParseHex(s) == Some(Pair(s[0], s[1]))
  {
    JsParseHexDigits(s);
    assert s[..1][..0] == [];
    assert HexValue(s[..1]) == HexDigitValue(s[0]);
    assert HexValue(s) == HexValue(s[..1]) * 16 + HexDigitValue(s[1]);
  }

  /** The inside of `rgb(…)` or `rgba(…)`, matched by
      `/^rgba?\(([^)]+)\)$/`: non-empty and free of `)`. */
  function RgbInner(value: string): (r: Option<string>)
    ensures r.Some? ==> r.value != [] && ')' !in r.value
  {
    var open := if StartsWith(value, "rgba(") then 5 else if StartsWith(value, "rgb(") then 4 else 0;
    if open == 0 || |value| < open + 2 || value[|value| - 1] != ')' then None
    else if ')' in value[open..|value| - 1] then None
    else Some(value[open..|value| - 1])
  }

  /** `rgb(r, g, b)` / `rgba(r, g, b, a)`: the first three comma-separated
      numbers when all three are finite; the rest is ignored. */
  function RgbFunction(value: string, parseFloat: string -> Option<real>): (r: Option<Rgb>)
    ensures r.Some? ==> RgbInner(value).Some?
  {
    match RgbInner(value)
    case None => None
    case Some(inner) =>
      var parts := SplitOn(inner, ',');
      if |parts| >= 3 && parseFloat(Trim(parts[0])).Some? && parseFloat(Trim(parts[1])).Some?
         && parseFloat(Trim(parts[2])).Some?
      then Some(Rgb(parseFloat(Trim(parts[0])).value, parseFloat(Trim(parts[1])).value,
                    parseFloat(Trim(parts[2])).value))
      else None
  }

  /** The three colour names `parseColorToRgb` knows. */
  function Named(value: string): (r: Option<Rgb>)
    ensures r.Some? ==> ByteRange(r.value)
  {
    if value == "white" then Some(Rgb(255.0, 255.0, 255.0))
    else if value == "black" then Some(Rgb(0.0, 0.0, 0.0))
    else if value == "red" then Some(Rgb(255.0, 0.0, 0.0))
    else None
  }

  /** `parseColorToRgb` with the reading of the digits after `#` as a
      parameter: blank, "none" and "transparent" give nothing; then a hex
      colour, then `rgb()`/`rgba()`, then a colour name. */
  function ParseColorWith(color: string, parseFloat: string -> Option<real>, hex: string -> Option<Rgb>): (r: Option<Rgb>)
    ensures var v := LowerStr(Trim(color)); v == "" || v == "none" || v == "transparent" ==> r.None?
    ensures var v := LowerStr(Trim(color)); |v| > 0 && v[0] == '#' ==> r == hex(v[1..])
  {
    var value := LowerStr(Trim(color));
    if value == "" || value == "none" || value == "transparent" then None
    else
      var hexed := if StartsWith(value, "#") then hex(value[1..]) else None;
      if hexed.Some? then hexed
      else
        assert |value| > 0 && value[0] == '#' ==> RgbInner(value).None?;
        var fn := RgbFunction(value, parseFloat);
        if fn.Some? then fn
        else
          assert |value| > 0 && value[0] == '#' ==> Named(value).None?;
          Named(value)
  }

  /** `parseColorToRgb` as the source has it. */
  function ParseColorToRgbAsWritten(color: string, parseFloat: string -> Option<real>): (r: Option<Rgb>)
    ensures var v := LowerStr(Trim(color)); |v| > 0 && v[0] == '#' && r.Some? ==>
              -15.0 <= r.value.r <= 255.0 && -15.0 <= r.value.g <= 255.0 && -15.0 <= r.value.b <= 255.0
  {
    ParseColorWith(color, parseFloat, HexColorAsWritten)
  }

  /** `#-1-1-1` decodes to the components -1, -1, -1, outside 0..255. */
  lemma SignedHexAccepted(parseFloat: string -> Option<real>)
    ensures ParseColorToRgbAsWritten("#-1-1-1", parseFloat) == Some(Rgb(-1.0, -1.0, -1.0))
  {
    var s := "#-1-1-1";
    TrimWithStripped(s, IsSpace);
    LowerStrOfLower(s);
    assert LowerStr(Trim(s)) == s;
    assert s[1..] == "-1-1-1";
    SignedDigits();
  }

  /** Each of the three pairs of `-1-1-1` reads as -1. */
  lemma SignedDigits()
    ensures HexColorAsWritten("-1-1-1") == Some(Rgb(-1.0, -1.0, -1.0))
  {
    var h := "-1-1-1";
    assert h[0..2] == "-1" && h[2..4] == "-1" && h[4..6] == "-1";
    var m := JsParseHex("-1");
    MinusOne();
    assert HexColorAsWritten(h) == Triple(m, m, m);
  }

  lemma MinusOne()
    ensures JsParseHex("-1") == Some(-1)
  {
    TrimStartKept("-1", IsSpace);
    assert Unsigned("-1") == "1";
    assert HexRun("1") == 1;
    assert "1"[..1] == "1";
    assert "1"[..0] == [];
  }

  /** `parseColorToRgb` with `#rgb`/`#rrggbb` read strictly, so that hex
      components are always in 0..255. */
  function ParseColorToRgb(color: string, parseFloat: string -> Option<real>): (r: Option<Rgb>)
    ensures var v := LowerStr(Trim(color)); |v| > 0 && v[0] == '#' && r.Some? ==> ByteRange(r.value)
    ensures var v := LowerStr(Trim(color)); |v| > 0 && v[0] == '#' ==>
              (r.Some? <==> (|v| == 4 || |v| == 7) && AllHex(v[1..]))
  {
    ParseColorWith(color, parseFloat, HexColor)
  }

  /** Lower-case hex digit of `d`. */
  function HexChar(d: nat): (c: char)
    requires d < 16
    ensures IsHexDigit(c) && !IsUpperAscii(c) && HexDigitValue(c) == d
  {
    if d < 10 then ('0' as int + d) as char else ('a' as int + d - 10) as char
  }

  /** `#rrggbb` for three components in 0..255. */
  function HexText(r: nat, g: nat, b: nat): string
    requires r < 256 && g < 256 && b < 256
  {
    ['#', HexChar(r / 16), HexChar(r % 16), HexChar(g / 16), HexChar(g % 16), HexChar(b / 16), HexChar(b % 16)]
  }

  /** A colour written as `#rrggbb` is decoded back to its components. */
  lemma HexRoundTrip(r: nat, g: nat, b: nat, parseFloat: string -> Option<real>)
    requires r < 256 && g < 256 && b < 256
    ensures ParseColorToRgb(HexText(r, g, b), parseFloat) == Some(Rgb(r as real, g as real, b as real))
  {
    var s := HexText(r, g, b);
    HexTextCanonical(r, g, b);
    assert ParseColorToRgb(s, parseFloat) == HexColor(s[1..]);
    HexDigitsDecode(r, g, b);
  }

  /** `#rrggbb` is already trimmed and lower-case. */
  lemma HexTextCanonical(r: nat, g: nat, b: nat)
    requires r < 256 && g < 256 && b < 256
    ensures LowerStr(Trim(HexText(r, g, b))) == HexText(r, g, b)
  {
    var s := HexText(r, g, b);
    assert !IsSpace(s[0]) && !IsSpace(s[6]);
    TrimWithStripped(s, IsSpace);
    LowerStrOfLower(s);
  }

  /** The six digits of `#rrggbb` decode to the components. */
  lemma HexDigitsDecode(r: nat, g: nat, b: nat)
    requires r < 256 && g < 256 && b < 256
    ensures HexColor(HexText(r, g, b)[1..]) == Some(Rgb(r as real, g as real, b as real))
  {
    var hex := HexText(r, g, b)[1..];
    assert |hex| == 6 && AllHex(hex);
    assert Pair(hex[0], hex[1]) == r && Pair(hex[2], hex[3]) == g && Pair(hex[4], hex[5]) == b;
  }

  /** `isBlueTone`: the fill (or, without one, the stroke) is a colour whose
      blue exceeds red by more than 24 and green by more than 8. */
  function IsBlueTone(style: Paint, parseFloat: string -> Option<real>): (r: bool)
    ensures r ==> ParseColorToRgbAsWritten(if style.fill != "none" then style.fill else style.stroke, parseFloat).Some?
  {
    var source := if style.fill != "none" then style.fill else style.stroke;
    match ParseColorToRgbAsWritten(source, parseFloat)
    case None => false
    case Some(c) => c.b > c.r + 24.0 && c.b > c.g + 8.0
  }

  /** A fill written as `#rrggbb` is blue exactly when its components say so. */
  lemma BlueHexFill(style: Paint, r: nat, g: nat, b: nat, parseFloat: string -> Option<real>)
    requires r < 256 && g < 256 && b < 256 && style.fill == HexText(r, g, b)
    ensures IsBlueTone(style, parseFloat) <==> b > r + 24 && b > g + 8
  {
    HexReadAsWritten(r, g, b, parseFloat);
  }

  /** The code's own reading of `#rrggbb` gives the components back too: on
      real hex digits it agrees with the strict one. */
  lemma HexReadAsWritten(r: nat, g: nat, b: nat, parseFloat: string -> Option<real>)
    requires r < 256 && g < 256 && b < 256
    ensures ParseColorToRgbAsWritten(HexText(r, g, b), parseFloat) == Some(Rgb(r as real, g as real, b as real))
  {
    var s := HexText(r, g, b);
    HexTextCanonical(r, g, b);
    assert ParseColorToRgbAsWritten(s, parseFloat) == HexColorAsWritten(s[1..]);
    HexDigitsDecode(r, g, b);
    HexColorAgrees(s[1..]);
  }

  // ------------------------------------------------------------ resampling

  /** The polyline the resampler walks: a closed one returns to its first
      point. */
  function Ring(points: seq<Point>, closed: bool): (r: seq<Point>)
    requires |points| > 0
    ensures |r| == if closed then |points| + 1 else |points|
    ensures r[..|points|] == points && r[0] == points[0]
  {
    if closed then points + [points[0]] else points
  }

  /** The point a fraction `t` of the way from `a` to `b`. */
  function Lerp(a: Point, b: Point, t: real): Point {
    Point(a.x + (b.x - a.x) * t, a.y + (b.y - a.y) * t)
  }

  /** The point a fraction `t` along segment `s` (from `ring[s - 1]` to
      `ring[s]`). */
  function Along(ring: seq<Point>, s: int, t: real): Point
    requires 1 <= s < |ring|
  {
    Lerp(ring[s - 1], ring[s], t)
  }

  /** `q` lies on one of the segments of `ring`. */
  ghost predicate OnPolyline(q: Point, ring: seq<Point>) {
    exists s: int, t: real :: 1 <= s < |ring| && 0.0 <= t <= 1.0 && q == Along(ring, s, t)
  }

  /** `q` is the point at running length `target` along `ring`: on a segment
      whose running lengths enclose `target`, that fraction of the way along
      it. */
  ghost predicate AtArcLength(q: Point, ring: seq<Point>, cum: seq<real>, target: real)
    requires |cum| == |ring|
  {
    exists s: int :: 1 <= s < |ring| && cum[s - 1] <= target <= cum[s]
                     && q == Along(ring, s, Fraction(target, cum[s - 1], cum[s]))
  }

  /** The distance function measures no length as negative. */
  ghost predicate NonNegative(hypot: (real, real) -> real) {
    forall dx: real, dy: real :: hypot(dx, dy) >= 0.0
  }

  /** Running length along `ring`: 0 at the first point, then each segment
      as `hypot` measures it (`Math.hypot`). */
  function Cumulative(ring: seq<Point>, hypot: (real, real) -> real): (r: seq<real>)
    requires |ring| > 0
    ensures |r| == |ring| && r[0] == 0.0
    ensures forall i :: 1 <= i < |r| ==> r[i] == r[i - 1] + SegmentLength(ring, i, hypot)
  {
    if |ring| == 1 then [0.0]
    else
      var init := ring[..|ring| - 1];
      var prev := Cumulative(init, hypot);
      var r := prev + [prev[|prev| - 1] + SegmentLength(ring, |ring| - 1, hypot)];
      assert forall i :: 1 <= i < |init| ==> SegmentLength(init, i, hypot) == SegmentLength(ring, i, hypot);
      assert forall i :: 0 <= i < |prev| ==> r[i] == prev[i];
      r
  }

  /** The length of segment `i`, from `ring[i - 1]` to `ring[i]`. */
  function SegmentLength(ring: seq<Point>, i: int, hypot: (real, real) -> real): real
    requires 1 <= i < |ring|
  {
    hypot(ring[i].x - ring[i - 1].x, ring[i].y - ring[i - 1].y)
  }

  /** The length of the polyline. */
  function PathLength(points: seq<Point>, closed: bool, hypot: (real, real) -> real): real
    requires |points| > 0
  {
    var cum := Cumulative(Ring(points, closed), hypot);
    cum[|cum| - 1]
  }

  /** The spacing divisor: `count` around a closed path, `count - 1` (at least
      1) along an open one. */
  function Den(count: int, closed: bool): (d: int)
    ensures d >= 1 && (count >= 1 ==> count <= d + 1)
  {
    if closed then (if count >= 1 then count else 1) else if count - 1 > 1 then count - 1 else 1
  }

  /** The arc length sample `i` of `count` sits at. */
  function Target(i: int, den: int, total: real): real
    requires den > 0
  {
    (i as real / den as real) * total
  }

  /** Sample positions never move backwards and stay within the path. */
  lemma TargetBounds(i: int, den: int, total: real)
    requires 0 <= i && 0 < den && total > 0.0
    ensures i <= den ==> 0.0 <= Target(i, den, total) <= total
    ensures Target(i, den, total) <= Target(i + 1, den, total)
  {
    var f := i as real / den as real;
    var g := (i + 1) as real / den as real;
    assert 0.0 <= f <= g;
    assert f * total <= g * total;
    if i <= den {
      assert f <= 1.0;
      assert f * total <= 1.0 * total;
    }
  }

  /** A point a fraction in [0, 1] along a segment of the ring lies on it. */
  lemma OnSegment(ring: seq<Point>, s: int, t: real)
    requires 1 <= s < |ring| && 0.0 <= t <= 1.0
    ensures OnPolyline(Along(ring, s, t), ring)
  {
  }

  /** The fraction of the way from `d0` to `d1` that `target` lies at. */
  function Fraction(target: real, d0: real, d1: real): (t: real)
    ensures d0 <= target <= d1 ==> 0.0 <= t <= 1.0
  {
    if d1 > d0 then
      UnitQuotient(target - d0, d1 - d0);
      (target - d0) / (d1 - d0)
    else 0.0
  }

  /** A quotient of a part by its whole lies in [0, 1]. */
  lemma UnitQuotient(a: real, b: real)
    requires b > 0.0
    ensures 0.0 <= a <= b ==> 0.0 <= a / b <= 1.0
  {
    if 0.0 <= a <= b {
      var q := a / b;
      assert q * b == a;
    }
  }

  /** A sample taken between the running lengths at the ends of segment
      `seg` lies on that segment. */
  lemma SampleOnPolyline(ring: seq<Point>, cum: seq<real>, seg: int, target: real)
    requires |cum| == |ring| && 1 <= seg < |ring|
    requires cum[seg - 1] <= target <= cum[seg]
    ensures OnPolyline(Along(ring, seg, Fraction(target, cum[seg - 1], cum[seg])), ring)
  {
    OnSegment(ring, seg, Fraction(target, cum[seg - 1], cum[seg]));
  }

  /** The first running length past the start is not negative when no
      segment measures negative. */
  lemma FirstLength(ring: seq<Point>, hypot: (real, real) -> real)
    requires |ring| >= 2 && NonNegative(hypot)
    ensures Cumulative(ring, hypot)[1] >= 0.0
  {
    var cum := Cumulative(ring, hypot);
    assert cum[1] == 0.0 + SegmentLength(ring, 1, hypot);
  }

  /** The sample at running length 0 on the first segment is its start. */
  lemma FirstSample(ring: seq<Point>, d1: real)
    requires |ring| >= 2
    ensures Along(ring, 1, Fraction(0.0, 0.0, d1)) == ring[0]
  {
    assert Fraction(0.0, 0.0, d1) == 0.0;
  }

  /** `resamplePolyline`: `count` points spread evenly along the polyline
      (around it when `closed`), by arc length; a single point or a polyline
      of (almost) no length gives `count` copies of the first point. */
  method ResamplePolyline(points: seq<Point>, count: int, closed: bool, hypot: (real, real) -> real)
    returns (r: seq<Point>)
    ensures |points| == 0 || count <= 0 ==> r == []
    ensures |points| > 0 && count > 0 ==> |r| == count
    ensures |points| == 1 ==> forall k :: 0 <= k < |r| ==> r[k] == points[0]
    ensures |points| >= 2 && PathLength(points, closed, hypot) <= 0.00001 ==>
              forall k :: 0 <= k < |r| ==> r[k] == points[0]
    ensures |points| >= 2 ==> forall k :: 0 <= k < |r| ==> OnPolyline(r[k], Ring(points, closed))
    ensures |r| > 0 && NonNegative(hypot) ==> r[0] == points[0]
    ensures |points| >= 2 && PathLength(points, closed, hypot) > 0.00001 ==>
              forall k :: 0 <= k < |r| ==>
                AtArcLength(r[k], Ring(points, closed), Cumulative(Ring(points, closed), hypot),
                            Target(k, Den(count, closed), PathLength(points, closed, hypot)))
  {
    if |points| == 0 || count <= 0 {
      return [];
    }
    if |points| == 1 {
      return seq(count, _ => points[0]);
    }
    var ring := Ring(points, closed);
    var cum := Cumulative(ring, hypot);
    var total := cum[|cum| - 1];
    if total <= 0.00001 {
      r := seq(count, _ => points[0]);
      OnSegment(ring, 1, 0.0);
      assert Along(ring, 1, 0.0) == points[0];
      return;
    }
    var den := Den(count, closed);
    if NonNegative(hypot) {
      FirstLength(ring, hypot);
    }
    r := SampleRing(ring, cum, count, den, hypot);
  }

  /** Moves `seg` forward to the first segment whose far end reaches
      `target`, or to the last segment. */
  method AdvanceSegment(cum: seq<real>, seg: int, target: real) returns (s: int)
    requires 1 <= seg < |cum|
    requires cum[seg - 1] <= target <= cum[|cum| - 1]
    ensures seg <= s < |cum|
    ensures cum[s - 1] <= target <= cum[s]
    ensures cum[seg] >= target ==> s == seg
  {
    s := seg;
    while s < |cum| - 1 && cum[s] < target
      invariant seg <= s < |cum|
      invariant cum[s - 1] <= target
      invariant cum[seg] >= target ==> s == seg
      decreases |cum| - s
    {
      s := s + 1;
    }
  }

  /** The sampling loop of `resamplePolyline` over a ring of positive
      length `cum[|cum| - 1]`. */
  method SampleRing(ring: seq<Point>, cum: seq<real>, count: int, den: int, hypot: (real, real) -> real)
    returns (r: seq<Point>)
    requires |ring| >= 2 && |cum| == |ring| && cum[0] == 0.0 && cum[|cum| - 1] > 0.0
    requires NonNegative(hypot) ==> cum[1] >= 0.0
    requires 0 < count <= den + 1 && 0 < den
    ensures |r| == count
    ensures forall k :: 0 <= k < |r| ==> OnPolyline(r[k], ring)
    ensures NonNegative(hypot) ==> r[0] == ring[0]
    ensures forall k :: 0 <= k < |r| ==> AtArcLength(r[k], ring, cum, Target(k, den, cum[|cum| - 1]))
  {
    var total := cum[|cum| - 1];
    r := [];
    var seg := 1;
    var i := 0;
    while i < count
      invariant 0 <= i <= count && |r| == i
      invariant 1 <= seg < |cum|
      invariant cum[seg - 1] <= Target(i, den, total)
      invariant i == 0 ==> seg == 1
      invariant forall k :: 0 <= k < i ==> OnPolyline(r[k], ring)
      invariant i > 0 && NonNegative(hypot) ==> r[0] == ring[0]
      invariant forall k :: 0 <= k < i ==> AtArcLength(r[k], ring, cum, Target(k, den, total))
    {
      var target := Target(i, den, total);
      TargetBounds(i, den, total);
      seg := AdvanceSegment(cum, seg, target);
      SampleOnPolyline(ring, cum, seg, target);
      if i == 0 {
        FirstSample(ring, cum[1]);
      }
      var q := Along(ring, seg, Fraction(target, cum[seg - 1], cum[seg]));
      assert AtArcLength(q, ring, cum, target);
      SnocAll(r, q, (k, p) => OnPolyline(p, ring) && AtArcLength(p, ring, cum, Target(k, den, total)));
      r := r + [q];
      TargetBounds(i + 1, den, total);
      i := i + 1;
    }
  }

  // ------------------------------------------------------------ profiles

  /** The face profiles, in the order the shape files are listed. */
  const PROFILE_KEYS: seq<string> := REQUIRED_KEYS + OTHER_KEYS

  /** The profiles filled in first. */
  const REQUIRED_KEYS: seq<string> := ["neutral", "talk1", "talk2", "talk3"]

  /** The profiles filled in after the required ones. */
  const OTHER_KEYS: seq<string> :=
    ["smile", "happy", "sad", "thinking", "sleep", "love", "crying", "angry", "surprised"]

  /** Stores `fallback(key)` under each of `keys` that `profiles` lacks. */
  function FillMissing<T>(profiles: map<string, T>, keys: seq<string>, fallback: string -> T): (r: map<string, T>)
    ensures forall k :: k in profiles ==> k in r && r[k] == profiles[k]
    ensures forall i :: 0 <= i < |keys| && keys[i] !in profiles ==> keys[i] in r && r[keys[i]] == fallback(keys[i])
    ensures forall k :: k in r ==> k in profiles || k in keys
    decreases |keys|
  {
    if |keys| == 0 then profiles
    else
      var m := if keys[0] in profiles then profiles else profiles[keys[0] := fallback(keys[0])];
      var r := FillMissing(m, keys[1..], fallback);
      assert forall i :: 1 <= i < |keys| ==> keys[i] == keys[1..][i - 1];
      r
  }

  /** Filling in keys that are all present already changes nothing. */
  lemma {:induction false} FillMissingPresent<T>(profiles: map<string, T>, keys: seq<string>, fallback: string -> T)
    requires forall i :: 0 <= i < |keys| ==> keys[i] in profiles
    ensures FillMissing(profiles, keys, fallback) == profiles
    decreases |keys|
  {
    if |keys| > 0 {
      assert keys[0] in profiles;
      FillMissingPresent(profiles, keys[1..], fallback);
    }
  }

  /** Fills in `required` first and then `all`. */
  function FillInTwoPasses<T>(profiles: map<string, T>, required: seq<string>, all: seq<string>, fallback: string -> T): (r: map<string, T>)
    ensures forall k :: k in profiles ==> k in r && r[k] == profiles[k]
    ensures forall i :: 0 <= i < |all| ==> all[i] in r
    ensures forall i :: 0 <= i < |all| && all[i] !in profiles ==> r[all[i]] == fallback(all[i])
    ensures forall k :: k in r ==> k in profiles || k in required || k in all
  {
    FillMissing(FillMissing(profiles, required, fallback), all, fallback)
  }

  /** Once every key of `all` is present and `required` is part of `all`,
      a second filling changes nothing. */
  lemma FillInTwoPassesIdempotent<T>(profiles: map<string, T>, required: seq<string>, all: seq<string>, fallback: string -> T)
    requires forall i :: 0 <= i < |required| ==> required[i] in all
    ensures FillInTwoPasses(FillInTwoPasses(profiles, required, all, fallback), required, all, fallback)
            == FillInTwoPasses(profiles, required, all, fallback)
  {
    var once := FillInTwoPasses(profiles, required, all, fallback);
    assert forall i :: 0 <= i < |required| ==> required[i] in once by {
      forall i | 0 <= i < |required|
        ensures required[i] in once
      {
        var j :| 0 <= j < |all| && all[j] == required[i];
      }
    }
    FillMissingPresent(once, required, fallback);
    FillMissingPresent(once, all, fallback);
  }

  /** Every element of a prefix is in the whole sequence. */
  lemma PrefixListed<T>(a: seq<T>, b: seq<T>)
    ensures forall i :: 0 <= i < |a| ==> a[i] in a + b
  {
    assert forall i :: 0 <= i < |a| ==> (a + b)[i] == a[i];
  }

  /** `ensureRequiredProfiles`: every profile key is present afterwards;
      profiles that loaded are kept and the others come from the built-in
      fallback profiles (`createFallbackProfiles`, whose geometry is a
      parameter here). */
  function EnsureRequiredProfiles<T>(profiles: map<string, T>, fallback: string -> T): (r: map<string, T>)
    ensures forall k :: k in profiles ==> k in r && r[k] == profiles[k]
    ensures forall i :: 0 <= i < |PROFILE_KEYS| ==> PROFILE_KEYS[i] in r
    ensures forall i :: 0 <= i < |PROFILE_KEYS| && PROFILE_KEYS[i] !in profiles ==> r[PROFILE_KEYS[i]] == fallback(PROFILE_KEYS[i])
    ensures forall k :: k in r ==> k in profiles || k in PROFILE_KEYS
  {
    PrefixListed(REQUIRED_KEYS, OTHER_KEYS);
    FillInTwoPasses(profiles, REQUIRED_KEYS, PROFILE_KEYS, fallback)
  }

  /** Filling in a second time changes nothing. */
  lemma EnsureRequiredIdempotent<T>(profiles: map<string, T>, fallback: string -> T)
    ensures EnsureRequiredProfiles(EnsureRequiredProfiles(profiles, fallback), fallback)
            == EnsureRequiredProfiles(profiles, fallback)
  {
    PrefixListed(REQUIRED_KEYS, OTHER_KEYS);
    FillInTwoPassesIdempotent(profiles, REQUIRED_KEYS, PROFILE_KEYS, fallback);
  }

  /** A shape library: the viewBox, the profiles by key and the keys whose
      shape could not be loaded. */
  datatype Library<T> = Library(viewBox: ViewBox, profiles: map<string, T>, failedKeys: seq<string>)

  /** `buildFallbackFaceShapeLibrary`: every profile from the fallback. */
  function BuildFallbackFaceShapeLibrary<T>(fallback: string -> T): (r: Library<T>)
    ensures r.viewBox == CANONICAL_VIEWBOX && r.failedKeys == []
    ensures forall k :: k in r.profiles <==> k in PROFILE_KEYS
    ensures forall k :: k in r.profiles ==> r.profiles[k] == fallback(k)
  {
    Library(CANONICAL_VIEWBOX, EnsureRequiredProfiles(map[], fallback), [])
  }
}

=== FILE: tts_text.dfy ===
/** The text the browser hands to speech synthesis and subtitles: donation
    markers become spaces, control characters and emoji clusters are deleted,
    whitespace is collapsed and trimmed.  The small head's `normalizeText` is
    the same pipeline. */
module SpeechText {
  import opened Wrappers
  import opened Strs
  import opened Json
  import opened Emoji
  import opened Donation

  // ------------------------------------------------------------ donation hint

  datatype DonationHint = DonationHint(show: bool, reason: string, venmoHandle: string)

  /** `inferDonationFromText(text)`. The keyword pattern is the parameter
      `hasHint` (`DONATION_HINT_RE.test`). */
  function InferDonationFromText(text: Option<Json>, hasHint: string -> bool,
                                 numberText: real -> string): (r: Option<DonationHint>)
    ensures r.None? <==> !hasHint(OrEmptyText(text, numberText))
    ensures r.Some? ==> r.value == DonationHint(true, "text_fallback", "tubs-wheel-fund")
  {
    if !hasHint(OrEmptyText(text, numberText)) then None
    else Some(DonationHint(true, "text_fallback", "tubs-wheel-fund"))
  }

  // ------------------------------------------------------------ line breaks

  /** `replace(/\r\n/g, '\n')`. */
  function ReplaceCrLf(s: string): (r: string)
    ensures '\r' !in s ==> r == s
    ensures forall i :: 0 <= i < |r| ==> r[i] in s
    ensures |s| == 1 ==> r == s
    ensures s == "\r\n" ==> r == "\n"
  {
    if |s| == 0 then ""
    else if |s| >= 2 && s[0] == '\r' && s[1] == '\n' then
      var rest := ReplaceCrLf(s[2..]);
      assert forall c :: c in s[2..] ==> c in s;
      "\n" + rest
    else
      var rest := ReplaceCrLf(s[1..]);
      assert forall c :: c in s[1..] ==> c in s;
      [s[0]] + rest
  }

  /** `replace(/\r/g, '\n')`. */
  function ReplaceCr(s: string): (r: string)
    ensures |r| == |s| && '\r' !in r
    ensures forall i :: 0 <= i < |s| ==> r[i] == (if s[i] == '\r' then '\n' else s[i])
  {
    seq(|s|, i requires 0 <= i < |s| => if s[i] == '\r' then '\n' else s[i])
  }

  // ------------------------------------------------------------ control characters

  /** The class `[\u0000-\u0008\u000B\u000C\u000E-\u001F\u007F]`: the C0
      controls and DEL except tab, line feed and carriage return. */
  predicate IsStrippedControl(c: char) {
    var n := c as int;
    n <= 0x08 || n == 0x0B || n == 0x0C || (0x0E <= n <= 0x1F) || n == 0x7F
  }

  predicate NoControl(s: string) {
    forall i :: 0 <= i < |s| ==> !IsStrippedControl(s[i])
  }

  /** The controls deleted, everything else kept in order. */
  function RemoveControls(s: string): (r: string)
    ensures NoControl(r)
    ensures NoControl(s) ==> r == s
    ensures forall i :: 0 <= i < |r| ==> r[i] in s
    ensures |s| == 1 ==> r == (if IsStrippedControl(s[0]) then "" else s)
  {
    if |s| == 0 then ""
    else
      var rest := RemoveControls(s[1..]);
      assert forall c :: c in s[1..] ==> c in s;
      if IsStrippedControl(s[0]) then rest else [s[0]] + rest
  }

  /** The pair replacement works piece by piece, unless the cut falls inside
      a carriage return and line feed pair. */
  lemma {:induction false} ReplaceCrLfAppend(a: string, b: string)
    requires !(|a| > 0 && a[|a| - 1] == '\r' && |b| > 0 && b[0] == '\n')
    ensures ReplaceCrLf(a + b) == ReplaceCrLf(a) + ReplaceCrLf(b)
    decreases |a|
  {
    if |a| == 0 {
      assert a + b == b;
    } else if |a| >= 2 && a[0] == '\r' && a[1] == '\n' {
      ReplaceCrLfAppend(a[2..], b);
      ReplaceCrLfPair(a, b);
      Regroup("\n", ReplaceCrLf(a[2..]), ReplaceCrLf(b), ReplaceCrLf(a + b), ReplaceCrLf(a),
              ReplaceCrLf(a[2..] + b));
    } else if |a| == 1 {
      ReplaceCrLfSingle(a, b);
    } else {
      ReplaceCrLfAppend(a[1..], b);
      ReplaceCrLfOther(a, b);
      Regroup([a[0]], ReplaceCrLf(a[1..]), ReplaceCrLf(b), ReplaceCrLf(a + b), ReplaceCrLf(a),
              ReplaceCrLf(a[1..] + b));
    }
  }

  /** `whole` is `h` then `rest`, and `rest` splits as `x` then `y`: so
      `whole` is `h` then `x`, then `y`. */
  lemma Regroup<T>(h: seq<T>, x: seq<T>, y: seq<T>, whole: seq<T>, left: seq<T>, rest: seq<T>)
    requires whole == h + rest && rest == x + y && left == h + x
    ensures whole == left + y
  {
  }

  /** One unfolding of `ReplaceCrLf` over a concatenation led by a pair. */
  lemma ReplaceCrLfPair(a: string, b: string)
    requires |a| >= 2 && a[0] == '\r' && a[1] == '\n'
    ensures ReplaceCrLf(a + b) == "\n" + ReplaceCrLf(a[2..] + b)
    ensures ReplaceCrLf(a) == "\n" + ReplaceCrLf(a[2..])
  {
    assert (a + b)[2..] == a[2..] + b;
  }

  /** One unfolding of `ReplaceCrLf` over a concatenation led by a character
      that does not start a pair. */
  lemma ReplaceCrLfOther(a: string, b: string)
    requires |a| >= 2 && !(a[0] == '\r' && a[1] == '\n')
    ensures ReplaceCrLf(a + b) == [a[0]] + ReplaceCrLf(a[1..] + b)
    ensures ReplaceCrLf(a) == [a[0]] + ReplaceCrLf(a[1..])
  {
    assert (a + b)[1..] == a[1..] + b;
  }

  /** A one-character prefix that cannot pair with what follows. */
  lemma ReplaceCrLfSingle(a: string, b: string)
    requires |a| == 1 && !(a[0] == '\r' && |b| > 0 && b[0] == '\n')
    ensures ReplaceCrLf(a + b) == a + ReplaceCrLf(b)
  {
    assert (a + b)[1..] == b;
  }

  /** Deleting controls works piece by piece: with the one-character case in
      `RemoveControls`'s contract, the result is the input with exactly its
      controls taken out, the rest kept in order. */
  lemma {:induction false} RemoveControlsAppend(a: string, b: string)
    ensures RemoveControls(a + b) == RemoveControls(a) + RemoveControls(b)
    decreases |a|
  {
    if |a| == 0 {
      assert a + b == b;
    } else {
      assert (a + b)[1..] == a[1..] + b;
      RemoveControlsAppend(a[1..], b);
    }
  }

  /** Turning a lone carriage return into a line feed does not change the
      words of the control-free text. */
  lemma {:induction false} WordsIgnoreCr(t: string, cur: string)
    ensures SpaceWordsFrom(RemoveControls(ReplaceCr(t)), cur) == SpaceWordsFrom(RemoveControls(t), cur)
    decreases |t|
  {
    if |t| > 0 {
      var c := t[0];
      var u := ReplaceCr(t);
      assert u[1..] == ReplaceCr(t[1..]);
      assert u == [u[0]] + u[1..];
      assert t == [c] + t[1..];
      RemoveControlsAppend([u[0]], u[1..]);
      RemoveControlsAppend([c], t[1..]);
      var x := RemoveControls(ReplaceCr(t[1..]));
      var y := RemoveControls(t[1..]);
      if c == '\r' {
        assert RemoveControls(u) == "\n" + x;
        assert RemoveControls(t) == "\r" + y;
        assert ("\n" + x)[1..] == x;
        assert ("\r" + y)[1..] == y;
        WordsIgnoreCr(t[1..], "");
      } else if IsStrippedControl(c) {
        assert RemoveControls(u) == x;
        assert RemoveControls(t) == y;
        WordsIgnoreCr(t[1..], cur);
      } else {
        assert RemoveControls(u) == [c] + x;
        assert RemoveControls(t) == [c] + y;
        assert ([c] + x)[1..] == x;
        assert ([c] + y)[1..] == y;
        WordsIgnoreCr(t[1..], "");
        WordsIgnoreCr(t[1..], cur + [c]);
      }
    }
  }

  /** Turning a carriage return and line feed pair into one line feed does not
      change the words of the control-free text. */
  lemma {:induction false} WordsIgnoreCrLf(t: string, cur: string)
    ensures SpaceWordsFrom(RemoveControls(ReplaceCrLf(t)), cur) == SpaceWordsFrom(RemoveControls(t), cur)
    decreases |t|, 1
  {
    if |t| >= 2 && t[0] == '\r' && t[1] == '\n' {
      WordsIgnoreCrLfPair(t, cur);
    } else if |t| > 0 {
      WordsIgnoreCrLfOther(t, cur);
    }
  }

  /** `WordsIgnoreCrLf` for text led by a pair. */
  lemma {:induction false} WordsIgnoreCrLfPair(t: string, cur: string)
    requires |t| >= 2 && t[0] == '\r' && t[1] == '\n'
    ensures SpaceWordsFrom(RemoveControls(ReplaceCrLf(t)), cur) == SpaceWordsFrom(RemoveControls(t), cur)
    decreases |t|, 0
  {
    PairUnified(t);
    PairKept(t);
    WordsIgnoreCrLf(t[2..], "");
    PairWords(RemoveControls(ReplaceCrLf(t)), RemoveControls(t), RemoveControls(ReplaceCrLf(t[2..])),
              RemoveControls(t[2..]), cur);
  }

  /** Led by a pair, the unified text starts with one line feed. */
  lemma PairUnified(t: string)
    requires |t| >= 2 && t[0] == '\r' && t[1] == '\n'
    ensures RemoveControls(ReplaceCrLf(t)) == "\n" + RemoveControls(ReplaceCrLf(t[2..]))
  {
    assert ReplaceCrLf(t) == "\n" + ReplaceCrLf(t[2..]);
    RemoveControlsAppend("\n", ReplaceCrLf(t[2..]));
  }

  /** Led by a pair, the text with controls removed keeps the pair. */
  lemma PairKept(t: string)
    requires |t| >= 2 && t[0] == '\r' && t[1] == '\n'
    ensures RemoveControls(t) == "\r" + ("\n" + RemoveControls(t[2..]))
  {
    assert t == "\r\n" + t[2..];
    RemoveControlsAppend("\r\n", t[2..]);
    assert RemoveControls("\r\n") == "\r\n" by {
      assert NoControl("\r\n");
    }
  }

  /** One line feed and a carriage return with a line feed end words alike. */
  lemma PairWords(u: string, v: string, x: string, y: string, cur: string)
    requires u == "\n" + x && v == "\r" + ("\n" + y)
    requires SpaceWordsFrom(x, "") == SpaceWordsFrom(y, "")
    ensures SpaceWordsFrom(u, cur) == SpaceWordsFrom(v, cur)
  {
    LeadSpace('\n', x, cur);
    LeadSpace('\r', "\n" + y, cur);
    LeadSpace('\n', y, "");
    assert Flush("") == [];
  }

  /** A leading whitespace character ends the word being read. */
  lemma LeadSpace(c: char, x: string, cur: string)
    requires IsSpace(c)
    ensures SpaceWordsFrom([c] + x, cur) == Flush(cur) + SpaceWordsFrom(x, "")
  {
    assert ([c] + x)[1..] == x;
  }

  /** `WordsIgnoreCrLf` for text led by a character that starts no pair. */
  lemma {:induction false} WordsIgnoreCrLfOther(t: string, cur: string)
    requires |t| > 0 && !(|t| >= 2 && t[0] == '\r' && t[1] == '\n')
    ensures SpaceWordsFrom(RemoveControls(ReplaceCrLf(t)), cur) == SpaceWordsFrom(RemoveControls(t), cur)
    decreases |t|, 0
  {
    var c := t[0];
    var x := RemoveControls(ReplaceCrLf(t[1..]));
    var y := RemoveControls(t[1..]);
    assert t == [c] + t[1..];
    RemoveControlsAppend([c], ReplaceCrLf(t[1..]));
    RemoveControlsAppend([c], t[1..]);
    if IsStrippedControl(c) {
      WordsIgnoreCrLf(t[1..], cur);
    } else {
      assert ([c] + x)[1..] == x;
      assert ([c] + y)[1..] == y;
      WordsIgnoreCrLf(t[1..], "");
      WordsIgnoreCrLf(t[1..], cur + [c]);
    }
  }

  /** Unifying line breaks before deleting controls changes no word. */
  lemma WordsIgnoreBreaks(s: string)
    ensures SpaceWords(RemoveControls(ReplaceCr(ReplaceCrLf(s)))) == SpaceWords(RemoveControls(s))
  {
    WordsIgnoreCr(ReplaceCrLf(s), "");
    WordsIgnoreCrLf(s, "");
  }

  // ------------------------------------------------------------ the pipeline

  /** `String(text ?? '')`. */
  function TextOf(text: Option<Json>, numberText: real -> string): string {
    if text.None? || text.value.JNull? then "" else JsString(text.value, numberText)
  }

  /** The string steps of `normalizeSpeechText`, in order. */
  function NormalizeString(s: string): (r: string)
    ensures Normalized(r) && NoControl(r) && NoPictograph(r)
    ensures r == Join(SpaceWords(RemoveClusters(RemoveControls(StripDonationMarkers(ReplaceCr(ReplaceCrLf(s)))))), " ")
  {
    var noBreaks := ReplaceCr(ReplaceCrLf(s));
    var unmarked := StripDonationMarkers(noBreaks);
    var noControls := RemoveControls(unmarked);
    var noEmoji := RemoveClusters(noControls);
    NormalizeAvoids(noEmoji, IsStrippedControl);
    NormalizeAvoids(noEmoji, IsPictographic);
    NormalizeWs(noEmoji)
  }

  /** `normalizeSpeechText(text)`: `null` and `undefined` read as the empty
      string; the result is in whitespace normal form (single spaces, none at
      the ends) and holds no control character and no pictograph. */
  function NormalizeSpeechText(text: Option<Json>, numberText: real -> string): (r: string)
    ensures text.None? || text == Some(JNull) ==> r == ""
    ensures text.Some? && text.value.JStr? ==> r == NormalizeString(text.value.s)
    ensures Normalized(r) && NoControl(r) && NoPictograph(r)
  {
    TextOfCases(text, numberText);
    NormalizeEmpty();
    NormalizeString(TextOf(text, numberText))
  }

  lemma TextOfCases(text: Option<Json>, numberText: real -> string)
    ensures text.None? || text == Some(JNull) ==> TextOf(text, numberText) == ""
    ensures text.Some? && text.value.JStr? ==> TextOf(text, numberText) == text.value.s
  {
  }

  /** The empty string normalizes to itself. */
  lemma NormalizeEmpty()
    ensures NormalizeString("") == ""
  {
    CleanTextUnchanged("");
  }

  /** Collapsing whitespace brings in no character of a class the plain space
      is not in. */
  lemma NormalizeAvoids(s: string, bad: char -> bool)
    requires !bad(' ')
    requires forall i :: 0 <= i < |s| ==> !bad(s[i])
    ensures forall i :: 0 <= i < |NormalizeWs(s)| ==> !bad(NormalizeWs(s)[i])
  {
    var r := NormalizeWs(s);
    forall i | 0 <= i < |r|
      ensures !bad(r[i])
    {
      if !IsSpace(r[i]) {
        NormalizedCharFrom(s, i);
        var j :| 0 <= j < |s| && s[j] == r[i];
      }
    }
  }

  /** Text that is already clean (normal whitespace, no marker, control or
      pictograph) is spoken as it is. */
  lemma CleanTextUnchanged(s: string)
    requires Normalized(s) && NoControl(s) && NoPictograph(s) && !HasMarker(s)
    ensures NormalizeString(s) == s
  {
    assert '\r' !in s by {
      if '\r' in s {
        var i :| 0 <= i < |s| && s[i] == '\r';
        assert IsSpace(s[i]);
      }
    }
    assert ReplaceCr(s) == s;
    NormalizedIffFixed(s);
  }

  /** Normalizing twice is normalizing once, unless the first pass leaves a
      marker spelled across a removed one. */
  lemma NormalizeStringIdempotent(s: string)
    requires !HasMarker(NormalizeString(s))
    ensures NormalizeString(NormalizeString(s)) == NormalizeString(s)
  {
    CleanTextUnchanged(NormalizeString(s));
  }
}

=== FILE: turn_script.dfy ===
/** The browser's local turn timeline: how long a scripted beat lasts, and
    which items one head plays for a two-head turn script (its own lines and
    reactions, waits for the other head). */
module TurnScript {
  import opened Wrappers
  import opened Strs
  import opened Json

  const DEFAULT_WORD_MS: int := 440
  const MIN_SPEECH_MS: int := 800
  const REACTION_FALLBACK_MS: real := 420.0
  const MIN_BEAT_MS: real := 120.0
  const MAX_BEAT_MS: real := 8000.0

  // ------------------------------------------------------------ durations

  /** The words of `String(text || '')`. */
  function SpeechWords(text: Option<Json>, numberText: real -> string): seq<string> {
    SpaceWords(OrEmptyText(text, numberText))
  }

  /** `estimateSpeechDurationMs(text)`: 440 ms a word, never under 800 ms. */
  function EstimateSpeechDurationMs(text: Option<Json>, numberText: real -> string): (r: int)
    ensures |SpeechWords(text, numberText)| == 0 ==> r == MIN_SPEECH_MS
    ensures r >= MIN_SPEECH_MS && r >= DEFAULT_WORD_MS * |SpeechWords(text, numberText)|
    ensures r == MIN_SPEECH_MS || r == DEFAULT_WORD_MS * |SpeechWords(text, numberText)|
  {
    var words := |SpeechWords(text, numberText)|;
    if words <= 0 then MIN_SPEECH_MS
    else if MIN_SPEECH_MS >= words * DEFAULT_WORD_MS then MIN_SPEECH_MS
    else words * DEFAULT_WORD_MS
  }

  /** A line of `n` words separated by single spaces is estimated at
      `max(800, 440 * n)`. */
  lemma SpeechOfWords(ws: seq<string>, numberText: real -> string)
    requires SolidWords(ws)
    ensures var r := EstimateSpeechDurationMs(Some(JStr(Join(ws, " "))), numberText);
            r == if 440 * |ws| > 800 then 440 * |ws| else 800
  {
    SpaceWordsJoin(ws);
    assert OrEmptyText(Some(JStr(Join(ws, " "))), numberText) == Join(ws, " ");
  }

  /** `!beat || typeof beat !== 'object'` is false: arrays and objects. */
  predicate IsBeatObject(beat: Json) { beat.JArr? || beat.JObj? }

  /** `String(beat[key] || '').toLowerCase()`. */
  function LowerField(beat: Json, key: string, numberText: real -> string): string {
    LowerStr(OrEmptyText(Get(beat, key), numberText))
  }

  /** `toNumber(beat.delayMs)`: the field as a finite number, if it is one. */
  function ExplicitDelay(beat: Json, numberText: real -> string,
                         parseNumber: string -> Option<real>): Option<real> {
    JsNumber(Get(beat, "delayMs"), numberText, parseNumber)
  }

  /** `estimateBeatDurationMs(beat)`: an explicit delay clamped to
      [120, 8000], else the speech estimate for a `speak` beat, else 420. */
  function EstimateBeatDurationMs(beat: Json, numberText: real -> string,
                                  parseNumber: string -> Option<real>): (r: real)
    ensures !IsBeatObject(beat) ==> r == REACTION_FALLBACK_MS
    ensures IsBeatObject(beat) && ExplicitDelay(beat, numberText, parseNumber).Some? ==>
              var x := ExplicitDelay(beat, numberText, parseNumber).value;
              && MIN_BEAT_MS <= r <= MAX_BEAT_MS
              && (MIN_BEAT_MS <= x <= MAX_BEAT_MS ==> r == x)
              && (x < MIN_BEAT_MS ==> r == MIN_BEAT_MS)
              && (x > MAX_BEAT_MS ==> r == MAX_BEAT_MS)
    ensures IsBeatObject(beat) && ExplicitDelay(beat, numberText, parseNumber).None? ==>
              r == if LowerField(beat, "action", numberText) == "speak"
                   then EstimateSpeechDurationMs(Get(beat, "text"), numberText) as real
                   else REACTION_FALLBACK_MS
    ensures r >= MIN_BEAT_MS
  {
    if !IsBeatObject(beat) then REACTION_FALLBACK_MS
    else
      match ExplicitDelay(beat, numberText, parseNumber)
      case Some(x) =>
        var capped := if MAX_BEAT_MS <= x then MAX_BEAT_MS else x;
        if MIN_BEAT_MS >= capped then MIN_BEAT_MS else capped
      case None =>
        if LowerField(beat, "action", numberText) == "speak"
        then EstimateSpeechDurationMs(Get(beat, "text"), numberText) as real
        else REACTION_FALLBACK_MS
  }

  // ------------------------------------------------------------ timeline

  datatype Actor = Main | Small

  /** One step of a head's timeline. */
  datatype Item =
    | WaitRemote(actor: Actor, delayMs: real)
    | Wait(delayMs: real)
    | Speak(text: Json, emotion: Json, delayMs: real)
    | React(text: Json, emotion: Json, delayMs: real)

  /** `localActor === 'small' ? 'small' : 'main'`. */
  function LocalActor(localActor: Option<Json>): Actor {
    if localActor == Some(JStr("small")) then Small else Main
  }

  /** The beat's actor: `small` only when it says so (in any ASCII case). */
  function ActorOf(beat: Json, numberText: real -> string): Actor {
    var a := Get(beat, "actor");
    var name := if OptJsTruthy(a) then LowerStr(JsString(a.value, numberText)) else "main";
    if name == "small" then Small else Main
  }

  /** Everything but `react` is a line to speak. */
  predicate IsReact(beat: Json, numberText: real -> string) {
    LowerField(beat, "action", numberText) == "react"
  }

  /** `v || fallback`. */
  function OrJson(v: Option<Json>, fallback: Json): (r: Json)
    ensures OptJsTruthy(v) ==> r == v.value
    ensures !OptJsTruthy(v) ==> r == fallback
  {
    if OptJsTruthy(v) then v.value else fallback
  }

  /** The timeline item for one object beat. */
  function ItemOf(beat: Json, local: Actor, numberText: real -> string,
                  parseNumber: string -> Option<real>): (r: Item)
    requires IsBeatObject(beat)
    ensures r.delayMs == EstimateBeatDurationMs(beat, numberText, parseNumber)
    ensures r.WaitRemote? <==> ActorOf(beat, numberText) != local && !IsReact(beat, numberText)
    ensures r.Wait? <==> ActorOf(beat, numberText) != local && IsReact(beat, numberText)
    ensures r.Speak? <==> ActorOf(beat, numberText) == local && !IsReact(beat, numberText)
    ensures r.React? <==> ActorOf(beat, numberText) == local && IsReact(beat, numberText)
    ensures r.WaitRemote? ==> r.actor == ActorOf(beat, numberText)
    ensures r.Speak? || r.React? ==>
              r.text == OrJson(Get(beat, "text"), JStr("")) && r.emotion == OrJson(Get(beat, "emotion"), JNull)
  {
    var actor := ActorOf(beat, numberText);
    var delayMs := EstimateBeatDurationMs(beat, numberText, parseNumber);
    var text := OrJson(Get(beat, "text"), JStr(""));
    var emotion := OrJson(Get(beat, "emotion"), JNull);
    if actor != local then
      if !IsReact(beat, numberText) then WaitRemote(actor, delayMs) else Wait(delayMs)
    else if !IsReact(beat, numberText) then Speak(text, emotion, delayMs)
    else React(text, emotion, delayMs)
  }

  /** The beats that are objects, in order. */
  function ObjectBeats(beats: seq<Json>): (r: seq<Json>)
    ensures |r| <= |beats|
    ensures forall k :: 0 <= k < |r| ==> IsBeatObject(r[k]) && r[k] in beats
    ensures forall b :: b in beats && IsBeatObject(b) ==> b in r
    ensures |beats| == 1 ==> r == (if IsBeatObject(beats[0]) then beats else [])
  {
    if |beats| == 0 then []
    else if IsBeatObject(beats[0]) then [beats[0]] + ObjectBeats(beats[1..])
    else ObjectBeats(beats[1..])
  }

  /** Keeping the object beats works piece by piece, so with the one-beat case
      the result is the input with exactly its non-objects taken out, order
      kept. */
  lemma {:induction false} ObjectBeatsAppend(a: seq<Json>, b: seq<Json>)
    ensures ObjectBeats(a + b) == ObjectBeats(a) + ObjectBeats(b)
    decreases |a|
  {
    if |a| == 0 {
      assert a + b == b;
    } else {
      assert (a + b)[1..] == a[1..] + b;
      ObjectBeatsAppend(a[1..], b);
    }
  }

  /** `Array.isArray(beats) ? beats : []`. */
  function Source(beats: Option<Json>): seq<Json> {
    if beats.Some? && beats.value.JArr? then beats.value.items else []
  }

  /** The loop of `buildLocalTurnTimeline` over the remaining beats. */
  function Timeline(beats: seq<Json>, local: Actor, numberText: real -> string,
                    parseNumber: string -> Option<real>): (r: seq<Item>)
    ensures |r| == |ObjectBeats(beats)|
    ensures forall k :: 0 <= k < |r| ==>
              r[k] == ItemOf(ObjectBeats(beats)[k], local, numberText, parseNumber)
  {
    if |beats| == 0 then []
    else if IsBeatObject(beats[0]) then
      var rest := Timeline(beats[1..], local, numberText, parseNumber);
      MapCons(beats[0], ObjectBeats(beats[1..]), ItemOf(beats[0], local, numberText, parseNumber), rest,
        (b, it) => IsBeatObject(b) && it == ItemOf(b, local, numberText, parseNumber));
      [ItemOf(beats[0], local, numberText, parseNumber)] + rest
    else Timeline(beats[1..], local, numberText, parseNumber)
  }

  /** A pairwise relation between two lists survives a pair put in front. */
  lemma MapCons<A, B>(x: A, xs: seq<A>, y: B, rest: seq<B>, P: (A, B) -> bool)
    requires P(x, y)
    requires |rest| == |xs| && forall k :: 0 <= k < |rest| ==> P(xs[k], rest[k])
    ensures |[y] + rest| == |[x] + xs|
    ensures forall k :: 0 <= k < |rest| + 1 ==> P(([x] + xs)[k], ([y] + rest)[k])
  {
    forall k | 0 <= k < |rest| + 1
      ensures P(([x] + xs)[k], ([y] + rest)[k])
    {
      if k > 0 {
        assert ([y] + rest)[k] == rest[k - 1] && ([x] + xs)[k] == xs[k - 1];
      }
    }
  }


  /** `buildLocalTurnTimeline(beats, localActor)`: one item per object beat,
      in order; anything that is not an array gives no items. */
  function BuildLocalTurnTimeline(beats: Option<Json>, localActor: Option<Json>,
                                  numberText: real -> string,
                                  parseNumber: string -> Option<real>): (r: seq<Item>)
    ensures |r| == |ObjectBeats(Source(beats))|
    ensures forall k :: 0 <= k < |r| ==>
              r[k] == ItemOf(ObjectBeats(Source(beats))[k], LocalActor(localActor), numberText, parseNumber)
    ensures !(beats.Some? && beats.value.JArr?) ==> r == []
  {
    Timeline(Source(beats), LocalActor(localActor), numberText, parseNumber)
  }

  /** Any local actor other than `"small"` plays the main head's part. */
  lemma OtherActorIsMain(beats: Option<Json>, localActor: Option<Json>,
                         numberText: real -> string, parseNumber: string -> Option<real>)
    requires localActor != Some(JStr("small"))
    ensures BuildLocalTurnTimeline(beats, localActor, numberText, parseNumber)
         == BuildLocalTurnTimeline(beats, Some(JStr("main")), numberText, parseNumber)
  {
  }

  /** The two heads' timelines for one script are complementary: item by item,
      exactly one of them speaks or reacts while the other waits, both for the
      same time, and a line one head speaks is waited for by the other as a
      wait for that head. */
  lemma TimelinesComplement(beats: Option<Json>, numberText: real -> string,
                            parseNumber: string -> Option<real>)
    ensures var m := BuildLocalTurnTimeline(beats, Some(JStr("main")), numberText, parseNumber);
            var s := BuildLocalTurnTimeline(beats, Some(JStr("small")), numberText, parseNumber);
            && |m| == |s|
            && forall k :: 0 <= k < |m| ==>
                 && m[k].delayMs == s[k].delayMs
                 && ((m[k].Speak? || m[k].React?) <==> (s[k].WaitRemote? || s[k].Wait?))
                 && (m[k].Speak? ==> s[k] == WaitRemote(Main, m[k].delayMs))
                 && (s[k].Speak? ==> m[k] == WaitRemote(Small, s[k].delayMs))
  {
    var m := BuildLocalTurnTimeline(beats, Some(JStr("main")), numberText, parseNumber);
    var s := BuildLocalTurnTimeline(beats, Some(JStr("small")), numberText, parseNumber);
    forall k | 0 <= k < |m|
      ensures && m[k].delayMs == s[k].delayMs
              && ((m[k].Speak? || m[k].React?) <==> (s[k].WaitRemote? || s[k].Wait?))
              && (m[k].Speak? ==> s[k] == WaitRemote(Main, m[k].delayMs))
              && (s[k].Speak? ==> m[k] == WaitRemote(Small, s[k].delayMs))
    {
      var b := ObjectBeats(Source(beats))[k];
      assert m[k] == ItemOf(b, Main, numberText, parseNumber);
      assert s[k] == ItemOf(b, Small, numberText, parseNumber);
    }
  }
}

=== FILE: turn_timer.dfy ===
/** The backend turn timer: a list of named time marks for one assistant turn
    and the fixed-width text chart it is logged as. */
module TurnTimer {
  import opened Wrappers
  import opened Strs
  import opened JsConv
  import opened Langfuse

  /** `padLeft`: blanks in front up to `width`. */
  function PadLeft(s: string, width: int): (r: string)
    ensures |r| == if |s| >= width then |s| else width
    ensures EndsWith(r, s)
    ensures forall k :: 0 <= k < |r| - |s| ==> r[k] == ' '
  {
    if |s| >= width then s
    else
      var r := Repeat(' ', width - |s|) + s;
      assert r[|r| - |s|..] == s;
      r
  }

  /** `padRight`: blanks behind up to `width`. */
  function PadRight(s: string, width: int): (r: string)
    ensures |r| == if |s| >= width then |s| else width
    ensures StartsWith(r, s)
    ensures forall k :: |s| <= k < |r| ==> r[k] == ' '
  {
    if |s| >= width then s else s + Repeat(' ', width - |s|)
  }

  /** `formatMs`: seconds with two decimals, negative spans shown as zero. */
  function FormatMs(ms: real, numberText: real -> string): (r: string)
    ensures ms <= 0.0 ==> r == "0.00"
  {
    if ms <= 0.0 then
      assert Cents(0.0) == 0;
      assert CentsText(0) == "0.00" by {
        assert JsonText.NatToStr(0) == "0";
      }
      Fixed2Text(0.0, numberText)
    else Fixed2Text(ms / 1000.0, numberText)
  }

  /** The text of a span reads back as the span's rounded cents of a second.
      Kept apart from `FormatMs` so that its arithmetic stays out of the
      proofs about tables. */
  lemma FormatMsReadsBack(ms: real, numberText: real -> string)
    requires 0.0 <= ms < 1000000000000000000000000.0
    ensures ParseCents(FormatMs(ms, numberText)) == Some(Cents(ms / 1000.0))
  {
    if ms <= 0.0 {
      assert ms == 0.0;
      Fixed2TextReadsBack(0.0, numberText);
    } else {
      Fixed2TextReadsBack(ms / 1000.0, numberText);
    }
  }

  datatype Timer = Timer(side: string, turnId: string, source: string, startedAt: real, rows: seq<Row>)

  /** `createTurnTimer` at clock reading `now`: no marks yet. */
  function CreateTurnTimer(side: string, turnId: string, source: string, now: real): (t: Timer)
    ensures t.rows == [] && t.startedAt == now
  {
    Timer(side, turnId, source, now, [])
  }

  /** `mark(event, atMs)`: appends one row; a missing, NaN or zero time (`atMs`
      is `Number(atMs)`, `None` for NaN) is replaced by the clock reading `now`. */
  function Mark(t: Timer, event: string, atMs: Option<real>, now: real): (r: Timer)
    ensures |r.rows| == |t.rows| + 1 && r.rows[..|t.rows|] == t.rows
    ensures r.rows[|t.rows|].event == event
    ensures atMs.Some? && atMs.value != 0.0 ==> r.rows[|t.rows|].atMs == atMs.value
    ensures atMs.None? || atMs.value == 0.0 ==> r.rows[|t.rows|].atMs == now
    ensures r.side == t.side && r.turnId == t.turnId && r.source == t.source && r.startedAt == t.startedAt
  {
    var at := if atMs.Some? && atMs.value != 0.0 then atMs.value else now;
    t.(rows := t.rows + [Row(event, at)])
  }

  /** The widest of `base` and the lengths of `ss`. */
  function MaxWidth(base: nat, ss: seq<string>): (w: nat)
    ensures w >= base && forall k :: 0 <= k < |ss| ==> w >= |ss[k]|
    ensures w == base || exists k :: 0 <= k < |ss| && w == |ss[k]|
  {
    if |ss| == 0 then base
    else
      var w := MaxWidth(base, ss[1..]);
      assert forall k :: 1 <= k < |ss| ==> ss[k] == ss[1..][k - 1];
      if |ss[0]| > w then |ss[0]| else w
  }

  datatype ChartRow = ChartRow(event: string, time: string, delta: string)

  /** The table rows: time since the start of the turn and since the previous
      mark, over the marks in time order. */
  function Table(rows: seq<Row>, startedAt: real, prev: real, numberText: real -> string): (r: seq<ChartRow>)
    ensures |r| == |rows|
    ensures forall i :: 0 <= i < |r| ==> TimedRow(r[i], rows[i], startedAt, Before(rows, i, prev), numberText)
    ensures forall i :: 0 <= i < |r| ==> r[i].event == rows[i].event
  {
    if |rows| == 0 then []
    else
      var rest := Table(rows[1..], startedAt, rows[0].atMs, numberText);
      var first := ChartRow(rows[0].event, FormatMs(rows[0].atMs - startedAt, numberText), FormatMs(rows[0].atMs - prev, numberText));
      ShiftRows(rows, prev, first, rest, (c, row, before) => TimedRow(c, row, startedAt, before, numberText));
      [first] + rest
  }

  /** A per-row property of the rows after the first, each against the mark
      before it, extends to the whole table once it holds of the first row. */
  lemma ShiftRows<C>(rows: seq<Row>, prev: real, first: C, rest: seq<C>, P: (C, Row, real) -> bool)
    requires |rows| > 0 && |rest| == |rows| - 1
    requires P(first, rows[0], prev)
    requires forall i :: 0 <= i < |rest| ==> P(rest[i], rows[1..][i], Before(rows[1..], i, rows[0].atMs))
    ensures forall i :: 0 <= i < |rows| ==> P(([first] + rest)[i], rows[i], Before(rows, i, prev))
  {
    var r := [first] + rest;
    forall i | 0 <= i < |r|
      ensures P(r[i], rows[i], Before(rows, i, prev))
    {
      if i == 0 {
        assert r[0] == first;
      } else {
        var j := i - 1;
        assert P(rest[j], rows[1..][j], Before(rows[1..], j, rows[0].atMs));
        assert r[i] == rest[j] && rows[1..][j] == rows[i];
        assert Before(rows[1..], j, rows[0].atMs) == Before(rows, i, prev);
      }
    }
  }

  /** Row `c` shows mark `row`: its event, the seconds since `startedAt` and
      the seconds since `before`. */
  predicate TimedRow(c: ChartRow, row: Row, startedAt: real, before: real, numberText: real -> string) {
    && c.event == row.event
    && c.time == FormatMs(row.atMs - startedAt, numberText)
    && c.delta == FormatMs(row.atMs - before, numberText)
  }

  /** The time of the mark before mark `i`, or `prev` for the first mark. */
  function Before(rows: seq<Row>, i: nat, prev: real): real
    requires i < |rows|
  {
    if i == 0 then prev else rows[i - 1].atMs
  }

  function Events(table: seq<ChartRow>): (r: seq<string>)
    ensures |r| == |table| && forall i :: 0 <= i < |r| ==> r[i] == table[i].event
  {
    seq(|table|, i requires 0 <= i < |table| => table[i].event)
  }

  function Times(table: seq<ChartRow>): (r: seq<string>)
    ensures |r| == |table| && forall i :: 0 <= i < |r| ==> r[i] == table[i].time
  {
    seq(|table|, i requires 0 <= i < |table| => table[i].time)
  }

  function Deltas(table: seq<ChartRow>): (r: seq<string>)
    ensures |r| == |table| && forall i :: 0 <= i < |r| ==> r[i] == table[i].delta
  {
    seq(|table|, i requires 0 <= i < |table| => table[i].delta)
  }

  const EVENT_HEADER: string := "Event"
  const TIME_HEADER: string := "Time (s)"
  const DELTA_HEADER: string := "Δ+"

  /** One row of the table: three padded cells separated by ` | `. */
  function Cells(event: string, time: string, delta: string, ew: nat, tw: nat, dw: nat): (r: string)
    requires |event| <= ew && |time| <= tw && |delta| <= dw
    ensures |r| == ew + tw + dw + 6
    ensures StartsWith(r, event)
  {
    var e := PadRight(event, ew);
    assert (e + " | " + PadLeft(time, tw) + " | " + PadLeft(delta, dw))[..|event|] == e[..|event|];
    e + " | " + PadLeft(time, tw) + " | " + PadLeft(delta, dw)
  }

  /** The columns of a row: the event padded on the right to `ew`, the time
      and the delta padded on the left to `tw` and `dw`, at fixed offsets. */
  lemma CellsLayout(event: string, time: string, delta: string, ew: nat, tw: nat, dw: nat)
    requires |event| <= ew && |time| <= tw && |delta| <= dw
    ensures var r := Cells(event, time, delta, ew, tw, dw);
            && r[..ew] == PadRight(event, ew) && r[ew..ew + 3] == " | "
            && r[ew + 3..ew + 3 + tw] == PadLeft(time, tw) && r[ew + 3 + tw..ew + tw + 6] == " | "
            && r[ew + tw + 6..] == PadLeft(delta, dw)
  {
    var e := PadRight(event, ew);
    var t := PadLeft(time, tw);
    var d := PadLeft(delta, dw);
    var r := e + " | " + t + " | " + d;
    assert r[..ew] == e;
    assert r[ew..ew + 3] == " | ";
    assert r[ew + 3..ew + 3 + tw] == t;
    assert r[ew + 3 + tw..ew + tw + 6] == " | ";
    assert r[ew + tw + 6..] == d;
  }

  /** The rule under the header, as wide as the rows. */
  function Rule(ew: nat, tw: nat, dw: nat): (r: string)
    ensures |r| == ew + tw + dw + 6
    ensures forall k :: 0 <= k < |r| ==> r[k] == '-' || r[k] == '+'
  {
    Repeat('-', ew) + "-+-" + Repeat('-', tw) + "-+-" + Repeat('-', dw)
  }

  /** `true` when `title` is a non-empty string. */
  predicate HasTitle(title: Option<string>) { title.Some? && title.value != "" }

  /** Every cell of the table fits its column. */
  predicate Fits(table: seq<ChartRow>, ew: nat, tw: nat, dw: nat) {
    forall i :: 0 <= i < |table| ==> |table[i].event| <= ew && |table[i].time| <= tw && |table[i].delta| <= dw
  }

  lemma WidthsFit(table: seq<ChartRow>)
    ensures Fits(table, MaxWidth(|EVENT_HEADER|, Events(table)), MaxWidth(|TIME_HEADER|, Times(table)),
                 MaxWidth(|DELTA_HEADER|, Deltas(table)))
  {
    var ew := MaxWidth(|EVENT_HEADER|, Events(table));
    var tw := MaxWidth(|TIME_HEADER|, Times(table));
    var dw := MaxWidth(|DELTA_HEADER|, Deltas(table));
    forall i | 0 <= i < |table|
      ensures |table[i].event| <= ew && |table[i].time| <= tw && |table[i].delta| <= dw
    {
      assert Events(table)[i] == table[i].event;
      assert Times(table)[i] == table[i].time;
      assert Deltas(table)[i] == table[i].delta;
    }
  }

  /** The column widths: the widest cell of each column, header included. */
  function Widths(table: seq<ChartRow>): (w: (nat, nat, nat))
    ensures |EVENT_HEADER| <= w.0 && |TIME_HEADER| <= w.1 && |DELTA_HEADER| <= w.2
    ensures Fits(table, w.0, w.1, w.2)
  {
    WidthsFit(table);
    (MaxWidth(|EVENT_HEADER|, Events(table)), MaxWidth(|TIME_HEADER|, Times(table)),
     MaxWidth(|DELTA_HEADER|, Deltas(table)))
  }

  /** The table's lines, one per row, all of the same width. */
  function Body(table: seq<ChartRow>, ew: nat, tw: nat, dw: nat): (r: seq<string>)
    requires Fits(table, ew, tw, dw)
    ensures |r| == |table|
    ensures forall k :: 0 <= k < |r| ==> |r[k]| == ew + tw + dw + 6 && StartsWith(r[k], table[k].event)
    ensures ShowsTable(r, 0, table, ew, tw, dw)
  {
    if |table| == 0 then []
    else
      [Cells(table[0].event, table[0].time, table[0].delta, ew, tw, dw)] + Body(table[1..], ew, tw, dw)
  }

  /** The header, the rule and the rows, all of one width. */
  function TableLines(table: seq<ChartRow>, ew: nat, tw: nat, dw: nat): (r: seq<string>)
    requires |EVENT_HEADER| <= ew && |TIME_HEADER| <= tw && |DELTA_HEADER| <= dw
    requires Fits(table, ew, tw, dw)
    ensures |r| == |table| + 2
    ensures forall i :: 0 <= i < |r| ==> |r[i]| == ew + tw + dw + 6
    ensures forall k :: 0 <= k < |table| ==> StartsWith(r[2 + k], table[k].event)
    ensures r[0] == HeaderLine(ew, tw, dw) && r[1] == Rule(ew, tw, dw)
    ensures ShowsTable(r, 2, table, ew, tw, dw)
  {
    TableLinesFacts(table, ew, tw, dw);
    [HeaderLine(ew, tw, dw), Rule(ew, tw, dw)] + Body(table, ew, tw, dw)
  }

  lemma TableLinesFacts(table: seq<ChartRow>, ew: nat, tw: nat, dw: nat)
    requires |EVENT_HEADER| <= ew && |TIME_HEADER| <= tw && |DELTA_HEADER| <= dw
    requires Fits(table, ew, tw, dw)
    ensures var r := [HeaderLine(ew, tw, dw), Rule(ew, tw, dw)] + Body(table, ew, tw, dw);
            && |r| == |table| + 2
            && (forall i :: 0 <= i < |r| ==> |r[i]| == ew + tw + dw + 6)
            && (forall k :: 0 <= k < |table| ==> StartsWith(r[2 + k], table[k].event))
            && r[0] == HeaderLine(ew, tw, dw) && r[1] == Rule(ew, tw, dw)
            && ShowsTable(r, 2, table, ew, tw, dw)
  {
    TopOverBody(HeaderLine(ew, tw, dw), Rule(ew, tw, dw), Body(table, ew, tw, dw), table, ew, tw, dw);
  }

  /** Two lines of the table's width put over its body. */
  lemma TopOverBody(head: string, rule: string, body: seq<string>, table: seq<ChartRow>, ew: nat, tw: nat, dw: nat)
    requires Fits(table, ew, tw, dw)
    requires |head| == ew + tw + dw + 6 && |rule| == ew + tw + dw + 6
    requires |body| == |table|
    requires forall k :: 0 <= k < |body| ==> |body[k]| == ew + tw + dw + 6 && StartsWith(body[k], table[k].event)
    requires ShowsTable(body, 0, table, ew, tw, dw)
    ensures var r := [head, rule] + body;
            && |r| == |table| + 2
            && (forall i :: 0 <= i < |r| ==> |r[i]| == ew + tw + dw + 6)
            && (forall k :: 0 <= k < |table| ==> StartsWith(r[2 + k], table[k].event))
            && r[0] == head && r[1] == rule
            && ShowsTable(r, 2, table, ew, tw, dw)
  {
    var top := [head, rule];
    UnderTop(top, body, table, ew + tw + dw + 6);
    ShowsAfter(top, body, table, ew, tw, dw);
  }

  /** Line `from + k` is the padded row `k` of `table`. */
  predicate ShowsTable(lines: seq<string>, from: nat, table: seq<ChartRow>, ew: nat, tw: nat, dw: nat)
    requires Fits(table, ew, tw, dw)
  {
    && from + |table| <= |lines|
    && forall k :: 0 <= k < |table| ==> lines[from + k] == Cells(table[k].event, table[k].time, table[k].delta, ew, tw, dw)
  }

  /** Lines put in front shift the table down by their number. */
  lemma ShowsAfter(head: seq<string>, tail: seq<string>, table: seq<ChartRow>, ew: nat, tw: nat, dw: nat)
    requires Fits(table, ew, tw, dw) && ShowsTable(tail, 0, table, ew, tw, dw)
    ensures ShowsTable(head + tail, |head|, table, ew, tw, dw)
  {
    forall k | 0 <= k < |table|
      ensures (head + tail)[|head| + k] == Cells(table[k].event, table[k].time, table[k].delta, ew, tw, dw)
    {
      assert (head + tail)[|head| + k] == tail[k];
    }
  }

  /** The column titles, padded like the rows. */
  function HeaderLine(ew: nat, tw: nat, dw: nat): (r: string)
    requires |EVENT_HEADER| <= ew && |TIME_HEADER| <= tw && |DELTA_HEADER| <= dw
    ensures |r| == ew + tw + dw + 6
  {
    Cells(EVENT_HEADER, TIME_HEADER, DELTA_HEADER, ew, tw, dw)
  }

  lemma UnderTop(top: seq<string>, body: seq<string>, table: seq<ChartRow>, width: nat)
    requires |top| == 2 && |body| == |table|
    requires forall i :: 0 <= i < 2 ==> |top[i]| == width
    requires forall k :: 0 <= k < |body| ==> |body[k]| == width && StartsWith(body[k], table[k].event)
    ensures forall i :: 0 <= i < |top + body| ==> |(top + body)[i]| == width
    ensures forall k :: 0 <= k < |table| ==> StartsWith((top + body)[2 + k], table[k].event)
  {
    var r := top + body;
    forall k | 0 <= k < |table|
      ensures StartsWith(r[2 + k], table[k].event)
    {
      assert r[2 + k] == body[k];
    }
  }

  /** `Timing Chart (<side>): turn=<id> source=<source>`. */
  function Caption(t: Timer): string {
    "Timing Chart (" + t.side + "): turn=" + t.turnId + " source=" + t.source
  }

  /** The optional title and the caption. */
  function Head(t: Timer, title: Option<string>): (r: seq<string>)
    ensures |r| == (if HasTitle(title) then 2 else 1)
    ensures HasTitle(title) ==> r[0] == title.value
    ensures r[|r| - 1] == Caption(t)
  {
    if HasTitle(title) then [title.value, Caption(t)] else [Caption(t)]
  }

  /** From line `from` on, every line has the width of line `from`. */
  predicate Aligned(lines: seq<string>, from: nat) {
    from < |lines| && forall i :: from <= i < |lines| ==> |lines[i]| == |lines[from]|
  }

  /** Line `from + k` starts with the event of mark `k`. */
  predicate ListsMarks(lines: seq<string>, from: nat, rows: seq<Row>) {
    from + |rows| <= |lines| && forall k :: 0 <= k < |rows| ==> StartsWith(lines[from + k], rows[k].event)
  }

  /** The header, the rule and the lines of the marks in time order. */
  function TimedTable(t: Timer, numberText: real -> string): (r: seq<string>)
    ensures |r| == |t.rows| + 2
    ensures Aligned(r, 0)
    ensures ListsMarks(r, 2, SortByAt(t.rows))
    ensures var table := TimerTable(t, numberText); var w := Widths(table);
            r[0] == HeaderLine(w.0, w.1, w.2) && r[1] == Rule(w.0, w.1, w.2) && ShowsTable(r, 2, table, w.0, w.1, w.2)
  {
    var ordered := SortByAt(t.rows);
    var table := TimerTable(t, numberText);
    var w := Widths(table);
    var lines := TableLines(table, w.0, w.1, w.2);
    TableMarks(lines, table, ordered);
    lines
  }

  /** The table of a timer: its marks in time order, timed from the timer's
      start, the first delta also from the start. */
  function TimerTable(t: Timer, numberText: real -> string): (r: seq<ChartRow>)
    ensures |r| == |t.rows|
    ensures forall i :: 0 <= i < |r| ==>
              TimedRow(r[i], SortByAt(t.rows)[i], t.startedAt, Before(SortByAt(t.rows), i, t.startedAt), numberText)
  {
    Table(SortByAt(t.rows), t.startedAt, t.startedAt, numberText)
  }

  lemma TableMarks(lines: seq<string>, table: seq<ChartRow>, rows: seq<Row>)
    requires |table| == |rows| && |lines| == |table| + 2
    requires forall k :: 0 <= k < |table| ==> table[k].event == rows[k].event
    requires forall k :: 0 <= k < |table| ==> StartsWith(lines[2 + k], table[k].event)
    ensures ListsMarks(lines, 2, rows)
  {
  }

  lemma AfterHead(head: seq<string>, tail: seq<string>, rows: seq<Row>)
    requires Aligned(tail, 0) && ListsMarks(tail, 2, rows)
    ensures Aligned(head + tail, |head|) && ListsMarks(head + tail, |head| + 2, rows)
  {
    var r := head + tail;
    forall i | |head| <= i < |r|
      ensures |r[i]| == |r[|head|]|
    {
      assert r[i] == tail[i - |head|];
    }
    forall k | 0 <= k < |rows|
      ensures StartsWith(r[|head| + 2 + k], rows[k].event)
    {
      assert r[|head| + 2 + k] == tail[2 + k];
    }
  }

  /** A table shown from line 2 on shows from line `|head| + 2` on once
      `head` is put in front. */
  lemma ShowsShift(head: seq<string>, tail: seq<string>, table: seq<ChartRow>, ew: nat, tw: nat, dw: nat)
    requires Fits(table, ew, tw, dw) && ShowsTable(tail, 2, table, ew, tw, dw)
    ensures ShowsTable(head + tail, |head| + 2, table, ew, tw, dw)
  {
    forall k | 0 <= k < |table|
      ensures (head + tail)[|head| + 2 + k] == Cells(table[k].event, table[k].time, table[k].delta, ew, tw, dw)
    {
      assert (head + tail)[|head| + 2 + k] == tail[2 + k];
    }
  }

  /** The lines of `chart`: an optional title, the caption, the header, the rule
      and one line per mark in time order; the header, the rule and the rows all
      have the same width. */
  function ChartLines(t: Timer, title: Option<string>, numberText: real -> string): (r: seq<string>)
    ensures |r| == |t.rows| + 3 + (if HasTitle(title) then 1 else 0)
    ensures HasTitle(title) ==> r[0] == title.value
    ensures r[if HasTitle(title) then 1 else 0] == Caption(t)
    ensures Aligned(r, if HasTitle(title) then 2 else 1)
    ensures ListsMarks(r, if HasTitle(title) then 4 else 3, SortByAt(t.rows))
    ensures var h := if HasTitle(title) then 2 else 1;
            var table := TimerTable(t, numberText); var w := Widths(table);
            r[h] == HeaderLine(w.0, w.1, w.2) && r[h + 1] == Rule(w.0, w.1, w.2) && ShowsTable(r, h + 2, table, w.0, w.1, w.2)
  {
    var head := Head(t, title);
    var tail := TimedTable(t, numberText);
    AfterHead(head, tail, SortByAt(t.rows));
    var table := TimerTable(t, numberText);
    var w := Widths(table);
    ShowsShift(head, tail, table, w.0, w.1, w.2);
    assert (head + tail)[..|head|] == head;
    head + tail
  }

  /** `chart({ title })`: empty without marks, else the lines joined by newlines. */
  function Chart(t: Timer, title: Option<string>, numberText: real -> string): (r: string)
    ensures |t.rows| == 0 <==> r == ""
  {
    if |t.rows| == 0 then ""
    else
      var lines := ChartLines(t, title, numberText);
      assert |Join(lines, "\n")| >= 1;
      Join(lines, "\n")
  }

  /** When no caption part contains a newline, splitting the chart at newlines
      gives back its lines: rows + 3 lines, one more with a title. */
  lemma ChartLineCount(t: Timer, title: Option<string>, numberText: real -> string)
    requires |t.rows| > 0
    requires forall k :: 0 <= k < |ChartLines(t, title, numberText)| ==> '\n' !in ChartLines(t, title, numberText)[k]
    ensures |SplitOn(Chart(t, title, numberText), '\n')| == |t.rows| + 3 + (if HasTitle(title) then 1 else 0)
  {
    SplitJoin(ChartLines(t, title, numberText), '\n');
  }
}

=== FILE: wake_word.dfy ===
/** The wake-word matcher: the transcript is reduced to lower-case `[a-z0-9]`
    tokens, each token is tested against the aliases of "tubs" (directly, with
    doubled letters collapsed, with a glued-on greeting stripped, or within a
    small edit distance), and a decision table says whether the utterance
    addresses the assistant. */
module WakeWord {
  import opened Wrappers
  import opened Strs

  const WAKE_PREFIXES: set<string> := {"hey", "hi", "yo", "okay", "ok", "oi", "ey", "ay"}
  const WAKE_NOISE_PREFIXES: set<string> := {"a", "at", "ah", "uh", "oh", "um", "hm", "hmm"}
  const WAKE_ALIASES: set<string> := {"tubs", "tub", "tubbs", "top", "tops", "tab", "tap", "tup",
                                      "tob", "toob", "dub", "dubs", "tobbs", "etab", "hotops"}
  const WAKE_GLUE_PREFIXES: seq<string> := ["h", "ho", "hey", "e", "eh", "a", "at", "yo", "ok", "okay"]

  // ------------------------------------------------------------ normalisation

  predicate IsWordChar(c: char) { IsLowerAscii(c) || IsDigit(c) }

  /** Every character that is neither `[a-z0-9]` nor whitespace becomes a space. */
  function Scrub(s: string): (r: string)
    ensures |r| == |s|
    ensures forall i :: 0 <= i < |s| ==> if IsWordChar(s[i]) || IsSpace(s[i]) then r[i] == s[i] else r[i] == ' '
  {
    seq(|s|, i requires 0 <= i < |s| => if IsWordChar(s[i]) || IsSpace(s[i]) then s[i] else ' ')
  }

  /** The `[a-z0-9]` characters of a string, in order. */
  function WordChars(s: string): string {
    if |s| == 0 then "" else (if IsWordChar(s[0]) then [s[0]] else "") + WordChars(s[1..])
  }

  /** `normalizeWakeText`: lower-case, decompose and drop diacritics (`fold`),
      replace every other character by a space, collapse whitespace runs, trim.
      The result is words of `[a-z0-9]` separated by single spaces, and keeps
      every letter and digit of the folded text in order. */
  function NormalizeWakeText(text: string, fold: string -> string): (r: string)
    ensures Normalized(r)
    ensures forall i :: 0 <= i < |r| ==> IsWordChar(r[i]) || r[i] == ' '
    ensures NonSpace(r) == WordChars(fold(LowerStr(text)))
  {
    var folded := fold(LowerStr(text));
    var s := Scrub(folded);
    var r := NormalizeWs(s);
    NonSpaceOfScrub(folded);
    forall i | 0 <= i < |r|
      ensures IsWordChar(r[i]) || r[i] == ' '
    {
      if !IsWordChar(r[i]) {
        NonSpaceMember(r, s, i, IsWordChar);
      }
    }
    r
  }

  lemma {:induction false} NonSpaceOfScrub(t: string)
    ensures NonSpace(Scrub(t)) == WordChars(t)
  {
    if |t| > 0 {
      NonSpaceOfScrub(t[1..]);
      assert Scrub(t)[1..] == Scrub(t[1..]);
    }
  }

  /** Normalising a normalised transcript changes nothing, for any fold that
      leaves ASCII alone. */
  lemma NormalizeWakeTextIdempotent(text: string, fold: string -> string)
    requires FoldKeepsAscii(fold)
    ensures NormalizeWakeText(NormalizeWakeText(text, fold), fold) == NormalizeWakeText(text, fold)
  {
    var r := NormalizeWakeText(text, fold);
    LowerStrOfLower(r);
    assert AllAscii(r);
    assert Scrub(r) == r;
    NormalizedIffFixed(r);
  }

  /** Without the fold (ASCII input), upper-case letters read as lower-case
      ones: `HEY Tubs!` and `hey tubs` normalise alike. */
  lemma NormalizeWakeTextIgnoresCase(text: string, fold: string -> string)
    ensures NormalizeWakeText(text, fold) == NormalizeWakeText(LowerStr(text), fold)
  {
    LowerStrIdempotent(text);
  }

  /** The tokens of a non-empty normalised transcript are non-empty runs of
      `[a-z0-9]`, and joining them with single spaces gives the transcript back. */
  lemma {:induction false} TokensOfNormalized(r: string)
    requires Normalized(r) && r != ""
    requires forall i :: 0 <= i < |r| ==> IsWordChar(r[i]) || r[i] == ' '
    ensures var ts := SplitOn(r, ' ');
            && (forall k :: 0 <= k < |ts| ==> IsToken(ts[k]))
            && Join(ts, " ") == r
    decreases |r|
  {
    JoinSplit(r, ' ');
    var i := IndexOfChar(r, ' ');
    var ts := SplitOn(r, ' ');
    if i == -1 {
      assert ts == [r];
    } else {
      var rest := r[i + 1..];
      TokenThenRest(r, i);
      TokensOfNormalized(rest);
      TokensCons(r[..i], SplitOn(rest, ' '));
    }
  }

  /** At the first space of a normalised transcript: the text before it is a
      token and the text after it is a normalised transcript again. */
  lemma TokenThenRest(r: string, i: int)
    requires Normalized(r) && r != ""
    requires forall k :: 0 <= k < |r| ==> IsWordChar(r[k]) || r[k] == ' '
    requires 0 <= i < |r| && r[i] == ' ' && ' ' !in r[..i]
    ensures IsToken(r[..i])
    ensures r[i + 1..] != "" && Normalized(r[i + 1..])
    ensures WordsOrSpaces(r[i + 1..])
  {
    var rest := r[i + 1..];
    assert 0 < i < |r| - 1;
    assert rest[0] == r[i + 1] != ' ';
    assert forall k :: 0 <= k < |rest| ==> rest[k] == r[i + 1 + k];
    var t := r[..i];
    forall k | 0 <= k < |t|
      ensures IsWordChar(t[k])
    {
      assert t[k] == r[k];
      assert t[k] in t;
    }
  }

  predicate WordsOrSpaces(s: string) {
    forall k :: 0 <= k < |s| ==> IsWordChar(s[k]) || s[k] == ' '
  }

  lemma TokensCons(t: string, ts: seq<string>)
    requires IsToken(t)
    requires forall k :: 0 <= k < |ts| ==> IsToken(ts[k])
    ensures forall k :: 0 <= k < |[t] + ts| ==> IsToken(([t] + ts)[k])
  {
    forall k | 0 <= k < |[t] + ts|
      ensures IsToken(([t] + ts)[k])
    {
      if k > 0 {
        assert ([t] + ts)[k] == ts[k - 1];
      }
    }
  }

  /** A token of a normalised transcript. */
  predicate IsToken(t: string) {
    t != "" && forall i :: 0 <= i < |t| ==> IsWordChar(t[i])
  }

  // ------------------------------------------------------------ edit distance

  function Min3(x: nat, y: nat, z: nat): (m: nat)
    ensures m <= x && m <= y && m <= z
    ensures m == x || m == y || m == z
  {
    if x <= y && x <= z then x else if y <= z then y else z
  }

  /** The edit distance between the first `i` characters of `a` and the first `j`
      of `b`: insertions, deletions and substitutions each cost one. */
  function Dist(a: string, b: string, i: nat, j: nat): nat
    requires i <= |a| && j <= |b|
    decreases i + j
  {
    if i == 0 then j
    else if j == 0 then i
    else Min3(Dist(a, b, i, j - 1) + 1, Dist(a, b, i - 1, j) + 1,
              Dist(a, b, i - 1, j - 1) + (if a[i - 1] == b[j - 1] then 0 else 1))
  }

  /** The standard (Levenshtein) edit distance. */
  function EditDistance(a: string, b: string): nat {
    Dist(a, b, |a|, |b|)
  }

  /** `levenshteinDistance`: the two-row dynamic programme, with its shortcuts for
      equal strings and for an empty side. */
  method LevenshteinDistance(a: string, b: string) returns (d: nat)
    ensures d == EditDistance(a, b)
  {
    if a == b {
      DistSelf(a, |a|);
      return 0;
    }
    if |a| == 0 {
      return |b|;
    }
    if |b| == 0 {
      return |a|;
    }
    var prev: seq<nat> := seq(|b| + 1, j requires 0 <= j <= |b| => j);
    var i := 1;
    while i <= |a|
      invariant 1 <= i <= |a| + 1
      invariant |prev| == |b| + 1
      invariant forall j {:trigger prev[j]} :: 0 <= j <= |b| ==> prev[j] == Dist(a, b, i - 1, j)
    {
      prev := NextRow(a, b, i, prev);
      i := i + 1;
    }
    d := prev[|b|];
  }

  /** One step of the programme: row `i` of the table from row `i - 1`. */
  method NextRow(a: string, b: string, i: nat, prev: seq<nat>) returns (curr: seq<nat>)
    requires 1 <= i <= |a| && |prev| == |b| + 1
    requires forall j {:trigger prev[j]} :: 0 <= j <= |b| ==> prev[j] == Dist(a, b, i - 1, j)
    ensures |curr| == |b| + 1
    ensures forall j {:trigger curr[j]} :: 0 <= j <= |b| ==> curr[j] == Dist(a, b, i, j)
  {
    curr := [i];
    var j := 1;
    while j <= |b|
      invariant 1 <= j <= |b| + 1
      invariant |curr| == j
      invariant forall k {:trigger curr[k]} :: 0 <= k < j ==> curr[k] == Dist(a, b, i, k)
    {
      var cost := if a[i - 1] == b[j - 1] then 0 else 1;
      var v := Min3(curr[j - 1] + 1, prev[j] + 1, prev[j - 1] + cost);
      assert v == Dist(a, b, i, j);
      curr := curr + [v];
      j := j + 1;
    }
  }

  lemma {:induction false} DistSelf(a: string, i: nat)
    requires i <= |a|
    ensures Dist(a, a, i, i) == 0
  {
    if i > 0 {
      DistSelf(a, i - 1);
    }
  }

  /** The distance is zero exactly between equal strings. */
  lemma EditDistanceZero(a: string, b: string)
    ensures EditDistance(a, b) == 0 <==> a == b
  {
    if a == b {
      DistSelf(a, |a|);
    }
    if EditDistance(a, b) == 0 {
      DistZero(a, b, |a|, |b|);
      assert a[..|a|] == a && b[..|b|] == b;
    }
  }

  lemma {:induction false} DistZero(a: string, b: string, i: nat, j: nat)
    requires i <= |a| && j <= |b| && Dist(a, b, i, j) == 0
    ensures i == j && a[..i] == b[..j]
    decreases i + j
  {
    if i > 0 && j > 0 {
      DistZero(a, b, i - 1, j - 1);
      assert a[..i] == a[..i - 1] + [a[i - 1]];
      assert b[..j] == b[..j - 1] + [b[j - 1]];
    }
  }

  /** The distance does not depend on which string is the source. */
  lemma {:induction false} DistSymmetric(a: string, b: string, i: nat, j: nat)
    requires i <= |a| && j <= |b|
    ensures Dist(a, b, i, j) == Dist(b, a, j, i)
    decreases i + j
  {
    if i > 0 && j > 0 {
      DistSymmetric(a, b, i, j - 1);
      DistSymmetric(a, b, i - 1, j);
      DistSymmetric(a, b, i - 1, j - 1);
    }
  }

  /** Each edit changes the length by at most one, so strings whose lengths differ
      by `k` are at least `k` apart. */
  lemma {:induction false} DistLengthBound(a: string, b: string, i: nat, j: nat)
    requires i <= |a| && j <= |b|
    ensures Dist(a, b, i, j) >= i - j && Dist(a, b, i, j) >= j - i
    decreases i + j
  {
    if i > 0 && j > 0 {
      DistLengthBound(a, b, i, j - 1);
      DistLengthBound(a, b, i - 1, j);
      DistLengthBound(a, b, i - 1, j - 1);
    }
  }

  // ---------------------------------------------------------------- aliases

  /** `token.replace(/(.)\1+/g, '$1')`: every run of one repeated character (other
      than a line terminator, which `.` does not match) shrinks to one. */
  function CollapseRepeats(s: string): (r: string)
    ensures |r| <= |s|
    ensures |r| == 0 <==> |s| == 0
    ensures |s| > 0 ==> r[0] == s[0]
    ensures forall i :: 0 <= i < |r| - 1 && !IsLineTerminator(r[i]) ==> r[i] != r[i + 1]
    decreases |s|
  {
    if |s| <= 1 then s
    else if s[0] == s[1] && !IsLineTerminator(s[0]) then CollapseRepeats(s[1..])
    else [s[0]] + CollapseRepeats(s[1..])
  }

  /** A string without repeated characters is left alone. */
  lemma {:induction false} CollapseRepeatsFixed(s: string)
    requires forall i :: 0 <= i < |s| - 1 && !IsLineTerminator(s[i]) ==> s[i] != s[i + 1]
    ensures CollapseRepeats(s) == s
    decreases |s|
  {
    if |s| > 1 {
      CollapseRepeatsFixed(s[1..]);
    }
  }

  /** Collapsing twice is collapsing once. */
  lemma CollapseRepeatsIdempotent(s: string)
    ensures CollapseRepeats(CollapseRepeats(s)) == CollapseRepeats(s)
  {
    CollapseRepeatsFixed(CollapseRepeats(s));
  }

  /** The forms of a token that are tried: the token, the token with repeats
      collapsed, and for each glue prefix the token has (with more than two
      characters after it) the rest of the token in both forms. */
  function Candidates(token: string): (cs: seq<string>)
    ensures |cs| >= 2 && cs[0] == token && cs[1] == CollapseRepeats(token)
  {
    [token, CollapseRepeats(token)] + GlueCandidates(token, WAKE_GLUE_PREFIXES)
  }

  function GlueCandidates(token: string, prefixes: seq<string>): seq<string> {
    if |prefixes| == 0 then []
    else
      var p := prefixes[0];
      var here := if StartsWith(token, p) && |token| > |p| + 2 then
                    [token[|p|..], CollapseRepeats(token[|p|..])]
                  else [];
      here + GlueCandidates(token, prefixes[1..])
  }

  /** A token that starts with a glue prefix, with more than two characters after
      it, has the rest of the token among its candidates. */
  lemma {:induction false} GlueCandidateOf(token: string, prefixes: seq<string>, k: nat)
    requires k < |prefixes| && StartsWith(token, prefixes[k]) && |token| > |prefixes[k]| + 2
    ensures token[|prefixes[k]|..] in GlueCandidates(token, prefixes)
    decreases k
  {
    if k > 0 {
      GlueCandidateOf(token, prefixes[1..], k - 1);
    }
  }

  /** One candidate is accepted when it is a listed alias, or has 3 to 6
      characters and is within distance 1 of "tubs" or "tub", or starts with `t` or
      `d`, has at least 4 characters and is within distance 2 of "tubs". */
  predicate CandidateMatches(c: string) {
    c in WAKE_ALIASES
    || (3 <= |c| <= 6
        && (EditDistance(c, "tubs") <= 1 || EditDistance(c, "tub") <= 1
            || ((c[0] == 't' || c[0] == 'd') && |c| >= 4 && EditDistance(c, "tubs") <= 2)))
  }

  /** Some candidate in `cs` is accepted. */
  predicate AnyMatches(cs: seq<string>) {
    |cs| > 0 && (CandidateMatches(cs[0]) || AnyMatches(cs[1..]))
  }

  /** `AnyMatches` is the existential it stands for. */
  lemma {:induction false} AnyMatchesExists(cs: seq<string>)
    ensures AnyMatches(cs) <==> exists i :: 0 <= i < |cs| && CandidateMatches(cs[i])
  {
    if |cs| > 0 {
      AnyMatchesExists(cs[1..]);
      assert forall i :: 1 <= i < |cs| ==> cs[i] == cs[1..][i - 1];
    }
  }

  /** `isWakeAlias`: tokens shorter than 3 or longer than 8 characters never match;
      otherwise some candidate form of the token must be accepted. */
  function IsWakeAlias(token: string): (b: bool)
    ensures b ==> 3 <= |token| <= 8
  {
    3 <= |token| <= 8 && AnyMatches(Candidates(token))
  }

  /** Every listed alias is recognised. */
  lemma AliasesAreWakeWords(t: string)
    requires t in WAKE_ALIASES
    ensures IsWakeAlias(t)
  {
    assert 3 <= |t| <= 6;
    assert CandidateMatches(Candidates(t)[0]);
    AnyMatchesExists(Candidates(t));
  }

  /** An alias with a greeting glued in front ("heytubs", "okaytub") is
      recognised, as long as the whole stays within 8 characters. */
  lemma GluedAliasIsWakeWord(k: nat, alias: string)
    requires k < |WAKE_GLUE_PREFIXES| && alias in WAKE_ALIASES
    requires |WAKE_GLUE_PREFIXES[k]| + |alias| <= 8
    ensures IsWakeAlias(WAKE_GLUE_PREFIXES[k] + alias)
  {
    var p := WAKE_GLUE_PREFIXES[k];
    var t := p + alias;
    assert 3 <= |alias|;
    assert t[..|p|] == p && t[|p|..] == alias;
    GlueCandidateOf(t, WAKE_GLUE_PREFIXES, k);
    var cs := Candidates(t);
    assert alias in cs;
    var i :| 0 <= i < |cs| && cs[i] == alias;
    assert CandidateMatches(cs[i]);
    AnyMatchesExists(cs);
  }

  /** A candidate longer than 6 characters is never accepted: the fuzzy tests
      are for 3 to 6 characters, and no listed alias is longer than that. */
  lemma LongCandidateRejected(c: string)
    requires |c| > 6
    ensures !CandidateMatches(c)
  {
  }

  // ------------------------------------------------------------ finding the token

  /** Where a wake token was found. */
  datatype Source = DirectToken | Compact | Merged

  datatype WakeMatch = WakeMatch(index: int, token: Option<string>, source: Option<Source>)

  /** `tokens.findIndex(p)`. */
  function FindIndex(tokens: seq<string>, p: string -> bool): (i: int)
    ensures -1 <= i < |tokens|
    ensures i == -1 <==> forall k :: 0 <= k < |tokens| ==> !p(tokens[k])
    ensures i >= 0 ==> p(tokens[i]) && forall k :: 0 <= k < i ==> !p(tokens[k])
  {
    if |tokens| == 0 then -1
    else if p(tokens[0]) then 0
    else
      var j := FindIndex(tokens[1..], p);
      assert forall k :: 1 <= k < |tokens| ==> tokens[k] == tokens[1..][k - 1];
      if j == -1 then -1 else j + 1
  }

  /** The first pair of neighbouring tokens from `i` on whose concatenation passes
      `isAlias`, or -1. */
  function FirstMergedPair(tokens: seq<string>, i: nat, isAlias: string -> bool): (k: int)
    requires i <= |tokens|
    ensures k == -1 || (i <= k < |tokens| - 1 && isAlias(tokens[k] + tokens[k + 1]))
    ensures k == -1 ==> forall j :: i <= j < |tokens| - 1 ==> !isAlias(tokens[j] + tokens[j + 1])
    ensures k >= 0 ==> forall j :: i <= j < k ==> !isAlias(tokens[j] + tokens[j + 1])
    decreases |tokens| - i
  {
    if i + 1 >= |tokens| then -1
    else if isAlias(tokens[i] + tokens[i + 1]) then i
    else FirstMergedPair(tokens, i + 1, isAlias)
  }

  /** `findWakeToken`: the first token that is an alias; failing that, for at most
      three tokens, all tokens run together, then the first neighbouring pair run
      together; failing that, index -1 and no token. */
  function FindWakeToken(tokens: seq<string>): (m: WakeMatch)
    ensures m.index == -1 <==> m.token.None?
    ensures m.token.None? <==> m.source.None?
    ensures m.token.Some? ==> IsWakeAlias(m.token.value) && 0 <= m.index < |tokens|
    ensures (exists k :: 0 <= k < |tokens| && IsWakeAlias(tokens[k]))
            <==> m.source == Some(DirectToken)
    ensures m.source == Some(DirectToken) ==>
              m.token == Some(tokens[m.index]) && forall k :: 0 <= k < m.index ==> !IsWakeAlias(tokens[k])
    ensures m.source == Some(Compact) ==> |tokens| <= 3 && m.index == 0 && m.token == Some(Concat(tokens))
    ensures m.source == Some(Merged) ==>
              |tokens| <= 3 && !IsWakeAlias(Concat(tokens)) && m.index < |tokens| - 1
              && m.token == Some(tokens[m.index] + tokens[m.index + 1])
    ensures m.token.None? ==>
              |tokens| > 3 || (!IsWakeAlias(Concat(tokens))
                               && forall j :: 0 <= j < |tokens| - 1 ==> !IsWakeAlias(tokens[j] + tokens[j + 1]))
  {
    var direct := FindIndex(tokens, IsWakeAlias);
    if direct != -1 then WakeMatch(direct, Some(tokens[direct]), Some(DirectToken))
    else if |tokens| <= 3 then
      var compact := Concat(tokens);
      if IsWakeAlias(compact) then
        assert |tokens| > 0;
        WakeMatch(0, Some(compact), Some(Compact))
      else
        var k := FirstMergedPair(tokens, 0, IsWakeAlias);
        if k >= 0 then WakeMatch(k, Some(tokens[k] + tokens[k + 1]), Some(Merged))
        else WakeMatch(-1, None, None)
    else WakeMatch(-1, None, None)
  }

  // ------------------------------------------------------------ the decision

  datatype Reason =
    | Empty | NoWakeToken | GreetingNearWake | GreetingWithTrailingWake | WakeFirst
    | StandaloneWake | WakeTokenNotAddressed

  datatype Detection = Detection(detected: bool, reason: Reason, normalized: string, tokens: seq<string>,
                                 matchedToken: Option<string>, matchedSource: Option<Source>)

  predicate IsAddressed(r: Reason) {
    r == GreetingNearWake || r == GreetingWithTrailingWake || r == WakeFirst || r == StandaloneWake
  }

  /** `detectWakeWord`: the decision is taken on the normalised transcript. */
  function DetectWakeWord(text: string, fold: string -> string): (d: Detection)
    ensures d.normalized == NormalizeWakeText(text, fold)
    ensures d.reason == Empty <==> d.normalized == ""
    ensures d.reason != Empty ==> forall k :: 0 <= k < |d.tokens| ==> IsToken(d.tokens[k])
  {
    var normalized := NormalizeWakeText(text, fold);
    if normalized == "" then Decide(normalized)
    else
      TokensOfNormalized(normalized);
      Decide(normalized)
  }

  /** The decision table of `detectWakeWord` over a normalised transcript. */
  function Decide(normalized: string): (d: Detection)
    ensures d.normalized == normalized
    ensures d.reason == Empty <==> normalized == ""
    ensures d.reason == Empty ==> !d.detected && d.tokens == [] && d.matchedToken.None? && d.matchedSource.None?
    ensures d.reason != Empty ==> d.tokens == SplitOn(d.normalized, ' ')
    ensures d.detected <==> IsAddressed(d.reason)
    ensures d.detected ==> d.matchedToken.Some?
    ensures d.matchedToken.None? <==> d.reason == Empty || d.reason == NoWakeToken
    ensures d.matchedToken.Some? ==> IsWakeAlias(d.matchedToken.value)
  {
    if normalized == "" then Detection(false, Empty, normalized, [], None, None)
    else
      var tokens := SplitOn(normalized, ' ');
      var wake := FindWakeToken(tokens);
      var prefixIndex := FindIndex(tokens, IsWakePrefix);
      var v := Verdict(tokens, wake.index, prefixIndex);
      Detection(v.0, v.1, normalized, tokens, if wake.index != -1 then wake.token else None, wake.source)
  }

  predicate IsWakePrefix(t: string) {
    t in WAKE_PREFIXES
  }

  /** The detection flag and the reason, from the wake token's and the greeting's
      positions; the flag is set exactly for the four addressed reasons. */
  function Verdict(tokens: seq<string>, wakeIndex: int, prefixIndex: int): (v: (bool, Reason))
    ensures v.0 <==> IsAddressed(v.1)
    ensures v.1 != Empty
    ensures v.1 == NoWakeToken <==> wakeIndex == -1
  {
    var hasWakeToken := wakeIndex != -1;
    var greetingNearWake := prefixIndex != -1 && prefixIndex <= 1 && wakeIndex <= prefixIndex + 2;
    var greetingWithTrailingWake := hasWakeToken && prefixIndex == 0 && wakeIndex == |tokens| - 1
                                    && |tokens| <= 8;
    var wakeFirst := wakeIndex == 0 && |tokens| <= 6;
    var standaloneWake := hasWakeToken
                          && (|tokens| == 1
                              || (|tokens| == 2
                                  && (wakeIndex == 0 || IsWakePrefix(tokens[0])
                                      || tokens[0] in WAKE_NOISE_PREFIXES)));
    var detected := hasWakeToken && (greetingNearWake || greetingWithTrailingWake || wakeFirst || standaloneWake);
    var reason :=
      if !hasWakeToken then NoWakeToken
      else if greetingNearWake then GreetingNearWake
      else if greetingWithTrailingWake then GreetingWithTrailingWake
      else if wakeFirst then WakeFirst
      else if standaloneWake then StandaloneWake
      else WakeTokenNotAddressed;
    (detected, reason)
  }

  /** A transcript that normalises to a single alias, however it is capitalised
      or punctuated, is addressed to the assistant. */
  lemma SingleTokenAddressed(text: string, fold: string -> string)
    requires NormalizeWakeText(text, fold) != ""
    requires var ts := SplitOn(NormalizeWakeText(text, fold), ' '); |ts| == 1 && IsWakeAlias(ts[0])
    ensures DetectWakeWord(text, fold).detected
  {
    var n := NormalizeWakeText(text, fold);
    assert DetectWakeWord(text, fold) == Decide(n);
    SingleAliasDecided(n);
  }

  lemma SingleAliasDecided(n: string)
    requires n != ""
    requires var ts := SplitOn(n, ' '); |ts| == 1 && IsWakeAlias(ts[0])
    ensures Decide(n).detected
  {
    var ts := SplitOn(n, ' ');
    var m := FindWakeToken(ts);
    assert m.index == 0;
  }
}

=== FILE: wav.dfy ===
/** The canonical 44-byte RIFF/WAVE header (mono, 16-bit PCM) and the two encoders
    that write it: the gateway's `pcm_to_wav_bytes`, which turns synthesised speech
    into a WAV body, and the browser's `audioBufferToWav`, which wraps microphone
    samples before upload.  All multi-byte fields are little-endian. */
module Wav {
  import opened Wrappers

  type byte = b: int | 0 <= b < 256

  const TWO16: int := 0x1_0000
  const TWO32: int := 0x1_0000_0000
  const HEADER_SIZE: int := 44

  /** Unsigned 16-bit little-endian field (Python `struct.pack("<H", n)`). */
  function U16(n: int): (r: seq<byte>)
    requires 0 <= n < TWO16
    ensures |r| == 2 && ReadU16(r, 0) == n
  {
    [n % 256, n / 256]
  }

  /** Unsigned 32-bit little-endian field (Python `struct.pack("<I", n)`). */
  function U32(n: int): (r: seq<byte>)
    requires 0 <= n < TWO32
    ensures |r| == 4 && ReadU32(r, 0) == n
  {
    [n % 256, (n / 256) % 256, (n / TWO16) % 256, n / 0x100_0000]
  }

  function ReadU16(bs: seq<byte>, off: nat): (n: int)
    requires off + 2 <= |bs|
    ensures 0 <= n < TWO16
  {
    bs[off] as int + 256 * (bs[off + 1] as int)
  }

  function ReadU32(bs: seq<byte>, off: nat): (n: int)
    requires off + 4 <= |bs|
    ensures 0 <= n < TWO32
  {
    bs[off] as int + 256 * (bs[off + 1] as int) + TWO16 * (bs[off + 2] as int)
    + 0x100_0000 * (bs[off + 3] as int)
  }

  /** Signed 16-bit two's-complement little-endian sample. */
  function I16(v: int): (r: seq<byte>)
    requires -32768 <= v <= 32767
    ensures |r| == 2 && ReadI16(r, 0) == v
  {
    U16(if v < 0 then v + TWO16 else v)
  }

  function ReadI16(bs: seq<byte>, off: nat): (v: int)
    requires off + 2 <= |bs|
    ensures -32768 <= v <= 32767
  {
    var u := ReadU16(bs, off);
    if u >= 32768 then u - TWO16 else u
  }

  /** The four-character tags of the header, as bytes. */
  const RIFF: seq<byte> := [0x52, 0x49, 0x46, 0x46]
  const WAVE: seq<byte> := [0x57, 0x41, 0x56, 0x45]
  const FMT: seq<byte> := [0x66, 0x6D, 0x74, 0x20]
  const DATA: seq<byte> := [0x64, 0x61, 0x74, 0x61]

  /** The fields a WAV header carries. */
  datatype WavInfo = WavInfo(riffSize: int, fmtSize: int, format: int, channels: int,
                             sampleRate: int, byteRate: int, blockAlign: int,
                             bitsPerSample: int, dataSize: int)

  /** A mono 16-bit PCM header with the given RIFF size, sample rate, byte rate
      and data size. */
  function RawHeader(riffSize: int, rate: int, byteRate: int, dataSize: int): (h: seq<byte>)
    requires 0 <= riffSize < TWO32 && 0 <= rate < TWO32
    requires 0 <= byteRate < TWO32 && 0 <= dataSize < TWO32
    ensures |h| == HEADER_SIZE
  {
    RIFF + U32(riffSize) + WAVE + FMT + U32(16) + U16(1) + U16(1)
    + U32(rate) + U32(byteRate) + U16(2) + U16(16) + DATA + U32(dataSize)
  }

  /** Header for `dataSize` bytes of samples at `rate` Hz, as both encoders lay it out. */
  function Header(rate: int, dataSize: int): (h: seq<byte>)
    requires 0 <= rate && rate * 2 < TWO32
    requires 0 <= dataSize && 36 + dataSize < TWO32
    ensures |h| == HEADER_SIZE
  {
    RawHeader(36 + dataSize, rate, rate * 2, dataSize)
  }

  /** Reads a header back; `None` when a tag is missing or the input is short. */
  function ParseHeader(bs: seq<byte>): (r: Option<WavInfo>)
    ensures r.Some? ==> |bs| >= HEADER_SIZE
  {
    if |bs| < HEADER_SIZE || bs[0..4] != RIFF || bs[8..12] != WAVE
       || bs[12..16] != FMT || bs[36..40] != DATA
    then None
    else Some(WavInfo(ReadU32(bs, 4), ReadU32(bs, 16), ReadU16(bs, 20), ReadU16(bs, 22),
                      ReadU32(bs, 24), ReadU32(bs, 28), ReadU16(bs, 32), ReadU16(bs, 34),
                      ReadU32(bs, 40)))
  }

  /** Only the first 44 bytes matter to the header reader. */
  lemma ParseHeaderPrefix(h: seq<byte>, rest: seq<byte>)
    requires |h| == HEADER_SIZE
    ensures ParseHeader(h + rest) == ParseHeader(h)
  {
    var bs := h + rest;
    assert bs[0..4] == h[0..4] && bs[8..12] == h[8..12];
    assert bs[12..16] == h[12..16] && bs[36..40] == h[36..40];
    assert bs[..HEADER_SIZE] == h;
  }

  /** Every field written is read back. */
  lemma RawHeaderRoundTrip(riffSize: int, rate: int, byteRate: int, dataSize: int)
    requires 0 <= riffSize < TWO32 && 0 <= rate < TWO32
    requires 0 <= byteRate < TWO32 && 0 <= dataSize < TWO32
    ensures ParseHeader(RawHeader(riffSize, rate, byteRate, dataSize))
            == Some(WavInfo(riffSize, 16, 1, 1, rate, byteRate, 2, 16, dataSize))
  {
    var h := RawHeader(riffSize, rate, byteRate, dataSize);
    assert h[0..4] == RIFF && h[8..12] == WAVE && h[12..16] == FMT && h[36..40] == DATA;
    Field32(h, 4, riffSize);
    Field32(h, 16, 16);
    Field16(h, 20, 1);
    Field16(h, 22, 1);
    Field32(h, 24, rate);
    Field32(h, 28, byteRate);
    Field16(h, 32, 2);
    Field16(h, 34, 16);
    Field32(h, 40, dataSize);
  }

  /** A 32-bit field read in place reads the value packed there. */
  lemma Field32(bs: seq<byte>, off: nat, n: int)
    requires 0 <= n < TWO32 && off + 4 <= |bs| && bs[off..off + 4] == U32(n)
    ensures ReadU32(bs, off) == n
  {
    var f := bs[off..off + 4];
    assert bs[off] == f[0] && bs[off + 1] == f[1] && bs[off + 2] == f[2] && bs[off + 3] == f[3];
  }

  lemma Field16(bs: seq<byte>, off: nat, n: int)
    requires 0 <= n < TWO16 && off + 2 <= |bs| && bs[off..off + 2] == U16(n)
    ensures ReadU16(bs, off) == n
  {
    var f := bs[off..off + 2];
    assert bs[off] == f[0] && bs[off + 1] == f[1];
  }

  /** Every value fits a signed 16-bit sample. */
  predicate Int16s(vs: seq<int>) {
    forall i :: 0 <= i < |vs| ==> -32768 <= vs[i] <= 32767
  }

  /** Concatenated 16-bit little-endian samples. */
  function EncodeSamples(vs: seq<int>): (r: seq<byte>)
    requires Int16s(vs)
    ensures |r| == 2 * |vs|
  {
    if |vs| == 0 then [] else I16(vs[0]) + EncodeSamples(vs[1..])
  }

  /** Reads consecutive 16-bit samples; a trailing odd byte is ignored. */
  function DecodeSamples(bs: seq<byte>): (vs: seq<int>)
    ensures |vs| == |bs| / 2
    decreases |bs|
  {
    if |bs| < 2 then [] else [ReadI16(bs, 0)] + DecodeSamples(bs[2..])
  }

  /** The sample bytes decode back to the samples. */
  lemma {:induction false} SamplesRoundTrip(vs: seq<int>)
    requires Int16s(vs)
    ensures DecodeSamples(EncodeSamples(vs)) == vs
  {
    if |vs| > 0 {
      var bs := EncodeSamples(vs);
      assert bs[..2] == I16(vs[0]);
      assert bs[2..] == EncodeSamples(vs[1..]);
      SamplesRoundTrip(vs[1..]);
      assert vs == [vs[0]] + vs[1..];
    }
  }

  /** Conversion of a number to an integer by truncation toward zero (C cast,
      NumPy `astype(int16)` on in-range values, ECMAScript ToInt16 on in-range values). */
  function Trunc(x: real): (n: int)
    ensures x >= 0.0 ==> n as real <= x < n as real + 1.0
    ensures x < 0.0 ==> n as real - 1.0 < x <= n as real
  {
    if x >= 0.0 then x.Floor else -((-x).Floor)
  }

  /** The gateway's sample conversion: scale by 32767, clip to the int16 range,
      truncate. */
  function ServerSample(x: real): (v: int)
    ensures -32768 <= v <= 32767
    ensures -1.0 <= x <= 1.0 ==> v == Trunc(x * 32767.0)
    ensures x * 32767.0 >= 32767.0 ==> v == 32767
    ensures x * 32767.0 <= -32768.0 ==> v == -32768
  {
    var y := x * 32767.0;
    Trunc(if y < -32768.0 then -32768.0 else if y > 32767.0 then 32767.0 else y)
  }

  function ServerSamples(pcm: seq<real>): (vs: seq<int>)
    ensures |vs| == |pcm| && Int16s(vs)
    ensures forall i :: 0 <= i < |pcm| ==> vs[i] == ServerSample(pcm[i])
  {
    seq(|pcm|, i requires 0 <= i < |pcm| => ServerSample(pcm[i]))
  }

  /** `pcm_to_wav_bytes`: header plus samples; the packing of an out-of-range
      header field fails as `struct.pack` does. */
  function PcmToWavBytes(pcm: seq<real>, rate: int): (r: Result<seq<byte>, string>)
    ensures r.Success? <==> 36 + 2 * |pcm| < TWO32 && 0 <= rate && rate * 2 < TWO32
    ensures r.Success? ==>
              && |r.value| == HEADER_SIZE + 2 * |pcm|
              && r.value[..HEADER_SIZE] == Header(rate, 2 * |pcm|)
              && ParseHeader(r.value)
                 == Some(WavInfo(36 + 2 * |pcm|, 16, 1, 1, rate, rate * 2, 2, 16, 2 * |pcm|))
              && DecodeSamples(r.value[HEADER_SIZE..]) == ServerSamples(pcm)
  {
    if 36 + 2 * |pcm| >= TWO32 || rate < 0 || rate * 2 >= TWO32 then Failure("struct.error")
    else
      var vs := ServerSamples(pcm);
      var out := Header(rate, 2 * |pcm|) + EncodeSamples(vs);
      ServerWavFacts(pcm, rate, vs, out);
      Success(out)
  }

  lemma ServerWavFacts(pcm: seq<real>, rate: int, vs: seq<int>, out: seq<byte>)
    requires 36 + 2 * |pcm| < TWO32 && 0 <= rate && rate * 2 < TWO32
    requires vs == ServerSamples(pcm)
    requires out == Header(rate, 2 * |pcm|) + EncodeSamples(vs)
    ensures out[..HEADER_SIZE] == Header(rate, 2 * |pcm|)
    ensures ParseHeader(out)
            == Some(WavInfo(36 + 2 * |pcm|, 16, 1, 1, rate, rate * 2, 2, 16, 2 * |pcm|))
    ensures DecodeSamples(out[HEADER_SIZE..]) == vs
  {
    WavLayout(Header(rate, 2 * |pcm|), vs);
    HeaderRoundTrip(rate, 2 * |pcm|);
  }

  /** The header for a rate and a data size reads back as those fields. */
  lemma HeaderRoundTrip(rate: int, dataSize: int)
    requires 0 <= rate && rate * 2 < TWO32
    requires 0 <= dataSize && 36 + dataSize < TWO32
    ensures ParseHeader(Header(rate, dataSize))
            == Some(WavInfo(36 + dataSize, 16, 1, 1, rate, rate * 2, 2, 16, dataSize))
  {
    RawHeaderRoundTrip(36 + dataSize, rate, rate * 2, dataSize);
  }

  /** Splitting an encoded file into its header and its samples. */
  lemma WavLayout(h: seq<byte>, vs: seq<int>)
    requires |h| == HEADER_SIZE
    requires Int16s(vs)
    ensures (h + EncodeSamples(vs))[..HEADER_SIZE] == h
    ensures ParseHeader(h + EncodeSamples(vs)) == ParseHeader(h)
    ensures DecodeSamples((h + EncodeSamples(vs))[HEADER_SIZE..]) == vs
  {
    ParseHeaderPrefix(h, EncodeSamples(vs));
    assert (h + EncodeSamples(vs))[HEADER_SIZE..] == EncodeSamples(vs);
    SamplesRoundTrip(vs);
  }

  /** The browser's sample conversion: clamp to [-1, 1], scale negatives by 0x8000
      and the rest by 0x7FFF, truncate. */
  function ClientSample(x: real): (v: int)
    ensures -32768 <= v <= 32767
    ensures x <= -1.0 ==> v == -32768
    ensures x >= 1.0 ==> v == 32767
  {
    var s := if x < -1.0 then -1.0 else if x > 1.0 then 1.0 else x;
    Trunc(if s < 0.0 then s * 32768.0 else s * 32767.0)
  }

  function ClientSamples(pcm: seq<real>): (vs: seq<int>)
    ensures |vs| == |pcm| && Int16s(vs)
    ensures forall i :: 0 <= i < |pcm| ==> vs[i] == ClientSample(pcm[i])
  {
    seq(|pcm|, i requires 0 <= i < |pcm| => ClientSample(pcm[i]))
  }

  /** `audioBufferToWav`: 16 kHz mono header plus samples.  `DataView.setUint32`
      stores its argument modulo 2^32, so over-long input wraps the size fields. */
  function AudioBufferToWav(pcm: seq<real>): (r: seq<byte>)
    ensures |r| == HEADER_SIZE + 2 * |pcm|
    ensures ParseHeader(r) == Some(WavInfo((36 + 2 * |pcm|) % TWO32, 16, 1, 1, 16000, 32000,
                                           2, 16, (2 * |pcm|) % TWO32))
    ensures DecodeSamples(r[HEADER_SIZE..]) == ClientSamples(pcm)
  {
    var vs := ClientSamples(pcm);
    var out := ClientHeader(|pcm|) + EncodeSamples(vs);
    ClientWavFacts(pcm, vs, out);
    out
  }

  /** The header `audioBufferToWav` writes for `n` samples. */
  function ClientHeader(n: nat): (h: seq<byte>)
    ensures |h| == HEADER_SIZE
  {
    RawHeader((36 + 2 * n) % TWO32, 16000, 32000, (2 * n) % TWO32)
  }

  lemma ClientWavFacts(pcm: seq<real>, vs: seq<int>, out: seq<byte>)
    requires vs == ClientSamples(pcm)
    requires out == ClientHeader(|pcm|) + EncodeSamples(vs)
    ensures ParseHeader(out) == Some(WavInfo((36 + 2 * |pcm|) % TWO32, 16, 1, 1, 16000, 32000,
                                             2, 16, (2 * |pcm|) % TWO32))
    ensures DecodeSamples(out[HEADER_SIZE..]) == vs
  {
    WavLayout(ClientHeader(|pcm|), vs);
    ClientHeaderRoundTrip(|pcm|);
  }

  lemma ClientHeaderRoundTrip(n: nat)
    ensures ParseHeader(ClientHeader(n))
            == Some(WavInfo((36 + 2 * n) % TWO32, 16, 1, 1, 16000, 32000, 2, 16, (2 * n) % TWO32))
  {
    RawHeaderRoundTrip((36 + 2 * n) % TWO32, 16000, 32000, (2 * n) % TWO32);
  }

  /** Whenever the size fits, the browser writes exactly the header the gateway
      writes at 16 kHz. */
  lemma ClientHeaderMatchesServer(pcm: seq<real>)
    requires 36 + 2 * |pcm| < TWO32
    ensures PcmToWavBytes(pcm, 16000).Success?
    ensures AudioBufferToWav(pcm)[..HEADER_SIZE] == PcmToWavBytes(pcm, 16000).value[..HEADER_SIZE]
  {
    var n := 2 * |pcm|;
    assert (36 + n) % TWO32 == 36 + n;
    assert n % TWO32 == n;
    assert ClientHeader(|pcm|) == Header(16000, n);
    WavLayout(ClientHeader(|pcm|), ClientSamples(pcm));
  }

  /** The two sample conversions agree on non-negative in-range input; on negative
      input the browser's wider scale gives a value at most one step lower. */
  lemma SampleConversionsCompared(x: real)
    requires -1.0 <= x <= 1.0
    ensures x >= 0.0 ==> ClientSample(x) == ServerSample(x)
    ensures x < 0.0 ==> ServerSample(x) - 1 <= ClientSample(x) <= ServerSample(x)
  {
    if x < 0.0 {
      var a := x * 32768.0;
      var b := x * 32767.0;
      assert a <= b;
      assert b - a <= 1.0;
    }
  }
}

=== FILE: wrappers.dfy ===
/** Failure-compatible result types shared by every module of the model:
    `Option` stands for a value that may be absent (JavaScript `null`/`undefined`,
    Python `None`), `Result` for an operation that either produces a value or
    fails with an error (an exception or a rejected promise in the source). */
module Wrappers {

  datatype Option<+T> = None | Some(value: T) {

    predicate IsFailure() {
      None?
    }

    function PropagateFailure<U>(): Option<U>
      requires None?
    {
      None
    }

    function Extract(): T
      requires Some?
    {
      value
    }

    /** The encapsulated value, or `default` when absent. */
    function GetOr(default: T): T {
      match this
      case Some(v) => v
      case None => default
    }
  }

  datatype Result<+R, +E> = Success(value: R) | Failure(error: E) {

    predicate IsFailure() {
      Failure?
    }

    function PropagateFailure<U>(): Result<U, E>
      requires Failure?
    {
      Failure(error)
    }

    function Extract(): R
      requires Success?
    {
      value
    }
  }
}
